=== FILE: README.md ===
# Advent of Code 2018 solvers, modelled in Dafny

This project models the puzzle solvers of a Rust Advent of Code 2018 repository. It covers
the shared dense grid `Array2d` and the solvers for days 2 to 25. Each solver becomes one
Dafny module (`Day02` … `Day25`) of pure functions and small loop methods. The contracts
state what the Rust code computes: the answers, the error cases and the invariants the
algorithms keep. Shared helpers live in `Common` (the `Option`/`Result` wrappers, sums,
counts), `Text` (splitting, joining, trimming, number parsing) and `Bits` (bitwise
operations on naturals).

Conventions used throughout:

- A Rust `panic!`, `assert!`, `unwrap` or out-of-range index becomes a `requires` clause.
- A `bail!` or an `Err` return becomes `Result.Err`.
- Machine integers are unbounded. Overflow is left out except where the source relies on it:
  `u8` truncation in day 5, the tie marker `u32::MAX` in day 6, and the 24-bit masks of day 21.
- Line parsing done with regular expressions is a parameter. The model takes lines that have
  already been matched, as `Option` values, with `None` for a line the regular expression
  rejects.
- `HashMap`/`HashSet` iteration order is a parameter. Results that depend on it are stated
  for every order.
- Loops that the source leaves unbounded take a `fuel` argument. When the fuel runs out the
  result is `None`.

## Model

| member | source | states |
|---|---|---|
| Array2d.DataLayout | src/array2d.rs:27-42 | the backing vector holds width * height cells with cell (x, y) at offset x + y * width |
| Array2d.NewWith | src/array2d.rs:27-42 | the nested y-outer, x-inner loop pushes exactly the row-major cell list of the grid whose cell (x, y) is f(x, y) |
| Array2d.NewValue | src/array2d.rs:20-25 | every cell of the new width x height grid holds v |
| Array2d.New | src/array2d.rs:13-18 | every cell of the new width x height grid holds the default value |
| Array2d.Get | src/array2d.rs:44-53 | in bounds, the value stored at offset x + y * width; out of bounds, the default value |
| Array2d.GetOpt | src/array2d.rs:55-61 | Some exactly in bounds, holding the value stored at offset x + y * width |
| Array2d.GetIsGetOpt | src/array2d.rs:44-61 | `get` is `get_opt` with the default filled in for None |
| Array2d.Put | src/array2d.rs:63-67 | in bounds the cell becomes v and every other cell keeps its value; out of bounds the grid is unchanged |
| Array2d.PutGet | src/array2d.rs:44-67 | reading back after `put` gives v at the written in-bounds cell and the old value everywhere else |
| Array2d.At | src/array2d.rs:126-136 | indexing an in-bounds cell returns what `get_opt` returns; other indices panic |
| Array2d.SetAt | src/array2d.rs:138-146 | assigning through an in-bounds index is `put`, and the cell reads back as the assigned value |
| Array2d.Fill | src/array2d.rs:77-84 | after the loop every cell holds v and the dimensions are unchanged |
| Array2d.FillWith | src/array2d.rs:86-95 | after the loop cell (x, y) holds f(x, y) for every cell |
| Array2d.CoordsLayout | src/array2d.rs:97-104 | the row-major coordinate list has width * height entries with (x, y) at position x + y * width |
| Array2d.IterXYOrder | src/array2d.rs:148-170 | for a positive width (or zero height) the cursor yields every coordinate in row-major order and then None |
| Array2d.IterRunAppend | src/array2d.rs:155-170 | running the cursor a + b steps is running it a steps and then b steps |
| Array2d.IterZeroWidthNeverEnds | src/array2d.rs:155-170 | with width 0 and a positive height, the cursor keeps yielding (n, 0) for every n and never ends |
| Array2d.IterGuardedOrder | src/array2d.rs:155-170 | the corrected cursor yields every coordinate in row-major order and then None, for every width and height |
| Array2d.GuardedAgrees | src/array2d.rs:155-170 | the corrected cursor behaves exactly like the original whenever x < width |
| Array2d.RowString | src/array2d.rs:114-121 | the row's text has width characters, character x being f of cell (x, y) |
| Array2d.RenderRowsJoin | src/array2d.rs:106-123 | the rendering is the row strings joined with newlines |
| Array2d.RenderLines | src/array2d.rs:106-123 | the rendering of an empty grid is empty; otherwise splitting it at newlines gives height lines of width characters each, with f of cell (x, y) at line y, column x |
| Day02.CharCounts | src/days/day2.rs:4-10 | the keys are exactly the characters of the string, each mapped to its number of occurrences |
| Day02.CharCountsExample | src/days/day2.rs:56-58 | "abbcde" counts 'b' twice |
| Day02.HasCountMeaning | src/days/day2.rs:39-47 | some count equals k (k > 0) exactly when some character occurs exactly k times |
| Day02.Distance | src/days/day2.rs:12-15 | the distance is at most the length and is 0 exactly for equal strings |
| Day02.DistanceCountsDiffs | src/days/day2.rs:12-15 | the distance is the number of positions where the strings differ |
| Day02.DistanceFront | src/days/day2.rs:12-15 | the distance is the distance of the tails plus one if the first characters differ |
| Day02.DistanceExamples | src/days/day2.rs:60-64 | distance("abcde", "axcye") is 2 and distance("fghij", "fguij") is 1 |
| Day02.CommonChars | src/days/day2.rs:17-22 | the common characters are no longer than either string and each occurs in both |
| Day02.Agreements | src/days/day2.rs:18-20 | the positions `zip` pairs and the filter keeps: exactly those below both lengths where the strings agree, each once, in increasing order |
| Day02.CommonCharsPicksAgreements | src/days/day2.rs:17-22 | the common characters are, in order, `a`'s characters at exactly those agreeing positions |
| Day02.CommonCharsExample | src/days/day2.rs:66-69 | the common characters of "fghij" and "fguij" are "fgij" |
| Day02.CommonPlusDistance | src/days/day2.rs:12-22 | for equal lengths, the common length plus the distance is the length, and distance 0 keeps the whole string |
| Day02.CommonCharsOfClosePair | src/days/day2.rs:17-22 | for two strings that differ only at position k, the common characters are the string with position k removed |
| Day02.FindClose | src/days/day2.rs:24-33 | None exactly when no pair of ids is at distance 1; otherwise the common characters of the first such pair in scan order |
| Day02.Flags | src/days/day2.rs:39-47 | one flag per id, telling whether some character occurs exactly k times in it |
| Day02.CountWhere | src/days/day2.rs:39-47 | the number of ids with some character occurring exactly k times |
| Day02.Checksum | src/days/day2.rs:37-49 | the product of the number of ids with a doubled character and the number with a tripled character |
| Day03.AddRow | src/days/day3.rs:35-39 | the row grows to cover the claim; claimed cells are incremented, saturating at 255, and other cells are unchanged |
| Day03.AddClaim | src/days/day3.rs:29-41 | the field grows to cover the claim; every cell inside the claim is incremented and every other cell keeps its value |
| Day03.BuildFieldCounts | src/days/day3.rs:28-41 | every cell holds the number of claims covering it, capped at 255, and every claimed cell is stored |
| Day03.RowOverlaps | src/days/day3.rs:43-46 | a row's overlap count is the number of its cells holding more than 1 |
| Day03.OverlapRows | src/days/day3.rs:43-46 | a row's overlap count is the number of its cells covered by two or more claims |
| Day03.OutsideUnclaimed | src/days/day3.rs:28-41 | a cell outside the stored field is covered by no claim |
| Day03.CoverOne | src/days/day3.rs:48-55 | a cell of claim i has cover 1 exactly when no other claim contains it |
| Day03.CoverZero | src/days/day3.rs:28-41 | cover 0 exactly when no claim contains the cell |
| Day03.IntactIffAlone | src/days/day3.rs:48-55 | a claim sees only 1s in the field exactly when it overlaps no other claim |
| Day03.FindIntact | src/days/day3.rs:48-56 | the index of the first claim whose cells all hold 1, or None when there is none |
| Day03.Run | src/days/day3.rs:28-58 | the overlap count of the field and the id of the first claim that overlaps no other; an error exactly when every claim overlaps another |
| Day04.Step | src/days/day4.rs:7-46 | the record errors (minute >= 60, unparsable line, falling asleep twice, waking without a guard or without sleeping); a shift start sets the current guard; a first fall asleep records its minute; other text changes nothing; a wake appends start..minute to the current guard's spans and clears the start; nothing else changes the spans |
| Day04.ShiftKeepsSleep | src/days/day4.rs:15-16 | a shift record only changes the current guard |
| Day04.UnparsableFails | src/days/day4.rs:43-45 | any unparsable record anywhere makes the whole parse fail |
| Day04.ParseRecords | src/days/day4.rs:7-51 | on success every guard has spans with minutes below 60 and there is at least one guard; no guards is an error |
| Day04.MinuteCountsSum | src/days/day4.rs:54-68 | summed over the hour, the per-minute asleep counts equal the total time asleep |
| Day04.FindMostSleepyMinute | src/days/day4.rs:62-78 | the returned minute has the largest asleep count, and it is the earliest such minute |
| Day04.FindMostSleepyGuard | src/days/day4.rs:53-60 | the chosen guard has the largest total asleep, and it is the first such guard in iteration order |
| Day04.FindMostLikelyAsleep | src/days/day4.rs:80-93 | (0, 0) when nobody sleeps; otherwise the first guard in iteration order whose peak minute count is the strict maximum, with that peak minute |
| Day04.SleepyExample | src/days/day4.rs:115-145 | in the worked example guard 10 sleeps 50 minutes with minute 24 the earliest peak, and guard 99 peaks uniquely at minute 45 |
| Day05.Xor32 | src/days/day5.rs:12 | flipping the case bit changes the unit by exactly 32 and flips bit 5 |
| Day05.Xor32Involutive | src/days/day5.rs:12-29 | flipping twice restores the unit, and both polarities have the same type |
| Day05.ReactsSymmetric | src/days/day5.rs:12 | a reacts with b exactly when b reacts with a |
| Day05.PolymerFromStr | src/days/day5.rs:4-6 | one unit per character of the trimmed text, each the character's low byte |
| Day05.StackReduceReduced | src/days/day5.rs:8-21 | the stack reduction leaves no adjacent reacting pair |
| Day05.StackReduceIdempotent | src/days/day5.rs:8-21 | reducing an already reduced polymer changes nothing |
| Day05.ReducePolymer | src/days/day5.rs:8-21 | the in-place read/write loop computes the stack reduction; the result is reduced and no longer than the input |
| Day05.RemoveType | src/days/day5.rs:33-37 | removing a type keeps a sub-multiset of the units with no unit of that type left |
| Day05.MinFrom | src/days/day5.rs:30-42 | the minimum of the removal lengths over the unit types, attained by some type; None exactly when there are no types |
| Day05.Run | src/days/day5.rs:23-45 | an error exactly for an empty polymer; otherwise the reduced length and the least length reached by removing one unit type |
| Day06.New | src/days/day6.rs:15-24 | positive dimensions are required; the grid stores width * height unclaimed cells |
| Day06.Get | src/days/day6.rs:26-36 | inside, the cell stored at index (x - x0) + (y - y0) * width; outside, (0, 0) |
| Day06.Set | src/days/day6.rs:38-42 | inside, the one cell becomes v and all others keep their values; outside, the grid is unchanged |
| Day06.TrySet | src/days/day6.rs:117-133 | the claim is refused outside, on a cell held by the same point, or on a cell held by a strictly nearer point; an unclaimed cell is taken; a cell held by another point at the same or a greater distance becomes a tie; only that cell changes |
| Day06.TrySetKeeps | src/days/day6.rs:117-133 | a claim at a positive distance never unclaims a cell and never overwrites a seed |
| Day06.Round | src/days/day6.rs:137-149 | a flood round keeps every claimed cell claimed and every seed intact, and reports no change only when the grid is unchanged |
| Day06.Flood | src/days/day6.rs:135-153 | the flood loop ends on a grid that its own last round leaves unchanged |
| Day06.Bounds | src/days/day6.rs:103-109 | the box contains every point and each of its four sides is attained by some point |
| Day06.SeedLast | src/days/day6.rs:113-115 | the last point at each position carries id index + 1 at distance 0 |
| Day06.SeedOthers | src/days/day6.rs:113-115 | cells at no point's position are untouched by the seeding |
| Day06.FillGrid | src/days/day6.rs:102-156 | the grid spans exactly the bounding box, and each point still carries its own id at distance 0 after the flood |
| Day06.Tally | src/days/day6.rs:159-170 | entry k counts the cells with id k + 1; the vector is exactly as long as the largest counted id |
| Day06.Invalidate | src/days/day6.rs:172-177 | the entry of a counted id is zeroed; ties and unclaimed cells change nothing |
| Day06.BorderPoints | src/days/day6.rs:179-187 | the cells visited are exactly the cells on the outermost ring of the grid |
| Day06.BorderIds | src/days/day6.rs:179-187 | the ids met on the border walk are exactly the ids found on the outermost ring |
| Day06.CountAreas | src/days/day6.rs:158-190 | entry k is 0 when point k + 1 reaches the border and otherwise the number of cells nearest to it; every counted id has an entry |
| Day06.ParseCoords | src/days/day6.rs:82-98 | an error exactly when there are no lines or some line fails to match; otherwise the points in order |
| Day06.DistAtLeast | src/days/day6.rs:192-198 | the summed distance is at least the distance to any single point |
| Day06.DistConvex | src/days/day6.rs:192-198 | along a row, the summed distance is a convex function of x |
| Day06.SafeBetween | src/days/day6.rs:209-241 | between two safe cells of a row every cell is safe |
| Day06.FindPointInside | src/days/day6.rs:200-207 | the first point whose summed distance is under the limit; an error exactly when there is none |
| Day06.FindInsideSpan | src/days/day6.rs:209-241 | the result is never reversed; when it is non-empty it is a whole maximal run of safe cells, and when it is empty no seed cell was safe |
| Day06.Sweep | src/days/day6.rs:249-263 | each visited row lies one step further from the seed row and is a maximal safe run; the sum is their total length |
| Day06.FindInsideArea | src/days/day6.rs:243-266 | an error exactly when no point is safe; otherwise a positive total of distinct rows, each a maximal safe run |
| Day07.AddRule | src/days/day7.rs:8-13 | a matched line adds both letters to the step set and the first letter to the dependencies of the second; no other step's dependencies change |
| Day07.ParseDependencies | src/days/day7.rs:3-19 | an error exactly when some line fails to match |
| Day07.ParseStepsMeaning | src/days/day7.rs:3-19 | the parsed step set is exactly the letters mentioned on some line |
| Day07.ParseDepsMeaning | src/days/day7.rs:3-19 | d is a dependency of s exactly when some line says d must be finished before s |
| Day07.FindReady | src/days/day7.rs:25-28 | the lowest step that is not yet taken and whose dependencies are all completed; None exactly when no step is ready |
| Day07.Order | src/days/day7.rs:21-37 | on success the result extends the steps already pushed |
| Day07.OrderGreedy | src/days/day7.rs:24-35 | each appended step was ready and was the lowest ready step at that moment, and on success every step is done |
| Day07.OrderIsSchedule | src/days/day7.rs:21-37 | on success every step appears exactly once, after all its dependencies, so the length is the number of steps |
| Day07.ComputeOrderFailsIffUnschedulable | src/days/day7.rs:29-34 | the error is returned exactly when no order of the steps respects the dependencies |
| Day07.GreedySucceeds | src/days/day7.rs:24-35 | if any valid order exists, the greedy loop never gets stuck |
| Day07.Start | src/days/day7.rs:48-57 | an idle worker takes the lowest ready step not yet taken, ending at clock + step + base_time + 1; a busy worker is untouched; an idle worker stays idle only if no step is ready |
| Day07.AssignFacts | src/days/day7.rs:47-58 | over the whole pool: busy workers keep their tasks, each started step was ready and untaken, and taken grows by exactly the started steps without duplicates |
| Day07.Finish | src/days/day7.rs:63-66 | a busy worker whose end time is the clock goes idle and its step becomes completed; otherwise nothing changes |
| Day07.CompleteFacts | src/days/day7.rs:62-67 | exactly the workers due at the clock go idle and only their steps join the completed set |
| Day07.TickKeepsInv | src/days/day7.rs:46-68 | a tick keeps taken = completed plus the busy tasks, never gives one step to two workers, and only completes steps whose dependencies were already complete |
| Day07.SimulateFinishedIsOrdered | src/days/day7.rs:39-71 | a simulation that finishes implies that compute_order succeeds |
| Day07.OneWorkerBusy | src/days/day7.rs:60-67 | a busy lone worker finishes its step exactly at its end time |
| Day07.OneWorkerStuck | src/days/day7.rs:46-68 | when no step is ready and nothing is running, the loop never ends |
| Day07.SimulateOneWorker | src/days/day7.rs:39-71 | with one worker the time is the sum of step + base_time + 1 over the compute_order sequence |
| Day07.ExampleParse | src/days/day7.rs:88-101 | the seven test lines give steps A-F with C before A and F, A before B and D, and B, D, F before E |
| Day07.ExampleOrder | src/days/day7.rs:21-37 | the example's order is CABDFE |
| Day07.ExampleOneWorker | src/days/day7.rs:39-71 | one worker with base time 0 needs 21 ticks for the example |
| Day07.ExampleSimulate | src/days/day7.rs:102-103 | two workers with base time 0 finish the example at tick 15 |
| Day08.Parse | src/days/day8.rs:9-27 | fewer than two numbers is an error; on success the unread tail is at least two numbers shorter than the input |
| Day08.ParseCounts | src/days/day8.rs:13-25 | a parsed node has exactly as many children and metadata entries as its header declares |
| Day08.ParseEncode | src/days/day8.rs:9-27 | parsing the encoding of any tree followed by any tail gives back that tree and that tail |
| Day08.ParseIsDecode | src/days/day8.rs:9-27 | whatever parse accepts is the encoding of the returned tree followed by the returned tail |
| Day08.ParseNumbers | src/days/day8.rs:30-37 | the number list exists exactly when every token reads as a u32, and then holds their values in order |
| Day08.FromString | src/days/day8.rs:29-43 | on success the numbers of the text are exactly the encoding of the returned tree |
| Day08.TrailingDataRejected | src/days/day8.rs:38-41 | numbers left after the root make from_string fail |
| Day08.FromStringShow | src/days/day8.rs:29-43 | printing a tree's encoding with single spaces and reading it back gives the same tree |
| Day08.SumMetadataIsTotal | src/days/day8.rs:45-51 | sum_metadata is the sum of every metadata entry in the tree, each counted once |
| Day08.Selected | src/days/day8.rs:59-65 | an entry between 1 and the child count selects that child's value; any other entry gives 0 |
| Day08.ValueCounts | src/days/day8.rs:53-68 | a node's value is the sum over children of the child's value times the number of entries naming it |
| Day08.ExampleEncoding | src/days/day8.rs:78-79 | the test string is the encoding of the tree A(B, C(D)) and parses back to it with nothing left |
| Day08.ExampleAnswers | src/days/day8.rs:80-81 | the test tree has metadata sum 138 and value 66 |
| Day09.New | src/days/day9.rs:13-15 | the new circle is a ring of one node linked to itself, with the cursor on it |
| Day09.InsertAfter | src/days/day9.rs:17-25 | the new node is appended to the vector, linked between the cursor and its old successor, and becomes the cursor; no other node changes |
| Day09.InsertRing | src/days/day9.rs:17-25 | inserting after ring position a of a consistent ring gives a consistent ring with the new value at position a + 1 |
| Day09.Remove | src/days/day9.rs:27-34 | the cursor's neighbours are linked to each other, the successor becomes the cursor, and the vector keeps its length |
| Day09.RemoveRing | src/days/day9.rs:27-34 | removing ring position r from a ring of two or more gives a consistent ring without that value, with the cursor on the old successor |
| Day09.StepInverse | src/days/day9.rs:36-42 | on a consistent ring step_forward and step_backward move one position either way and undo each other |
| Day09.StepBackNRing | src/days/day9.rs:57-59 | seven steps backward from ring position j reach position (j - 7) mod n, via Day09.BackIsMod |
| Day09.TurnRefines | src/days/day9.rs:55-65 | one turn on the linked circle does what one turn of the list formulation does: insert one place clockwise, or take the marble seven places counter-clockwise and score it with the turn's marble for player (marble - 1) mod n |
| Day09.PlayRefines | src/days/day9.rs:52-66 | the whole loop on the linked circle leaves the same scores as the list formulation |
| Day09.MarbleScoreIsReference | src/days/day9.rs:52-68 | marble_score is the best score of the list formulation, or 0 with no players |
| Day09.Best | src/days/day9.rs:67 | the result is at least every score, is one of the scores, and is 0 for no players |
| Day09.TurnConserves | src/days/day9.rs:55-66 | each turn adds its marble to the circle and the scores together |
| Day09.MarblesConserved | src/days/day9.rs:52-66 | after the game the circle and the scores together hold 1 + 2 + ... + last |
| Day09.ExampleScore | src/days/day9.rs:75 | nine players and last marble 25 give a best score of 32 |
| Day10.AtTimeCompose | src/days/day10.rs:11-13 | moving a point for s seconds and then for u seconds puts it where moving for s + u seconds does |
| Day10.BoundsContain | src/days/day10.rs:29-34 | after adding every point, each point lies inside the rectangle |
| Day10.BoundsTight | src/days/day10.rs:22-34 | with at least one point, all within i32, each side of the rectangle is touched by some point |
| Day10.Width | src/days/day10.rs:40-42 | the width is at least 1, and max - min + 1 whenever max >= min |
| Day10.Height | src/days/day10.rs:44-46 | the height is at least 1, and max - min + 1 whenever max >= min |
| Day10.ConvergeMeaning | src/days/day10.rs:65-78 | a reported time t is one up to which the area never grew and after which it grows |
| Day10.ConvergeFinds | src/days/day10.rs:65-78 | whenever such a time exists and the fuel reaches it, the search reports exactly that time |
| Day10.CanvasAt | src/days/day10.rs:80-84 | a canvas cell is '#' exactly when some point lands on its offset, and '.' otherwise |
| Day10.PictureCell | src/days/day10.rs:80-91 | column x of row y of the picture is '#' exactly when some point is at (min.0 + x, min.1 + y) |
| Day10.RowsSlice | src/days/day10.rs:87-91 | row y of the picture is the canvas slice starting at y * width, width characters long |
| Day10.RenderLines | src/days/day10.rs:86-91 | the result starts with a newline, and cutting the rest at newlines gives exactly the height rows of width characters |
| Day11.PowerLevel | src/days/day11.rs:7-14 | the level lies in -5..4 and is the hundreds digit of ((x + 10) * y + serial) * (x + 10), less 5 |
| Day11.PowerLevelExamples | src/days/day11.rs:68-71 | the four test levels: (8, 3, 5) gives 4, (57, 122, 79) gives -5, (39, 217, 196) gives 0, (71, 101, 153) gives 4 |
| Day11.RowSumFirst | src/days/day11.rs:27-31 | a row window of len + 1 cells is its first cell plus the window of len cells one column on, which is what the sliding update relies on |
| Day11.ColSumFirst | src/days/day11.rs:39-44 | a column window of len + 1 row sums is its first row sum plus the window one row down |
| Day11.FillRow | src/days/day11.rs:25-32 | the sliding window along row y stores, for each start column, exactly the power of the size cells starting there |
| Day11.FillBuffer | src/days/day11.rs:23-32 | the buffer holds one such row of window sums for each of the 301 rows |
| Day11.BestInColumn | src/days/day11.rs:33-47 | the chosen y gives the square total of column x, no square in the column beats it, and every later y is strictly worse (the last maximum wins) |
| Day11.FindBestSquare | src/days/day11.rs:22-51 | the chosen square lies in the grid, its total is the largest of all squares of that side, and every square visited after it is strictly worse |
| Day11.BestSquare | src/days/day11.rs:16-20 | the chosen 3 x 3 square lies in the grid and no 3 x 3 square has a larger total |
| Day11.BestSquareAnySize | src/days/day11.rs:53-63 | the chosen square beats or ties every square of every side, and every square of a larger side is strictly worse |
| Bits.AndPow2 | src/days/day12.rs:24 | `a & (1 << i)` is non-zero exactly when bit i of a is set |
| Bits.BitOr | src/days/day12.rs:76-77 | bit i of a OR b is set exactly when it is set in a or in b |
| Day12.WindowsAt | src/days/day12.rs:16-25 | after reading pot k of the row padded with four empty pots, the running window is the rule index of the five pots centred two pots back |
| Day12.StepFlower | src/days/day12.rs:15-37 | after a step, pot p holds a flower exactly when p is within two pots of the old row and the rule bit for the five old pots around p is set |
| Day12.StepIsRule | src/days/day12.rs:15-37 | when the empty window grows nothing, every pot after a step follows the rule for its five old neighbours |
| Day12.StepTrimmed | src/days/day12.rs:26-35 | the stepped row is empty or starts and ends with a flower |
| Day12.StepShift | src/days/day12.rs:15-37 | stepping a renumbered row gives the stepped row renumbered the same way |
| Day12.FlowersExactly | src/days/day12.rs:39-45 | `iter_flowers` yields first + i for exactly the indices i holding a flower, in increasing order |
| Day12.FlowersShift | src/days/day12.rs:92 | renumbering the row by d adds d once per flower to the sum |
| Day12.CycleRepeats | src/days/day12.rs:96-104 | once generation k repeats the pattern of generation j, generation k + t(k - j) is generation k moved on t times as far |
| Day12.Extrapolate | src/days/day12.rs:97-104 | the linear extrapolation from a repeated pattern gives exactly the sum of the later generation |
| Day12.FlowerSum | src/days/day12.rs:87-112 | the result is the flower sum after exactly the requested number of generations, whether reached by stepping or by extrapolation |
| Day12.ParseState | src/days/day12.rs:52-59 | a matched initial state yields one flag per character after the prefix, set exactly for '#' |
| Day12.PatternBits | src/days/day12.rs:73-76 | bit i of a pattern's index is set exactly when position i of the pattern is '#' |
| Day12.PatternInjective | src/days/day12.rs:73-76 | two five-character patterns of '#' and '.' with the same index are equal |
| Day12.ParseRulesFails | src/days/day12.rs:70-82 | rule parsing fails exactly when some line is not a rule |
| Day12.ParseRulesBits | src/days/day12.rs:69-82 | bit w of the parsed rules is set exactly when some "=> #" line has a pattern of index w |
| Day12.Parse | src/days/day12.rs:48-85 | no lines, a bad initial state, or a missing blank line is an error; on success the row starts at pot 0 with the parsed flags |
| Day12.ParseSucceeds | src/days/day12.rs:48-85 | parsing succeeds exactly on a valid initial state, then a blank line, then rule lines only |
| Day12.StepByRules | src/days/day12.rs:15-82 | with parsed rules, pot p holds a flower after a step exactly when it is within two pots of the old row and some line reads "pattern => #" for the five pots around it |
| Day13.SetBlocked | src/days/day13.rs:43-45 | setting one cell changes that cell to the new state and leaves the tracks, the shape and every other cell as they were |
| Day13.SlashReflects | src/days/day13.rs:76 | `dir ^ 1` on a '/' mirrors the motion vector (dx, dy) into (-dy, -dx) |
| Day13.BackslashReflects | src/days/day13.rs:77 | `dir ^ 3` on a backslash mirrors the motion vector (dx, dy) into (dy, dx) |
| Day13.IntersectionTurns | src/days/day13.rs:78-82 | `(dir + 3 + counter) & 3` turns the motion left, keeps it, or turns it right for counter 0, 1, 2, and the counter advances modulo 3 |
| Day13.StepCart | src/days/day13.rs:49-85 | a cart on a crashed cell stays put and reports a crash; otherwise it moves one cell along its direction, frees its old cell, marks the new one Crashed if it was occupied and Blocked if not, and reports a crash exactly when the new cell was occupied or has no track |
| Day13.StepTurns | src/days/day13.rs:73-83 | on a track cell the new direction and counter are the turn rule of that track |
| Day13.StepConsistent | src/days/day13.rs:49-85 | from a state where Blocked cells are exactly the cells with one cart, a step crashes exactly when it hits another cart or leaves the track, a hit leaves two carts on the cell, and a step without crash keeps the state consistent |
| Day13.SortCarts | src/days/day13.rs:135-141 | the sort returns a permutation of the carts |
| Day13.SortSorted | src/days/day13.rs:135-141 | the sorted carts are in row-then-column order |
| Day13.SortConsistent | src/days/day13.rs:135-141 | sorting keeps a consistent state consistent, as cart counts depend only on the multiset of carts |
| Day13.RunTickConsistent | src/days/day13.rs:142-146 | a pass from a consistent state ends consistent, or stops at a cell inside the map holding two carts or no track |
| Day13.TickConsistent | src/days/day13.rs:134-146 | one tick (sort, then pass) from a consistent state ends consistent with the same tracks, or in a collision or derailment |
| Day13.CrashRunWithCollision | src/days/day13.rs:133-148 | repeating ticks that keep consistency, any crash reported is a collision or derailment inside the map |
| Day13.FirstCrashIsCollision | src/days/day13.rs:133-148 | from a consistent start, the position `first_crash` returns is a cell of the map where two carts stand, or a cell without track |
| Day13.TickAllPrefix | src/days/day13.rs:161-165 | a pass of `last_alive` from cart i leaves the carts before i unchanged |
| Day13.TickAllCrashes | src/days/day13.rs:161-165 | every cell a pass adds to the crashed set is the cell of a cart it moved |
| Day13.Retain | src/days/day13.rs:166 | the kept carts are exactly the carts not standing on a crashed cell |
| Day13.RetainNone | src/days/day13.rs:166 | with no crashes every cart is kept, in order |
| Day13.Clear | src/days/day13.rs:167-169 | after clearing, each crashed cell is Free and every other cell keeps its state |
| Day13.ParseLineFails | src/days/day13.rs:95-119 | a line fails to parse exactly when it holds a character other than space, dash, vertical bar, slash, backslash, plus or one of the four cart glyphs |
| Day13.ParseLineCells | src/days/day13.rs:95-126 | each cell of a parsed line has the track of its character and is Blocked exactly under a cart glyph, and each cart is on a glyph of its direction with counter 0 |
| Day13.ParseLineCount | src/days/day13.rs:102-117 | a parsed line has exactly one cart on each cart glyph and none elsewhere |
| Day13.ParseShape | src/days/day13.rs:88-131 | the parsed map has one row per line and one cell per character in both grids |
| Day13.ParseCells | src/days/day13.rs:92-129 | every cell of the parsed map follows its character |
| Day13.ParseCarts | src/days/day13.rs:102-117 | every parsed cart stands on the map on a glyph showing its direction, with counter 0 |
| Day13.ParseCount | src/days/day13.rs:88-131 | across the input, each cart glyph holds exactly one cart and every other cell none |
| Day13.ParseConsistent | src/days/day13.rs:88-131 | the parsed state is consistent, the precondition of the crash lemmas |
| Day14.Digits | src/days/day14.rs:24-27 | the recipes appended are one or two digits, two exactly when the sum is at least 10 |
| Day14.DigitsValue | src/days/day14.rs:23-27 | the appended digits spell the sum of the two current scores in decimal, without a leading zero |
| Day14.Step | src/days/day14.rs:22-30 | a step keeps every score a digit and both elves on the board, never changes a score already written, and appends the digits of the two current scores' sum |
| Day14.MoveIsMod | src/days/day14.rs:28-29 | moving an elf one place at a time, score + 1 places round the new board, lands on (position + score + 1) modulo the number of scores |
| Day14.StepNExtends | src/days/day14.rs:22-30 | the scores of every later board begin with the scores of an earlier one |
| Day14.StepNValid | src/days/day14.rs:14-30 | from `Scoreboard::new`, every board reached is valid and after n steps holds at least n + 2 scores |
| Day14.StepNPrefix | src/days/day14.rs:22-30 | scores on the scoreboard are never changed once written |
| Day14.ScoreAtAny | src/days/day14.rs:22-30 | every board long enough to hold score k has the same score k, so score k of the scoreboard is well defined |
| Day14.ScoresAfter | src/days/day14.rs:37-46 | the answer has `count` characters, the decimal digits of the scores numbered `after` to `after + count - 1` |
| Day14.WindowOccurs | src/days/day14.rs:53-56 | the slice comparison on a long enough board holds exactly when the pattern occurs at that index of the scoreboard |
| Day14.NumRecipesBefore | src/days/day14.rs:48-61 | the index returned is one where the digits occur, and they occur at no earlier index; with no answer, they occur nowhere before the bound |
| Day15.LoadMapCells | src/days/day15.rs:24-48 | loading fails exactly on no lines or a character other than `.#GE`; otherwise the map is as wide as the first line with one row per line, each cell the tile of its character, `Empty` beyond a short line, and characters beyond the width dropped |
| Day15.LoadMapWellFormed | src/days/day15.rs:24-48 | every unit of a loaded map has 200 hit points |
| Day15.NeighborsOrder | src/days/day15.rs:259-266 | the four neighbours come in reading order and are exactly the cells at Manhattan distance 1 |
| Day15.NeighborsSymmetric | src/days/day15.rs:259-266 | q is a neighbour of p exactly when p is a neighbour of q |
| Day15.Hit | src/days/day15.rs:243-252 | a hit takes 3 hit points; a unit with 3 or fewer left becomes an empty cell |
| Day15.MinEnemyHpIsMin | src/days/day15.rs:230-237 | the minimum is absent exactly when no neighbour is an enemy, and otherwise is the hit points of some adjacent enemy and at most those of each |
| Day15.AttackHitsWeakest | src/days/day15.rs:229-257 | with no adjacent enemy the map is unchanged; otherwise exactly the adjacent enemy with fewest hit points, the first in reading order among equals, takes one hit |
| Day15.PutHp | src/days/day15.rs:101-112 | writing one cell changes a side's hit point total by exactly the difference between the old and the new tile |
| Day15.SideHpZero | src/days/day15.rs:101-117 | on a well-formed map a side's total is zero exactly when that side has no units |
| Day15.IsOverNoUnits | src/days/day15.rs:114-117 | the combat is over exactly when one side has no units left |
| Day15.AttackHp | src/days/day15.rs:229-257 | an attack keeps the map well formed, leaves the attacker's side total unchanged and never raises the victims' total |
| Day15.MarkAround | src/days/day15.rs:158-160 | afterwards exactly the earlier marks plus the in-bounds neighbours of the cell are marked |
| Day15.MarkTargets | src/days/day15.rs:151-166 | the cells marked are exactly those next to a unit of the given side, and the answer says whether that side has any unit |
| Day15.ExpandCell | src/days/day15.rs:184-193 | around a cell at distance d, every empty unlabelled neighbour gets d + 1, no other label changes, and the flag says whether a target got labelled |
| Day15.ExpandRound | src/days/day15.rs:180-199 | one round labels only cells next to a cell at distance d, with d + 1, keeps all earlier labels, expands every cell at distance d, and reports whether there was one and whether a target was reached |
| Day15.RoundLabelled | src/days/day15.rs:180-199 | after a round each label is on an empty cell, has the parity of the cell's distance from the unit, is 1 only next to the unit, and otherwise sits next to a label one lower |
| Day15.RoundClosed | src/days/day15.rs:180-199 | after the round at distance d every empty neighbour of a cell labelled l up to d is labelled at most l + 1 |
| Day15.PathLabels | src/days/day15.rs:168-209 | along any walk from the unit, the cell after i steps is labelled at most i + 1 as long as levels up to i are closed |
| Day15.PathsLabelled | src/days/day15.rs:200-202 | when a round finds no cell at its distance, every walk from the unit stays inside the labelled cells |
| Day15.PathBack | src/days/day15.rs:168-209 | every labelled cell is the end of a walk from the unit exactly as long as its label |
| Day15.FirstLabelled | src/days/day15.rs:203-207 | the scan finds the first cell in reading order at the given distance that is a target, or reports there is none |
| Day15.FirstRing | src/days/day15.rs:172-180 | the first loop either returns a neighbouring target, nearest and first in reading order, or leaves every empty neighbour labelled 1 and none a target |
| Day15.FillLevels | src/days/day15.rs:180-209 | the level loop terminates, and returns a target reachable at least distance, first in reading order among those at that distance, or reports that no target is reachable |
| Day15.FillDistance | src/days/day15.rs:168-209 | a unit already on a target gets no answer; otherwise the answer is a reachable target at the least walking distance and the first in reading order among those, and no answer means no target is reachable |
| Day15.LeadsFromLevel | src/days/day15.rs:211-227 | for every level from 1 to the target's distance some cell at that level starts a rising chain of labels to the target |
| Day15.ShortestStartLeads | src/days/day15.rs:211-227 | the first steps of the shortest walks to the target are exactly the cells at distance 1 from which the labels rise by one to the target |
| Day15.Backtrace | src/days/day15.rs:211-227 | the cell returned is an empty neighbour of the unit that starts a shortest walk to the target, and no such cell comes before it in reading order |
| Day15.MoveKeeps | src/days/day15.rs:131-134 | a step moves the unit onto the empty cell and empties its old cell, changes nothing else, and keeps the walls and both sides' totals |
| Day15.AttackWalls | src/days/day15.rs:229-257 | an attack never adds or removes a wall |
| Day15.MoveUnit | src/days/day15.rs:127-138 | a unit on a target cell, or with no target reachable, stays; otherwise it steps onto the first cell in reading order of a shortest walk to the nearest target, the first such target in reading order |
| Day15.NoEnemyNoTarget | src/days/day15.rs:151-166 | with no enemy left no cell is marked, so the unit neither stands on nor can reach a target |
| Day15.AttackNoEnemy | src/days/day15.rs:229-257 | with no enemy on the map an attack changes nothing |
| Day15.UnitTurn | src/days/day15.rs:124-141 | with the cells next to enemies marked, the unit stays when it is on a target or none is reachable and otherwise steps onto the chosen first cell of a shortest walk to the nearest target; it then attacks from the cell it ended on, and the result is exactly that attack applied to the moved board; the turn keeps the map well formed and its walls, keeps the unit's side total, never raises the enemies' total, and changes nothing when no enemy is left, which it reports |
| Day15.RunTurn | src/days/day15.rs:119-149 | a round keeps the map well formed and its walls, never raises either side's total and changes nothing once the combat is over; it returns one visit per cell, visit k at row-major offset k, each starting on the board the previous one left (the first on the starting board, the last leaving the result); at each visit the unit there takes its turn exactly when it is a fighter that no earlier turn of the round moved there, the board it leaves then being the one that unit's move and attack produce, and otherwise the board is unchanged; the round counts exactly when no unit that took its turn found itself without an enemy |
| Day15.EveryCellVisited | src/days/day15.rs:121-122 | the record of a round visits every cell of the map, cell (x, y) at offset x + y * width |
| Day15.Run | src/days/day15.rs:71-75 | the loop stops only when the combat is over or the fuel is spent, and every round but a final one that ended the combat is counted |
| Day15.Solve | src/days/day15.rs:4-9 | the answer is an error exactly when loading fails, and otherwise the outcome of a finished combat on a map with the same walls |
| Day16.Reg | src/days/day16.rs:93-95 | an operand names register `x & 3`, always one of the four |
| Day16.Exec | src/days/day16.rs:92-116 | `exec_op` writes only register `c & 3`, with the value of the opcode's row of the sixteen-operation table; other registers keep their values; an opcode above 15 is excluded, as it panics |
| Day16.OpShapes | src/days/day16.rs:106-114 | the six comparison operations write 0 or 1, and the immediate-operand operations do not read register `b & 3` |
| Day16.MatchingOps | src/days/day16.rs:123-133 | operation `op` is in the result exactly when it is below 16 and turns the sample's before registers into its after registers |
| Day16.CountMatchingOps | src/days/day16.rs:119-121 | the count is the number of matching operations, at most 16 |
| Day16.CountAmbiguous | src/days/day16.rs:6-9 | part one is the number of samples that match three or more operations |
| Day16.ConsistentStep | src/days/day16.rs:136-139 | an operation is consistent with the samples up to one more exactly when it was consistent before and matches the new sample if that has the opcode |
| Day16.Candidates | src/days/day16.rs:136-139 | operation `op` is a candidate for opcode `i` exactly when it matches every sample with opcode `i` |
| Day16.Forced | src/days/day16.rs:140-150 | pinning an opcode whose candidates minus the used operations are one operation keeps the pinned opcodes distinct, the used set their image, and every allowed numbering in agreement |
| Day16.AllowedAvoidsUsed | src/days/day16.rs:143-147 | an allowed numbering gives an unpinned opcode an operation that no pinned opcode uses |
| Day16.AllBelow | src/days/day16.rs:151-153 | sixteen distinct opcodes below sixteen are all of them, so a full used mask pins every opcode |
| Day16.PinnedAllowed | src/days/day16.rs:151-154 | with every opcode pinned the result is a permutation of the sixteen operations giving each opcode one of its candidates |
| Day16.PinnedUnique | src/days/day16.rs:140-154 | with every opcode pinned no other permutation within the candidates exists |
| Day16.Visit | src/days/day16.rs:142-149 | one opcode of a pass keeps the elimination state |
| Day16.EliminationPass | src/days/day16.rs:141-150 | one pass over the sixteen opcodes keeps the elimination state |
| Day16.CreateOpcodeMap | src/days/day16.rs:135-155 | on success the numbering is a permutation of the sixteen operations with every opcode's operation among its candidates, and it is the only such permutation; an incomplete elimination is an error |
| Day16.ExecuteAppend | src/days/day16.rs:157-163 | running two programs one after the other is running their concatenation |
| Day16.ExecuteUnwritten | src/days/day16.rs:92-116 | a register no instruction names as its destination keeps its value through the whole program |
| Day16.RunWithMapping | src/days/day16.rs:157-163 | the program runs instruction by instruction from four zero registers, each opcode translated through the numbering |
| Day16.ParseLine | src/days/day16.rs:43-87 | a `Before` line is accepted only when idle, an `After` line only after a sample's instruction, an instruction line unless one is already pending (when idle it joins the program), and an unmatched line is an error |
| Day16.ParseRender | src/days/day16.rs:37-90 | parsing the rendered samples and program gives them back |
| Day16.AllowedBySamples | src/days/day16.rs:135-139 | a permutation lies within the candidate sets exactly when every sample matches the operation it assigns |
| Day16.Solve | src/days/day16.rs:4-15 | a parse error is the answer; otherwise part one counts the ambiguous samples and part two is register 0 after the program under the one numbering all samples allow |
| Day17.TileAtIsGet | src/array2d.rs:44-53 | the tile read used throughout is `Array2d::get` with sand as the default |
| Day17.TileAtPut | src/array2d.rs:63-67 | writing a tile changes only that in-bounds cell |
| Day17.FillRow | src/days/day17.rs:141-143 | filling columns `left_x..=right_x` of a row sets exactly those in-bounds cells and keeps every other cell |
| Day17.Walk | src/days/day17.rs:112-131 | a walk never steps onto clay, it ends blocked exactly in front of clay or over water that runs down, it keeps its own row and all rows above, and it neither removes nor adds clay |
| Day17.Spread | src/days/day17.rs:133-145 | the written segment covers the start column; it is all settled water between two clay cells when the result is true and all flowing water otherwise; rows above are kept and clay is never overwritten |
| Day17.PutWater | src/days/day17.rs:93-146 | below the map nothing changes and the answer is false; otherwise the start cell becomes settled water when the answer is true and flowing water when false, settled water always lies between two clay walls, rows above are kept and clay is kept whenever the start cell is not clay |
| Day17.CaptureRange | src/days/day17.rs:42-47 | a capture without an end denotes the one-element range `from..=from` |
| Day17.LastRange | src/days/day17.rs:39-53 | a line's range for an axis exists exactly when the axis is captured, and is the last capture of that axis |
| Day17.ParseLine | src/days/day17.rs:54-58 | a line gives a vein exactly when it names both an x range and a y range |
| Day17.ParseRects | src/days/day17.rs:38-59 | the lines parse exactly when every line does, one vein per line in order |
| Day17.InRects | src/days/day17.rs:75-81 | a cell is covered exactly when some vein contains it |
| Day17.MinX | src/days/day17.rs:65-67 | `min_x` is at most 500 and at most one less than every vein's first column, and is one of these |
| Day17.MaxX | src/days/day17.rs:65-68 | `max_x` is at least 500 and at least one more than every vein's last column, and is one of these |
| Day17.MinY | src/days/day17.rs:65-69 | `min_y` is the least first row among the veins |
| Day17.MaxY | src/days/day17.rs:65-70 | `max_y` is the greatest last row among the veins, or 0 |
| Day17.ParseInput | src/days/day17.rs:34-63 | the input is an error exactly when some line lacks a range or there are no lines |
| Day17.ScanSpring | src/days/day17.rs:73-89 | the spring's column `500 - min_x` is on the map and the map's height is `max_y + 1` |
| Day17.ScanMargins | src/days/day17.rs:65-73 | every vein cell lies on the map with at least one clay-free column on either side |
| Day17.ScanClay | src/days/day17.rs:73-81 | a map cell is clay exactly when some vein covers its shifted coordinates |
| Day17.CountRowIsSize | src/days/day17.rs:152-157 | a row's count of a tile is the number of its columns holding that tile |
| Day17.CountRowsOnly | src/days/day17.rs:151 | only rows `min_y..=max_y` affect the counts |
| Day17.CountRowBound | src/days/day17.rs:152 | a row holds at most `width` cells of any tile |
| Day17.CountRowWater | src/days/day17.rs:152-158 | one row's flowing and settled water counts |
| Day17.CountWater | src/days/day17.rs:148-161 | the counts are those of flowing and of settled water over rows `min_y..=max_y` |
| Day17.Solve | src/days/day17.rs:7-12 | a parse error is the answer; otherwise part one is all water and part two the settled water in the scanned rows after pouring from the spring at row 0 |
| Day18.MaxLen | src/days/day18.rs:34 | the width is at least every line's length and is one of them, or 0 without lines |
| Day18.ParseData | src/days/day18.rs:32-51 | an unknown character anywhere is an error; otherwise the field is as wide as the longest line and as tall as the input, each cell holds its character's tile and cells past a short line's end hold no tile |
| Day18.ParseRender | src/days/day18.rs:120-130 | parsing the printed field gives the field back when every cell holds a tile |
| Day18.NextTileCases | src/days/day18.rs:95-100 | open ground becomes wooded exactly with three wooded neighbours, wooded becomes a lumberyard exactly with three lumberyard neighbours, and a lumberyard stays one exactly next to both; anything else stays |
| Day18.CornerCount | src/days/day18.rs:85-90 | neighbours off the field read as no tile and are never counted: a corner acre counts at most three of a kind |
| Day18.ScanCountsAround | src/days/day18.rs:82-91 | the 3x3 scan that skips the centre counts exactly the eight neighbours |
| Day18.ScanRow | src/days/day18.rs:83-91 | one row of the scan adds that row's neighbours to the counts |
| Day18.StepCell | src/days/day18.rs:80-102 | after the scan the acre holds the rule applied to the full neighbour counts; the writes after the first two scan rows are overwritten |
| Day18.Step | src/days/day18.rs:78-104 | the result is the next field computed from `src` alone, whatever `dest` held |
| Day18.CountRowIsSize | src/days/day18.rs:109-115 | a row's count of a tile is the number of acres in that row holding it |
| Day18.CountRowsIsSize | src/days/day18.rs:109-115 | the row-by-row count is the number of acres of the field holding the tile |
| Day18.ResourceValue | src/days/day18.rs:106-117 | the value is the number of wooded acres times the number of lumberyards |
| Day18.Periodic | src/days/day18.rs:62-72 | once the field after `a` minutes recurs after `b`, the fields after `a + n` and `b + n` agree |
| Day18.Cycle | src/days/day18.rs:67 | a field that recurs after `p` minutes is back after any multiple of `p` more |
| Day18.EarlyReturn | src/days/day18.rs:66-69 | when equal hashes mean equal fields, returning early at a recurrence whose gap divides the remaining minutes gives the field after all the minutes |
| Day18.CycleRemember | src/days/day18.rs:62-71 | the table keeps, for each hash, a minute before the current one whose field has that hash |
| Day18.Minute | src/days/day18.rs:57-58 | one minute steps the field into the spare buffer and swaps the two |
| Day18.ResourceValueAfter | src/days/day18.rs:53-76 | the value is that of the field after some minute no later than asked; when equal hashes mean equal fields it is that of the field after exactly the minutes asked |
| Day18.Solve | src/days/day18.rs:8-14 | an unknown character is the error; otherwise the answers are the resource values after 10 and after 1000000000 minutes, when equal hashes mean equal fields |
| Day19.OpNamedMnemonic | src/days/day19.rs:95-111 | each of the sixteen mnemonics selects its own instruction |
| Day19.ValueReadsOperands | src/days/day19.rs:136-153 | an instruction reads only the registers named by its register operands; immediate operands are taken as values |
| Day19.Step | src/days/day19.rs:127-158 | with the bound register at or past the program's end nothing changes and the step reports false; otherwise only register C and the bound register change: C receives the instruction's value, then the bound register goes up by one |
| Day19.HaltedStays | src/days/day19.rs:129-132 | a halted machine stays as it is however many steps follow |
| Day19.StepsAdd | src/days/day19.rs:5 | running `a` steps and then `b` steps is running `a + b` steps |
| Day19.Run | src/days/day19.rs:5 | stepping until the step reports false stops at the first halted state, the machine after the given number of steps |
| Day19.Decode | src/days/day19.rs:89-113 | an instruction is accepted exactly when its register operands are below six; the first operand out of range, in the order A, B, C, is named in the error |
| Day19.ParseLineAsWritten | src/days/day19.rs:83-117 | a `#ip` line parses exactly when its number does; a line that is neither `#ip` nor the instruction pattern is the error naming it; an accepted instruction has its registers in range |
| Day19.IpOutOfRangeAccepted | src/days/day19.rs:83-84 | the line `#ip 6` is accepted, and a machine bound to register 6 is not one that can step |
| Day19.ParseLine | src/days/day19.rs:83-117 | as above, with a `#ip` register of six or more rejected; an accepted line never names a missing register |
| Day19.IpOutOfRangeRejected | src/days/day19.rs:89-94 | the corrected parser rejects `#ip 6` with the register error |
| Day19.Parse | src/days/day19.rs:76-125 | the program is accepted exactly when every line is, the error is the first failing line's, and a loaded machine has zero registers and can step |
| Day19.ParseShowInst | src/days/day19.rs:85-114 | a printed instruction reads back as itself |
| Day19.ParseShowIp | src/days/day19.rs:83-84 | a printed `#ip` line reads back as its register |
| Day19.ParseRender | src/days/day19.rs:76-125 | printing a program with its `#ip` line and reading it back gives the machine it describes, registers zero |
| Day19.PastSquareRoot | src/days/day19.rs:34 | once the candidate's square exceeds the number, every divisor is a candidate tried or the co-divisor of one |
| Day19.AddedStep | src/days/day19.rs:26-33 | candidate `k` adds itself and its co-divisor when it divides the number, once when they coincide, and nothing else |
| Day19.AddedAll | src/days/day19.rs:25-37 | past the square root the added divisors are all the divisors |
| Day19.Native | src/days/day19.rs:11-40 | the result is the sum of all divisors of 967, or of 10551367 when register 0 starts at 1, added to register 0's starting value otherwise |
| Day19.Solve | src/days/day19.rs:3-9 | a parse error is the error; otherwise the answers are the halted machine's register 0, which the check makes the divisor sum of 967, and the divisor sum of 10551367 |
| Day20Regex.ParseGroupFrom | src/days/day20.rs:34-63 | a group ends at `)` or `$`, closing the current run, branch and group, and leaves the rest of the input; input running out is "Unexpected end of input"; any other character outside `NESW|()` is the "Unexpected char" error naming it |
| Day20Regex.ParsedWellFormed | src/days/day20.rs:34-63 | a parsed group has at least one branch, and each branch alternates runs of directions with nested groups, starting and ending with a run |
| Day20Regex.ParseRe | src/days/day20.rs:22-32 | an expression not starting with `^` is that error; an expression is accepted exactly when the group after `^` parses and nothing follows it, and the result is well formed |
| Day20Regex.ParseShow | src/days/day20.rs:22-63 | printing a well-formed group between `^` and `$` and parsing it gives the group back |
| Day20Regex.CloseEitherWay | src/days/day20.rs:42-46 | the outermost group may be closed by `)` as well as by `$` |
| Day20Regex.TrailingInputRejected | src/days/day20.rs:28-30 | a character after the closing `$` is the "Expected end of regex" error naming it |
| Day20Walk.Code | src/days/day20.rs:88-104 | north, east, south and west report 0, 1, 2 and 3 |
| Day20Walk.Advance | src/days/day20.rs:88-104 | a step moves by one unit, and stepping back from where it lands along the reported direction returns to its start |
| Day20Walk.PathConcat | src/days/day20.rs:87-108 | walking two runs one after the other ends and reports as walking their concatenation |
| Day20Walk.WalkGroupLang | src/days/day20.rs:69-121 | the end positions and reported moves of `walk` are exactly those of walking, from each start position, every word the group matches |
| Day20Walk.WalkPartsLang | src/days/day20.rs:79-117 | a branch walked part by part ends where and reports what its concatenated words do |
| Day20Walk.GroupNonEmpty | src/days/day20.rs:69-121 | every well-formed group matches at least one word |
| Day20Walk.WalkClosed | src/days/day20.rs:122-124 | every reported move starts at the origin or in a room some move entered, and its direction is below 4 |
| Day20Map.Bounds | src/days/day20.rs:132-139 | the box covers the origin and every reported position, and each edge is 0 or reached by some position |
| Day20Map.MarkDoor | src/days/day20.rs:143-152 | marking one move sets bit 0 in the cell below a northward step's room or in a southward step's room, and bit 1 in an eastward step's room or in the cell right of a westward step's room; no other bit changes |
| Day20Map.DoorRule | src/days/day20.rs:145-150 | the bit a move sets in a cell is exactly that the move passed, either way, through the door on that cell's north or west side |
| Day20Map.MarkDoors | src/days/day20.rs:143-152 | after the second walk every cell holds the marks of every move |
| Day20Map.MarkedDoors | src/days/day20.rs:141-154 | on the finished map bit 0 of a cell is set exactly when some move passed its north door, bit 1 exactly for its west door, and no other bit is set |
| Day20Map.Draw | src/days/day20.rs:132-154 | every room lies on the map at its offset, each map edge holds a room, and the door bits are those of the moves |
| Day20Map.CreateMap | src/days/day20.rs:129-155 | the map is drawn exactly when the expression parses, with the parser's error otherwise, and it is the drawing of the walk's moves |
| Day20.DoorEdge | src/days/day20.rs:212-223 | on a well-formed map, the four door tests for a cell find exactly its doors to neighbouring cells of the map |
| Day20.DoorsChessboard | src/days/day20.rs:212-223 | every door joins cells of opposite colour on a chessboard |
| Day20.LayerNoDoors | src/days/day20.rs:209-224 | no door joins two cells at the same shortest distance, so marking one of them visited never hides another from the round |
| Day20.NextLayer | src/days/day20.rs:208-228 | the cells at distance `n + 1` are those one door from distance `n` and not within `n` |
| Day20.Opened | src/days/day20.rs:212-223 | the cells a frontier cell adds are exactly its unvisited neighbours behind a door |
| Day20.Level | src/days/day20.rs:209-224 | one round reports every frontier cell once with the round number and collects every unvisited cell behind a door of the frontier |
| Day20.Pathfind | src/days/day20.rs:199-229 | every reachable cell is reported exactly once, with its shortest distance, in order of distance, and the search ends at the round after which nothing is left |
| Day20.LongestPath | src/days/day20.rs:178-182 | the result is a distance some room has and within which every room is reachable: the largest shortest distance |
| Day20.DistantReport | src/days/day20.rs:191-195 | a report counts exactly when its room is at least the given number of doors away |
| Day20.CountDistant | src/days/day20.rs:184-197 | the count is the number of reachable rooms at least the given number of doors away |
| Day20.DrawnWellFormed | src/days/day20.rs:141-154 | a drawn map has no door out of its top row or left column, and the start room lies on it |
| Day20.Solve | src/days/day20.rs:7-13 | the answers exist exactly when the expression parses, with its error otherwise; they are the longest shortest distance and the number of rooms 1000 or more doors away on the drawn map |
| Day21.Masks | src/days/day21.rs:40-49 | masking with 16777215 and with 255 keeps the remainder modulo 2^24 and 2^8 |
| Day21.OrSeed | src/days/day21.rs:34-35 | `r1 \| 65536` adds 65536 exactly when bit 16 of `r1` is clear |
| Day21.AbsorbMasks | src/days/day21.rs:108-110 | the two `& 0xffffff` steps around the multiplication by 65899 agree with the remainder form of one absorbed byte |
| Day21.SelfTest | src/days/day21.rs:18-28 | `123 & 456` is 72, so the panic for the endless loop is never reached |
| Day21.DivideBy256 | src/days/day21.rs:60-83 | the counting loop at LABEL C leaves `r2 / 256` in `r5` |
| Day21.NativeRound | src/days/day21.rs:34-86 | one pass of the translated program computes the reference round: the seed with bit 16 set, its bytes absorbed lowest first |
| Day21.Native | src/days/day21.rs:12-97 | `native(n)` is the hash after `n` rounds from 0 |
| Day21.OptRound | src/days/day21.rs:105-112 | the hand-optimised inner loop computes the same round as the translated program |
| Day21.NativeOpt | src/days/day21.rs:99-118 | for a value some round produces, the count returned is the first round producing it |
| Day21.HashesMember | src/days/day21.rs:120-140 | a value is among the hashes of rounds 1 to `n` exactly when one of those rounds produced it |
| Day21.TableStep | src/days/day21.rs:133-138 | marking a hash not yet seen keeps the table equal to the set of hashes seen, all different, and their count within 2^24 |
| Day21.FindCycle | src/days/day21.rs:120-140 | the hashes of rounds 1 to `cycle` are all different, the next round repeats one of them, and the second result is the hash of round `cycle` |
| Day21.Solve | src/days/day21.rs:3-10 | the first answer is the hash of round 1 and is first hit there; the second is first hit at a round whose successor repeats an earlier hash, which is the `native_opt` check `run` makes |
| Day22.Erosion | src/days/day22.rs:41-62 | every erosion level is below 20183 |
| Day22.ErosionRules | src/days/day22.rs:53-62 | the mouth and the target have geologic index 0, the top row `x * 16807` and the left column `y * 48271` (kept to 32 bits), every other cell the product of the levels above and to the left; the level is the index plus the depth modulo 20183 |
| Day22.PushLandsAt | src/days/day22.rs:63-68 | when a level is missing but the ones above and to the left are cached, row `y` is exactly `x` long, or it is the next row to start and `x` is 0, so the push lands at `(x, y)` |
| Day22.CachedCorrect | src/days/day22.rs:32-70 | from a cache holding only recurrence values in staircase shape, the level returned is the recurrence's, the cache keeps that shape and those values, now holds `(x, y)`, and grows only at or above and left of it |
| Day22.RiskLevelCorrect | src/days/day22.rs:72-74 | the risk read through the cache is the erosion level modulo 3, one of 0, 1 and 2 |
| Day22.AreaRiskLevel | src/days/day22.rs:76-80 | the risks of the rectangle from the mouth to the target, row by row, add up to the reference sum, at most 2 per region |
| Day22.ExampleRisks | src/days/day22.rs:182-186 | with depth 510 and the target at (10, 10), the risks at (0, 0), (1, 0), (0, 1) and (1, 1) are 0, 1, 0 and 2 |
| Day22.NewFinder | src/days/day22.rs:109-117 | a new search has no time recorded, nothing queued and the bound at `u32::MAX` |
| Day22.MinTime | src/days/day22.rs:127-132 | a node's bound is its time plus the Manhattan distance to the target, plus 7 exactly when the tool is not the torch |
| Day22.AddNodeSpec | src/days/day22.rs:119-141 | `add_node` does nothing for the tool equal to the region type, lowers only the node it names and only to a smaller time, queues exactly that lowering, and never lets a forbidden tool into the records |
| Day22.AddNodeBelow | src/days/day22.rs:125-126 | no recorded time goes up, and the node offered ends at the offered time or less unless its tool is forbidden there |
| Day22.SwitchEquipThird | src/days/day22.rs:169-173 | from a tool allowed in the region, the change picks the third tool: neither the current one nor the forbidden one |
| Day22.AddAllSpec | src/days/day22.rs:161-174 | after a run of `add_node` calls, each node offered holds its offered time or less unless its tool is forbidden there |
| Day22.ExpandSpec | src/days/day22.rs:161-174 | expanding a node at time `t` leaves each neighbour with the same tool at `t + 1` or less and the same position with the third tool at `t + 7` or less |
| Day23.DistFacts | src/days/day23.rs:20-22 | the Manhattan distance between two bots is symmetric, zero from a bot to itself, and obeys the triangle inequality |
| Day23.ParseInput | src/days/day23.rs:29-48 | parsing succeeds exactly when there is a line and every line matches, keeping one bot per line in order; otherwise the error names the first line that does not match, or says no bots were found |
| Day23.Strongest | src/days/day23.rs:51 | the bot picked has the largest radius, and no later bot has as large a radius (the last of the strongest) |
| Day23.CountInRangeSet | src/days/day23.rs:52-54 | the count of bots in range equals the number of positions in the set of bots the strong bot reaches |
| Day23.NumInRangeOfStrongest | src/days/day23.rs:50-55 | between 1 and the number of bots: the strongest bot is in range of itself |
| Day23.MatrixSymmetric | src/days/day23.rs:60-67 | the intersection matrix is symmetric, and a bot intersects itself exactly when its radius is positive |
| Day23.Intersect | src/days/day23.rs:171-191 | the intersection exists exactly when every axis keeps its larger minimum below its smaller maximum, and then holds those bounds |
| Day23.IntersectPoints | src/days/day23.rs:171-191 | the intersection holds exactly the rotated points both boxes hold, and is missing only when no point lies in both |
| Day23.RotatedLength | src/days/day23.rs:194-198 | the Manhattan length of an offset is the largest absolute value of its four rotated coordinates |
| Day23.BotToBoxRange | src/days/day23.rs:194-210 | a point is in range of a bot exactly when its rotated point lies in the bot's half-open box |
| Day23.IntersectsBoxes | src/days/day23.rs:63 | two bots the matrix marks have boxes that overlap on every axis |
| Day23.EndDistNearest | src/days/day23.rs:106-112 | for `min <= max`, the helper `dist` is the smallest absolute value in the closed interval from `min` to `max` |
| Day23.BoxDist | src/days/day23.rs:113-119 | the value recorded is the largest of the four per-axis `dist` values |
| Day23.FoldBoxSome | src/days/day23.rs:100-105 | when every two marked bots intersect, meeting `Box4d::all` with each marked bot's box never yields an empty axis, so the `unwrap` holds |
| Day23.AddToSet | src/days/day23.rs:69-123 | from a marking whose bots below `start` intersect every later marked bot, the best size never shrinks, and what is recorded is the size and box measure of a group of pairwise-intersecting bots |
| Day23.IntersectBots | src/days/day23.rs:59-143 | the answer is `i32::MAX` or the box measure of some group of pairwise-intersecting bots, and no `unwrap` of the search fails |
| Day23.Solve | src/days/day23.rs:6-10 | the parse errors pass through; otherwise the answers are the count in range of the strongest bot and the search's measure |
| Day24.Damage | src/days/day24.rs:227-235 | the damage is at most twice the effective power, positive exactly when the defender is not immune and the attacker has effective power, zero to an immune defender, and otherwise the effective power or its double |
| Day24.ImmunityFirst | src/days/day24.rs:227-235 | a defender both weak and immune to the attack's type takes no damage: immunity is tested first |
| Day24.ExampleAttack | src/days/day24.rs:250-254 | in the example, the infection's first group deals 185832 damage to the immune system's first group, which is weak to bludgeoning, and leaves it no units |
| Day24.Attack | src/days/day24.rs:237-243 | only the defender's unit count changes, never upward; no damage changes nothing; the defender is wiped out exactly when the kills reach its units, and otherwise it loses exactly the whole units the damage covers |
| Day24.Boost | src/days/day24.rs:112-116 | every immune-system group's attack grows by the boost, nothing else of it changes, and the infection is untouched |
| Day24.BoostAdds | src/days/day24.rs:112-116 | two boosts in a row are one boost of their sum, and a zero boost changes nothing |
| Day24.Ranked | src/days/day24.rs:177-187 | the sorted indices are a permutation of the input indices in descending key order |
| Day24.ChoosingOrder | src/days/day24.rs:177-187 | the attackers choose in an order that holds each once, by descending effective power and then descending initiative |
| Day24.Choose | src/days/day24.rs:192-221 | no target exactly when no remaining defender would take damage; otherwise a remaining defender that takes damage and has the greatest key of damage, effective power, then initiative |
| Day24.SelectTargets | src/days/day24.rs:189-221 | starting from a valid partial choice and a pool of unchosen defenders, every chosen target takes damage from its attacker and no defender is chosen twice |
| Day24.TargetSelection | src/days/day24.rs:176-224 | one entry per attacker; each chosen target takes damage from its attacker, and no two attackers share a target |
| Day24.AttackOrder | src/days/day24.rs:132-141 | every group of both sides attacks exactly once, in descending initiative |
| Day24.Attacks | src/days/day24.rs:143-155 | the attacks only remove units: every group keeps its position and all its other fields, with no more units than before |
| Day24.Living | src/days/day24.rs:157-158 | the kept groups are exactly those with units left, all of them with units, and the unit total is unchanged |
| Day24.FightRound | src/days/day24.rs:128-158 | a round keeps every hit point positive, never raises the unit total, never adds a group, and leaves only groups with units |
| Day24.Battle | src/days/day24.rs:118-126 | the battle ends in a valid state with no more units than it started with |
| Day24.BattleRuns | src/days/day24.rs:118-126 | the battle's result is the state after some number of rounds: before each round the battle was on, every round but the last killed units, and after the last one side is empty or that round killed none |
| Day24.FightBattleRuns | src/days/day24.rs:118-126 | `fight_battle` is that loop run with `fight_round` |
| Day24.FindBoost | src/days/day24.rs:11-24 | a boost found passes the test and is 1 or follows a failing boost; none is found only when a boost of at least 2^31 fails, where the doubling would overflow the `u32` |
| Day24.SmallestBoost | src/days/day24.rs:11-35 | the boost found is the smallest positive one with which the immune system wins, in the sense that its predecessor loses |
| Day24.Items | src/days/day24.rs:79 | a clause's items are exactly its comma-separated pieces, trimmed |
| Day24.AttrItems | src/days/day24.rs:75-86 | an item is a weakness (or immunity) exactly when some `weak` (or `immune`) clause lists it |
| Day24.BuildGroup | src/days/day24.rs:87-95 | the group takes its numbers from the captures and its weaknesses and immunities from the clauses |
| Day24.Parse | src/days/day24.rs:61-110 | parsing succeeds exactly when every line is a header, a group or empty, and then each side holds the groups listed under its last header in order; otherwise the error names the first other line |
| Day24.Answer | src/days/day24.rs:5-27 | the first answer is the units left after the unboosted battle; the second, when present, is the units left after the battle with the smallest winning boost |
| Day24.Solve | src/days/day24.rs:4-28 | the parse error passes through exactly when some line is not a header, a group or empty; otherwise the answers are those of the parsed armies |
| Day25.DistFacts | src/days/day25.rs:48-53 | the Manhattan distance between 4-d points is symmetric, zero exactly between equal points, and obeys the triangle inequality |
| Day25.Component | src/days/day25.rs:60-79 | a component reads exactly when its piece exists and reads as an integer, giving that integer; a missing piece gives "x component missing" (or y, z, w) and an unreadable one the integer parser's message |
| Day25.FromPieces | src/days/day25.rs:58-84 | a point reads exactly when there are four pieces and each reads as an integer |
| Day25.FromPiecesValue | src/days/day25.rs:58-84 | the point read holds the four pieces' integers in order |
| Day25.FromPiecesError | src/days/day25.rs:58-84 | a failure is the error of the first missing or unreadable component, or "more than 4 components in vec4" when all four read and a fifth piece follows |
| Day25.ParseVector | src/days/day25.rs:56-85 | a line reads as a point exactly when its comma-separated pieces are four `i32`s after trimming |
| Day25.ParseShowVector | src/days/day25.rs:56-85 | printing a point with `i32` components as four comma-separated numbers and reading it back gives the point |
| Day25.Groups | src/days/day25.rs:15-22 | the indices collected are increasing, and an index is collected exactly when its constellation has a point within distance 3 of the new point |
| Day25.Merge | src/days/day25.rs:24-29 | the merge removes exactly one constellation per index after the first |
| Day25.MergeComponents | src/days/day25.rs:24-29 | merging every constellation linked to the target into it, from the last index down, leaves connected constellations that are pairwise apart |
| Day25.MergeContent | src/days/day25.rs:24-29 | the merge loses and adds no point |
| Day25.NewConstellation | src/days/day25.rs:30-32 | a point near no constellation, pushed as a constellation of its own, keeps them the connected components |
| Day25.JoinReady | src/days/day25.rs:15-29 | after the point joins the first constellation it is near, every other constellation it is near is linked to that one and all the rest are apart from it |
| Day25.AddPointComponents | src/days/day25.rs:13-34 | one iteration of the loop keeps the constellations the connected components of the points seen, under distance at most 3 |
| Day25.AddPointContent | src/days/day25.rs:13-34 | one iteration adds exactly the new point to the points the constellations hold |
| Day25.ConstellationsCorrect | src/days/day25.rs:9-37 | after all the points, the constellations hold exactly those points, each non-empty and connected, and no two have points within distance 3 |
| Day25.CountPoints | src/days/day25.rs:9-37 | the constellations hold as many points as were read, and there are no more constellations than points |
| Day25.ParsePoints | src/days/day25.rs:13-14 | the lines read exactly when each line parses, giving one point per line in order |
| Day25.ParsePointsError | src/days/day25.rs:13-14 | a failure is the error of the first line that does not parse |
| Day25.ReadConstellations | src/days/day25.rs:9-37 | the loop fails with the first line's parse error exactly when some line does not parse, and otherwise returns the constellations of the points read |
| Day25.Solve | src/days/day25.rs:4-7 | the parse error passes through; otherwise the answer is the number of some set of constellations that are the connected components of all the points read, and no larger than the number of lines |

## Left out

- Reading the puzzle input, the `run` glue that formats answers, and the full-size constants
  that `run` passes (grid sizes, iteration counts) are not modelled.
- Regular-expression matching of input lines is a parameter, as described above.
- Array2d.IterXYOrder: requires a positive width (or zero height). With width 0 and a
  positive height the source's cursor never ends; see Findings.
- Day02.FindClose: requires all ids to have one length. The source asserts equal lengths only
  for the pairs it compares.
- Day02: the `run` loop that counts ids is modelled by `Checksum`; the error for missing close
  ids is `FindClose` returning None.
- Day03: claims are already parsed; `usize`/`u32` overflow of x + width is not modelled.
- Day04.FindMostSleepyGuard and Day04.FindMostLikelyAsleep: `HashMap` iteration order is a
  parameter; the results are stated for every order.
- Day04.Step: its error texts are fixed strings without the offending record's text, and the
  falling-asleep-twice text drops the source's "??"; the records reach the model already
  classified, so their text is not at hand.
- Day04: `run` sorts the raw lines before parsing; the model takes records that are already
  in order. The worked example is stated on the parsed spans, not on the raw lines.
- Day05: the worked examples ("dabAcCaCBAcCcaDA" reduces to 10 units) are not proved. Their
  evaluation on literal sequences exceeds the solver budget.
- Day06.FindInsideSpan: requires a non-empty seed range. Every call in the source passes one.
- Day06.FillGrid: the flood loop has no bound in the source and takes fuel here. Inputs with
  2^32 - 1 or more points, whose `u32` ids would reach the tie marker, are excluded.
- Day06.TrySet: a strictly nearer claim on a cell held by another point also produces the tie
  marker, as written. The flood never makes such a claim, because distances only grow from
  round to round.
- Day06: the worked example (largest area 17, safe area 16) is not proved.
- Day07: step sets are `set`s of letters rather than `u32` bitmasks, bit s standing for
  membership of letter s. `simulate` has no bound on its loop and takes fuel.
- Day08.SumMetadataIsTotal and Day08.ValueCounts: sums are unbounded; the `u32` overflow
  panic of `Iterator::sum` on huge trees is not modelled.
- Day09: the larger tests (10 players and 1618 marbles giving 8317, and the rest) are not
  evaluated; their game is too long to unfold in the verifier. Scores do not wrap.
- Day10: positions are unbounded integers, so `i32` overflow in `at_time` and `usize` overflow
  in `area` are not modelled. The search loop has no bound in the source and takes fuel.
- Day11: the answer tests for serials 18 and 42 are not evaluated; each scans 300 grids of up
  to 90,000 cells. Integers are unbounded, so `u32` overflow in `power_level` is not
  modelled. The flat `Vec<i32>` buffer indexed by `xo + y * buffer_width` is a sequence of
  rows here.
- Day12.FlowerSum: requires at least one generation. With 0 the source's `generations - generation`
  underflows once a pattern recurs. Sums are unbounded, so `isize` overflow is not modelled,
  and the 50,000,000,000-generation answer is not evaluated. The two line patterns are
  written out as character checks.
- Day13.FirstCrash, Day13.LastAlive: the endless loops take a `fuel` bound and answer
  `OutOfFuel` when it runs out. A panic is the `Panic` answer instead: stepping off the top or
  left edge (`usize` underflow) or indexing past the map. `u8` and `usize` are `nat`. No lemma covers whole `last_alive` runs; its
  pieces `TickAll`, `Retain` and `Clear` carry the contracts.
- Day14.NumRecipesBefore: the search loop, which never ends when the digits never occur, tries
  the first `fuel` start indices and answers `None` after that. `c as u8 - 48` takes the low
  byte of the character; a character whose low byte is below 48 is excluded by a precondition,
  as it panics. The expected outputs of the unit test are not evaluated; stepping concrete
  boards by proof is too costly for the verifier.
- Day15: the `u8` distance labels are `nat`, so their wrap after 255 steps is not modelled; hit
  points are `nat` bounded by `WellFormed`. The scratch grids `targets`, `distances` and
  `moved` are fresh values where the source refills its fields. Maps whose first line is empty
  are excluded, since every scan of a zero-width map spins forever. The test outcomes 27730
  and 36334 are not evaluated; a whole combat is too long to unfold in the verifier.
- Day15.Run: `Simulation::run` loops until the combat is over, which never happens when the
  two sides cannot reach each other; the model takes a `fuel` bound on the rounds.
- Day15.Solve: states the outcome as that of some finished map with the loaded map's walls,
  not a closed form of the whole combat.
- Day16: line classification by the two regular expressions is a parameter (`Line`), so the
  panic on an opcode number above 255 is not modelled; samples and program opcodes must be
  below 16, where the source panics on an out-of-range index. The `u16` masks are sets of
  operation numbers and `u32` registers are `nat`, so register overflow in `addr`/`mulr`
  (a panic in debug builds) is not modelled.
- Day16.CreateOpcodeMap: an error is stated only as the absence of success; the model does not
  say which inputs the elimination fails on.
- Day17: the regular expression matching is a parameter (`Capture`), and a vein starting at
  column 0, where `start - 1` underflows, is excluded. `walk` stepping left of column 0 would
  underflow in the source; the model's `int` columns read sand there, and a parsed map's spare
  column keeps water from getting there, which the model does not prove. The test total of 57
  is not evaluated; pouring the whole example is too long to unfold in the verifier.
- Day17.Spread: states that settled water is walled in by clay, and that a walk ends unblocked
  only over water that runs down (`Day17.Walk`), but not the converse on the final map, since
  later fills lower down may relabel the cell under a walk's end.
- Day18: the field hash (`DefaultHasher`) is a parameter; a collision, which would make the
  early return wrong, is outside the stated promise, so `Day18.ResourceValueAfter` states its
  exact answer only for a hash that tells fields apart. `step` visits acres in rows, the
  order the corrected iteration in `Array2d.IterGuardedOrder` gives, so a zero-width field does
  not loop. The test value 1147 after ten minutes is not evaluated; ten steps of a 10 by 10
  field are too long to unfold in the verifier.
- Day19: registers and `native`'s `u32` values are unbounded integers; an overflow, which would
  panic in a debug build, is not modelled. The regular expression's `\d` is taken as an ASCII
  digit, and an operand too large for `usize` (where `unwrap` panics) is read as its value.
- Day19.ParseLineAsWritten: a `#ip` number that does not parse gives one fixed error text, not
  the integer parser's three different ones.
- Day19.Parse, Day19.Solve: are built on the corrected `Day19.ParseLine`, so a `#ip` register
  of six or more is a parse error; the source accepts it and panics at the machine's first
  step (see "## Findings").
- Day19.Solve: the puzzle program is input data, so whether it halts and whether its register 0
  matches `native(0)` are preconditions (`fuel` bounds the steps), and the two divisor sums are
  not evaluated to numbers.
- Day20: positions are unbounded integers, so `isize` overflow is not modelled; the position
  sets of `walk` are sets, and `BTreeSet`'s iteration order is left open (`Enumerate` and the
  search pick cells in any order), which none of the results depends on. The callback `f` of
  `walk_path` becomes the set of moves it is called with, and `pathfind`'s callback the
  sequence of distances it receives. A map drawn by `create_map` keeps the search off
  negative coordinates, where `y - 1` would underflow; other maps are outside `Pathfind`'s
  precondition. The test values 10 and 18 are not evaluated; the expressions are too long to
  walk in the verifier. `print_map` is debugging output.
- Day20.Solve: states the answers through the drawn map, not through the rooms' own door graph
  without the map in between.
- Day21: `usize` is wide enough that none of the masked values wraps, so integers are
  unbounded. The check `native_opt(native(1234)) == 1234` is not evaluated; it needs the
  first 1234 hashes to be different, which only running the rounds settles. The masks are
  remainders in the loops (`Masks`, `OrSeed`), with the bitwise forms related to them by
  lemmas.
- Day21.NativeOpt: requires a value some round produces. The source loops forever on any other.
- Day22: `find_path`'s queue (sorting, splicing, the read index and the stopping test) is not
  modelled; its expansion step is `Expand`. `DynArray2d` is not part of this model; the times
  of the search are a map whose missing entries hold `u32::MAX`. The search reads region types
  through a function argument, which for the cave is `Risk`; `CachedCorrect` shows the cache
  returns the same values. `u32` sums (`index + depth`, times, the area total) are unbounded;
  the `as u32` casts are written out. The area test value 114 and the path test value 45 are
  not evaluated; unfolding 121 recursive levels is too costly for the verifier.
- Day23: a parsed line carries its text, for the error message, next to the matched bot.
  Coordinates are unbounded; `Solve` and `IntersectBots` require every bot's box to lie in
  the `i32` range, where `bot_to_box` and `Box4d::all` compute without overflow, and the
  `r as i32` cast is then exact. The matrix is `Intersects` applied to the bots rather than a
  stored `Array2d`. Balls that exactly touch (distance equal to the sum of the radii) are not
  marked as intersecting, as written.
- Day23.IntersectBots: states that the answer measures a group of pairwise-intersecting bots,
  not that the group is a largest one; the branch-and-bound pruning's completeness is not
  proved.
- Day23.AddToSet: states what is recorded (a pairwise-intersecting group and its measure) and
  that the best size never shrinks, not that the pruning misses no larger group.
- Day24: the `u32` effective powers, damages and unit totals are unbounded; hit points must
  be positive, as the division in `attack` needs. `sort_unstable_by` leaves the order of equal
  keys open; the model takes the first greatest key, so among fully tied defenders or equal
  initiatives the choice is the model's. The test's final value 5216 is not evaluated;
  unfolding whole battles is too costly for the verifier.
- Day24.FindBoost: returns None where the doubling `max_boost *= 2` would overflow the `u32`
  and the source would panic, rather than modelling the panic.
- Day24.SmallestBoost: states that the boost found wins and its predecessor loses, not that
  no smaller boost wins; winning need not be monotone in the boost, and the search only
  bisects.
- Day25: the `i32` subtractions and the `u32` sum in `dist` are unbounded, so the model has no
  overflow where coordinates far apart would overflow in the source. The tests' counts 2, 4, 3
  and 8 are not evaluated. The lines are those `AocData::lines` yields; reading them is not
  part of this model. The reader of a component and the parser of a line are parameters of
  `Component`, `FromPieces`, `ParsePoints` and `ReadConstellations`; `ParseVector` and `Solve`
  pass the `str::trim` plus `i32` parser and `Vector4::from_str`. The integer parser's
  messages follow the standard library's `from_str_radix` for base 10.

## Findings

| source | as written | input that shows it | evidently intended | confidence | as-written member | corrected member |
|---|---|---|---|---|---|---|
| src/array2d.rs:155-170 | `IterXY::next` tests `x == w` only after incrementing, so with width 0 the cursor never wraps to the next row | an `Array2d` of width 0 and height 1 (for example day 18's map built from one empty line): `iter_xy` yields (0, 0), (1, 0), (2, 0), … forever | an empty iteration for a grid with no cells | not executed | Array2d.IterZeroWidthNeverEnds | Array2d.IterGuardedOrder |
| src/days/day19.rs:83-84 | `Machine::parse` reads the `#ip` register with no range check, while every register operand of an instruction must be below 6 | the line `#ip 6`: parsing succeeds, and the first `step` indexes `reg[6]` and panics | `#ip` rejected like any other register, with "Register out of range: 6" | not executed | Day19.IpOutOfRangeAccepted | Day19.IpOutOfRangeRejected |

=== FILE: array2d.dfy ===
/**
 * The dense row-major grid shared by the map-based solvers.
 *
 * The source keeps one vector in which cell (x, y) lives at offset x + y * width. The model
 * keeps the same cells as a sequence of `height` rows of `width` cells each; `Data` flattens
 * them back and `DataLayout` proves that the flattened vector puts cell (x, y) at exactly that
 * offset, so the two layouts agree cell for cell.
 *
 * The safe accessors treat every coordinate outside [0, width) x [0, height) as out of range;
 * coordinates are `int`, so a `usize` that wrapped below zero is represented by a negative
 * value, which is out of range just as the wrapped value is.
 */
module Array2d {
  import opened Common
  import Text

  datatype Grid<T> = Grid(rows: seq<seq<T>>, width: nat, height: nat) {
    /** The shape invariant every grid keeps. */
    predicate Valid()
    {
      |rows| == height && forall y :: 0 <= y < |rows| ==> |rows[y]| == width
    }
  }

  predicate InBounds<T>(g: Grid<T>, x: int, y: int)
  {
    0 <= x < g.width && 0 <= y < g.height
  }

  /** The stored value at an in-bounds coordinate. */
  function Cell<T>(g: Grid<T>, x: int, y: int): T
    requires g.Valid() && InBounds(g, x, y)
  {
    g.rows[y][x]
  }

  /** Concatenation of the rows, first row first. */
  function Flatten<T>(rows: seq<seq<T>>): seq<T>
  {
    if |rows| == 0 then [] else Flatten(rows[..|rows| - 1]) + rows[|rows| - 1]
  }

  /** The source's backing vector. */
  function Data<T>(g: Grid<T>): seq<T>
  {
    Flatten(g.rows)
  }

  /** Row-major storage offset of (x, y) in a grid of the given width. */
  function Offset(width: nat, x: nat, y: nat): nat
  {
    x + y * width
  }

  /** The flattened rows hold `width * height` cells with (x, y) at offset x + y * width. */
  lemma {:induction false} DataLayout<T>(g: Grid<T>)
    requires g.Valid()
    ensures |Data(g)| == g.width * g.height
    ensures forall x, y :: InBounds(g, x, y) ==>
              Offset(g.width, x, y) < |Data(g)| && Data(g)[Offset(g.width, x, y)] == Cell(g, x, y)
    decreases g.height
  {
    if g.height > 0 {
      var h := g.height - 1;
      var front := Grid(g.rows[..h], g.width, h);
      DataLayout(front);
      assert Data(g) == Data(front) + g.rows[h];
      assert |Data(g)| == g.width * h + g.width == g.width * g.height;
      forall x, y | InBounds(g, x, y)
        ensures Offset(g.width, x, y) < |Data(g)| && Data(g)[Offset(g.width, x, y)] == Cell(g, x, y)
      {
        if y < h {
          assert InBounds(front, x, y);
          OffsetBelow(g.width, x, y, h);
        } else {
          assert Offset(g.width, x, y) == g.width * h + x;
        }
      }
    }
  }

  lemma OffsetBelow(width: nat, x: nat, y: nat, h: nat)
    requires x < width && y < h
    ensures Offset(width, x, y) < width * h
  {
    assert y * width + width <= h * width by {
      assert (y + 1) * width <= h * width;
    }
  }

  /** The grid whose cell (x, y) is f(x, y). */
  function Generate<T>(width: nat, height: nat, f: (nat, nat) -> T): (g: Grid<T>)
    ensures g.Valid() && g.width == width && g.height == height
    ensures forall x, y :: InBounds(g, x, y) ==> Cell(g, x, y) == f(x, y)
  {
    Grid(seq(height, y requires 0 <= y => seq(width, x requires 0 <= x => f(x, y))), width, height)
  }

  /** `Array2d::new_with`: calls f once per cell, y outer and x inner, pushing each result. */
  method NewWith<T>(width: nat, height: nat, f: (nat, nat) -> T) returns (g: Grid<T>, data: seq<T>)
    ensures g == Generate(width, height, f)
    ensures data == Data(g)
  {
    var rows: seq<seq<T>> := [];
    data := [];
    for y := 0 to height
      invariant rows == Generate(width, y, f).rows
      invariant data == Flatten(rows)
    {
      var row: seq<T> := [];
      for x := 0 to width
        invariant row == seq(x, i requires 0 <= i => f(i, y))
        invariant data == Flatten(rows) + row
      {
        row := row + [f(x, y)];
        data := data + [f(x, y)];
      }
      assert rows + [row] == Generate(width, y + 1, f).rows;
      assert (rows + [row])[..y] == rows;
      rows := rows + [row];
      assert Flatten(rows) == Flatten(rows[..y]) + row;
    }
    g := Grid(rows, width, height);
  }

  /** `Array2d::new_value`: every cell holds v. */
  method NewValue<T>(width: nat, height: nat, v: T) returns (g: Grid<T>)
    ensures g.Valid() && g.width == width && g.height == height
    ensures forall x, y :: InBounds(g, x, y) ==> Cell(g, x, y) == v
  {
    var data;
    g, data := NewWith(width, height, (_, _) => v);
  }

  /**
   * `Array2d::new`: `new_value` with the element type's default, which the caller names
   * since Dafny types carry no `Default`.
   */
  method New<T>(width: nat, height: nat, default: T) returns (g: Grid<T>)
    ensures g.Valid() && g.width == width && g.height == height
    ensures forall x, y :: InBounds(g, x, y) ==> Cell(g, x, y) == default
  {
    g := NewValue(width, height, default);
  }

  /** `Array2d::get`: the stored cell in bounds, the element type's default value elsewhere. */
  function Get<T>(g: Grid<T>, x: int, y: int, default: T): (r: T)
    requires g.Valid()
    ensures InBounds(g, x, y) ==> Offset(g.width, x, y) < |Data(g)| && r == Data(g)[Offset(g.width, x, y)]
    ensures !InBounds(g, x, y) ==> r == default
  {
    DataLayout(g);
    if InBounds(g, x, y) then Cell(g, x, y) else default
  }

  /** `Array2d::get_opt`: the same cell as `get`, or nothing out of bounds. */
  function GetOpt<T>(g: Grid<T>, x: int, y: int): (r: Option<T>)
    requires g.Valid()
    ensures r.Some? <==> InBounds(g, x, y)
    ensures r.Some? ==> Offset(g.width, x, y) < |Data(g)| && r.value == Data(g)[Offset(g.width, x, y)]
  {
    DataLayout(g);
    if InBounds(g, x, y) then Some(Cell(g, x, y)) else None
  }

  /** `get` and `get_opt` agree: `get` is `get_opt` with the default filled in. */
  lemma GetIsGetOpt<T>(g: Grid<T>, x: int, y: int, default: T)
    requires g.Valid()
    ensures Get(g, x, y, default) == (if GetOpt(g, x, y).Some? then GetOpt(g, x, y).value else default)
  {
  }

  /** `Array2d::put`: overwrites one in-bounds cell; out of bounds it is a no-op. */
  function Put<T>(g: Grid<T>, x: int, y: int, v: T): (r: Grid<T>)
    requires g.Valid()
    ensures r.Valid() && r.width == g.width && r.height == g.height
    ensures InBounds(g, x, y) ==> Cell(r, x, y) == v
    ensures forall x', y' :: InBounds(g, x', y') && (x', y') != (x, y) ==> Cell(r, x', y') == Cell(g, x', y')
    ensures !InBounds(g, x, y) ==> r == g
  {
    if InBounds(g, x, y) then Grid(g.rows[y := g.rows[y][x := v]], g.width, g.height) else g
  }

  /** Reading back a written cell gives the written value, and every other read is unchanged. */
  lemma PutGet<T>(g: Grid<T>, x: int, y: int, v: T, x': int, y': int, default: T)
    requires g.Valid()
    ensures Get(Put(g, x, y, v), x', y', default) ==
            if InBounds(g, x, y) && (x', y') == (x, y) then v else Get(g, x', y', default)
  {
  }

  /** `Index for Array2d`: the stored cell; any other coordinate panics. */
  function At<T>(g: Grid<T>, x: int, y: int): (r: T)
    requires g.Valid() && InBounds(g, x, y)
    ensures GetOpt(g, x, y) == Some(r)
  {
    g.rows[y][x]
  }

  /** `IndexMut for Array2d` used as an assignment target; any other coordinate panics. */
  function SetAt<T>(g: Grid<T>, x: int, y: int, v: T): (r: Grid<T>)
    requires g.Valid() && InBounds(g, x, y)
    ensures r == Put(g, x, y, v)
    ensures At(r, x, y) == v
  {
    Grid(g.rows[y := g.rows[y][x := v]], g.width, g.height)
  }

  /** Two valid grids of equal dimensions that agree on every cell are equal. */
  lemma GridExtensional<T>(a: Grid<T>, b: Grid<T>)
    requires a.Valid() && b.Valid() && a.width == b.width && a.height == b.height
    requires forall x, y :: InBounds(a, x, y) ==> Cell(a, x, y) == Cell(b, x, y)
    ensures a == b
  {
    forall y | 0 <= y < a.height
      ensures a.rows[y] == b.rows[y]
    {
      forall x | 0 <= x < a.width
        ensures a.rows[y][x] == b.rows[y][x]
      {
        assert Cell(a, x, y) == Cell(b, x, y);
      }
    }
  }

  /** `Array2d::fill`: every stored cell, in storage order, is overwritten with v; the dimensions stay. */
  method Fill<T>(g: Grid<T>, v: T) returns (r: Grid<T>)
    requires g.Valid()
    ensures r == Generate(g.width, g.height, (_, _) => v)
  {
    r := g;
    for y := 0 to g.height
      invariant r.Valid() && r.width == g.width && r.height == g.height
      invariant forall x', y' :: 0 <= x' < g.width && 0 <= y' < y ==> Cell(r, x', y') == v
    {
      for x := 0 to g.width
        invariant r.Valid() && r.width == g.width && r.height == g.height
        invariant forall x', y' :: 0 <= x' < g.width && 0 <= y' < y ==> Cell(r, x', y') == v
        invariant forall x' :: 0 <= x' < x ==> Cell(r, x', y) == v
      {
        r := Put(r, x, y, v);
      }
    }
    GridExtensional(r, Generate(g.width, g.height, (_, _) => v));
  }

  /** `Array2d::fill_with`: cell (x, y) is overwritten with f(x, y), row by row. */
  method FillWith<T>(g: Grid<T>, f: (nat, nat) -> T) returns (r: Grid<T>)
    requires g.Valid()
    ensures r == Generate(g.width, g.height, f)
  {
    r := g;
    for y := 0 to g.height
      invariant r.Valid() && r.width == g.width && r.height == g.height
      invariant forall x', y' :: 0 <= x' < g.width && 0 <= y' < y ==> Cell(r, x', y') == f(x', y')
    {
      for x := 0 to g.width
        invariant r.Valid() && r.width == g.width && r.height == g.height
        invariant forall x', y' :: 0 <= x' < g.width && 0 <= y' < y ==> Cell(r, x', y') == f(x', y')
        invariant forall x' :: 0 <= x' < x ==> Cell(r, x', y) == f(x', y)
      {
        r := Put(r, x, y, f(x, y));
      }
    }
    GridExtensional(r, Generate(g.width, g.height, f));
  }

  /** Every coordinate of a width x height grid, in row-major order. */
  function Coords(width: nat, height: nat): seq<(nat, nat)>
  {
    Data(Generate(width, height, (x, y) => (x, y)))
  }

  /** `Coords` lists w * h coordinates, with (x, y) at position x + y * w. */
  lemma CoordsLayout(width: nat, height: nat)
    ensures |Coords(width, height)| == width * height
    ensures forall x: nat, y: nat :: x < width && y < height ==>
              Offset(width, x, y) < |Coords(width, height)| && Coords(width, height)[Offset(width, x, y)] == (x, y)
  {
    var g := Generate(width, height, (x, y) => (x, y));
    DataLayout(g);
    forall x: nat, y: nat | x < width && y < height
      ensures Offset(width, x, y) < |Coords(width, height)| && Coords(width, height)[Offset(width, x, y)] == (x, y)
    {
      assert InBounds(g, x, y);
    }
  }

  /** The hand-rolled coordinate cursor of `Array2d::iter_xy`. */
  datatype IterXY = IterXY(x: nat, y: nat, w: nat, h: nat)

  function IterStart<T>(g: Grid<T>): IterXY
  {
    IterXY(0, 0, g.width, g.height)
  }

  /** `IterXY::next` as written: advance the cursor, then report the old position while y < h. */
  function IterNext(it: IterXY): (Option<(nat, nat)>, IterXY)
  {
    var x := it.x + 1;
    var next := if x == it.w then IterXY(0, it.y + 1, it.w, it.h) else IterXY(x, it.y, it.w, it.h);
    (if it.y < it.h then Some((it.x, it.y)) else None, next)
  }

  /** The items of n successive `next` calls, and the cursor they leave behind. */
  function IterRun(it: IterXY, n: nat): (seq<Option<(nat, nat)>>, IterXY)
    decreases n
  {
    if n == 0 then ([], it)
    else
      var (item, next) := IterNext(it);
      var (rest, last) := IterRun(next, n - 1);
      ([item] + rest, last)
  }

  lemma {:induction false} IterRunAppend(it: IterXY, a: nat, b: nat)
    ensures IterRun(it, a + b).0 == IterRun(it, a).0 + IterRun(IterRun(it, a).1, b).0
    ensures IterRun(it, a + b).1 == IterRun(IterRun(it, a).1, b).1
    decreases a
  {
    if a > 0 {
      IterRunAppend(IterNext(it).1, a - 1, b);
    }
  }

  /** From (x, y) in a row, the cursor yields the rest of that row and lands at the next row's start. */
  lemma {:induction false} IterRowRest(x: nat, y: nat, w: nat, h: nat)
    requires x < w && y < h
    ensures IterRun(IterXY(x, y, w, h), w - x).0 == seq(w - x, i requires 0 <= i => Some((x + i, y)))
    ensures IterRun(IterXY(x, y, w, h), w - x).1 == IterXY(0, y + 1, w, h)
    decreases w - x
  {
    if x + 1 < w {
      IterRowRest(x + 1, y, w, h);
    }
  }

  /** Each coordinate wrapped as a yielded item. */
  function Somes(s: seq<(nat, nat)>): (r: seq<Option<(nat, nat)>>)
    ensures |r| == |s|
    ensures forall i :: 0 <= i < |s| ==> r[i] == Some(s[i])
  {
    seq(|s|, i requires 0 <= i < |s| => Some(s[i]))
  }

  lemma {:induction false} IterRows(w: nat, h: nat, n: nat)
    requires w > 0 && n <= h
    ensures IterRun(IterXY(0, 0, w, h), n * w).0 == Somes(Coords(w, n))
    ensures IterRun(IterXY(0, 0, w, h), n * w).1 == IterXY(0, n, w, h)
  {
    if n > 0 {
      IterRows(w, h, n - 1);
      assert n * w == (n - 1) * w + w;
      IterRunAppend(IterXY(0, 0, w, h), (n - 1) * w, w);
      IterRowRest(0, n - 1, w, h);
      CoordsRow(w, n);
    }
  }

  /** The coordinates of n rows are those of the first n - 1 rows, then row n - 1, which
      wrapped as items is what the cursor yields along that row. */
  lemma CoordsRow(w: nat, n: nat)
    requires n > 0
    ensures Coords(w, n) == Coords(w, n - 1) + seq(w, x requires 0 <= x => (x, n - 1))
    ensures Somes(Coords(w, n)) == Somes(Coords(w, n - 1)) + seq(w - 0, i requires 0 <= i => Some((0 + i, n - 1)))
  {
    var rows := Generate(w, n, (x, y) => (x, y)).rows;
    assert rows[..n - 1] == Generate(w, n - 1, (x, y) => (x, y)).rows;
    assert rows[n - 1] == seq(w, x requires 0 <= x => (x, n - 1));
    assert Coords(w, n) == Coords(w, n - 1) + seq(w, x requires 0 <= x => (x, n - 1));
  }

  /**
   * With a positive width (or no rows at all), `iter_xy` yields exactly the coordinates in
   * row-major order and then reports the end.
   */
  lemma IterXYOrder<T>(g: Grid<T>)
    requires g.width > 0 || g.height == 0
    ensures IterRun(IterStart(g), g.width * g.height).0 == Somes(Coords(g.width, g.height))
    ensures IterNext(IterRun(IterStart(g), g.width * g.height).1).0 == None
  {
    if g.width > 0 {
      IterRows(g.width, g.height, g.height);
      assert g.height * g.width == g.width * g.height;
    } else {
      CoordsLayout(g.width, g.height);
    }
  }

  /** With zero width and at least one row the cursor never reports the end. */
  lemma {:induction false} IterZeroWidthNeverEnds(h: nat, n: nat)
    requires h > 0
    ensures IterRun(IterXY(0, 0, 0, h), n).1 == IterXY(n, 0, 0, h)
    ensures IterNext(IterRun(IterXY(0, 0, 0, h), n).1).0 == Some((n, 0))
  {
    if n > 0 {
      IterZeroWidthNeverEnds(h, n - 1);
      IterRunAppend(IterXY(0, 0, 0, h), n - 1, 1);
    }
  }

  /** The cursor with the evidently intended end test: a zero-width grid has no coordinates. */
  function IterNextGuarded(it: IterXY): (Option<(nat, nat)>, IterXY)
  {
    if it.x < it.w then IterNext(it) else (None, it)
  }

  function IterRunGuarded(it: IterXY, n: nat): (seq<Option<(nat, nat)>>, IterXY)
    decreases n
  {
    if n == 0 then ([], it)
    else
      var (item, next) := IterNextGuarded(it);
      var (rest, last) := IterRunGuarded(next, n - 1);
      ([item] + rest, last)
  }

  /** While the width is positive and x is inside the row, the guard never fires. */
  lemma {:induction false} GuardedAgrees(it: IterXY, n: nat)
    requires it.x < it.w
    ensures IterRunGuarded(it, n) == IterRun(it, n)
    decreases n
  {
    if n > 0 {
      GuardedAgrees(IterNext(it).1, n - 1);
    }
  }

  /** The guarded cursor yields exactly the row-major coordinates and then ends, for every size. */
  lemma IterGuardedOrder(w: nat, h: nat)
    ensures IterRunGuarded(IterXY(0, 0, w, h), w * h).0 == Somes(Coords(w, h))
    ensures IterNextGuarded(IterRunGuarded(IterXY(0, 0, w, h), w * h).1).0 == None
  {
    if w > 0 {
      GuardedAgrees(IterXY(0, 0, w, h), w * h);
      IterRows(w, h, h);
      assert h * w == w * h;
    } else {
      CoordsLayout(w, h);
    }
  }

  /** One rendered row: `f` applied to each cell of row y, left to right. */
  function RowString<T>(g: Grid<T>, f: T -> char, y: nat): (s: string)
    requires g.Valid() && y < g.height
    ensures |s| == g.width
    ensures forall x :: 0 <= x < g.width ==> s[x] == f(Cell(g, x, y))
  {
    seq(g.width, x requires 0 <= x < g.width => f(Cell(g, x, y)))
  }

  /** Rows 0 .. n-1 as the loop of `to_string` emits them: a '\n' before every row but the first. */
  function RenderRows<T>(g: Grid<T>, f: T -> char, n: nat): string
    requires g.Valid() && n <= g.height
  {
    if n == 0 then "" else RenderRows(g, f, n - 1) + (if n > 1 then "\n" else "") + RowString(g, f, n - 1)
  }

  /** `Array2d::to_string`: the empty string for an empty grid, else one text line per row. */
  function Render<T>(g: Grid<T>, f: T -> char): string
    requires g.Valid()
  {
    if g.width == 0 && g.height == 0 then "" else RenderRows(g, f, g.height)
  }

  function RowStrings<T>(g: Grid<T>, f: T -> char, n: nat): seq<string>
    requires g.Valid() && n <= g.height
  {
    seq(n, y requires 0 <= y < n => RowString(g, f, y))
  }

  lemma {:induction false} RenderRowsJoin<T>(g: Grid<T>, f: T -> char, n: nat)
    requires g.Valid() && 1 <= n <= g.height
    ensures RenderRows(g, f, n) == Text.Join(RowStrings(g, f, n), '\n')
  {
    if n > 1 {
      RenderRowsJoin(g, f, n - 1);
      assert RowStrings(g, f, n)[..n - 1] == RowStrings(g, f, n - 1);
    }
  }

  /**
   * Rendering round trip: splitting the text at line breaks gives `height` lines of `width`
   * characters, character x of line y being f of cell (x, y) — provided `f` never yields '\n'.
   * A grid without rows renders as the empty string.
   */
  lemma RenderLines<T>(g: Grid<T>, f: T -> char)
    requires g.Valid()
    requires forall x, y :: InBounds(g, x, y) ==> f(Cell(g, x, y)) != '\n'
    ensures g.height == 0 ==> Render(g, f) == ""
    ensures g.height > 0 ==> |Text.Split(Render(g, f), '\n')| == g.height
    ensures g.height > 0 ==> forall y :: 0 <= y < g.height ==> |Text.Split(Render(g, f), '\n')[y]| == g.width
    ensures g.height > 0 ==> forall x, y :: InBounds(g, x, y) ==> Text.Split(Render(g, f), '\n')[y][x] == f(Cell(g, x, y))
  {
    if g.height > 0 {
      var rows := RowStrings(g, f, g.height);
      RenderRowsJoin(g, f, g.height);
      forall i | 0 <= i < |rows|
        ensures '\n' !in rows[i]
      {
        forall k | 0 <= k < |rows[i]|
          ensures rows[i][k] != '\n'
        {
          assert rows[i][k] == f(Cell(g, k, i));
        }
      }
      Text.SplitJoin(rows, '\n');
    }
  }
}

=== FILE: bits.dfy ===
/** Bitwise operations on unbounded naturals, defined digit by digit in base 2. */
module Bits {
  import opened Common

  function And(a: nat, b: nat): (r: nat)
    ensures r <= a && r <= b
  {
    if a == 0 || b == 0 then 0 else 2 * And(a / 2, b / 2) + (a % 2) * (b % 2)
  }

  function Or(a: nat, b: nat): (r: nat)
    ensures r >= a && r >= b
    ensures r <= a + b
  {
    if a == 0 then b
    else if b == 0 then a
    else 2 * Or(a / 2, b / 2) + (if a % 2 == 1 || b % 2 == 1 then 1 else 0)
  }

  function Xor(a: nat, b: nat): (r: nat)
    ensures r <= a + b
  {
    if a == 0 then b
    else if b == 0 then a
    else 2 * Xor(a / 2, b / 2) + (a % 2 + b % 2) % 2
  }

  function Pow2(n: nat): (r: nat)
    ensures r >= 1
  {
    if n == 0 then 1 else 2 * Pow2(n - 1)
  }

  /** Bit `i` of `a`: the lowest bit of `a >> i`. */
  predicate Bit(a: nat, i: nat)
  {
    if i == 0 then a % 2 == 1 else Bit(a / 2, i - 1)
  }

  /** Bit `i` is the remainder of `a / 2^i` modulo 2. */
  lemma {:induction false} BitIsDigit(a: nat, i: nat)
    ensures Bit(a, i) == ((a / Pow2(i)) % 2 == 1)
  {
    if i > 0 {
      BitIsDigit(a / 2, i - 1);
      DivDouble(a, Pow2(i - 1));
    }
  }

  /** A number below `2^i` has bit `i` clear. */
  lemma {:induction false} BitBelow(a: nat, i: nat)
    requires a < Pow2(i)
    ensures !Bit(a, i)
  {
    if i > 0 {
      BitBelow(a / 2, i - 1);
    }
  }

  /** `a & (1 << i) != 0` tests bit `i` of `a`. */
  lemma {:induction false} AndPow2(a: nat, i: nat)
    ensures (And(a, Pow2(i)) != 0) == Bit(a, i)
  {
    if a == 0 {
      BitBelow(a, i);
    } else if i > 0 {
      assert Pow2(i) / 2 == Pow2(i - 1) && Pow2(i) % 2 == 0;
      assert And(a, Pow2(i)) == 2 * And(a / 2, Pow2(i - 1));
      AndPow2(a / 2, i - 1);
    }
  }

  /** Bit `i` of `a | b` is set exactly when it is set in `a` or in `b`. */
  lemma {:induction false} BitOr(a: nat, b: nat, i: nat)
    ensures Bit(Or(a, b), i) == (Bit(a, i) || Bit(b, i))
  {
    if a == 0 {
      BitBelow(a, i);
    } else if b == 0 {
      BitBelow(b, i);
    } else if i > 0 {
      var o := Or(a, b);
      assert o / 2 == Or(a / 2, b / 2);
      BitOr(a / 2, b / 2, i - 1);
    }
  }

  /** `1 << j` has exactly bit `j` set. */
  lemma {:induction false} BitPow2(j: nat, i: nat)
    ensures Bit(Pow2(j), i) == (i == j)
  {
    if i > 0 {
      if j == 0 {
        BitBelow(0, i - 1);
      } else {
        assert Pow2(j) / 2 == Pow2(j - 1);
        BitPow2(j - 1, i - 1);
      }
    } else if j > 0 {
      assert Pow2(j) % 2 == 0;
    }
  }

  /** Setting a bit above every set bit of `a` is addition. */
  lemma {:induction false} OrHigh(a: nat, k: nat)
    requires a < Pow2(k)
    ensures Or(a, Pow2(k)) == a + Pow2(k)
  {
    if a > 0 {
      assert k > 0;
      assert Pow2(k) / 2 == Pow2(k - 1) && Pow2(k) % 2 == 0;
      OrHigh(a / 2, k - 1);
    }
  }

  /** `x & 3` keeps the two low bits: the remainder modulo 4. */
  lemma AndThree(x: nat)
    ensures And(x, 3) == x % 4
  {
    if x > 0 {
      var h := x / 2;
      assert And(h, 1) == h % 2;
      assert And(x, 3) == 2 * And(h, 1) + x % 2;
    }
  }

  /** XOR of two numbers below `2^k` stays below `2^k`. */
  lemma {:induction false} XorBelow(a: nat, b: nat, k: nat)
    requires a < Pow2(k) && b < Pow2(k)
    ensures Xor(a, b) < Pow2(k)
  {
    if a > 0 && b > 0 {
      XorBelow(a / 2, b / 2, k - 1);
    }
  }

  /** OR of two numbers below `2^k` stays below `2^k`. */
  lemma {:induction false} OrBelow(a: nat, b: nat, k: nat)
    requires a < Pow2(k) && b < Pow2(k)
    ensures Or(a, b) < Pow2(k)
  {
    if a > 0 && b > 0 {
      OrBelow(a / 2, b / 2, k - 1);
    }
  }
}

=== FILE: common.dfy ===
/** Failure-compatible wrappers and small numeric helpers shared by every solver model. */
module Common {

  /** An optional value; the model of Rust's `Option`. */
  datatype Option<+T> = None | Some(value: T) {
    predicate IsFailure() { None? }

    function PropagateFailure<U>(): Option<U>
      requires None?
    {
      None
    }

    function Extract(): T
      requires Some?
    {
      value
    }
  }

  /** The outcome of an operation that can fail with a message; `bail!` becomes `Err`. */
  datatype Result<+T> = Ok(value: T) | Err(msg: string) {
    predicate IsFailure() { Err? }

    function PropagateFailure<U>(): Result<U>
      requires Err?
    {
      Err(msg)
    }

    function Extract(): T
      requires Ok?
    {
      value
    }
  }

  function Abs(x: int): nat
  {
    if x < 0 then -x else x
  }

  function Min(a: int, b: int): int
  {
    if a <= b then a else b
  }

  function Max(a: int, b: int): int
  {
    if a >= b then a else b
  }

  /** Sum of a sequence of integers, folded from the left. */
  function Sum(s: seq<int>): int
  {
    if |s| == 0 then 0 else Sum(s[..|s| - 1]) + s[|s| - 1]
  }

  lemma SumAppend(a: seq<int>, b: seq<int>)
    ensures Sum(a + b) == Sum(a) + Sum(b)
  {
    if |b| == 0 {
      assert a + b == a;
    } else {
      assert (a + b)[..|a + b| - 1] == a + b[..|b| - 1];
      SumAppend(a, b[..|b| - 1]);
    }
  }

  lemma SumNonNegative(s: seq<int>)
    requires forall i :: 0 <= i < |s| ==> s[i] >= 0
    ensures Sum(s) >= 0
  {
    if |s| > 0 {
      SumNonNegative(s[..|s| - 1]);
    }
  }

  /** Sum of a sequence of naturals, folded from the left. */
  function SumNat(s: seq<nat>): nat
  {
    if |s| == 0 then 0 else SumNat(s[..|s| - 1]) + s[|s| - 1]
  }

  lemma SumNatAppend(a: seq<nat>, b: seq<nat>)
    ensures SumNat(a + b) == SumNat(a) + SumNat(b)
  {
    if |b| == 0 {
      assert a + b == a;
    } else {
      assert (a + b)[..|a + b| - 1] == a + b[..|b| - 1];
      SumNatAppend(a, b[..|b| - 1]);
    }
  }

  /** Number of positions of `s` holding `v`. */
  function CountOf<T(==)>(s: seq<T>, v: T): nat
  {
    if |s| == 0 then 0 else CountOf(s[..|s| - 1], v) + (if s[|s| - 1] == v then 1 else 0)
  }

  lemma CountOfIsMultiplicity<T>(s: seq<T>, v: T)
    ensures CountOf(s, v) == multiset(s)[v]
  {
    if |s| > 0 {
      CountOfIsMultiplicity(s[..|s| - 1], v);
      assert s == s[..|s| - 1] + [s[|s| - 1]];
    }
  }

  /** The positions of `s` holding `v`. */
  function Positions<T(==)>(s: seq<T>, v: T): set<nat>
  {
    set i: nat | i < |s| && s[i] == v
  }

  /** `CountOf` counts the set of positions holding `v`. */
  lemma {:induction false} CountOfIsPositions<T>(s: seq<T>, v: T)
    ensures CountOf(s, v) == |Positions(s, v)|
  {
    if |s| > 0 {
      var n := |s| - 1;
      CountOfIsPositions(s[..n], v);
      assert Positions(s, v) == Positions(s[..n], v) + (if s[n] == v then {n} else {});
    }
  }

  /** The integers 0 .. n-1 as a set. */
  function Range(n: nat): (r: set<nat>)
    ensures forall i: int :: i in r <==> 0 <= i < n
    ensures |r| == n
  {
    if n == 0 then {} else Range(n - 1) + {n - 1}
  }

  lemma SubsetSize<T>(a: set<T>, b: set<T>)
    requires a <= b
    ensures |a| <= |b|
    decreases b
  {
    if a != {} {
      var x :| x in a;
      SubsetSize(a - {x}, b - {x});
    }
  }

  lemma SubsetOfRangeSize(s: set<nat>, n: nat)
    requires forall i :: i in s ==> i < n
    ensures |s| <= n
  {
    SubsetSize(s, Range(n));
  }

  lemma ModShift(x: int, n: nat)
    requires n > 0
    ensures (x + n) % n == x % n
  {
    var q := x / n;
    var r := x % n;
    assert x + n == (q + 1) * n + r;
    ModUnique(x + n, n, q + 1, r);
  }

  /** Euclidean remainder is the unique `r` in `[0, n)` with `x = q * n + r`. */
  lemma ModUnique(x: int, n: int, q: int, r: int)
    requires n > 0 && 0 <= r < n && x == q * n + r
    ensures x % n == r && x / n == q
  {
    var q0 := x / n;
    var r0 := x % n;
    var d := q - q0;
    assert d * n == r0 - r;
    if d > 0 {
      MulAtLeast(d, n);
    } else if d < 0 {
      MulAtLeast(-d, n);
    }
  }

  /** Dividing by `2p` is halving, then dividing by `p`. */
  lemma DivDouble(a: nat, p: nat)
    requires p > 0
    ensures a / (2 * p) == (a / 2) / p
  {
    var q := (a / 2) / p;
    var r := (a / 2) % p;
    assert a / 2 == q * p + r;
    assert a == q * (2 * p) + (2 * r + a % 2);
    ModUnique(a, 2 * p, q, 2 * r + a % 2);
  }

  lemma MulAtLeast(d: int, n: int)
    requires d >= 1 && n > 0
    ensures d * n >= n
  {
  }

  /** A row-major offset `x + y * w` with `0 <= x < w` determines `x` and `y`. */
  lemma OffsetUnique(x1: int, y1: int, x2: int, y2: int, w: int)
    requires w > 0 && 0 <= x1 < w && 0 <= x2 < w
    requires x1 + y1 * w == x2 + y2 * w
    ensures x1 == x2 && y1 == y2
  {
    var d := y1 - y2;
    assert d * w == x2 - x1;
    if d > 0 {
      MulAtLeast(d, w);
    } else if d < 0 {
      MulAtLeast(-d, w);
    }
  }

  lemma MulSucc(c: int, v: int)
    ensures (c + 1) * v == c * v + v
  {
  }

  lemma MulSuccRight(c: int, v: int)
    ensures c * (v + 1) == c * v + c
  {
  }

  lemma MulNonNegative(a: nat, b: nat)
    ensures a * b >= 0
  {
  }

  lemma MulRotate(a: int, b: int, c: int)
    ensures (a * b) * c == (c * a) * b
  {
  }

  lemma DivExact(x: int, n: int)
    requires n > 0 && x % n == 0
    ensures (x / n) * n == x
  {
  }
}

=== FILE: day02.dfy ===
/** Box IDs: letter counts, the Hamming distance of equal-length IDs, and the first close pair. */
module Day02 {
  import opened Common

  /** `char_counts`: how often each character of s occurs; only occurring characters are keys. */
  function CharCounts(s: string): (m: map<char, nat>)
    ensures forall c :: c in m <==> c in s
    ensures forall c :: c in m ==> m[c] == multiset(s)[c]
  {
    if |s| == 0 then map[]
    else
      var front := CharCounts(s[..|s| - 1]);
      var c := s[|s| - 1];
      assert s == s[..|s| - 1] + [c];
      var r := front[c := if c in front then front[c] + 1 else 1];
      assert forall d :: d in s <==> d in s[..|s| - 1] || d == c;
      r
  }

  lemma CharCountsExample()
    ensures 'b' in CharCounts("abbcde") && CharCounts("abbcde")['b'] == 2
  {
    assert 'b' in "abbcde" by {
      assert "abbcde"[1] == 'b';
    }
    assert multiset("abbcde") == multiset{'a', 'b', 'b', 'c', 'd', 'e'};
  }

  /** The `run` tests on one ID: some character occurs exactly k times. */
  predicate HasCount(s: string, k: nat)
  {
    k in CharCounts(s).Values
  }

  /** `counts.values().any(|&c| c == k)` is the same as some character of s occurring exactly k times. */
  lemma HasCountMeaning(s: string, k: nat)
    requires k > 0
    ensures HasCount(s, k) <==> exists i :: 0 <= i < |s| && multiset(s)[s[i]] == k
  {
    if HasCount(s, k) {
      var c :| c in CharCounts(s) && CharCounts(s)[c] == k;
      var i :| 0 <= i < |s| && s[i] == c;
    }
    if exists i :: 0 <= i < |s| && multiset(s)[s[i]] == k {
      var i :| 0 <= i < |s| && multiset(s)[s[i]] == k;
      assert s[i] in s;
      assert CharCounts(s)[s[i]] == k;
    }
  }

  /** The indices at which two strings of equal length differ. */
  function DiffPositions(a: string, b: string): set<nat>
    requires |a| == |b|
  {
    set i: nat | i < |a| && a[i] != b[i]
  }

  /** `distance`: the number of positions at which the characters differ; unequal lengths panic. */
  function Distance(a: string, b: string): (r: nat)
    requires |a| == |b|
    ensures r <= |a|
    ensures r == 0 <==> a == b
  {
    if |a| == 0 then 0
    else
      var n := |a| - 1;
      var front := Distance(a[..n], b[..n]);
      assert a == b <==> a[..n] == b[..n] && a[n] == b[n] by {
        assert a == a[..n] + [a[n]];
        assert b == b[..n] + [b[n]];
      }
      front + if a[n] != b[n] then 1 else 0
  }

  /** `Distance` counts exactly the differing positions. */
  lemma {:induction false} DistanceCountsDiffs(a: string, b: string)
    requires |a| == |b|
    ensures Distance(a, b) == |DiffPositions(a, b)|
  {
    if |a| > 0 {
      var n := |a| - 1;
      DistanceCountsDiffs(a[..n], b[..n]);
      var front := DiffPositions(a[..n], b[..n]);
      if a[n] != b[n] {
        assert DiffPositions(a, b) == front + {n};
      } else {
        assert DiffPositions(a, b) == front;
      }
    }
  }

  lemma DistanceExamples()
    ensures Distance("abcde", "axcye") == 2
    ensures Distance("fghij", "fguij") == 1
  {
    assert "ab"[..1] == "a" && "ax"[..1] == "a";
    assert "abc"[..2] == "ab" && "axc"[..2] == "ax";
    assert "abcd"[..3] == "abc" && "axcy"[..3] == "axc";
    assert "abcde"[..4] == "abcd" && "axcye"[..4] == "axcy";
    assert Distance("a", "a") == 0;
    assert Distance("ab", "ax") == 1;
    assert Distance("abc", "axc") == 1;
    assert Distance("abcd", "axcy") == 2;
    assert "fg"[..1] == "f";
    assert "fgh"[..2] == "fg" && "fgu"[..2] == "fg";
    assert "fghi"[..3] == "fgh" && "fgui"[..3] == "fgu";
    assert "fghij"[..4] == "fghi" && "fguij"[..4] == "fgui";
    assert Distance("fg", "fg") == 0;
    assert Distance("fgh", "fgu") == 1;
    assert Distance("fghi", "fgui") == 1;
  }

  /** `common_chars`: the characters at the positions where both strings agree, in order; `zip` stops at the shorter string. */
  function CommonChars(a: string, b: string): (r: string)
    ensures |r| <= |a| && |r| <= |b|
    ensures forall c :: c in r ==> c in a && c in b
  {
    if |a| == 0 || |b| == 0 then ""
    else if a[0] == b[0] then [a[0]] + CommonChars(a[1..], b[1..])
    else CommonChars(a[1..], b[1..])
  }

  lemma CommonCharsExample()
    ensures CommonChars("fghij", "fguij") == "fgij"
  {
  }

  /** On equal lengths every position is either kept by `common_chars` or counted by `distance`. */
  lemma {:induction false} CommonPlusDistance(a: string, b: string)
    requires |a| == |b|
    ensures |CommonChars(a, b)| + Distance(a, b) == |a|
    ensures Distance(a, b) == 0 ==> CommonChars(a, b) == a
  {
    if |a| > 0 {
      CommonPlusDistance(a[1..], b[1..]);
      DistanceFront(a, b);
    }
  }

  /** `Distance` also peels from the front. */
  lemma {:induction false} DistanceFront(a: string, b: string)
    requires |a| == |b| && |a| > 0
    ensures Distance(a, b) == Distance(a[1..], b[1..]) + if a[0] != b[0] then 1 else 0
  {
    var n := |a| - 1;
    if n > 0 {
      DistanceFront(a[..n], b[..n]);
      assert a[..n][1..] == a[1..][..n - 1];
      assert b[..n][1..] == b[1..][..n - 1];
    }
  }

  /**
   * IDs at distance one: `common_chars` is the first ID with the single differing character
   * removed.
   */
  lemma {:induction false} CommonCharsOfClosePair(a: string, b: string, k: nat)
    requires |a| == |b| && k < |a| && a[k] != b[k]
    requires Distance(a, b) == 1
    ensures CommonChars(a, b) == a[..k] + a[k + 1..]
  {
    DistanceFront(a, b);
    if k == 0 {
      CommonPlusDistance(a[1..], b[1..]);
    } else {
      assert a[1..] != b[1..] by {
        assert a[1..][k - 1] != b[1..][k - 1];
      }
      assert a[0] == b[0];
      CommonCharsOfClosePair(a[1..], b[1..], k - 1);
      calc {
        CommonChars(a, b);
        [a[0]] + CommonChars(a[1..], b[1..]);
        [a[0]] + (a[1..][..k - 1] + a[1..][k..]);
        { assert a[1..][..k - 1] == a[1..k]; assert a[1..][k..] == a[k + 1..]; }
        [a[0]] + a[1..k] + a[k + 1..];
        { assert [a[0]] + a[1..k] == a[..k]; }
        a[..k] + a[k + 1..];
      }
    }
  }

  /** The positions below `n` where `a` and `b` agree, in increasing order. */
  function AgreeBelow(a: string, b: string, n: nat): (r: seq<nat>)
    requires n <= |a| && n <= |b|
    ensures |r| <= n && forall k :: 0 <= k < |r| ==> r[k] < n
  {
    if n == 0 then []
    else AgreeBelow(a, b, n - 1) + if a[n - 1] == b[n - 1] then [n - 1] else []
  }

  /** `r` lists exactly the positions below `n` where `a` and `b` agree, in increasing order. */
  predicate ListsAgreements(a: string, b: string, n: nat, r: seq<nat>)
    requires n <= |a| && n <= |b|
  {
    (forall k :: 0 <= k < |r| ==> r[k] < n && a[r[k]] == b[r[k]]) &&
    (forall i :: 0 <= i < n && a[i] == b[i] ==> i in r) &&
    (forall k, l :: 0 <= k < l < |r| ==> r[k] < r[l])
  }

  /** `AgreeBelow` lists exactly the agreeing positions below `n`, increasing. */
  lemma {:induction false} AgreeBelowPositions(a: string, b: string, n: nat)
    requires n <= |a| && n <= |b|
    ensures ListsAgreements(a, b, n, AgreeBelow(a, b, n))
  {
    if n > 0 {
      AgreeBelowPositions(a, b, n - 1);
      var front := AgreeBelow(a, b, n - 1);
      var tail: seq<nat> := if a[n - 1] == b[n - 1] then [n - 1] else [];
      var r := front + tail;
      assert AgreeBelow(a, b, n) == r;
      forall k | 0 <= k < |r|
        ensures r[k] < n && a[r[k]] == b[r[k]]
      {
        if k < |front| {
          assert r[k] == front[k];
          assert front[k] < n - 1 && a[front[k]] == b[front[k]];
        } else {
          assert r[k] == tail[k - |front|] == n - 1;
        }
      }
      forall k, l | 0 <= k < l < |r|
        ensures r[k] < r[l]
      {
        assert r[k] == front[k];
        if l < |front| {
          assert r[l] == front[l];
        }
      }
      forall i | 0 <= i < n && a[i] == b[i]
        ensures i in r
      {
        if i < n - 1 {
          assert i in front;
        } else {
          assert r[|front|] == i;
        }
      }
    }
  }

  /** The positions, within the shorter string, where the two strings agree: `zip` then `filter`. */
  function Agreements(a: string, b: string): (r: seq<nat>)
    ensures forall k :: 0 <= k < |r| ==> r[k] < |a| && r[k] < |b| && a[r[k]] == b[r[k]]
    ensures forall i :: 0 <= i < |a| && i < |b| && a[i] == b[i] ==> i in r
    ensures forall k, l :: 0 <= k < l < |r| ==> r[k] < r[l]
  {
    AgreeBelowPositions(a, b, Min(|a|, |b|));
    AgreeBelow(a, b, Min(|a|, |b|))
  }

  /** `CommonChars` only looks at the first `Min(|a|, |b|)` characters of each string. */
  lemma {:induction false} CommonCharsTrunc(a: string, b: string)
    ensures CommonChars(a, b) == CommonChars(a[..Min(|a|, |b|)], b[..Min(|a|, |b|)])
  {
    var n := Min(|a|, |b|);
    if n > 0 {
      CommonCharsTrunc(a[1..], b[1..]);
      assert Min(|a[1..]|, |b[1..]|) == n - 1;
      assert a[..n][1..] == a[1..][..n - 1];
      assert b[..n][1..] == b[1..][..n - 1];
      assert a[..n][0] == a[0] && b[..n][0] == b[0];
    }
  }

  /** `CommonChars` of equal-length strings grows at the back one position at a time. */
  lemma {:induction false} CommonCharsSnoc(a: string, b: string)
    requires |a| == |b| && |a| > 0
    ensures var n := |a| - 1;
      CommonChars(a, b) == CommonChars(a[..n], b[..n]) + if a[n] == b[n] then [a[n]] else []
  {
    var n := |a| - 1;
    if n > 0 {
      CommonCharsSnoc(a[1..], b[1..]);
      assert a[..n][1..] == a[1..][..n - 1];
      assert b[..n][1..] == b[1..][..n - 1];
      assert a[..n][0] == a[0] && b[..n][0] == b[0];
    }
  }

  /** `a`'s characters at the positions `idx`, in the order of `idx`. */
  function Pick(a: string, idx: seq<nat>): (r: string)
    requires forall k :: 0 <= k < |idx| ==> idx[k] < |a|
    ensures |r| == |idx|
  {
    if |idx| == 0 then "" else Pick(a, idx[..|idx| - 1]) + [a[idx[|idx| - 1]]]
  }

  /** `Pick` takes `a`'s character at each listed position. */
  lemma {:induction false} PickAt(a: string, idx: seq<nat>)
    requires forall k :: 0 <= k < |idx| ==> idx[k] < |a|
    ensures Pick(a, idx) == seq(|idx|, k requires 0 <= k < |idx| => a[idx[k]])
  {
    if |idx| > 0 {
      var front := idx[..|idx| - 1];
      PickAt(a, front);
      var p := seq(|idx|, k requires 0 <= k < |idx| => a[idx[k]]);
      assert p == p[..|front|] + [p[|front|]];
    }
  }

  /** On the first `n` positions, `CommonChars` picks `a`'s characters at the agreeing positions below `n`. */
  lemma {:induction false} CommonCharsBelow(a: string, b: string, n: nat)
    requires n <= |a| && n <= |b|
    ensures CommonChars(a[..n], b[..n]) == Pick(a, AgreeBelow(a, b, n))
  {
    if n > 0 {
      var front := AgreeBelow(a, b, n - 1);
      var tail: seq<nat> := if a[n - 1] == b[n - 1] then [n - 1] else [];
      var chars: string := if a[n - 1] == b[n - 1] then [a[n - 1]] else "";
      var an, bn := a[..n], b[..n];
      assert AgreeBelow(a, b, n) == front + tail;
      assert an[..n - 1] == a[..n - 1] && bn[..n - 1] == b[..n - 1];
      assert an[n - 1] == a[n - 1] && bn[n - 1] == b[n - 1];
      calc {
        CommonChars(an, bn);
        { CommonCharsSnoc(an, bn); }
        CommonChars(a[..n - 1], b[..n - 1]) + chars;
        { CommonCharsBelow(a, b, n - 1); }
        Pick(a, front) + chars;
        { PickSnoc(a, front, tail); }
        Pick(a, front + tail);
      }
    }
  }

  /** Picking at more positions appends their characters. */
  lemma PickSnoc(a: string, idx: seq<nat>, tail: seq<nat>)
    requires forall k :: 0 <= k < |idx| ==> idx[k] < |a|
    requires |tail| <= 1 && forall k :: 0 <= k < |tail| ==> tail[k] < |a|
    ensures Pick(a, idx + tail) == Pick(a, idx) + if |tail| == 0 then "" else [a[tail[0]]]
  {
    if |tail| == 1 {
      assert (idx + tail)[..|idx|] == idx;
    } else {
      assert idx + tail == idx;
    }
  }

  /**
   * `common_chars` is `a`'s characters at the positions where the two strings agree, in order:
   * position i, below both lengths, contributes `a[i]` exactly when `a[i] == b[i]`.
   */
  lemma CommonCharsPicksAgreements(a: string, b: string)
    ensures var idx := Agreements(a, b);
      CommonChars(a, b) == seq(|idx|, k requires 0 <= k < |idx| => a[idx[k]])
  {
    CommonCharsTrunc(a, b);
    CommonCharsBelow(a, b, Min(|a|, |b|));
    PickAt(a, Agreements(a, b));
  }

  /** Pair (i, j) comes before pair (i', j') in the scan order of `find_close`. */
  predicate PairBefore(i: int, j: int, i': int, j': int)
  {
    i < i' || (i == i' && j < j')
  }

  predicate UniformLengths(ids: seq<string>)
  {
    forall i, j :: 0 <= i < |ids| && 0 <= j < |ids| ==> |ids[i]| == |ids[j]|
  }

  predicate IsClosePair(ids: seq<string>, i: int, j: int)
    requires UniformLengths(ids)
  {
    0 <= i < j < |ids| && Distance(ids[i], ids[j]) == 1
  }

  /**
   * `find_close`: the common characters of the first pair i < j (scanning i, then j) at
   * distance one, or nothing when no pair is that close. An empty list makes the loop bound
   * `ids.len() - 1` underflow and panic.
   */
  method FindClose(ids: seq<string>) returns (r: Option<string>)
    requires |ids| >= 1
    requires UniformLengths(ids)
    ensures r.None? <==> forall i, j :: 0 <= i < j < |ids| ==> !IsClosePair(ids, i, j)
    ensures r.Some? ==> exists i, j :: IsClosePair(ids, i, j) && r.value == CommonChars(ids[i], ids[j]) &&
                          forall i', j' :: PairBefore(i', j', i, j) && 0 <= i' < j' < |ids| ==> !IsClosePair(ids, i', j')
  {
    for i := 0 to |ids| - 1
      invariant forall i', j' :: 0 <= i' < i && i' < j' < |ids| ==> !IsClosePair(ids, i', j')
    {
      for j := i + 1 to |ids|
        invariant forall i', j' :: 0 <= i' < i && i' < j' < |ids| ==> !IsClosePair(ids, i', j')
        invariant forall j' :: i < j' < j ==> !IsClosePair(ids, i, j')
      {
        if Distance(ids[i], ids[j]) == 1 {
          assert IsClosePair(ids, i, j);
          return Some(CommonChars(ids[i], ids[j]));
        }
      }
    }
    return None;
  }

  /** Part one of `run`: IDs with a doubled letter times IDs with a tripled letter. */
  function Checksum(ids: seq<string>): (r: nat)
    ensures r == |set i: nat | i < |ids| && HasCount(ids[i], 2)| * |set i: nat | i < |ids| && HasCount(ids[i], 3)|
  {
    CountWhere(ids, 2) * CountWhere(ids, 3)
  }

  /** For each ID, whether it has a character occurring exactly k times. */
  function Flags(ids: seq<string>, k: nat): (r: seq<bool>)
    ensures |r| == |ids|
    ensures forall i :: 0 <= i < |ids| ==> r[i] == HasCount(ids[i], k)
  {
    if |ids| == 0 then [] else [HasCount(ids[0], k)] + Flags(ids[1..], k)
  }

  /** Number of IDs having some character that occurs exactly k times. */
  function CountWhere(ids: seq<string>, k: nat): (r: nat)
    ensures r == |set i: nat | i < |ids| && HasCount(ids[i], k)|
  {
    var flags := Flags(ids, k);
    CountOfIsPositions(flags, true);
    assert Positions(flags, true) == set i: nat | i < |ids| && HasCount(ids[i], k);
    CountOf(flags, true)
  }
}

=== FILE: day03.dfy ===
/**
 * Fabric claims: overlay every claim rectangle on a ragged field of saturating 8-bit
 * counters, count the squares claimed more than once, and find the claim that overlaps no
 * other. Claims arrive already parsed; their numbers are unbounded, so the `u32` sums
 * `x + width` and `y + height` never wrap here.
 */
module Day03 {
  import opened Common

  datatype Claim = Claim(id: nat, x: nat, y: nat, width: nat, height: nat)

  predicate Contains(c: Claim, x: int, y: int)
  {
    c.x <= x < c.x + c.width && c.y <= y < c.y + c.height
  }

  /** `u8::saturating_add(1)`. */
  function SatInc(v: nat): nat
  {
    if v < 255 then v + 1 else 255
  }

  /** Number of claims covering square (x, y). */
  function Cover(claims: seq<Claim>, x: int, y: int): nat
  {
    if |claims| == 0 then 0
    else Cover(claims[..|claims| - 1], x, y) + if Contains(claims[|claims| - 1], x, y) then 1 else 0
  }

  /** A counter of the ragged field; squares beyond a row's end or the last row read as 0. */
  function Value(field: seq<seq<nat>>, x: int, y: int): nat
  {
    if 0 <= y < |field| && 0 <= x < |field[y]| then field[y][x] else 0
  }

  predicate Addressable(field: seq<seq<nat>>, x: int, y: int)
  {
    0 <= y < |field| && 0 <= x < |field[y]|
  }

  /** One row under one claim: grow with zeros to reach the claim's right edge, then bump the claimed squares. */
  function AddRow(row: seq<nat>, c: Claim): (r: seq<nat>)
    ensures |r| == Max(|row|, c.x + c.width)
    ensures forall x :: 0 <= x < |r| ==>
              r[x] == if c.x <= x < c.x + c.width then SatInc(Value([row], x, 0)) else Value([row], x, 0)
  {
    var zeros: seq<nat> := seq(Max(|row|, c.x + c.width) - |row|, _ => 0);
    var padded := row + zeros;
    assert forall x :: 0 <= x < |padded| ==> padded[x] == Value([row], x, 0);
    var bumped := seq(c.width, i requires 0 <= i < c.width => SatInc(padded[c.x + i]));
    assert c.x + c.width <= |padded|;
    assert forall k :: 0 <= k < |bumped| ==> bumped[k] == SatInc(padded[c.x + k]);
    padded[..c.x] + bumped + padded[c.x + c.width..]
  }

  /** The overlay of one claim in `run`: grow the field to the claim's bottom edge, then update its rows. */
  function AddClaim(field: seq<seq<nat>>, c: Claim): (r: seq<seq<nat>>)
    ensures |r| == Max(|field|, c.y + c.height)
    ensures forall x, y :: Value(r, x, y) == if Contains(c, x, y) then SatInc(Value(field, x, y)) else Value(field, x, y)
    ensures forall x, y :: Addressable(field, x, y) || Contains(c, x, y) ==> Addressable(r, x, y)
  {
    var padded := field + seq(Max(|field|, c.y + c.height) - |field|, _ => []);
    var r := seq(|padded|, y requires 0 <= y < |padded| => if c.y <= y < c.y + c.height then AddRow(padded[y], c) else padded[y]);
    forall x, y
      ensures Value(r, x, y) == if Contains(c, x, y) then SatInc(Value(field, x, y)) else Value(field, x, y)
    {
      if 0 <= y < |padded| {
        assert Value([padded[y]], x, 0) == Value(field, x, y);
      }
    }
    r
  }

  /** The field after overlaying the claims in order. */
  function BuildField(claims: seq<Claim>): seq<seq<nat>>
  {
    if |claims| == 0 then [] else AddClaim(BuildField(claims[..|claims| - 1]), claims[|claims| - 1])
  }

  /**
   * Every counter is the number of covering claims, saturated at 255, and every square of every
   * claim is addressable in the field.
   */
  lemma {:induction false} BuildFieldCounts(claims: seq<Claim>)
    ensures forall x, y :: Value(BuildField(claims), x, y) == Min(Cover(claims, x, y), 255)
    ensures forall i, x, y :: 0 <= i < |claims| && Contains(claims[i], x, y) ==> Addressable(BuildField(claims), x, y)
  {
    if |claims| > 0 {
      var n := |claims| - 1;
      BuildFieldCounts(claims[..n]);
      forall i, x, y | 0 <= i < |claims| && Contains(claims[i], x, y)
        ensures Addressable(BuildField(claims), x, y)
      {
        if i < n {
          assert claims[..n][i] == claims[i];
        }
      }
    }
  }

  /** The squares of a row whose counter is above 1. */
  function OverCells(row: seq<nat>): set<nat>
  {
    set x: nat | x < |row| && row[x] > 1
  }

  /** Squares of one row counted more than once. */
  function RowOverlaps(row: seq<nat>): (r: nat)
    ensures r == |OverCells(row)|
  {
    if |row| == 0 then 0
    else
      var n := |row| - 1;
      var front := RowOverlaps(row[..n]);
      assert OverCells(row) == OverCells(row[..n]) + (if row[n] > 1 then {n} else {});
      front + if row[n] > 1 then 1 else 0
  }

  /** The squares x < width of row y covered by at least two claims. */
  function CoveredTwice(claims: seq<Claim>, y: int, width: nat): set<nat>
  {
    set x: nat | x < width && Cover(claims, x, y) >= 2
  }

  /** `overlapping_squares`: the per-row counts of squares above 1, summed. */
  function OverlapCount(field: seq<seq<nat>>): nat
  {
    if |field| == 0 then 0 else OverlapCount(field[..|field| - 1]) + RowOverlaps(field[|field| - 1])
  }

  /** Each row of the overlay counts exactly the squares of that row claimed at least twice. */
  lemma OverlapRows(claims: seq<Claim>, y: nat)
    requires y < |BuildField(claims)|
    ensures RowOverlaps(BuildField(claims)[y]) == |CoveredTwice(claims, y, |BuildField(claims)[y]|)|
  {
    var f := BuildField(claims);
    BuildFieldCounts(claims);
    assert OverCells(f[y]) == CoveredTwice(claims, y, |f[y]|) by {
      forall x: nat | x < |f[y]|
        ensures f[y][x] > 1 <==> Cover(claims, x, y) >= 2
      {
        assert Value(f, x, y) == f[y][x];
      }
    }
  }

  /** No square outside the field is claimed at all, so the row sums miss no overlap. */
  lemma OutsideUnclaimed(claims: seq<Claim>, x: int, y: int)
    requires !Addressable(BuildField(claims), x, y)
    ensures Cover(claims, x, y) == 0
  {
    BuildFieldCounts(claims);
  }

  /** All squares of c read 1 in the field. */
  predicate Intact(field: seq<seq<nat>>, c: Claim)
  {
    forall x, y :: c.x <= x < c.x + c.width && c.y <= y < c.y + c.height ==> Value(field, x, y) == 1
  }

  ghost predicate Overlap(a: Claim, b: Claim)
  {
    exists x, y :: Contains(a, x, y) && Contains(b, x, y)
  }

  /** A claimed square is covered exactly once iff no other claim covers it. */
  lemma {:induction false} CoverOne(claims: seq<Claim>, i: nat, x: int, y: int)
    requires i < |claims| && Contains(claims[i], x, y)
    ensures Cover(claims, x, y) >= 1
    ensures Cover(claims, x, y) == 1 <==> forall j :: 0 <= j < |claims| && j != i ==> !Contains(claims[j], x, y)
  {
    var n := |claims| - 1;
    var front := claims[..n];
    if i == n {
      CoverZero(front, x, y);
    } else {
      CoverOne(front, i, x, y);
    }
  }

  lemma {:induction false} CoverZero(claims: seq<Claim>, x: int, y: int)
    ensures Cover(claims, x, y) == 0 <==> forall j :: 0 <= j < |claims| ==> !Contains(claims[j], x, y)
  {
    if |claims| > 0 {
      var n := |claims| - 1;
      CoverZero(claims[..n], x, y);
      assert forall j :: 0 <= j < n ==> claims[..n][j] == claims[j];
    }
  }

  /** A claim's squares all read 1 exactly when it overlaps no other claim. */
  lemma IntactIffAlone(claims: seq<Claim>, i: nat)
    requires i < |claims|
    ensures Intact(BuildField(claims), claims[i]) <==>
            forall j :: 0 <= j < |claims| && j != i ==> !Overlap(claims[i], claims[j])
  {
    BuildFieldCounts(claims);
    var f := BuildField(claims);
    forall x, y | Contains(claims[i], x, y)
      ensures Value(f, x, y) == 1 <==> forall j :: 0 <= j < |claims| && j != i ==> !Contains(claims[j], x, y)
    {
      CoverOne(claims, i, x, y);
    }
  }

  /** The search of `run`: the first claim, in input order, all of whose squares read 1. */
  function FindIntact(claims: seq<Claim>, field: seq<seq<nat>>): (r: Option<nat>)
    ensures r.Some? ==> r.value < |claims| && Intact(field, claims[r.value]) &&
                        forall k :: 0 <= k < r.value ==> !Intact(field, claims[k])
    ensures r.None? ==> forall k :: 0 <= k < |claims| ==> !Intact(field, claims[k])
  {
    if |claims| == 0 then None
    else if Intact(field, claims[0]) then Some(0)
    else
      var rest := FindIntact(claims[1..], field);
      if rest.Some? then Some(rest.value + 1) else None
  }

  /** Claim i shares no square with any other claim. */
  ghost predicate Alone(claims: seq<Claim>, i: int)
    requires 0 <= i < |claims|
  {
    forall j :: 0 <= j < |claims| && j != i ==> !Overlap(claims[i], claims[j])
  }

  /** `run`: the number of squares within two or more claims, and the id of the first claim overlapping no other. */
  function Run(claims: seq<Claim>): (r: Result<(nat, nat)>)
    ensures r.Ok? ==> exists i :: 0 <= i < |claims| && r.value.1 == claims[i].id && Alone(claims, i) &&
                        forall k :: 0 <= k < i ==> !Alone(claims, k)
    ensures r.Ok? ==> r.value.0 == OverlapCount(BuildField(claims))
    ensures r.Err? <==> forall i :: 0 <= i < |claims| ==> !Alone(claims, i)
  {
    var field := BuildField(claims);
    var found := FindIntact(claims, field);
    AllIntactIffAlone(claims);
    if found.None? then Err("Failed to find non-overlapping claim")
    else Ok((OverlapCount(field), claims[found.value].id))
  }

  lemma AllIntactIffAlone(claims: seq<Claim>)
    ensures forall i :: 0 <= i < |claims| ==> (Intact(BuildField(claims), claims[i]) <==> Alone(claims, i))
  {
    forall i | 0 <= i < |claims|
      ensures Intact(BuildField(claims), claims[i]) <==> Alone(claims, i)
    {
      IntactIffAlone(claims, i);
    }
  }
}

=== FILE: day04.dfy ===
/**
 * Guard sleep records: a state machine that turns the sorted, already-parsed records into
 * per-guard sleep spans, and the searches for the sleepiest guard and minute.
 *
 * The source keeps guards in a `HashMap`, whose iteration order decides ties. The model keeps
 * them in a map and takes that iteration order as an explicit parameter `order`, which lists
 * every guard id exactly once.
 */
module Day04 {
  import opened Common

  /** What a non-shift record says after its timestamp. */
  datatype Event = FallsAsleep | WakesUp | OtherText

  /** One record line: a shift start, or a minute followed by an event, or a line the record pattern rejects. */
  datatype Record = Shift(id: nat) | Timed(minute: nat, event: Event) | Unparsable

  /** The half-open minute range `start..end` of one sleep; an end at or before the start holds no minutes. */
  datatype Span = Span(start: nat, end: nat)

  type Guards = map<nat, seq<Span>>

  datatype State = State(guard: Option<nat>, sleepStart: Option<nat>, guards: Guards)

  /** Every recorded span lies inside the midnight hour and every guard entry holds a span. */
  predicate WellFormed(guards: Guards)
  {
    forall id :: id in guards ==>
      (|guards[id]| > 0 && forall k :: 0 <= k < |guards[id]| ==> guards[id][k].start < 60 && guards[id][k].end < 60)
  }

  predicate StateOk(st: State)
  {
    WellFormed(st.guards) && (st.sleepStart.Some? ==> st.sleepStart.value < 60)
  }

  /** One iteration of the loop of `parse_records`. */
  function Step(st: State, rec: Record): (r: Result<State>)
    requires StateOk(st)
    ensures r.Ok? ==> StateOk(r.value)
    ensures r.Ok? && !(rec.Timed? && rec.event == WakesUp) ==> r.value.guards == st.guards
    ensures rec.Timed? && rec.minute >= 60 ==> r.Err?
    ensures rec.Unparsable? ==> r.Err?
    ensures rec.Timed? && rec.event == FallsAsleep && st.sleepStart.Some? ==> r.Err?
    ensures rec.Timed? && rec.event == WakesUp && (st.guard.None? || st.sleepStart.None?) ==> r.Err?
    ensures rec.Shift? ==> r == Ok(st.(guard := Some(rec.id)))
    ensures rec.Timed? && rec.minute < 60 && rec.event == FallsAsleep && st.sleepStart.None? ==>
              r == Ok(st.(sleepStart := Some(rec.minute)))
    ensures rec.Timed? && rec.minute < 60 && rec.event == OtherText ==> r == Ok(st)
    ensures rec.Timed? && rec.minute < 60 && rec.event == WakesUp && st.guard.Some? && st.sleepStart.Some? ==>
              r.Ok? && r.value.sleepStart.None? && r.value.guard == st.guard &&
              var id := st.guard.value;
              var span := Span(st.sleepStart.value, rec.minute);
              r.value.guards == st.guards[id := if id in st.guards then st.guards[id] + [span] else [span]]
  {
    match rec
    case Unparsable => Err("Failed to parse record")
    case Shift(id) => Ok(st.(guard := Some(id)))
    case Timed(minute, event) =>
      if minute >= 60 then Err("Invalid minute value")
      else match event
        case FallsAsleep =>
          if st.sleepStart.Some? then Err("Guard fell asleep twice")
          else Ok(st.(sleepStart := Some(minute)))
        case WakesUp =>
          if st.guard.None? then Err("Records don't start with guard beginning shift")
          else if st.sleepStart.None? then Err("Wakes up without falling asleep first")
          else
            var id := st.guard.value;
            var span := Span(st.sleepStart.value, minute);
            Ok(State(st.guard, None, st.guards[id := if id in st.guards then st.guards[id] + [span] else [span]]))
        case OtherText => Ok(st)
  }

  /** The records folded through `Step` in order, stopping at the first error. */
  function Fold(st: State, records: seq<Record>): (r: Result<State>)
    requires StateOk(st)
    ensures r.Ok? ==> StateOk(r.value)
    ensures r.Ok? ==> st.guards.Keys <= r.value.guards.Keys
    decreases |records|
  {
    if |records| == 0 then Ok(st)
    else
      var next :- Step(st, records[0]);
      Fold(next, records[1..])
  }

  /** `parse_records`: the sleep spans of each guard, or the first error; no guard with a span is an error too. */
  function ParseRecords(records: seq<Record>): (r: Result<Guards>)
    ensures r.Ok? ==> WellFormed(r.value) && |r.value| > 0
  {
    var st :- Fold(State(None, None, map[]), records);
    if |st.guards| == 0 then Err("No guards found") else Ok(st.guards)
  }

  /** A shift change keeps a pending sleep: the next wake-up is credited to the new guard. */
  lemma ShiftKeepsSleep(st: State, id: nat)
    requires StateOk(st)
    ensures Step(st, Shift(id)) == Ok(st.(guard := Some(id)))
  {
  }

  /** An unparsable record anywhere before the first error makes the whole parse fail. */
  lemma {:induction false} UnparsableFails(st: State, records: seq<Record>, k: nat)
    requires StateOk(st) && k < |records| && records[k].Unparsable?
    ensures Fold(st, records).Err?
    decreases k
  {
    if k > 0 {
      var next := Step(st, records[0]);
      if next.Ok? {
        UnparsableFails(next.value, records[1..], k - 1);
      }
    }
  }

  /** `Range::len`: the number of minutes in a span, 0 when it ends at or before its start. */
  function SpanLen(s: Span): nat
  {
    if s.end <= s.start then 0 else s.end - s.start
  }

  /** `total_asleep`: the summed length of the spans. */
  function TotalAsleep(spans: seq<Span>): nat
  {
    if |spans| == 0 then 0 else TotalAsleep(spans[..|spans| - 1]) + SpanLen(spans[|spans| - 1])
  }

  /** Number of spans that contain minute m. */
  function MinuteCount(spans: seq<Span>, m: int): (r: nat)
    ensures r <= |spans|
  {
    if |spans| == 0 then 0
    else MinuteCount(spans[..|spans| - 1], m) + if spans[|spans| - 1].start <= m < spans[|spans| - 1].end then 1 else 0
  }

  /** Summing the minute counts over the hour gives the total sleep. */
  lemma {:induction false} MinuteCountsSum(spans: seq<Span>, n: nat)
    requires forall k :: 0 <= k < |spans| ==> spans[k].end <= n
    ensures HourSum(spans, n) == TotalAsleep(spans)
  {
    if |spans| > 0 {
      var front := spans[..|spans| - 1];
      var last := spans[|spans| - 1];
      assert spans == front + [last];
      MinuteCountsSum(front, n);
      HourSumSplit(front, last, n);
    } else {
      HourSumNone(spans, n);
    }
  }

  lemma {:induction false} HourSumNone(spans: seq<Span>, n: nat)
    requires |spans| == 0
    ensures HourSum(spans, n) == 0
  {
    if n > 0 {
      HourSumNone(spans, n - 1);
    }
  }

  /** The minute counts for minutes 0 .. n-1, summed. */
  function HourSum(spans: seq<Span>, n: nat): nat
  {
    if n == 0 then 0 else HourSum(spans, n - 1) + MinuteCount(spans, n - 1)
  }

  lemma {:induction false} HourSumSplit(front: seq<Span>, last: Span, n: nat)
    requires last.end <= n
    ensures HourSum(front + [last], n) == HourSum(front, n) + SpanLen(last)
  {
    HourSumSplitUpTo(front, last, n);
  }

  /** Minutes below n of one span. */
  function SpanPart(s: Span, n: nat): nat
  {
    if s.end <= s.start || n <= s.start then 0 else Min(s.end, n) - s.start
  }

  lemma {:induction false} HourSumSplitUpTo(front: seq<Span>, last: Span, n: nat)
    ensures HourSum(front + [last], n) == HourSum(front, n) + SpanPart(last, n)
  {
    if n > 0 {
      HourSumSplitUpTo(front, last, n - 1);
      assert (front + [last])[..|front|] == front;
    }
  }

  /**
   * `find_most_sleepy_minute`: the earliest minute of the hour covered by the most spans,
   * with that count; (0, 0) when no minute is covered.
   */
  method FindMostSleepyMinute(spans: seq<Span>) returns (minute: nat, max: nat)
    requires forall k :: 0 <= k < |spans| ==> spans[k].start < 60 && spans[k].end < 60
    ensures minute < 60 && max == MinuteCount(spans, minute)
    ensures forall m :: 0 <= m < 60 ==> MinuteCount(spans, m) <= max
    ensures forall m :: 0 <= m < minute ==> MinuteCount(spans, m) < max
  {
    var minutes := seq(60, _ => 0);
    for i := 0 to |spans|
      invariant |minutes| == 60
      invariant forall m :: 0 <= m < 60 ==> minutes[m] == MinuteCount(spans[..i], m)
    {
      var span := spans[i];
      assert spans[..i + 1][..i] == spans[..i];
      for m := span.start to Max(span.start, span.end)
        invariant |minutes| == 60
        invariant forall m' :: 0 <= m' < 60 ==>
                    minutes[m'] == MinuteCount(spans[..i], m') + if span.start <= m' < m then 1 else 0
      {
        minutes := minutes[m := minutes[m] + 1];
      }
    }
    assert spans[..|spans|] == spans;
    max := 0;
    minute := 0;
    for m := 0 to 60
      invariant minute < 60 && (max == MinuteCount(spans, minute) || (max == 0 && minute == 0))
      invariant forall m' :: 0 <= m' < m ==> MinuteCount(spans, m') <= max
      invariant forall m' :: 0 <= m' < minute ==> MinuteCount(spans, m') < max
      invariant minute == 0 || minute < m
    {
      if minutes[m] > max {
        max := minutes[m];
        minute := m;
      }
    }
    if max == 0 {
      assert MinuteCount(spans, 0) <= 0;
    }
  }

  /** `order` lists exactly the guards of the map, each once. */
  predicate IsOrder(guards: Guards, order: seq<nat>)
  {
    (forall k :: 0 <= k < |order| ==> order[k] in guards) &&
    (forall id :: id in guards ==> id in order) &&
    (forall i, j :: 0 <= i < j < |order| ==> order[i] != order[j])
  }

  /**
   * `find_most_sleepy_guard`: the stable descending sort by total sleep puts first the
   * earliest guard, in iteration order, with the largest total.
   */
  function FindMostSleepyGuard(guards: Guards, order: seq<nat>): (r: nat)
    requires IsOrder(guards, order) && |order| > 0
    ensures r in guards
    ensures forall id :: id in guards ==> TotalAsleep(guards[id]) <= TotalAsleep(guards[r])
    ensures exists k :: 0 <= k < |order| && order[k] == r &&
              forall k' :: 0 <= k' < k ==> TotalAsleep(guards[order[k']]) < TotalAsleep(guards[r])
  {
    var totals := seq(|order|, i requires 0 <= i < |order| => TotalAsleep(guards[order[i]]));
    var k := FirstMaxIndex(totals);
    forall id | id in guards
      ensures TotalAsleep(guards[id]) <= TotalAsleep(guards[order[k]])
    {
      var i :| 0 <= i < |order| && order[i] == id;
      assert totals[i] <= totals[k];
    }
    forall k' | 0 <= k' < k
      ensures TotalAsleep(guards[order[k']]) < TotalAsleep(guards[order[k]])
    {
      assert totals[k'] < totals[k];
    }
    order[k]
  }

  /** Index of the first maximum of a non-empty sequence. */
  function FirstMaxIndex(s: seq<nat>): (k: nat)
    requires |s| > 0
    ensures k < |s|
    ensures forall i :: 0 <= i < |s| ==> s[i] <= s[k]
    ensures forall i :: 0 <= i < k ==> s[i] < s[k]
  {
    if |s| == 1 then 0
    else
      var k := FirstMaxIndex(s[..|s| - 1]);
      if s[|s| - 1] > s[k] then |s| - 1 else k
  }

  /** No guard is asleep in any minute of the hour. */
  predicate NobodySleeps(guards: Guards)
  {
    forall id, m :: id in guards && 0 <= m < 60 ==> MinuteCount(guards[id], m) == 0
  }

  /** Guard order[k] at minute m has the strictly first largest count of all guards and minutes. */
  predicate FirstPeak(guards: Guards, order: seq<nat>, k: int, m: int)
    requires IsOrder(guards, order)
  {
    0 <= k < |order| && 0 <= m < 60 &&
    (forall id, m' :: id in guards && 0 <= m' < 60 ==> MinuteCount(guards[id], m') <= MinuteCount(guards[order[k]], m)) &&
    (forall k', m' :: 0 <= k' < k && 0 <= m' < 60 ==> MinuteCount(guards[order[k']], m') < MinuteCount(guards[order[k]], m))
  }

  /**
   * `find_most_likely_asleep`: scanning guards in iteration order, the first whose peak minute
   * count is strictly largest, with that minute; (0, 0) when nobody ever sleeps.
   */
  method FindMostLikelyAsleep(guards: Guards, order: seq<nat>) returns (bestGuard: nat, bestMinute: nat)
    requires WellFormed(guards) && IsOrder(guards, order)
    ensures NobodySleeps(guards) ==> bestGuard == 0 && bestMinute == 0
    ensures !NobodySleeps(guards) ==> exists k :: 0 <= k < |order| && order[k] == bestGuard && FirstPeak(guards, order, k, bestMinute)
  {
    var max := 0;
    bestGuard := 0;
    bestMinute := 0;
    ghost var bestK := -1;
    for k := 0 to |order|
      invariant bestMinute < 60
      invariant max == 0 ==> bestGuard == 0 && bestMinute == 0 && bestK == -1
      invariant max > 0 ==> 0 <= bestK < k && order[bestK] == bestGuard && max == MinuteCount(guards[bestGuard], bestMinute)
      invariant forall k', m :: 0 <= k' < k && 0 <= m < 60 ==> MinuteCount(guards[order[k']], m) <= max
      invariant max > 0 ==> forall k', m :: 0 <= k' < bestK && 0 <= m < 60 ==> MinuteCount(guards[order[k']], m) < max
    {
      var minute, times := FindMostSleepyMinute(guards[order[k]]);
      if times > max {
        max := times;
        bestGuard := order[k];
        bestMinute := minute;
        bestK := k;
      }
    }
    forall id, m | id in guards && 0 <= m < 60
      ensures MinuteCount(guards[id], m) <= max
    {
      var k' :| 0 <= k' < |order| && order[k'] == id;
    }
    if max > 0 {
      assert FirstPeak(guards, order, bestK, bestMinute);
    }
  }

  /** The sleep spans of guards 10 and 99 in the puzzle's example log. */
  function ExampleGuards(): Guards
  {
    map[10 := [Span(5, 25), Span(30, 55), Span(24, 29)], 99 := [Span(40, 50), Span(36, 46), Span(45, 55)]]
  }

  /**
   * Guard 10 sleeps 50 minutes, most often at minute 24; guard 99 sleeps 30 minutes and is
   * asleep three times at minute 45 and never that often otherwise. So guard 10 with minute 24
   * and the pair (99, 45) are the answers whatever the iteration order.
   */
  lemma SleepyExample()
    ensures TotalAsleep(ExampleGuards()[10]) == 50 && TotalAsleep(ExampleGuards()[99]) == 30
    ensures MinuteCount(ExampleGuards()[10], 24) == 2
    ensures forall m :: 0 <= m < 60 ==> MinuteCount(ExampleGuards()[10], m) <= 2
    ensures forall m :: 0 <= m < 24 ==> MinuteCount(ExampleGuards()[10], m) < 2
    ensures MinuteCount(ExampleGuards()[99], 45) == 3
    ensures forall m :: 0 <= m < 60 && m != 45 ==> MinuteCount(ExampleGuards()[99], m) < 3
  {
    var g10 := ExampleGuards()[10];
    var g99 := ExampleGuards()[99];
    assert g10[..2][..1] == [Span(5, 25)] && g10[..2] == [Span(5, 25), Span(30, 55)];
    assert g99[..2][..1] == [Span(40, 50)] && g99[..2] == [Span(40, 50), Span(36, 46)];
    assert TotalAsleep([Span(5, 25)]) == 20;
    assert TotalAsleep([Span(5, 25), Span(30, 55)]) == 45;
    assert TotalAsleep([Span(40, 50)]) == 10;
    assert TotalAsleep([Span(40, 50), Span(36, 46)]) == 20;
  }
}

=== FILE: day05.dfy ===
/**
 * Polymer reduction: adjacent units of the same type and opposite polarity (bytes that differ
 * only in bit 5, the ASCII case bit) annihilate, repeatedly. The source does this in place with
 * a read index and a write index; the model runs the same loop on a sequence and proves it
 * equal to a functional stack reduction.
 */
module Day05 {
  import opened Common
  import Text

  type Byte = b: nat | b < 256

  /** `b ^ 32`: flip the case bit. */
  function Xor32(b: Byte): (r: Byte)
    ensures r != b && (r - b == 32 || b - r == 32)
    ensures (b / 32) % 2 == 1 <==> (r / 32) % 2 == 0
  {
    if (b / 32) % 2 == 1 then b - 32 else b + 32
  }

  /** `b | 32`: the unit type, the same for both polarities. */
  function Or32(b: Byte): (r: Byte)
    ensures (r / 32) % 2 == 1
    ensures r == b || r == Xor32(b)
  {
    if (b / 32) % 2 == 1 then b else b + 32
  }

  /** Flipping the case bit twice restores the unit, and both polarities share one type. */
  lemma Xor32Involutive(b: Byte)
    ensures Xor32(Xor32(b)) == b
    ensures Or32(Xor32(b)) == Or32(b)
  {
  }

  /** Units a and b (in this order) annihilate: the test `p[j - 1] ^ 32 == p[i]`. */
  predicate Reacts(a: Byte, b: Byte)
  {
    Xor32(a) == b
  }

  lemma ReactsSymmetric(a: Byte, b: Byte)
    ensures Reacts(a, b) <==> Reacts(b, a)
  {
  }

  /** `polymer_from_str`: the trimmed text, each char truncated to its low byte by `c as u8`. */
  function PolymerFromStr(s: string): (p: seq<Byte>)
    ensures |p| == |Text.Trim(s)|
    ensures forall i :: 0 <= i < |p| ==> p[i] == (Text.Trim(s)[i] as int) % 256
  {
    var t := Text.Trim(s);
    seq(|t|, i requires 0 <= i < |t| => (t[i] as int) % 256)
  }

  /** No two adjacent units react. */
  predicate Reduced(p: seq<Byte>)
  {
    forall k :: 0 <= k < |p| - 1 ==> !Reacts(p[k], p[k + 1])
  }

  /** The reference reduction: a stack that pops on a reacting unit and pushes otherwise. */
  function StackReduce(s: seq<Byte>): (r: seq<Byte>)
    ensures |r| <= |s|
  {
    if |s| == 0 then [] else Push(StackReduce(s[..|s| - 1]), s[|s| - 1])
  }

  /** One unit arriving at the stack: it annihilates the top or is pushed. */
  function Push(st: seq<Byte>, x: Byte): seq<Byte>
  {
    if |st| > 0 && Reacts(st[|st| - 1], x) then st[..|st| - 1] else st + [x]
  }

  lemma StackReduceSnoc(s: seq<Byte>, x: Byte)
    ensures StackReduce(s + [x]) == Push(StackReduce(s), x)
  {
    assert (s + [x])[..|s|] == s;
  }

  /** The stack reduction leaves no reacting neighbours. */
  lemma {:induction false} StackReduceReduced(s: seq<Byte>)
    ensures Reduced(StackReduce(s))
  {
    if |s| > 0 {
      StackReduceReduced(s[..|s| - 1]);
    }
  }

  /** Reducing an already reduced polymer leaves it unchanged. */
  lemma {:induction false} StackReduceIdempotent(p: seq<Byte>)
    requires Reduced(p)
    ensures StackReduce(p) == p
  {
    if |p| > 0 {
      var front := p[..|p| - 1];
      assert Reduced(front);
      StackReduceIdempotent(front);
      assert front + [p[|p| - 1]] == p;
    }
  }

  /** The stack top as the write index sees it: the unit at `j - 1` decides pop or push. */
  lemma PushAtTop(st: seq<Byte>, p: seq<Byte>, j: nat, x: Byte)
    requires j < |p| && p[..j] == st
    ensures (j == 0 || Xor32(p[j - 1]) != x) ==> Push(st, x) == p[j := x][..j + 1]
    ensures j > 0 && Xor32(p[j - 1]) == x ==> Push(st, x) == p[..j - 1]
  {
    if j == 0 || Xor32(p[j - 1]) != x {
      assert p[j := x][..j + 1] == st + [x];
    } else {
      assert st[..|st| - 1] == p[..j - 1];
    }
  }

  /** `reduce_polymer` on a sequence standing for the vector. */
  method ReducePolymer(input: seq<Byte>) returns (p: seq<Byte>)
    ensures p == StackReduce(input)
    ensures Reduced(p) && |p| <= |input|
  {
    p := input;
    var i := 0;
    var j := 0;
    while i < |p|
      invariant |p| == |input|
      invariant 0 <= j <= i <= |p|
      invariant p[..j] == StackReduce(input[..i])
      invariant forall k :: i <= k < |p| ==> p[k] == input[k]
    {
      assert input[..i + 1] == input[..i] + [input[i]];
      StackReduceSnoc(input[..i], input[i]);
      PushAtTop(StackReduce(input[..i]), p, j, input[i]);
      if j == 0 || Xor32(p[j - 1]) != p[i] {
        p := p[j := p[i]];
        j := j + 1;
      } else {
        j := j - 1;
      }
      i := i + 1;
    }
    p := p[..j];
    assert input[..|input|] == input;
    StackReduceReduced(input);
  }

  /** The polymer without either polarity of one unit type. */
  function RemoveType(p: seq<Byte>, t: Byte): (r: seq<Byte>)
    ensures |r| <= |p|
    ensures forall k :: 0 <= k < |r| ==> Or32(r[k]) != t
    ensures multiset(r) <= multiset(p)
  {
    if |p| == 0 then []
    else
      var front := RemoveType(p[..|p| - 1], t);
      assert p == p[..|p| - 1] + [p[|p| - 1]];
      if Or32(p[|p| - 1]) != t then front + [p[|p| - 1]] else front
  }

  /** The unit types occurring in the polymer: the `HashSet` built from `v | 32`. */
  function UnitTypes(p: seq<Byte>): set<Byte>
  {
    set k | 0 <= k < |p| :: Or32(p[k])
  }

  /** The reduced length after removing type t: one candidate of the part-two minimum. */
  function RemovalLength(p: seq<Byte>, t: Byte): nat
  {
    |StackReduce(RemoveType(p, t))|
  }

  /** The least value of `len` over the members t >= from of `types`; the `min` of the iterator in `run`. */
  function MinFrom(types: set<Byte>, len: Byte -> nat, from: nat): (r: Option<nat>)
    requires from <= 256
    ensures r.None? <==> forall t: Byte :: t >= from ==> t !in types
    ensures r.Some? ==> exists t: Byte :: t >= from && t in types && r.value == len(t)
    ensures r.Some? ==> forall t: Byte :: t >= from && t in types ==> r.value <= len(t)
    decreases 256 - from
  {
    if from == 256 then None
    else
      var rest := MinFrom(types, len, from + 1);
      if from in types then
        if rest.None? || len(from) <= rest.value then Some(len(from)) else rest
      else rest
  }

  /** The part-two minimum over the unit types of a polymer; there is none for an empty one. */
  function BestRemoval(p: seq<Byte>): (r: Option<nat>)
    ensures r.None? <==> |p| == 0
    ensures r.Some? ==> forall t :: t in UnitTypes(p) ==> r.value <= RemovalLength(p, t)
    ensures r.Some? ==> exists t :: t in UnitTypes(p) && r.value == RemovalLength(p, t)
  {
    assert |p| > 0 ==> Or32(p[0]) in UnitTypes(p);
    MinFrom(UnitTypes(p), t => RemovalLength(p, t), 0)
  }

  /**
   * `run`: the reduced length of the whole polymer and the shortest reduced length after
   * removing one unit type; a polymer with no units has no types to try and is an error.
   */
  function Run(input: string): (r: Result<(nat, nat)>)
    ensures r.Err? <==> |PolymerFromStr(input)| == 0
    ensures r.Ok? ==> r.value.0 == |StackReduce(PolymerFromStr(input))|
    ensures r.Ok? ==> forall t :: t in UnitTypes(PolymerFromStr(input)) ==>
                        r.value.1 <= RemovalLength(PolymerFromStr(input), t)
    ensures r.Ok? ==> exists t :: t in UnitTypes(PolymerFromStr(input)) &&
                        r.value.1 == RemovalLength(PolymerFromStr(input), t)
  {
    var p := PolymerFromStr(input);
    var best := BestRemoval(p);
    if best.None? then Err("No unit types found in polymer")
    else Ok((|StackReduce(p)|, best.value))
  }
}

=== FILE: day06.dfy ===
/**
 * Chronal coordinates: a bounded grid around a set of points is flooded outward one Manhattan
 * step per round, each cell remembering the nearest point (or a tie marker) and its distance;
 * areas touching the border are infinite and discarded. The second half measures the region
 * whose summed Manhattan distance to every point stays under a limit, one row span at a time.
 *
 * Grid coordinates are `isize` and distances `u32`/`usize` in the source; the model uses
 * unbounded integers and leaves overflow out.
 */
module Day06 {
  import opened Common
  import Array2d

  type Point = (int, int)

  /** `u32::MAX`: the id of a cell equally near to two or more points. */
  const Tie: nat := 0xFFFF_FFFF

  /** A `u32` id: 0 for unclaimed, 1 + index for a point, `Tie` for a tie. */
  type Id = n: nat | n <= Tie

  /** A cell: the id of its nearest point (0 while unclaimed) and that point's distance. */
  datatype Cell = Cell(id: Id, dist: nat)

  const Unclaimed := Cell(0, 0)

  /** The offset grid: cell (x, y) lives at (x - x0, y - y0) of a row-major grid. */
  datatype Field = Field(x0: int, y0: int, width: int, height: int, cells: Array2d.Grid<Cell>) {
    predicate Valid()
    {
      width > 0 && height > 0 && cells.Valid() && cells.width == width && cells.height == height
    }
  }

  predicate SameFrame(f: Field, g: Field)
  {
    f.x0 == g.x0 && f.y0 == g.y0 && f.width == g.width && f.height == g.height
  }

  /** `Grid::inside`. */
  predicate Inside(f: Field, x: int, y: int)
  {
    f.x0 <= x < f.x0 + f.width && f.y0 <= y < f.y0 + f.height
  }

  /** `Grid::new`: panics unless both dimensions are positive; width * height unclaimed cells. */
  function New(x0: int, y0: int, width: int, height: int): (f: Field)
    requires width > 0 && height > 0
    ensures f.Valid() && f.x0 == x0 && f.y0 == y0 && f.width == width && f.height == height
    ensures |Array2d.Data(f.cells)| == width * height
    ensures forall x, y :: Get(f, x, y) == Unclaimed
  {
    var g := Array2d.Generate(width, height, (_, _) => Unclaimed);
    Array2d.DataLayout(g);
    Field(x0, y0, width, height, g)
  }

  /** `Grid::get`: the stored cell inside, at storage index (x - x0) + (y - y0) * width; (0, 0) outside. */
  function Get(f: Field, x: int, y: int): (r: Cell)
    requires f.Valid()
    ensures Inside(f, x, y) ==> r == Array2d.Cell(f.cells, x - f.x0, y - f.y0)
    ensures Inside(f, x, y) ==>
              Array2d.Offset(f.width, x - f.x0, y - f.y0) < |Array2d.Data(f.cells)| &&
              r == Array2d.Data(f.cells)[Array2d.Offset(f.width, x - f.x0, y - f.y0)]
    ensures !Inside(f, x, y) ==> r == Unclaimed
  {
    Array2d.DataLayout(f.cells);
    Array2d.Get(f.cells, x - f.x0, y - f.y0, Unclaimed)
  }

  /** `Grid::set`: overwrites the cell inside; a no-op outside. */
  function Set(f: Field, x: int, y: int, v: Cell): (r: Field)
    requires f.Valid()
    ensures r.Valid() && SameFrame(f, r)
    ensures !Inside(f, x, y) ==> r == f
    ensures forall x', y' :: Get(r, x', y') == if x' == x && y' == y && Inside(f, x, y) then v else Get(f, x', y')
  {
    f.(cells := Array2d.Put(f.cells, x - f.x0, y - f.y0, v))
  }

  /**
   * `try_set`: a claim by point `id` at distance `d` on cell (x, y). The result says whether
   * the cell was written; the cases are those of the source's test on the previous cell.
   */
  function TrySet(f: Field, x: int, y: int, id: Id, d: nat): (r: (Field, bool))
    requires f.Valid()
    ensures r.0.Valid() && SameFrame(f, r.0)
    ensures forall x', y' :: (x', y') != (x, y) ==> Get(r.0, x', y') == Get(f, x', y')
    ensures !r.1 ==> r.0 == f
    // outside the grid, or already claimed by the same point: nothing happens
    ensures !Inside(f, x, y) || Get(f, x, y).id == id ==> !r.1
    // claimed by another point that is strictly nearer: nothing happens
    ensures Get(f, x, y).id != 0 && Get(f, x, y).dist < d ==> !r.1
    // claimed by another point at the same or a greater distance: the cell becomes a tie
    ensures Inside(f, x, y) && Get(f, x, y).id != id && Get(f, x, y).id != 0 && d <= Get(f, x, y).dist ==>
              r.1 && Get(r.0, x, y) == Cell(Tie, d)
    // unclaimed: taken by the new point, or a tie when the claim is no farther than the stored distance
    ensures Inside(f, x, y) && Get(f, x, y).id != id && Get(f, x, y).id == 0 ==>
              r.1 && Get(r.0, x, y) == Cell(if d > Get(f, x, y).dist then id else Tie, d)
  {
    if !Inside(f, x, y) then (f, false)
    else
      var prev := Get(f, x, y);
      if prev.id != id && (prev.id == 0 || d <= prev.dist) then
        var newId := if d > prev.dist then id else Tie;
        (Set(f, x, y, Cell(newId, d)), true)
      else (f, false)
  }

  /**
   * What a flood round may do to a grid: the frame stays, a claimed cell stays claimed, and a
   * seed (a claimed cell at distance 0) is never overwritten.
   */
  ghost predicate Keeps(f: Field, g: Field)
    requires f.Valid() && g.Valid()
  {
    SameFrame(f, g) &&
    forall x, y :: (Get(f, x, y).id != 0 ==> Get(g, x, y).id != 0) &&
                   (Get(f, x, y).id != 0 && Get(f, x, y).dist == 0 ==> Get(g, x, y) == Get(f, x, y))
  }

  lemma KeepsTrans(f: Field, g: Field, h: Field)
    requires f.Valid() && g.Valid() && h.Valid()
    requires Keeps(f, g) && Keeps(g, h)
    ensures Keeps(f, h)
  {
  }

  /** A claim by a real point (id > 0) at a positive distance never loses a claim or a seed. */
  lemma TrySetKeeps(f: Field, x: int, y: int, id: Id, d: nat)
    requires f.Valid() && id > 0 && d > 0
    ensures Keeps(f, TrySet(f, x, y, id, d).0)
  {
  }

  /** The four `try_set` calls around (x, y): left, right, up, down. */
  function Expand(f: Field, x: int, y: int, id: Id, d: nat): (r: (Field, bool))
    requires f.Valid()
    ensures r.0.Valid()
    ensures id > 0 && d > 0 ==> Keeps(f, r.0)
    ensures !r.1 ==> r.0 == f
  {
    var (f1, c1) := TrySet(f, x - 1, y, id, d);
    var (f2, c2) := TrySet(f1, x + 1, y, id, d);
    var (f3, c3) := TrySet(f2, x, y - 1, id, d);
    var (f4, c4) := TrySet(f3, x, y + 1, id, d);
    assert id > 0 && d > 0 ==> Keeps(f, f4) by {
      if id > 0 && d > 0 {
        TrySetKeeps(f, x - 1, y, id, d);
        TrySetKeeps(f1, x + 1, y, id, d);
        TrySetKeeps(f2, x, y - 1, id, d);
        TrySetKeeps(f3, x, y + 1, id, d);
        KeepsTrans(f, f1, f2);
        KeepsTrans(f, f2, f3);
        KeepsTrans(f, f3, f4);
      }
    }
    (f4, c1 || c2 || c3 || c4)
  }

  /**
   * One pass of the flood over `pts` in order: every claimed cell at distance `iter` (read from
   * the grid as it stands at that moment) claims its four neighbours at distance `iter + 1`.
   */
  function Round(f: Field, iter: nat, pts: seq<Point>): (r: (Field, bool))
    requires f.Valid()
    ensures r.0.Valid() && Keeps(f, r.0)
    ensures !r.1 ==> r.0 == f
  {
    if |pts| == 0 then (f, false)
    else
      var (g, changed) := Round(f, iter, pts[..|pts| - 1]);
      var p := pts[|pts| - 1];
      var c := Get(g, p.0, p.1);
      if c.id > 0 && c.dist == iter then
        var (h, more) := Expand(g, p.0, p.1, c.id, c.dist + 1);
        KeepsTrans(f, g, h);
        (h, changed || more)
      else (g, changed)
  }

  /** Every cell of the grid, in the source's `ys()` outer, `xs()` inner order. */
  function RowMajor(f: Field): (r: seq<Point>)
    requires f.Valid()
    ensures |r| == f.width * f.height
    ensures forall i :: 0 <= i < |r| ==> Inside(f, r[i].0, r[i].1)
  {
    var cs := Array2d.Coords(f.width, f.height);
    Array2d.CoordsLayout(f.width, f.height);
    Array2d.DataLayout(Array2d.Generate(f.width, f.height, (x, y) => (x, y)));
    assert forall i :: 0 <= i < |cs| ==> cs[i].0 < f.width && cs[i].1 < f.height by {
      CoordsBounded(f.width, f.height);
    }
    seq(|cs|, i requires 0 <= i < |cs| => (f.x0 + cs[i].0, f.y0 + cs[i].1))
  }

  lemma CoordsBounded(w: nat, h: nat)
    ensures forall i :: 0 <= i < |Array2d.Coords(w, h)| ==>
              Array2d.Coords(w, h)[i].0 < w && Array2d.Coords(w, h)[i].1 < h
  {
    var g := Array2d.Generate(w, h, (x, y) => (x, y));
    FlattenBounded(g.rows, w, h);
  }

  lemma {:induction false} FlattenBounded(rows: seq<seq<(nat, nat)>>, w: nat, h: nat)
    requires forall y, x :: 0 <= y < |rows| && 0 <= x < |rows[y]| ==> rows[y][x].0 < w && rows[y][x].1 < h
    ensures forall i :: 0 <= i < |Array2d.Flatten(rows)| ==> Array2d.Flatten(rows)[i].0 < w && Array2d.Flatten(rows)[i].1 < h
  {
    if |rows| > 0 {
      FlattenBounded(rows[..|rows| - 1], w, h);
      var front: seq<(nat, nat)> := Array2d.Flatten(rows[..|rows| - 1]);
      var last: seq<(nat, nat)> := rows[|rows| - 1];
      assert Array2d.Flatten(rows) == front + last;
      forall i | 0 <= i < |front + last|
        ensures (front + last)[i].0 < w && (front + last)[i].1 < h
      {
        if i >= |front| {
          assert (front + last)[i] == rows[|rows| - 1][i - |front|];
        }
      }
    }
  }

  /**
   * The flood loop: rounds `iter`, `iter + 1`, ... until a round changes nothing. The loop has
   * no bound in the source; `fuel` caps the number of rounds and `None` means it ran out.
   * On success the result is a fixed point: its last round changes nothing.
   */
  function Flood(f: Field, iter: nat, fuel: nat): (r: Option<(Field, nat)>)
    requires f.Valid()
    ensures r.Some? ==> r.value.0.Valid() && Keeps(f, r.value.0)
    ensures r.Some? ==> Round(r.value.0, r.value.1, RowMajor(r.value.0)) == (r.value.0, false)
    decreases fuel
  {
    if fuel == 0 then None
    else
      var (g, changed) := Round(f, iter, RowMajor(f));
      if !changed then Some((g, iter))
      else
        var r := Flood(g, iter + 1, fuel - 1);
        assert r.Some? ==> Keeps(f, r.value.0) by {
          if r.Some? {
            KeepsTrans(f, g, r.value.0);
          }
        }
        r
  }

  /** The bounding box (min x, max x, min y, max y) of a non-empty point list. */
  function Bounds(coords: seq<Point>): (b: (int, int, int, int))
    requires |coords| > 0
    ensures forall i :: 0 <= i < |coords| ==> b.0 <= coords[i].0 <= b.1 && b.2 <= coords[i].1 <= b.3
    ensures exists i :: 0 <= i < |coords| && coords[i].0 == b.0
    ensures exists i :: 0 <= i < |coords| && coords[i].0 == b.1
    ensures exists i :: 0 <= i < |coords| && coords[i].1 == b.2
    ensures exists i :: 0 <= i < |coords| && coords[i].1 == b.3
  {
    var n := |coords| - 1;
    var c := coords[n];
    if n == 0 then (c.0, c.0, c.1, c.1)
    else
      var b := Bounds(coords[..n]);
      var r := (Min(b.0, c.0), Max(b.1, c.0), Min(b.2, c.1), Max(b.3, c.1));
      assert forall i :: 0 <= i < n ==> coords[..n][i] == coords[i];
      r
  }

  /** No later entry of `coords` repeats the point at index i. */
  predicate LastAt(coords: seq<Point>, i: nat)
  {
    i < |coords| && forall j :: i < j < |coords| ==> coords[j] != coords[i]
  }

  /** Writes `(i + 1, 0)` at coordinate i for every i, in order. */
  function Seed(f: Field, coords: seq<Point>): (r: Field)
    requires f.Valid() && |coords| < Tie
    ensures r.Valid() && SameFrame(f, r)
  {
    if |coords| == 0 then f
    else
      var n := |coords| - 1;
      Set(Seed(f, coords[..n]), coords[n].0, coords[n].1, Cell(n + 1, 0))
  }

  /** The last point written at each position inside the grid carries id index + 1 at distance 0. */
  lemma {:induction false} SeedLast(f: Field, coords: seq<Point>)
    requires f.Valid() && |coords| < Tie
    ensures forall i: nat :: LastAt(coords, i) && Inside(f, coords[i].0, coords[i].1) ==>
              Get(Seed(f, coords), coords[i].0, coords[i].1) == Cell(i + 1, 0)
  {
    if |coords| > 0 {
      var n := |coords| - 1;
      SeedLast(f, coords[..n]);
      forall i: nat | LastAt(coords, i) && Inside(f, coords[i].0, coords[i].1)
        ensures Get(Seed(f, coords), coords[i].0, coords[i].1) == Cell(i + 1, 0)
      {
        if i < n {
          assert LastAt(coords[..n], i);
          assert coords[n] != coords[i];
        }
      }
    }
  }

  /** Cells at no listed position keep their values. */
  lemma {:induction false} SeedOthers(f: Field, coords: seq<Point>)
    requires f.Valid() && |coords| < Tie
    ensures forall x, y :: (x, y) !in coords ==> Get(Seed(f, coords), x, y) == Get(f, x, y)
  {
    if |coords| > 0 {
      var n := |coords| - 1;
      SeedOthers(f, coords[..n]);
      forall x, y | (x, y) !in coords
        ensures Get(Seed(f, coords), x, y) == Get(f, x, y)
      {
        assert (x, y) !in coords[..n];
        assert (x, y) != coords[n];
      }
    }
  }

  /**
   * `fill_grid`: the grid spans exactly the bounding box of the points, point i is seeded
   * with id i + 1 at distance 0, and the flood runs to a fixed point. Empty input would make
   * the width overflow in the source, so it is excluded; so are inputs with so many points
   * that the `u32` id `index + 1` would reach the tie marker.
   */
  function FillGrid(coords: seq<Point>, fuel: nat): (r: Option<Field>)
    requires 0 < |coords| < Tie
    ensures r.Some? ==> r.value.Valid()
    ensures r.Some? ==> var b := Bounds(coords);
              r.value.x0 == b.0 && r.value.x0 + r.value.width - 1 == b.1 &&
              r.value.y0 == b.2 && r.value.y0 + r.value.height - 1 == b.3
    ensures r.Some? ==> forall i: nat :: LastAt(coords, i) ==> Get(r.value, coords[i].0, coords[i].1) == Cell(i + 1, 0)
  {
    var b := Bounds(coords);
    var f0 := New(b.0, b.2, b.1 - b.0 + 1, b.3 - b.2 + 1);
    var f1 := Seed(f0, coords);
    SeedLast(f0, coords);
    var flood := Flood(f1, 0, fuel);
    if flood.None? then None
    else
      var g := flood.value.0;
      assert forall i: nat :: LastAt(coords, i) ==> Get(g, coords[i].0, coords[i].1) == Cell(i + 1, 0) by {
        forall i: nat | LastAt(coords, i)
          ensures Get(g, coords[i].0, coords[i].1) == Cell(i + 1, 0)
        {
          assert Inside(f0, coords[i].0, coords[i].1);
          assert Get(f1, coords[i].0, coords[i].1) == Cell(i + 1, 0);
        }
      }
      Some(g)
  }

  /** Ids that name a real point: neither unclaimed nor a tie. */
  predicate Counted(id: nat)
  {
    id != 0 && id != Tie
  }

  /** The ids of a run of cells. */
  function Ids(cells: seq<Cell>): (r: seq<nat>)
    ensures |r| == |cells| && forall i :: 0 <= i < |cells| ==> r[i] == cells[i].id
  {
    seq(|cells|, i requires 0 <= i < |cells| => cells[i].id)
  }

  /**
   * The first loop of `count_areas`: for each counted id in storage order the vector grows
   * with zeros to length id if shorter, then entry id - 1 is bumped. Entry k ends up holding
   * the number of cells with id k + 1, and the vector is exactly as long as the largest id.
   */
  function Tally(cells: seq<Cell>): (r: seq<nat>)
    ensures forall i :: 0 <= i < |cells| && Counted(cells[i].id) ==> cells[i].id <= |r|
    ensures |r| > 0 ==> exists i :: 0 <= i < |cells| && Counted(cells[i].id) && cells[i].id == |r|
    ensures |r| < Tie
    ensures forall k :: 0 <= k < |r| ==> r[k] == CountOf<nat>(Ids(cells), k + 1)
  {
    if |cells| == 0 then []
    else
      var n := |cells| - 1;
      var front := Tally(cells[..n]);
      var id := cells[n].id;
      var ids := Ids(cells);
      assert ids[..n] == Ids(cells[..n]);
      assert forall i :: 0 <= i < n ==> cells[..n][i] == cells[i];
      assert forall v :: CountOf(ids, v) == CountOf<nat>(Ids(cells[..n]), v) + (if id == v then 1 else 0);
      if Counted(id) then
        var grown := if |front| < id then front + seq(id - |front|, _ => 0) else front;
        assert forall k :: |front| <= k < |grown| ==> grown[k] == CountOf<nat>(Ids(cells[..n]), k + 1) by {
          forall k | |front| <= k < |grown|
            ensures grown[k] == CountOf<nat>(Ids(cells[..n]), k + 1)
          {
            AboveTally(cells[..n], |front|, k + 1);
            assert CountOf<nat>(Ids(cells[..n]), k + 1) == 0;
            assert |front| < id;
            assert grown[k] == 0;
          }
        }
        var r := grown[id - 1 := grown[id - 1] + 1];
        assert |r| > 0 ==> cells[n].id == |r| || exists i :: 0 <= i < n && Counted(cells[i].id) && cells[i].id == |r|;
        r
      else front
  }

  /** No cell carries an id above every counted id that is not the tie marker either. */
  lemma AboveTally(cells: seq<Cell>, bound: nat, v: nat)
    requires forall i :: 0 <= i < |cells| && Counted(cells[i].id) ==> cells[i].id <= bound
    requires bound < v < Tie
    ensures CountOf<nat>(Ids(cells), v) == 0
  {
    CountOfIsMultiplicity(Ids(cells), v);
    assert v !in Ids(cells);
  }

  /** `invalid`: a counted id's entry is zeroed; the id is known to have been tallied. */
  function Invalidate(counts: seq<nat>, c: Cell): (r: seq<nat>)
    requires Counted(c.id) ==> c.id <= |counts|
    ensures |r| == |counts|
    ensures forall k :: 0 <= k < |r| ==> r[k] == if Counted(c.id) && k == c.id - 1 then 0 else counts[k]
  {
    if Counted(c.id) then counts[c.id - 1 := 0] else counts
  }

  /** The x = min and x = max cells of the first n rows, in the order the source visits them. */
  function Sides(f: Field, n: nat): (r: seq<Point>)
    requires f.Valid() && n <= f.height
    ensures forall x, y :: (x, y) in r <==> f.y0 <= y < f.y0 + n && (x == f.x0 || x == f.x0 + f.width - 1)
  {
    if n == 0 then []
    else
      var y := f.y0 + n - 1;
      Sides(f, n - 1) + [(f.x0, y), (f.x0 + f.width - 1, y)]
  }

  /** The y = min and y = max cells of the first n columns, in the order the source visits them. */
  function Ends(f: Field, n: nat): (r: seq<Point>)
    requires f.Valid() && n <= f.width
    ensures forall x, y :: (x, y) in r <==> f.x0 <= x < f.x0 + n && (y == f.y0 || y == f.y0 + f.height - 1)
  {
    if n == 0 then []
    else
      var x := f.x0 + n - 1;
      Ends(f, n - 1) + [(x, f.y0), (x, f.y0 + f.height - 1)]
  }

  /** A cell on the outermost ring of the grid. */
  predicate OnEdge(f: Field, x: int, y: int)
  {
    Inside(f, x, y) &&
    (x == f.x0 || x == f.x0 + f.width - 1 || y == f.y0 || y == f.y0 + f.height - 1)
  }

  /** The border walk of `count_areas`: the left and right columns, then the top and bottom rows. */
  function BorderPoints(f: Field): (r: seq<Point>)
    requires f.Valid()
    ensures forall x, y :: (x, y) in r <==> OnEdge(f, x, y)
  {
    var r := Sides(f, f.height) + Ends(f, f.width);
    assert forall x, y :: OnEdge(f, x, y) ==> (x, y) in r by {
      forall x, y | OnEdge(f, x, y)
        ensures (x, y) in r
      {
        if x == f.x0 || x == f.x0 + f.width - 1 {
          assert (x, y) in Sides(f, f.height);
        } else {
          assert (x, y) in Ends(f, f.width);
        }
      }
    }
    r
  }

  /** The cells found at a list of coordinates. */
  function CellsAt(f: Field, pts: seq<Point>): (r: seq<Cell>)
    requires f.Valid()
    ensures |r| == |pts| && forall i :: 0 <= i < |pts| ==> r[i] == Get(f, pts[i].0, pts[i].1)
  {
    seq(|pts|, i requires 0 <= i < |pts| => Get(f, pts[i].0, pts[i].1))
  }

  /** `invalid` over a run of cells, in order: the entry of every counted id among them is zeroed. */
  function InvalidateAll(counts: seq<nat>, cs: seq<Cell>): (r: seq<nat>)
    requires forall i :: 0 <= i < |cs| && Counted(cs[i].id) ==> cs[i].id <= |counts|
    ensures |r| == |counts|
    ensures forall k :: 0 <= k < |r| ==> r[k] == if k + 1 in Ids(cs) && k + 1 != Tie then 0 else counts[k]
  {
    if |cs| == 0 then counts
    else
      var n := |cs| - 1;
      assert forall i :: 0 <= i < n ==> cs[..n][i] == cs[i];
      assert Ids(cs) == Ids(cs[..n]) + [cs[n].id];
      Invalidate(InvalidateAll(counts, cs[..n]), cs[n])
  }

  /** Some cell on the outermost ring carries `id`: that point's area is infinite. */
  ghost predicate OnBorder(f: Field, id: nat)
    requires f.Valid()
  {
    exists x, y :: OnEdge(f, x, y) && Get(f, x, y).id == id
  }

  /** The ids met on the border walk are exactly the ids on the outermost ring. */
  lemma BorderIds(f: Field)
    requires f.Valid()
    ensures forall id: nat :: id in Ids(CellsAt(f, BorderPoints(f))) <==> OnBorder(f, id)
  {
    forall id: nat
      ensures id in Ids(CellsAt(f, BorderPoints(f))) <==> OnBorder(f, id)
    {
      BorderId(f, id);
    }
  }

  lemma BorderId(f: Field, id: nat)
    requires f.Valid()
    ensures id in Ids(CellsAt(f, BorderPoints(f))) <==> OnBorder(f, id)
  {
    var pts := BorderPoints(f);
    var ids := Ids(CellsAt(f, pts));
    if OnBorder(f, id) {
      var x, y :| OnEdge(f, x, y) && Get(f, x, y).id == id;
      assert (x, y) in pts;
      var i :| 0 <= i < |pts| && pts[i] == (x, y);
      assert ids[i] == id;
    }
    if id in ids {
      var i :| 0 <= i < |ids| && ids[i] == id;
      assert pts[i] in pts;
      assert OnEdge(f, pts[i].0, pts[i].1);
    }
  }

  /**
   * `count_areas`: entry k is the number of cells nearest to point k + 1, except that a point
   * whose area reaches the border gets 0; the vector is as long as the largest id in the grid.
   */
  function CountAreas(f: Field): (r: seq<nat>)
    requires f.Valid()
    ensures forall x, y :: Counted(Get(f, x, y).id) ==> Get(f, x, y).id <= |r|
    ensures |r| > 0 ==> |r| in Ids(Array2d.Data(f.cells))
    ensures forall k :: 0 <= k < |r| ==>
              r[k] == if OnBorder(f, k + 1) then 0 else CountOf<nat>(Ids(Array2d.Data(f.cells)), k + 1)
  {
    var counts := Tally(Array2d.Data(f.cells));
    CellsInData(f);
    var border := CellsAt(f, BorderPoints(f));
    BorderIds(f);
    var r := InvalidateAll(counts, border);
    ZeroedAreBorder(f, counts, border, r);
    r
  }

  lemma ZeroedAreBorder(f: Field, counts: seq<nat>, border: seq<Cell>, r: seq<nat>)
    requires f.Valid()
    requires forall i :: 0 <= i < |border| && Counted(border[i].id) ==> border[i].id <= |counts|
    requires |counts| < Tie
    requires r == InvalidateAll(counts, border)
    requires forall id: nat :: id in Ids(border) <==> OnBorder(f, id)
    ensures forall k :: 0 <= k < |r| ==> r[k] == if OnBorder(f, k + 1) then 0 else counts[k]
  {
  }

  /** Every inside cell is stored. */
  lemma CellsInData(f: Field)
    requires f.Valid()
    ensures forall x, y :: Inside(f, x, y) ==> Get(f, x, y) in Array2d.Data(f.cells)
  {
    forall x, y | Inside(f, x, y)
      ensures Get(f, x, y) in Array2d.Data(f.cells)
    {
      assert Get(f, x, y) == Array2d.Data(f.cells)[Array2d.Offset(f.width, x - f.x0, y - f.y0)];
    }
  }

  /**
   * `parse_coords`: each line is already matched against `^(\d+)\s*,\s*(\d+)$` (None when it
   * does not match); any unmatched line, or no lines at all, is an error.
   */
  function ParseCoords(lines: seq<Option<(nat, nat)>>): (r: Result<seq<Point>>)
    ensures r.Ok? <==> |lines| > 0 && forall i :: 0 <= i < |lines| ==> lines[i].Some?
    ensures r.Ok? ==> |r.value| == |lines|
    ensures r.Ok? ==> forall i :: 0 <= i < |lines| ==> r.value[i] == (lines[i].value.0 as int, lines[i].value.1 as int)
  {
    if |lines| == 0 then Err("No coordinates in input")
    else
      var front :- ParseLines(lines);
      Ok(front)
  }

  function ParseLines(lines: seq<Option<(nat, nat)>>): (r: Result<seq<Point>>)
    ensures r.Ok? <==> forall i :: 0 <= i < |lines| ==> lines[i].Some?
    ensures r.Ok? ==> |r.value| == |lines|
    ensures r.Ok? ==> forall i :: 0 <= i < |lines| ==> r.value[i] == (lines[i].value.0 as int, lines[i].value.1 as int)
  {
    if |lines| == 0 then Ok([])
    else
      var n := |lines| - 1;
      var front :- ParseLines(lines[..n]);
      assert forall i :: 0 <= i < n ==> lines[..n][i] == lines[i];
      if lines[n].None? then Err("Failed to parse coord line")
      else Ok(front + [(lines[n].value.0 as int, lines[n].value.1 as int)])
  }

  /** `distance`: the summed Manhattan distance from (x, y) to every point. */
  function Dist(coords: seq<Point>, x: int, y: int): nat
  {
    if |coords| == 0 then 0
    else
      var c := coords[|coords| - 1];
      Dist(coords[..|coords| - 1], x, y) + Abs(x - c.0) + Abs(y - c.1)
  }

  /** The summed distance is at least the distance to any one point. */
  lemma {:induction false} DistAtLeast(coords: seq<Point>, x: int, y: int, i: nat)
    requires i < |coords|
    ensures Dist(coords, x, y) >= Abs(x - coords[i].0) + Abs(y - coords[i].1)
  {
    var n := |coords| - 1;
    if i < n {
      DistAtLeast(coords[..n], x, y, i);
      assert coords[..n][i] == coords[i];
    }
  }

  /** `find_point_inside`: the first point whose summed distance is below the limit. */
  function FindPointInside(coords: seq<Point>, limit: nat): (r: Result<Point>)
    ensures r.Ok? <==> exists i :: 0 <= i < |coords| && Dist(coords, coords[i].0, coords[i].1) < limit
    ensures r.Ok? ==> exists i :: 0 <= i < |coords| && r.value == coords[i] &&
                        Dist(coords, coords[i].0, coords[i].1) < limit &&
                        forall j :: 0 <= j < i ==> Dist(coords, coords[j].0, coords[j].1) >= limit
  {
    FirstInside(coords, limit, 0)
  }

  function FirstInside(coords: seq<Point>, limit: nat, from: nat): (r: Result<Point>)
    requires from <= |coords|
    ensures r.Ok? <==> exists i :: from <= i < |coords| && Dist(coords, coords[i].0, coords[i].1) < limit
    ensures r.Ok? ==> exists i :: from <= i < |coords| && r.value == coords[i] &&
                        Dist(coords, coords[i].0, coords[i].1) < limit &&
                        forall j :: from <= j < i ==> Dist(coords, coords[j].0, coords[j].1) >= limit
    decreases |coords| - from
  {
    if from == |coords| then Err("Failed to find point inside safe area")
    else if Dist(coords, coords[from].0, coords[from].1) < limit then Ok(coords[from])
    else FirstInside(coords, limit, from + 1)
  }

  /** One point's Manhattan distance along a row is convex in x. */
  lemma AbsConvex(a: int, x: int, b: int, c: int)
    requires a <= x <= b
    ensures (b - a) * Abs(x - c) <= (b - x) * Abs(a - c) + (x - a) * Abs(b - c)
  {
    if c <= a {
      assert (b - a) * (x - c) == (b - x) * (a - c) + (x - a) * (b - c);
    } else if c >= b {
      assert (b - a) * (c - x) == (b - x) * (c - a) + (x - a) * (c - b);
    } else if x <= c {
      assert (b - a) * (c - x) <= (b - x) * (c - a) + (x - a) * (b - c);
    } else {
      assert (b - a) * (x - c) <= (b - x) * (c - a) + (x - a) * (b - c);
    }
  }

  /** The summed distance along a row is convex in x. */
  lemma {:induction false} DistConvex(coords: seq<Point>, y: int, a: int, x: int, b: int)
    requires a <= x <= b
    ensures (b - a) * Dist(coords, x, y) <= (b - x) * Dist(coords, a, y) + (x - a) * Dist(coords, b, y)
  {
    if |coords| > 0 {
      var n := |coords| - 1;
      var c := coords[n];
      DistConvex(coords[..n], y, a, x, b);
      AbsConvex(a, x, b, c.0);
      var k := Abs(y - c.1);
      var da, dx, db := Dist(coords[..n], a, y), Dist(coords[..n], x, y), Dist(coords[..n], b, y);
      var ta, tx, tb := Abs(a - c.0), Abs(x - c.0), Abs(b - c.0);
      Distribute(b - a, dx, tx, k);
      Distribute(b - x, da, ta, k);
      Distribute(x - a, db, tb, k);
      SplitFactor(b - a, b - x, x - a, k);
    }
  }

  lemma Distribute(m: int, p: int, q: int, r: int)
    ensures m * (p + q + r) == m * p + m * q + m * r
  {
  }

  lemma SplitFactor(m: int, u: int, v: int, k: int)
    requires m == u + v
    ensures m * k == u * k + v * k
  {
  }

  lemma MulMono(m: int, p: int, q: int)
    requires m >= 0 && p <= q
    ensures m * p <= m * q
  {
  }

  lemma MulCancel(m: int, p: int, q: int)
    requires m > 0 && m * p <= m * q
    ensures p <= q
  {
    if p > q {
      MulMono(m, q + 1, p);
    }
  }

  /** Between two points of a row that are inside the safe region, every point is inside. */
  lemma SafeBetween(coords: seq<Point>, y: int, a: int, x: int, b: int, limit: nat)
    requires a <= x <= b
    requires Dist(coords, a, y) < limit && Dist(coords, b, y) < limit
    ensures Dist(coords, x, y) < limit
  {
    if x == a || x == b {
    } else {
      DistConvex(coords, y, a, x, b);
      var m := limit - 1;
      MulMono(b - x, Dist(coords, a, y), m);
      MulMono(x - a, Dist(coords, b, y), m);
      SplitFactor(b - a, b - x, x - a, m);
      MulCancel(b - a, Dist(coords, x, y), m);
    }
  }

  /** A point closer than the limit in summed distance lies within `limit` of the first point. */
  lemma NearFirst(coords: seq<Point>, x: int, y: int, limit: nat)
    requires |coords| > 0 && Dist(coords, x, y) < limit
    ensures coords[0].0 - limit < x < coords[0].0 + limit
    ensures coords[0].1 - limit < y < coords[0].1 + limit
  {
    DistAtLeast(coords, x, y, 0);
  }

  /** The region is safe at x on row y. */
  predicate Safe(coords: seq<Point>, x: int, y: int, limit: nat)
  {
    Dist(coords, x, y) < limit
  }

  /**
   * `find_inside_span`: from a seed range on row y, the maximal run of safe cells found by
   * sliding each end of the seed. The result `(start, end)` is `left..max(left, right + 1)`,
   * never reversed. When it is not empty it is a whole maximal run: every cell in it is safe
   * and the cells just outside it are not. When it is empty, no cell of the seed was safe.
   * The source never returns when the point list is empty (every cell is then safe), so the
   * list must not be empty; every caller passes a non-empty seed.
   */
  method FindInsideSpan(coords: seq<Point>, y: int, seed: (int, int), limit: nat) returns (span: (int, int))
    requires |coords| > 0 && seed.0 < seed.1
    ensures span.0 <= span.1
    ensures span.0 < span.1 ==> forall x :: span.0 <= x < span.1 ==> Safe(coords, x, y, limit)
    ensures span.0 < span.1 ==> !Safe(coords, span.0 - 1, y, limit) && !Safe(coords, span.1, y, limit)
    ensures span.0 == span.1 ==> forall x :: seed.0 <= x < seed.1 ==> !Safe(coords, x, y, limit)
  {
    var c := coords[0];
    var left := seed.0;
    var right := seed.1 - 1;
    var right0 := right;

    ghost var leftInside := Safe(coords, left, y, limit);
    if Safe(coords, left, y, limit) {
      NearFirst(coords, left, y, limit);
      while Safe(coords, left - 1, y, limit)
        invariant Safe(coords, left, y, limit) && left <= seed.0
        invariant left > c.0 - limit
        decreases left - (c.0 - limit)
      {
        NearFirst(coords, left - 1, y, limit);
        left := left - 1;
      }
    } else {
      left := left + 1;
      while left <= right && !Safe(coords, left, y, limit)
        invariant seed.0 < left <= Max(right + 1, seed.0 + 1)
        invariant forall x :: seed.0 <= x < left ==> !Safe(coords, x, y, limit)
        decreases right + 1 - left
      {
        left := left + 1;
      }
    }
    // left: either the safe seed start pushed down to the run's start, or the first safe seed cell
    assert !Safe(coords, left - 1, y, limit);
    assert leftInside ==> Safe(coords, left, y, limit) && left <= seed.0;
    assert !leftInside ==> forall x :: seed.0 <= x < left ==> !Safe(coords, x, y, limit);
    assert !leftInside ==> left > right0 || Safe(coords, left, y, limit);

    ghost var rightInside := Safe(coords, right, y, limit);
    if Safe(coords, right, y, limit) {
      NearFirst(coords, right, y, limit);
      while Safe(coords, right + 1, y, limit)
        invariant Safe(coords, right, y, limit) && right >= right0
        invariant right < c.0 + limit
        decreases c.0 + limit - right
      {
        NearFirst(coords, right + 1, y, limit);
        right := right + 1;
      }
    } else {
      right := right - 1;
      while right >= left && !Safe(coords, right, y, limit)
        invariant right < right0
        invariant forall x :: right < x <= right0 ==> !Safe(coords, x, y, limit)
        decreases right - left + 1
      {
        right := right - 1;
      }
    }
    assert !Safe(coords, right + 1, y, limit);
    assert rightInside ==> Safe(coords, right, y, limit) && right >= right0;
    assert !rightInside ==> right < left || Safe(coords, right, y, limit);

    span := (left, Max(left, right + 1));
    if left <= right {
      assert Safe(coords, left, y, limit) by {
        if !leftInside && left > right0 {
          assert false;
        }
      }
      forall x | left <= x <= right
        ensures Safe(coords, x, y, limit)
      {
        SafeBetween(coords, y, left, x, right, limit);
      }
    } else {
      assert left > right0 by {
        if left <= right0 {
          assert false;
        }
      }
    }
  }

  /** One row of the safe region as counted: row y, cells lo .. hi - 1. */
  datatype Row = Row(y: int, lo: int, hi: int)

  function Total(rows: seq<Row>): int
  {
    if |rows| == 0 then 0 else Total(rows[..|rows| - 1]) + (rows[|rows| - 1].hi - rows[|rows| - 1].lo)
  }

  /** A row span that is a whole maximal run of safe cells. */
  ghost predicate MaximalRun(coords: seq<Point>, r: Row, limit: nat)
  {
    r.lo < r.hi &&
    (forall x :: r.lo <= x < r.hi ==> Safe(coords, x, r.y, limit)) &&
    !Safe(coords, r.lo - 1, r.y, limit) && !Safe(coords, r.hi, r.y, limit)
  }

  /**
   * `find_inside_area`: an error when no point is itself safe; otherwise the seed row's span
   * around that point plus the spans found row by row upward, then downward, each seeded by
   * the span of the row before, until a row has no safe cell. The result is the total length
   * of a list of rows, each a different row and each a whole maximal run of safe cells.
   */
  method FindInsideArea(coords: seq<Point>, limit: nat) returns (r: Result<nat>, ghost rows: seq<Row>)
    ensures r.Err? <==> FindPointInside(coords, limit).Err?
    ensures r.Ok? ==> r.value >= 1 && r.value == Total(rows)
    ensures r.Ok? ==> forall i :: 0 <= i < |rows| ==> MaximalRun(coords, rows[i], limit)
    ensures r.Ok? ==> forall i, j :: 0 <= i < j < |rows| ==> rows[i].y != rows[j].y
  {
    rows := [];
    var start := FindPointInside(coords, limit);
    if start.Err? {
      return Err(start.msg), rows;
    }
    var (sx, sy) := start.value;
    assert |coords| > 0 && Safe(coords, sx, sy, limit);
    var seed := FindInsideSpan(coords, sy, (sx, sx + 1), limit);
    var sum: nat := seed.1 - seed.0;
    var above, up := Sweep(coords, limit, seed, sy, -1);
    var below, down := Sweep(coords, limit, seed, sy, 1);
    rows := [Row(sy, seed.0, seed.1)] + up + down;
    TotalAppend([Row(sy, seed.0, seed.1)], up);
    TotalAppend([Row(sy, seed.0, seed.1)] + up, down);
    assert Total([Row(sy, seed.0, seed.1)]) == seed.1 - seed.0 by {
      assert [Row(sy, seed.0, seed.1)][..0] == [];
    }
    r := Ok(sum + above + below);
  }

  /**
   * One of the two row-by-row loops of `find_inside_area`: starting from the seed span on row
   * y0, step to row y0 + dy and search from the previous span, adding each span's length,
   * until a row's span is empty. Each row visited is a maximal safe run, in order of distance.
   */
  method Sweep(coords: seq<Point>, limit: nat, seed: (int, int), y0: int, dy: int) returns (sum: nat, ghost rows: seq<Row>)
    requires |coords| > 0 && (dy == 1 || dy == -1)
    requires seed.0 < seed.1 && Safe(coords, seed.0, y0, limit)
    ensures sum == Total(rows)
    ensures forall i :: 0 <= i < |rows| ==> rows[i].y == y0 + (i + 1) * dy
    ensures forall i :: 0 <= i < |rows| ==> MaximalRun(coords, rows[i], limit)
  {
    var c := coords[0];
    sum := 0;
    rows := [];
    var span := seed;
    var y := y0;
    ghost var steps: nat := 0;
    NearFirst(coords, seed.0, y0, limit);
    while span.0 < span.1
      invariant span.0 <= span.1
      invariant y == y0 + steps * dy
      invariant c.1 - limit <= y <= c.1 + limit
      invariant span.0 < span.1 ==> Safe(coords, span.0, y, limit) && |rows| == steps
      invariant |rows| <= steps
      invariant forall i :: 0 <= i < |rows| ==> rows[i].y == y0 + (i + 1) * dy
      invariant forall i :: 0 <= i < |rows| ==> MaximalRun(coords, rows[i], limit)
      invariant sum == Total(rows)
      decreases if dy < 0 then y - (c.1 - limit) else c.1 + limit - y
    {
      NearFirst(coords, span.0, y, limit);
      y := y + dy;
      steps := steps + 1;
      span := FindInsideSpan(coords, y, span, limit);
      sum := sum + (span.1 - span.0);
      if span.0 < span.1 {
        assert Total(rows + [Row(y, span.0, span.1)]) == Total(rows) + (span.1 - span.0) by {
          assert (rows + [Row(y, span.0, span.1)])[..|rows|] == rows;
        }
        rows := rows + [Row(y, span.0, span.1)];
      }
    }
  }

  lemma {:induction false} TotalAppend(a: seq<Row>, b: seq<Row>)
    ensures Total(a + b) == Total(a) + Total(b)
  {
    if |b| == 0 {
      assert a + b == a;
    } else {
      assert (a + b)[..|a + b| - 1] == a + b[..|b| - 1];
      TotalAppend(a, b[..|b| - 1]);
    }
  }

  /** Each non-empty row adds at least one cell. */
  lemma {:induction false} TotalCountsRows(rows: seq<Row>)
    requires forall i :: 0 <= i < |rows| ==> rows[i].lo < rows[i].hi
    ensures Total(rows) >= |rows|
  {
    if |rows| > 0 {
      TotalCountsRows(rows[..|rows| - 1]);
    }
  }
}

=== FILE: day07.dfy ===
/**
 * Step ordering with dependencies. Steps are the letters A..Z, numbered 0..25; the source keeps
 * a set of steps as a `u32` bitmask, modelled here as a `set<Letter>` (bit s set iff s in the
 * set). `compute_order` repeatedly takes the lowest ready step; `simulate` hands ready steps to
 * a pool of workers and counts clock ticks.
 */
module Day07 {
  import opened Common

  type Letter = n: nat | n < 26

  /** `deps[s]`: the steps that must be finished before step s can begin. */
  type Deps = d: seq<set<Letter>> | |d| == 26 witness seq(26, _ => {})

  /** The letters of a sequence of steps, as a set. */
  function Done(o: seq<Letter>): set<Letter>
  {
    set x | x in o
  }

  lemma DoneAppend(o: seq<Letter>, s: Letter)
    ensures Done(o + [s]) == Done(o) + {s}
  {
  }

  /** The step letter printed for step s: `(s as u8 + 65) as char`. */
  function Char(s: Letter): (c: char)
    ensures 'A' <= c <= 'Z'
  {
    (s + 65) as char
  }

  function Letters(o: seq<Letter>): (r: string)
    ensures |r| == |o|
    ensures forall i :: 0 <= i < |o| ==> r[i] == Char(o[i])
  {
    seq(|o|, i requires 0 <= i < |o| => Char(o[i]))
  }

  // ---------------------------------------------------------------------------------------
  // parse_dependencies
  // ---------------------------------------------------------------------------------------

  /** One matched line "Step <dep> must be finished before step <step> can begin." */
  datatype Rule = Rule(dep: Letter, step: Letter)

  datatype Graph = Graph(steps: set<Letter>, deps: Deps)

  /** The loop body: both letters join `steps`, and `dep` joins `deps[step]`. */
  function AddRule(g: Graph, r: Rule): (h: Graph)
    ensures h.steps == g.steps + {r.dep, r.step}
    ensures h.deps[r.step] == g.deps[r.step] + {r.dep}
    ensures forall s: Letter :: s != r.step ==> h.deps[s] == g.deps[s]
  {
    Graph(g.steps + {r.dep, r.step}, g.deps[r.step := g.deps[r.step] + {r.dep}])
  }

  /** The graph before any line: no steps, no dependencies. */
  function Empty(): Graph
  {
    Graph({}, seq(26, _ => {}))
  }

  /** Step s appears on some matched line, as either letter. */
  predicate Mentioned(lines: seq<Option<Rule>>, s: Letter)
  {
    exists i :: 0 <= i < |lines| && lines[i].Some? && (lines[i].value.dep == s || lines[i].value.step == s)
  }

  /** Some matched line says that `dep` must be finished before `step`. */
  predicate Before(lines: seq<Option<Rule>>, dep: Letter, step: Letter)
  {
    exists i :: 0 <= i < |lines| && lines[i] == Some(Rule(dep, step))
  }

  /**
   * `parse_dependencies` over the matched lines (`None` for a line the pattern rejects): an
   * error if any line is unmatched; otherwise the steps are the letters mentioned and
   * `deps[s]` holds exactly the letters some line puts before s.
   */
  function ParseDependencies(lines: seq<Option<Rule>>): (r: Result<Graph>)
    ensures r.Ok? <==> forall i :: 0 <= i < |lines| ==> lines[i].Some?
  {
    if |lines| == 0 then Ok(Empty())
    else
      var g :- ParseDependencies(lines[..|lines| - 1]);
      if lines[|lines| - 1].None? then Err("Failed to parse line")
      else Ok(AddRule(g, lines[|lines| - 1].value))
  }

  /** A step is mentioned by lines plus one more line when the earlier lines or the new one mention it. */
  lemma MentionedSnoc(lines: seq<Option<Rule>>, s: Letter)
    requires |lines| > 0 && lines[|lines| - 1].Some?
    ensures var n := |lines| - 1;
            Mentioned(lines, s) <==> Mentioned(lines[..n], s) || lines[n].value.dep == s || lines[n].value.step == s
  {
    var n := |lines| - 1;
    if Mentioned(lines, s) {
      var i :| 0 <= i < |lines| && lines[i].Some? && (lines[i].value.dep == s || lines[i].value.step == s);
      if i < n {
        assert lines[..n][i] == lines[i];
      }
    }
    if Mentioned(lines[..n], s) {
      var i :| 0 <= i < n && lines[..n][i].Some? && (lines[..n][i].value.dep == s || lines[..n][i].value.step == s);
      assert lines[i] == lines[..n][i];
    }
  }

  /** The same for the rules a sequence of lines states. */
  lemma BeforeSnoc(lines: seq<Option<Rule>>, d: Letter, s: Letter)
    requires |lines| > 0
    ensures var n := |lines| - 1;
            Before(lines, d, s) <==> Before(lines[..n], d, s) || lines[n] == Some(Rule(d, s))
  {
    var n := |lines| - 1;
    if Before(lines, d, s) {
      var i :| 0 <= i < |lines| && lines[i] == Some(Rule(d, s));
      if i < n {
        assert lines[..n][i] == lines[i];
      }
    }
    if Before(lines[..n], d, s) {
      var i :| 0 <= i < n && lines[..n][i] == Some(Rule(d, s));
      assert lines[i] == lines[..n][i];
    }
  }

  lemma {:induction false} ParseStepsMeaning(lines: seq<Option<Rule>>)
    requires ParseDependencies(lines).Ok?
    ensures forall s: Letter :: s in ParseDependencies(lines).value.steps <==> Mentioned(lines, s)
  {
    if |lines| > 0 {
      var n := |lines| - 1;
      ParseStepsMeaning(lines[..n]);
      var g := ParseDependencies(lines[..n]).value;
      assert ParseDependencies(lines).value == AddRule(g, lines[n].value);
      forall s: Letter
        ensures Mentioned(lines, s) <==> Mentioned(lines[..n], s) || lines[n].value.dep == s || lines[n].value.step == s
      {
        MentionedSnoc(lines, s);
      }
    }
  }

  lemma {:induction false} ParseDepsMeaning(lines: seq<Option<Rule>>)
    requires ParseDependencies(lines).Ok?
    ensures forall s: Letter, d: Letter :: d in ParseDependencies(lines).value.deps[s] <==> Before(lines, d, s)
  {
    if |lines| > 0 {
      var n := |lines| - 1;
      ParseDepsMeaning(lines[..n]);
      var g := ParseDependencies(lines[..n]).value;
      assert ParseDependencies(lines).value == AddRule(g, lines[n].value);
      forall s: Letter, d: Letter
        ensures Before(lines, d, s) <==> Before(lines[..n], d, s) || lines[n] == Some(Rule(d, s))
      {
        BeforeSnoc(lines, d, s);
      }
    }
  }

  // ---------------------------------------------------------------------------------------
  // compute_order
  // ---------------------------------------------------------------------------------------

  /** The predicate of `(0..26).find`: s is a step, not yet taken, whose dependencies are done. */
  predicate Ready(g: Graph, taken: set<Letter>, completed: set<Letter>, s: Letter)
  {
    s in g.steps && s !in taken && g.deps[s] <= completed
  }

  /** `(0..26).find(...)` started at `from`: the lowest ready letter. */
  function FindReady(g: Graph, taken: set<Letter>, completed: set<Letter>, from: nat): (r: Option<Letter>)
    requires from <= 26
    ensures r.Some? ==> from <= r.value && Ready(g, taken, completed, r.value)
    ensures r.Some? ==> forall t: Letter :: from <= t < r.value ==> !Ready(g, taken, completed, t)
    ensures r.None? ==> forall t: Letter :: from <= t ==> !Ready(g, taken, completed, t)
    decreases 26 - from
  {
    if from == 26 then None
    else if Ready(g, taken, completed, from) then Some(from)
    else FindReady(g, taken, completed, from + 1)
  }

  /** Step i of o is the greedy choice: the lowest step ready once o[..i] is completed. */
  predicate GreedyAt(g: Graph, o: seq<Letter>, i: int)
    requires 0 <= i < |o|
  {
    Ready(g, Done(o[..i]), Done(o[..i]), o[i])
    && forall t: Letter :: t < o[i] ==> !Ready(g, Done(o[..i]), Done(o[..i]), t)
  }

  /** The `while completed != steps` loop, with `done` the steps pushed to the result so far. */
  function Order(g: Graph, done: seq<Letter>): (r: Result<seq<Letter>>)
    requires Done(done) <= g.steps
    ensures r.Ok? ==> |done| <= |r.value| && r.value[..|done|] == done
    decreases |g.steps - Done(done)|
  {
    if Done(done) == g.steps then Ok(done)
    else match FindReady(g, Done(done), Done(done), 0)
      case None => Err("Can't make progress after steps: " + Letters(done))
      case Some(s) =>
        DoneAppend(done, s);
        assert (g.steps - Done(done + [s])) + {s} == g.steps - Done(done);
        var r := Order(g, done + [s]);
        assert r.Ok? ==> r.value[..|done|] == done by {
          if r.Ok? {
            assert r.value[..|done|] == r.value[..|done| + 1][..|done|];
          }
        }
        r
  }

  /** Every step the loop appends is the lowest ready one, and on success all steps are done. */
  lemma {:induction false} OrderGreedy(g: Graph, done: seq<Letter>)
    requires Done(done) <= g.steps
    ensures Order(g, done).Ok? ==> Done(Order(g, done).value) == g.steps
    ensures Order(g, done).Ok? ==> forall i :: |done| <= i < |Order(g, done).value| ==> GreedyAt(g, Order(g, done).value, i)
    decreases |g.steps - Done(done)|
  {
    if Done(done) != g.steps && FindReady(g, Done(done), Done(done), 0).Some? {
      var s := FindReady(g, Done(done), Done(done), 0).value;
      Progress(g, done, s);
      OrderGreedy(g, done + [s]);
      var r := Order(g, done + [s]);
      assert Order(g, done) == r;
      if r.Ok? {
        GreedyNext(g, done, s, r.value);
      }
    }
  }

  /** Pushing a ready step leaves fewer steps to do. */
  lemma Progress(g: Graph, done: seq<Letter>, s: Letter)
    requires Done(done) <= g.steps && s in g.steps && s !in Done(done)
    ensures Done(done + [s]) <= g.steps
    ensures |g.steps - Done(done + [s])| < |g.steps - Done(done)|
  {
    DoneAppend(done, s);
    assert (g.steps - Done(done + [s])) + {s} == g.steps - Done(done);
  }

  /** The lowest ready step, pushed after `done`, is the greedy choice at its position. */
  lemma GreedyNext(g: Graph, done: seq<Letter>, s: Letter, o: seq<Letter>)
    requires FindReady(g, Done(done), Done(done), 0) == Some(s)
    requires |done| + 1 <= |o| && o[..|done| + 1] == done + [s]
    ensures GreedyAt(g, o, |done|)
  {
    assert o[..|done|] == o[..|done| + 1][..|done|];
    assert o[|done|] == (done + [s])[|done|];
  }

  /** `compute_order`: the greedy order, printed as letters, or the error when stuck. */
  function ComputeOrder(g: Graph): (r: Result<string>)
    ensures r.Ok? <==> Order(g, []).Ok?
    ensures r.Ok? ==> r.value == Letters(Order(g, []).value)
  {
    var o :- Order(g, []);
    Ok(Letters(o))
  }

  /** Each step of o comes once, after all of its dependencies. */
  predicate Sequenced(g: Graph, o: seq<Letter>)
  {
    forall i :: 0 <= i < |o| ==> o[i] !in Done(o[..i]) && g.deps[o[i]] <= Done(o[..i])
  }

  /** A schedule: every step exactly once, each after all of its dependencies. */
  predicate Schedule(g: Graph, o: seq<Letter>)
  {
    Done(o) == g.steps && Sequenced(g, o)
  }

  lemma {:induction false} DistinctLength(o: seq<Letter>)
    requires forall i :: 0 <= i < |o| ==> o[i] !in Done(o[..i])
    ensures |Done(o)| == |o|
  {
    if |o| > 0 {
      var n := |o| - 1;
      forall i | 0 <= i < n
        ensures o[..n][i] !in Done(o[..n][..i])
      {
        assert o[..n][..i] == o[..i];
      }
      DistinctLength(o[..n]);
      assert o == o[..n] + [o[n]];
      DoneAppend(o[..n], o[n]);
    }
  }

  /** The greedy order is a schedule, so it lists each step exactly once. */
  lemma OrderIsSchedule(g: Graph)
    ensures Order(g, []).Ok? ==> Schedule(g, Order(g, []).value)
    ensures Order(g, []).Ok? ==> |Order(g, []).value| == |g.steps|
  {
    OrderGreedy(g, []);
    if Order(g, []).Ok? {
      var o := Order(g, []).value;
      forall i | 0 <= i < |o|
        ensures o[i] !in Done(o[..i]) && g.deps[o[i]] <= Done(o[..i])
      {
        assert GreedyAt(g, o, i);
      }
      DistinctLength(o);
    }
  }

  /** Whenever some schedule exists, the greedy loop never gets stuck. */
  lemma {:induction false} GreedySucceeds(g: Graph, done: seq<Letter>, sched: seq<Letter>)
    requires Done(done) <= g.steps
    requires Schedule(g, sched)
    ensures Order(g, done).Ok?
    decreases |g.steps - Done(done)|
  {
    if Done(done) != g.steps {
      // the first scheduled step not yet done is ready
      var x :| x in g.steps && x !in Done(done);
      assert x in Done(sched);
      var j := 0;
      while sched[j] in Done(done)
        invariant 0 <= j < |sched| && x in sched[j..]
        invariant forall k :: 0 <= k < j ==> sched[k] in Done(done)
        decreases |sched| - j
      {
        j := j + 1;
      }
      assert Done(sched[..j]) <= Done(done) by {
        forall x | x in Done(sched[..j])
          ensures x in Done(done)
        {
          var k :| 0 <= k < j && sched[k] == x;
        }
      }
      assert Ready(g, Done(done), Done(done), sched[j]);
      var s := FindReady(g, Done(done), Done(done), 0).value;
      DoneAppend(done, s);
      assert (g.steps - Done(done + [s])) + {s} == g.steps - Done(done);
      GreedySucceeds(g, done + [s], sched);
    }
  }

  /** `compute_order` fails exactly when the dependencies admit no schedule (a cycle, or a dependency that is not a step). */
  lemma ComputeOrderFailsIffUnschedulable(g: Graph)
    ensures ComputeOrder(g).Err? <==> forall o :: !Schedule(g, o)
  {
    OrderIsSchedule(g);
    if ComputeOrder(g).Err? {
      forall o
        ensures !Schedule(g, o)
      {
        if Schedule(g, o) {
          GreedySucceeds(g, [], o);
        }
      }
    }
  }

  // ---------------------------------------------------------------------------------------
  // simulate
  // ---------------------------------------------------------------------------------------

  /** A worker: its task (`0` in the source, `None` here, when idle) and the tick it ends at. */
  datatype Worker = Worker(task: Option<Letter>, end: nat)

  datatype Sim = Sim(completed: set<Letter>, taken: set<Letter>, clock: nat, workers: seq<Worker>)

  /** The tasks being worked on. */
  function Busy(ws: seq<Worker>): set<Letter>
  {
    if |ws| == 0 then {}
    else (if ws[0].task.Some? then {ws[0].task.value} else {}) + Busy(ws[1..])
  }

  /** No two workers hold the same task. */
  predicate DistinctTasks(ws: seq<Worker>)
  {
    |ws| == 0
    || ((ws[0].task.Some? ==> ws[0].task.value !in Busy(ws[1..])) && DistinctTasks(ws[1..]))
  }

  /** Every busy worker finishes strictly after `clock`. */
  predicate EndsAfter(ws: seq<Worker>, clock: nat)
  {
    forall i :: 0 <= i < |ws| && ws[i].task.Some? ==> ws[i].end > clock
  }

  /**
   * The first `for` loop: each idle worker, in order, takes the lowest ready step not yet
   * taken; the step ends at `clock + step + dur`, where `dur` is `base_time + 1`.
   */
  function Assign(g: Graph, completed: set<Letter>, clock: nat, dur: nat, taken: set<Letter>, ws: seq<Worker>)
    : (r: (seq<Worker>, set<Letter>))
    ensures |r.0| == |ws|
    decreases |ws|
  {
    if |ws| == 0 then ([], taken)
    else
      var (w, taken1) := Start(g, completed, clock, dur, taken, ws[0]);
      var rest := Assign(g, completed, clock, dur, taken1, ws[1..]);
      ([w] + rest.0, rest.1)
  }

  /** One iteration of the first loop: an idle worker takes the lowest ready step, if any. */
  function Start(g: Graph, completed: set<Letter>, clock: nat, dur: nat, taken: set<Letter>, w: Worker)
    : (r: (Worker, set<Letter>))
    ensures w.task.Some? ==> r == (w, taken)
    ensures w.task.None? && r.0.task.Some? ==>
      var s := r.0.task.value;
      Ready(g, taken, completed, s) && r.0.end == clock + s + dur && r.1 == taken + {s}
    ensures r.0.task.None? ==> r == (w, taken) && forall t: Letter :: !Ready(g, taken, completed, t)
  {
    if w.task.Some? then (w, taken)
    else match FindReady(g, taken, completed, 0)
      case Some(s) => (Worker(Some(s), clock + s + dur), taken + {s})
      case None => (w, taken)
  }

  lemma AssignCons(g: Graph, completed: set<Letter>, clock: nat, dur: nat, taken: set<Letter>, w: Worker, ws: seq<Worker>)
    ensures Assign(g, completed, clock, dur, taken, [w] + ws) ==
      var (w1, taken1) := Start(g, completed, clock, dur, taken, w);
      var rest := Assign(g, completed, clock, dur, taken1, ws);
      ([w1] + rest.0, rest.1)
  {
    assert ([w] + ws)[0] == w && ([w] + ws)[1..] == ws;
  }

  /**
   * What the first loop does: busy workers keep their task; an idle worker either starts a
   * step that was ready, not yet taken, ending at `clock + step + dur`, or stays idle because
   * no step is ready; the taken set grows by exactly the started steps.
   */
  lemma {:induction false} AssignFacts(g: Graph, completed: set<Letter>, clock: nat, dur: nat, taken: set<Letter>, ws: seq<Worker>)
    ensures var r := Assign(g, completed, clock, dur, taken, ws);
      && (forall i :: 0 <= i < |ws| && ws[i].task.Some? ==> r.0[i] == ws[i])
      && (forall i :: 0 <= i < |ws| && ws[i].task.None? && r.0[i].task.Some? ==>
            Ready(g, taken, completed, r.0[i].task.value) && r.0[i].end == clock + r.0[i].task.value + dur)
      && (forall i :: 0 <= i < |ws| && ws[i].task.None? && r.0[i].task.None? ==>
            r.0[i] == ws[i] && forall t: Letter :: !Ready(g, r.1, completed, t))
      && taken <= r.1
      && (forall s :: s in r.1 - taken ==> s in g.steps && g.deps[s] <= completed)
      && (forall s :: s in Busy(r.0) ==> s in Busy(ws) || s !in taken)
      && Busy(ws) <= Busy(r.0)
      && (Busy(ws) <= taken ==> r.1 == taken + Busy(r.0))
      && (Busy(ws) <= taken && DistinctTasks(ws) ==> DistinctTasks(r.0))
    decreases |ws|
  {
    if |ws| > 0 {
      var (w, taken1) := Start(g, completed, clock, dur, taken, ws[0]);
      AssignFacts(g, completed, clock, dur, taken1, ws[1..]);
      var rest := Assign(g, completed, clock, dur, taken1, ws[1..]);
      var r := Assign(g, completed, clock, dur, taken, ws);
      assert r == ([w] + rest.0, rest.1);
      assert r.0[1..] == rest.0;
      assert forall t: Letter :: Ready(g, rest.1, completed, t) ==> Ready(g, taken1, completed, t);
      assert forall i :: 1 <= i < |ws| ==> r.0[i] == rest.0[i - 1] && ws[i] == ws[1..][i - 1];
    }
  }

  /** The second `for` loop: every busy worker whose end time is `clock` completes its task. */
  function Complete(ws: seq<Worker>, clock: nat, completed: set<Letter>): (r: (seq<Worker>, set<Letter>))
    ensures |r.0| == |ws|
    decreases |ws|
  {
    if |ws| == 0 then ([], completed)
    else
      var (w, completed1) := Finish(ws[0], clock, completed);
      var rest := Complete(ws[1..], clock, completed1);
      ([w] + rest.0, rest.1)
  }

  /** One iteration of the second loop: a worker due at `clock` goes idle and its task is done. */
  function Finish(w: Worker, clock: nat, completed: set<Letter>): (r: (Worker, set<Letter>))
    ensures w.task.Some? && w.end == clock ==> r == (Worker(None, w.end), completed + {w.task.value})
    ensures !(w.task.Some? && w.end == clock) ==> r == (w, completed)
  {
    if w.task.Some? && w.end == clock then (Worker(None, w.end), completed + {w.task.value})
    else (w, completed)
  }

  lemma CompleteCons(w: Worker, ws: seq<Worker>, clock: nat, completed: set<Letter>)
    ensures Complete([w] + ws, clock, completed) ==
      var (w1, completed1) := Finish(w, clock, completed);
      var rest := Complete(ws, clock, completed1);
      ([w1] + rest.0, rest.1)
  {
    assert ([w] + ws)[0] == w && ([w] + ws)[1..] == ws;
  }

  /**
   * What the second loop does: exactly the workers due at `clock` go idle, and their tasks,
   * and nothing else, join the completed set.
   */
  lemma {:induction false} CompleteFacts(ws: seq<Worker>, clock: nat, completed: set<Letter>)
    ensures var r := Complete(ws, clock, completed);
      && (forall i :: 0 <= i < |ws| && ws[i].task.Some? && ws[i].end == clock ==> r.0[i] == Worker(None, ws[i].end))
      && (forall i :: 0 <= i < |ws| && !(ws[i].task.Some? && ws[i].end == clock) ==> r.0[i] == ws[i])
      && Busy(r.0) <= Busy(ws)
      && completed <= r.1 <= completed + Busy(ws)
      && (DistinctTasks(ws) ==> r.1 == completed + (Busy(ws) - Busy(r.0)))
      && (DistinctTasks(ws) ==> DistinctTasks(r.0))
    decreases |ws|
  {
    if |ws| > 0 {
      var (w, completed1) := Finish(ws[0], clock, completed);
      CompleteFacts(ws[1..], clock, completed1);
      var rest := Complete(ws[1..], clock, completed1);
      var r := Complete(ws, clock, completed);
      assert r.0[1..] == rest.0;
      assert forall i :: 1 <= i < |ws| ==> r.0[i] == rest.0[i - 1] && ws[i] == ws[1..][i - 1];
    }
  }

  /** One iteration of the `while completed != steps` loop. */
  function Tick(g: Graph, dur: nat, st: Sim): Sim
  {
    var (ws1, taken1) := Assign(g, st.completed, st.clock, dur, st.taken, st.workers);
    var (ws2, completed2) := Complete(ws1, st.clock + 1, st.completed);
    Sim(completed2, taken1, st.clock + 1, ws2)
  }

  /**
   * The scheduling invariant: completed and taken steps are steps, the steps taken but not
   * completed are exactly the busy workers' tasks, no task is held by two workers, every busy
   * worker started only once its dependencies were complete, and finishes after the clock.
   */
  predicate Inv(g: Graph, st: Sim)
  {
    st.completed <= st.taken <= g.steps
    && st.taken == st.completed + Busy(st.workers)
    && st.completed !! Busy(st.workers)
    && DistinctTasks(st.workers)
    && (forall s :: s in Busy(st.workers) ==> g.deps[s] <= st.completed)
    && EndsAfter(st.workers, st.clock)
  }

  lemma {:induction false} BusyMember(ws: seq<Worker>, s: Letter)
    ensures s in Busy(ws) <==> exists i :: 0 <= i < |ws| && ws[i].task == Some(s)
  {
    if |ws| > 0 {
      BusyMember(ws[1..], s);
      if s in Busy(ws[1..]) {
        var i :| 0 <= i < |ws| - 1 && ws[1..][i].task == Some(s);
        assert ws[i + 1].task == Some(s);
      }
      if exists i :: 0 <= i < |ws| && ws[i].task == Some(s) {
        var i :| 0 <= i < |ws| && ws[i].task == Some(s);
        if i > 0 {
          assert ws[1..][i - 1].task == Some(s);
        }
      }
    }
  }

  /** Every worker still busy after a tick finishes after the new clock. */
  lemma TickEndsAfter(g: Graph, dur: nat, st: Sim)
    requires dur >= 1
    requires Inv(g, st)
    ensures EndsAfter(Tick(g, dur, st).workers, st.clock + 1)
  {
    var (ws1, taken1) := Assign(g, st.completed, st.clock, dur, st.taken, st.workers);
    var (ws2, completed2) := Complete(ws1, st.clock + 1, st.completed);
    assert Tick(g, dur, st).workers == ws2;
    AssignFacts(g, st.completed, st.clock, dur, st.taken, st.workers);
    CompleteFacts(ws1, st.clock + 1, st.completed);
    forall i | 0 <= i < |ws2| && ws2[i].task.Some?
      ensures ws2[i].end > st.clock + 1
    {
      assert ws2[i] == ws1[i];
      if st.workers[i].task.Some? {
        assert ws1[i] == st.workers[i];
      }
    }
  }

  /** No task is assigned twice, nothing completes early, and the invariant survives a tick. */
  lemma TickKeepsInv(g: Graph, dur: nat, st: Sim)
    requires dur >= 1
    requires Inv(g, st)
    ensures Inv(g, Tick(g, dur, st))
    ensures st.completed <= Tick(g, dur, st).completed
    ensures st.taken <= Tick(g, dur, st).taken
    ensures forall s :: s in Tick(g, dur, st).completed - st.completed ==> g.deps[s] <= st.completed
  {
    var (ws1, taken1) := Assign(g, st.completed, st.clock, dur, st.taken, st.workers);
    var (ws2, completed2) := Complete(ws1, st.clock + 1, st.completed);
    assert Tick(g, dur, st) == Sim(completed2, taken1, st.clock + 1, ws2);
    AssignFacts(g, st.completed, st.clock, dur, st.taken, st.workers);
    CompleteFacts(ws1, st.clock + 1, st.completed);
    TickEndsAfter(g, dur, st);
    assert taken1 == st.taken + Busy(ws1);
    assert completed2 == st.completed + (Busy(ws1) - Busy(ws2));
    assert taken1 == completed2 + Busy(ws2);
  }

  /** The `while completed != steps` loop, bounded by `fuel` ticks; `None` when fuel runs out. */
  function SimLoop(g: Graph, dur: nat, st: Sim, fuel: nat): Option<nat>
    decreases fuel
  {
    if st.completed == g.steps then Some(st.clock)
    else if fuel == 0 then None
    else SimLoop(g, dur, Tick(g, dur, st), fuel - 1)
  }

  function Idle(n: nat): (ws: seq<Worker>)
    ensures |ws| == n && Busy(ws) == {} && DistinctTasks(ws)
    ensures forall i :: 0 <= i < n ==> ws[i] == Worker(None, 0)
  {
    if n == 0 then [] else [Worker(None, 0)] + Idle(n - 1)
  }

  /** `simulate(steps, deps, num_workers, base_time)`, run for at most `fuel` ticks. */
  function Simulate(g: Graph, numWorkers: nat, baseTime: nat, fuel: nat): (r: Option<nat>)
  {
    SimLoop(g, baseTime + 1, Sim({}, {}, 0, Idle(numWorkers)), fuel)
  }

  /** A log stays sequenced when a new step whose dependencies it holds is appended. */
  lemma SequencedSnoc(g: Graph, o: seq<Letter>, x: Letter)
    requires Sequenced(g, o)
    requires x !in Done(o) && g.deps[x] <= Done(o)
    ensures Sequenced(g, o + [x])
  {
    var o1 := o + [x];
    assert o1[..|o|] == o;
    forall i | 0 <= i < |o1|
      ensures o1[i] !in Done(o1[..i]) && g.deps[o1[i]] <= Done(o1[..i])
    {
      if i < |o| {
        assert o1[..i] == o[..i];
      }
    }
  }

  /** Extends a log of completed steps by a set of steps whose dependencies it already holds. */
  lemma ExtendLog(g: Graph, o: seq<Letter>, f: set<Letter>) returns (o2: seq<Letter>)
    requires Sequenced(g, o)
    requires f !! Done(o)
    requires forall s :: s in f ==> g.deps[s] <= Done(o)
    ensures Sequenced(g, o2) && Done(o2) == Done(o) + f
    decreases f
  {
    if f == {} {
      o2 := o;
    } else {
      var x :| x in f;
      SequencedSnoc(g, o, x);
      DoneAppend(o, x);
      o2 := ExtendLog(g, o + [x], f - {x});
    }
  }

  /** The steps completed so far, in completion order, respect the dependencies. */
  lemma {:induction false} SimLoopLog(g: Graph, dur: nat, st: Sim, fuel: nat, o: seq<Letter>) returns (sched: seq<Letter>)
    requires dur >= 1 && Inv(g, st)
    requires Sequenced(g, o) && Done(o) == st.completed
    requires SimLoop(g, dur, st, fuel).Some?
    ensures Schedule(g, sched)
    decreases fuel
  {
    if st.completed == g.steps {
      sched := o;
    } else {
      var st2 := Tick(g, dur, st);
      var o2 := LogTick(g, dur, st, o);
      sched := SimLoopLog(g, dur, st2, fuel - 1, o2);
    }
  }

  /** The steps one tick completes, appended to the log, keep it a valid order of the completed steps. */
  lemma LogTick(g: Graph, dur: nat, st: Sim, o: seq<Letter>) returns (o2: seq<Letter>)
    requires dur >= 1 && Inv(g, st)
    requires Sequenced(g, o) && Done(o) == st.completed
    ensures Inv(g, Tick(g, dur, st))
    ensures Sequenced(g, o2) && Done(o2) == Tick(g, dur, st).completed
  {
    var st2 := Tick(g, dur, st);
    TickKeepsInv(g, dur, st);
    var f := st2.completed - st.completed;
    assert forall x :: x in f ==> g.deps[x] <= Done(o);
    o2 := ExtendLog(g, o, f);
  }

  /** A simulation that finishes has found an order for all steps, so `compute_order` succeeds too. */
  lemma SimulateFinishedIsOrdered(g: Graph, numWorkers: nat, baseTime: nat, fuel: nat)
    ensures Simulate(g, numWorkers, baseTime, fuel).Some? ==> ComputeOrder(g).Ok?
  {
    if Simulate(g, numWorkers, baseTime, fuel).Some? {
      var sched := SimLoopLog(g, baseTime + 1, Sim({}, {}, 0, Idle(numWorkers)), fuel, []);
      GreedySucceeds(g, [], sched);
    }
  }

  /** The time one worker spends on the steps of o, each taking `step + dur` ticks. */
  function Duration(o: seq<Letter>, dur: nat): nat
  {
    if |o| == 0 then 0 else o[0] + dur + Duration(o[1..], dur)
  }

  /** A worker busy with s until `end` finishes it at `end`, and nothing else happens meanwhile. */
  lemma {:induction false} OneWorkerBusy(g: Graph, dur: nat, c: set<Letter>, s: Letter, clock: nat, end: nat, fuel: nat)
    requires s in g.steps && s !in c
    requires end > clock
    ensures SimLoop(g, dur, Sim(c, c + {s}, clock, [Worker(Some(s), end)]), fuel)
      == if fuel >= end - clock then SimLoop(g, dur, Sim(c + {s}, c + {s}, end, [Worker(None, end)]), fuel - (end - clock))
         else None
    decreases end - clock
  {
    var st := Sim(c, c + {s}, clock, [Worker(Some(s), end)]);
    assert st.completed != g.steps;
    if fuel > 0 {
      TickOne(g, dur, c, c + {s}, clock, Worker(Some(s), end));
      var st2 := Tick(g, dur, st);
      assert SimLoop(g, dur, st, fuel) == SimLoop(g, dur, st2, fuel - 1);
      if end == clock + 1 {
        assert st2 == Sim(c + {s}, c + {s}, end, [Worker(None, end)]);
      } else {
        assert st2 == Sim(c, c + {s}, clock + 1, [Worker(Some(s), end)]);
        OneWorkerBusy(g, dur, c, s, clock + 1, end, fuel - 1);
      }
    }
  }

  /** One tick of a lone worker: it takes the lowest ready step if idle, then finishes if due. */
  lemma TickOne(g: Graph, dur: nat, c: set<Letter>, taken: set<Letter>, clock: nat, w: Worker)
    ensures Tick(g, dur, Sim(c, taken, clock, [w])) ==
      var (w1, taken1) := Start(g, c, clock, dur, taken, w);
      var (w2, c2) := Finish(w1, clock + 1, c);
      Sim(c2, taken1, clock + 1, [w2])
  {
    AssignCons(g, c, clock, dur, taken, w, []);
    assert [w] + [] == [w];
    var (w1, taken1) := Start(g, c, clock, dur, taken, w);
    CompleteCons(w1, [], clock + 1, c);
    assert [w1] + [] == [w1];
  }

  /** An idle lone worker that cannot start any step waits forever. */
  lemma {:induction false} OneWorkerStuck(g: Graph, dur: nat, c: set<Letter>, clock: nat, end: nat, fuel: nat)
    requires c != g.steps
    requires FindReady(g, c, c, 0).None?
    ensures SimLoop(g, dur, Sim(c, c, clock, [Worker(None, end)]), fuel).None?
    decreases fuel
  {
    if fuel > 0 {
      TickOne(g, dur, c, c, clock, Worker(None, end));
      OneWorkerStuck(g, dur, c, clock + 1, end, fuel - 1);
    }
  }

  /** From an idle state, a lone worker follows the greedy order, one step after another. */
  lemma {:induction false} OneWorkerIdle(g: Graph, dur: nat, done: seq<Letter>, clock: nat, end: nat, fuel: nat)
    requires dur >= 1 && Done(done) <= g.steps
    requires SimLoop(g, dur, Sim(Done(done), Done(done), clock, [Worker(None, end)]), fuel).Some?
    ensures Order(g, done).Ok?
    ensures SimLoop(g, dur, Sim(Done(done), Done(done), clock, [Worker(None, end)]), fuel).value
      == clock + Duration(Order(g, done).value[|done|..], dur)
    decreases fuel
  {
    var c := Done(done);
    if c != g.steps {
      match FindReady(g, c, c, 0)
      case None =>
        OneWorkerStuck(g, dur, c, clock, end, fuel);
        assert false;
      case Some(s) =>
        OneWorkerStart(g, dur, done, clock, end, fuel, s);
        var fin := clock + s + dur;
        DoneAppend(done, s);
        OneWorkerIdle(g, dur, done + [s], fin, fin, fuel - (s + dur));
        var o := Order(g, done + [s]).value;
        assert Order(g, done) == Order(g, done + [s]);
        assert o[|done|] == (done + [s])[|done|] by {
          assert o[..|done| + 1] == done + [s];
        }
        assert o[|done|..][1..] == o[|done| + 1..];
        assert Duration(o[|done|..], dur) == s + dur + Duration(o[|done| + 1..], dur);
    }
  }

  /** The lone worker starts the lowest ready step s and is idle again `s + dur` ticks later. */
  lemma OneWorkerStart(g: Graph, dur: nat, done: seq<Letter>, clock: nat, end: nat, fuel: nat, s: Letter)
    requires dur >= 1 && Done(done) <= g.steps && Done(done) != g.steps
    requires FindReady(g, Done(done), Done(done), 0) == Some(s)
    ensures fuel >= s + dur ==> (
      SimLoop(g, dur, Sim(Done(done), Done(done), clock, [Worker(None, end)]), fuel)
      == SimLoop(g, dur, Sim(Done(done + [s]), Done(done + [s]), clock + s + dur, [Worker(None, clock + s + dur)]), fuel - (s + dur)))
    ensures fuel < s + dur ==> SimLoop(g, dur, Sim(Done(done), Done(done), clock, [Worker(None, end)]), fuel).None?
  {
    var c := Done(done);
    var fin := clock + s + dur;
    var st := Sim(c, c, clock, [Worker(None, end)]);
    var busy := Sim(c, c + {s}, clock, [Worker(Some(s), fin)]);
    TickOne(g, dur, c, c, clock, Worker(None, end));
    TickOne(g, dur, c, c + {s}, clock, Worker(Some(s), fin));
    assert Tick(g, dur, st) == Tick(g, dur, busy);
    assert SimLoop(g, dur, st, fuel) == SimLoop(g, dur, busy, fuel);
    OneWorkerBusy(g, dur, c, s, clock, fin, fuel);
    DoneAppend(done, s);
  }

  /** With one worker the clock reads the summed durations of the `compute_order` sequence. */
  lemma SimulateOneWorker(g: Graph, baseTime: nat, fuel: nat)
    ensures Simulate(g, 1, baseTime, fuel).Some? ==>
      ComputeOrder(g).Ok? && Simulate(g, 1, baseTime, fuel).value == Duration(Order(g, []).value, baseTime + 1)
  {
    if Simulate(g, 1, baseTime, fuel).Some? {
      assert Idle(1) == [Worker(None, 0)];
      assert Done([]) == {};
      OneWorkerIdle(g, baseTime + 1, [], 0, 0, fuel);
      assert Order(g, []).value[0..] == Order(g, []).value;
    }
  }

  // ---------------------------------------------------------------------------------------
  // The worked example
  // ---------------------------------------------------------------------------------------

  /** The seven lines of the test: C before A and F, A before B and D, B, D and F before E. */
  function ExampleLines(): seq<Option<Rule>>
  {
    [Some(Rule(2, 0)), Some(Rule(2, 5)), Some(Rule(0, 1)), Some(Rule(0, 3)),
     Some(Rule(1, 4)), Some(Rule(3, 4)), Some(Rule(5, 4))]
  }

  function ExampleGraph(): Graph
  {
    Graph({0, 1, 2, 3, 4, 5},
      seq(26, (s: int) =>
        if s == 0 || s == 5 then {2}
        else if s == 1 || s == 3 then {0}
        else if s == 4 then {1, 3, 5}
        else {}))
  }

  /** A ready letter below which nothing is ready is what `find` returns. */
  lemma FindReadyLowest(g: Graph, taken: set<Letter>, completed: set<Letter>, s: Letter)
    requires Ready(g, taken, completed, s)
    requires forall t: Letter :: t < s ==> !Ready(g, taken, completed, t)
    ensures FindReady(g, taken, completed, 0) == Some(s)
  {
  }

  lemma OrderStep(g: Graph, done: seq<Letter>, s: Letter)
    requires Done(done) <= g.steps && Done(done) != g.steps
    requires FindReady(g, Done(done), Done(done), 0) == Some(s)
    ensures Order(g, done) == Order(g, done + [s])
  {
  }

  lemma ExampleOrderStart()
    ensures Order(ExampleGraph(), []) == Order(ExampleGraph(), [2, 0, 1])
  {
    var g := ExampleGraph();
    assert Done([]) == {};
    FindReadyLowest(g, {}, {}, 2);
    OrderStep(g, [], 2);
    assert [] + [2] == [2];
    assert Done([2]) == {2};
    FindReadyLowest(g, {2}, {2}, 0);
    OrderStep(g, [2], 0);
    assert [2] + [0] == [2, 0];
    assert Done([2, 0]) == {0, 2};
    FindReadyLowest(g, {0, 2}, {0, 2}, 1);
    OrderStep(g, [2, 0], 1);
    assert [2, 0] + [1] == [2, 0, 1];
  }

  lemma ExampleOrderEnd()
    ensures Order(ExampleGraph(), [2, 0, 1]) == Ok([2, 0, 1, 3, 5, 4])
  {
    var g := ExampleGraph();
    assert Done([2, 0, 1]) == {0, 1, 2};
    FindReadyLowest(g, {0, 1, 2}, {0, 1, 2}, 3);
    OrderStep(g, [2, 0, 1], 3);
    assert [2, 0, 1] + [3] == [2, 0, 1, 3];
    assert Done([2, 0, 1, 3]) == {0, 1, 2, 3};
    FindReadyLowest(g, {0, 1, 2, 3}, {0, 1, 2, 3}, 5);
    OrderStep(g, [2, 0, 1, 3], 5);
    assert [2, 0, 1, 3] + [5] == [2, 0, 1, 3, 5];
    ExampleOrderLast();
  }

  lemma ExampleOrderLast()
    ensures Order(ExampleGraph(), [2, 0, 1, 3, 5]) == Ok([2, 0, 1, 3, 5, 4])
  {
    var g := ExampleGraph();
    assert Done([2, 0, 1, 3, 5]) == {0, 1, 2, 3, 5};
    FindReadyLowest(g, {0, 1, 2, 3, 5}, {0, 1, 2, 3, 5}, 4);
    OrderStep(g, [2, 0, 1, 3, 5], 4);
    assert [2, 0, 1, 3, 5] + [4] == [2, 0, 1, 3, 5, 4];
    assert Done([2, 0, 1, 3, 5, 4]) == g.steps;
  }

  /** The example's order is CABDFE. */
  lemma ExampleOrder()
    ensures ComputeOrder(ExampleGraph()) == Ok("CABDFE")
  {
    ExampleOrderStart();
    ExampleOrderEnd();
    ExampleLetters();
  }

  lemma ExampleLetters()
    ensures Letters([2, 0, 1, 3, 5, 4]) == "CABDFE"
  {
    var l := Letters([2, 0, 1, 3, 5, 4]);
    assert l[0] == 'C' && l[1] == 'A' && l[2] == 'B' && l[3] == 'D' && l[4] == 'F' && l[5] == 'E';
  }

  /** One worker with no base time needs 3 + 1 + 2 + 4 + 6 + 5 = 21 ticks for the example. */
  lemma ExampleOneWorker(fuel: nat)
    ensures Simulate(ExampleGraph(), 1, 0, fuel).Some? ==> Simulate(ExampleGraph(), 1, 0, fuel).value == 21
  {
    ExampleOrderStart();
    ExampleOrderEnd();
    SimulateOneWorker(ExampleGraph(), 0, fuel);
    var o := [2, 0, 1, 3, 5, 4];
    assert o[1..] == [0, 1, 3, 5, 4];
    assert o[1..][1..] == [1, 3, 5, 4];
    assert o[1..][1..][1..] == [3, 5, 4];
    assert o[1..][1..][1..][1..] == [5, 4];
    assert o[1..][1..][1..][1..][1..] == [4];
    assert o[1..][1..][1..][1..][1..][1..] == [];
    assert Duration(o, 1) == 21;
  }

  /** One tick of two workers: each in turn may start a step, then each may finish. */
  lemma TickTwo(g: Graph, dur: nat, c: set<Letter>, taken: set<Letter>, clock: nat, w1: Worker, w2: Worker)
    ensures Tick(g, dur, Sim(c, taken, clock, [w1, w2])) ==
      var (a1, t1) := Start(g, c, clock, dur, taken, w1);
      var (a2, t2) := Start(g, c, clock, dur, t1, w2);
      var (f1, c1) := Finish(a1, clock + 1, c);
      var (f2, c2) := Finish(a2, clock + 1, c1);
      Sim(c2, t2, clock + 1, [f1, f2])
  {
    var (a1, t1) := Start(g, c, clock, dur, taken, w1);
    var (a2, t2) := Start(g, c, clock, dur, t1, w2);
    AssignCons(g, c, clock, dur, taken, w1, [w2]);
    AssignCons(g, c, clock, dur, t1, w2, []);
    assert [w1, w2] == [w1] + [w2] && [w2] == [w2] + [];
    assert [a2] + [] == [a2] && [a1] + [a2] == [a1, a2];
    var (f1, c1) := Finish(a1, clock + 1, c);
    CompleteCons(a1, [a2], clock + 1, c);
    CompleteCons(a2, [], clock + 1, c1);
    var (f2, c2) := Finish(a2, clock + 1, c1);
    assert [f2] + [] == [f2] && [f1] + [f2] == [f1, f2];
  }

  lemma Unroll(g: Graph, st: Sim, next: Sim, fuel: nat)
    requires st.completed != g.steps && fuel > 0
    requires Tick(g, 1, st) == next
    ensures SimLoop(g, 1, st, fuel) == SimLoop(g, 1, next, fuel - 1)
  {
  }

  lemma ExampleTick0()
    ensures Tick(ExampleGraph(), 1, Sim({}, {}, 0, [Worker(None, 0), Worker(None, 0)]))
      == Sim({}, {2}, 1, [Worker(Some(2), 3), Worker(None, 0)])
  {
    var g := ExampleGraph();
    FindReadyLowest(g, {}, {}, 2);
    TickTwo(g, 1, {}, {}, 0, Worker(None, 0), Worker(None, 0));
  }

  lemma ExampleTick1()
    ensures Tick(ExampleGraph(), 1, Sim({}, {2}, 1, [Worker(Some(2), 3), Worker(None, 0)]))
      == Sim({}, {2}, 2, [Worker(Some(2), 3), Worker(None, 0)])
  {
    var g := ExampleGraph();
    TickTwo(g, 1, {}, {2}, 1, Worker(Some(2), 3), Worker(None, 0));
  }

  lemma ExampleTick2()
    ensures Tick(ExampleGraph(), 1, Sim({}, {2}, 2, [Worker(Some(2), 3), Worker(None, 0)]))
      == Sim({2}, {2}, 3, [Worker(None, 3), Worker(None, 0)])
  {
    var g := ExampleGraph();
    TickTwo(g, 1, {}, {2}, 2, Worker(Some(2), 3), Worker(None, 0));
  }

  lemma ExampleTick3()
    ensures Tick(ExampleGraph(), 1, Sim({2}, {2}, 3, [Worker(None, 3), Worker(None, 0)]))
      == Sim({0, 2}, {0, 2, 5}, 4, [Worker(None, 4), Worker(Some(5), 9)])
  {
    var g := ExampleGraph();
    FindReadyLowest(g, {2}, {2}, 0);
    FindReadyLowest(g, {0, 2}, {2}, 5);
    TickTwo(g, 1, {2}, {2}, 3, Worker(None, 3), Worker(None, 0));
  }

  lemma ExampleTick4()
    ensures Tick(ExampleGraph(), 1, Sim({0, 2}, {0, 2, 5}, 4, [Worker(None, 4), Worker(Some(5), 9)]))
      == Sim({0, 2}, {0, 1, 2, 5}, 5, [Worker(Some(1), 6), Worker(Some(5), 9)])
  {
    var g := ExampleGraph();
    FindReadyLowest(g, {0, 2, 5}, {0, 2}, 1);
    TickTwo(g, 1, {0, 2}, {0, 2, 5}, 4, Worker(None, 4), Worker(Some(5), 9));
  }

  lemma ExampleTick5()
    ensures Tick(ExampleGraph(), 1, Sim({0, 2}, {0, 1, 2, 5}, 5, [Worker(Some(1), 6), Worker(Some(5), 9)]))
      == Sim({0, 1, 2}, {0, 1, 2, 5}, 6, [Worker(None, 6), Worker(Some(5), 9)])
  {
    var g := ExampleGraph();
    TickTwo(g, 1, {0, 2}, {0, 1, 2, 5}, 5, Worker(Some(1), 6), Worker(Some(5), 9));
  }

  lemma ExampleTick6()
    ensures Tick(ExampleGraph(), 1, Sim({0, 1, 2}, {0, 1, 2, 5}, 6, [Worker(None, 6), Worker(Some(5), 9)]))
      == Sim({0, 1, 2}, {0, 1, 2, 3, 5}, 7, [Worker(Some(3), 10), Worker(Some(5), 9)])
  {
    var g := ExampleGraph();
    FindReadyLowest(g, {0, 1, 2, 5}, {0, 1, 2}, 3);
    TickTwo(g, 1, {0, 1, 2}, {0, 1, 2, 5}, 6, Worker(None, 6), Worker(Some(5), 9));
  }

  lemma ExampleTick7()
    ensures Tick(ExampleGraph(), 1, Sim({0, 1, 2}, {0, 1, 2, 3, 5}, 7, [Worker(Some(3), 10), Worker(Some(5), 9)]))
      == Sim({0, 1, 2}, {0, 1, 2, 3, 5}, 8, [Worker(Some(3), 10), Worker(Some(5), 9)])
  {
    var g := ExampleGraph();
    TickTwo(g, 1, {0, 1, 2}, {0, 1, 2, 3, 5}, 7, Worker(Some(3), 10), Worker(Some(5), 9));
  }

  lemma ExampleTick8()
    ensures Tick(ExampleGraph(), 1, Sim({0, 1, 2}, {0, 1, 2, 3, 5}, 8, [Worker(Some(3), 10), Worker(Some(5), 9)]))
      == Sim({0, 1, 2, 5}, {0, 1, 2, 3, 5}, 9, [Worker(Some(3), 10), Worker(None, 9)])
  {
    var g := ExampleGraph();
    TickTwo(g, 1, {0, 1, 2}, {0, 1, 2, 3, 5}, 8, Worker(Some(3), 10), Worker(Some(5), 9));
  }

  lemma ExampleTick9()
    ensures Tick(ExampleGraph(), 1, Sim({0, 1, 2, 5}, {0, 1, 2, 3, 5}, 9, [Worker(Some(3), 10), Worker(None, 9)]))
      == Sim({0, 1, 2, 3, 5}, {0, 1, 2, 3, 5}, 10, [Worker(None, 10), Worker(None, 9)])
  {
    var g := ExampleGraph();
    TickTwo(g, 1, {0, 1, 2, 5}, {0, 1, 2, 3, 5}, 9, Worker(Some(3), 10), Worker(None, 9));
  }

  lemma ExampleTick10()
    ensures Tick(ExampleGraph(), 1, Sim({0, 1, 2, 3, 5}, {0, 1, 2, 3, 5}, 10, [Worker(None, 10), Worker(None, 9)]))
      == Sim({0, 1, 2, 3, 5}, {0, 1, 2, 3, 4, 5}, 11, [Worker(Some(4), 15), Worker(None, 9)])
  {
    var g := ExampleGraph();
    FindReadyLowest(g, {0, 1, 2, 3, 5}, {0, 1, 2, 3, 5}, 4);
    TickTwo(g, 1, {0, 1, 2, 3, 5}, {0, 1, 2, 3, 5}, 10, Worker(None, 10), Worker(None, 9));
  }

  lemma ExampleTick11()
    ensures Tick(ExampleGraph(), 1, Sim({0, 1, 2, 3, 5}, {0, 1, 2, 3, 4, 5}, 11, [Worker(Some(4), 15), Worker(None, 9)]))
      == Sim({0, 1, 2, 3, 5}, {0, 1, 2, 3, 4, 5}, 12, [Worker(Some(4), 15), Worker(None, 9)])
  {
    var g := ExampleGraph();
    TickTwo(g, 1, {0, 1, 2, 3, 5}, {0, 1, 2, 3, 4, 5}, 11, Worker(Some(4), 15), Worker(None, 9));
  }

  lemma ExampleTick12()
    ensures Tick(ExampleGraph(), 1, Sim({0, 1, 2, 3, 5}, {0, 1, 2, 3, 4, 5}, 12, [Worker(Some(4), 15), Worker(None, 9)]))
      == Sim({0, 1, 2, 3, 5}, {0, 1, 2, 3, 4, 5}, 13, [Worker(Some(4), 15), Worker(None, 9)])
  {
    var g := ExampleGraph();
    TickTwo(g, 1, {0, 1, 2, 3, 5}, {0, 1, 2, 3, 4, 5}, 12, Worker(Some(4), 15), Worker(None, 9));
  }

  lemma ExampleTick13()
    ensures Tick(ExampleGraph(), 1, Sim({0, 1, 2, 3, 5}, {0, 1, 2, 3, 4, 5}, 13, [Worker(Some(4), 15), Worker(None, 9)]))
      == Sim({0, 1, 2, 3, 5}, {0, 1, 2, 3, 4, 5}, 14, [Worker(Some(4), 15), Worker(None, 9)])
  {
    var g := ExampleGraph();
    TickTwo(g, 1, {0, 1, 2, 3, 5}, {0, 1, 2, 3, 4, 5}, 13, Worker(Some(4), 15), Worker(None, 9));
  }

  lemma ExampleTick14()
    ensures Tick(ExampleGraph(), 1, Sim({0, 1, 2, 3, 5}, {0, 1, 2, 3, 4, 5}, 14, [Worker(Some(4), 15), Worker(None, 9)]))
      == Sim({0, 1, 2, 3, 4, 5}, {0, 1, 2, 3, 4, 5}, 15, [Worker(None, 15), Worker(None, 9)])
  {
    var g := ExampleGraph();
    TickTwo(g, 1, {0, 1, 2, 3, 5}, {0, 1, 2, 3, 4, 5}, 14, Worker(Some(4), 15), Worker(None, 9));
  }

  lemma {:induction false} ExampleTicks0()
    ensures SimLoop(ExampleGraph(), 1, Sim({}, {}, 0, [Worker(None, 0), Worker(None, 0)]), 15)
      == SimLoop(ExampleGraph(), 1, Sim({}, {2}, 2, [Worker(Some(2), 3), Worker(None, 0)]), 13)
  {
    ExampleTick0();
    Unroll(ExampleGraph(), Sim({}, {}, 0, [Worker(None, 0), Worker(None, 0)]), Sim({}, {2}, 1, [Worker(Some(2), 3), Worker(None, 0)]), 15);
    ExampleTick1();
    Unroll(ExampleGraph(), Sim({}, {2}, 1, [Worker(Some(2), 3), Worker(None, 0)]), Sim({}, {2}, 2, [Worker(Some(2), 3), Worker(None, 0)]), 14);
  }

  lemma {:induction false} ExampleTicks2()
    ensures SimLoop(ExampleGraph(), 1, Sim({}, {2}, 2, [Worker(Some(2), 3), Worker(None, 0)]), 13)
      == SimLoop(ExampleGraph(), 1, Sim({0, 2}, {0, 2, 5}, 4, [Worker(None, 4), Worker(Some(5), 9)]), 11)
  {
    ExampleTick2();
    Unroll(ExampleGraph(), Sim({}, {2}, 2, [Worker(Some(2), 3), Worker(None, 0)]), Sim({2}, {2}, 3, [Worker(None, 3), Worker(None, 0)]), 13);
    ExampleTick3();
    Unroll(ExampleGraph(), Sim({2}, {2}, 3, [Worker(None, 3), Worker(None, 0)]), Sim({0, 2}, {0, 2, 5}, 4, [Worker(None, 4), Worker(Some(5), 9)]), 12);
  }

  lemma {:induction false} ExampleTicks4()
    ensures SimLoop(ExampleGraph(), 1, Sim({0, 2}, {0, 2, 5}, 4, [Worker(None, 4), Worker(Some(5), 9)]), 11)
      == SimLoop(ExampleGraph(), 1, Sim({0, 1, 2}, {0, 1, 2, 3, 5}, 8, [Worker(Some(3), 10), Worker(Some(5), 9)]), 7)
  {
    ExampleTick4();
    Unroll(ExampleGraph(), Sim({0, 2}, {0, 2, 5}, 4, [Worker(None, 4), Worker(Some(5), 9)]), Sim({0, 2}, {0, 1, 2, 5}, 5, [Worker(Some(1), 6), Worker(Some(5), 9)]), 11);
    ExampleTick5();
    Unroll(ExampleGraph(), Sim({0, 2}, {0, 1, 2, 5}, 5, [Worker(Some(1), 6), Worker(Some(5), 9)]), Sim({0, 1, 2}, {0, 1, 2, 5}, 6, [Worker(None, 6), Worker(Some(5), 9)]), 10);
    ExampleTick6();
    Unroll(ExampleGraph(), Sim({0, 1, 2}, {0, 1, 2, 5}, 6, [Worker(None, 6), Worker(Some(5), 9)]), Sim({0, 1, 2}, {0, 1, 2, 3, 5}, 7, [Worker(Some(3), 10), Worker(Some(5), 9)]), 9);
    ExampleTick7();
    Unroll(ExampleGraph(), Sim({0, 1, 2}, {0, 1, 2, 3, 5}, 7, [Worker(Some(3), 10), Worker(Some(5), 9)]), Sim({0, 1, 2}, {0, 1, 2, 3, 5}, 8, [Worker(Some(3), 10), Worker(Some(5), 9)]), 8);
  }

  lemma {:induction false} ExampleTicks8()
    ensures SimLoop(ExampleGraph(), 1, Sim({0, 1, 2}, {0, 1, 2, 3, 5}, 8, [Worker(Some(3), 10), Worker(Some(5), 9)]), 7)
      == SimLoop(ExampleGraph(), 1, Sim({0, 1, 2, 3, 5}, {0, 1, 2, 3, 5}, 10, [Worker(None, 10), Worker(None, 9)]), 5)
  {
    ExampleTick8();
    Unroll(ExampleGraph(), Sim({0, 1, 2}, {0, 1, 2, 3, 5}, 8, [Worker(Some(3), 10), Worker(Some(5), 9)]), Sim({0, 1, 2, 5}, {0, 1, 2, 3, 5}, 9, [Worker(Some(3), 10), Worker(None, 9)]), 7);
    ExampleTick9();
    Unroll(ExampleGraph(), Sim({0, 1, 2, 5}, {0, 1, 2, 3, 5}, 9, [Worker(Some(3), 10), Worker(None, 9)]), Sim({0, 1, 2, 3, 5}, {0, 1, 2, 3, 5}, 10, [Worker(None, 10), Worker(None, 9)]), 6);
  }

  lemma {:induction false} ExampleTicks10()
    ensures SimLoop(ExampleGraph(), 1, Sim({0, 1, 2, 3, 5}, {0, 1, 2, 3, 5}, 10, [Worker(None, 10), Worker(None, 9)]), 5)
      == SimLoop(ExampleGraph(), 1, Sim({0, 1, 2, 3, 5}, {0, 1, 2, 3, 4, 5}, 12, [Worker(Some(4), 15), Worker(None, 9)]), 3)
  {
    ExampleTick10();
    Unroll(ExampleGraph(), Sim({0, 1, 2, 3, 5}, {0, 1, 2, 3, 5}, 10, [Worker(None, 10), Worker(None, 9)]), Sim({0, 1, 2, 3, 5}, {0, 1, 2, 3, 4, 5}, 11, [Worker(Some(4), 15), Worker(None, 9)]), 5);
    ExampleTick11();
    Unroll(ExampleGraph(), Sim({0, 1, 2, 3, 5}, {0, 1, 2, 3, 4, 5}, 11, [Worker(Some(4), 15), Worker(None, 9)]), Sim({0, 1, 2, 3, 5}, {0, 1, 2, 3, 4, 5}, 12, [Worker(Some(4), 15), Worker(None, 9)]), 4);
  }

  lemma {:induction false} ExampleTicks12()
    ensures SimLoop(ExampleGraph(), 1, Sim({0, 1, 2, 3, 5}, {0, 1, 2, 3, 4, 5}, 12, [Worker(Some(4), 15), Worker(None, 9)]), 3)
      == SimLoop(ExampleGraph(), 1, Sim({0, 1, 2, 3, 4, 5}, {0, 1, 2, 3, 4, 5}, 15, [Worker(None, 15), Worker(None, 9)]), 0)
  {
    ExampleTick12();
    Unroll(ExampleGraph(), Sim({0, 1, 2, 3, 5}, {0, 1, 2, 3, 4, 5}, 12, [Worker(Some(4), 15), Worker(None, 9)]), Sim({0, 1, 2, 3, 5}, {0, 1, 2, 3, 4, 5}, 13, [Worker(Some(4), 15), Worker(None, 9)]), 3);
    ExampleTick13();
    Unroll(ExampleGraph(), Sim({0, 1, 2, 3, 5}, {0, 1, 2, 3, 4, 5}, 13, [Worker(Some(4), 15), Worker(None, 9)]), Sim({0, 1, 2, 3, 5}, {0, 1, 2, 3, 4, 5}, 14, [Worker(Some(4), 15), Worker(None, 9)]), 2);
    ExampleTick14();
    Unroll(ExampleGraph(), Sim({0, 1, 2, 3, 5}, {0, 1, 2, 3, 4, 5}, 14, [Worker(Some(4), 15), Worker(None, 9)]), Sim({0, 1, 2, 3, 4, 5}, {0, 1, 2, 3, 4, 5}, 15, [Worker(None, 15), Worker(None, 9)]), 1);
  }

  /** The test: two workers and no base time finish the example at tick 15. */
  lemma ExampleSimulate()
    ensures Simulate(ExampleGraph(), 2, 0, 15) == Some(15)
  {
    assert Idle(2) == [Worker(None, 0), Worker(None, 0)];
    ExampleTicks0();
    ExampleTicks2();
    ExampleTicks4();
    ExampleTicks8();
    ExampleTicks10();
    ExampleTicks12();
  }

  /** Parsing a prefix one more line extends it by that line's rule. */
  lemma ParseSnoc(lines: seq<Option<Rule>>, r: Rule)
    requires ParseDependencies(lines).Ok?
    ensures ParseDependencies(lines + [Some(r)]) == Ok(AddRule(ParseDependencies(lines).value, r))
  {
    assert (lines + [Some(r)])[..|lines|] == lines;
  }

  /** The example lines, folded one rule at a time. */
  function ExampleFold(): Graph
  {
    AddRule(AddRule(AddRule(AddRule(AddRule(AddRule(AddRule(Empty(),
      Rule(2, 0)), Rule(2, 5)), Rule(0, 1)), Rule(0, 3)), Rule(1, 4)), Rule(3, 4)), Rule(5, 4))
  }

  lemma ExampleParseFold()
    ensures ParseDependencies(ExampleLines()) == Ok(ExampleFold())
  {
    var g0 := Empty();
    var l0: seq<Option<Rule>> := [];
    assert ParseDependencies(l0) == Ok(g0);
    ParseSnoc(l0, Rule(2, 0));
    var l1 := l0 + [Some(Rule(2, 0))];
    var g1 := AddRule(g0, Rule(2, 0));
    ParseSnoc(l1, Rule(2, 5));
    var l2 := l1 + [Some(Rule(2, 5))];
    var g2 := AddRule(g1, Rule(2, 5));
    ParseSnoc(l2, Rule(0, 1));
    var l3 := l2 + [Some(Rule(0, 1))];
    var g3 := AddRule(g2, Rule(0, 1));
    ParseSnoc(l3, Rule(0, 3));
    var l4 := l3 + [Some(Rule(0, 3))];
    var g4 := AddRule(g3, Rule(0, 3));
    ParseSnoc(l4, Rule(1, 4));
    var l5 := l4 + [Some(Rule(1, 4))];
    var g5 := AddRule(g4, Rule(1, 4));
    ParseSnoc(l5, Rule(3, 4));
    var l6 := l5 + [Some(Rule(3, 4))];
    var g6 := AddRule(g5, Rule(3, 4));
    ParseSnoc(l6, Rule(5, 4));
    var l7 := l6 + [Some(Rule(5, 4))];
    var g7 := AddRule(g6, Rule(5, 4));
    assert l7 == ExampleLines();
  }

  /** The parsed example lines give the example graph. */
  lemma ExampleParse()
    ensures ParseDependencies(ExampleLines()) == Ok(ExampleGraph())
  {
    ExampleParseFold();
    var g := ExampleFold();
    assert g.steps == ExampleGraph().steps;
    assert forall i :: 0 <= i < 26 ==> g.deps[i] == ExampleGraph().deps[i];
    assert g.deps == ExampleGraph().deps;
  }
}

=== FILE: day08.dfy ===
/**
 * The licence-file tree: each node is encoded as a header (child count, metadata count), the
 * encodings of its children, then its metadata entries. `Node::parse` reads one node from the
 * front of a number list and returns the rest of the list.
 */
module Day08 {
  import opened Common
  import Text

  /** A `u32` read from the input. */
  type U32 = n: nat | n < 0x1_0000_0000

  datatype Node = Node(children: seq<Node>, metadata: seq<nat>)

  /** The encoding that `parse` reads: header, children, metadata. */
  function Encode(n: Node): seq<nat>
    decreases n, 1
  {
    [|n.children|, |n.metadata|] + EncodeAll(n.children) + n.metadata
  }

  function EncodeAll(cs: seq<Node>): seq<nat>
    decreases cs, 0
  {
    if |cs| == 0 then [] else Encode(cs[0]) + EncodeAll(cs[1..])
  }

  /**
   * `Node::parse`: an error when fewer than two numbers remain for the header, when a child
   * fails, or when fewer metadata entries remain than the header declares.
   */
  function Parse(data: seq<nat>): (r: Result<(Node, seq<nat>)>)
    ensures |data| < 2 ==> r.Err?
    ensures r.Ok? ==> |r.value.1| <= |data| - 2
    decreases |data|, 0
  {
    if |data| < 2 then Err("Unexpected end of data")
    else
      var (children, rest) :- ParseChildren(data[2..], data[0]);
      if |rest| < data[1] then Err("Unexpected end of data")
      else Ok((Node(children, rest[..data[1]]), rest[data[1]..]))
  }

  /** The `for _ in 0..num_children` loop: parse k nodes one after another. */
  function ParseChildren(data: seq<nat>, k: nat): (r: Result<(seq<Node>, seq<nat>)>)
    ensures r.Ok? ==> |r.value.1| <= |data|
    decreases |data|, 1, k
  {
    if k == 0 then Ok(([], data))
    else
      var (child, tail) :- Parse(data);
      var (more, rest) :- ParseChildren(tail, k - 1);
      Ok(([child] + more, rest))
  }

  /** A successful `parse` reads exactly the declared numbers of children and entries. */
  lemma {:induction false} ParseCounts(data: seq<nat>)
    requires Parse(data).Ok?
    ensures |Parse(data).value.0.children| == data[0]
    ensures |Parse(data).value.0.metadata| == data[1]
  {
    ParseChildrenCount(data[2..], data[0]);
  }

  lemma {:induction false} ParseChildrenCount(data: seq<nat>, k: nat)
    requires ParseChildren(data, k).Ok?
    ensures |ParseChildren(data, k).value.0| == k
    decreases k
  {
    if k > 0 {
      var tail := Parse(data).value.1;
      ParseChildrenCount(tail, k - 1);
    }
  }

  /** Parsing an encoding followed by any tail gives back the node and the tail. */
  lemma {:induction false} ParseEncode(n: Node, tail: seq<nat>)
    ensures Parse(Encode(n) + tail) == Ok((n, tail))
    decreases n, 1
  {
    var data := Encode(n) + tail;
    assert data[2..] == EncodeAll(n.children) + (n.metadata + tail);
    ParseChildrenEncode(n.children, n.metadata + tail);
    assert (n.metadata + tail)[..|n.metadata|] == n.metadata;
    assert (n.metadata + tail)[|n.metadata|..] == tail;
  }

  lemma {:induction false} ParseChildrenEncode(cs: seq<Node>, tail: seq<nat>)
    ensures ParseChildren(EncodeAll(cs) + tail, |cs|) == Ok((cs, tail))
    decreases cs, 0
  {
    if |cs| > 0 {
      var rest := EncodeAll(cs[1..]) + tail;
      var data := EncodeAll(cs) + tail;
      assert data == Encode(cs[0]) + rest;
      ParseEncode(cs[0], rest);
      assert Parse(data) == Ok((cs[0], rest));
      ParseChildrenEncode(cs[1..], tail);
      assert ParseChildren(rest, |cs| - 1) == Ok((cs[1..], tail));
      assert [cs[0]] + cs[1..] == cs;
      assert ParseChildren(data, |cs|) == Ok(([cs[0]] + cs[1..], tail));
    } else {
      assert EncodeAll(cs) + tail == tail && cs == [];
    }
  }

  /** Conversely, whatever `parse` accepts is an encoding followed by the returned tail. */
  lemma {:induction false} ParseIsDecode(data: seq<nat>)
    requires Parse(data).Ok?
    ensures data == Encode(Parse(data).value.0) + Parse(data).value.1
    decreases |data|, 0
  {
    var q := ParseChildren(data[2..], data[0]);
    assert q.Ok?;
    var children := q.value.0;
    var rest := q.value.1;
    assert Parse(data) == Ok((Node(children, rest[..data[1]]), rest[data[1]..]));
    ParseChildrenIsDecode(data[2..], data[0]);
    ParseChildrenCount(data[2..], data[0]);
    var meta := rest[..data[1]];
    var n := Node(children, meta);
    assert |n.children| == data[0] && |n.metadata| == data[1];
    assert Encode(n) == [data[0], data[1]] + EncodeAll(children) + meta;
    HeaderSplit(data, EncodeAll(children), rest, data[1]);
  }

  /** A list is its two header numbers, then the body, then the rest cut anywhere. */
  lemma HeaderSplit(data: seq<nat>, body: seq<nat>, rest: seq<nat>, m: nat)
    requires |data| >= 2 && data[2..] == body + rest && m <= |rest|
    ensures data == [data[0], data[1]] + body + rest[..m] + rest[m..]
  {
    assert rest[..m] + rest[m..] == rest;
    assert [data[0], data[1]] + data[2..] == data;
  }

  lemma {:induction false} ParseChildrenIsDecode(data: seq<nat>, k: nat)
    requires ParseChildren(data, k).Ok?
    ensures data == EncodeAll(ParseChildren(data, k).value.0) + ParseChildren(data, k).value.1
    decreases |data|, 1, k
  {
    if k > 0 {
      var p := Parse(data);
      assert p.Ok?;
      var child := p.value.0;
      var tail := p.value.1;
      var q := ParseChildren(tail, k - 1);
      assert q.Ok?;
      var cs := [child] + q.value.0;
      assert ParseChildren(data, k) == Ok((cs, q.value.1));
      ParseIsDecode(data);
      ParseChildrenIsDecode(tail, k - 1);
      assert cs[0] == child && cs[1..] == q.value.0;
      assert EncodeAll(cs) == Encode(child) + EncodeAll(q.value.0);
    }
  }

  /** Every number of the encoding fits in a `u32`. */
  predicate Fits(n: Node)
  {
    forall i :: 0 <= i < |Encode(n)| ==> Encode(n)[i] < 0x1_0000_0000
  }

  /** The space-separated tokens, each read as a `u32`; None if some token is not one. */
  function ParseNumbers(tokens: seq<string>): (r: Option<seq<nat>>)
    ensures r.Some? <==> forall i :: 0 <= i < |tokens| ==> Text.ParseUnsigned(tokens[i], 0x1_0000_0000).Some?
    ensures r.Some? ==> |r.value| == |tokens|
    ensures r.Some? ==> forall i :: 0 <= i < |tokens| ==> r.value[i] == Text.ParseUnsigned(tokens[i], 0x1_0000_0000).value
  {
    if |tokens| == 0 then Some([])
    else
      var last := Text.ParseUnsigned(tokens[|tokens| - 1], 0x1_0000_0000);
      match ParseNumbers(tokens[..|tokens| - 1])
      case None => None
      case Some(front) => if last.None? then None else Some(front + [last.value])
  }

  /**
   * `Node::from_string`: split at single spaces, read every token as a `u32`, parse one node,
   * and reject anything left after the root.
   */
  function FromString(s: string): (r: Result<Node>)
    ensures r.Ok? ==> ParseNumbers(Text.Split(s, ' ')).Some?
    ensures r.Ok? ==> ParseNumbers(Text.Split(s, ' ')).value == Encode(r.value)
  {
    match ParseNumbers(Text.Split(s, ' '))
    case None => Err("Failed to parse as u32")
    case Some(data) =>
      var (node, tail) :- Parse(data);
      if |tail| != 0 then Err("Unexpected data after root node")
      else
        ParseIsDecode(data);
        assert data == Encode(node) + tail;
        Ok(node)
  }

  /** Numbers left after the root make `from_string` fail, whatever the root. */
  lemma TrailingDataRejected(s: string, n: Node, tail: seq<nat>)
    requires ParseNumbers(Text.Split(s, ' ')) == Some(Encode(n) + tail)
    requires |tail| > 0
    ensures FromString(s).Err?
  {
    ParseEncode(n, tail);
  }

  /** The decimal text of an encoding. */
  function Show(data: seq<nat>): (r: seq<string>)
    ensures |r| == |data|
    ensures forall i :: 0 <= i < |data| ==> r[i] == Text.ShowNat(data[i])
  {
    seq(|data|, i requires 0 <= i < |data| => Text.ShowNat(data[i]))
  }

  /** Printing a tree's encoding with single spaces and reading it back gives the tree. */
  lemma FromStringShow(n: Node)
    requires Fits(n)
    ensures FromString(Text.Join(Show(Encode(n)), ' ')) == Ok(n)
  {
    var data := Encode(n);
    var tokens := Show(data);
    forall i | 0 <= i < |tokens|
      ensures ' ' !in tokens[i]
      ensures Text.ParseUnsigned(tokens[i], 0x1_0000_0000) == Some(data[i])
    {
      Text.ParseShowNat(data[i], 0x1_0000_0000);
      assert forall j :: 0 <= j < |tokens[i]| ==> Text.IsDigit(tokens[i][j]);
    }
    Text.SplitJoin(tokens, ' ');
    assert ParseNumbers(tokens).value == data;
    ParseEncode(n, []);
    assert data + [] == data;
  }

  /** `sum_metadata`: the children's sums followed by the node's own entries, added up. */
  function SumMetadata(n: Node): nat
    decreases n, 1
  {
    SumAll(n.children) + SumNat(n.metadata)
  }

  function SumAll(cs: seq<Node>): nat
    decreases cs, 0
  {
    if |cs| == 0 then 0 else SumMetadata(cs[0]) + SumAll(cs[1..])
  }

  /** Every metadata entry of the tree, children before their parent. */
  function AllMetadata(n: Node): seq<nat>
    decreases n, 1
  {
    AllMetadataOf(n.children) + n.metadata
  }

  function AllMetadataOf(cs: seq<Node>): seq<nat>
    decreases cs, 0
  {
    if |cs| == 0 then [] else AllMetadata(cs[0]) + AllMetadataOf(cs[1..])
  }

  /** `sum_metadata` adds up every metadata entry of the tree, each exactly once. */
  lemma {:induction false} SumMetadataIsTotal(n: Node)
    ensures SumMetadata(n) == SumNat(AllMetadata(n))
    decreases n, 1
  {
    SumAllIsTotal(n.children);
    SumNatAppend(AllMetadataOf(n.children), n.metadata);
  }

  lemma {:induction false} SumAllIsTotal(cs: seq<Node>)
    ensures SumAll(cs) == SumNat(AllMetadataOf(cs))
    decreases cs, 0
  {
    if |cs| > 0 {
      SumMetadataIsTotal(cs[0]);
      SumAllIsTotal(cs[1..]);
      SumNatAppend(AllMetadata(cs[0]), AllMetadataOf(cs[1..]));
    }
  }

  /**
   * `value`: a leaf's metadata sum; otherwise each entry `idx` in `1..=children.len()` adds the
   * value of child `idx - 1`, and any other entry adds 0.
   */
  function Value(n: Node): nat
    decreases n, 1
  {
    if |n.children| == 0 then SumNat(n.metadata)
    else ValueOf(n, n.metadata)
  }

  /** The sum over the entries `idx` of the selected child values. */
  function ValueOf(n: Node, idx: seq<nat>): nat
    requires |n.children| > 0
    decreases n, 0, |idx|
  {
    if |idx| == 0 then 0
    else ValueOf(n, idx[..|idx| - 1]) + Selected(n, idx[|idx| - 1])
  }

  function Selected(n: Node, idx: nat): (r: nat)
    ensures 0 < idx <= |n.children| ==> r == Value(n.children[idx - 1])
    ensures !(0 < idx <= |n.children|) ==> r == 0
    decreases n, 0, 0
  {
    if 0 < idx <= |n.children| then Value(n.children[idx - 1]) else 0
  }

  /** Child `i`'s value weighted by how many entries of `idx` name it. */
  function Weights(n: Node, idx: seq<nat>): (w: seq<int>)
    ensures |w| == |n.children|
    ensures forall i :: 0 <= i < |w| ==> w[i] == CountOf(idx, i + 1) * Value(n.children[i])
  {
    seq(|n.children|, i requires 0 <= i < |n.children| => CountOf(idx, i + 1) * Value(n.children[i]))
  }

  /** The value of a node with children is the sum of its children's values, each counted once per entry naming it. */
  lemma {:induction false} ValueCounts(n: Node, idx: seq<nat>)
    requires |n.children| > 0
    ensures ValueOf(n, idx) == Sum(Weights(n, idx))
    decreases |idx|
  {
    if |idx| == 0 {
      ZeroSum(Weights(n, idx));
    } else {
      var m := |idx| - 1;
      ValueCounts(n, idx[..m]);
      var before := Weights(n, idx[..m]);
      var after := Weights(n, idx);
      var bump := Bump(n, idx[m]);
      forall i | 0 <= i < |n.children|
        ensures after[i] == before[i] + bump[i]
      {
        WeightSnoc(n, idx, i);
      }
      SumPointwise(before, bump, after);
      SumBump(n, idx[m]);
    }
  }

  /** What one entry v adds to each child's weight: the named child's value, zero elsewhere. */
  function Bump(n: Node, v: nat): (b: seq<int>)
    ensures |b| == |n.children|
    ensures forall i :: 0 <= i < |b| ==> b[i] == if i == v - 1 then Value(n.children[i]) else 0
  {
    seq(|n.children|, i requires 0 <= i < |n.children| => if i == v - 1 then Value(n.children[i]) else 0)
  }

  /** The weights one entry adds sum to the child value it selects. */
  lemma SumBump(n: Node, v: nat)
    requires |n.children| > 0
    ensures Sum(Bump(n, v)) == Selected(n, v)
  {
    if 0 < v <= |n.children| {
      SumOneHot(Bump(n, v), v - 1);
    } else {
      ZeroSum(Bump(n, v));
    }
  }

  /** One more entry adds the named child's value to that child's weight and nothing elsewhere. */
  lemma WeightSnoc(n: Node, idx: seq<nat>, i: nat)
    requires |idx| > 0 && i < |n.children|
    ensures var m := |idx| - 1;
            Weights(n, idx)[i] == Weights(n, idx[..m])[i] + (if idx[m] == i + 1 then Value(n.children[i]) else 0)
  {
    var m := |idx| - 1;
    assert CountOf(idx, i + 1) == CountOf(idx[..m], i + 1) + (if idx[m] == i + 1 then 1 else 0);
    MulSucc(CountOf(idx[..m], i + 1), Value(n.children[i]));
  }

  lemma {:induction false} ZeroSum(s: seq<int>)
    requires forall i :: 0 <= i < |s| ==> s[i] == 0
    ensures Sum(s) == 0
  {
    if |s| > 0 {
      ZeroSum(s[..|s| - 1]);
    }
  }

  lemma {:induction false} SumPointwise(a: seq<int>, b: seq<int>, c: seq<int>)
    requires |a| == |b| == |c|
    requires forall i :: 0 <= i < |a| ==> c[i] == a[i] + b[i]
    ensures Sum(c) == Sum(a) + Sum(b)
  {
    if |a| > 0 {
      var n := |a| - 1;
      SumPointwise(a[..n], b[..n], c[..n]);
    }
  }

  lemma {:induction false} SumOneHot(s: seq<int>, j: nat)
    requires j < |s|
    requires forall i :: 0 <= i < |s| && i != j ==> s[i] == 0
    ensures Sum(s) == s[j]
  {
    var n := |s| - 1;
    if n == j {
      ZeroSum(s[..n]);
    } else {
      SumOneHot(s[..n], j);
    }
  }

  /** The test tree: A has children B and C and entries 1, 1, 2; C has child D. */
  function ExampleTree(): Node
  {
    Node([Node([], [10, 11, 12]), Node([Node([], [99])], [2])], [1, 1, 2])
  }

  lemma ExampleEncoding()
    ensures Encode(ExampleTree()) == [2, 3, 0, 3, 10, 11, 12, 1, 1, 0, 1, 99, 2, 1, 1, 2]
    ensures Parse([2, 3, 0, 3, 10, 11, 12, 1, 1, 0, 1, 99, 2, 1, 1, 2]) == Ok((ExampleTree(), []))
  {
    var b := Node([], [10, 11, 12]);
    var d := Node([], [99]);
    var c := Node([d], [2]);
    assert Encode(b) == [0, 3, 10, 11, 12];
    ExampleEncodeC();
    assert [b, c][1..] == [c] && [c][1..] == [];
    assert EncodeAll([c]) == Encode(c);
    assert EncodeAll([b, c]) == [0, 3, 10, 11, 12, 1, 1, 0, 1, 99, 2];
    ParseEncode(ExampleTree(), []);
    assert Encode(ExampleTree()) + [] == Encode(ExampleTree());
  }

  /** The encoding of the subtree C, whose only child is the leaf D. */
  lemma ExampleEncodeC()
    ensures Encode(Node([Node([], [99])], [2])) == [1, 1, 0, 1, 99, 2]
  {
    var d := Node([], [99]);
    assert Encode(d) == [0, 1, 99];
    assert [d][1..] == [];
    assert EncodeAll([d]) == [0, 1, 99];
  }

  /** The test's answers: metadata sum 138 and root value 66. */
  lemma ExampleAnswers()
    ensures SumMetadata(ExampleTree()) == 138
    ensures Value(ExampleTree()) == 66
  {
    var b := Node([], [10, 11, 12]);
    var d := Node([], [99]);
    var c := Node([d], [2]);
    var a := ExampleTree();
    assert SumNat([10, 11, 12]) == 33 by {
      assert [10, 11, 12][..2] == [10, 11] && [10, 11][..1] == [10] && [10][..0] == [];
    }
    assert SumNat([99]) == 99 by {
      assert [99][..0] == [];
    }
    assert SumNat([2]) == 2 by {
      assert [2][..0] == [];
    }
    assert SumNat([1, 1, 2]) == 4 by {
      assert [1, 1, 2][..2] == [1, 1] && [1, 1][..1] == [1] && [1][..0] == [];
    }
    assert [d][1..] == [] && [c][1..] == [];
    assert SumMetadata(b) == 33;
    assert SumMetadata(d) == 99;
    assert SumAll([d]) == 99;
    assert SumMetadata(c) == 101;
    assert [b, c][1..] == [c];
    assert SumAll([b, c]) == 134;
    assert Value(b) == 33;
    assert Value(d) == 99;
    assert Selected(c, 2) == 0;
    assert Value(c) == 0;
    assert Selected(a, 1) == 33 && Selected(a, 2) == 0;
    assert ValueOf(a, [1, 1, 2]) == 66 by {
      assert [1, 1, 2][..2] == [1, 1] && [1, 1][..1] == [1] && [1][..0] == [];
    }
  }
}

=== FILE: day09.dfy ===
/**
 * The marble game. `Circle` keeps the marbles in a vector of (prev, next, value) links that
 * form a ring; removal only relinks the neighbours, so the vector never shrinks. The model
 * proves that the linked ring behaves like the textbook list formulation of the game.
 */
module Day09 {
  import opened Common

  datatype Link<T> = Link(prev: nat, next: nat, value: T)

  type Circle<T> = seq<Link<T>>

  /** Every link points inside the vector. */
  predicate Valid<T>(c: Circle<T>)
  {
    forall i :: 0 <= i < |c| ==> c[i].prev < |c| && c[i].next < |c|
  }

  function Succ(j: nat, n: nat): nat
    requires j < n
  {
    if j + 1 == n then 0 else j + 1
  }

  function Pred(j: nat, n: nat): nat
    requires j < n
  {
    if j == 0 then n - 1 else j - 1
  }

  ghost predicate Distinct(pos: seq<nat>)
  {
    forall j, k :: 0 <= j < k < |pos| ==> pos[j] != pos[k]
  }

  /**
   * The nodes `pos[0]`, ..., `pos[n - 1]` form a ring in this order, holding the values `s`:
   * each node's `next` is the following node and its `prev` the preceding one, cyclically.
   */
  ghost predicate Ring<T>(c: Circle<T>, pos: seq<nat>, s: seq<T>)
  {
    |pos| == |s| >= 1 && Distinct(pos) &&
    (forall j :: 0 <= j < |pos| ==> pos[j] < |c|) &&
    (forall j :: 0 <= j < |pos| ==> LinkedAt(c, pos, s, j))
  }

  /** Ring position `j` holds `s[j]` between positions `j - 1` and `j + 1`, cyclically. */
  ghost predicate LinkedAt<T>(c: Circle<T>, pos: seq<nat>, s: seq<T>, j: nat)
    requires |pos| == |s| && j < |pos|
  {
    pos[j] < |c| && c[pos[j]] == Link(pos[Pred(j, |pos|)], pos[Succ(j, |pos|)], s[j])
  }

  /** `Circle::new`: one node linked to itself, with the cursor on it. */
  function New<T>(v: T): (r: (Circle<T>, nat))
    ensures Valid(r.0) && r.1 == 0
    ensures Ring(r.0, [0], [v])
  {
    ([Link(0, 0, v)], 0)
  }

  /**
   * `Circle::insert_after`: the new node goes at the end of the vector, between the cursor
   * and its old successor, and becomes the cursor.
   */
  function InsertAfter<T>(c: Circle<T>, cursor: nat, v: T): (r: (Circle<T>, nat))
    requires Valid(c) && cursor < |c|
    ensures Valid(r.0) && |r.0| == |c| + 1 && r.1 == |c|
    ensures r.0[r.1] == Link(cursor, c[cursor].next, v)
    ensures r.0[cursor].next == r.1 && r.0[c[cursor].next].prev == r.1
    ensures forall k :: 0 <= k < |c| && k != cursor && k != c[cursor].next ==> r.0[k] == c[k]
  {
    var before := cursor;
    var after := c[before].next;
    var i := |c|;
    var c1 := c[before := c[before].(next := i)];
    var c2 := c1[after := c1[after].(prev := i)];
    (c2 + [Link(before, after, v)], i)
  }

  /**
   * `Circle::remove`: the neighbours of the cursor are linked to each other and the
   * successor becomes the cursor; the removed node keeps its slot.
   */
  function Remove<T>(c: Circle<T>, cursor: nat): (r: (Circle<T>, nat))
    requires Valid(c) && cursor < |c|
    ensures Valid(r.0) && |r.0| == |c| && r.1 == c[cursor].next
    ensures r.0[c[cursor].prev].next == c[cursor].next
    ensures r.0[c[cursor].next].prev == c[cursor].prev
    ensures forall k :: 0 <= k < |c| && k != c[cursor].prev && k != c[cursor].next ==> r.0[k] == c[k]
  {
    var before := c[cursor].prev;
    var after := c[cursor].next;
    var c1 := c[before := c[before].(next := after)];
    var c2 := c1[after := c1[after].(prev := before)];
    (c2, after)
  }

  function StepForward<T>(c: Circle<T>, cursor: nat): (r: nat)
    requires Valid(c) && cursor < |c|
    ensures r < |c|
  {
    c[cursor].next
  }

  function StepBackward<T>(c: Circle<T>, cursor: nat): (r: nat)
    requires Valid(c) && cursor < |c|
    ensures r < |c|
  {
    c[cursor].prev
  }

  /** The `for _ in 0..7` loop: k steps backward. */
  function StepBackN<T>(c: Circle<T>, cursor: nat, k: nat): (r: nat)
    requires Valid(c) && cursor < |c|
    ensures r < |c|
    decreases k
  {
    if k == 0 then cursor else StepBackN(c, StepBackward(c, cursor), k - 1)
  }

  /** On a ring, one step forward and one step backward undo each other. */
  lemma StepInverse<T>(c: Circle<T>, pos: seq<nat>, s: seq<T>, j: nat)
    requires Valid(c) && Ring(c, pos, s) && j < |pos|
    ensures StepForward(c, pos[j]) == pos[Succ(j, |pos|)]
    ensures StepBackward(c, pos[j]) == pos[Pred(j, |pos|)]
    ensures StepBackward(c, StepForward(c, pos[j])) == pos[j]
    ensures StepForward(c, StepBackward(c, pos[j])) == pos[j]
  {
    var n := |pos|;
    assert LinkedAt(c, pos, s, j);
    assert LinkedAt(c, pos, s, Succ(j, n));
    assert LinkedAt(c, pos, s, Pred(j, n));
  }

  /** Position `j` moved `k` places backward around a ring of `n`. */
  function Back(j: nat, k: nat, n: nat): (r: nat)
    requires j < n
    ensures r < n
    decreases k
  {
    if k == 0 then j else Back(Pred(j, n), k - 1, n)
  }

  /** Stepping back no further than position 0 is subtraction. */
  lemma {:induction false} BackWithin(j: nat, k: nat, n: nat)
    requires k <= j < n
    ensures Back(j, k, n) == j - k
    decreases k
  {
    if k > 0 {
      BackWithin(j - 1, k - 1, n);
    }
  }

  lemma {:induction false} BackIsMod(j: nat, k: nat, n: nat)
    requires j < n
    ensures Back(j, k, n) == (j - k) % n
    decreases k
  {
    if k == 0 {
      ModUnique(j, n, 0, j);
    } else {
      var p := Pred(j, n);
      assert Back(j, k, n) == Back(p, k - 1, n);
      BackIsMod(p, k - 1, n);
      if j == 0 {
        ModShift(j - k, n);
        assert (j - k) + n == p - (k - 1);
      } else {
        assert p - (k - 1) == j - k;
      }
    }
  }

  lemma {:induction false} StepBackNRing<T>(c: Circle<T>, pos: seq<nat>, s: seq<T>, j: nat, k: nat)
    requires Valid(c) && Ring(c, pos, s) && j < |pos|
    ensures StepBackN(c, pos[j], k) == pos[Back(j, k, |pos|)]
    decreases k
  {
    if k > 0 {
      StepInverse(c, pos, s, j);
      StepBackNRing(c, pos, s, Pred(j, |pos|), k - 1);
    }
  }

  /** Inserting after ring position `a` puts the new node at position `a + 1`. */
  lemma InsertRing<T>(c: Circle<T>, pos: seq<nat>, s: seq<T>, a: nat, v: T)
    requires Valid(c) && Ring(c, pos, s) && a < |pos|
    ensures InsertAfter(c, pos[a], v).1 == |c|
    ensures Ring(InsertAfter(c, pos[a], v).0, pos[..a + 1] + [|c|] + pos[a + 1..], s[..a + 1] + [v] + s[a + 1..])
  {
    DistinctInsert(pos, a, |c|);
    InsertLinks(c, pos, s, a, v);
  }

  lemma InsertLinks<T>(c: Circle<T>, pos: seq<nat>, s: seq<T>, a: nat, v: T)
    requires Valid(c) && Ring(c, pos, s) && a < |pos|
    ensures var pos2 := pos[..a + 1] + [|c|] + pos[a + 1..];
      |pos2| == |pos| + 1 &&
      forall j :: 0 <= j < |pos2| ==>
        pos2[j] < |InsertAfter(c, pos[a], v).0| &&
        LinkedAt(InsertAfter(c, pos[a], v).0, pos2, s[..a + 1] + [v] + s[a + 1..], j)
  {
    var pos2 := pos[..a + 1] + [|c|] + pos[a + 1..];
    forall j | 0 <= j < |pos2|
      ensures pos2[j] < |InsertAfter(c, pos[a], v).0|
      ensures LinkedAt(InsertAfter(c, pos[a], v).0, pos2, s[..a + 1] + [v] + s[a + 1..], j)
    {
      InsertLinkedAt(c, pos, s, a, v, j);
    }
  }

  /** After the insertion, ring position `j` is linked to its new neighbours. */
  lemma InsertLinkedAt<T>(c: Circle<T>, pos: seq<nat>, s: seq<T>, a: nat, v: T, j: nat)
    requires Valid(c) && Ring(c, pos, s) && a < |pos| && j <= |pos|
    ensures var pos2 := pos[..a + 1] + [|c|] + pos[a + 1..];
      pos2[j] < |InsertAfter(c, pos[a], v).0| &&
      LinkedAt(InsertAfter(c, pos[a], v).0, pos2, s[..a + 1] + [v] + s[a + 1..], j)
  {
    if j == a + 1 {
      InsertLinkedNew(c, pos, s, a, v);
    } else {
      InsertLinkedOld(c, pos, s, a, v, j);
    }
  }

  /** The new node sits between ring positions `a` and `a + 1`. */
  lemma InsertLinkedNew<T>(c: Circle<T>, pos: seq<nat>, s: seq<T>, a: nat, v: T)
    requires Valid(c) && Ring(c, pos, s) && a < |pos|
    ensures var pos2 := pos[..a + 1] + [|c|] + pos[a + 1..];
      pos2[a + 1] < |InsertAfter(c, pos[a], v).0| &&
      LinkedAt(InsertAfter(c, pos[a], v).0, pos2, s[..a + 1] + [v] + s[a + 1..], a + 1)
  {
    var n := |pos|;
    var pos2 := pos[..a + 1] + [|c|] + pos[a + 1..];
    assert LinkedAt(c, pos, s, a);
    assert pos2[a + 1] == |c| && pos2[a] == pos[a];
    assert pos2[Succ(a + 1, n + 1)] == pos[Succ(a, n)];
  }

  /** An old node keeps its place, next to the new node when it was next to the cursor. */
  lemma InsertLinkedOld<T>(c: Circle<T>, pos: seq<nat>, s: seq<T>, a: nat, v: T, j: nat)
    requires Valid(c) && Ring(c, pos, s) && a < |pos| && j <= |pos| && j != a + 1
    ensures var pos2 := pos[..a + 1] + [|c|] + pos[a + 1..];
      pos2[j] < |InsertAfter(c, pos[a], v).0| &&
      LinkedAt(InsertAfter(c, pos[a], v).0, pos2, s[..a + 1] + [v] + s[a + 1..], j)
  {
    var n := |pos|;
    var i := |c|;
    var pos2 := pos[..a + 1] + [i] + pos[a + 1..];
    var k := if j <= a then j else j - 1;
    assert pos2[j] == pos[k] && (s[..a + 1] + [v] + s[a + 1..])[j] == s[k];
    assert pos2[Pred(j, n + 1)] == if Pred(j, n + 1) == a + 1 then i else pos[Pred(k, n)];
    assert pos2[Succ(j, n + 1)] == if Succ(j, n + 1) == a + 1 then i else pos[Succ(k, n)];
    InsertKeeps(c, pos, s, a, v, k);
  }

  /** The cursor's node now leads to the new node, its old successor comes back from it, and
      every other node of the ring is untouched. */
  lemma InsertKeeps<T>(c: Circle<T>, pos: seq<nat>, s: seq<T>, a: nat, v: T, k: nat)
    requires Valid(c) && Ring(c, pos, s) && a < |pos| && k < |pos|
    ensures var c2 := InsertAfter(c, pos[a], v).0;
      var n := |pos|;
      c2[pos[k]] == Link(if k == Succ(a, n) then |c| else pos[Pred(k, n)],
                         if k == a then |c| else pos[Succ(k, n)], s[k])
  {
    var n := |pos|;
    assert LinkedAt(c, pos, s, k);
    assert LinkedAt(c, pos, s, a);
    if pos[k] == pos[a] {
      assert k == a;
    }
    if pos[k] == pos[Succ(a, n)] {
      assert k == Succ(a, n);
    }
  }

  lemma DistinctInsert(pos: seq<nat>, a: nat, i: nat)
    requires Distinct(pos) && a < |pos|
    requires forall x :: 0 <= x < |pos| ==> pos[x] < i
    ensures Distinct(pos[..a + 1] + [i] + pos[a + 1..])
  {
    var pos2 := pos[..a + 1] + [i] + pos[a + 1..];
    forall j, k | 0 <= j < k < |pos2|
      ensures pos2[j] != pos2[k]
    {
      if j != a + 1 && k != a + 1 {
        var j0 := if j <= a then j else j - 1;
        var k0 := if k <= a then k else k - 1;
        assert pos2[j] == pos[j0] && pos2[k] == pos[k0];
      }
    }
  }

  /** Removing the node at ring position `r` of a ring of two or more closes the gap. */
  lemma RemoveRing<T>(c: Circle<T>, pos: seq<nat>, s: seq<T>, r: nat)
    requires Valid(c) && Ring(c, pos, s) && |pos| >= 2 && r < |pos|
    ensures Remove(c, pos[r]).1 == pos[Succ(r, |pos|)]
    ensures Ring(Remove(c, pos[r]).0, pos[..r] + pos[r + 1..], s[..r] + s[r + 1..])
  {
    var c2 := Remove(c, pos[r]).0;
    var pos2 := pos[..r] + pos[r + 1..];
    var s2 := s[..r] + s[r + 1..];
    assert LinkedAt(c, pos, s, r);
    forall j | 0 <= j < |pos| - 1
      ensures pos2[j] < |c2|
      ensures LinkedAt(c2, pos2, s2, j)
    {
      RemoveLinkedAt(c, pos, s, r, j);
    }
    DistinctRemove(pos, r);
    assert Ring(c2, pos2, s2);
  }

  /** After the removal, ring position `j` is linked to its new neighbours. */
  lemma RemoveLinkedAt<T>(c: Circle<T>, pos: seq<nat>, s: seq<T>, r: nat, j: nat)
    requires Valid(c) && Ring(c, pos, s) && |pos| >= 2 && r < |pos| && j < |pos| - 1
    ensures var pos2 := pos[..r] + pos[r + 1..];
      pos2[j] < |Remove(c, pos[r]).0| && LinkedAt(Remove(c, pos[r]).0, pos2, s[..r] + s[r + 1..], j)
  {
    var n := |pos|;
    var pos2 := pos[..r] + pos[r + 1..];
    var k := if j < r then j else j + 1;
    assert pos2[j] == pos[k] && (s[..r] + s[r + 1..])[j] == s[k];
    assert pos2[Pred(j, n - 1)] == if Pred(k, n) == r then pos[Pred(r, n)] else pos[Pred(k, n)];
    assert pos2[Succ(j, n - 1)] == if Succ(k, n) == r then pos[Succ(r, n)] else pos[Succ(k, n)];
    RemoveKeeps(c, pos, s, r, k);
  }

  /** The removed node's neighbours now lead to each other, and every other node of the ring
      is untouched. */
  lemma RemoveKeeps<T>(c: Circle<T>, pos: seq<nat>, s: seq<T>, r: nat, k: nat)
    requires Valid(c) && Ring(c, pos, s) && |pos| >= 2 && r < |pos| && k < |pos| && k != r
    ensures var c2 := Remove(c, pos[r]).0;
      var n := |pos|;
      c2[pos[k]] == Link(if k == Succ(r, n) then pos[Pred(r, n)] else pos[Pred(k, n)],
                         if k == Pred(r, n) then pos[Succ(r, n)] else pos[Succ(k, n)], s[k])
  {
    var n := |pos|;
    assert LinkedAt(c, pos, s, k);
    assert LinkedAt(c, pos, s, r);
    if pos[k] == pos[Pred(r, n)] {
      assert k == Pred(r, n);
    }
    if pos[k] == pos[Succ(r, n)] {
      assert k == Succ(r, n);
    }
  }

  lemma DistinctRemove(pos: seq<nat>, r: nat)
    requires Distinct(pos) && r < |pos|
    ensures Distinct(pos[..r] + pos[r + 1..])
  {
    var pos2 := pos[..r] + pos[r + 1..];
    forall j, k | 0 <= j < k < |pos2|
      ensures pos2[j] != pos2[k]
    {
      var j0 := if j < r then j else j + 1;
      var k0 := if k < r then k else k + 1;
      assert pos2[j] == pos[j0] && pos2[k] == pos[k0];
    }
  }

  lemma SuccIsMod(j: nat, n: nat)
    requires j < n
    ensures Succ(j, n) == (j + 1) % n
  {
    if j + 1 == n {
      ModUnique(j + 1, n, 1, 0);
    } else {
      ModUnique(j + 1, n, 0, j + 1);
    }
  }

  // The list formulation of the game: the circle as a sequence read clockwise, the current
  // marble as an index into it.

  datatype Game = Game(circle: seq<nat>, current: nat, scores: seq<nat>)

  /**
   * Before marble `marble` is played, the circle holds marble 0 and every earlier marble
   * except the two taken at each multiple of 23.
   */
  predicate Sized(g: Game, marble: nat, n: nat)
  {
    marble >= 1 && g.current < |g.circle| && |g.scores| == n &&
    |g.circle| + 2 * ((marble - 1) / 23) == marble
  }

  /** The marble goes between the marbles one and two places clockwise of the current one: after
      position `(idx + 1) mod n`, which is `Succ(idx, n)` by `SuccIsMod`. */
  function Place(s: seq<nat>, idx: nat, m: nat): (r: (seq<nat>, nat))
    requires idx < |s|
    ensures |r.0| == |s| + 1 && r.1 < |r.0| && r.0[r.1] == m
    ensures r.0[..r.1] + r.0[r.1 + 1..] == s
  {
    var a := Succ(idx, |s|);
    assert s[..a + 1] + [m] + s[a + 1..] == s[..a + 1] + ([m] + s[a + 1..]);
    (s[..a + 1] + [m] + s[a + 1..], a + 1)
  }

  /**
   * The marble seven places counter-clockwise leaves the circle, at position `(idx - 7) mod n`,
   * which is `Back(idx, 7, n)` by `BackIsMod`; the one clockwise of it becomes current.
   */
  function Take(s: seq<nat>, idx: nat): (r: (seq<nat>, nat, nat))
    requires 2 <= |s| && idx < |s|
    ensures |r.0| == |s| - 1 && r.1 < |r.0|
    ensures r.2 == s[Back(idx, 7, |s|)]
    ensures r.0 == s[..Back(idx, 7, |s|)] + s[Back(idx, 7, |s|) + 1..]
  {
    var k := Back(idx, 7, |s|);
    (s[..k] + s[k + 1..], if k == |s| - 1 then 0 else k, s[k])
  }

  lemma CircleSize(marble: nat)
    requires marble >= 1
    ensures marble % 23 == 0 ==> marble - 2 * ((marble - 1) / 23) >= 2
    ensures (marble + 1 - 1) / 23 == (marble - 1) / 23 + (if marble % 23 == 0 then 1 else 0)
  {
  }

  /** One turn of the list formulation. */
  function RefTurn(g: Game, marble: nat, n: nat): (r: Game)
    requires Sized(g, marble, n) && (marble % 23 == 0 ==> n > 0)
    ensures Sized(r, marble + 1, n)
  {
    CircleSize(marble);
    if marble % 23 == 0 then
      var t := Take(g.circle, g.current);
      var p := (marble - 1) % n;
      Game(t.0, t.1, g.scores[p := g.scores[p] + marble + t.2])
    else
      var t := Place(g.circle, g.current, marble);
      Game(t.0, t.1, g.scores)
  }

  function RefPlay(g: Game, marble: nat, last: nat, n: nat): (r: Game)
    requires Sized(g, marble, n) && (n > 0 || last < 23)
    ensures |r.scores| == n
    decreases last + 1 - marble
  {
    if marble > last then g else RefPlay(RefTurn(g, marble, n), marble + 1, last, n)
  }

  /** One iteration of the `for marble in 1..=last_marble` loop on the linked circle. */
  function Turn(c: Circle<nat>, cur: nat, scores: seq<nat>, marble: nat, n: nat): (r: (Circle<nat>, nat, seq<nat>))
    requires Valid(c) && cur < |c| && |scores| == n && marble >= 1 && (marble % 23 == 0 ==> n > 0)
    ensures Valid(r.0) && r.1 < |r.0| && |r.2| == n
  {
    if marble % 23 == 0 then
      var back := StepBackN(c, cur, 7);
      var score := marble + c[back].value;
      var (c2, cur2) := Remove(c, back);
      var p := (marble - 1) % n;
      (c2, cur2, scores[p := scores[p] + score])
    else
      var (c2, cur2) := InsertAfter(c, StepForward(c, cur), marble);
      (c2, cur2, scores)
  }

  function Play(c: Circle<nat>, cur: nat, scores: seq<nat>, marble: nat, last: nat, n: nat): (r: seq<nat>)
    requires Valid(c) && cur < |c| && |scores| == n && marble >= 1 && (n > 0 || last < 23)
    ensures |r| == n
    decreases last + 1 - marble
  {
    if marble > last then scores
    else
      var (c2, cur2, s2) := Turn(c, cur, scores, marble, n);
      Play(c2, cur2, s2, marble + 1, last, n)
  }

  function Zeros(n: nat): (r: seq<nat>)
    ensures |r| == n && forall i :: 0 <= i < n ==> r[i] == 0
  {
    seq(n, _ => 0)
  }

  /** `max().unwrap_or(0)`. */
  function Best(s: seq<nat>): (r: nat)
    ensures forall i :: 0 <= i < |s| ==> s[i] <= r
    ensures |s| == 0 ==> r == 0
    ensures |s| > 0 ==> r in s
  {
    if |s| == 0 then 0
    else if |s| == 1 then s[0]
    else Max(Best(s[..|s| - 1]), s[|s| - 1])
  }

  /** `marble_score`: the best score after the last marble; division by zero needs no player to score. */
  function MarbleScore(n: nat, last: nat): nat
    requires n > 0 || last < 23
  {
    Best(Play(New(0).0, 0, Zeros(n), 1, last, n))
  }

  /** A turn on the linked circle does what a turn of the list formulation does. */
  lemma TurnRefines(c: Circle<nat>, pos: seq<nat>, g: Game, marble: nat, n: nat) returns (pos2: seq<nat>)
    requires Valid(c) && Ring(c, pos, g.circle) && Sized(g, marble, n) && (marble % 23 == 0 ==> n > 0)
    ensures Ring(Turn(c, pos[g.current], g.scores, marble, n).0, pos2, RefTurn(g, marble, n).circle)
    ensures Turn(c, pos[g.current], g.scores, marble, n).1 == pos2[RefTurn(g, marble, n).current]
    ensures Turn(c, pos[g.current], g.scores, marble, n).2 == RefTurn(g, marble, n).scores
  {
    if marble % 23 == 0 {
      pos2 := TakeRefines(c, pos, g, marble, n);
    } else {
      pos2 := PlaceRefines(c, pos, g, marble, n);
    }
  }

  lemma TakeRefines(c: Circle<nat>, pos: seq<nat>, g: Game, marble: nat, n: nat) returns (pos2: seq<nat>)
    requires Valid(c) && Ring(c, pos, g.circle) && Sized(g, marble, n) && marble % 23 == 0 && n > 0
    ensures Ring(Turn(c, pos[g.current], g.scores, marble, n).0, pos2, RefTurn(g, marble, n).circle)
    ensures Turn(c, pos[g.current], g.scores, marble, n).1 == pos2[RefTurn(g, marble, n).current]
    ensures Turn(c, pos[g.current], g.scores, marble, n).2 == RefTurn(g, marble, n).scores
  {
    var len := |pos|;
    var idx := g.current;
    CircleSize(marble);
    var k := Back(idx, 7, len);
    StepBackNRing(c, pos, g.circle, idx, 7);
    assert StepBackN(c, pos[idx], 7) == pos[k];
    assert LinkedAt(c, pos, g.circle, k);
    var p := (marble - 1) % n;
    var scores := g.scores[p := g.scores[p] + marble + g.circle[k]];
    var t := Turn(c, pos[idx], g.scores, marble, n);
    assert t == (Remove(c, pos[k]).0, Remove(c, pos[k]).1, scores);
    var r := RefTurn(g, marble, n);
    assert r == Game(g.circle[..k] + g.circle[k + 1..], if k == len - 1 then 0 else k, scores);
    RemoveRing(c, pos, g.circle, k);
    pos2 := pos[..k] + pos[k + 1..];
  }

  lemma PlaceRefines(c: Circle<nat>, pos: seq<nat>, g: Game, marble: nat, n: nat) returns (pos2: seq<nat>)
    requires Valid(c) && Ring(c, pos, g.circle) && Sized(g, marble, n) && marble % 23 != 0
    ensures Ring(Turn(c, pos[g.current], g.scores, marble, n).0, pos2, RefTurn(g, marble, n).circle)
    ensures Turn(c, pos[g.current], g.scores, marble, n).1 == pos2[RefTurn(g, marble, n).current]
    ensures Turn(c, pos[g.current], g.scores, marble, n).2 == RefTurn(g, marble, n).scores
  {
    var len := |pos|;
    var idx := g.current;
    var a := Succ(idx, len);
    StepInverse(c, pos, g.circle, idx);
    InsertRing(c, pos, g.circle, a, marble);
    pos2 := pos[..a + 1] + [|c|] + pos[a + 1..];
  }

  lemma {:induction false} PlayRefines(c: Circle<nat>, pos: seq<nat>, g: Game, marble: nat, last: nat, n: nat)
    requires Valid(c) && Ring(c, pos, g.circle) && Sized(g, marble, n) && (n > 0 || last < 23)
    ensures Play(c, pos[g.current], g.scores, marble, last, n) == RefPlay(g, marble, last, n).scores
    decreases last + 1 - marble
  {
    if marble <= last {
      var pos2 := TurnRefines(c, pos, g, marble, n);
      var t := Turn(c, pos[g.current], g.scores, marble, n);
      PlayRefines(t.0, pos2, RefTurn(g, marble, n), marble + 1, last, n);
    }
  }

  /** `marble_score` on the linked circle equals the best score of the list formulation. */
  lemma MarbleScoreIsReference(n: nat, last: nat)
    requires n > 0 || last < 23
    ensures MarbleScore(n, last) == Best(RefPlay(Game([0], 0, Zeros(n)), 1, last, n).scores)
  {
    PlayRefines(New(0).0, [0], Game([0], 0, Zeros(n)), 1, last, n);
  }

  lemma SumNatSplit(s: seq<nat>, k: nat)
    requires k < |s|
    ensures SumNat(s) == SumNat(s[..k] + s[k + 1..]) + s[k]
  {
    var a := s[..k];
    var b := s[k + 1..];
    assert s == (a + [s[k]]) + b;
    SumNatAppend(a + [s[k]], b);
    assert (a + [s[k]])[..|a|] == a;
    SumNatAppend(a, b);
  }

  /** Every turn adds its marble to the circle and the scores together. */
  lemma TurnConserves(g: Game, marble: nat, n: nat)
    requires Sized(g, marble, n) && (marble % 23 == 0 ==> n > 0)
    ensures SumNat(RefTurn(g, marble, n).scores) + SumNat(RefTurn(g, marble, n).circle)
      == SumNat(g.scores) + SumNat(g.circle) + marble
  {
    CircleSize(marble);
    if marble % 23 == 0 {
      TakeConserves(g, marble, n);
    } else {
      var t := Place(g.circle, g.current, marble);
      SumNatSplit(t.0, t.1);
    }
  }

  /** A scoring turn moves the taken marble from the circle to a score and adds the turn's
      marble to that score. */
  lemma TakeConserves(g: Game, marble: nat, n: nat)
    requires Sized(g, marble, n) && marble % 23 == 0 && n > 0 && |g.circle| >= 2
    ensures SumNat(RefTurn(g, marble, n).scores) + SumNat(RefTurn(g, marble, n).circle)
      == SumNat(g.scores) + SumNat(g.circle) + marble
  {
    var t := Take(g.circle, g.current);
    var k := Back(g.current, 7, |g.circle|);
    var p := (marble - 1) % n;
    var scores := g.scores[p := g.scores[p] + marble + t.2];
    assert RefTurn(g, marble, n) == Game(t.0, t.1, scores);
    SumNatSplit(g.circle, k);
    SumNatSplit(g.scores, p);
    SumNatSplit(scores, p);
    assert scores[..p] + scores[p + 1..] == g.scores[..p] + g.scores[p + 1..];
  }

  /** 1 + 2 + ... + m. */
  function Triangle(m: nat): nat
  {
    if m == 0 then 0 else Triangle(m - 1) + m
  }

  lemma {:induction false} TriangleClosed(m: nat)
    ensures Triangle(m) == m * (m + 1) / 2
  {
    if m > 0 {
      TriangleClosed(m - 1);
      assert m * (m + 1) == (m - 1) * m + 2 * m;
    }
  }

  /**
   * Conservation: after the game every marble 1..=last is either still in the circle or was
   * added to some player's score, so the two sums together grow by marble + ... + last.
   */
  lemma {:induction false} PlayConserves(g: Game, marble: nat, last: nat, n: nat)
    requires Sized(g, marble, n) && (n > 0 || last < 23) && marble <= last + 1
    ensures SumNat(RefPlay(g, marble, last, n).scores) + SumNat(RefPlay(g, marble, last, n).circle)
      + Triangle(marble - 1) == SumNat(g.scores) + SumNat(g.circle) + Triangle(last)
    decreases last + 1 - marble
  {
    if marble <= last {
      var t := RefTurn(g, marble, n);
      TurnConserves(g, marble, n);
      PlayConserves(t, marble + 1, last, n);
    }
  }

  lemma MarblesConserved(n: nat, last: nat)
    requires n > 0 || last < 23
    ensures SumNat(RefPlay(Game([0], 0, Zeros(n)), 1, last, n).scores)
      + SumNat(RefPlay(Game([0], 0, Zeros(n)), 1, last, n).circle) == last * (last + 1) / 2
  {
    PlayConserves(Game([0], 0, Zeros(n)), 1, last, n);
    TriangleClosed(last);
    ZerosSum(n);
    assert [0][..0] == [];
  }

  lemma {:induction false} ZerosSum(n: nat)
    ensures SumNat(Zeros(n)) == 0
  {
    if n > 0 {
      assert Zeros(n)[..n - 1] == Zeros(n - 1);
      ZerosSum(n - 1);
    }
  }

  // The first test: nine players, last marble 25, best score 32. The list formulation is
  // evaluated turn by turn; `MarbleScoreIsReference` carries the answer to the linked circle.
  lemma ExampleTurn1()
    ensures Sized(Game([0], 0, [0, 0, 0, 0, 0, 0, 0, 0, 0]), 1, 9)
    ensures RefTurn(Game([0], 0, [0, 0, 0, 0, 0, 0, 0, 0, 0]), 1, 9) == Game([0, 1], 1, [0, 0, 0, 0, 0, 0, 0, 0, 0])
  {
    assert [0][..1] == [0] && [0][1..] == [];
    assert [0] + [1] + [] == [0, 1];
  }
  lemma ExampleTurn2()
    ensures Sized(Game([0, 1], 1, [0, 0, 0, 0, 0, 0, 0, 0, 0]), 2, 9)
    ensures RefTurn(Game([0, 1], 1, [0, 0, 0, 0, 0, 0, 0, 0, 0]), 2, 9) == Game([0, 2, 1], 1, [0, 0, 0, 0, 0, 0, 0, 0, 0])
  {
    assert [0, 1][..1] == [0] && [0, 1][1..] == [1];
    assert [0] + [2] + [1] == [0, 2, 1];
  }
  lemma ExampleTurn3()
    ensures Sized(Game([0, 2, 1], 1, [0, 0, 0, 0, 0, 0, 0, 0, 0]), 3, 9)
    ensures RefTurn(Game([0, 2, 1], 1, [0, 0, 0, 0, 0, 0, 0, 0, 0]), 3, 9) == Game([0, 2, 1, 3], 3, [0, 0, 0, 0, 0, 0, 0, 0, 0])
  {
    assert [0, 2, 1][..3] == [0, 2, 1] && [0, 2, 1][3..] == [];
    assert [0, 2, 1] + [3] + [] == [0, 2, 1, 3];
  }
  lemma ExampleTurn4()
    ensures Sized(Game([0, 2, 1, 3], 3, [0, 0, 0, 0, 0, 0, 0, 0, 0]), 4, 9)
    ensures RefTurn(Game([0, 2, 1, 3], 3, [0, 0, 0, 0, 0, 0, 0, 0, 0]), 4, 9) == Game([0, 4, 2, 1, 3], 1, [0, 0, 0, 0, 0, 0, 0, 0, 0])
  {
    assert [0, 2, 1, 3][..1] == [0] && [0, 2, 1, 3][1..] == [2, 1, 3];
    assert [0] + [4] + [2, 1, 3] == [0, 4, 2, 1, 3];
  }
  lemma ExampleTurn5()
    ensures Sized(Game([0, 4, 2, 1, 3], 1, [0, 0, 0, 0, 0, 0, 0, 0, 0]), 5, 9)
    ensures RefTurn(Game([0, 4, 2, 1, 3], 1, [0, 0, 0, 0, 0, 0, 0, 0, 0]), 5, 9) == Game([0, 4, 2, 5, 1, 3], 3, [0, 0, 0, 0, 0, 0, 0, 0, 0])
  {
    assert [0, 4, 2, 1, 3][..3] == [0, 4, 2] && [0, 4, 2, 1, 3][3..] == [1, 3];
    assert [0, 4, 2] + [5] + [1, 3] == [0, 4, 2, 5, 1, 3];
  }
  lemma ExampleTurn6()
    ensures Sized(Game([0, 4, 2, 5, 1, 3], 3, [0, 0, 0, 0, 0, 0, 0, 0, 0]), 6, 9)
    ensures RefTurn(Game([0, 4, 2, 5, 1, 3], 3, [0, 0, 0, 0, 0, 0, 0, 0, 0]), 6, 9) == Game([0, 4, 2, 5, 1, 6, 3], 5, [0, 0, 0, 0, 0, 0, 0, 0, 0])
  {
    assert [0, 4, 2, 5, 1, 3][..5] == [0, 4, 2, 5, 1] && [0, 4, 2, 5, 1, 3][5..] == [3];
    assert [0, 4, 2, 5, 1] + [6] + [3] == [0, 4, 2, 5, 1, 6, 3];
  }
  lemma ExampleTurn7()
    ensures Sized(Game([0, 4, 2, 5, 1, 6, 3], 5, [0, 0, 0, 0, 0, 0, 0, 0, 0]), 7, 9)
    ensures RefTurn(Game([0, 4, 2, 5, 1, 6, 3], 5, [0, 0, 0, 0, 0, 0, 0, 0, 0]), 7, 9) == Game([0, 4, 2, 5, 1, 6, 3, 7], 7, [0, 0, 0, 0, 0, 0, 0, 0, 0])
  {
    assert [0, 4, 2, 5, 1, 6, 3][..7] == [0, 4, 2, 5, 1, 6, 3] && [0, 4, 2, 5, 1, 6, 3][7..] == [];
    assert [0, 4, 2, 5, 1, 6, 3] + [7] + [] == [0, 4, 2, 5, 1, 6, 3, 7];
  }
  lemma ExampleTurn8()
    ensures Sized(Game([0, 4, 2, 5, 1, 6, 3, 7], 7, [0, 0, 0, 0, 0, 0, 0, 0, 0]), 8, 9)
    ensures RefTurn(Game([0, 4, 2, 5, 1, 6, 3, 7], 7, [0, 0, 0, 0, 0, 0, 0, 0, 0]), 8, 9) == Game([0, 8, 4, 2, 5, 1, 6, 3, 7], 1, [0, 0, 0, 0, 0, 0, 0, 0, 0])
  {
    assert [0, 4, 2, 5, 1, 6, 3, 7][..1] == [0] && [0, 4, 2, 5, 1, 6, 3, 7][1..] == [4, 2, 5, 1, 6, 3, 7];
    assert [0] + [8] + [4, 2, 5, 1, 6, 3, 7] == [0, 8, 4, 2, 5, 1, 6, 3, 7];
  }
  lemma ExampleTurn9()
    ensures Sized(Game([0, 8, 4, 2, 5, 1, 6, 3, 7], 1, [0, 0, 0, 0, 0, 0, 0, 0, 0]), 9, 9)
    ensures RefTurn(Game([0, 8, 4, 2, 5, 1, 6, 3, 7], 1, [0, 0, 0, 0, 0, 0, 0, 0, 0]), 9, 9) == Game([0, 8, 4, 9, 2, 5, 1, 6, 3, 7], 3, [0, 0, 0, 0, 0, 0, 0, 0, 0])
  {
    assert [0, 8, 4, 2, 5, 1, 6, 3, 7][..3] == [0, 8, 4] && [0, 8, 4, 2, 5, 1, 6, 3, 7][3..] == [2, 5, 1, 6, 3, 7];
    assert [0, 8, 4] + [9] + [2, 5, 1, 6, 3, 7] == [0, 8, 4, 9, 2, 5, 1, 6, 3, 7];
  }
  lemma ExampleTurn10()
    ensures Sized(Game([0, 8, 4, 9, 2, 5, 1, 6, 3, 7], 3, [0, 0, 0, 0, 0, 0, 0, 0, 0]), 10, 9)
    ensures RefTurn(Game([0, 8, 4, 9, 2, 5, 1, 6, 3, 7], 3, [0, 0, 0, 0, 0, 0, 0, 0, 0]), 10, 9) == Game([0, 8, 4, 9, 2, 10, 5, 1, 6, 3, 7], 5, [0, 0, 0, 0, 0, 0, 0, 0, 0])
  {
    assert [0, 8, 4, 9, 2, 5, 1, 6, 3, 7][..5] == [0, 8, 4, 9, 2] && [0, 8, 4, 9, 2, 5, 1, 6, 3, 7][5..] == [5, 1, 6, 3, 7];
    assert [0, 8, 4, 9, 2] + [10] + [5, 1, 6, 3, 7] == [0, 8, 4, 9, 2, 10, 5, 1, 6, 3, 7];
  }
  lemma ExampleTurn11()
    ensures Sized(Game([0, 8, 4, 9, 2, 10, 5, 1, 6, 3, 7], 5, [0, 0, 0, 0, 0, 0, 0, 0, 0]), 11, 9)
    ensures RefTurn(Game([0, 8, 4, 9, 2, 10, 5, 1, 6, 3, 7], 5, [0, 0, 0, 0, 0, 0, 0, 0, 0]), 11, 9) == Game([0, 8, 4, 9, 2, 10, 5, 11, 1, 6, 3, 7], 7, [0, 0, 0, 0, 0, 0, 0, 0, 0])
  {
    assert [0, 8, 4, 9, 2, 10, 5, 1, 6, 3, 7][..7] == [0, 8, 4, 9, 2, 10, 5] && [0, 8, 4, 9, 2, 10, 5, 1, 6, 3, 7][7..] == [1, 6, 3, 7];
    assert [0, 8, 4, 9, 2, 10, 5] + [11] + [1, 6, 3, 7] == [0, 8, 4, 9, 2, 10, 5, 11, 1, 6, 3, 7];
  }
  lemma ExampleTurn12()
    ensures Sized(Game([0, 8, 4, 9, 2, 10, 5, 11, 1, 6, 3, 7], 7, [0, 0, 0, 0, 0, 0, 0, 0, 0]), 12, 9)
    ensures RefTurn(Game([0, 8, 4, 9, 2, 10, 5, 11, 1, 6, 3, 7], 7, [0, 0, 0, 0, 0, 0, 0, 0, 0]), 12, 9) == Game([0, 8, 4, 9, 2, 10, 5, 11, 1, 12, 6, 3, 7], 9, [0, 0, 0, 0, 0, 0, 0, 0, 0])
  {
    assert [0, 8, 4, 9, 2, 10, 5, 11, 1, 6, 3, 7][..9] == [0, 8, 4, 9, 2, 10, 5, 11, 1] && [0, 8, 4, 9, 2, 10, 5, 11, 1, 6, 3, 7][9..] == [6, 3, 7];
    assert [0, 8, 4, 9, 2, 10, 5, 11, 1] + [12] + [6, 3, 7] == [0, 8, 4, 9, 2, 10, 5, 11, 1, 12, 6, 3, 7];
  }
  lemma ExampleTurn13()
    ensures Sized(Game([0, 8, 4, 9, 2, 10, 5, 11, 1, 12, 6, 3, 7], 9, [0, 0, 0, 0, 0, 0, 0, 0, 0]), 13, 9)
    ensures RefTurn(Game([0, 8, 4, 9, 2, 10, 5, 11, 1, 12, 6, 3, 7], 9, [0, 0, 0, 0, 0, 0, 0, 0, 0]), 13, 9) == Game([0, 8, 4, 9, 2, 10, 5, 11, 1, 12, 6, 13, 3, 7], 11, [0, 0, 0, 0, 0, 0, 0, 0, 0])
  {
    assert [0, 8, 4, 9, 2, 10, 5, 11, 1, 12, 6, 3, 7][..11] == [0, 8, 4, 9, 2, 10, 5, 11, 1, 12, 6] && [0, 8, 4, 9, 2, 10, 5, 11, 1, 12, 6, 3, 7][11..] == [3, 7];
    assert [0, 8, 4, 9, 2, 10, 5, 11, 1, 12, 6] + [13] + [3, 7] == [0, 8, 4, 9, 2, 10, 5, 11, 1, 12, 6, 13, 3, 7];
  }
  lemma ExampleTurn14()
    ensures Sized(Game([0, 8, 4, 9, 2, 10, 5, 11, 1, 12, 6, 13, 3, 7], 11, [0, 0, 0, 0, 0, 0, 0, 0, 0]), 14, 9)
    ensures RefTurn(Game([0, 8, 4, 9, 2, 10, 5, 11, 1, 12, 6, 13, 3, 7], 11, [0, 0, 0, 0, 0, 0, 0, 0, 0]), 14, 9) == Game([0, 8, 4, 9, 2, 10, 5, 11, 1, 12, 6, 13, 3, 14, 7], 13, [0, 0, 0, 0, 0, 0, 0, 0, 0])
  {
    assert [0, 8, 4, 9, 2, 10, 5, 11, 1, 12, 6, 13, 3, 7][..13] == [0, 8, 4, 9, 2, 10, 5, 11, 1, 12, 6, 13, 3] && [0, 8, 4, 9, 2, 10, 5, 11, 1, 12, 6, 13, 3, 7][13..] == [7];
    assert [0, 8, 4, 9, 2, 10, 5, 11, 1, 12, 6, 13, 3] + [14] + [7] == [0, 8, 4, 9, 2, 10, 5, 11, 1, 12, 6, 13, 3, 14, 7];
  }
  lemma ExampleTurn15()
    ensures Sized(Game([0, 8, 4, 9, 2, 10, 5, 11, 1, 12, 6, 13, 3, 14, 7], 13, [0, 0, 0, 0, 0, 0, 0, 0, 0]), 15, 9)
    ensures RefTurn(Game([0, 8, 4, 9, 2, 10, 5, 11, 1, 12, 6, 13, 3, 14, 7], 13, [0, 0, 0, 0, 0, 0, 0, 0, 0]), 15, 9) == Game([0, 8, 4, 9, 2, 10, 5, 11, 1, 12, 6, 13, 3, 14, 7, 15], 15, [0, 0, 0, 0, 0, 0, 0, 0, 0])
  {
    assert [0, 8, 4, 9, 2, 10, 5, 11, 1, 12, 6, 13, 3, 14, 7][..15] == [0, 8, 4, 9, 2, 10, 5, 11, 1, 12, 6, 13, 3, 14, 7] && [0, 8, 4, 9, 2, 10, 5, 11, 1, 12, 6, 13, 3, 14, 7][15..] == [];
    assert [0, 8, 4, 9, 2, 10, 5, 11, 1, 12, 6, 13, 3, 14, 7] + [15] + [] == [0, 8, 4, 9, 2, 10, 5, 11, 1, 12, 6, 13, 3, 14, 7, 15];
  }
  lemma ExampleTurn16()
    ensures Sized(Game([0, 8, 4, 9, 2, 10, 5, 11, 1, 12, 6, 13, 3, 14, 7, 15], 15, [0, 0, 0, 0, 0, 0, 0, 0, 0]), 16, 9)
    ensures RefTurn(Game([0, 8, 4, 9, 2, 10, 5, 11, 1, 12, 6, 13, 3, 14, 7, 15], 15, [0, 0, 0, 0, 0, 0, 0, 0, 0]), 16, 9) == Game([0, 16, 8, 4, 9, 2, 10, 5, 11, 1, 12, 6, 13, 3, 14, 7, 15], 1, [0, 0, 0, 0, 0, 0, 0, 0, 0])
  {
    assert [0, 8, 4, 9, 2, 10, 5, 11, 1, 12, 6, 13, 3, 14, 7, 15][..1] == [0] && [0, 8, 4, 9, 2, 10, 5, 11, 1, 12, 6, 13, 3, 14, 7, 15][1..] == [8, 4, 9, 2, 10, 5, 11, 1, 12, 6, 13, 3, 14, 7, 15];
    assert [0] + [16] + [8, 4, 9, 2, 10, 5, 11, 1, 12, 6, 13, 3, 14, 7, 15] == [0, 16, 8, 4, 9, 2, 10, 5, 11, 1, 12, 6, 13, 3, 14, 7, 15];
  }
  lemma ExampleTurn17()
    ensures Sized(Game([0, 16, 8, 4, 9, 2, 10, 5, 11, 1, 12, 6, 13, 3, 14, 7, 15], 1, [0, 0, 0, 0, 0, 0, 0, 0, 0]), 17, 9)
    ensures RefTurn(Game([0, 16, 8, 4, 9, 2, 10, 5, 11, 1, 12, 6, 13, 3, 14, 7, 15], 1, [0, 0, 0, 0, 0, 0, 0, 0, 0]), 17, 9) == Game([0, 16, 8, 17, 4, 9, 2, 10, 5, 11, 1, 12, 6, 13, 3, 14, 7, 15], 3, [0, 0, 0, 0, 0, 0, 0, 0, 0])
  {
    assert [0, 16, 8, 4, 9, 2, 10, 5, 11, 1, 12, 6, 13, 3, 14, 7, 15][..3] == [0, 16, 8] && [0, 16, 8, 4, 9, 2, 10, 5, 11, 1, 12, 6, 13, 3, 14, 7, 15][3..] == [4, 9, 2, 10, 5, 11, 1, 12, 6, 13, 3, 14, 7, 15];
    assert [0, 16, 8] + [17] + [4, 9, 2, 10, 5, 11, 1, 12, 6, 13, 3, 14, 7, 15] == [0, 16, 8, 17, 4, 9, 2, 10, 5, 11, 1, 12, 6, 13, 3, 14, 7, 15];
  }
  lemma ExampleTurn18()
    ensures Sized(Game([0, 16, 8, 17, 4, 9, 2, 10, 5, 11, 1, 12, 6, 13, 3, 14, 7, 15], 3, [0, 0, 0, 0, 0, 0, 0, 0, 0]), 18, 9)
    ensures RefTurn(Game([0, 16, 8, 17, 4, 9, 2, 10, 5, 11, 1, 12, 6, 13, 3, 14, 7, 15], 3, [0, 0, 0, 0, 0, 0, 0, 0, 0]), 18, 9) == Game([0, 16, 8, 17, 4, 18, 9, 2, 10, 5, 11, 1, 12, 6, 13, 3, 14, 7, 15], 5, [0, 0, 0, 0, 0, 0, 0, 0, 0])
  {
    assert [0, 16, 8, 17, 4, 9, 2, 10, 5, 11, 1, 12, 6, 13, 3, 14, 7, 15][..5] == [0, 16, 8, 17, 4] && [0, 16, 8, 17, 4, 9, 2, 10, 5, 11, 1, 12, 6, 13, 3, 14, 7, 15][5..] == [9, 2, 10, 5, 11, 1, 12, 6, 13, 3, 14, 7, 15];
    assert [0, 16, 8, 17, 4] + [18] + [9, 2, 10, 5, 11, 1, 12, 6, 13, 3, 14, 7, 15] == [0, 16, 8, 17, 4, 18, 9, 2, 10, 5, 11, 1, 12, 6, 13, 3, 14, 7, 15];
  }
  lemma ExampleTurn19()
    ensures Sized(Game([0, 16, 8, 17, 4, 18, 9, 2, 10, 5, 11, 1, 12, 6, 13, 3, 14, 7, 15], 5, [0, 0, 0, 0, 0, 0, 0, 0, 0]), 19, 9)
    ensures RefTurn(Game([0, 16, 8, 17, 4, 18, 9, 2, 10, 5, 11, 1, 12, 6, 13, 3, 14, 7, 15], 5, [0, 0, 0, 0, 0, 0, 0, 0, 0]), 19, 9) == Game([0, 16, 8, 17, 4, 18, 9, 19, 2, 10, 5, 11, 1, 12, 6, 13, 3, 14, 7, 15], 7, [0, 0, 0, 0, 0, 0, 0, 0, 0])
  {
    assert [0, 16, 8, 17, 4, 18, 9, 2, 10, 5, 11, 1, 12, 6, 13, 3, 14, 7, 15][..7] == [0, 16, 8, 17, 4, 18, 9] && [0, 16, 8, 17, 4, 18, 9, 2, 10, 5, 11, 1, 12, 6, 13, 3, 14, 7, 15][7..] == [2, 10, 5, 11, 1, 12, 6, 13, 3, 14, 7, 15];
    assert [0, 16, 8, 17, 4, 18, 9] + [19] + [2, 10, 5, 11, 1, 12, 6, 13, 3, 14, 7, 15] == [0, 16, 8, 17, 4, 18, 9, 19, 2, 10, 5, 11, 1, 12, 6, 13, 3, 14, 7, 15];
  }
  lemma ExampleTurn20()
    ensures Sized(Game([0, 16, 8, 17, 4, 18, 9, 19, 2, 10, 5, 11, 1, 12, 6, 13, 3, 14, 7, 15], 7, [0, 0, 0, 0, 0, 0, 0, 0, 0]), 20, 9)
    ensures RefTurn(Game([0, 16, 8, 17, 4, 18, 9, 19, 2, 10, 5, 11, 1, 12, 6, 13, 3, 14, 7, 15], 7, [0, 0, 0, 0, 0, 0, 0, 0, 0]), 20, 9) == Game([0, 16, 8, 17, 4, 18, 9, 19, 2, 20, 10, 5, 11, 1, 12, 6, 13, 3, 14, 7, 15], 9, [0, 0, 0, 0, 0, 0, 0, 0, 0])
  {
    assert [0, 16, 8, 17, 4, 18, 9, 19, 2, 10, 5, 11, 1, 12, 6, 13, 3, 14, 7, 15][..9] == [0, 16, 8, 17, 4, 18, 9, 19, 2] && [0, 16, 8, 17, 4, 18, 9, 19, 2, 10, 5, 11, 1, 12, 6, 13, 3, 14, 7, 15][9..] == [10, 5, 11, 1, 12, 6, 13, 3, 14, 7, 15];
    assert [0, 16, 8, 17, 4, 18, 9, 19, 2] + [20] + [10, 5, 11, 1, 12, 6, 13, 3, 14, 7, 15] == [0, 16, 8, 17, 4, 18, 9, 19, 2, 20, 10, 5, 11, 1, 12, 6, 13, 3, 14, 7, 15];
  }
  lemma ExampleTurn21()
    ensures Sized(Game([0, 16, 8, 17, 4, 18, 9, 19, 2, 20, 10, 5, 11, 1, 12, 6, 13, 3, 14, 7, 15], 9, [0, 0, 0, 0, 0, 0, 0, 0, 0]), 21, 9)
    ensures RefTurn(Game([0, 16, 8, 17, 4, 18, 9, 19, 2, 20, 10, 5, 11, 1, 12, 6, 13, 3, 14, 7, 15], 9, [0, 0, 0, 0, 0, 0, 0, 0, 0]), 21, 9) == Game([0, 16, 8, 17, 4, 18, 9, 19, 2, 20, 10, 21, 5, 11, 1, 12, 6, 13, 3, 14, 7, 15], 11, [0, 0, 0, 0, 0, 0, 0, 0, 0])
  {
    assert [0, 16, 8, 17, 4, 18, 9, 19, 2, 20, 10, 5, 11, 1, 12, 6, 13, 3, 14, 7, 15][..11] == [0, 16, 8, 17, 4, 18, 9, 19, 2, 20, 10] && [0, 16, 8, 17, 4, 18, 9, 19, 2, 20, 10, 5, 11, 1, 12, 6, 13, 3, 14, 7, 15][11..] == [5, 11, 1, 12, 6, 13, 3, 14, 7, 15];
    assert [0, 16, 8, 17, 4, 18, 9, 19, 2, 20, 10] + [21] + [5, 11, 1, 12, 6, 13, 3, 14, 7, 15] == [0, 16, 8, 17, 4, 18, 9, 19, 2, 20, 10, 21, 5, 11, 1, 12, 6, 13, 3, 14, 7, 15];
  }
  lemma ExampleTurn22()
    ensures Sized(Game([0, 16, 8, 17, 4, 18, 9, 19, 2, 20, 10, 21, 5, 11, 1, 12, 6, 13, 3, 14, 7, 15], 11, [0, 0, 0, 0, 0, 0, 0, 0, 0]), 22, 9)
    ensures RefTurn(Game([0, 16, 8, 17, 4, 18, 9, 19, 2, 20, 10, 21, 5, 11, 1, 12, 6, 13, 3, 14, 7, 15], 11, [0, 0, 0, 0, 0, 0, 0, 0, 0]), 22, 9) == Game([0, 16, 8, 17, 4, 18, 9, 19, 2, 20, 10, 21, 5, 22, 11, 1, 12, 6, 13, 3, 14, 7, 15], 13, [0, 0, 0, 0, 0, 0, 0, 0, 0])
  {
    assert [0, 16, 8, 17, 4, 18, 9, 19, 2, 20, 10, 21, 5, 11, 1, 12, 6, 13, 3, 14, 7, 15][..13] == [0, 16, 8, 17, 4, 18, 9, 19, 2, 20, 10, 21, 5] && [0, 16, 8, 17, 4, 18, 9, 19, 2, 20, 10, 21, 5, 11, 1, 12, 6, 13, 3, 14, 7, 15][13..] == [11, 1, 12, 6, 13, 3, 14, 7, 15];
    assert [0, 16, 8, 17, 4, 18, 9, 19, 2, 20, 10, 21, 5] + [22] + [11, 1, 12, 6, 13, 3, 14, 7, 15] == [0, 16, 8, 17, 4, 18, 9, 19, 2, 20, 10, 21, 5, 22, 11, 1, 12, 6, 13, 3, 14, 7, 15];
  }
  lemma ExampleTurn23()
    ensures Sized(Game([0, 16, 8, 17, 4, 18, 9, 19, 2, 20, 10, 21, 5, 22, 11, 1, 12, 6, 13, 3, 14, 7, 15], 13, [0, 0, 0, 0, 0, 0, 0, 0, 0]), 23, 9)
    ensures RefTurn(Game([0, 16, 8, 17, 4, 18, 9, 19, 2, 20, 10, 21, 5, 22, 11, 1, 12, 6, 13, 3, 14, 7, 15], 13, [0, 0, 0, 0, 0, 0, 0, 0, 0]), 23, 9) == Game([0, 16, 8, 17, 4, 18, 19, 2, 20, 10, 21, 5, 22, 11, 1, 12, 6, 13, 3, 14, 7, 15], 6, [0, 0, 0, 0, 32, 0, 0, 0, 0])
  {
    ExampleTake23();
  }

  /** The marble taken on turn 23 is 9, seven places counter-clockwise of 22. */
  lemma ExampleTake23()
    ensures Take([0, 16, 8, 17, 4, 18, 9, 19, 2, 20, 10, 21, 5, 22, 11, 1, 12, 6, 13, 3, 14, 7, 15], 13)
      == ([0, 16, 8, 17, 4, 18, 19, 2, 20, 10, 21, 5, 22, 11, 1, 12, 6, 13, 3, 14, 7, 15], 6, 9)
  {
    BackWithin(13, 7, 23);
    assert [0, 16, 8, 17, 4, 18, 9, 19, 2, 20, 10, 21, 5, 22, 11, 1, 12, 6, 13, 3, 14, 7, 15][..6] == [0, 16, 8, 17, 4, 18] && [0, 16, 8, 17, 4, 18, 9, 19, 2, 20, 10, 21, 5, 22, 11, 1, 12, 6, 13, 3, 14, 7, 15][7..] == [19, 2, 20, 10, 21, 5, 22, 11, 1, 12, 6, 13, 3, 14, 7, 15];
    assert [0, 16, 8, 17, 4, 18] + [19, 2, 20, 10, 21, 5, 22, 11, 1, 12, 6, 13, 3, 14, 7, 15] == [0, 16, 8, 17, 4, 18, 19, 2, 20, 10, 21, 5, 22, 11, 1, 12, 6, 13, 3, 14, 7, 15];
  }

  lemma ExampleTurn24()
    ensures Sized(Game([0, 16, 8, 17, 4, 18, 19, 2, 20, 10, 21, 5, 22, 11, 1, 12, 6, 13, 3, 14, 7, 15], 6, [0, 0, 0, 0, 32, 0, 0, 0, 0]), 24, 9)
    ensures RefTurn(Game([0, 16, 8, 17, 4, 18, 19, 2, 20, 10, 21, 5, 22, 11, 1, 12, 6, 13, 3, 14, 7, 15], 6, [0, 0, 0, 0, 32, 0, 0, 0, 0]), 24, 9) == Game([0, 16, 8, 17, 4, 18, 19, 2, 24, 20, 10, 21, 5, 22, 11, 1, 12, 6, 13, 3, 14, 7, 15], 8, [0, 0, 0, 0, 32, 0, 0, 0, 0])
  {
    assert [0, 16, 8, 17, 4, 18, 19, 2, 20, 10, 21, 5, 22, 11, 1, 12, 6, 13, 3, 14, 7, 15][..8] == [0, 16, 8, 17, 4, 18, 19, 2] && [0, 16, 8, 17, 4, 18, 19, 2, 20, 10, 21, 5, 22, 11, 1, 12, 6, 13, 3, 14, 7, 15][8..] == [20, 10, 21, 5, 22, 11, 1, 12, 6, 13, 3, 14, 7, 15];
    assert [0, 16, 8, 17, 4, 18, 19, 2] + [24] + [20, 10, 21, 5, 22, 11, 1, 12, 6, 13, 3, 14, 7, 15] == [0, 16, 8, 17, 4, 18, 19, 2, 24, 20, 10, 21, 5, 22, 11, 1, 12, 6, 13, 3, 14, 7, 15];
  }
  lemma ExampleTurn25()
    ensures Sized(Game([0, 16, 8, 17, 4, 18, 19, 2, 24, 20, 10, 21, 5, 22, 11, 1, 12, 6, 13, 3, 14, 7, 15], 8, [0, 0, 0, 0, 32, 0, 0, 0, 0]), 25, 9)
    ensures RefTurn(Game([0, 16, 8, 17, 4, 18, 19, 2, 24, 20, 10, 21, 5, 22, 11, 1, 12, 6, 13, 3, 14, 7, 15], 8, [0, 0, 0, 0, 32, 0, 0, 0, 0]), 25, 9) == Game([0, 16, 8, 17, 4, 18, 19, 2, 24, 20, 25, 10, 21, 5, 22, 11, 1, 12, 6, 13, 3, 14, 7, 15], 10, [0, 0, 0, 0, 32, 0, 0, 0, 0])
  {
    assert [0, 16, 8, 17, 4, 18, 19, 2, 24, 20, 10, 21, 5, 22, 11, 1, 12, 6, 13, 3, 14, 7, 15][..10] == [0, 16, 8, 17, 4, 18, 19, 2, 24, 20] && [0, 16, 8, 17, 4, 18, 19, 2, 24, 20, 10, 21, 5, 22, 11, 1, 12, 6, 13, 3, 14, 7, 15][10..] == [10, 21, 5, 22, 11, 1, 12, 6, 13, 3, 14, 7, 15];
    assert [0, 16, 8, 17, 4, 18, 19, 2, 24, 20] + [25] + [10, 21, 5, 22, 11, 1, 12, 6, 13, 3, 14, 7, 15] == [0, 16, 8, 17, 4, 18, 19, 2, 24, 20, 25, 10, 21, 5, 22, 11, 1, 12, 6, 13, 3, 14, 7, 15];
  }
  /** Turns 13 to 25 of the example. */
  lemma ExamplePlayLate()
    ensures RefPlay(Game([0, 8, 4, 9, 2, 10, 5, 11, 1, 12, 6, 3, 7], 9, [0, 0, 0, 0, 0, 0, 0, 0, 0]), 13, 25, 9) == Game([0, 16, 8, 17, 4, 18, 19, 2, 24, 20, 25, 10, 21, 5, 22, 11, 1, 12, 6, 13, 3, 14, 7, 15], 10, [0, 0, 0, 0, 32, 0, 0, 0, 0])
  {
    assert RefPlay(Game([0, 16, 8, 17, 4, 18, 19, 2, 24, 20, 25, 10, 21, 5, 22, 11, 1, 12, 6, 13, 3, 14, 7, 15], 10, [0, 0, 0, 0, 32, 0, 0, 0, 0]), 26, 25, 9) == Game([0, 16, 8, 17, 4, 18, 19, 2, 24, 20, 25, 10, 21, 5, 22, 11, 1, 12, 6, 13, 3, 14, 7, 15], 10, [0, 0, 0, 0, 32, 0, 0, 0, 0]);
    ExampleTurn25();
    assert RefPlay(Game([0, 16, 8, 17, 4, 18, 19, 2, 24, 20, 10, 21, 5, 22, 11, 1, 12, 6, 13, 3, 14, 7, 15], 8, [0, 0, 0, 0, 32, 0, 0, 0, 0]), 25, 25, 9) == Game([0, 16, 8, 17, 4, 18, 19, 2, 24, 20, 25, 10, 21, 5, 22, 11, 1, 12, 6, 13, 3, 14, 7, 15], 10, [0, 0, 0, 0, 32, 0, 0, 0, 0]);
    ExampleTurn24();
    assert RefPlay(Game([0, 16, 8, 17, 4, 18, 19, 2, 20, 10, 21, 5, 22, 11, 1, 12, 6, 13, 3, 14, 7, 15], 6, [0, 0, 0, 0, 32, 0, 0, 0, 0]), 24, 25, 9) == Game([0, 16, 8, 17, 4, 18, 19, 2, 24, 20, 25, 10, 21, 5, 22, 11, 1, 12, 6, 13, 3, 14, 7, 15], 10, [0, 0, 0, 0, 32, 0, 0, 0, 0]);
    ExampleTurn23();
    assert RefPlay(Game([0, 16, 8, 17, 4, 18, 9, 19, 2, 20, 10, 21, 5, 22, 11, 1, 12, 6, 13, 3, 14, 7, 15], 13, [0, 0, 0, 0, 0, 0, 0, 0, 0]), 23, 25, 9) == Game([0, 16, 8, 17, 4, 18, 19, 2, 24, 20, 25, 10, 21, 5, 22, 11, 1, 12, 6, 13, 3, 14, 7, 15], 10, [0, 0, 0, 0, 32, 0, 0, 0, 0]);
    ExampleTurn22();
    assert RefPlay(Game([0, 16, 8, 17, 4, 18, 9, 19, 2, 20, 10, 21, 5, 11, 1, 12, 6, 13, 3, 14, 7, 15], 11, [0, 0, 0, 0, 0, 0, 0, 0, 0]), 22, 25, 9) == Game([0, 16, 8, 17, 4, 18, 19, 2, 24, 20, 25, 10, 21, 5, 22, 11, 1, 12, 6, 13, 3, 14, 7, 15], 10, [0, 0, 0, 0, 32, 0, 0, 0, 0]);
    ExampleTurn21();
    assert RefPlay(Game([0, 16, 8, 17, 4, 18, 9, 19, 2, 20, 10, 5, 11, 1, 12, 6, 13, 3, 14, 7, 15], 9, [0, 0, 0, 0, 0, 0, 0, 0, 0]), 21, 25, 9) == Game([0, 16, 8, 17, 4, 18, 19, 2, 24, 20, 25, 10, 21, 5, 22, 11, 1, 12, 6, 13, 3, 14, 7, 15], 10, [0, 0, 0, 0, 32, 0, 0, 0, 0]);
    ExampleTurn20();
    assert RefPlay(Game([0, 16, 8, 17, 4, 18, 9, 19, 2, 10, 5, 11, 1, 12, 6, 13, 3, 14, 7, 15], 7, [0, 0, 0, 0, 0, 0, 0, 0, 0]), 20, 25, 9) == Game([0, 16, 8, 17, 4, 18, 19, 2, 24, 20, 25, 10, 21, 5, 22, 11, 1, 12, 6, 13, 3, 14, 7, 15], 10, [0, 0, 0, 0, 32, 0, 0, 0, 0]);
    ExampleTurn19();
    assert RefPlay(Game([0, 16, 8, 17, 4, 18, 9, 2, 10, 5, 11, 1, 12, 6, 13, 3, 14, 7, 15], 5, [0, 0, 0, 0, 0, 0, 0, 0, 0]), 19, 25, 9) == Game([0, 16, 8, 17, 4, 18, 19, 2, 24, 20, 25, 10, 21, 5, 22, 11, 1, 12, 6, 13, 3, 14, 7, 15], 10, [0, 0, 0, 0, 32, 0, 0, 0, 0]);
    ExampleTurn18();
    assert RefPlay(Game([0, 16, 8, 17, 4, 9, 2, 10, 5, 11, 1, 12, 6, 13, 3, 14, 7, 15], 3, [0, 0, 0, 0, 0, 0, 0, 0, 0]), 18, 25, 9) == Game([0, 16, 8, 17, 4, 18, 19, 2, 24, 20, 25, 10, 21, 5, 22, 11, 1, 12, 6, 13, 3, 14, 7, 15], 10, [0, 0, 0, 0, 32, 0, 0, 0, 0]);
    ExampleTurn17();
    assert RefPlay(Game([0, 16, 8, 4, 9, 2, 10, 5, 11, 1, 12, 6, 13, 3, 14, 7, 15], 1, [0, 0, 0, 0, 0, 0, 0, 0, 0]), 17, 25, 9) == Game([0, 16, 8, 17, 4, 18, 19, 2, 24, 20, 25, 10, 21, 5, 22, 11, 1, 12, 6, 13, 3, 14, 7, 15], 10, [0, 0, 0, 0, 32, 0, 0, 0, 0]);
    ExampleTurn16();
    assert RefPlay(Game([0, 8, 4, 9, 2, 10, 5, 11, 1, 12, 6, 13, 3, 14, 7, 15], 15, [0, 0, 0, 0, 0, 0, 0, 0, 0]), 16, 25, 9) == Game([0, 16, 8, 17, 4, 18, 19, 2, 24, 20, 25, 10, 21, 5, 22, 11, 1, 12, 6, 13, 3, 14, 7, 15], 10, [0, 0, 0, 0, 32, 0, 0, 0, 0]);
    ExampleTurn15();
    assert RefPlay(Game([0, 8, 4, 9, 2, 10, 5, 11, 1, 12, 6, 13, 3, 14, 7], 13, [0, 0, 0, 0, 0, 0, 0, 0, 0]), 15, 25, 9) == Game([0, 16, 8, 17, 4, 18, 19, 2, 24, 20, 25, 10, 21, 5, 22, 11, 1, 12, 6, 13, 3, 14, 7, 15], 10, [0, 0, 0, 0, 32, 0, 0, 0, 0]);
    ExampleTurn14();
    assert RefPlay(Game([0, 8, 4, 9, 2, 10, 5, 11, 1, 12, 6, 13, 3, 7], 11, [0, 0, 0, 0, 0, 0, 0, 0, 0]), 14, 25, 9) == Game([0, 16, 8, 17, 4, 18, 19, 2, 24, 20, 25, 10, 21, 5, 22, 11, 1, 12, 6, 13, 3, 14, 7, 15], 10, [0, 0, 0, 0, 32, 0, 0, 0, 0]);
    ExampleTurn13();
  }

  /** Turns 7 to 12 of the example. */
  lemma ExamplePlayMiddle()
    ensures RefPlay(Game([0, 4, 2, 5, 1, 6, 3], 5, [0, 0, 0, 0, 0, 0, 0, 0, 0]), 7, 25, 9) == Game([0, 16, 8, 17, 4, 18, 19, 2, 24, 20, 25, 10, 21, 5, 22, 11, 1, 12, 6, 13, 3, 14, 7, 15], 10, [0, 0, 0, 0, 32, 0, 0, 0, 0])
  {
    ExamplePlayLate();
    ExampleTurn12();
    assert RefPlay(Game([0, 8, 4, 9, 2, 10, 5, 11, 1, 6, 3, 7], 7, [0, 0, 0, 0, 0, 0, 0, 0, 0]), 12, 25, 9) == Game([0, 16, 8, 17, 4, 18, 19, 2, 24, 20, 25, 10, 21, 5, 22, 11, 1, 12, 6, 13, 3, 14, 7, 15], 10, [0, 0, 0, 0, 32, 0, 0, 0, 0]);
    ExampleTurn11();
    assert RefPlay(Game([0, 8, 4, 9, 2, 10, 5, 1, 6, 3, 7], 5, [0, 0, 0, 0, 0, 0, 0, 0, 0]), 11, 25, 9) == Game([0, 16, 8, 17, 4, 18, 19, 2, 24, 20, 25, 10, 21, 5, 22, 11, 1, 12, 6, 13, 3, 14, 7, 15], 10, [0, 0, 0, 0, 32, 0, 0, 0, 0]);
    ExampleTurn10();
    assert RefPlay(Game([0, 8, 4, 9, 2, 5, 1, 6, 3, 7], 3, [0, 0, 0, 0, 0, 0, 0, 0, 0]), 10, 25, 9) == Game([0, 16, 8, 17, 4, 18, 19, 2, 24, 20, 25, 10, 21, 5, 22, 11, 1, 12, 6, 13, 3, 14, 7, 15], 10, [0, 0, 0, 0, 32, 0, 0, 0, 0]);
    ExampleTurn9();
    assert RefPlay(Game([0, 8, 4, 2, 5, 1, 6, 3, 7], 1, [0, 0, 0, 0, 0, 0, 0, 0, 0]), 9, 25, 9) == Game([0, 16, 8, 17, 4, 18, 19, 2, 24, 20, 25, 10, 21, 5, 22, 11, 1, 12, 6, 13, 3, 14, 7, 15], 10, [0, 0, 0, 0, 32, 0, 0, 0, 0]);
    ExampleTurn8();
    assert RefPlay(Game([0, 4, 2, 5, 1, 6, 3, 7], 7, [0, 0, 0, 0, 0, 0, 0, 0, 0]), 8, 25, 9) == Game([0, 16, 8, 17, 4, 18, 19, 2, 24, 20, 25, 10, 21, 5, 22, 11, 1, 12, 6, 13, 3, 14, 7, 15], 10, [0, 0, 0, 0, 32, 0, 0, 0, 0]);
    ExampleTurn7();
  }

  lemma ExamplePlay()
    ensures RefPlay(Game([0], 0, [0, 0, 0, 0, 0, 0, 0, 0, 0]), 1, 25, 9) == Game([0, 16, 8, 17, 4, 18, 19, 2, 24, 20, 25, 10, 21, 5, 22, 11, 1, 12, 6, 13, 3, 14, 7, 15], 10, [0, 0, 0, 0, 32, 0, 0, 0, 0])
  {
    ExamplePlayMiddle();
    ExampleTurn6();
    assert RefPlay(Game([0, 4, 2, 5, 1, 3], 3, [0, 0, 0, 0, 0, 0, 0, 0, 0]), 6, 25, 9) == Game([0, 16, 8, 17, 4, 18, 19, 2, 24, 20, 25, 10, 21, 5, 22, 11, 1, 12, 6, 13, 3, 14, 7, 15], 10, [0, 0, 0, 0, 32, 0, 0, 0, 0]);
    ExampleTurn5();
    assert RefPlay(Game([0, 4, 2, 1, 3], 1, [0, 0, 0, 0, 0, 0, 0, 0, 0]), 5, 25, 9) == Game([0, 16, 8, 17, 4, 18, 19, 2, 24, 20, 25, 10, 21, 5, 22, 11, 1, 12, 6, 13, 3, 14, 7, 15], 10, [0, 0, 0, 0, 32, 0, 0, 0, 0]);
    ExampleTurn4();
    assert RefPlay(Game([0, 2, 1, 3], 3, [0, 0, 0, 0, 0, 0, 0, 0, 0]), 4, 25, 9) == Game([0, 16, 8, 17, 4, 18, 19, 2, 24, 20, 25, 10, 21, 5, 22, 11, 1, 12, 6, 13, 3, 14, 7, 15], 10, [0, 0, 0, 0, 32, 0, 0, 0, 0]);
    ExampleTurn3();
    assert RefPlay(Game([0, 2, 1], 1, [0, 0, 0, 0, 0, 0, 0, 0, 0]), 3, 25, 9) == Game([0, 16, 8, 17, 4, 18, 19, 2, 24, 20, 25, 10, 21, 5, 22, 11, 1, 12, 6, 13, 3, 14, 7, 15], 10, [0, 0, 0, 0, 32, 0, 0, 0, 0]);
    ExampleTurn2();
    assert RefPlay(Game([0, 1], 1, [0, 0, 0, 0, 0, 0, 0, 0, 0]), 2, 25, 9) == Game([0, 16, 8, 17, 4, 18, 19, 2, 24, 20, 25, 10, 21, 5, 22, 11, 1, 12, 6, 13, 3, 14, 7, 15], 10, [0, 0, 0, 0, 32, 0, 0, 0, 0]);
    ExampleTurn1();
    assert RefPlay(Game([0], 0, [0, 0, 0, 0, 0, 0, 0, 0, 0]), 1, 25, 9) == Game([0, 16, 8, 17, 4, 18, 19, 2, 24, 20, 25, 10, 21, 5, 22, 11, 1, 12, 6, 13, 3, 14, 7, 15], 10, [0, 0, 0, 0, 32, 0, 0, 0, 0]);
  }

  lemma ExampleScore()
    ensures MarbleScore(9, 25) == 32
  {
    var g0 := Game([0], 0, Zeros(9));
    assert g0 == Game([0], 0, [0, 0, 0, 0, 0, 0, 0, 0, 0]);
    ExamplePlay();
    MarbleScoreIsReference(9, 25);
    ExampleBest();
  }

  lemma ExampleBest()
    ensures Best([0, 0, 0, 0, 32, 0, 0, 0, 0]) == 32
  {
    var sc := [0, 0, 0, 0, 32, 0, 0, 0, 0];
    assert sc[4] == 32;
  }
}

=== FILE: day10.dfy ===
/**
 * The converging points: each point moves with constant velocity; the message appears at the
 * first time after which the bounding rectangle of the points grows again. The picture is
 * drawn on a canvas the size of that rectangle.
 */
module Day10 {
  import opened Common
  import Text

  const I32Min: int := -0x8000_0000
  const I32Max: int := 0x7fff_ffff

  datatype Point = Point(px: int, py: int, vx: int, vy: int)

  /** `Point::at_time`: the position after `s` seconds. */
  function AtTime(p: Point, s: int): (int, int)
  {
    (p.px + p.vx * s, p.py + p.vy * s)
  }

  /** Moving for `s` and then for `u` seconds is moving for `s + u` seconds. */
  lemma AtTimeCompose(p: Point, s: int, u: int)
    ensures AtTime(Point(AtTime(p, s).0, AtTime(p, s).1, p.vx, p.vy), u) == AtTime(p, s + u)
  {
    assert p.vx * s + p.vx * u == p.vx * (s + u);
    assert p.vy * s + p.vy * u == p.vy * (s + u);
  }

  datatype Rect = Rect(minX: int, minY: int, maxX: int, maxY: int)

  /** `BoundingRect::new`: an empty rectangle, minimum at the largest `i32`, maximum at the smallest. */
  function NewRect(): Rect
  {
    Rect(I32Max, I32Max, I32Min, I32Min)
  }

  /** `BoundingRect::add`. */
  function Add(r: Rect, x: int, y: int): Rect
  {
    Rect(Min(r.minX, x), Min(r.minY, y), Max(r.maxX, x), Max(r.maxY, y))
  }

  /** The rectangle built by adding every point's position at time `t`, in order. */
  function Bounds(points: seq<Point>, t: int): Rect
  {
    if |points| == 0 then NewRect()
    else
      var (x, y) := AtTime(points[|points| - 1], t);
      Add(Bounds(points[..|points| - 1], t), x, y)
  }

  predicate Inside(r: Rect, x: int, y: int)
  {
    r.minX <= x <= r.maxX && r.minY <= y <= r.maxY
  }

  /** Every point lies inside the bounding rectangle. */
  lemma {:induction false} BoundsContain(points: seq<Point>, t: int)
    ensures forall i :: 0 <= i < |points| ==> Inside(Bounds(points, t), AtTime(points[i], t).0, AtTime(points[i], t).1)
  {
    if |points| > 0 {
      var n := |points| - 1;
      BoundsContain(points[..n], t);
      assert forall i :: 0 <= i < n ==> points[..n][i] == points[i];
    }
  }

  predicate InI32(x: int)
  {
    I32Min <= x <= I32Max
  }

  /** With at least one point, all in `i32` range, each side of the rectangle touches a point. */
  lemma {:induction false} BoundsTight(points: seq<Point>, t: int)
    requires |points| > 0
    requires forall i :: 0 <= i < |points| ==> InI32(AtTime(points[i], t).0) && InI32(AtTime(points[i], t).1)
    ensures exists i :: 0 <= i < |points| && AtTime(points[i], t).0 == Bounds(points, t).minX
    ensures exists i :: 0 <= i < |points| && AtTime(points[i], t).0 == Bounds(points, t).maxX
    ensures exists i :: 0 <= i < |points| && AtTime(points[i], t).1 == Bounds(points, t).minY
    ensures exists i :: 0 <= i < |points| && AtTime(points[i], t).1 == Bounds(points, t).maxY
  {
    var n := |points| - 1;
    var r := Bounds(points, t);
    if n > 0 {
      BoundsTight(points[..n], t);
      var r0 := Bounds(points[..n], t);
      assert forall i :: 0 <= i < n ==> points[..n][i] == points[i];
      if r.minX != AtTime(points[n], t).0 {
        var i :| 0 <= i < n && AtTime(points[..n][i], t).0 == r0.minX;
        assert AtTime(points[i], t).0 == r.minX;
      }
      if r.maxX != AtTime(points[n], t).0 {
        var i :| 0 <= i < n && AtTime(points[..n][i], t).0 == r0.maxX;
        assert AtTime(points[i], t).0 == r.maxX;
      }
      if r.minY != AtTime(points[n], t).1 {
        var i :| 0 <= i < n && AtTime(points[..n][i], t).1 == r0.minY;
        assert AtTime(points[i], t).1 == r.minY;
      }
      if r.maxY != AtTime(points[n], t).1 {
        var i :| 0 <= i < n && AtTime(points[..n][i], t).1 == r0.maxY;
        assert AtTime(points[i], t).1 == r.maxY;
      }
    } else {
      assert Bounds(points[..0], t) == NewRect();
      var (x, y) := AtTime(points[0], t);
      assert InI32(x) && InI32(y);
      assert r == Add(NewRect(), x, y);
      assert AtTime(points[0], t).0 == r.minX == r.maxX;
      assert AtTime(points[0], t).1 == r.minY == r.maxY;
    }
  }

  /** `width`: the columns from `min.0` to `max.0`, at least one. */
  function Width(r: Rect): (w: nat)
    ensures w >= 1
    ensures r.minX <= r.maxX ==> w == r.maxX - r.minX + 1
  {
    Max(0, r.maxX - r.minX) + 1
  }

  function Height(r: Rect): (h: nat)
    ensures h >= 1
    ensures r.minY <= r.maxY ==> h == r.maxY - r.minY + 1
  {
    Max(0, r.maxY - r.minY) + 1
  }

  function Area(r: Rect): (a: nat)
    ensures a >= Width(r) && a >= Height(r)
  {
    MulAtLeast(Height(r), Width(r));
    MulAtLeast(Width(r), Height(r));
    Width(r) * Height(r)
  }

  /**
   * The search loop, from time `time` with `rect` the rectangle of the previous time: stop at
   * the first positive time whose rectangle has a larger area, and report the time before.
   * The loop has no bound in the source; `fuel` bounds it here.
   */
  function Search(points: seq<Point>, time: nat, rect: Rect, fuel: nat): Option<nat>
    decreases fuel
  {
    if fuel == 0 then None
    else
      var next := Bounds(points, time);
      if time > 0 && Area(rect) < Area(next) then Some(time - 1)
      else Search(points, time + 1, next, fuel - 1)
  }

  function Converge(points: seq<Point>, fuel: nat): Option<nat>
  {
    Search(points, 0, NewRect(), fuel)
  }

  function AreaAt(points: seq<Point>, t: nat): nat
  {
    Area(Bounds(points, t))
  }

  /** From time 0 to time `t` the area never grows. */
  ghost predicate Shrinking(points: seq<Point>, t: nat)
  {
    forall u: nat :: 0 < u <= t ==> AreaAt(points, u) <= AreaAt(points, u - 1)
  }

  lemma {:induction false} SearchMeaning(points: seq<Point>, time: nat, rect: Rect, fuel: nat)
    requires time > 0 ==> rect == Bounds(points, time - 1)
    requires time > 0 ==> Shrinking(points, time - 1)
    requires Search(points, time, rect, fuel).Some?
    ensures var t := Search(points, time, rect, fuel).value;
      Shrinking(points, t) && AreaAt(points, t + 1) > AreaAt(points, t)
    decreases fuel
  {
    var next := Bounds(points, time);
    if time > 0 && Area(rect) < Area(next) {
    } else {
      SearchMeaning(points, time + 1, next, fuel - 1);
    }
  }

  /**
   * The reported time is one after which the area grows, and until which it never grew:
   * the first local minimum of the area.
   */
  lemma ConvergeMeaning(points: seq<Point>, fuel: nat)
    requires Converge(points, fuel).Some?
    ensures Shrinking(points, Converge(points, fuel).value)
    ensures AreaAt(points, Converge(points, fuel).value + 1) > AreaAt(points, Converge(points, fuel).value)
  {
    SearchMeaning(points, 0, NewRect(), fuel);
  }

  lemma {:induction false} SearchFinds(points: seq<Point>, time: nat, rect: Rect, fuel: nat, t: nat)
    requires time > 0 ==> rect == Bounds(points, time - 1)
    requires time <= t + 1 && t + 2 <= time + fuel
    requires Shrinking(points, t) && AreaAt(points, t + 1) > AreaAt(points, t)
    ensures Search(points, time, rect, fuel) == Some(t)
    decreases fuel
  {
    var next := Bounds(points, time);
    if time == t + 1 {
    } else {
      assert time > 0 ==> AreaAt(points, time) <= AreaAt(points, time - 1);
      SearchFinds(points, time + 1, next, fuel - 1, t);
    }
  }

  /** With enough fuel, the search reports the first local minimum whenever one exists. */
  lemma ConvergeFinds(points: seq<Point>, fuel: nat, t: nat)
    requires Shrinking(points, t) && AreaAt(points, t + 1) > AreaAt(points, t)
    requires t + 2 <= fuel
    ensures Converge(points, fuel) == Some(t)
  {
    SearchFinds(points, 0, NewRect(), fuel, t);
  }

  /** Where the point lands on the row-major canvas of `r`. */
  function Offset(r: Rect, x: int, y: int): int
  {
    (x - r.minX) + (y - r.minY) * Width(r)
  }

  lemma OffsetInRange(r: Rect, x: int, y: int)
    requires 0 <= x - r.minX < Width(r) && 0 <= y - r.minY < Height(r)
    ensures 0 <= Offset(r, x, y) < Area(r)
  {
    var w := Width(r);
    var h := Height(r);
    var dx := x - r.minX;
    var dy := y - r.minY;
    assert Offset(r, x, y) == dx + dy * w;
    RowInside(dy, dx, w, h);
    assert Area(r) == w * h;
    assert dy * w >= 0;
  }

  /** The canvas after marking the first points: `.` everywhere, `#` where a point lands. */
  function Canvas(points: seq<Point>, t: int, r: Rect): (s: seq<char>)
    requires forall i :: 0 <= i < |points| ==> Inside(r, AtTime(points[i], t).0, AtTime(points[i], t).1)
    ensures |s| == Area(r)
  {
    if |points| == 0 then seq(Area(r), _ => '.')
    else
      var n := |points| - 1;
      var (x, y) := AtTime(points[n], t);
      assert Inside(r, x, y);
      OffsetInRange(r, x, y);
      Canvas(points[..n], t, r)[Offset(r, x, y) := '#']
  }

  lemma {:induction false} CanvasAt(points: seq<Point>, t: int, r: Rect, k: int)
    requires forall i :: 0 <= i < |points| ==> Inside(r, AtTime(points[i], t).0, AtTime(points[i], t).1)
    requires 0 <= k < Area(r)
    ensures Canvas(points, t, r)[k] == '#' <==>
      exists i :: 0 <= i < |points| && Offset(r, AtTime(points[i], t).0, AtTime(points[i], t).1) == k
    ensures Canvas(points, t, r)[k] in {'#', '.'}
  {
    if |points| > 0 {
      var n := |points| - 1;
      CanvasAt(points[..n], t, r, k);
      assert forall i :: 0 <= i < n ==> points[..n][i] == points[i];
    }
  }

  /** The canvas cut into `h` rows of `w` characters, row `y` starting at offset `y * w`. */
  function Rows(s: seq<char>, w: nat, h: nat): (rows: seq<seq<char>>)
    requires |s| == w * h
    ensures |rows| == h
    ensures forall y :: 0 <= y < h ==> |rows[y]| == w
  {
    if h == 0 then []
    else
      Distrib(h, w);
      [s[..w]] + Rows(s[w..], w, h - 1)
  }

  lemma Distrib(y: nat, w: nat)
    requires y >= 1
    ensures w * y == w * (y - 1) + w && y * w == (y - 1) * w + w
  {
  }

  /** Row `y` is the slice `s[y * w..y * w + w]` that the source copies. */
  lemma {:induction false} RowsSlice(s: seq<char>, w: nat, h: nat, y: nat)
    requires |s| == w * h && y < h
    ensures y * w + w <= |s|
    ensures Rows(s, w, h)[y] == s[y * w..y * w + w]
  {
    Distrib(h, w);
    var rest := s[w..];
    assert Rows(s, w, h) == [s[..w]] + Rows(rest, w, h - 1);
    if y == 0 {
      assert y * w == 0;
    } else {
      RowsSlice(rest, w, h - 1, y - 1);
      Distrib(y, w);
      var a := (y - 1) * w;
      assert y * w == a + w;
      assert Rows(s, w, h)[y] == Rows(rest, w, h - 1)[y - 1];
      assert rest[a..a + w] == s[a + w..a + w + w];
    }
  }

  /** The result string: for each row, a newline and then the row. */
  function Lines(rows: seq<seq<char>>): seq<char>
  {
    if |rows| == 0 then [] else Lines(rows[..|rows| - 1]) + ['\n'] + rows[|rows| - 1]
  }

  lemma {:induction false} LinesJoin(rows: seq<seq<char>>)
    requires |rows| >= 1
    ensures Lines(rows) == ['\n'] + Text.Join(rows, '\n')
  {
    var n := |rows| - 1;
    if n == 0 {
      assert rows[..0] == [];
    } else {
      LinesJoin(rows[..n]);
    }
  }

  /** The picture of the points at time `t`, drawn in their bounding rectangle. */
  function Render(points: seq<Point>, t: int): (out: seq<char>)
  {
    var r := Bounds(points, t);
    BoundsContain(points, t);
    Lines(Rows(Canvas(points, t, r), Width(r), Height(r)))
  }

  /** The rows of the picture of the points at time `t`. */
  function Picture(points: seq<Point>, t: int): (rows: seq<seq<char>>)
    ensures |rows| == Height(Bounds(points, t))
    ensures forall y :: 0 <= y < |rows| ==> |rows[y]| == Width(Bounds(points, t))
  {
    var r := Bounds(points, t);
    BoundsContain(points, t);
    Rows(Canvas(points, t, r), Width(r), Height(r))
  }

  /**
   * The result string is `height` lines, each preceded by a newline: cutting it at the
   * newlines gives back exactly the rows of the picture.
   */
  lemma RenderLines(points: seq<Point>, t: int)
    ensures Render(points, t)[0] == '\n'
    ensures Text.Split(Render(points, t)[1..], '\n') == Picture(points, t)
  {
    var r := Bounds(points, t);
    BoundsContain(points, t);
    var canvas := Canvas(points, t, r);
    var rows := Picture(points, t);
    forall y | 0 <= y < |rows|
      ensures '\n' !in rows[y]
    {
      RowsSlice(canvas, Width(r), Height(r), y);
      forall x | 0 <= x < |rows[y]|
        ensures rows[y][x] != '\n'
      {
        RowInside(y, x, Width(r), Height(r));
        CanvasAt(points, t, r, y * Width(r) + x);
      }
    }
    LinesJoin(rows);
    Text.SplitJoin(rows, '\n');
  }

  lemma {:induction false} RowInside(y: nat, x: nat, w: nat, h: nat)
    requires y < h && x < w
    ensures y * w + x < h * w
    decreases h - y
  {
    MulSucc(y, w);
    if y + 1 < h {
      RowInside(y + 1, x, w, h);
    }
  }

  /** Column `x` of row `y` of the picture is `#` exactly when some point is there. */
  lemma PictureCell(points: seq<Point>, t: int, x: nat, y: nat)
    requires x < Width(Bounds(points, t)) && y < Height(Bounds(points, t))
    ensures Picture(points, t)[y][x] == '#' <==>
      exists i :: 0 <= i < |points| && AtTime(points[i], t) == (Bounds(points, t).minX + x, Bounds(points, t).minY + y)
  {
    var r := Bounds(points, t);
    BoundsContain(points, t);
    PictureAt(points, t, x, y);
    CanvasCell(points, t, r, x, y);
  }

  /** The picture's cell (x, y) is the canvas character at offset `y * width + x`. */
  lemma PictureAt(points: seq<Point>, t: int, x: nat, y: nat)
    requires x < Width(Bounds(points, t)) && y < Height(Bounds(points, t))
    requires forall i :: 0 <= i < |points| ==>
      Inside(Bounds(points, t), AtTime(points[i], t).0, AtTime(points[i], t).1)
    ensures 0 <= y * Width(Bounds(points, t)) + x < Area(Bounds(points, t))
    ensures Picture(points, t)[y][x] == Canvas(points, t, Bounds(points, t))[y * Width(Bounds(points, t)) + x]
  {
    var r := Bounds(points, t);
    var w := Width(r);
    var canvas := Canvas(points, t, r);
    var rows := Rows(canvas, w, Height(r));
    assert Picture(points, t) == rows;
    RowsSlice(canvas, w, Height(r), y);
    var start := y * w;
    assert rows[y] == canvas[start..start + w];
    assert rows[y][x] == canvas[start + x];
  }

  lemma CanvasCell(points: seq<Point>, t: int, r: Rect, x: nat, y: nat)
    requires forall i :: 0 <= i < |points| ==> Inside(r, AtTime(points[i], t).0, AtTime(points[i], t).1)
    requires x < Width(r) && y < Height(r)
    ensures 0 <= y * Width(r) + x < Area(r)
    ensures Canvas(points, t, r)[y * Width(r) + x] == '#' <==>
      exists i :: 0 <= i < |points| && AtTime(points[i], t) == (r.minX + x, r.minY + y)
  {
    var w := Width(r);
    var k := y * w + x;
    assert Offset(r, r.minX + x, r.minY + y) == k;
    OffsetInRange(r, r.minX + x, r.minY + y);
    CanvasAt(points, t, r, k);
    if Canvas(points, t, r)[k] == '#' {
      var i :| 0 <= i < |points| && Offset(r, AtTime(points[i], t).0, AtTime(points[i], t).1) == k;
      var (px, py) := AtTime(points[i], t);
      assert Inside(r, px, py);
      OffsetUnique(px - r.minX, py - r.minY, x, y, w);
    }
  }

  /** `run`: the picture and the time, or None when the search runs out of fuel. */
  function Run(points: seq<Point>, fuel: nat): (r: Option<(seq<char>, nat)>)
    ensures r.Some? <==> Converge(points, fuel).Some?
  {
    match Converge(points, fuel)
    case None => None
    case Some(t) => Some((Render(points, t), t))
  }
}

=== FILE: day11.dfy ===
/**
 * Fuel-cell grid: the power level of each cell of a 300 x 300 grid, and the square of cells
 * with the largest total power. Square sums are computed with sliding windows, first along
 * each row into a buffer, then down each buffer column.
 */
module Day11 {
  /** The grid is `Dim` cells wide and high, with coordinates from 1. */
  const Dim: nat := 300

  /** `power_level`: the hundreds digit of ((x + 10) * y + serial) * (x + 10), minus 5. */
  function PowerLevel(serial: nat, x: nat, y: nat): (r: int)
    ensures -5 <= r <= 4
    ensures r + 5 == (((x + 10) * y + serial) * (x + 10) / 100) % 10
  {
    var rackId := x + 10;
    var power := rackId * y;
    var power := power + serial;
    var power := power * rackId;
    var power := (power / 100) % 10;
    power - 5
  }

  /** The test values of `power_level`. */
  lemma PowerLevelExamples()
    ensures PowerLevel(8, 3, 5) == 4
    ensures PowerLevel(57, 122, 79) == -5
    ensures PowerLevel(39, 217, 196) == 0
    ensures PowerLevel(71, 101, 153) == 4
  {
  }

  /** Total power of the `len` cells of row `y` starting at column `x`. */
  function RowSum(serial: nat, x: nat, y: nat, len: nat): int
  {
    if len == 0 then 0 else RowSum(serial, x, y, len - 1) + PowerLevel(serial, x + len - 1, y)
  }

  /** Total power of the `len` rows from `y` of `size`-wide row sums starting at column `x`. */
  function ColSum(serial: nat, x: nat, y: nat, len: nat, size: nat): int
  {
    if len == 0 then 0 else ColSum(serial, x, y, len - 1, size) + RowSum(serial, x, y + len - 1, size)
  }

  /** Total power of the `size` x `size` square whose top-left cell is (x, y). */
  function Square(serial: nat, x: nat, y: nat, size: nat): int
  {
    ColSum(serial, x, y, size, size)
  }

  /** Dropping the first cell of a row window. */
  lemma {:induction false} RowSumFirst(serial: nat, x: nat, y: nat, len: nat)
    ensures RowSum(serial, x, y, len + 1) == PowerLevel(serial, x, y) + RowSum(serial, x + 1, y, len)
  {
    if len > 0 {
      RowSumFirst(serial, x, y, len - 1);
    }
  }

  /** Dropping the first row of a column window. */
  lemma {:induction false} ColSumFirst(serial: nat, x: nat, y: nat, len: nat, size: nat)
    ensures ColSum(serial, x, y, len + 1, size) == RowSum(serial, x, y, size) + ColSum(serial, x, y + 1, len, size)
  {
    if len > 0 {
      ColSumFirst(serial, x, y, len - 1, size);
    }
  }

  /** The number of window positions along each axis. */
  function Positions(size: nat): nat
    requires size <= Dim
  {
    Dim + 1 - size
  }

  /** A buffer row for row `y`: entry `i` is the power of the window starting at column `i + 1`. */
  predicate RowOk(serial: nat, size: nat, row: seq<int>, y: nat)
    requires size <= Dim
  {
    |row| == Positions(size) &&
    forall i :: 0 <= i < |row| ==> row[i] == RowSum(serial, i + 1, y, size)
  }

  /** One pass of the `for x in 1..=(301 - size)` loop: a sliding window along row `y`. */
  method FillRow(serial: nat, size: nat, y: nat) returns (row: seq<int>)
    requires 1 <= size <= Dim
    ensures RowOk(serial, size, row, y)
  {
    var p := RowSum(serial, 1, y, size - 1);
    row := [];
    var x := 1;
    while x <= Positions(size)
      invariant 1 <= x <= Positions(size) + 1
      invariant |row| == x - 1
      invariant forall i :: 0 <= i < |row| ==> row[i] == RowSum(serial, i + 1, y, size)
      invariant p == RowSum(serial, x, y, size - 1)
    {
      p := p + PowerLevel(serial, x + size - 1, y);
      row := row + [p];
      RowSumFirst(serial, x, y, size - 1);
      p := p - PowerLevel(serial, x, y);
      x := x + 1;
    }
  }

  /** The buffer: one row per `y` in `1..=301`. */
  predicate BufferOk(serial: nat, size: nat, buffer: seq<seq<int>>)
    requires size <= Dim
  {
    |buffer| == Dim + 1 &&
    forall j :: 0 <= j < |buffer| ==> RowOk(serial, size, buffer[j], j + 1)
  }

  method FillBuffer(serial: nat, size: nat) returns (buffer: seq<seq<int>>)
    requires 1 <= size <= Dim
    ensures BufferOk(serial, size, buffer)
  {
    buffer := [];
    var y := 1;
    while y <= Dim + 1
      invariant 1 <= y <= Dim + 2
      invariant |buffer| == y - 1
      invariant forall j :: 0 <= j < |buffer| ==> RowOk(serial, size, buffer[j], j + 1)
    {
      var row := FillRow(serial, size, y);
      buffer := buffer + [row];
      y := y + 1;
    }
  }

  /**
   * The inner `max_by_key` for column `x`: a sliding window down the buffer column. Like
   * `Iterator::max_by_key`, the last of several equal maxima wins.
   */
  method BestInColumn(serial: nat, size: nat, buffer: seq<seq<int>>, x: nat) returns (bestY: nat, bestP: int)
    requires 1 <= size <= Dim && BufferOk(serial, size, buffer)
    requires 1 <= x <= Positions(size)
    ensures 1 <= bestY <= Positions(size) && bestP == Square(serial, x, bestY, size)
    ensures forall y: nat :: 1 <= y <= Positions(size) ==> Square(serial, x, y, size) <= bestP
    ensures forall y: nat :: bestY < y <= Positions(size) ==> Square(serial, x, y, size) < bestP
  {
    var xo := x - 1;
    var p := 0;
    var j := 1;
    while j < size
      invariant 1 <= j <= size
      invariant p == ColSum(serial, x, 1, j - 1, size)
    {
      assert RowOk(serial, size, buffer[j - 1], j);
      p := p + buffer[j - 1][xo];
      j := j + 1;
    }
    bestY, bestP := 0, 0;
    var y := 1;
    while y <= Positions(size)
      invariant 1 <= y <= Positions(size) + 1
      invariant p == ColSum(serial, x, y, size - 1, size)
      invariant y > 1 ==> 1 <= bestY < y && bestP == Square(serial, x, bestY, size)
      invariant forall y': nat :: 1 <= y' < y ==> Square(serial, x, y', size) <= bestP
      invariant forall y': nat :: bestY < y' < y ==> Square(serial, x, y', size) < bestP
    {
      assert RowOk(serial, size, buffer[y + size - 2], y + size - 1);
      p := p + buffer[y + size - 2][xo];
      var power := p;
      assert power == Square(serial, x, y, size);
      assert RowOk(serial, size, buffer[y - 1], y);
      ColSumFirst(serial, x, y, size - 1, size);
      p := p - buffer[y - 1][xo];
      if y == 1 || power >= bestP {
        bestY, bestP := y, power;
      }
      y := y + 1;
    }
  }

  /** `(x, y)` comes after `(x0, y0)` in the order the windows are visited. */
  predicate Later(x0: nat, y0: nat, x: nat, y: nat)
  {
    x > x0 || (x == x0 && y > y0)
  }

  predicate InGrid(size: nat, x: nat, y: nat)
    requires size <= Dim
  {
    1 <= x <= Positions(size) && 1 <= y <= Positions(size)
  }

  /**
   * `find_best_square`: the square of side `size` with the largest total power; among equal
   * totals, the one visited last (largest x, then largest y).
   */
  method FindBestSquare(serial: nat, size: nat) returns (bestX: nat, bestY: nat, bestP: int)
    requires 1 <= size <= Dim
    ensures InGrid(size, bestX, bestY) && bestP == Square(serial, bestX, bestY, size)
    ensures forall x: nat, y: nat :: InGrid(size, x, y) ==> Square(serial, x, y, size) <= bestP
    ensures forall x: nat, y: nat :: InGrid(size, x, y) && Later(bestX, bestY, x, y) ==> Square(serial, x, y, size) < bestP
  {
    var buffer := FillBuffer(serial, size);
    bestX, bestY, bestP := 0, 0, 0;
    var x := 1;
    while x <= Positions(size)
      invariant 1 <= x <= Positions(size) + 1
      invariant x > 1 ==> InGrid(size, bestX, bestY) && bestX < x && bestP == Square(serial, bestX, bestY, size)
      invariant forall x': nat, y': nat :: InGrid(size, x', y') && x' < x ==> Square(serial, x', y', size) <= bestP
      invariant forall x': nat, y': nat :: InGrid(size, x', y') && x' < x && Later(bestX, bestY, x', y') ==> Square(serial, x', y', size) < bestP
    {
      var cy, cp := BestInColumn(serial, size, buffer, x);
      if x == 1 || cp >= bestP {
        bestX, bestY, bestP := x, cy, cp;
      }
      x := x + 1;
    }
  }

  /** `best_square`: the best 3 x 3 square. */
  method BestSquare(serial: nat) returns (x: nat, y: nat)
    ensures InGrid(3, x, y)
    ensures forall x': nat, y': nat :: InGrid(3, x', y') ==> Square(serial, x', y', 3) <= Square(serial, x, y, 3)
  {
    var p;
    x, y, p := FindBestSquare(serial, 3);
  }

  /**
   * `best_square_any_size`: the best square over every side from 1 to 300; among equal
   * totals, the largest side wins, then the rule of `find_best_square`.
   */
  method BestSquareAnySize(serial: nat) returns (bestX: nat, bestY: nat, bestSize: nat)
    ensures 1 <= bestSize <= Dim && InGrid(bestSize, bestX, bestY)
    ensures forall s: nat, x: nat, y: nat :: 1 <= s <= Dim && InGrid(s, x, y) ==> Square(serial, x, y, s) <= Square(serial, bestX, bestY, bestSize)
    ensures forall s: nat, x: nat, y: nat :: bestSize < s <= Dim && InGrid(s, x, y) ==> Square(serial, x, y, s) < Square(serial, bestX, bestY, bestSize)
  {
    var bestP := 0;
    bestX, bestY, bestSize := 0, 0, 0;
    var size := 1;
    while size <= Dim
      invariant 1 <= size <= Dim + 1
      invariant size > 1 ==> 1 <= bestSize < size && InGrid(bestSize, bestX, bestY) && bestP == Square(serial, bestX, bestY, bestSize)
      invariant forall s: nat, x: nat, y: nat :: 1 <= s < size && InGrid(s, x, y) ==> Square(serial, x, y, s) <= bestP
      invariant forall s: nat, x: nat, y: nat :: bestSize < s < size && InGrid(s, x, y) ==> Square(serial, x, y, s) < bestP
    {
      var x, y, p := FindBestSquare(serial, size);
      if size == 1 || p >= bestP {
        bestX, bestY, bestSize, bestP := x, y, size, p;
      }
      size := size + 1;
    }
  }
}

=== FILE: day12.dfy ===
/**
 * Subterranean pots: a one-dimensional automaton on a row of pots, each with or without a
 * flower. A generation replaces every pot by the rule for the five pots centred on it. Rules
 * are a 32-bit set: bit w is set when the window whose pots read as the binary number w
 * (leftmost pot lowest) grows a flower.
 */
module Day12 {
  import opened Common
  import opened Bits

  /** `Pots`: the flower flags of the pots from number `first` on. */
  datatype Pots = Pots(first: int, pots: seq<bool>)

  /** The pot numbered `p` holds a flower; pots outside the stored range hold none. */
  predicate Flower(s: Pots, p: int)
  {
    s.first <= p < s.first + |s.pots| && s.pots[p - s.first]
  }

  function B(f: bool): nat
  {
    if f then 1 else 0
  }

  /** The rule index of the five pots centred on pot `p`. */
  function WindowAt(s: Pots, p: int): nat
  {
    B(Flower(s, p - 2)) + 2 * B(Flower(s, p - 1)) + 4 * B(Flower(s, p)) + 8 * B(Flower(s, p + 1))
      + 16 * B(Flower(s, p + 2))
  }

  /** `rules & (1 << w) != 0`. */
  predicate RuleBit(rules: nat, w: nat)
  {
    And(rules, Pow2(w)) != 0
  }

  /** The same pots, renumbered `d` further on. */
  function Shift(s: Pots, d: int): Pots
  {
    Pots(s.first + d, s.pots)
  }

  // ---------------------------------------------------------------------------------------
  // Pots::step
  // ---------------------------------------------------------------------------------------

  /** The running window `w = (w >> 1) | ((f as u32) << 4)` after each pot of `ext`. */
  function Windows(ext: seq<bool>): (ws: seq<nat>)
    ensures |ws| == |ext|
  {
    if |ext| == 0 then []
    else
      var prev := Windows(ext[..|ext| - 1]);
      var w := if |prev| == 0 then 0 else prev[|prev| - 1];
      prev + [Or(w / 2, if ext[|ext| - 1] then Pow2(4) else 0)]
  }

  /** The rule bit looked up for each window. */
  function Outputs(ws: seq<nat>, rules: nat): (out: seq<bool>)
    ensures |out| == |ws|
  {
    if |ws| == 0 then [] else Outputs(ws[..|ws| - 1], rules) + [RuleBit(rules, ws[|ws| - 1])]
  }

  lemma {:induction false} OutputsAt(ws: seq<nat>, rules: nat, k: nat)
    requires k < |ws|
    ensures Outputs(ws, rules)[k] == RuleBit(rules, ws[k])
  {
    if k < |ws| - 1 {
      OutputsAt(ws[..|ws| - 1], rules, k);
    }
  }

  /** `skip_while` over the outputs, bumping the counter `first` once per pot examined. */
  function Skip(out: seq<bool>, first: int): (r: (int, seq<bool>))
  {
    if |out| == 0 then (first, [])
    else if !out[0] then Skip(out[1..], first + 1)
    else (first + 1, out)
  }

  /** The `truncate` loop: drops trailing empty pots while more than one pot remains. */
  function TrimTail(v: seq<bool>): (r: seq<bool>)
  {
    if |v| > 1 && !v[|v| - 1] then TrimTail(v[..|v| - 1]) else v
  }

  /** `Pots::step`. */
  function Step(s: Pots, rules: nat): Pots
  {
    var out := Outputs(Windows(s.pots + [false, false, false, false]), rules);
    var (first, rest) := Skip(out, s.first - 3);
    Pots(first, TrimTail(rest))
  }

  /** A stepped row is empty or starts and ends with a flower. */
  lemma StepTrimmed(s: Pots, rules: nat)
    ensures var r := Step(s, rules); |r.pots| == 0 || (r.pots[0] && r.pots[|r.pots| - 1])
  {
    var out := Outputs(Windows(s.pots + [false, false, false, false]), rules);
    SkipFacts(out, s.first - 3);
    TrimFacts(Skip(out, s.first - 3).1);
  }

  /** What `Skip` keeps: everything from the first flower on, numbered from that pot. */
  lemma {:induction false} SkipFacts(out: seq<bool>, first: int)
    ensures var (f, rest) := Skip(out, first);
      |rest| <= |out| && rest == out[|out| - |rest|..] &&
      (|rest| == 0 || (rest[0] && f == first + |out| - |rest| + 1)) &&
      forall k :: 0 <= k < |out| - |rest| ==> !out[k]
  {
    if |out| > 0 && !out[0] {
      SkipFacts(out[1..], first + 1);
      var rest := Skip(out[1..], first + 1).1;
      assert out[1..][|out| - 1 - |rest|..] == out[|out| - |rest|..];
      forall k | 0 <= k < |out| - |rest|
        ensures !out[k]
      {
        if k > 0 {
          assert out[k] == out[1..][k - 1];
        }
      }
    }
  }

  /** What `TrimTail` keeps: a prefix, the dropped pots are empty, and a leading flower stays last. */
  lemma {:induction false} TrimFacts(v: seq<bool>)
    ensures var r := TrimTail(v);
      |r| <= |v| && r == v[..|r|] && (|v| > 0 ==> |r| > 0) &&
      (forall k :: |r| <= k < |v| ==> !v[k]) &&
      (|v| > 0 && v[0] ==> r[|r| - 1])
  {
    if |v| > 1 && !v[|v| - 1] {
      TrimFacts(v[..|v| - 1]);
      var r := TrimTail(v[..|v| - 1]);
      assert v[..|v| - 1][..|r|] == v[..|r|];
      forall k | |r| <= k < |v|
        ensures !v[k]
      {
        if k < |v| - 1 {
          assert v[k] == v[..|v| - 1][k];
        }
      }
    }
  }

  /** Numbering the input pots differently only renumbers the output the same way. */
  lemma {:induction false} SkipShift(out: seq<bool>, first: int, d: int)
    ensures Skip(out, first + d) == (Skip(out, first).0 + d, Skip(out, first).1)
  {
    if |out| > 0 && !out[0] {
      SkipShift(out[1..], first + 1, d);
    }
  }

  /** `step` commutes with renumbering. */
  lemma StepShift(s: Pots, rules: nat, d: int)
    ensures Step(Shift(s, d), rules) == Shift(Step(s, rules), d)
  {
    var out := Outputs(Windows(s.pots + [false, false, false, false]), rules);
    SkipShift(out, s.first - 3, d);
  }

  /** Each running window is computed from the one before it and the pot just read. */
  lemma WindowsStep(ext: seq<bool>, k: nat)
    requires k < |ext|
    ensures Windows(ext)[k] ==
      Or((if k == 0 then 0 else Windows(ext)[k - 1]) / 2, if ext[k] then Pow2(4) else 0)
  {
    PrefixWindows(ext, k + 1);
    assert ext[..k + 1][..k] == ext[..k];
    if k > 0 {
      PrefixWindows(ext, k);
    }
  }

  /** Shifting the window on by one pot: drop the lowest bit and read the new pot as bit 4. */
  lemma WindowSlide(s: Pots, p: int)
    ensures WindowAt(s, p) == Or(WindowAt(s, p - 1) / 2, if Flower(s, p + 2) then Pow2(4) else 0)
  {
    var h := WindowAt(s, p - 1) / 2;
    assert h == B(Flower(s, p - 2)) + 2 * B(Flower(s, p - 1)) + 4 * B(Flower(s, p)) + 8 * B(Flower(s, p + 1));
    assert Pow2(4) == 16;
    if Flower(s, p + 2) {
      OrHigh(h, 4);
    }
  }

  /** The running window after pot `k` of the padded row is the rule index centred two pots back. */
  lemma {:induction false} WindowsAt(s: Pots, k: nat)
    requires k < |s.pots| + 4
    ensures Windows(s.pots + [false, false, false, false])[k] == WindowAt(s, s.first + k - 2)
  {
    var ext := s.pots + [false, false, false, false];
    var p := s.first + k - 2;
    WindowsStep(ext, k);
    WindowSlide(s, p);
    assert ext[k] == Flower(s, p + 2);
    if k == 0 {
      assert !Flower(s, p - 3) && !Flower(s, p - 2) && !Flower(s, p - 1) && !Flower(s, p) && !Flower(s, p + 1);
      assert WindowAt(s, p - 1) == 0;
    } else {
      WindowsAt(s, k - 1);
    }
  }

  /** The windows of a prefix are the prefix of the windows. */
  lemma {:induction false} PrefixWindows(ext: seq<bool>, n: nat)
    requires n <= |ext|
    ensures Windows(ext[..n]) == Windows(ext)[..n]
  {
    if n < |ext| {
      PrefixWindows(ext[..|ext| - 1], n);
      assert ext[..|ext| - 1][..n] == ext[..n];
    } else {
      assert ext[..n] == ext;
    }
  }

  /**
   * The pot numbered `p` after a step holds a flower exactly when `p` lies within two pots of the
   * old row and the rule for the five old pots centred on `p` grows one.
   */
  lemma StepFlower(s: Pots, rules: nat, p: int)
    ensures Flower(Step(s, rules), p) ==
      (s.first - 2 <= p < s.first + |s.pots| + 2 && RuleBit(rules, WindowAt(s, p)))
  {
    var ext := s.pots + [false, false, false, false];
    var out := Outputs(Windows(ext), rules);
    var (f, rest) := Skip(out, s.first - 3);
    SkipFacts(out, s.first - 3);
    TrimFacts(rest);
    var t := TrimTail(rest);
    var n := |out|;
    var j := n - |rest|;
    var k := p - s.first + 2;
    if 0 <= k < n {
      WindowsAt(s, k);
      OutputsAt(Windows(ext), rules, k);
      assert out[k] == RuleBit(rules, WindowAt(s, p));
      if k < j {
        assert !out[k];
      } else {
        assert f == s.first - 2 + j;
        assert rest[k - j] == out[k];
        if k - j >= |t| {
          assert !rest[k - j];
        } else {
          assert t[k - j] == rest[k - j];
        }
      }
    }
  }

  /** With no rule for five empty pots, a step applies the rules to every pot, however far out. */
  lemma StepIsRule(s: Pots, rules: nat, p: int)
    requires !RuleBit(rules, 0)
    ensures Flower(Step(s, rules), p) == RuleBit(rules, WindowAt(s, p))
  {
    StepFlower(s, rules, p);
    if !(s.first - 2 <= p < s.first + |s.pots| + 2) {
      assert !Flower(s, p - 2) && !Flower(s, p - 1) && !Flower(s, p) && !Flower(s, p + 1) && !Flower(s, p + 2);
      assert WindowAt(s, p) == 0;
    }
  }

  // ---------------------------------------------------------------------------------------
  // Pots::iter_flowers
  // ---------------------------------------------------------------------------------------

  /** The numbers of the pots holding a flower, in order. */
  function Flowers(pots: seq<bool>, first: int): (r: seq<int>)
    ensures |r| <= |pots|
  {
    if |pots| == 0 then [] else (if pots[0] then [first] else []) + Flowers(pots[1..], first + 1)
  }

  function IterFlowers(s: Pots): seq<int>
  {
    Flowers(s.pots, s.first)
  }

  /** `iter_flowers` yields `first + i` for exactly the indices `i` that hold a flower, increasing. */
  lemma {:induction false} FlowersExactly(pots: seq<bool>, first: int)
    ensures forall x :: x in Flowers(pots, first) <==> exists i :: 0 <= i < |pots| && pots[i] && x == first + i
    ensures forall a, b :: 0 <= a < b < |Flowers(pots, first)| ==> Flowers(pots, first)[a] < Flowers(pots, first)[b]
    ensures forall a :: 0 <= a < |Flowers(pots, first)| ==> Flowers(pots, first)[a] >= first
  {
    if |pots| > 0 {
      FlowersExactly(pots[1..], first + 1);
      var r := Flowers(pots, first);
      var tail := Flowers(pots[1..], first + 1);
      forall x
        ensures x in r <==> exists i :: 0 <= i < |pots| && pots[i] && x == first + i
      {
        if x in tail {
          var i :| 0 <= i < |pots[1..]| && pots[1..][i] && x == first + 1 + i;
          assert pots[i + 1] && x == first + (i + 1);
        }
        if exists i :: 0 <= i < |pots| && pots[i] && x == first + i {
          var i :| 0 <= i < |pots| && pots[i] && x == first + i;
          if i > 0 {
            assert pots[1..][i - 1];
          }
        }
      }
    }
  }

  /** The sum of the flower numbers. */
  function FlowerTotal(s: Pots): int
  {
    Sum(IterFlowers(s))
  }

  /** Renumbering by `d` adds `d` once per flower to the sum. */
  lemma {:induction false} FlowersShift(pots: seq<bool>, first: int, d: int)
    ensures |Flowers(pots, first + d)| == |Flowers(pots, first)|
    ensures Sum(Flowers(pots, first + d)) == Sum(Flowers(pots, first)) + d * |Flowers(pots, first)|
  {
    if |pots| > 0 {
      FlowersShift(pots[1..], first + 1, d);
      var tail := Flowers(pots[1..], first + 1);
      var tail' := Flowers(pots[1..], first + 1 + d);
      if pots[0] {
        SumAppend([first], tail);
        SumAppend([first + d], tail');
        assert Flowers(pots, first) == [first] + tail;
        assert Flowers(pots, first + d) == [first + d] + tail';
        var n := |tail|;
        assert Sum(Flowers(pots, first + d)) == first + d + Sum(tail) + d * n;
        assert |Flowers(pots, first)| == n + 1;
        MulSuccRight(d, n);
      } else {
        assert Flowers(pots, first) == tail;
        assert Flowers(pots, first + d) == tail';
      }
    }
  }

  // ---------------------------------------------------------------------------------------
  // flower_sum
  // ---------------------------------------------------------------------------------------

  /** `n` applications of a step function `f`. */
  function Iterate(f: Pots -> Pots, s: Pots, n: nat): Pots
  {
    if n == 0 then s else f(Iterate(f, s, n - 1))
  }

  /** The row after `n` generations. */
  function StepN(s: Pots, rules: nat, n: nat): Pots
  {
    Iterate(x => Step(x, rules), s, n)
  }

  /** A step function that commutes with renumbering. */
  ghost predicate Equivariant(f: Pots -> Pots)
  {
    forall x: Pots, d: int :: f(Shift(x, d)) == Shift(f(x), d)
  }

  lemma StepEquivariant(rules: nat)
    ensures Equivariant(x => Step(x, rules))
  {
    forall x: Pots, d: int
      ensures Step(Shift(x, d), rules) == Shift(Step(x, rules), d)
    {
      StepShift(x, rules, d);
    }
  }

  lemma {:induction false} IterateAdd(f: Pots -> Pots, s: Pots, a: nat, b: nat)
    ensures Iterate(f, s, a + b) == Iterate(f, Iterate(f, s, a), b)
  {
    if b > 0 {
      IterateAdd(f, s, a, b - 1);
    }
  }

  lemma {:induction false} IterateShift(f: Pots -> Pots, s: Pots, d: int, m: nat)
    requires Equivariant(f)
    ensures Iterate(f, Shift(s, d), m) == Shift(Iterate(f, s, m), d)
  {
    if m > 0 {
      IterateShift(f, s, d, m - 1);
      assert f(Shift(Iterate(f, s, m - 1), d)) == Shift(f(Iterate(f, s, m - 1)), d);
    }
  }

  /**
   * Once generation `k` repeats the pattern of generation `j`, every later row recurs `k - j`
   * generations on, moved by the same distance.
   */
  lemma CycleStep(f: Pots -> Pots, s: Pots, j: nat, k: nat, m: nat)
    requires Equivariant(f)
    requires j < k && Iterate(f, s, j).pots == Iterate(f, s, k).pots && j <= m
    ensures Iterate(f, s, m + (k - j)) ==
      Shift(Iterate(f, s, m), Iterate(f, s, k).first - Iterate(f, s, j).first)
  {
    var sj := Iterate(f, s, j);
    var sk := Iterate(f, s, k);
    var d := sk.first - sj.first;
    var e: nat := m - j;
    IterateAdd(f, s, j, e);
    IterateAdd(f, s, k, e);
    assert k + e == m + (k - j);
    assert sk == Shift(sj, d);
    IterateShift(f, sj, d, e);
  }

  /** So each further cycle of `k - j` generations moves the pattern of generation `k` on again. */
  lemma {:induction false} CycleRepeats(f: Pots -> Pots, s: Pots, j: nat, k: nat, t: nat)
    requires Equivariant(f)
    requires j < k && Iterate(f, s, j).pots == Iterate(f, s, k).pots
    ensures Iterate(f, s, k + t * (k - j)) ==
      Shift(Iterate(f, s, k), t * (Iterate(f, s, k).first - Iterate(f, s, j).first))
  {
    if t > 0 {
      var len := k - j;
      var d := Iterate(f, s, k).first - Iterate(f, s, j).first;
      CycleRepeats(f, s, j, k, t - 1);
      MulNonNegative(t - 1, len);
      var m: nat := k + (t - 1) * len;
      CycleStep(f, s, j, k, m);
      MulSucc(t - 1, len);
      MulSucc(t - 1, d);
    }
  }

  /** The linear extrapolation `flower_sum` makes on a repeated pattern is exact. */
  lemma Extrapolate(f: Pots -> Pots, s: Pots, j: nat, k: nat, t: nat)
    requires Equivariant(f)
    requires j < k && Iterate(f, s, j).pots == Iterate(f, s, k).pots
    ensures FlowerTotal(Iterate(f, s, k + t * (k - j))) ==
      FlowerTotal(Iterate(f, s, k)) + (FlowerTotal(Iterate(f, s, k)) - FlowerTotal(Iterate(f, s, j))) * t
  {
    var sj := Iterate(f, s, j);
    var sk := Iterate(f, s, k);
    var d := sk.first - sj.first;
    var c := |Flowers(sk.pots, sk.first)|;
    CycleRepeats(f, s, j, k, t);
    FlowersShift(sk.pots, sk.first, t * d);
    FlowersShift(sj.pots, sj.first, d);
    assert FlowerTotal(sk) - FlowerTotal(sj) == d * c;
    MulRotate(d, c, t);
  }

  /**
   * `flower_sum`: steps generation by generation, remembering the last generation and sum at
   * which each pattern was seen; when a pattern recurs and its cycle divides the remaining
   * generations, extrapolates. The result is the sum after `generations` steps.
   */
  method FlowerSum(s: Pots, rules: nat, generations: nat) returns (r: int)
    requires generations >= 1
    ensures r == FlowerTotal(StepN(s, rules, generations))
  {
    StepEquivariant(rules);
    r := FlowerSumWith(x => Step(x, rules), s, generations);
  }

  /** The loop of `flower_sum`, for any step function that commutes with renumbering. */
  method FlowerSumWith(step: Pots -> Pots, s: Pots, generations: nat) returns (r: int)
    requires generations >= 1 && Equivariant(step)
    ensures r == FlowerTotal(Iterate(step, s, generations))
  {
    var pots := s;
    var seen: map<seq<bool>, (nat, int)> := map[];
    var generation := 1;
    while true
      invariant 1 <= generation <= generations
      invariant pots == Iterate(step, s, generation - 1)
      invariant forall pat :: pat in seen ==>
        1 <= seen[pat].0 < generation && Iterate(step, s, seen[pat].0).pots == pat &&
        seen[pat].1 == FlowerTotal(Iterate(step, s, seen[pat].0))
      decreases generations - generation
    {
      pots := step(pots);
      var sum := FlowerTotal(pots);
      if generation == generations {
        return sum;
      }
      if pots.pots in seen {
        var (prevGeneration, prevSum) := seen[pots.pots];
        seen := seen[pots.pots := (generation, sum)];
        var cycleLength := generation - prevGeneration;
        if (generations - generation) % cycleLength == 0 {
          var t := (generations - generation) / cycleLength;
          DivExact(generations - generation, cycleLength);
          Extrapolate(step, s, prevGeneration, generation, t);
          return sum + (sum - prevSum) * t;
        }
      } else {
        seen := seen[pots.pots := (generation, sum)];
      }
      generation := generation + 1;
    }
  }

  // ---------------------------------------------------------------------------------------
  // parse_input
  // ---------------------------------------------------------------------------------------

  predicate IsPot(c: char)
  {
    c == '#' || c == '.'
  }

  /** `^initial state: ([#.]+)$`, yielding the flower flags. */
  function ParseState(line: string): (r: Option<seq<bool>>)
    ensures r.Some? ==> |r.value| == |line| - 15 && forall i :: 0 <= i < |r.value| ==> r.value[i] == (line[15 + i] == '#')
  {
    var prefix := "initial state: ";
    if |line| > |prefix| && line[..|prefix|] == prefix && forall i :: |prefix| <= i < |line| ==> IsPot(line[i]) then
      Some(seq(|line| - |prefix|, i requires 0 <= i < |line| - |prefix| => line[|prefix| + i] == '#'))
    else None
  }

  /** `^([#.]{5}) => ([#.])$`, yielding the pattern and whether it grows a flower. */
  function ParseRule(line: string): (r: Option<(string, bool)>)
    ensures r.Some? ==> |r.value.0| == 5 && forall i :: 0 <= i < 5 ==> IsPot(r.value.0[i])
  {
    if |line| == 10 && (forall i :: 0 <= i < 5 ==> IsPot(line[i])) && line[5..9] == " => " && IsPot(line[9]) then
      Some((line[..5], line[9] == '#'))
    else None
  }

  /** The fold `a | (1 << i)` over the '#' positions of a pattern. */
  function PatternIndex(pat: string): (r: nat)
    ensures r < Pow2(|pat|)
  {
    if |pat| == 0 then 0
    else
      var a := PatternIndex(pat[..|pat| - 1]);
      if pat[|pat| - 1] == '#' then
        OrHigh(a, |pat| - 1);
        Or(a, Pow2(|pat| - 1))
      else a
  }

  /** Bit `i` of a pattern's index is set exactly when position `i` is '#'. */
  lemma {:induction false} PatternBits(pat: string, i: nat)
    ensures Bit(PatternIndex(pat), i) == (i < |pat| && pat[i] == '#')
  {
    if |pat| == 0 {
      BitBelow(0, i);
    } else {
      var pre := pat[..|pat| - 1];
      var a := PatternIndex(pre);
      PatternBits(pre, i);
      if i < |pat| - 1 {
        assert pre[i] == pat[i];
      }
      assert |pre| == |pat| - 1;
      if i == |pat| - 1 {
        BitBelow(a, i);
      }
      if pat[|pat| - 1] == '#' {
        BitOr(a, Pow2(|pat| - 1), i);
        BitPow2(|pat| - 1, i);
      } else if i >= |pat| {
        Pow2Mono(|pat| - 1, i);
        BitBelow(a, i);
      }
    }
  }

  lemma {:induction false} Pow2Mono(a: nat, b: nat)
    requires a <= b
    ensures Pow2(a) <= Pow2(b)
  {
    if a < b {
      Pow2Mono(a, b - 1);
    }
  }

  /** Distinct five-pot patterns have distinct indices. */
  lemma PatternInjective(p: string, q: string)
    requires |p| == 5 && |q| == 5
    requires forall i :: 0 <= i < 5 ==> IsPot(p[i]) && IsPot(q[i])
    requires PatternIndex(p) == PatternIndex(q)
    ensures p == q
  {
    forall i | 0 <= i < 5
      ensures p[i] == q[i]
    {
      PatternBits(p, i);
      PatternBits(q, i);
    }
  }

  /** The rule lines after the blank line: each '#' rule sets the bit of its pattern's index. */
  function ParseRules(lines: seq<string>, rules: nat): (r: Result<nat>)
  {
    if |lines| == 0 then Ok(rules)
    else match ParseRule(lines[0])
      case None => Err("Failed to parse rule: " + lines[0])
      case Some((pat, grows)) =>
        ParseRules(lines[1..], if grows then Or(rules, Pow2(PatternIndex(pat))) else rules)
  }

  /** Rule parsing fails exactly when some line is not a rule. */
  lemma {:induction false} ParseRulesFails(lines: seq<string>, rules: nat)
    ensures ParseRules(lines, rules).Err? <==> exists k :: 0 <= k < |lines| && ParseRule(lines[k]).None?
  {
    if |lines| > 0 && ParseRule(lines[0]).Some? {
      var (pat, grows) := ParseRule(lines[0]).value;
      ParseRulesFails(lines[1..], if grows then Or(rules, Pow2(PatternIndex(pat))) else rules);
      if exists k :: 0 <= k < |lines| && ParseRule(lines[k]).None? {
        var k :| 0 <= k < |lines| && ParseRule(lines[k]).None?;
        assert lines[1..][k - 1] == lines[k];
      }
      if exists k :: 0 <= k < |lines[1..]| && ParseRule(lines[1..][k]).None? {
        var k :| 0 <= k < |lines[1..]| && ParseRule(lines[1..][k]).None?;
        assert lines[k + 1] == lines[1..][k];
      }
    }
  }

  /** A line that grows a flower on pattern index `w`. */
  predicate GrowsAt(lines: seq<string>, k: int, w: nat)
  {
    0 <= k < |lines| && ParseRule(lines[k]).Some? && ParseRule(lines[k]).value.1 &&
    PatternIndex(ParseRule(lines[k]).value.0) == w
  }

  /** After parsing, bit `w` is set exactly when it was already set or some line grows on `w`. */
  lemma {:induction false} ParseRulesBits(lines: seq<string>, rules: nat, w: nat)
    requires ParseRules(lines, rules).Ok?
    ensures Bit(ParseRules(lines, rules).value, w) <==> Bit(rules, w) || exists k :: GrowsAt(lines, k, w)
  {
    if |lines| > 0 {
      var (pat, grows) := ParseRule(lines[0]).value;
      var next := if grows then Or(rules, Pow2(PatternIndex(pat))) else rules;
      ParseRulesBits(lines[1..], next, w);
      if grows {
        BitOr(rules, Pow2(PatternIndex(pat)), w);
        BitPow2(PatternIndex(pat), w);
      }
      if exists k :: GrowsAt(lines[1..], k, w) {
        var k :| GrowsAt(lines[1..], k, w);
        assert GrowsAt(lines, k + 1, w);
      }
      assert ParseRules(lines, rules) == ParseRules(lines[1..], next);
      if grows && PatternIndex(pat) == w {
        assert GrowsAt(lines, 0, w);
      }
      if exists k :: GrowsAt(lines, k, w) {
        var k :| GrowsAt(lines, k, w);
        if k > 0 {
          assert GrowsAt(lines[1..], k - 1, w);
        } else {
          assert grows && PatternIndex(pat) == w;
        }
      }
    }
  }

  /** `parse_input`: the initial row numbered from 0, and the rule bits. */
  function Parse(lines: seq<string>): (r: Result<(Pots, nat)>)
    ensures |lines| == 0 ==> r.Err?
    ensures |lines| > 0 && ParseState(lines[0]).None? ==> r.Err?
    ensures |lines| > 0 && (|lines| < 2 || lines[1] != "") ==> r.Err?
    ensures r.Ok? ==> r.value.0.first == 0 && Some(r.value.0.pots) == ParseState(lines[0])
  {
    if |lines| == 0 then Err("initial state missing")
    else match ParseState(lines[0])
      case None => Err("Failed to parse initial state: " + lines[0])
      case Some(pots) =>
        if |lines| < 2 || lines[1] != "" then Err("Expected empty line after initial state")
        else
          var rules :- ParseRules(lines[2..], 0);
          Ok((Pots(0, pots), rules))
  }

  /** Parsing succeeds exactly on a valid initial state, a blank line, and rule lines only. */
  lemma ParseSucceeds(lines: seq<string>)
    ensures Parse(lines).Ok? <==>
      |lines| >= 2 && ParseState(lines[0]).Some? && lines[1] == "" &&
      forall k :: 2 <= k < |lines| ==> ParseRule(lines[k]).Some?
  {
    if |lines| >= 2 && ParseState(lines[0]).Some? && lines[1] == "" {
      ParseRulesFails(lines[2..], 0);
      if exists k :: 2 <= k < |lines| && ParseRule(lines[k]).None? {
        var k :| 2 <= k < |lines| && ParseRule(lines[k]).None?;
        assert lines[2..][k - 2] == lines[k];
      }
    }
  }

  /** The five pots centred on `p`, written as a rule pattern. */
  function PatternOf(s: Pots, p: int): (pat: string)
    ensures |pat| == 5
  {
    seq(5, i requires 0 <= i < 5 => if Flower(s, p - 2 + i) then '#' else '.')
  }

  /** Extending a pattern by one position adds that position's weight when it is '#'. */
  lemma PatternIndexStep(pat: string, n: nat)
    requires 1 <= n <= |pat|
    ensures PatternIndex(pat[..n]) == PatternIndex(pat[..n - 1]) + (if pat[n - 1] == '#' then Pow2(n - 1) else 0)
  {
    var pre := pat[..n];
    assert pre[..n - 1] == pat[..n - 1];
    if pat[n - 1] == '#' {
      OrHigh(PatternIndex(pat[..n - 1]), n - 1);
    }
  }

  /** The index of the first three positions of a pattern, weight 1, 2, 4 from the left. */
  lemma ThreeIndex(pat: string)
    requires |pat| >= 3
    ensures PatternIndex(pat[..3]) == B(pat[0] == '#') + 2 * B(pat[1] == '#') + 4 * B(pat[2] == '#')
  {
    assert pat[..0] == [];
    assert Pow2(0) == 1 && Pow2(1) == 2 && Pow2(2) == 4;
    PatternIndexStep(pat, 1);
    PatternIndexStep(pat, 2);
    PatternIndexStep(pat, 3);
  }

  /** The index of a five-position pattern, weight 1, 2, 4, 8, 16 from the left. */
  lemma FiveIndex(pat: string)
    requires |pat| == 5
    ensures PatternIndex(pat) == B(pat[0] == '#') + 2 * B(pat[1] == '#') + 4 * B(pat[2] == '#')
      + 8 * B(pat[3] == '#') + 16 * B(pat[4] == '#')
  {
    ThreeIndex(pat);
    assert Pow2(3) == 8 && Pow2(4) == 16;
    PatternIndexStep(pat, 4);
    assert PatternIndex(pat[..4]) == PatternIndex(pat[..3]) + 8 * B(pat[3] == '#');
    PatternIndexStep(pat, 5);
    assert PatternIndex(pat[..5]) == PatternIndex(pat[..4]) + 16 * B(pat[4] == '#');
    assert pat[..5] == pat;
  }

  /** The window a step computes is the index of the pattern around the pot. */
  lemma WindowIsPattern(s: Pots, p: int)
    ensures WindowAt(s, p) == PatternIndex(PatternOf(s, p))
  {
    var pat := PatternOf(s, p);
    FiveIndex(pat);
    assert forall i :: 0 <= i < 5 ==> (pat[i] == '#') == Flower(s, p - 2 + i);
  }

  /** Some rule line reads "`pat` => #". */
  predicate RuleGrows(lines: seq<string>, pat: string)
  {
    exists k :: 0 <= k < |lines| && ParseRule(lines[k]) == Some((pat, true))
  }

  /**
   * Steps with parsed rules: pot `p` holds a flower after a step exactly when it lies within
   * two pots of the old row and some rule line "pattern => #" names the five pots around it.
   */
  lemma StepByRules(lines: seq<string>, s: Pots, p: int)
    requires Parse(lines).Ok?
    ensures Flower(Step(s, Parse(lines).value.1), p) <==>
      s.first - 2 <= p < s.first + |s.pots| + 2 && RuleGrows(lines[2..], PatternOf(s, p))
  {
    var rules := Parse(lines).value.1;
    var pat := PatternOf(s, p);
    var w := WindowAt(s, p);
    StepFlower(s, rules, p);
    WindowIsPattern(s, p);
    AndPow2(rules, w);
    ParseRulesBits(lines[2..], 0, w);
    BitBelow(0, w);
    if exists k :: GrowsAt(lines[2..], k, w) {
      var k :| GrowsAt(lines[2..], k, w);
      var q := ParseRule(lines[2..][k]).value.0;
      PatternInjective(q, pat);
      assert ParseRule(lines[2..][k]) == Some((pat, true));
    }
    if RuleGrows(lines[2..], pat) {
      var k :| 0 <= k < |lines[2..]| && ParseRule(lines[2..][k]) == Some((pat, true));
      assert GrowsAt(lines[2..], k, w);
    }
  }
}

=== FILE: day13.dfy ===
/**
 * Mine carts on a track map. Each tick the carts move one cell in reading order (by row, then
 * column), turning on curves and cycling left / straight / right at intersections. A cart that
 * enters an occupied cell crashes. `first_crash` reports where the first crash happens;
 * `last_alive` removes crashed carts after every tick until one cart is left.
 */
module Day13 {
  import opened Common
  import opened Bits

  datatype Track = NoTrack | Straight | Slash | Backslash | Intersection

  /** `BlockedState`: whether a cell is free, holds a cart, or holds a crash. */
  datatype Cell = Free | Blocked | Crashed

  /** Directions 0 = up, 1 = right, 2 = down, 3 = left. */
  type Dir = d: nat | d < 4

  /** The intersection counter: 0 = turn left, 1 = go straight, 2 = turn right. */
  type Turn = t: nat | t < 3

  datatype Cart = Cart(x: nat, y: nat, dir: Dir, turnCounter: Turn)

  /** `Map`: rows of track and rows of cell states, indexed `[y][x]`. */
  datatype Map = Map(tracks: seq<seq<Track>>, blocked: seq<seq<Cell>>)

  predicate WellFormed(m: Map)
  {
    |m.tracks| == |m.blocked| && forall y :: 0 <= y < |m.tracks| ==> |m.tracks[y]| == |m.blocked[y]|
  }

  predicate InMap(m: Map, x: int, y: int)
  {
    0 <= y < |m.tracks| && y < |m.blocked| && 0 <= x < |m.tracks[y]| && x < |m.blocked[y]|
  }

  /** `Map::set_blocked`: one cell changes, nothing else does. */
  function SetBlocked(m: Map, x: nat, y: nat, v: Cell): (r: Map)
    requires InMap(m, x, y)
    ensures r.tracks == m.tracks && |r.blocked| == |m.blocked|
    ensures forall y' :: 0 <= y' < |m.blocked| ==> |r.blocked[y']| == |m.blocked[y']|
    ensures r.blocked[y][x] == v
    ensures forall x', y' :: InMap(m, x', y') && (x', y') != (x, y) ==> r.blocked[y'][x'] == m.blocked[y'][x']
  {
    Map(m.tracks, m.blocked[y := m.blocked[y][x := v]])
  }

  /** The unit move of each direction, in screen coordinates (y grows downwards). */
  function Delta(d: Dir): (int, int)
  {
    [(0, -1), (1, 0), (0, 1), (-1, 0)][d]
  }

  /** The cell a cart moves to. */
  function Next(c: Cart): (p: (int, int))
    ensures p == (c.x + Delta(c.dir).0, c.y + Delta(c.dir).1)
  {
    match c.dir
    case 0 => (c.x, c.y - 1)
    case 1 => (c.x + 1, c.y)
    case 2 => (c.x, c.y + 1)
    case 3 => (c.x - 1, c.y)
  }

  /** The source indexes the map at the cart's cell, and at the next cell unless the cart has crashed. */
  predicate Movable(m: Map, c: Cart)
  {
    InMap(m, c.x, c.y) && (m.blocked[c.y][c.x] == Crashed || InMap(m, Next(c).0, Next(c).1))
  }

  /** `dir ^ k` on a direction. */
  function Flip(d: Dir, k: nat): Dir
    requires k < 4
  {
    assert Pow2(2) == 4;
    XorBelow(d, k, 2);
    Xor(d, k)
  }

  /** The new direction and counter on a track cell other than `None`. */
  function NewDir(t: Track, d: Dir, tc: Turn): (Dir, Turn)
  {
    match t
    case Slash => (Flip(d, 1), tc)
    case Backslash => (Flip(d, 3), tc)
    case Intersection => (And(d + 3 + tc, 3), (tc + 1) % 3)
    case _ => (d, tc)
  }

  /** Turning left and right in screen coordinates. */
  function Left(v: (int, int)): (int, int)
  {
    (v.1, -v.0)
  }

  function Right(v: (int, int)): (int, int)
  {
    (-v.1, v.0)
  }

  /** A '/' mirrors the motion: moving right turns up, moving up turns right, and so on. */
  lemma SlashReflects(d: Dir, tc: Turn)
    ensures Delta(NewDir(Slash, d, tc).0) == (-Delta(d).1, -Delta(d).0)
  {
    assert Xor(0, 1) == 1 && Xor(1, 1) == 0 && Xor(2, 1) == 3 && Xor(3, 1) == 2;
  }

  /** A '\' mirrors the other way: moving right turns down, moving down turns right. */
  lemma BackslashReflects(d: Dir, tc: Turn)
    ensures Delta(NewDir(Backslash, d, tc).0) == (Delta(d).1, Delta(d).0)
  {
    assert Xor(0, 3) == 3 && Xor(1, 3) == 2 && Xor(2, 3) == 1 && Xor(3, 3) == 0;
  }

  /** `(dir + 3 + turn_counter) & 3` is that sum modulo 4. */
  lemma IntersectionDir(d: Dir, tc: Turn)
    ensures NewDir(Intersection, d, tc).0 == (d + 3 + tc) % 4
  {
    AndThree(d + 3 + tc);
  }

  /** At an intersection the cart turns left, goes straight, then turns right, in rotation. */
  lemma IntersectionTurns(d: Dir, tc: Turn)
    ensures NewDir(Intersection, d, tc).1 == (tc + 1) % 3
    ensures Delta(NewDir(Intersection, d, tc).0) ==
      if tc == 0 then Left(Delta(d)) else if tc == 1 then Delta(d) else Right(Delta(d))
  {
    IntersectionDir(d, tc);
    var nd := NewDir(Intersection, d, tc).0;
    if tc == 0 {
      assert nd == if d == 0 then 3 else d - 1;
    } else if tc == 1 {
      assert nd == d;
    } else {
      assert nd == if d == 3 then 0 else d + 1;
    }
  }

  // ---------------------------------------------------------------------------------------
  // Cart::step
  // ---------------------------------------------------------------------------------------

  /** `Cart::step`: the map and cart afterwards, and whether the step reports a crash. */
  function StepCart(m: Map, c: Cart): (r: (Map, Cart, bool))
    requires Movable(m, c)
    ensures m.blocked[c.y][c.x] == Crashed ==> r == (m, c, true)
    ensures m.blocked[c.y][c.x] != Crashed ==>
      var (nx, ny) := Next(c);
      InMap(m, nx, ny) && (r.1.x, r.1.y) == (nx, ny) && r.0.tracks == m.tracks &&
      r.2 == (m.blocked[ny][nx] != Free || m.tracks[ny][nx] == NoTrack) &&
      r.0 == SetBlocked(SetBlocked(m, c.x, c.y, Free), nx, ny, if m.blocked[ny][nx] != Free then Crashed else Blocked)
  {
    if m.blocked[c.y][c.x] == Crashed then (m, c, true)
    else
      var nx: nat := Next(c).0;
      var ny: nat := Next(c).1;
      var m1 := SetBlocked(m, c.x, c.y, Free);
      var crashed := m1.blocked[ny][nx] != Free;
      var m2 := SetBlocked(m1, nx, ny, if crashed then Crashed else Blocked);
      var moved := c.(x := nx, y := ny);
      match m2.tracks[ny][nx]
      case NoTrack => (m2, moved, true)
      case t =>
        var (d, tc) := NewDir(t, c.dir, c.turnCounter);
        (m2, moved.(dir := d, turnCounter := tc), crashed)
  }

  /** On track, the cart's direction and counter afterwards are `NewDir` of the track it reached. */
  lemma StepTurns(m: Map, c: Cart)
    requires Movable(m, c) && m.blocked[c.y][c.x] != Crashed
    ensures var (nx, ny) := Next(c);
      m.tracks[ny][nx] != NoTrack ==>
        (StepCart(m, c).1.dir, StepCart(m, c).1.turnCounter) == NewDir(m.tracks[ny][nx], c.dir, c.turnCounter)
  {
  }

  // ---------------------------------------------------------------------------------------
  // Occupancy: the cells marked Blocked are exactly those holding one cart
  // ---------------------------------------------------------------------------------------

  /** The number of carts standing on (x, y). */
  function Count(cs: seq<Cart>, x: int, y: int): nat
  {
    if |cs| == 0 then 0
    else Count(cs[..|cs| - 1], x, y) + (if cs[|cs| - 1].x == x && cs[|cs| - 1].y == y then 1 else 0)
  }

  lemma {:induction false} CountAppend(a: seq<Cart>, b: seq<Cart>, x: int, y: int)
    ensures Count(a + b, x, y) == Count(a, x, y) + Count(b, x, y)
  {
    if |b| > 0 {
      CountAppend(a, b[..|b| - 1], x, y);
      assert (a + b)[..|a + b| - 1] == a + b[..|b| - 1];
    } else {
      assert a + b == a;
    }
  }

  /** Moving cart `i` moves its count from its old cell to its new one. */
  lemma {:induction false} CountUpdate(cs: seq<Cart>, i: nat, c: Cart, x: int, y: int)
    requires i < |cs|
    ensures Count(cs[i := c], x, y) + (if cs[i].x == x && cs[i].y == y then 1 else 0) ==
      Count(cs, x, y) + (if c.x == x && c.y == y then 1 else 0)
  {
    var n := |cs|;
    if i < n - 1 {
      CountUpdate(cs[..n - 1], i, c, x, y);
      assert cs[i := c][..n - 1] == cs[..n - 1][i := c];
    } else {
      assert cs[i := c][..n - 1] == cs[..n - 1];
    }
  }

  /** A cart counts at its own cell. */
  lemma {:induction false} CountMember(cs: seq<Cart>, i: nat)
    requires i < |cs|
    ensures Count(cs, cs[i].x, cs[i].y) >= 1
  {
    if i < |cs| - 1 {
      CountMember(cs[..|cs| - 1], i);
    }
  }

  /**
   * Every cart is on the map, and each cell is Blocked with exactly one cart or Free with none:
   * the state at the start of every tick until the first crash.
   */
  ghost predicate Consistent(m: Map, cs: seq<Cart>)
  {
    WellFormed(m) &&
    (forall i :: 0 <= i < |cs| ==> InMap(m, cs[i].x, cs[i].y)) &&
    forall x: nat, y: nat :: InMap(m, x, y) ==>
      (m.blocked[y][x] == Blocked && Count(cs, x, y) == 1) || (m.blocked[y][x] == Free && Count(cs, x, y) == 0)
  }

  /**
   * In a consistent state, a step reports a crash exactly when the cart runs into another cart or
   * off the track. A collision leaves two carts on the cell; otherwise the state stays consistent.
   */
  lemma {:induction false} StepConsistent(m: Map, cs: seq<Cart>, i: nat)
    requires Consistent(m, cs) && i < |cs| && Movable(m, cs[i])
    ensures var (m', c', crashed) := StepCart(m, cs[i]);
      var (nx, ny) := Next(cs[i]);
      (crashed <==> Count(cs, nx, ny) > 0 || m.tracks[ny][nx] == NoTrack) &&
      (Count(cs, nx, ny) > 0 ==> Count(cs[i := c'], nx, ny) >= 2) &&
      (!crashed ==> Consistent(m', cs[i := c']))
  {
    var c := cs[i];
    CountMember(cs, i);
    assert m.blocked[c.y][c.x] == Blocked;
    var (m', c', crashed) := StepCart(m, c);
    var (nx, ny) := Next(c);
    assert (nx, ny) != (c.x, c.y);
    CountUpdate(cs, i, c', nx, ny);
    if !crashed {
      var cs' := cs[i := c'];
      forall j | 0 <= j < |cs'|
        ensures InMap(m', cs'[j].x, cs'[j].y)
      {
      }
      forall x: nat, y: nat | InMap(m', x, y)
        ensures (m'.blocked[y][x] == Blocked && Count(cs', x, y) == 1) || (m'.blocked[y][x] == Free && Count(cs', x, y) == 0)
      {
        CountUpdate(cs, i, c', x, y);
      }
    }
  }

  // ---------------------------------------------------------------------------------------
  // Sorting carts into reading order
  // ---------------------------------------------------------------------------------------

  /** The comparator of both loops: by row, then by column. */
  predicate KeyLe(a: Cart, b: Cart)
  {
    a.y < b.y || (a.y == b.y && a.x <= b.x)
  }

  predicate Sorted(cs: seq<Cart>)
  {
    forall i, j :: 0 <= i < j < |cs| ==> KeyLe(cs[i], cs[j])
  }

  /** Inserts `c` before the first cart that does not come before it. */
  function Insert(c: Cart, s: seq<Cart>): (r: seq<Cart>)
    ensures |r| == |s| + 1 && multiset(r) == multiset(s) + multiset{c}
  {
    if |s| == 0 || KeyLe(c, s[0]) then [c] + s
    else
      assert s == [s[0]] + s[1..];
      [s[0]] + Insert(c, s[1..])
  }

  /** `sort_by`: a stable insertion sort on the row-then-column order. */
  function SortCarts(cs: seq<Cart>): (r: seq<Cart>)
    ensures |r| == |cs| && multiset(r) == multiset(cs)
  {
    if |cs| == 0 then []
    else
      assert cs == [cs[0]] + cs[1..];
      Insert(cs[0], SortCarts(cs[1..]))
  }

  lemma {:induction false} InsertSorted(c: Cart, s: seq<Cart>)
    requires Sorted(s)
    ensures Sorted(Insert(c, s))
  {
    if |s| > 0 && !KeyLe(c, s[0]) {
      InsertSorted(c, s[1..]);
      var r := Insert(c, s);
      var t := Insert(c, s[1..]);
      forall k | 0 <= k < |t|
        ensures KeyLe(s[0], t[k])
      {
        assert t[k] in multiset(t);
        assert t[k] in multiset(s[1..]) || t[k] == c;
        if t[k] != c {
          var j :| 0 <= j < |s[1..]| && s[1..][j] == t[k];
          assert s[j + 1] == t[k];
        }
      }
    }
  }

  /** The sort returns the carts in row-then-column order, as a permutation. */
  lemma {:induction false} SortSorted(cs: seq<Cart>)
    ensures Sorted(SortCarts(cs))
  {
    if |cs| > 0 {
      SortSorted(cs[1..]);
      InsertSorted(cs[0], SortCarts(cs[1..]));
    }
  }

  /** Counts depend only on the multiset of carts. */
  lemma {:induction false} CountMultiset(a: seq<Cart>, b: seq<Cart>, x: int, y: int)
    requires multiset(a) == multiset(b)
    ensures Count(a, x, y) == Count(b, x, y)
    decreases |a|
  {
    if |a| > 0 {
      var last := a[|a| - 1];
      assert a == a[..|a| - 1] + [last];
      assert last in multiset(b);
      var k :| 0 <= k < |b| && b[k] == last;
      var rest := b[..k] + b[k + 1..];
      assert b == b[..k] + [last] + b[k + 1..];
      var ma, mr := multiset(a[..|a| - 1]), multiset(rest);
      assert multiset(a) == ma + multiset{last};
      assert multiset(b) == multiset(b[..k]) + multiset{last} + multiset(b[k + 1..]);
      assert mr == multiset(b[..k]) + multiset(b[k + 1..]);
      forall e
        ensures ma[e] == mr[e]
      {
        assert multiset(a)[e] == ma[e] + multiset{last}[e];
        assert multiset(b)[e] == mr[e] + multiset{last}[e];
      }
      assert ma == mr;
      CountMultiset(a[..|a| - 1], rest, x, y);
      CountAppend(a[..|a| - 1], [last], x, y);
      CountAppend(b[..k] + [last], b[k + 1..], x, y);
      CountAppend(b[..k], [last], x, y);
      CountAppend(b[..k], b[k + 1..], x, y);
    } else {
      assert |b| == 0;
    }
  }

  /** Sorting keeps a consistent state consistent. */
  lemma SortConsistent(m: Map, cs: seq<Cart>)
    requires Consistent(m, cs)
    ensures Consistent(m, SortCarts(cs))
  {
    var r := SortCarts(cs);
    forall i | 0 <= i < |r|
      ensures InMap(m, r[i].x, r[i].y)
    {
      assert r[i] in multiset(cs);
    }
    forall x: nat, y: nat
      ensures Count(r, x, y) == Count(cs, x, y)
    {
      CountMultiset(r, cs, x, y);
    }
  }

  // ---------------------------------------------------------------------------------------
  // first_crash
  // ---------------------------------------------------------------------------------------

  /** How a pass over the carts ends: all moved, a crash (with the state at that moment), or a panic. */
  datatype Run = Finished(m: Map, carts: seq<Cart>) | CrashAt(m: Map, carts: seq<Cart>, x: nat, y: nat) | Panicked

  /** The answer of `first_crash` or `last_alive`; `OutOfFuel` stands for a loop still running. */
  datatype Outcome = At(x: nat, y: nat) | Panic | OutOfFuel

  /** The `for cart in carts.iter_mut()` loop of `first_crash`, from cart `i` on. */
  function RunTick(m: Map, cs: seq<Cart>, i: nat): (r: Run)
    requires i <= |cs|
    ensures r.Finished? ==> |r.carts| == |cs| && r.m.tracks == m.tracks
    ensures r.CrashAt? ==> |r.carts| == |cs| && r.m.tracks == m.tracks
    decreases |cs| - i
  {
    if i == |cs| then Finished(m, cs)
    else if !Movable(m, cs[i]) then Panicked
    else
      var (m', c', crashed) := StepCart(m, cs[i]);
      if crashed then CrashAt(m', cs[i := c'], c'.x, c'.y) else RunTick(m', cs[i := c'], i + 1)
  }

  /** One tick of `first_crash`: sort the carts, then run the pass. */
  function Tick(m: Map, cs: seq<Cart>): Run
  {
    RunTick(m, SortCarts(cs), 0)
  }

  /** The `loop` of `first_crash` over any tick, ticking at most `fuel` times. */
  function CrashRunWith(tick: (Map, seq<Cart>) -> Run, m: Map, cs: seq<Cart>, fuel: nat): Run
    decreases fuel
  {
    if fuel == 0 then Finished(m, cs)
    else match tick(m, cs)
      case Finished(m', cs') => CrashRunWith(tick, m', cs', fuel - 1)
      case r => r
  }

  /** `first_crash`, ticking at most `fuel` times; the final pass, or the pass that crashed. */
  function CrashRun(m: Map, cs: seq<Cart>, fuel: nat): Run
  {
    CrashRunWith(Tick, m, cs, fuel)
  }

  function FirstCrash(m: Map, cs: seq<Cart>, fuel: nat): Outcome
  {
    match CrashRun(m, cs, fuel)
    case CrashAt(_, _, x, y) => At(x, y)
    case Panicked => Panic
    case Finished(_, _) => OutOfFuel
  }

  /** A pass over consistent carts ends consistent, or in a crash that is a collision or a derailment. */
  lemma {:induction false} RunTickConsistent(m: Map, cs: seq<Cart>, i: nat)
    requires Consistent(m, cs) && i <= |cs|
    ensures var r := RunTick(m, cs, i);
      (r.Finished? ==> Consistent(r.m, r.carts)) &&
      (r.CrashAt? ==> InMap(m, r.x, r.y) && (Count(r.carts, r.x, r.y) >= 2 || m.tracks[r.y][r.x] == NoTrack))
    decreases |cs| - i
  {
    if i < |cs| && Movable(m, cs[i]) {
      var (m', c', crashed) := StepCart(m, cs[i]);
      var cs' := cs[i := c'];
      assert RunTick(m, cs, i) == if crashed then CrashAt(m', cs', c'.x, c'.y) else RunTick(m', cs', i + 1);
      StepConsistent(m, cs, i);
      if crashed {
        var (nx, ny) := Next(cs[i]);
        assert (c'.x, c'.y) == (nx, ny);
      } else {
        RunTickConsistent(m', cs', i + 1);
        WellFormedSameShape(m, m');
      }
    }
  }

  /** Two well-formed maps with the same tracks have the same cells. */
  lemma WellFormedSameShape(m: Map, m': Map)
    requires WellFormed(m) && WellFormed(m') && m'.tracks == m.tracks
    ensures forall x, y :: InMap(m', x, y) <==> InMap(m, x, y)
  {
  }

  /** What a tick from a consistent state ends in: a consistent state, or a collision or derailment. */
  ghost predicate TickOk(m: Map, t: Run)
  {
    (t.Finished? ==> Consistent(t.m, t.carts) && t.m.tracks == m.tracks) &&
    (t.CrashAt? ==> InMap(m, t.x, t.y) && (Count(t.carts, t.x, t.y) >= 2 || m.tracks[t.y][t.x] == NoTrack))
  }

  ghost predicate GoodTick(tick: (Map, seq<Cart>) -> Run)
  {
    forall m, cs :: Consistent(m, cs) ==> TickOk(m, tick(m, cs))
  }

  lemma TickConsistent(m: Map, cs: seq<Cart>)
    requires Consistent(m, cs)
    ensures TickOk(m, Tick(m, cs))
  {
    SortConsistent(m, cs);
    RunTickConsistent(m, SortCarts(cs), 0);
  }

  lemma TickGood()
    ensures GoodTick(Tick)
  {
    forall m, cs | Consistent(m, cs)
      ensures TickOk(m, Tick(m, cs))
    {
      TickConsistent(m, cs);
    }
  }

  lemma {:induction false} CrashRunWithCollision(tick: (Map, seq<Cart>) -> Run, m: Map, cs: seq<Cart>, fuel: nat)
    requires GoodTick(tick) && Consistent(m, cs)
    ensures var r := CrashRunWith(tick, m, cs, fuel);
      r.CrashAt? ==> InMap(m, r.x, r.y) && (Count(r.carts, r.x, r.y) >= 2 || m.tracks[r.y][r.x] == NoTrack)
    decreases fuel
  {
    if fuel > 0 {
      var t := tick(m, cs);
      assert TickOk(m, t);
      if t.Finished? {
        CrashRunWithCollision(tick, t.m, t.carts, fuel - 1);
        WellFormedSameShape(m, t.m);
      }
    }
  }

  /**
   * Starting from a consistent state (as parsed), the crash `first_crash` reports is a cell
   * where two carts now stand, or a cell without track.
   */
  lemma FirstCrashIsCollision(m: Map, cs: seq<Cart>, fuel: nat)
    requires Consistent(m, cs)
    ensures var r := CrashRun(m, cs, fuel);
      r.CrashAt? ==>
        (FirstCrash(m, cs, fuel) == At(r.x, r.y) && InMap(m, r.x, r.y) &&
         (Count(r.carts, r.x, r.y) >= 2 || m.tracks[r.y][r.x] == NoTrack))
  {
    TickGood();
    CrashRunWithCollision(Tick, m, cs, fuel);
  }

  // ---------------------------------------------------------------------------------------
  // last_alive
  // ---------------------------------------------------------------------------------------

  /** The pass of `last_alive` from cart `i` on, collecting the cells where steps reported crashes. */
  function TickAll(m: Map, cs: seq<Cart>, i: nat, crashed: set<(nat, nat)>): (r: Option<(Map, seq<Cart>, set<(nat, nat)>)>)
    requires i <= |cs|
    ensures r.Some? ==> |r.value.1| == |cs| && crashed <= r.value.2
    decreases |cs| - i
  {
    if i == |cs| then Some((m, cs, crashed))
    else if !Movable(m, cs[i]) then None
    else
      var (m', c', hit) := StepCart(m, cs[i]);
      TickAll(m', cs[i := c'], i + 1, if hit then crashed + {(c'.x, c'.y)} else crashed)
  }

  /** A pass leaves the carts before `i` alone. */
  lemma {:induction false} TickAllPrefix(m: Map, cs: seq<Cart>, i: nat, crashed: set<(nat, nat)>)
    requires i <= |cs|
    ensures var r := TickAll(m, cs, i, crashed);
      r.Some? ==> forall j :: 0 <= j < i ==> r.value.1[j] == cs[j]
    decreases |cs| - i
  {
    if i < |cs| && Movable(m, cs[i]) {
      var (m', c', hit) := StepCart(m, cs[i]);
      TickAllPrefix(m', cs[i := c'], i + 1, if hit then crashed + {(c'.x, c'.y)} else crashed);
    }
  }

  /** Every cell a pass adds to the crashed set is where one of the carts it moved now stands. */
  lemma {:induction false} TickAllCrashes(m: Map, cs: seq<Cart>, i: nat, crashed: set<(nat, nat)>)
    requires i <= |cs|
    ensures var r := TickAll(m, cs, i, crashed);
      r.Some? ==> forall p :: p in r.value.2 - crashed ==> exists j :: i <= j < |cs| && (r.value.1[j].x, r.value.1[j].y) == p
    decreases |cs| - i
  {
    if i < |cs| && Movable(m, cs[i]) {
      var (m', c', hit) := StepCart(m, cs[i]);
      var cs' := cs[i := c'];
      var crashed' := if hit then crashed + {(c'.x, c'.y)} else crashed;
      TickAllCrashes(m', cs', i + 1, crashed');
      TickAllPrefix(m', cs', i + 1, crashed');
      var r := TickAll(m', cs', i + 1, crashed');
      assert TickAll(m, cs, i, crashed) == r;
      if r.Some? {
        assert r.value.1[i] == cs'[i] == c';
        CrashesWiden(r.value.1, r.value.2, i, c', crashed, crashed');
      }
    }
  }

  /**
   * The pass step at cart i: cells new since `crashed'` are under carts from i + 1 on, and
   * `crashed'` adds at most the cell of cart i, so cells new since `crashed` are under carts
   * from i on.
   */
  lemma CrashesWiden(cs: seq<Cart>, all: set<(nat, nat)>, i: nat, c: Cart, crashed: set<(nat, nat)>, crashed': set<(nat, nat)>)
    requires i < |cs| && cs[i] == c
    requires crashed' == crashed || crashed' == crashed + {(c.x, c.y)}
    requires forall p :: p in all - crashed' ==> exists j :: i + 1 <= j < |cs| && (cs[j].x, cs[j].y) == p
    ensures forall p :: p in all - crashed ==> exists j :: i <= j < |cs| && (cs[j].x, cs[j].y) == p
  {
    forall p | p in all - crashed
      ensures exists j :: i <= j < |cs| && (cs[j].x, cs[j].y) == p
    {
      if p in all - crashed' {
        var j :| i + 1 <= j < |cs| && (cs[j].x, cs[j].y) == p;
      } else {
        assert p == (cs[i].x, cs[i].y);
      }
    }
  }

  /** `retain`: the carts not standing on a crashed cell, in order. */
  function Retain(cs: seq<Cart>, crashed: set<(nat, nat)>): (r: seq<Cart>)
    ensures |r| <= |cs|
    ensures forall c :: c in r <==> c in cs && (c.x, c.y) !in crashed
  {
    if |cs| == 0 then []
    else (if (cs[0].x, cs[0].y) in crashed then [] else [cs[0]]) + Retain(cs[1..], crashed)
  }

  /** A tick without crashes keeps every cart, in order. */
  lemma {:induction false} RetainNone(cs: seq<Cart>)
    ensures Retain(cs, {}) == cs
  {
    if |cs| > 0 {
      RetainNone(cs[1..]);
      assert cs == [cs[0]] + cs[1..];
    }
  }

  /** The `set_blocked(x, y, Free)` loop over the crashed cells. */
  function Clear(m: Map, crashed: set<(nat, nat)>): (r: Map)
    ensures r.tracks == m.tracks && |r.blocked| == |m.blocked|
    ensures forall y :: 0 <= y < |m.blocked| ==> |r.blocked[y]| == |m.blocked[y]|
    ensures forall x: nat, y: nat :: y < |m.blocked| && x < |m.blocked[y]| ==>
      r.blocked[y][x] == if (x, y) in crashed then Free else m.blocked[y][x]
  {
    Map(m.tracks, seq(|m.blocked|, y requires 0 <= y < |m.blocked| =>
      seq(|m.blocked[y]|, x requires 0 <= x < |m.blocked[y]| => if (x, y) in crashed then Free else m.blocked[y][x])))
  }

  /**
   * `last_alive`, ticking at most `fuel` times: after each tick the crashed carts are removed and
   * their cells freed; when exactly one cart is left its cell is the answer, and with no carts the
   * answer is (0, 0).
   */
  function LastAlive(m: Map, cs: seq<Cart>, fuel: nat): Outcome
    decreases fuel
  {
    if |cs| == 0 then At(0, 0)
    else if fuel == 0 then OutOfFuel
    else match TickAll(m, SortCarts(cs), 0, {})
      case None => Panic
      case Some((m', cs', crashed)) =>
        var left := Retain(cs', crashed);
        if |left| == 1 then At(left[0].x, left[0].y) else LastAlive(Clear(m', crashed), left, fuel - 1)
  }

  // ---------------------------------------------------------------------------------------
  // parse_input
  // ---------------------------------------------------------------------------------------

  /** The track under a character and, for a cart glyph, the cart's direction. */
  function CellOf(ch: char): Option<(Track, Option<Dir>)>
  {
    match ch
    case ' ' => Some((NoTrack, None))
    case '-' => Some((Straight, None))
    case '|' => Some((Straight, None))
    case '/' => Some((Slash, None))
    case '\\' => Some((Backslash, None))
    case '+' => Some((Intersection, None))
    case '^' => Some((Straight, Some(0)))
    case '>' => Some((Straight, Some(1)))
    case 'v' => Some((Straight, Some(2)))
    case '<' => Some((Straight, Some(3)))
    case _ => None
  }

  predicate IsCart(ch: char)
  {
    CellOf(ch).Some? && CellOf(ch).value.1.Some?
  }

  /** One line: its track row, its cell row, and its carts from left to right. */
  function ParseLine(line: string, y: nat): (r: Result<(seq<Track>, seq<Cell>, seq<Cart>)>)
    ensures r.Ok? ==> |r.value.0| == |line| && |r.value.1| == |line|
  {
    if |line| == 0 then Ok(([], [], []))
    else
      var (ts, bs, cs) :- ParseLine(line[..|line| - 1], y);
      var ch := line[|line| - 1];
      match CellOf(ch)
      case None => Err("Unexpected char '" + [ch] + "'")
      case Some((t, cart)) =>
        Ok((ts + [t], bs + [if cart.Some? then Blocked else Free],
          cs + if cart.Some? then [Cart(|line| - 1, y, cart.value, 0)] else []))
  }

  /** `parse_input`. */
  function Parse(lines: seq<string>): (r: Result<(Map, seq<Cart>)>)
    ensures r.Ok? ==> |r.value.0.tracks| == |lines| && |r.value.0.blocked| == |lines|
  {
    if |lines| == 0 then Ok((Map([], []), []))
    else
      var (m, cs) :- Parse(lines[..|lines| - 1]);
      var (ts, bs, lc) :- ParseLine(lines[|lines| - 1], |lines| - 1);
      Ok((Map(m.tracks + [ts], m.blocked + [bs]), cs + lc))
  }

  /** A line parses exactly when every character is a known one. */
  lemma {:induction false} ParseLineFails(line: string, y: nat)
    ensures ParseLine(line, y).Err? <==> exists x :: 0 <= x < |line| && CellOf(line[x]).None?
  {
    if |line| > 0 {
      var pre := line[..|line| - 1];
      ParseLineFails(pre, y);
      if exists x :: 0 <= x < |pre| && CellOf(pre[x]).None? {
        var x :| 0 <= x < |pre| && CellOf(pre[x]).None?;
        assert line[x] == pre[x];
      }
      if exists x :: 0 <= x < |line| && CellOf(line[x]).None? {
        var x :| 0 <= x < |line| && CellOf(line[x]).None?;
        if x < |pre| {
          assert pre[x] == line[x];
        }
      }
    }
  }

  /** What a parsed line holds, cell by cell, and where its carts stand. */
  lemma ParseLineCells(line: string, y: nat)
    requires ParseLine(line, y).Ok?
    ensures var (ts, bs, cs) := ParseLine(line, y).value;
      (forall x :: 0 <= x < |line| ==>
        CellOf(line[x]).Some? && ts[x] == CellOf(line[x]).value.0 && bs[x] == if IsCart(line[x]) then Blocked else Free) &&
      (forall i :: 0 <= i < |cs| ==>
        cs[i].y == y && cs[i].x < |line| && CellOf(line[cs[i].x]) == Some((Straight, Some(cs[i].dir))) && cs[i].turnCounter == 0)
  {
    ParseLineTracks(line, y);
    ParseLineCarts(line, y);
  }

  /** Each cell of a parsed line carries its character's track, and is Blocked exactly under a cart. */
  lemma {:induction false} ParseLineTracks(line: string, y: nat)
    requires ParseLine(line, y).Ok?
    ensures var r := ParseLine(line, y).value;
      forall x :: 0 <= x < |line| ==>
        CellOf(line[x]).Some? && r.0[x] == CellOf(line[x]).value.0 && r.1[x] == if IsCart(line[x]) then Blocked else Free
  {
    if |line| > 0 {
      var n := |line|;
      var pre := line[..n - 1];
      ParseLineTracks(pre, y);
      var r0 := ParseLine(pre, y).value;
      var r := ParseLine(line, y).value;
      var (t, cart) := CellOf(line[n - 1]).value;
      assert r.0 == r0.0 + [t] && r.1 == r0.1 + [if cart.Some? then Blocked else Free];
      forall x | 0 <= x < n - 1
        ensures line[x] == pre[x]
      {
      }
    }
  }

  /** Each cart of a parsed line stands on a glyph of its direction, with turn counter 0. */
  lemma {:induction false} ParseLineCarts(line: string, y: nat)
    requires ParseLine(line, y).Ok?
    ensures var cs := ParseLine(line, y).value.2;
      forall i :: 0 <= i < |cs| ==>
        cs[i].y == y && cs[i].x < |line| && CellOf(line[cs[i].x]) == Some((Straight, Some(cs[i].dir))) && cs[i].turnCounter == 0
  {
    if |line| > 0 {
      var n := |line|;
      var pre := line[..n - 1];
      ParseLineCarts(pre, y);
      var cs0 := ParseLine(pre, y).value.2;
      var (t, cart) := CellOf(line[n - 1]).value;
      var add := if cart.Some? then [Cart(n - 1, y, cart.value, 0)] else [];
      assert ParseLine(line, y).value.2 == cs0 + add;
      forall x | 0 <= x < n - 1
        ensures line[x] == pre[x]
      {
      }
    }
  }

  /** A parsed line has one cart on each cart glyph and none anywhere else. */
  lemma {:induction false} ParseLineCount(line: string, y: nat, x: nat, y': nat)
    requires ParseLine(line, y).Ok?
    ensures Count(ParseLine(line, y).value.2, x, y') == if y' == y && x < |line| && IsCart(line[x]) then 1 else 0
  {
    if |line| > 0 {
      var n := |line|;
      var pre := line[..n - 1];
      ParseLineCount(pre, y, x, y');
      var cs := ParseLine(pre, y).value.2;
      var (t, cart) := CellOf(line[n - 1]).value;
      var add := if cart.Some? then [Cart(n - 1, y, cart.value, 0)] else [];
      assert ParseLine(line, y).value.2 == cs + add;
      CountAppend(cs, add, x, y');
      if cart.Some? {
        assert Count(add, x, y') == Count([], x, y') + (if x == n - 1 && y' == y then 1 else 0);
      }
      if x < n - 1 {
        assert line[x] == pre[x];
      }
    }
  }

  /** A parsed map is well formed, one row per line and one cell per character. */
  lemma {:induction false} ParseShape(lines: seq<string>)
    requires Parse(lines).Ok?
    ensures var m := Parse(lines).value.0;
      WellFormed(m) && forall y :: 0 <= y < |lines| ==> |m.tracks[y]| == |lines[y]|
  {
    if |lines| > 0 {
      var n := |lines|;
      var pre := lines[..n - 1];
      ParseShape(pre);
      var m0 := Parse(pre).value.0;
      var m := Parse(lines).value.0;
      var (ts, bs, lc) := ParseLine(lines[n - 1], n - 1).value;
      assert m == Map(m0.tracks + [ts], m0.blocked + [bs]);
      forall y | 0 <= y < n - 1
        ensures lines[y] == pre[y] && m.tracks[y] == m0.tracks[y] && m.blocked[y] == m0.blocked[y]
      {
      }
    }
  }

  /** Each cell of a parsed map follows its character: its track, and Blocked exactly under a cart glyph. */
  lemma {:induction false} ParseCells(lines: seq<string>)
    requires Parse(lines).Ok?
    ensures var m := Parse(lines).value.0;
      forall x, y :: InMap(m, x, y) ==>
        (y < |lines| && x < |lines[y]| && CellOf(lines[y][x]).Some? && m.tracks[y][x] == CellOf(lines[y][x]).value.0 &&
         m.blocked[y][x] == if IsCart(lines[y][x]) then Blocked else Free)
  {
    if |lines| > 0 {
      var n := |lines|;
      var pre := lines[..n - 1];
      ParseCells(pre);
      ParseShape(lines);
      ParseShape(pre);
      ParseLineCells(lines[n - 1], n - 1);
      var m0 := Parse(pre).value.0;
      var m := Parse(lines).value.0;
      var (ts, bs, lc) := ParseLine(lines[n - 1], n - 1).value;
      assert m == Map(m0.tracks + [ts], m0.blocked + [bs]);
      forall x, y | InMap(m, x, y)
        ensures y < |lines| && x < |lines[y]| && CellOf(lines[y][x]).Some? && m.tracks[y][x] == CellOf(lines[y][x]).value.0 &&
          m.blocked[y][x] == if IsCart(lines[y][x]) then Blocked else Free
      {
        if y < n - 1 {
          assert lines[y] == pre[y] && m.tracks[y] == m0.tracks[y] && m.blocked[y] == m0.blocked[y];
          assert InMap(m0, x, y);
        }
      }
    }
  }

  /** Every parsed cart stands on the map, on a glyph showing its direction, with its counter at 0. */
  lemma {:induction false} ParseCarts(lines: seq<string>)
    requires Parse(lines).Ok?
    ensures var (m, cs) := Parse(lines).value;
      forall i :: 0 <= i < |cs| ==>
        (InMap(m, cs[i].x, cs[i].y) && cs[i].y < |lines| && cs[i].x < |lines[cs[i].y]| &&
         CellOf(lines[cs[i].y][cs[i].x]) == Some((Straight, Some(cs[i].dir))) && cs[i].turnCounter == 0)
  {
    if |lines| > 0 {
      var n := |lines|;
      var pre := lines[..n - 1];
      ParseCarts(pre);
      ParseShape(lines);
      ParseShape(pre);
      ParseLineCells(lines[n - 1], n - 1);
      var (m0, cs0) := Parse(pre).value;
      var (ts, bs, lc) := ParseLine(lines[n - 1], n - 1).value;
      var (m, cs) := Parse(lines).value;
      assert m == Map(m0.tracks + [ts], m0.blocked + [bs]) && cs == cs0 + lc;
      forall i | 0 <= i < |cs|
        ensures InMap(m, cs[i].x, cs[i].y) && cs[i].y < |lines| && cs[i].x < |lines[cs[i].y]| &&
          CellOf(lines[cs[i].y][cs[i].x]) == Some((Straight, Some(cs[i].dir))) && cs[i].turnCounter == 0
      {
        if i < |cs0| {
          var y := cs0[i].y;
          assert cs[i] == cs0[i];
          assert lines[y] == pre[y] && m.tracks[y] == m0.tracks[y] && m.blocked[y] == m0.blocked[y];
        } else {
          assert cs[i] == lc[i - |cs0|];
        }
      }
    }
  }

  /** A parsed input has one cart on each cart glyph and none anywhere else. */
  lemma {:induction false} ParseCount(lines: seq<string>, x: nat, y: nat)
    requires Parse(lines).Ok?
    ensures Count(Parse(lines).value.1, x, y) == if y < |lines| && x < |lines[y]| && IsCart(lines[y][x]) then 1 else 0
  {
    if |lines| > 0 {
      var n := |lines|;
      var pre := lines[..n - 1];
      ParseCount(pre, x, y);
      var cs0 := Parse(pre).value.1;
      var lc := ParseLine(lines[n - 1], n - 1).value.2;
      assert Parse(lines).value.1 == cs0 + lc;
      CountAppend(cs0, lc, x, y);
      ParseLineCount(lines[n - 1], n - 1, x, y);
      if y < n - 1 {
        assert lines[y] == pre[y];
      }
    }
  }

  /** So the parsed state is consistent: the state `first_crash` and `last_alive` start from. */
  lemma ParseConsistent(lines: seq<string>)
    requires Parse(lines).Ok?
    ensures Consistent(Parse(lines).value.0, Parse(lines).value.1)
  {
    var (m, cs) := Parse(lines).value;
    ParseShape(lines);
    ParseCells(lines);
    ParseCarts(lines);
    forall x: nat, y: nat | InMap(m, x, y)
      ensures (m.blocked[y][x] == Blocked && Count(cs, x, y) == 1) || (m.blocked[y][x] == Free && Count(cs, x, y) == 0)
    {
      ParseCount(lines, x, y);
    }
  }
}

=== FILE: day14.dfy ===
/**
 * The recipe scoreboard: two elves combine their current recipes, append the digits of the sum,
 * and each moves forward by one plus its recipe's score. `scores_after` reads ten scores after a
 * given count; `num_recipes_before` finds where a digit sequence first appears.
 */
module Day14 {
  import opened Common

  /** `Scoreboard`: the scores so far and the two elves' current recipes. */
  datatype Board = Board(scores: seq<nat>, i: nat, j: nat)

  /** Every score is a digit and both elves stand on a recipe. */
  predicate Valid(b: Board)
  {
    |b.scores| >= 2 && b.i < |b.scores| && b.j < |b.scores| &&
    forall k :: 0 <= k < |b.scores| ==> b.scores[k] <= 9
  }

  /** `Scoreboard::new`. */
  function Init(): (r: Board)
    ensures Valid(r) && r.scores == [3, 7] && r.i == 0 && r.j == 1
  {
    Board([3, 7], 0, 1)
  }

  /** The digits `step` appends for a sum: the tens digit if there is one, then the units digit. */
  function Digits(sum: nat): (r: seq<nat>)
    requires sum <= 18
    ensures 1 <= |r| <= 2 && forall k :: 0 <= k < |r| ==> r[k] <= 9
    ensures |r| == 2 <==> sum >= 10
  {
    if sum >= 10 then [sum / 10, sum % 10] else [sum % 10]
  }

  /** The decimal value of a digit sequence. */
  function Value(ds: seq<nat>): nat
  {
    if |ds| == 0 then 0 else 10 * Value(ds[..|ds| - 1]) + ds[|ds| - 1]
  }

  /** The appended digits spell the sum in decimal, without a leading zero. */
  lemma DigitsValue(sum: nat)
    requires sum <= 18
    ensures Value(Digits(sum)) == sum && (|Digits(sum)| == 2 ==> Digits(sum)[0] != 0)
  {
    var t, u := sum / 10, sum % 10;
    assert [t][..0] == [] && [u][..0] == [] && [t, u][..1] == [t];
    assert Value([u]) == u && Value([t, u]) == 10 * t + u;
  }

  /** `Scoreboard::step`. */
  function Step(b: Board): (r: Board)
    requires Valid(b)
    ensures Valid(r)
    ensures |b.scores| < |r.scores| && forall k :: 0 <= k < |b.scores| ==> r.scores[k] == b.scores[k]
    ensures r.scores[|b.scores|..] == Digits(b.scores[b.i] + b.scores[b.j])
  {
    var sum := b.scores[b.i] + b.scores[b.j];
    var scores := b.scores + Digits(sum);
    Board(scores, Move(b.i, b.scores[b.i] + 1, |scores|), Move(b.j, b.scores[b.j] + 1, |scores|))
  }

  /** `(pos + steps) % n`, counted out one place at a time round the circle of n recipes. */
  function Move(pos: nat, steps: nat, n: nat): (r: nat)
    requires pos < n
    ensures r < n
    decreases steps
  {
    if steps == 0 then pos else Move(if pos + 1 == n then 0 else pos + 1, steps - 1, n)
  }

  /** Counting round the circle is the source's remainder. */
  lemma {:induction false} MoveIsMod(pos: nat, steps: nat, n: nat)
    requires pos < n
    ensures Move(pos, steps, n) == (pos + steps) % n
    decreases steps
  {
    if steps > 0 {
      var next := if pos + 1 == n then 0 else pos + 1;
      MoveIsMod(next, steps - 1, n);
      ModStep(pos, steps, n);
    }
  }

  /** One place on, then the rest: `(pos + steps) % n` is `(next + steps - 1) % n`. */
  lemma ModStep(pos: nat, steps: nat, n: nat)
    requires pos < n && steps > 0
    ensures (pos + steps) % n == ((if pos + 1 == n then 0 else pos + 1) + steps - 1) % n
  {
    if pos + 1 == n {
      ModShift(steps - 1, n);
    }
  }

  /** `step` on the boards it can take; the others never arise. */
  function StepValid(b: Board): Board
  {
    if Valid(b) then Step(b) else b
  }

  /** The board after `n` steps. */
  function StepN(n: nat): (r: Board)
  {
    if n == 0 then Init() else StepValid(StepN(n - 1))
  }

  /** Boards after any number of steps are valid, and each step adds a recipe or two. */
  lemma {:induction false} StepNValid(n: nat)
    ensures Valid(StepN(n)) && |StepN(n).scores| >= n + 2
  {
    if n > 0 {
      StepNValid(n - 1);
    }
  }

  /** Scores are never changed once written. */
  lemma StepNPrefix(n: nat, m: nat, k: nat)
    requires n <= m && k < |StepN(n).scores|
    ensures k < |StepN(m).scores| && StepN(m).scores[k] == StepN(n).scores[k]
  {
    StepNExtends(n, m);
  }

  /** Each board's scores begin with the scores of every earlier board. */
  lemma {:induction false} StepNExtends(n: nat, m: nat)
    requires n <= m
    ensures StepN(n).scores <= StepN(m).scores
  {
    if n < m {
      StepNExtends(n, m - 1);
      ExtendsOneMore(n, m);
    }
  }

  lemma ExtendsOneMore(n: nat, m: nat)
    requires n < m && StepN(n).scores <= StepN(m - 1).scores
    ensures StepN(n).scores <= StepN(m).scores
  {
    StepNStep(m - 1);
    AppendsAfter(StepN(n), StepN(m - 1), StepN(m));
  }

  /** A board whose scores begin a valid board's begins the board after it too. */
  lemma AppendsAfter(a: Board, prev: Board, next: Board)
    requires Valid(prev) && next == Step(prev) && a.scores <= prev.scores
    ensures a.scores <= next.scores
  {
    StepAppends(prev);
    PrefixTrans(a.scores, prev.scores, next.scores);
  }

  /** A step only appends. */
  lemma StepAppends(b: Board)
    requires Valid(b)
    ensures b.scores <= Step(b).scores
  {
    assert Step(b).scores == b.scores + Digits(b.scores[b.i] + b.scores[b.j]);
  }

  lemma PrefixTrans(a: seq<nat>, b: seq<nat>, c: seq<nat>)
    requires a <= b && b <= c
    ensures a <= c
  {
    assert c[..|b|][..|a|] == c[..|a|];
  }

  /** The step from board `n` to board `n + 1` is `Scoreboard::step`. */
  lemma StepNStep(n: nat)
    ensures Valid(StepN(n)) && StepN(n + 1) == Step(StepN(n))
  {
    StepNValid(n);
  }

  /** Score number `k` of the board: the same on every board long enough to hold it. */
  function ScoreAt(k: nat): (r: nat)
    ensures r <= 9
  {
    StepNValid(k);
    StepN(k).scores[k]
  }

  lemma ScoreAtAny(n: nat, k: nat)
    requires k < |StepN(n).scores|
    ensures StepN(n).scores[k] == ScoreAt(k)
  {
    StepNValid(k);
    if n <= k {
      StepNPrefix(n, k, k);
    } else {
      StepNPrefix(k, n, k);
    }
  }

  /** `(s + 48) as char`. */
  function DigitChar(d: nat): (c: char)
    requires d <= 9
    ensures '0' <= c <= '9' && c as int - '0' as int == d
  {
    (d + 48) as char
  }

  /** The `while` loop that steps until the board holds `len` scores. */
  method GrowTo(b: Board, ghost n: nat, len: nat) returns (b': Board, ghost n': nat)
    requires b == StepN(n)
    ensures b' == StepN(n') && n <= n' && |b'.scores| >= len
  {
    b', n' := b, n;
    while |b'.scores| < len
      invariant b' == StepN(n') && n <= n'
      decreases len - |b'.scores|
    {
      StepNStep(n');
      b' := Step(b');
      n' := n' + 1;
    }
  }

  /** `scores_after`: the `count` scores after the first `after`, as digit characters. */
  method ScoresAfter(after: nat, count: nat) returns (r: string)
    ensures |r| == count
    ensures forall k :: 0 <= k < count ==> r[k] == DigitChar(ScoreAt(after + k))
  {
    var b, n := GrowTo(Init(), 0, after + count);
    StepNValid(n);
    r := [];
    var k := 0;
    while k < count
      invariant k <= count && |r| == k
      invariant forall k' :: 0 <= k' < k ==> r[k'] == DigitChar(ScoreAt(after + k'))
    {
      ScoreAtAny(n, after + k);
      r := r + [DigitChar(b.scores[after + k])];
      k := k + 1;
    }
  }

  /** `c as u8 - 48`: the low byte of the character, less 48; the subtraction panics below '0'. */
  function Digit(c: char): (d: nat)
    requires c as int % 256 >= 48
  {
    c as int % 256 - 48
  }

  /** The digit pattern of a string of characters. */
  function Pattern(s: string): (p: seq<nat>)
    requires forall k :: 0 <= k < |s| ==> s[k] as int % 256 >= 48
    ensures |p| == |s| && forall k :: 0 <= k < |s| ==> p[k] == Digit(s[k])
  {
    seq(|s|, k requires 0 <= k < |s| => Digit(s[k]))
  }

  /** The scores from index `i` on spell `p`. */
  ghost predicate OccursAt(p: seq<nat>, i: nat)
  {
    forall k :: 0 <= k < |p| ==> ScoreAt(i + k) == p[k]
  }

  /** Comparing a window of any long enough board decides whether the pattern occurs there. */
  lemma WindowOccurs(n: nat, p: seq<nat>, i: nat)
    requires i + |p| <= |StepN(n).scores|
    ensures StepN(n).scores[i..i + |p|] == p <==> OccursAt(p, i)
  {
    var w := StepN(n).scores[i..i + |p|];
    forall k | 0 <= k < |p|
      ensures w[k] == ScoreAt(i + k)
    {
      ScoreAtAny(n, i + k);
    }
    if OccursAt(p, i) {
      assert w == p;
    }
  }

  /**
   * `num_recipes_before`, trying the first `fuel` start indices: the first index where the
   * pattern occurs, or `None` when it does not occur before `fuel`. The source loops until found.
   */
  method NumRecipesBefore(s: string, fuel: nat) returns (r: Option<nat>)
    requires forall k :: 0 <= k < |s| ==> s[k] as int % 256 >= 48
    ensures r.Some? ==> r.value < fuel && OccursAt(Pattern(s), r.value)
    ensures r.Some? ==> forall i :: 0 <= i < r.value ==> !OccursAt(Pattern(s), i)
    ensures r.None? ==> forall i :: 0 <= i < fuel ==> !OccursAt(Pattern(s), i)
  {
    var p := Pattern(s);
    var b := Init();
    ghost var n := 0;
    var i := 0;
    while i < fuel
      invariant i <= fuel && b == StepN(n)
      invariant forall i' :: 0 <= i' < i ==> !OccursAt(p, i')
    {
      var found;
      b, n, found := TryAt(b, n, p, i);
      if found {
        return Some(i);
      }
      i := i + 1;
    }
    r := None;
  }

  /** One pass of the search loop: grow the board far enough and compare the window at `i`. */
  method TryAt(b: Board, ghost n: nat, p: seq<nat>, i: nat) returns (b': Board, ghost n': nat, found: bool)
    requires b == StepN(n)
    ensures b' == StepN(n')
    ensures found <==> OccursAt(p, i)
  {
    b', n' := GrowTo(b, n, i + |p|);
    WindowOccurs(n', p, i);
    found := b'.scores[i..i + |p|] == p;
  }
}

=== FILE: day15.dfy ===
/**
 * Goblins against elves on a cave map. Units act in reading order: each unit that is not
 * already next to an enemy takes one step along a shortest path towards the nearest cell next
 * to an enemy (ties broken in reading order), then attacks the adjacent enemy with the fewest
 * hit points. The combat ends when one side has no hit points left.
 *
 * The source keeps scratch grids (`moved`, `targets`, `distances`) inside the simulation and
 * refills each of them before every use; the model creates them fresh at those points instead,
 * which leaves every observable result the same.
 */
module Day15 {
  import opened Common
  import opened Array2d

  /** `Tile`; the source stores hit points as `u8`, which `WellFormed` shows is never exceeded. */
  datatype Tile = Empty | Wall | Fighter(elf: bool, hp: nat)

  /** Hit points of a fresh unit. */
  const StartHp: nat := 200

  /** Damage of one attack. */
  const Power: nat := 3

  type Map = Grid<Tile>

  /** Every fighter on the map is alive and has at most its starting hit points. */
  ghost predicate WellFormed(m: Map)
  {
    m.Valid() &&
    forall x, y :: InBounds(m, x, y) && Cell(m, x, y).Fighter? ==> 0 < Cell(m, x, y).hp <= StartHp
  }

  // ---------------------------------------------------------------------------------------
  // Loading the map

  /** The tile a map character stands for; `None` for any other character. */
  function TileOf(c: char): Option<Tile>
  {
    match c
    case '.' => Some(Empty)
    case '#' => Some(Wall)
    case 'G' => Some(Fighter(false, StartHp))
    case 'E' => Some(Fighter(true, StartHp))
    case _ => None
  }

  /** The inner loop of `load_map` from column `x` on: `put` drops columns beyond the width. */
  function LoadRow(g: Map, line: string, x: nat, y: nat): (r: Result<Map>)
    requires g.Valid() && x <= |line|
    ensures r.Ok? ==> r.value.Valid() && r.value.width == g.width && r.value.height == g.height
    decreases |line| - x
  {
    if x == |line| then Ok(g)
    else match TileOf(line[x])
      case None => Err("Unexpected char in map")
      case Some(t) => LoadRow(Put(g, x, y, t), line, x + 1, y)
  }

  /** The outer loop of `load_map` from line `y` on. */
  function LoadRows(g: Map, lines: seq<string>, y: nat): (r: Result<Map>)
    requires g.Valid() && y <= |lines|
    ensures r.Ok? ==> r.value.Valid() && r.value.width == g.width && r.value.height == g.height
    decreases |lines| - y
  {
    if y == |lines| then Ok(g)
    else
      var g' :- LoadRow(g, lines[y], 0, y);
      LoadRows(g', lines, y + 1)
  }

  /** `load_map`: the grid is as wide as the first line and starts out empty. */
  function LoadMap(lines: seq<string>): Result<Map>
  {
    if |lines| == 0 then Err("Empty map")
    else LoadRows(Generate(|lines[0]|, |lines|, (_, _) => Empty), lines, 0)
  }

  /** Every character of `lines` from line `y` on is a map character. */
  predicate KnownFrom(lines: seq<string>, y: nat)
  {
    forall y', x :: y <= y' < |lines| && 0 <= x < |lines[y']| ==> TileOf(lines[y'][x]).Some?
  }

  lemma {:induction false} LoadRowCells(g: Map, line: string, x: nat, y: nat)
    requires g.Valid() && x <= |line|
    ensures LoadRow(g, line, x, y).Ok? <==> forall x' :: x <= x' < |line| ==> TileOf(line[x']).Some?
    ensures LoadRow(g, line, x, y).Ok? ==>
              forall x', y' :: InBounds(g, x', y') ==>
                Cell(LoadRow(g, line, x, y).value, x', y') ==
                  if y' == y && x <= x' < |line| then TileOf(line[x']).value else Cell(g, x', y')
    decreases |line| - x
  {
    if x < |line| && TileOf(line[x]).Some? {
      LoadRowCells(Put(g, x, y, TileOf(line[x]).value), line, x + 1, y);
    }
  }

  lemma {:induction false} LoadRowsCells(g: Map, lines: seq<string>, y: nat)
    requires g.Valid() && y <= |lines|
    ensures LoadRows(g, lines, y).Ok? <==> KnownFrom(lines, y)
    ensures LoadRows(g, lines, y).Ok? ==>
              forall x', y' :: InBounds(g, x', y') ==>
                Cell(LoadRows(g, lines, y).value, x', y') ==
                  if y <= y' < |lines| && x' < |lines[y']| then TileOf(lines[y'][x']).value else Cell(g, x', y')
    decreases |lines| - y
  {
    if y < |lines| {
      LoadRowCells(g, lines[y], 0, y);
      var r := LoadRow(g, lines[y], 0, y);
      if r.Ok? {
        LoadRowsCells(r.value, lines, y + 1);
      } else {
        assert !KnownFrom(lines, y);
      }
    }
  }

  /**
   * `load_map` fails exactly on no lines or a character other than `.#GE`; otherwise the grid
   * has the first line's width and one row per line, and holds the tile of each character
   * that fits in that width, `Empty` elsewhere.
   */
  lemma LoadMapCells(lines: seq<string>)
    ensures LoadMap(lines).Err? <==> |lines| == 0 || !KnownFrom(lines, 0)
    ensures LoadMap(lines).Ok? ==>
              var m := LoadMap(lines).value;
              (m.Valid() && m.width == |lines[0]| && m.height == |lines| &&
               forall x, y :: InBounds(m, x, y) ==>
                 Cell(m, x, y) == if x < |lines[y]| then TileOf(lines[y][x]).value else Empty)
  {
    if |lines| > 0 {
      LoadRowsCells(Generate(|lines[0]|, |lines|, (_, _) => Empty), lines, 0);
    }
  }

  /** A loaded map is well formed: every unit starts with 200 hit points. */
  lemma LoadMapWellFormed(lines: seq<string>)
    requires LoadMap(lines).Ok?
    ensures WellFormed(LoadMap(lines).value)
    ensures forall x, y :: InBounds(LoadMap(lines).value, x, y) && Cell(LoadMap(lines).value, x, y).Fighter? ==>
              Cell(LoadMap(lines).value, x, y).hp == StartHp
  {
    LoadMapCells(lines);
  }

  // ---------------------------------------------------------------------------------------
  // Neighbours and reading order

  /** `neighbors`: up, left, right, down (the `OFFSETS` table). */
  function Neighbors(x: int, y: int): (r: seq<(int, int)>)
    ensures |r| == 4
  {
    [(x, y - 1), (x - 1, y), (x + 1, y), (x, y + 1)]
  }

  /** `p` comes before `q` in reading order: top to bottom, then left to right. */
  predicate Before(p: (int, int), q: (int, int))
  {
    p.1 < q.1 || (p.1 == q.1 && p.0 < q.0)
  }

  /** The neighbours are listed in reading order and are exactly the cells at distance one. */
  lemma NeighborsOrder(x: int, y: int)
    ensures forall i, j :: 0 <= i < j < 4 ==> Before(Neighbors(x, y)[i], Neighbors(x, y)[j])
    ensures forall q: (int, int) :: q in Neighbors(x, y) <==> Abs(q.0 - x) + Abs(q.1 - y) == 1
  {
  }

  /** Being neighbours is symmetric. */
  lemma NeighborsSymmetric(p: (int, int), q: (int, int))
    ensures q in Neighbors(p.0, p.1) <==> p in Neighbors(q.0, q.1)
  {
  }

  // ---------------------------------------------------------------------------------------
  // Reading cells

  predicate Shaped<T>(m: Map, g: Grid<T>)
  {
    m.Valid() && g.Valid() && g.width == m.width && g.height == m.height
  }

  /** `map.get` at a coordinate pair; `Empty` outside the grid. */
  function TileAt(m: Map, p: (int, int)): Tile
    requires m.Valid()
  {
    Get(m, p.0, p.1, Empty)
  }

  /** The tile holds a unit of the side `elves` names. */
  predicate IsEnemy(t: Tile, elves: bool)
  {
    t.Fighter? && t.elf == elves
  }

  // ---------------------------------------------------------------------------------------
  // Attacking

  /** `Iterator::min` over the hit points of the enemies among `ns`. */
  function MinEnemyHp(m: Map, ns: seq<(int, int)>, elves: bool): (r: Option<nat>)
    requires m.Valid()
  {
    if |ns| == 0 then None
    else
      var rest := MinEnemyHp(m, ns[1..], elves);
      var t := TileAt(m, ns[0]);
      if !IsEnemy(t, elves) then rest
      else if rest.Some? && rest.value < t.hp then rest
      else Some(t.hp)
  }

  lemma {:induction false} MinEnemyHpIsMin(m: Map, ns: seq<(int, int)>, elves: bool)
    requires m.Valid()
    ensures MinEnemyHp(m, ns, elves).None? <==> forall i :: 0 <= i < |ns| ==> !IsEnemy(TileAt(m, ns[i]), elves)
    ensures MinEnemyHp(m, ns, elves).Some? ==>
              (exists i :: 0 <= i < |ns| && IsEnemy(TileAt(m, ns[i]), elves) && TileAt(m, ns[i]).hp == MinEnemyHp(m, ns, elves).value)
    ensures MinEnemyHp(m, ns, elves).Some? ==>
              forall i :: 0 <= i < |ns| && IsEnemy(TileAt(m, ns[i]), elves) ==> MinEnemyHp(m, ns, elves).value <= TileAt(m, ns[i]).hp
  {
    if |ns| > 0 {
      MinEnemyHpIsMin(m, ns[1..], elves);
      var r := MinEnemyHp(m, ns, elves);
      if r.Some? {
        if IsEnemy(TileAt(m, ns[0]), elves) && TileAt(m, ns[0]).hp == r.value {
        } else {
          var i :| 0 <= i < |ns[1..]| && IsEnemy(TileAt(m, ns[1..][i]), elves) && TileAt(m, ns[1..][i]).hp == r.value;
          assert ns[1..][i] == ns[i + 1];
        }
      }
      forall i | 0 <= i < |ns| && r.Some? && IsEnemy(TileAt(m, ns[i]), elves)
        ensures r.value <= TileAt(m, ns[i]).hp
      {
        if i > 0 {
          assert ns[1..][i - 1] == ns[i];
        }
      }
      if r.None? {
        forall i | 0 <= i < |ns|
          ensures !IsEnemy(TileAt(m, ns[i]), elves)
        {
          if i > 0 {
            assert ns[1..][i - 1] == ns[i];
          }
        }
      }
    }
  }

  /** The `for ... break` search: the first enemy in `ns` from index `i` with `hp` hit points. */
  function FirstWithHp(m: Map, ns: seq<(int, int)>, elves: bool, hp: nat, i: nat): (r: Option<nat>)
    requires m.Valid() && i <= |ns|
    ensures r.Some? ==> i <= r.value < |ns| && IsEnemy(TileAt(m, ns[r.value]), elves) && TileAt(m, ns[r.value]).hp == hp
    ensures r.Some? ==> forall j :: i <= j < r.value ==> !(IsEnemy(TileAt(m, ns[j]), elves) && TileAt(m, ns[j]).hp == hp)
    ensures r.None? ==> forall j :: i <= j < |ns| ==> !(IsEnemy(TileAt(m, ns[j]), elves) && TileAt(m, ns[j]).hp == hp)
    decreases |ns| - i
  {
    if i == |ns| then None
    else if IsEnemy(TileAt(m, ns[i]), elves) && TileAt(m, ns[i]).hp == hp then Some(i)
    else FirstWithHp(m, ns, elves, hp, i + 1)
  }

  /** One hit: `saturating_sub(3)`, and a unit left with no hit points leaves an empty cell. */
  function Hit(t: Tile): (r: Tile)
    requires t.Fighter?
    ensures r.Fighter? <==> t.hp > Power
    ensures r.Fighter? ==> r.elf == t.elf && r.hp == t.hp - Power
    ensures !r.Fighter? ==> r == Empty
  {
    var hp := if t.hp >= Power then t.hp - Power else 0;
    if hp > 0 then Fighter(t.elf, hp) else Empty
  }

  /** `attack`: hit the adjacent enemy with the fewest hit points, the first in neighbour order on ties. */
  function Attack(m: Map, x: int, y: int, elves: bool): (r: Map)
    requires m.Valid()
    ensures r.Valid() && r.width == m.width && r.height == m.height
  {
    var ns := Neighbors(x, y);
    match MinEnemyHp(m, ns, elves)
    case None => m
    case Some(h) =>
      match FirstWithHp(m, ns, elves, h, 0)
      case None => m
      case Some(i) => Put(m, ns[i].0, ns[i].1, Hit(TileAt(m, ns[i])))
  }

  /** `ns[i]` is the enemy `attack` picks: fewest hit points, earliest on ties. */
  predicate Weakest(m: Map, ns: seq<(int, int)>, elves: bool, i: nat)
    requires m.Valid() && i < |ns|
  {
    IsEnemy(TileAt(m, ns[i]), elves) &&
    forall j :: 0 <= j < |ns| && IsEnemy(TileAt(m, ns[j]), elves) ==>
      (TileAt(m, ns[i]).hp <= TileAt(m, ns[j]).hp && (j < i ==> TileAt(m, ns[i]).hp < TileAt(m, ns[j]).hp))
  }

  /**
   * With no adjacent enemy the map is unchanged; otherwise exactly the weakest adjacent enemy,
   * the first in reading order among equals, takes one hit and nothing else changes.
   */
  lemma AttackHitsWeakest(m: Map, x: int, y: int, elves: bool)
    requires m.Valid()
    ensures (forall i :: 0 <= i < 4 ==> !IsEnemy(TileAt(m, Neighbors(x, y)[i]), elves)) ==> Attack(m, x, y, elves) == m
    ensures (exists i :: 0 <= i < 4 && IsEnemy(TileAt(m, Neighbors(x, y)[i]), elves)) ==>
              exists i: nat :: i < 4 && Weakest(m, Neighbors(x, y), elves, i) &&
                Attack(m, x, y, elves) == Put(m, Neighbors(x, y)[i].0, Neighbors(x, y)[i].1, Hit(TileAt(m, Neighbors(x, y)[i])))
  {
    var ns := Neighbors(x, y);
    MinEnemyHpIsMin(m, ns, elves);
    var h := MinEnemyHp(m, ns, elves);
    if h.Some? {
      var k :| 0 <= k < |ns| && IsEnemy(TileAt(m, ns[k]), elves) && TileAt(m, ns[k]).hp == h.value;
      var f := FirstWithHp(m, ns, elves, h.value, 0);
      assert f.Some?;
      assert Weakest(m, ns, elves, f.value);
    }
  }

  // ---------------------------------------------------------------------------------------
  // Hit point totals

  /** The hit points a tile contributes to side `elf`. */
  function TileHp(t: Tile, elf: bool): nat
  {
    if t.Fighter? && t.elf == elf then t.hp else 0
  }

  function RowHp(row: seq<Tile>, elf: bool): nat
  {
    if |row| == 0 then 0 else RowHp(row[..|row| - 1], elf) + TileHp(row[|row| - 1], elf)
  }

  function RowsHp(rows: seq<seq<Tile>>, elf: bool): nat
  {
    if |rows| == 0 then 0 else RowsHp(rows[..|rows| - 1], elf) + RowHp(rows[|rows| - 1], elf)
  }

  /** One side's total of `hp_sum`: the sum does not depend on the order the cells are visited. */
  function SideHp(m: Map, elf: bool): nat
  {
    RowsHp(m.rows, elf)
  }

  /** `hp_sum`: the elves' total, then the goblins'. */
  function HpSum(m: Map): (nat, nat)
  {
    (SideHp(m, true), SideHp(m, false))
  }

  /** `is_over`. */
  predicate IsOver(m: Map)
  {
    SideHp(m, true) == 0 || SideHp(m, false) == 0
  }

  /** `outcome`: the hit points left on both sides times the number of full rounds. */
  function Outcome(m: Map, rounds: nat): nat
  {
    (HpSum(m).0 + HpSum(m).1) * rounds
  }

  lemma {:induction false} RowHpUpdate(row: seq<Tile>, x: nat, t: Tile, elf: bool)
    requires x < |row|
    ensures RowHp(row[x := t], elf) + TileHp(row[x], elf) == RowHp(row, elf) + TileHp(t, elf)
  {
    var n := |row| - 1;
    if x == n {
      assert row[x := t][..n] == row[..n];
    } else {
      assert row[x := t][..n] == row[..n][x := t];
      RowHpUpdate(row[..n], x, t, elf);
    }
  }

  lemma {:induction false} RowsHpUpdate(rows: seq<seq<Tile>>, y: nat, r: seq<Tile>, elf: bool)
    requires y < |rows|
    ensures RowsHp(rows[y := r], elf) + RowHp(rows[y], elf) == RowsHp(rows, elf) + RowHp(r, elf)
  {
    var n := |rows| - 1;
    if y == n {
      assert rows[y := r][..n] == rows[..n];
    } else {
      assert rows[y := r][..n] == rows[..n][y := r];
      RowsHpUpdate(rows[..n], y, r, elf);
    }
  }

  /** Writing one in-bounds cell changes a side's total by exactly the difference of the two tiles. */
  lemma PutHp(m: Map, x: int, y: int, t: Tile, elf: bool)
    requires m.Valid() && InBounds(m, x, y)
    ensures SideHp(Put(m, x, y, t), elf) + TileHp(Cell(m, x, y), elf) == SideHp(m, elf) + TileHp(t, elf)
  {
    RowHpUpdate(m.rows[y], x, t, elf);
    RowsHpUpdate(m.rows, y, m.rows[y][x := t], elf);
  }

  lemma {:induction false} RowHpZero(row: seq<Tile>, elf: bool)
    ensures RowHp(row, elf) == 0 <==> forall x :: 0 <= x < |row| ==> TileHp(row[x], elf) == 0
  {
    if |row| > 0 {
      var n := |row| - 1;
      RowHpZero(row[..n], elf);
      assert forall x :: 0 <= x < n ==> row[..n][x] == row[x];
    }
  }

  lemma {:induction false} RowsHpZero(rows: seq<seq<Tile>>, elf: bool)
    ensures RowsHp(rows, elf) == 0 <==>
              forall y, x :: 0 <= y < |rows| && 0 <= x < |rows[y]| ==> TileHp(rows[y][x], elf) == 0
  {
    if |rows| > 0 {
      var n := |rows| - 1;
      RowsHpZero(rows[..n], elf);
      RowHpZero(rows[n], elf);
      assert forall y :: 0 <= y < n ==> rows[..n][y] == rows[y];
    }
  }

  /** Side `elf` has no units left. */
  ghost predicate NoUnits(m: Map, elf: bool)
    requires m.Valid()
  {
    forall x, y :: InBounds(m, x, y) ==> !IsEnemy(Cell(m, x, y), elf)
  }

  /** A side's total is zero exactly when it has no units left, since every unit is alive. */
  lemma SideHpZero(m: Map, elf: bool)
    requires WellFormed(m)
    ensures SideHp(m, elf) == 0 <==> NoUnits(m, elf)
  {
    RowsHpZero(m.rows, elf);
    assert forall x, y :: InBounds(m, x, y) ==> (TileHp(m.rows[y][x], elf) == 0 <==> !IsEnemy(Cell(m, x, y), elf));
  }

  /** The combat is over exactly when one side has no units left. */
  lemma IsOverNoUnits(m: Map)
    requires WellFormed(m)
    ensures IsOver(m) <==> NoUnits(m, true) || NoUnits(m, false)
  {
    SideHpZero(m, true);
    SideHpZero(m, false);
  }

  /** An attack never changes the attacker's side's total and never raises the victims' total. */
  lemma AttackHp(m: Map, x: int, y: int, elves: bool)
    requires WellFormed(m)
    ensures WellFormed(Attack(m, x, y, elves))
    ensures SideHp(Attack(m, x, y, elves), !elves) == SideHp(m, !elves)
    ensures SideHp(Attack(m, x, y, elves), elves) <= SideHp(m, elves)
  {
    AttackHitsWeakest(m, x, y, elves);
    var ns := Neighbors(x, y);
    if exists i :: 0 <= i < 4 && IsEnemy(TileAt(m, ns[i]), elves) {
      var i: nat :| i < 4 && Weakest(m, ns, elves, i) && Attack(m, x, y, elves) == Put(m, ns[i].0, ns[i].1, Hit(TileAt(m, ns[i])));
      assert InBounds(m, ns[i].0, ns[i].1);
      var t := Cell(m, ns[i].0, ns[i].1);
      PutHp(m, ns[i].0, ns[i].1, Hit(t), elves);
      PutHp(m, ns[i].0, ns[i].1, Hit(t), !elves);
    }
  }

  // ---------------------------------------------------------------------------------------
  // Scratch grids

  /** `iter_xy` terminates on the grid: a zero width with rows left never wraps to the next row. */
  predicate Scannable<T>(g: Grid<T>)
  {
    g.width > 0 || g.height == 0
  }

  /** `distances.get`: 0 outside the grid. */
  function Lab(dist: Grid<nat>, p: (int, int)): nat
    requires dist.Valid()
  {
    Get(dist, p.0, p.1, 0)
  }

  /** `targets.get`: false outside the grid. */
  predicate Marked(tg: Grid<bool>, p: (int, int))
    requires tg.Valid()
  {
    Get(tg, p.0, p.1, false)
  }

  /** An empty cell of the map, one a unit may step on. */
  predicate Open(m: Map, p: (int, int))
    requires m.Valid()
  {
    InBounds(m, p.0, p.1) && Cell(m, p.0, p.1) == Empty
  }

  /** Cell `q` holds a unit of side `elves` and comes before `c` in reading order. */
  predicate EnemyBeforeAt(m: Map, q: (int, int), elves: bool, c: (int, int))
    requires m.Valid()
  {
    IsEnemy(TileAt(m, q), elves) && Before(q, c)
  }

  /** Some neighbour of `p` holds a unit of side `elves` that comes before `c`. */
  predicate NearBefore(m: Map, p: (int, int), elves: bool, c: (int, int))
    requires m.Valid()
  {
    var ns := Neighbors(p.0, p.1);
    EnemyBeforeAt(m, ns[0], elves, c) || EnemyBeforeAt(m, ns[1], elves, c) ||
    EnemyBeforeAt(m, ns[2], elves, c) || EnemyBeforeAt(m, ns[3], elves, c)
  }

  /** Some neighbour of `p` holds a unit of side `elves`. */
  predicate NextToEnemy(m: Map, p: (int, int), elves: bool)
    requires m.Valid()
  {
    var ns := Neighbors(p.0, p.1);
    IsEnemy(TileAt(m, ns[0]), elves) || IsEnemy(TileAt(m, ns[1]), elves) ||
    IsEnemy(TileAt(m, ns[2]), elves) || IsEnemy(TileAt(m, ns[3]), elves)
  }

  /** One `targets.put(p, true)`: marks `p` when it is on the grid. */
  function MarkOne(tg: Grid<bool>, p: (int, int)): (r: Grid<bool>)
    requires tg.Valid()
    ensures r.Valid() && r.width == tg.width && r.height == tg.height
    ensures forall q: (int, int) :: Marked(r, q) <==> Marked(tg, q) || (InBounds(tg, p.0, p.1) && q == p)
  {
    MarkOneMarks(tg, p);
    Put(tg, p.0, p.1, true)
  }

  lemma MarkOneMarks(tg: Grid<bool>, p: (int, int))
    requires tg.Valid()
    ensures forall q: (int, int) :: Marked(Put(tg, p.0, p.1, true), q) <==> Marked(tg, q) || (InBounds(tg, p.0, p.1) && q == p)
  {
    forall q: (int, int)
      ensures Marked(Put(tg, p.0, p.1, true), q) <==> Marked(tg, q) || (InBounds(tg, p.0, p.1) && q == p)
    {
      PutGet(tg, p.0, p.1, true, q.0, q.1, false);
    }
  }

  /** The four `targets.put(.., true)` calls around (x, y); out-of-range ones do nothing. */
  function MarkAround(tg: Grid<bool>, x: int, y: int): (r: Grid<bool>)
    requires tg.Valid()
    ensures r.Valid() && r.width == tg.width && r.height == tg.height
    ensures forall p: (int, int) :: Marked(r, p) <==> Marked(tg, p) || (InBounds(tg, p.0, p.1) && p in Neighbors(x, y))
  {
    var ns := Neighbors(x, y);
    MarkFour(tg, ns[0], ns[1], ns[2], ns[3]);
    MarkOne(MarkOne(MarkOne(MarkOne(tg, ns[0]), ns[1]), ns[2]), ns[3])
  }

  lemma MarkFour(tg: Grid<bool>, a: (int, int), b: (int, int), c: (int, int), d: (int, int))
    requires tg.Valid()
    ensures forall p: (int, int) :: Marked(MarkOne(MarkOne(MarkOne(MarkOne(tg, a), b), c), d), p) <==>
              Marked(tg, p) || (InBounds(tg, p.0, p.1) && p in [a, b, c, d])
  {
  }

  /** Marks exactly the cells next to a unit of side `elves` that comes before `c` in reading order. */
  ghost predicate MarkedBefore(m: Map, tg: Grid<bool>, elves: bool, c: (int, int))
    requires Shaped(m, tg)
  {
    forall p: (int, int) {:trigger Marked(tg, p)} :: InBounds(m, p.0, p.1) ==> (Marked(tg, p) <==> NearBefore(m, p, elves, c))
  }

  /** Some unit of side `elves` comes before `c` in reading order. */
  ghost predicate EnemyBefore(m: Map, elves: bool, c: (int, int))
    requires m.Valid()
  {
    exists x, y :: InBounds(m, x, y) && Before((x, y), c) && IsEnemy(Cell(m, x, y), elves)
  }

  /** Moving the scan position past (x, y) adds exactly the neighbours of a unit standing there. */
  lemma NearBeforeStep(m: Map, p: (int, int), elves: bool, x: int, y: int)
    requires m.Valid() && InBounds(m, x, y)
    ensures NearBefore(m, p, elves, (x + 1, y)) <==>
              NearBefore(m, p, elves, (x, y)) || (IsEnemy(Cell(m, x, y), elves) && p in Neighbors(x, y))
  {
    assert TileAt(m, (x, y)) == Cell(m, x, y);
  }

  /** One iteration of the `mark_targets` loop, at cell (x, y). */
  lemma MarkStep(m: Map, tg: Grid<bool>, elves: bool, x: int, y: int)
    requires Shaped(m, tg) && InBounds(m, x, y) && MarkedBefore(m, tg, elves, (x, y))
    ensures IsEnemy(Cell(m, x, y), elves) ==> MarkedBefore(m, MarkAround(tg, x, y), elves, (x + 1, y))
    ensures !IsEnemy(Cell(m, x, y), elves) ==> MarkedBefore(m, tg, elves, (x + 1, y))
  {
    forall p: (int, int) | InBounds(m, p.0, p.1)
      ensures NearBefore(m, p, elves, (x + 1, y)) <==>
              NearBefore(m, p, elves, (x, y)) || (IsEnemy(Cell(m, x, y), elves) && p in Neighbors(x, y))
    {
      NearBeforeStep(m, p, elves, x, y);
    }
  }

  lemma EnemyBeforeStep(m: Map, elves: bool, x: int, y: int)
    requires m.Valid() && InBounds(m, x, y)
    ensures EnemyBefore(m, elves, (x + 1, y)) <==> EnemyBefore(m, elves, (x, y)) || IsEnemy(Cell(m, x, y), elves)
  {
    if EnemyBefore(m, elves, (x + 1, y)) {
      var x', y' :| InBounds(m, x', y') && Before((x', y'), (x + 1, y)) && IsEnemy(Cell(m, x', y'), elves);
      if (x', y') != (x, y) {
        assert Before((x', y'), (x, y));
      }
    }
  }

  /** The end of a row is the start of the next one. */
  lemma MarkRowEnd(m: Map, tg: Grid<bool>, elves: bool, y: int)
    requires Shaped(m, tg) && MarkedBefore(m, tg, elves, (m.width, y))
    ensures MarkedBefore(m, tg, elves, (0, y + 1))
    ensures EnemyBefore(m, elves, (m.width, y)) <==> EnemyBefore(m, elves, (0, y + 1))
  {
    forall p: (int, int) | InBounds(m, p.0, p.1)
      ensures NearBefore(m, p, elves, (m.width, y)) <==> NearBefore(m, p, elves, (0, y + 1))
    {
    }
  }

  /** After the last row every unit has been seen. */
  lemma MarkDone(m: Map, tg: Grid<bool>, elves: bool)
    requires Shaped(m, tg) && MarkedBefore(m, tg, elves, (0, m.height))
    ensures forall p: (int, int) {:trigger Marked(tg, p)} :: InBounds(m, p.0, p.1) ==> (Marked(tg, p) <==> NextToEnemy(m, p, elves))
    ensures EnemyBefore(m, elves, (0, m.height)) <==> !NoUnits(m, elves)
  {
    forall p: (int, int) | InBounds(m, p.0, p.1)
      ensures NearBefore(m, p, elves, (0, m.height)) <==> NextToEnemy(m, p, elves)
    {
    }
    if !NoUnits(m, elves) {
      var x, y :| InBounds(m, x, y) && IsEnemy(Cell(m, x, y), elves);
      assert Before((x, y), (0, m.height));
    }
  }

  /** Before the scan nothing is marked and no unit has been seen. */
  lemma MarkStart(m: Map, tg: Grid<bool>, elves: bool)
    requires Shaped(m, tg) && forall x, y :: InBounds(tg, x, y) ==> !Cell(tg, x, y)
    ensures MarkedBefore(m, tg, elves, (0, 0)) && !EnemyBefore(m, elves, (0, 0))
  {
  }

  /** One row of the `mark_targets` scan. */
  method MarkRow(m: Map, elves: bool, y: int, tg0: Grid<bool>, found0: bool) returns (tg: Grid<bool>, found: bool)
    requires Shaped(m, tg0) && 0 <= y < m.height
    requires found0 <==> EnemyBefore(m, elves, (0, y))
    requires MarkedBefore(m, tg0, elves, (0, y))
    ensures Shaped(m, tg)
    ensures found <==> EnemyBefore(m, elves, (m.width, y))
    ensures MarkedBefore(m, tg, elves, (m.width, y))
  {
    tg, found := tg0, found0;
    for x := 0 to m.width
      invariant Shaped(m, tg)
      invariant found <==> EnemyBefore(m, elves, (x, y))
      invariant MarkedBefore(m, tg, elves, (x, y))
    {
      MarkStep(m, tg, elves, x, y);
      EnemyBeforeStep(m, elves, x, y);
      if IsEnemy(At(m, x, y), elves) {
        found := true;
        tg := MarkAround(tg, x, y);
      }
    }
  }

  /**
   * `mark_targets`: marks every cell next to a unit of side `elves` and reports whether that
   * side has any unit at all.
   */
  method MarkTargets(m: Map, elves: bool) returns (tg: Grid<bool>, found: bool)
    requires m.Valid() && Scannable(m)
    ensures Shaped(m, tg)
    ensures found <==> !NoUnits(m, elves)
    ensures forall p: (int, int) {:trigger Marked(tg, p)} :: InBounds(m, p.0, p.1) ==> (Marked(tg, p) <==> NextToEnemy(m, p, elves))
  {
    tg := Generate(m.width, m.height, (_, _) => false);
    found := false;
    MarkStart(m, tg, elves);
    for y := 0 to m.height
      invariant Shaped(m, tg)
      invariant found <==> EnemyBefore(m, elves, (0, y))
      invariant MarkedBefore(m, tg, elves, (0, y))
    {
      tg, found := MarkRow(m, elves, y, tg, found);
      MarkRowEnd(m, tg, elves, y);
    }
    MarkDone(m, tg, elves);
  }

  // ---------------------------------------------------------------------------------------
  // Distances

  /** A walk the unit at (x, y) can take: each step onto a neighbouring empty cell. */
  ghost predicate IsPath(m: Map, x: int, y: int, s: seq<(int, int)>)
    requires m.Valid()
  {
    |s| > 0 && s[0] in Neighbors(x, y) &&
    (forall i :: 0 <= i < |s| ==> Open(m, s[i])) &&
    forall i :: 0 <= i < |s| - 1 ==> s[i + 1] in Neighbors(s[i].0, s[i].1)
  }

  /**
   * The distance labels so far, for a unit at (x, y): a labelled cell is empty, its label is at
   * most `top` and has the parity of the cell's offset from (x, y); label 1 sits next to (x, y),
   * and a larger label has a neighbour labelled one less.
   */
  ghost predicate Labelled(m: Map, dist: Grid<nat>, x: int, y: int, top: nat)
    requires Shaped(m, dist)
  {
    forall p: (int, int) {:trigger Lab(dist, p)} :: Lab(dist, p) > 0 ==> LabelOk(m, dist, x, y, top, p)
  }

  /**
   * The label of `p` is consistent: an empty cell, at most `top`, of the parity of its distance
   * from the start, next to the start when it is 1, and next to a cell one lower otherwise.
   */
  ghost predicate LabelOk(m: Map, dist: Grid<nat>, x: int, y: int, top: nat, p: (int, int))
    requires Shaped(m, dist)
  {
    Open(m, p) && Lab(dist, p) <= top && (Lab(dist, p) + p.0 + p.1 + x + y) % 2 == 0 &&
    (Lab(dist, p) == 1 ==> p in Neighbors(x, y)) &&
    (Lab(dist, p) > 1 ==> exists q :: q in Neighbors(p.0, p.1) && Lab(dist, q) == Lab(dist, p) - 1)
  }

  /** Cell `q`, if empty, is labelled and its label is at most `l + 1`. */
  predicate ReachedFrom(m: Map, dist: Grid<nat>, q: (int, int), l: nat)
    requires Shaped(m, dist)
  {
    Open(m, q) ==> 0 < Lab(dist, q) <= l + 1
  }

  /** Every empty neighbour of `p` is labelled, at most one more than `l`. */
  predicate Expanded(m: Map, dist: Grid<nat>, p: (int, int), l: nat)
    requires Shaped(m, dist)
  {
    var ns := Neighbors(p.0, p.1);
    ReachedFrom(m, dist, ns[0], l) && ReachedFrom(m, dist, ns[1], l) &&
    ReachedFrom(m, dist, ns[2], l) && ReachedFrom(m, dist, ns[3], l)
  }

  /** Every cell labelled at most `c` has been expanded. */
  ghost predicate Closed(m: Map, dist: Grid<nat>, c: int)
    requires Shaped(m, dist)
  {
    forall p: (int, int) {:trigger Lab(dist, p)} :: 0 < Lab(dist, p) <= c ==> Expanded(m, dist, p, Lab(dist, p))
  }

  /** Labels only grow from 0: a labelled cell keeps its label. */
  ghost predicate Keeps(dist0: Grid<nat>, dist: Grid<nat>)
    requires dist0.Valid() && dist.Valid()
  {
    forall q: (int, int) {:trigger Lab(dist, q)} {:trigger Lab(dist0, q)} :: Lab(dist0, q) > 0 ==> Lab(dist, q) == Lab(dist0, q)
  }

  /** The state of `ExpandCell` after the first `i` neighbours `ns[..i]`. */
  ghost predicate CellInv(m: Map, tg: Grid<bool>, dist0: Grid<nat>, dist: Grid<nat>, ns: seq<(int, int)>, d: nat, i: nat, reached: bool)
    requires Shaped(m, dist0) && Shaped(m, tg) && i <= |ns|
  {
    Shaped(m, dist) && Keeps(dist0, dist) &&
    (forall q: (int, int) {:trigger Lab(dist, q)} :: Lab(dist0, q) == 0 && Lab(dist, q) > 0 ==>
       (Lab(dist, q) == d + 1 && Open(m, q) && q in ns[..i])) &&
    (forall j :: 0 <= j < i && Open(m, ns[j]) ==> Lab(dist, ns[j]) > 0) &&
    (reached <==> exists q: (int, int) {:trigger Lab(dist, q)} :: Lab(dist0, q) == 0 && Lab(dist, q) > 0 && Marked(tg, q))
  }

  /** Labelling the empty unlabelled neighbour `ns[i]` with `d + 1` extends the invariant by one neighbour. */
  lemma CellLabel(m: Map, tg: Grid<bool>, dist0: Grid<nat>, dist: Grid<nat>, ns: seq<(int, int)>, d: nat, i: nat, reached: bool)
    requires Shaped(m, dist0) && Shaped(m, tg) && i < |ns|
    requires CellInv(m, tg, dist0, dist, ns, d, i, reached)
    requires TileAt(m, ns[i]) == Empty && Lab(dist, ns[i]) == 0
    ensures CellInv(m, tg, dist0, Put(dist, ns[i].0, ns[i].1, d + 1), ns, d, i + 1, reached || Marked(tg, ns[i]))
  {
    var q := ns[i];
    var dist' := Put(dist, q.0, q.1, d + 1);
    assert ns[..i + 1] == ns[..i] + [q];
    forall r: (int, int)
      ensures Lab(dist', r) == if r == q && InBounds(dist, q.0, q.1) then d + 1 else Lab(dist, r)
    {
      PutGet(dist, q.0, q.1, d + 1, r.0, r.1, 0);
    }
  }

  /** Skipping a neighbour that is not empty, or already labelled, keeps the invariant. */
  lemma CellSkip(m: Map, tg: Grid<bool>, dist0: Grid<nat>, dist: Grid<nat>, ns: seq<(int, int)>, d: nat, i: nat, reached: bool)
    requires Shaped(m, dist0) && Shaped(m, tg) && i < |ns|
    requires CellInv(m, tg, dist0, dist, ns, d, i, reached)
    requires !(TileAt(m, ns[i]) == Empty && Lab(dist, ns[i]) == 0)
    ensures CellInv(m, tg, dist0, dist, ns, d, i + 1, reached)
  {
    assert ns[..i + 1] == ns[..i] + [ns[i]];
  }

  /**
   * One `for (x, y) in neighbors(x, y)` pass of the distance fill around `p`: every empty
   * unlabelled neighbour gets `d + 1`; `reached` says whether one of them is a target.
   */
  method ExpandCell(m: Map, tg: Grid<bool>, dist0: Grid<nat>, p: (int, int), d: nat) returns (dist: Grid<nat>, reached: bool)
    requires Shaped(m, dist0) && Shaped(m, tg)
    ensures Shaped(m, dist) && Keeps(dist0, dist)
    ensures forall q: (int, int) {:trigger Lab(dist, q)} :: Lab(dist0, q) == 0 && Lab(dist, q) > 0 ==>
              (Lab(dist, q) == d + 1 && Open(m, q) && q in Neighbors(p.0, p.1))
    ensures forall i :: 0 <= i < 4 && Open(m, Neighbors(p.0, p.1)[i]) ==> Lab(dist, Neighbors(p.0, p.1)[i]) > 0
    ensures reached <==> exists q: (int, int) {:trigger Lab(dist, q)} :: Lab(dist0, q) == 0 && Lab(dist, q) > 0 && Marked(tg, q)
  {
    dist, reached := dist0, false;
    var ns := Neighbors(p.0, p.1);
    for i := 0 to 4
      invariant CellInv(m, tg, dist0, dist, ns, d, i, reached)
    {
      var q := ns[i];
      if TileAt(m, q) == Empty && Lab(dist, q) == 0 {
        CellLabel(m, tg, dist0, dist, ns, d, i, reached);
        dist := Put(dist, q.0, q.1, d + 1);
        if Marked(tg, q) {
          reached := true;
        }
      } else {
        CellSkip(m, tg, dist0, dist, ns, d, i, reached);
      }
    }
    assert ns[..4] == ns;
  }

  /** Every label `dist` adds to `dist0` is `d + 1`, on an empty cell next to a cell labelled `d`. */
  ghost predicate NewLabels(m: Map, dist0: Grid<nat>, dist: Grid<nat>, d: nat)
    requires Shaped(m, dist0) && Shaped(m, dist)
  {
    forall q: (int, int) {:trigger Lab(dist, q)} :: Lab(dist0, q) == 0 && Lab(dist, q) > 0 ==>
      (Lab(dist, q) == d + 1 && Open(m, q) && exists r :: r in Neighbors(q.0, q.1) && Lab(dist0, r) == d)
  }

  /** Some cell labelled 0 in `dist0` is labelled in `dist` and is a target. */
  ghost predicate NewTarget(tg: Grid<bool>, dist0: Grid<nat>, dist: Grid<nat>)
    requires tg.Valid() && dist0.Valid() && dist.Valid()
  {
    exists q: (int, int) {:trigger Lab(dist, q)} :: Lab(dist0, q) == 0 && Lab(dist, q) > 0 && Marked(tg, q)
  }

  /** Some cell before `c` in reading order is labelled `d`. */
  ghost predicate LabelBefore(dist: Grid<nat>, d: nat, c: (int, int))
    requires dist.Valid()
  {
    exists p: (int, int) {:trigger Lab(dist, p)} :: Lab(dist, p) == d && Before(p, c)
  }

  /** The state of one round of the distance fill when the scan has reached `c`. */
  ghost predicate RoundInv(m: Map, tg: Grid<bool>, dist0: Grid<nat>, dist: Grid<nat>, d: nat, c: (int, int), found: bool, reached: bool)
    requires Shaped(m, tg) && Shaped(m, dist0)
  {
    Shaped(m, dist) && Keeps(dist0, dist) && NewLabels(m, dist0, dist, d) &&
    (forall p: (int, int) {:trigger Lab(dist0, p)} :: Lab(dist0, p) == d && Before(p, c) ==> Expanded(m, dist, p, d)) &&
    (found <==> LabelBefore(dist0, d, c)) &&
    (reached <==> NewTarget(tg, dist0, dist))
  }

  lemma ExpandedKeeps(m: Map, dist: Grid<nat>, dist': Grid<nat>, p: (int, int), l: nat)
    requires Shaped(m, dist) && Shaped(m, dist') && Keeps(dist, dist') && Expanded(m, dist, p, l)
    ensures Expanded(m, dist', p, l)
  {
    var ns := Neighbors(p.0, p.1);
    assert Lab(dist, ns[0]) > 0 ==> Lab(dist', ns[0]) == Lab(dist, ns[0]);
    assert Lab(dist, ns[1]) > 0 ==> Lab(dist', ns[1]) == Lab(dist, ns[1]);
    assert Lab(dist, ns[2]) > 0 ==> Lab(dist', ns[2]) == Lab(dist, ns[2]);
    assert Lab(dist, ns[3]) > 0 ==> Lab(dist', ns[3]) == Lab(dist, ns[3]);
  }

  lemma KeepsTrans(dist0: Grid<nat>, dist: Grid<nat>, dist': Grid<nat>)
    requires dist0.Valid() && dist.Valid() && dist'.Valid() && Keeps(dist0, dist) && Keeps(dist, dist')
    ensures Keeps(dist0, dist')
  {
    forall q: (int, int) | Lab(dist0, q) > 0
      ensures Lab(dist', q) == Lab(dist0, q)
    {
      assert Lab(dist, q) == Lab(dist0, q);
    }
  }

  /** The labels one expansion of the cell c (labelled d) adds keep `NewLabels`. */
  lemma NewLabelsStep(m: Map, dist0: Grid<nat>, dist: Grid<nat>, dist': Grid<nat>, d: nat, c: (int, int))
    requires Shaped(m, dist0) && Shaped(m, dist) && Shaped(m, dist')
    requires Keeps(dist0, dist) && Keeps(dist, dist') && NewLabels(m, dist0, dist, d) && Lab(dist0, c) == d
    requires forall q: (int, int) {:trigger Lab(dist', q)} :: Lab(dist, q) == 0 && Lab(dist', q) > 0 ==>
               (Lab(dist', q) == d + 1 && Open(m, q) && q in Neighbors(c.0, c.1))
    ensures NewLabels(m, dist0, dist', d)
  {
    forall q: (int, int) | Lab(dist0, q) == 0 && Lab(dist', q) > 0
      ensures Lab(dist', q) == d + 1 && Open(m, q) && exists r :: r in Neighbors(q.0, q.1) && Lab(dist0, r) == d
    {
      if Lab(dist, q) > 0 {
        assert Lab(dist', q) == Lab(dist, q);
      } else {
        NeighborsSymmetric(c, q);
        assert c in Neighbors(q.0, q.1) && Lab(dist0, c) == d;
      }
    }
  }

  /** After expanding c, every cell labelled d up to and including c is expanded. */
  lemma ExpandedStep(m: Map, dist0: Grid<nat>, dist: Grid<nat>, dist': Grid<nat>, d: nat, x: int, y: int)
    requires Shaped(m, dist0) && Shaped(m, dist) && Shaped(m, dist') && Keeps(dist, dist')
    requires forall p: (int, int) {:trigger Lab(dist0, p)} :: Lab(dist0, p) == d && Before(p, (x, y)) ==> Expanded(m, dist, p, d)
    requires Lab(dist0, (x, y)) == d ==> forall i :: 0 <= i < 4 && Open(m, Neighbors(x, y)[i]) ==> 0 < Lab(dist', Neighbors(x, y)[i]) <= d + 1
    ensures forall p: (int, int) {:trigger Lab(dist0, p)} :: Lab(dist0, p) == d && Before(p, (x + 1, y)) ==> Expanded(m, dist', p, d)
  {
    forall p: (int, int) | Lab(dist0, p) == d && Before(p, (x + 1, y))
      ensures Expanded(m, dist', p, d)
    {
      if p == (x, y) {
        var ns := Neighbors(x, y);
        assert Open(m, ns[0]) ==> 0 < Lab(dist', ns[0]) <= d + 1;
        assert Open(m, ns[1]) ==> 0 < Lab(dist', ns[1]) <= d + 1;
        assert Open(m, ns[2]) ==> 0 < Lab(dist', ns[2]) <= d + 1;
        assert Open(m, ns[3]) ==> 0 < Lab(dist', ns[3]) <= d + 1;
      } else {
        assert Before(p, (x, y));
        ExpandedKeeps(m, dist, dist', p, d);
      }
    }
  }

  lemma LabelBeforeStep(dist: Grid<nat>, d: nat, x: int, y: int)
    requires dist.Valid()
    ensures LabelBefore(dist, d, (x + 1, y)) <==> LabelBefore(dist, d, (x, y)) || Lab(dist, (x, y)) == d
  {
    if LabelBefore(dist, d, (x + 1, y)) {
      var p: (int, int) :| Lab(dist, p) == d && Before(p, (x + 1, y));
      if p != (x, y) {
        assert Before(p, (x, y));
      }
    }
  }

  lemma NewTargetStep(tg: Grid<bool>, dist0: Grid<nat>, dist: Grid<nat>, dist': Grid<nat>)
    requires tg.Valid() && dist0.Valid() && dist.Valid() && dist'.Valid() && Keeps(dist0, dist) && Keeps(dist, dist')
    ensures NewTarget(tg, dist0, dist') <==> NewTarget(tg, dist0, dist) || NewTarget(tg, dist, dist')
  {
    if NewTarget(tg, dist0, dist') {
      var q: (int, int) :| Lab(dist0, q) == 0 && Lab(dist', q) > 0 && Marked(tg, q);
      if Lab(dist, q) > 0 {
        assert NewTarget(tg, dist0, dist);
      } else {
        assert NewTarget(tg, dist, dist');
      }
    }
    if NewTarget(tg, dist0, dist) {
      var q: (int, int) :| Lab(dist0, q) == 0 && Lab(dist, q) > 0 && Marked(tg, q);
      assert Lab(dist', q) > 0;
    }
    if NewTarget(tg, dist, dist') {
      var q: (int, int) :| Lab(dist, q) == 0 && Lab(dist', q) > 0 && Marked(tg, q);
      assert Lab(dist0, q) == 0;
    }
  }

  /** The labels of `dist0` are at most `d`. */
  ghost predicate AtMost(dist0: Grid<nat>, d: nat)
    requires dist0.Valid()
  {
    forall q: (int, int) {:trigger Lab(dist0, q)} :: Lab(dist0, q) <= d
  }

  /** One iteration of the round's scan, at cell (x, y). */
  lemma RoundStep(m: Map, tg: Grid<bool>, dist0: Grid<nat>, dist: Grid<nat>, dist': Grid<nat>, d: nat, x: int, y: int,
                  found: bool, reached: bool, r: bool)
    requires Shaped(m, tg) && Shaped(m, dist0) && InBounds(m, x, y) && AtMost(dist0, d) && d >= 1
    requires RoundInv(m, tg, dist0, dist, d, (x, y), found, reached)
    requires Lab(dist, (x, y)) != d ==> dist' == dist && !r
    requires Lab(dist, (x, y)) == d ==> (
      Shaped(m, dist') && Keeps(dist, dist') &&
      (forall q: (int, int) {:trigger Lab(dist', q)} :: Lab(dist, q) == 0 && Lab(dist', q) > 0 ==>
        (Lab(dist', q) == d + 1 && Open(m, q) && q in Neighbors(x, y))) &&
      (forall i :: 0 <= i < 4 && Open(m, Neighbors(x, y)[i]) ==> Lab(dist', Neighbors(x, y)[i]) > 0) &&
      (r <==> NewTarget(tg, dist, dist')))
    ensures RoundInv(m, tg, dist0, dist', d, (x + 1, y), found || Lab(dist, (x, y)) == d, reached || r)
  {
    var c := (x, y);
    LabelBeforeStep(dist0, d, x, y);
    if Lab(dist, c) == d {
      assert Lab(dist0, c) == d;
      KeepsTrans(dist0, dist, dist');
      NewLabelsStep(m, dist0, dist, dist', d, c);
      forall i | 0 <= i < 4 && Open(m, Neighbors(x, y)[i])
        ensures 0 < Lab(dist', Neighbors(x, y)[i]) <= d + 1
      {
        var q := Neighbors(x, y)[i];
        assert Lab(dist0, q) <= d;
        if Lab(dist0, q) > 0 {
          assert Lab(dist', q) == Lab(dist0, q);
        }
      }
      ExpandedStep(m, dist0, dist, dist', d, x, y);
      NewTargetStep(tg, dist0, dist, dist');
    } else {
      assert Lab(dist0, c) != d by {
        if Lab(dist0, c) > 0 {
          assert Lab(dist, c) == Lab(dist0, c);
        }
      }
      ExpandedStep(m, dist0, dist, dist', d, x, y);
    }
  }

  /** The scan's position runs past the end of a row onto the start of the next. */
  lemma RoundRowEnd(m: Map, tg: Grid<bool>, dist0: Grid<nat>, dist: Grid<nat>, d: nat, y: int, found: bool, reached: bool)
    requires Shaped(m, tg) && Shaped(m, dist0) && d >= 1
    requires RoundInv(m, tg, dist0, dist, d, (m.width, y), found, reached)
    ensures RoundInv(m, tg, dist0, dist, d, (0, y + 1), found, reached)
  {
    forall p: (int, int) | Lab(dist0, p) == d
      ensures Before(p, (m.width, y)) <==> Before(p, (0, y + 1))
    {
    }
    if LabelBefore(dist0, d, (0, y + 1)) {
      var p: (int, int) :| Lab(dist0, p) == d && Before(p, (0, y + 1));
      assert Before(p, (m.width, y));
    }
    if LabelBefore(dist0, d, (m.width, y)) {
      var p: (int, int) :| Lab(dist0, p) == d && Before(p, (m.width, y));
      assert Before(p, (0, y + 1));
    }
  }

  /**
   * One `for (x, y) in self.map.iter_xy()` round of the distance fill at distance `d`: every
   * cell labelled `d` is expanded. `found` says whether there was one, `reached` whether a
   * target got labelled.
   */
  method ExpandRound(m: Map, tg: Grid<bool>, dist0: Grid<nat>, d: nat) returns (dist: Grid<nat>, found: bool, reached: bool)
    requires Shaped(m, tg) && Shaped(m, dist0) && Scannable(m) && d >= 1 && AtMost(dist0, d)
    ensures RoundInv(m, tg, dist0, dist, d, (0, m.height), found, reached)
  {
    dist, found, reached := dist0, false, false;
    for y := 0 to m.height
      invariant RoundInv(m, tg, dist0, dist, d, (0, y), found, reached)
    {
      dist, found, reached := ExpandRow(m, tg, dist0, d, y, dist, found, reached);
      RoundRowEnd(m, tg, dist0, dist, d, y, found, reached);
    }
  }

  /** One row of a round of the distance fill. */
  method ExpandRow(m: Map, tg: Grid<bool>, dist0: Grid<nat>, d: nat, y: int, dist1: Grid<nat>, found1: bool, reached1: bool)
    returns (dist: Grid<nat>, found: bool, reached: bool)
    requires Shaped(m, tg) && Shaped(m, dist0) && d >= 1 && AtMost(dist0, d) && 0 <= y < m.height
    requires RoundInv(m, tg, dist0, dist1, d, (0, y), found1, reached1)
    ensures RoundInv(m, tg, dist0, dist, d, (m.width, y), found, reached)
  {
    dist, found, reached := dist1, found1, reached1;
    for x := 0 to m.width
      invariant RoundInv(m, tg, dist0, dist, d, (x, y), found, reached)
    {
      if Lab(dist, (x, y)) == d {
        var dist', r := ExpandCell(m, tg, dist, (x, y), d);
        RoundStep(m, tg, dist0, dist, dist', d, x, y, found, reached, r);
        dist, found, reached := dist', true, reached || r;
      } else {
        RoundStep(m, tg, dist0, dist, dist, d, x, y, found, reached, false);
      }
    }
  }

  lemma LabelledAtMost(m: Map, dist: Grid<nat>, x: int, y: int, top: nat)
    requires Shaped(m, dist) && Labelled(m, dist, x, y, top)
    ensures AtMost(dist, top)
  {
    forall q: (int, int)
      ensures Lab(dist, q) <= top
    {
      if Lab(dist, q) > 0 {
      }
    }
  }

  /** Stepping to a neighbour changes the coordinate sum by one, so it flips the parity. */
  lemma NeighborParity(p: (int, int), r: (int, int), k: int)
    requires r in Neighbors(p.0, p.1) && (k + r.0 + r.1) % 2 == 0
    ensures (k + 1 + p.0 + p.1) % 2 == 0
  {
    assert r.0 + r.1 == p.0 + p.1 + 1 || r.0 + r.1 == p.0 + p.1 - 1;
  }

  lemma OldLabelOk(m: Map, dist0: Grid<nat>, dist: Grid<nat>, x: int, y: int, d: nat, p: (int, int))
    requires Shaped(m, dist0) && Shaped(m, dist)
    requires LabelOk(m, dist0, x, y, d, p) && Keeps(dist0, dist) && Lab(dist0, p) > 0
    ensures LabelOk(m, dist, x, y, d + 1, p)
  {
    if Lab(dist, p) > 1 {
      var q :| q in Neighbors(p.0, p.1) && Lab(dist0, q) == Lab(dist0, p) - 1;
      assert Lab(dist, q) == Lab(dist0, q);
    }
  }

  lemma NewLabelOk(m: Map, dist0: Grid<nat>, dist: Grid<nat>, x: int, y: int, d: nat, p: (int, int), r: (int, int))
    requires Shaped(m, dist0) && Shaped(m, dist) && d >= 1
    requires Lab(dist, p) == d + 1 && Open(m, p) && r in Neighbors(p.0, p.1) && Lab(dist0, r) == d
    requires LabelOk(m, dist0, x, y, d, r) && Keeps(dist0, dist)
    ensures LabelOk(m, dist, x, y, d + 1, p)
  {
    assert Lab(dist, r) == d;
    NeighborParity(p, r, d + x + y);
  }

  lemma RoundLabelledAt(m: Map, dist0: Grid<nat>, dist: Grid<nat>, x: int, y: int, d: nat, p: (int, int))
    requires Shaped(m, dist0) && Shaped(m, dist) && d >= 1
    requires Labelled(m, dist0, x, y, d) && Keeps(dist0, dist) && NewLabels(m, dist0, dist, d)
    requires Lab(dist, p) > 0
    ensures LabelOk(m, dist, x, y, d + 1, p)
  {
    if Lab(dist0, p) > 0 {
      OldLabelOk(m, dist0, dist, x, y, d, p);
    } else {
      var r :| r in Neighbors(p.0, p.1) && Lab(dist0, r) == d;
      NewLabelOk(m, dist0, dist, x, y, d, p, r);
    }
  }

  /** A round keeps the labels consistent, one level higher. */
  lemma RoundLabelled(m: Map, dist0: Grid<nat>, dist: Grid<nat>, x: int, y: int, d: nat)
    requires Shaped(m, dist0) && Shaped(m, dist) && d >= 1
    requires Labelled(m, dist0, x, y, d) && Keeps(dist0, dist) && NewLabels(m, dist0, dist, d)
    ensures Labelled(m, dist, x, y, d + 1)
  {
    forall p: (int, int) | Lab(dist, p) > 0
      ensures LabelOk(m, dist, x, y, d + 1, p)
    {
      RoundLabelledAt(m, dist0, dist, x, y, d, p);
    }
  }

  /** After the round of level `d`, every cell labelled at most `d` is expanded. */
  lemma RoundClosed(m: Map, dist0: Grid<nat>, dist: Grid<nat>, d: nat)
    requires Shaped(m, dist0) && Shaped(m, dist) && d >= 1
    requires Closed(m, dist0, d - 1) && Keeps(dist0, dist) && NewLabels(m, dist0, dist, d)
    requires forall p: (int, int) {:trigger Lab(dist0, p)} :: Lab(dist0, p) == d && Before(p, (0, m.height)) ==> Expanded(m, dist, p, d)
    ensures Closed(m, dist, d)
  {
    forall p: (int, int) | 0 < Lab(dist, p) <= d
      ensures Expanded(m, dist, p, Lab(dist, p))
    {
      assert Lab(dist0, p) > 0;
      assert Lab(dist, p) == Lab(dist0, p);
      if Lab(dist0, p) < d {
        ExpandedKeeps(m, dist0, dist, p, Lab(dist0, p));
      } else {
        assert Before(p, (0, m.height));
      }
    }
  }

  /** A round that found no cell at level `d` added no label. */
  lemma RoundEmpty(m: Map, dist0: Grid<nat>, dist: Grid<nat>, d: nat)
    requires Shaped(m, dist0) && Shaped(m, dist) && d >= 1
    requires NewLabels(m, dist0, dist, d) && !LabelBefore(dist0, d, (0, m.height))
    ensures forall p: (int, int) {:trigger Lab(dist, p)} :: Lab(dist, p) > 0 ==> Lab(dist0, p) > 0
  {
    forall p: (int, int) | Lab(dist, p) > 0
      ensures Lab(dist0, p) > 0
    {
    }
  }

  /** The coordinates of unlabelled cells. */
  ghost function Unlabelled(m: Map, dist: Grid<nat>): set<(int, int)>
    requires Shaped(m, dist)
  {
    set x, y | 0 <= x < m.width && 0 <= y < m.height && Lab(dist, (x, y)) == 0 :: (x, y)
  }

  /** Labelling a cell makes the unlabelled set strictly smaller. */
  lemma UnlabelledShrinks(m: Map, dist0: Grid<nat>, dist: Grid<nat>, p: (int, int))
    requires Shaped(m, dist0) && Shaped(m, dist) && Keeps(dist0, dist)
    requires Lab(dist0, p) == 0 && Lab(dist, p) > 0
    ensures |Unlabelled(m, dist)| < |Unlabelled(m, dist0)|
  {
    var u0, u := Unlabelled(m, dist0), Unlabelled(m, dist);
    assert u <= u0 - {p} by {
      forall q | q in u
        ensures q in u0 && q != p
      {
      }
    }
    assert p in u0;
    SubsetSize(u, u0 - {p});
  }

  lemma UnlabelledKeeps(m: Map, dist0: Grid<nat>, dist: Grid<nat>)
    requires Shaped(m, dist0) && Shaped(m, dist) && Keeps(dist0, dist)
    ensures |Unlabelled(m, dist)| <= |Unlabelled(m, dist0)|
  {
    var u0, u := Unlabelled(m, dist0), Unlabelled(m, dist);
    assert u <= u0 by {
      forall q | q in u
        ensures q in u0
      {
      }
    }
    SubsetSize(u, u0);
  }

  /** `iter_xy` search for the first cell in reading order labelled `l` that is a target. */
  method FirstLabelled(m: Map, tg: Grid<bool>, dist: Grid<nat>, l: nat) returns (r: Option<(int, int)>)
    requires Shaped(m, tg) && Shaped(m, dist) && Scannable(m) && l >= 1
    ensures r.Some? ==> Lab(dist, r.value) == l && Marked(tg, r.value)
    ensures r.Some? ==> forall p: (int, int) {:trigger Lab(dist, p)} :: Lab(dist, p) == l && Marked(tg, p) ==> !Before(p, r.value)
    ensures r.None? ==> forall p: (int, int) {:trigger Lab(dist, p)} :: Lab(dist, p) == l ==> !Marked(tg, p)
  {
    for y := 0 to m.height
      invariant forall p: (int, int) {:trigger Lab(dist, p)} :: Lab(dist, p) == l && Marked(tg, p) ==> !Before(p, (0, y))
    {
      for x := 0 to m.width
        invariant forall p: (int, int) {:trigger Lab(dist, p)} :: Lab(dist, p) == l && Marked(tg, p) ==> !Before(p, (x, y))
      {
        if Lab(dist, (x, y)) == l && Marked(tg, (x, y)) {
          return Some((x, y));
        }
      }
    }
    r := None;
  }

  // ---------------------------------------------------------------------------------------
  // Paths and the distance fill

  lemma ExpandedAt(m: Map, dist: Grid<nat>, p: (int, int), l: nat, q: (int, int))
    requires Shaped(m, dist) && Expanded(m, dist, p, l) && q in Neighbors(p.0, p.1)
    ensures ReachedFrom(m, dist, q, l)
  {
  }

  /** With the start expanded and levels up to `c` closed, step `i` of a path has a label at most `i + 1`. */
  lemma {:induction false} PathLabels(m: Map, dist: Grid<nat>, x: int, y: int, c: nat, s: seq<(int, int)>, i: nat)
    requires Shaped(m, dist) && Expanded(m, dist, (x, y), 0) && Closed(m, dist, c) && IsPath(m, x, y, s)
    requires i < |s| && i <= c
    ensures 0 < Lab(dist, s[i]) <= i + 1
  {
    if i == 0 {
      ExpandedAt(m, dist, (x, y), 0, s[0]);
    } else {
      PathLabels(m, dist, x, y, c, s, i - 1);
      ExpandedAt(m, dist, s[i - 1], Lab(dist, s[i - 1]), s[i]);
    }
  }

  /** When no label exceeds the closed level `c`, every path stays within the labelled cells. */
  lemma {:induction false} PathsLabelled(m: Map, dist: Grid<nat>, x: int, y: int, c: nat, s: seq<(int, int)>, i: nat)
    requires Shaped(m, dist) && Expanded(m, dist, (x, y), 0) && Closed(m, dist, c) && AtMost(dist, c) && IsPath(m, x, y, s)
    requires i < |s|
    ensures Lab(dist, s[i]) > 0
  {
    if i == 0 {
      ExpandedAt(m, dist, (x, y), 0, s[0]);
    } else {
      PathsLabelled(m, dist, x, y, c, s, i - 1);
      ExpandedAt(m, dist, s[i - 1], Lab(dist, s[i - 1]), s[i]);
    }
  }

  /** Consistent labels witness a path of exactly the label's length from the start. */
  lemma {:induction false} PathBack(m: Map, dist: Grid<nat>, x: int, y: int, top: nat, t: (int, int)) returns (s: seq<(int, int)>)
    requires Shaped(m, dist) && Labelled(m, dist, x, y, top) && Lab(dist, t) > 0
    ensures IsPath(m, x, y, s) && |s| == Lab(dist, t) && s[|s| - 1] == t
    decreases Lab(dist, t)
  {
    assert LabelOk(m, dist, x, y, top, t);
    if Lab(dist, t) == 1 {
      s := [t];
    } else {
      var q :| q in Neighbors(t.0, t.1) && Lab(dist, q) == Lab(dist, t) - 1;
      var s' := PathBack(m, dist, x, y, top, q);
      NeighborsSymmetric(t, q);
      s := s' + [t];
      forall i | 0 <= i < |s| - 1
        ensures s[i + 1] in Neighbors(s[i].0, s[i].1)
      {
        if i < |s'| - 1 {
          assert s[i] == s'[i] && s[i + 1] == s'[i + 1];
        }
      }
    }
  }

  /** No target lies on a path shorter than `len`, nor on one as long that ends before `t`. */
  ghost predicate NoCloser(m: Map, tg: Grid<bool>, x: int, y: int, t: (int, int), len: nat)
    requires Shaped(m, tg)
  {
    forall s :: IsPath(m, x, y, s) && Marked(tg, s[|s| - 1]) ==>
      (|s| >= len && (|s| == len ==> !Before(s[|s| - 1], t)))
  }

  /** What `fill_distance_to_targets` promises about the target `t` it returns. */
  ghost predicate Nearest(m: Map, tg: Grid<bool>, dist: Grid<nat>, x: int, y: int, t: (int, int))
    requires Shaped(m, tg) && Shaped(m, dist)
  {
    Open(m, t) && Marked(tg, t) && Lab(dist, t) >= 1 &&
    Labelled(m, dist, x, y, Lab(dist, t)) && Closed(m, dist, Lab(dist, t) - 1) &&
    (Lab(dist, t) > 1 ==> Expanded(m, dist, (x, y), 0)) &&
    NoCloser(m, tg, x, y, t, Lab(dist, t))
  }

  /** Every labelled cell that is a target carries `t`'s label and does not come before `t`. */
  lemma LabelledTargets(m: Map, tg: Grid<bool>, dist: Grid<nat>, x: int, y: int, t: (int, int))
    requires Shaped(m, tg) && Shaped(m, dist) && Lab(dist, t) >= 1
    requires Expanded(m, dist, (x, y), 0) && Closed(m, dist, Lab(dist, t) - 1)
    requires forall p: (int, int) {:trigger Lab(dist, p)} :: Lab(dist, p) > 0 && Marked(tg, p) ==> Lab(dist, p) == Lab(dist, t) && !Before(p, t)
    ensures NoCloser(m, tg, x, y, t, Lab(dist, t))
  {
    forall s | IsPath(m, x, y, s) && Marked(tg, s[|s| - 1])
      ensures |s| >= Lab(dist, t) && (|s| == Lab(dist, t) ==> !Before(s[|s| - 1], t))
    {
      if |s| <= Lab(dist, t) {
        PathLabels(m, dist, x, y, Lab(dist, t) - 1, s, |s| - 1);
      }
    }
  }

  /** The first ring: the labels are 1, on the empty neighbours among the first `i`. */
  ghost predicate RingLabels(m: Map, dist: Grid<nat>, x: int, y: int, i: nat)
    requires Shaped(m, dist) && i <= 4
  {
    forall p: (int, int) {:trigger Lab(dist, p)} :: Lab(dist, p) > 0 ==>
      (Lab(dist, p) == 1 && Open(m, p) && p in Neighbors(x, y)[..i])
  }

  /** ... none of them a target, and every empty one among the first `i` is labelled. */
  ghost predicate RingInv(m: Map, tg: Grid<bool>, dist: Grid<nat>, x: int, y: int, i: nat)
    requires Shaped(m, tg) && Shaped(m, dist) && i <= 4
  {
    RingLabels(m, dist, x, y, i) &&
    (forall p: (int, int) {:trigger Lab(dist, p)} :: Lab(dist, p) > 0 ==> !Marked(tg, p)) &&
    (forall j :: 0 <= j < i && Open(m, Neighbors(x, y)[j]) ==> Lab(dist, Neighbors(x, y)[j]) == 1)
  }

  lemma RingLabelled(m: Map, dist: Grid<nat>, x: int, y: int, i: nat)
    requires Shaped(m, dist) && i <= 4 && RingLabels(m, dist, x, y, i)
    ensures Labelled(m, dist, x, y, 1)
  {
    forall p: (int, int) | Lab(dist, p) > 0
      ensures LabelOk(m, dist, x, y, 1, p)
    {
      NeighborsSymmetric(p, (x, y));
      NeighborParity(p, (x, y), x + y);
    }
  }

  /** A target in the first ring is the nearest one when no earlier neighbour was a target. */
  lemma RingNearest(m: Map, tg: Grid<bool>, dist: Grid<nat>, x: int, y: int, i: nat)
    requires Shaped(m, tg) && Shaped(m, dist) && i < 4 && RingInv(m, tg, dist, x, y, i)
    requires Open(m, Neighbors(x, y)[i]) && Marked(tg, Neighbors(x, y)[i])
    ensures NoCloser(m, tg, x, y, Neighbors(x, y)[i], 1)
  {
    var ns := Neighbors(x, y);
    NeighborsOrder(x, y);
    forall s | IsPath(m, x, y, s) && Marked(tg, s[|s| - 1]) && |s| == 1
      ensures !Before(s[0], ns[i])
    {
      var j :| 0 <= j < 4 && s[0] == ns[j];
    }
  }

  /** `Unlabelled` cannot grow, and it shrinks when some cell is newly labelled `d + 1`. */
  lemma RoundMeasure(m: Map, dist0: Grid<nat>, dist: Grid<nat>, d: nat)
    requires Shaped(m, dist0) && Shaped(m, dist) && Keeps(dist0, dist) && AtMost(dist0, d)
    ensures 2 * |Unlabelled(m, dist)| + (if LabelBefore(dist, d + 1, (0, m.height)) then 1 else 0) <= 2 * |Unlabelled(m, dist0)|
  {
    UnlabelledKeeps(m, dist0, dist);
    if LabelBefore(dist, d + 1, (0, m.height)) {
      var p: (int, int) :| Lab(dist, p) == d + 1 && Before(p, (0, m.height));
      UnlabelledShrinks(m, dist0, dist, p);
    }
  }

  /** Some path from the unit at (x, y) has exactly the label of `t` as length and ends at `t`. */
  ghost predicate PathTo(m: Map, dist: Grid<nat>, x: int, y: int, t: (int, int))
    requires Shaped(m, dist)
  {
    exists s :: IsPath(m, x, y, s) && |s| == Lab(dist, t) && s[|s| - 1] == t
  }

  /** No path from the unit at (x, y) ends at a target. */
  ghost predicate NoTargetReachable(m: Map, tg: Grid<bool>, x: int, y: int)
    requires Shaped(m, tg)
  {
    forall s :: IsPath(m, x, y, s) ==> !Marked(tg, s[|s| - 1])
  }

  /** The state between levels of the distance fill: consistent labels, closed up to `d - 1`, no target labelled. */
  ghost predicate LevelInv(m: Map, tg: Grid<bool>, dist: Grid<nat>, x: int, y: int, d: nat)
    requires Shaped(m, tg)
  {
    d >= 1 && Shaped(m, dist) &&
    Labelled(m, dist, x, y, d) && Expanded(m, dist, (x, y), 0) && Closed(m, dist, d - 1) &&
    forall p: (int, int) {:trigger Lab(dist, p)} :: Lab(dist, p) > 0 ==> !Marked(tg, p)
  }

  /** One neighbour of the first ring that is not an empty target. */
  lemma RingStep(m: Map, tg: Grid<bool>, dist: Grid<nat>, dist': Grid<nat>, x: int, y: int, i: nat)
    requires Shaped(m, tg) && Shaped(m, dist) && i < 4 && RingInv(m, tg, dist, x, y, i)
    requires var q := Neighbors(x, y)[i];
      dist' == (if TileAt(m, q) == Empty then Put(dist, q.0, q.1, 1) else dist) &&
      !(TileAt(m, q) == Empty && Marked(tg, q))
    ensures Shaped(m, dist') && RingInv(m, tg, dist', x, y, i + 1)
  {
    var ns := Neighbors(x, y);
    assert ns[..i + 1] == ns[..i] + [ns[i]];
  }

  /** An empty target in the first ring is the answer. */
  lemma RingFound(m: Map, tg: Grid<bool>, dist: Grid<nat>, x: int, y: int, i: nat)
    requires Shaped(m, tg) && Shaped(m, dist) && i < 4 && RingInv(m, tg, dist, x, y, i)
    requires var q := Neighbors(x, y)[i]; TileAt(m, q) == Empty && Marked(tg, q)
    ensures var q := Neighbors(x, y)[i]; var dist' := Put(dist, q.0, q.1, 1);
      Nearest(m, tg, dist', x, y, q) && PathTo(m, dist', x, y, q)
  {
    var ns := Neighbors(x, y);
    var q := ns[i];
    RingNearest(m, tg, dist, x, y, i);
    var dist' := Put(dist, q.0, q.1, 1);
    RingPut(m, dist, x, y, i);
    RingLabelled(m, dist', x, y, i + 1);
    assert Lab(dist', q) == 1;
    var s := PathBack(m, dist', x, y, 1, q);
  }

  /** Labelling the `i`-th neighbour, when empty, extends the ring's labels by one. */
  lemma RingPut(m: Map, dist: Grid<nat>, x: int, y: int, i: nat)
    requires Shaped(m, dist) && i < 4 && RingLabels(m, dist, x, y, i) && Open(m, Neighbors(x, y)[i])
    ensures var q := Neighbors(x, y)[i]; RingLabels(m, Put(dist, q.0, q.1, 1), x, y, i + 1)
  {
    var ns := Neighbors(x, y);
    var q := ns[i];
    var dist' := Put(dist, q.0, q.1, 1);
    assert ns[..i + 1] == ns[..i] + [q];
    forall p: (int, int)
      ensures Lab(dist', p) == if p == q then 1 else Lab(dist, p)
    {
      PutGet(dist, q.0, q.1, 1, p.0, p.1, 0);
    }
  }

  lemma RingDone(m: Map, tg: Grid<bool>, dist: Grid<nat>, x: int, y: int)
    requires Shaped(m, tg) && Shaped(m, dist) && RingInv(m, tg, dist, x, y, 4)
    ensures LevelInv(m, tg, dist, x, y, 1)
  {
    RingLabelled(m, dist, x, y, 4);
  }

  /**
   * The first loop of `fill_distance_to_targets`: labels the empty neighbours 1 and stops at
   * the first that is a target.
   */
  method FirstRing(m: Map, tg: Grid<bool>, x: int, y: int) returns (dist: Grid<nat>, r: Option<(int, int)>)
    requires Shaped(m, tg)
    ensures Shaped(m, dist)
    ensures r.Some? ==> Nearest(m, tg, dist, x, y, r.value) && PathTo(m, dist, x, y, r.value)
    ensures r.None? ==> LevelInv(m, tg, dist, x, y, 1)
  {
    dist := Generate(m.width, m.height, (_, _) => 0);
    var ns := Neighbors(x, y);
    for i := 0 to 4
      invariant Shaped(m, dist) && RingInv(m, tg, dist, x, y, i)
    {
      var q := ns[i];
      if TileAt(m, q) == Empty && Marked(tg, q) {
        RingFound(m, tg, dist, x, y, i);
        return Put(dist, q.0, q.1, 1), Some(q);
      }
      var dist' := if TileAt(m, q) == Empty then Put(dist, q.0, q.1, 1) else dist;
      RingStep(m, tg, dist, dist', x, y, i);
      dist := dist';
    }
    RingDone(m, tg, dist, x, y);
    r := None;
  }

  /** A level that found no cell leaves every path inside the labelled, target-free region. */
  lemma LevelEmpty(m: Map, tg: Grid<bool>, dist: Grid<nat>, dist': Grid<nat>, x: int, y: int, d: nat)
    requires Shaped(m, tg) && LevelInv(m, tg, dist, x, y, d)
    requires RoundInv(m, tg, dist, dist', d, (0, m.height), false, false)
    ensures NoTargetReachable(m, tg, x, y)
  {
    LabelledAtMost(m, dist, x, y, d);
    RoundClosed(m, dist, dist', d);
    ExpandedKeeps(m, dist, dist', (x, y), 0);
    RoundEmpty(m, dist, dist', d);
    forall s | IsPath(m, x, y, s)
      ensures !Marked(tg, s[|s| - 1])
    {
      PathsLabelled(m, dist', x, y, d, s, |s| - 1);
    }
  }

  /** A level that labelled no target leaves the invariant at the next level. */
  lemma LevelNext(m: Map, tg: Grid<bool>, dist: Grid<nat>, dist': Grid<nat>, x: int, y: int, d: nat)
    requires Shaped(m, tg) && LevelInv(m, tg, dist, x, y, d)
    requires RoundInv(m, tg, dist, dist', d, (0, m.height), true, false)
    ensures LevelInv(m, tg, dist', x, y, d + 1)
    ensures 2 * |Unlabelled(m, dist')| + (if LabelBefore(dist', d + 1, (0, m.height)) then 1 else 0) <
            2 * |Unlabelled(m, dist)| + (if LabelBefore(dist, d, (0, m.height)) then 1 else 0)
  {
    LabelledAtMost(m, dist, x, y, d);
    RoundLabelled(m, dist, dist', x, y, d);
    RoundClosed(m, dist, dist', d);
    ExpandedKeeps(m, dist, dist', (x, y), 0);
    RoundMeasure(m, dist, dist', d);
  }

  /** The answer of a level that labelled a target is the nearest target. */
  lemma LevelReached(m: Map, tg: Grid<bool>, dist: Grid<nat>, dist': Grid<nat>, x: int, y: int, d: nat, t: (int, int))
    requires Shaped(m, tg) && LevelInv(m, tg, dist, x, y, d)
    requires RoundInv(m, tg, dist, dist', d, (0, m.height), true, true)
    requires Lab(dist', t) == d + 1 && Marked(tg, t)
    requires forall p: (int, int) {:trigger Lab(dist', p)} :: Lab(dist', p) == d + 1 && Marked(tg, p) ==> !Before(p, t)
    ensures Nearest(m, tg, dist', x, y, t) && PathTo(m, dist', x, y, t)
  {
    LabelledAtMost(m, dist, x, y, d);
    RoundLabelled(m, dist, dist', x, y, d);
    RoundClosed(m, dist, dist', d);
    ExpandedKeeps(m, dist, dist', (x, y), 0);
    assert LabelOk(m, dist', x, y, d + 1, t);
    LabelledTargets(m, tg, dist', x, y, t);
    var s := PathBack(m, dist', x, y, d + 1, t);
  }

  /** A level that labelled a target has a target at the new level. */
  lemma ReachedTarget(m: Map, tg: Grid<bool>, dist: Grid<nat>, dist': Grid<nat>, d: nat)
    requires Shaped(m, tg) && Shaped(m, dist) && RoundInv(m, tg, dist, dist', d, (0, m.height), true, true)
    ensures exists p: (int, int) {:trigger Lab(dist', p)} :: Lab(dist', p) == d + 1 && Marked(tg, p)
  {
    var p: (int, int) :| Lab(dist, p) == 0 && Lab(dist', p) > 0 && Marked(tg, p);
    assert Lab(dist', p) == d + 1;
  }

  /** The `for d in 1..` loop of `fill_distance_to_targets`. */
  method FillLevels(m: Map, tg: Grid<bool>, x: int, y: int, dist0: Grid<nat>) returns (dist: Grid<nat>, r: Option<(int, int)>)
    requires Shaped(m, tg) && Scannable(m) && LevelInv(m, tg, dist0, x, y, 1)
    ensures Shaped(m, dist)
    ensures r.Some? ==> Nearest(m, tg, dist, x, y, r.value) && PathTo(m, dist, x, y, r.value)
    ensures r.None? ==> NoTargetReachable(m, tg, x, y)
  {
    dist := dist0;
    var d := 1;
    while true
      invariant LevelInv(m, tg, dist, x, y, d)
      decreases 2 * |Unlabelled(m, dist)| + (if LabelBefore(dist, d, (0, m.height)) then 1 else 0)
    {
      LabelledAtMost(m, dist, x, y, d);
      var dist', found, reached := ExpandRound(m, tg, dist, d);
      if !found {
        LevelEmpty(m, tg, dist, dist', x, y, d);
        return dist', None;
      }
      if reached {
        ReachedTarget(m, tg, dist, dist', d);
        var t := FirstLabelled(m, tg, dist', d + 1);
        LevelReached(m, tg, dist, dist', x, y, d, t.value);
        return dist', t;
      }
      LevelNext(m, tg, dist, dist', x, y, d);
      dist, d := dist', d + 1;
    }
  }

  /**
   * `fill_distance_to_targets`: labels the empty cells by their distance from the unit at
   * (x, y), level by level, and stops at the first level that holds a target. The answer is
   * a target at the least distance, the first such in reading order; `None` when the unit
   * already stands on a target or no target is reachable.
   */
  method FillDistance(m: Map, tg: Grid<bool>, x: int, y: int) returns (dist: Grid<nat>, r: Option<(int, int)>)
    requires Shaped(m, tg) && Scannable(m)
    ensures Shaped(m, dist)
    ensures Marked(tg, (x, y)) ==> r.None?
    ensures r.Some? ==> Nearest(m, tg, dist, x, y, r.value) && PathTo(m, dist, x, y, r.value)
    ensures r.None? && !Marked(tg, (x, y)) ==> NoTargetReachable(m, tg, x, y)
  {
    if Marked(tg, (x, y)) {
      dist := Generate(m.width, m.height, (_, _) => 0);
      return dist, None;
    }
    dist, r := FirstRing(m, tg, x, y);
    if r.None? {
      dist, r := FillLevels(m, tg, x, y, dist);
    }
  }

  // ---------------------------------------------------------------------------------------
  // Backtracking from the chosen target

  /** `p` starts a chain through neighbours whose labels rise by one until they reach `t`. */
  ghost predicate Leads(dist: Grid<nat>, p: (int, int), t: (int, int))
    requires dist.Valid()
    decreases if Lab(dist, p) < Lab(dist, t) then Lab(dist, t) - Lab(dist, p) else 0
  {
    p == t ||
    (0 < Lab(dist, p) < Lab(dist, t) &&
     var ns := Neighbors(p.0, p.1);
     (Lab(dist, ns[0]) == Lab(dist, p) + 1 && Leads(dist, ns[0], t)) ||
     (Lab(dist, ns[1]) == Lab(dist, p) + 1 && Leads(dist, ns[1], t)) ||
     (Lab(dist, ns[2]) == Lab(dist, p) + 1 && Leads(dist, ns[2], t)) ||
     (Lab(dist, ns[3]) == Lab(dist, p) + 1 && Leads(dist, ns[3], t)))
  }

  /** A neighbour one level up that leads to `t` makes `p` lead to `t`. */
  lemma LeadsVia(dist: Grid<nat>, p: (int, int), q: (int, int), t: (int, int))
    requires dist.Valid() && q in Neighbors(p.0, p.1) && Lab(dist, q) == Lab(dist, p) + 1 && Leads(dist, q, t)
    requires 0 < Lab(dist, p) && Lab(dist, q) <= Lab(dist, t)
    ensures Leads(dist, p, t)
  {
  }

  /** A cell other than `t` that leads to `t` has such a neighbour. */
  lemma LeadsNext(dist: Grid<nat>, p: (int, int), t: (int, int)) returns (q: (int, int))
    requires dist.Valid() && Leads(dist, p, t) && p != t
    ensures q in Neighbors(p.0, p.1) && Lab(dist, q) == Lab(dist, p) + 1 && Leads(dist, q, t)
    ensures 0 < Lab(dist, p) < Lab(dist, t)
  {
    var ns := Neighbors(p.0, p.1);
    if Lab(dist, ns[0]) == Lab(dist, p) + 1 && Leads(dist, ns[0], t) {
      q := ns[0];
    } else if Lab(dist, ns[1]) == Lab(dist, p) + 1 && Leads(dist, ns[1], t) {
      q := ns[1];
    } else if Lab(dist, ns[2]) == Lab(dist, p) + 1 && Leads(dist, ns[2], t) {
      q := ns[2];
    } else {
      q := ns[3];
    }
  }

  /** Every in-bounds neighbour of `q` is marked. */
  predicate MarkedAround(tg: Grid<bool>, q: (int, int))
    requires tg.Valid()
  {
    var ns := Neighbors(q.0, q.1);
    (InBounds(tg, ns[0].0, ns[0].1) ==> Marked(tg, ns[0])) &&
    (InBounds(tg, ns[1].0, ns[1].1) ==> Marked(tg, ns[1])) &&
    (InBounds(tg, ns[2].0, ns[2].1) ==> Marked(tg, ns[2])) &&
    (InBounds(tg, ns[3].0, ns[3].1) ==> Marked(tg, ns[3]))
  }

  /** The labels the backtrace relies on: consistent up to `t`'s label and closed below it. */
  ghost predicate TraceFrom(m: Map, dist: Grid<nat>, x0: int, y0: int, t: (int, int))
    requires Shaped(m, dist)
  {
    Lab(dist, t) >= 1 && Labelled(m, dist, x0, y0, Lab(dist, t)) && Closed(m, dist, Lab(dist, t) - 1)
  }

  /**
   * The backtrace at level `l`, scanning at `c`: the cells of level `l` that lead to `t` are
   * marked; marked cells up to level `l` lead to `t` and are at level `l` or `l - 1`; the
   * leading cells of level `l` before `c` have their neighbours marked.
   */
  ghost predicate BackInv(m: Map, dist: Grid<nat>, t: (int, int), tg: Grid<bool>, l: nat, c: (int, int))
    requires Shaped(m, dist)
  {
    Shaped(m, tg) && BackComplete(dist, t, tg, l) && BackSound(dist, t, tg, l) && BackDone(dist, t, tg, l, c)
  }

  ghost predicate BackComplete(dist: Grid<nat>, t: (int, int), tg: Grid<bool>, l: nat)
    requires dist.Valid() && tg.Valid()
  {
    forall p: (int, int) {:trigger Lab(dist, p)} :: Lab(dist, p) == l && Leads(dist, p, t) ==> Marked(tg, p)
  }

  ghost predicate BackSound(dist: Grid<nat>, t: (int, int), tg: Grid<bool>, l: nat)
    requires dist.Valid() && tg.Valid()
  {
    forall p: (int, int) {:trigger Lab(dist, p)} :: 0 < Lab(dist, p) <= l && Marked(tg, p) ==>
      Lab(dist, p) + 1 >= l && Leads(dist, p, t)
  }

  ghost predicate BackDone(dist: Grid<nat>, t: (int, int), tg: Grid<bool>, l: nat, c: (int, int))
    requires dist.Valid() && tg.Valid()
  {
    forall q: (int, int) {:trigger Lab(dist, q)} :: Lab(dist, q) == l && Leads(dist, q, t) && Before(q, c) ==>
      MarkedAround(tg, q)
  }

  /** Every mark of `tg` is still in `tg'`. */
  ghost predicate Grows(tg: Grid<bool>, tg': Grid<bool>)
    requires tg.Valid() && tg'.Valid()
  {
    forall p: (int, int) {:trigger Marked(tg, p)} :: Marked(tg, p) ==> Marked(tg', p)
  }

  lemma MarkedAroundGrows(tg: Grid<bool>, tg': Grid<bool>, q: (int, int))
    requires tg.Valid() && tg'.Valid() && tg.width == tg'.width && tg.height == tg'.height
    requires Grows(tg, tg') && MarkedAround(tg, q)
    ensures MarkedAround(tg', q)
  {
    var ns := Neighbors(q.0, q.1);
    assert Marked(tg, ns[0]) ==> Marked(tg', ns[0]);
    assert Marked(tg, ns[1]) ==> Marked(tg', ns[1]);
    assert Marked(tg, ns[2]) ==> Marked(tg', ns[2]);
    assert Marked(tg, ns[3]) ==> Marked(tg', ns[3]);
  }

  /** Neighbours with consistent labels are never on the same level. */
  lemma NeighborLevels(m: Map, dist: Grid<nat>, x0: int, y0: int, top: nat, p: (int, int), q: (int, int))
    requires Shaped(m, dist) && LabelOk(m, dist, x0, y0, top, p) && LabelOk(m, dist, x0, y0, top, q)
    requires p in Neighbors(q.0, q.1)
    ensures Lab(dist, p) != Lab(dist, q)
  {
    NeighborsSymmetric(p, q);
    if Lab(dist, p) == Lab(dist, q) {
      NeighborParity(p, q, Lab(dist, q) + x0 + y0);
    }
  }

  /** A neighbour of a leading cell at level `l`, labelled at most `l`, is at level `l - 1` and leads too. */
  lemma BackNeighbor(m: Map, dist: Grid<nat>, x0: int, y0: int, t: (int, int), q: (int, int), p: (int, int))
    requires Shaped(m, dist) && TraceFrom(m, dist, x0, y0, t)
    requires 0 < Lab(dist, q) <= Lab(dist, t) && Leads(dist, q, t) && p in Neighbors(q.0, q.1)
    requires 0 < Lab(dist, p) <= Lab(dist, q)
    ensures Lab(dist, p) + 1 == Lab(dist, q) && Leads(dist, p, t)
  {
    var top := Lab(dist, t);
    assert LabelOk(m, dist, x0, y0, top, p);
    assert LabelOk(m, dist, x0, y0, top, q);
    NeighborLevels(m, dist, x0, y0, top, p, q);
    assert Expanded(m, dist, p, Lab(dist, p));
    NeighborsSymmetric(p, q);
    ExpandedAt(m, dist, p, Lab(dist, p), q);
    LeadsVia(dist, p, q, t);
  }

  /** One cell of a backtrace level. */
  lemma BackStep(m: Map, dist: Grid<nat>, x0: int, y0: int, t: (int, int), tg: Grid<bool>, tg': Grid<bool>, l: nat, x: int, y: int)
    requires Shaped(m, dist) && TraceFrom(m, dist, x0, y0, t) && 2 <= l <= Lab(dist, t) && InBounds(m, x, y)
    requires BackInv(m, dist, t, tg, l, (x, y))
    requires tg' == if Lab(dist, (x, y)) == l && Marked(tg, (x, y)) then MarkAround(tg, x, y) else tg
    ensures BackInv(m, dist, t, tg', l, (x + 1, y))
  {
    if Lab(dist, (x, y)) == l && Marked(tg, (x, y)) {
      MarkAroundGrows(tg, x, y);
      BackCompleteGrows(dist, t, tg, tg', l);
      BackStepSound(m, dist, x0, y0, t, tg, tg', l, x, y);
      BackStepDone(dist, t, tg, tg', l, x, y);
    } else {
      BackSkipDone(dist, t, tg, l, x, y);
    }
  }

  lemma MarkAroundGrows(tg: Grid<bool>, x: int, y: int)
    requires tg.Valid()
    ensures Grows(tg, MarkAround(tg, x, y))
  {
  }

  lemma BackCompleteGrows(dist: Grid<nat>, t: (int, int), tg: Grid<bool>, tg': Grid<bool>, l: nat)
    requires dist.Valid() && tg.Valid() && tg'.Valid() && BackComplete(dist, t, tg, l) && Grows(tg, tg')
    ensures BackComplete(dist, t, tg', l)
  {
  }

  lemma BackSkipDone(dist: Grid<nat>, t: (int, int), tg: Grid<bool>, l: nat, x: int, y: int)
    requires dist.Valid() && tg.Valid() && BackDone(dist, t, tg, l, (x, y)) && BackComplete(dist, t, tg, l)
    requires !(Lab(dist, (x, y)) == l && Marked(tg, (x, y)))
    ensures BackDone(dist, t, tg, l, (x + 1, y))
  {
    forall q: (int, int) | Lab(dist, q) == l && Leads(dist, q, t) && Before(q, (x + 1, y))
      ensures MarkedAround(tg, q)
    {
      assert q != (x, y);
    }
  }

  lemma BackStepSound(m: Map, dist: Grid<nat>, x0: int, y0: int, t: (int, int), tg: Grid<bool>, tg': Grid<bool>, l: nat, x: int, y: int)
    requires Shaped(m, dist) && TraceFrom(m, dist, x0, y0, t) && 2 <= l <= Lab(dist, t) && InBounds(m, x, y)
    requires Shaped(m, tg) && BackSound(dist, t, tg, l) && Lab(dist, (x, y)) == l && Marked(tg, (x, y))
    requires tg' == MarkAround(tg, x, y)
    ensures BackSound(dist, t, tg', l)
  {
    forall p: (int, int) | 0 < Lab(dist, p) <= l && Marked(tg', p)
      ensures Lab(dist, p) + 1 >= l && Leads(dist, p, t)
    {
      if !Marked(tg, p) {
        BackNeighbor(m, dist, x0, y0, t, (x, y), p);
      }
    }
  }

  lemma BackStepDone(dist: Grid<nat>, t: (int, int), tg: Grid<bool>, tg': Grid<bool>, l: nat, x: int, y: int)
    requires dist.Valid() && tg.Valid() && BackDone(dist, t, tg, l, (x, y))
    requires tg' == MarkAround(tg, x, y) && Grows(tg, tg')
    ensures BackDone(dist, t, tg', l, (x + 1, y))
  {
    forall q: (int, int) | Lab(dist, q) == l && Leads(dist, q, t) && Before(q, (x + 1, y))
      ensures MarkedAround(tg', q)
    {
      if q != (x, y) {
        MarkedAroundGrows(tg, tg', q);
      }
    }
  }

  lemma BackRowEnd(m: Map, dist: Grid<nat>, t: (int, int), tg: Grid<bool>, l: nat, y: int)
    requires Shaped(m, dist) && l >= 1 && BackInv(m, dist, t, tg, l, (m.width, y))
    ensures BackInv(m, dist, t, tg, l, (0, y + 1))
  {
    forall q: (int, int) | Lab(dist, q) == l && Leads(dist, q, t) && Before(q, (0, y + 1))
      ensures MarkedAround(tg, q)
    {
      assert Before(q, (m.width, y));
    }
  }

  /** The end of level `l` sets up level `l - 1`. */
  lemma BackLevelEnd(m: Map, dist: Grid<nat>, t: (int, int), tg: Grid<bool>, l: nat)
    requires Shaped(m, dist) && 2 <= l <= Lab(dist, t) && BackInv(m, dist, t, tg, l, (0, m.height))
    ensures BackInv(m, dist, t, tg, l - 1, (0, 0))
  {
    forall p: (int, int) | Lab(dist, p) == l - 1 && Leads(dist, p, t)
      ensures Marked(tg, p)
    {
      var q := LeadsNext(dist, p, t);
      assert Before(q, (0, m.height));
      NeighborsSymmetric(p, q);
    }
  }

  /** Some cell at level 1 leads to `t`. */
  lemma {:induction false} LeadsFromLevel(m: Map, dist: Grid<nat>, x0: int, y0: int, t: (int, int), k: nat) returns (p: (int, int))
    requires Shaped(m, dist) && TraceFrom(m, dist, x0, y0, t) && 1 <= k <= Lab(dist, t)
    ensures Lab(dist, p) == k && Leads(dist, p, t)
    decreases Lab(dist, t) - k
  {
    if k == Lab(dist, t) {
      p := t;
    } else {
      var q := LeadsFromLevel(m, dist, x0, y0, t, k + 1);
      assert LabelOk(m, dist, x0, y0, Lab(dist, t), q);
      p :| p in Neighbors(q.0, q.1) && Lab(dist, p) == k;
      NeighborsSymmetric(p, q);
      LeadsVia(dist, p, q, t);
    }
  }

  /** Only `t` is marked at the start: the invariant of the top level. */
  lemma BackStart(m: Map, dist: Grid<nat>, t: (int, int), tg: Grid<bool>)
    requires Shaped(m, dist) && Shaped(m, tg) && Lab(dist, t) >= 1
    requires forall p: (int, int) {:trigger Marked(tg, p)} :: Marked(tg, p) <==> p == t
    ensures BackInv(m, dist, t, tg, Lab(dist, t), (0, 0))
  {
    assert Marked(tg, t);
  }

  /** One level `l` of `backtrace_to_fighter`'s scan, for `l` at least 2. */
  method BackLevel(m: Map, dist: Grid<nat>, ghost x0: int, ghost y0: int, t: (int, int), tg0: Grid<bool>, l: nat)
    returns (tg: Grid<bool>)
    requires Shaped(m, dist) && Scannable(m) && TraceFrom(m, dist, x0, y0, t) && 2 <= l <= Lab(dist, t)
    requires BackInv(m, dist, t, tg0, l, (0, 0))
    ensures BackInv(m, dist, t, tg, l, (0, m.height))
  {
    tg := tg0;
    for y := 0 to m.height
      invariant BackInv(m, dist, t, tg, l, (0, y))
    {
      for x := 0 to m.width
        invariant BackInv(m, dist, t, tg, l, (x, y))
      {
        var tg' := if Lab(dist, (x, y)) == l && Marked(tg, (x, y)) then MarkAround(tg, x, y) else tg;
        BackStep(m, dist, x0, y0, t, tg, tg', l, x, y);
        tg := tg';
      }
      BackRowEnd(m, dist, t, tg, l, y);
    }
  }

  /** The levels `l` from `t`'s label down to 2 of `backtrace_to_fighter`. */
  method BackLevels(m: Map, dist: Grid<nat>, ghost x0: int, ghost y0: int, t: (int, int)) returns (tg: Grid<bool>)
    requires Shaped(m, dist) && Scannable(m) && TraceFrom(m, dist, x0, y0, t)
    ensures BackInv(m, dist, t, tg, 1, (0, 0))
  {
    tg := Generate(m.width, m.height, (_, _) => false);
    tg := Put(tg, t.0, t.1, true);
    BackStart(m, dist, t, tg);
    var l := Lab(dist, t);
    while l > 1
      invariant 1 <= l <= Lab(dist, t) && BackInv(m, dist, t, tg, l, (0, 0))
    {
      tg := BackLevel(m, dist, x0, y0, t, tg, l);
      BackLevelEnd(m, dist, t, tg, l);
      l := l - 1;
    }
  }

  /** A chain of open cells, each a neighbour of the one before. */
  ghost predicate Chain(m: Map, u: seq<(int, int)>)
    requires m.Valid()
  {
    (forall i :: 0 <= i < |u| ==> Open(m, u[i])) &&
    forall i :: 0 <= i < |u| - 1 ==> u[i + 1] in Neighbors(u[i].0, u[i].1)
  }

  /** A cell that leads to `t` starts a chain to `t` with one cell per level. */
  lemma {:induction false} LeadsChain(m: Map, dist: Grid<nat>, x0: int, y0: int, t: (int, int), p: (int, int)) returns (u: seq<(int, int)>)
    requires Shaped(m, dist) && TraceFrom(m, dist, x0, y0, t) && Leads(dist, p, t) && Lab(dist, p) > 0
    ensures Lab(dist, p) <= Lab(dist, t) && |u| == Lab(dist, t) - Lab(dist, p) + 1
    ensures u[0] == p && u[|u| - 1] == t && Chain(m, u)
    decreases Lab(dist, t) - Lab(dist, p)
  {
    assert LabelOk(m, dist, x0, y0, Lab(dist, t), p);
    if p == t {
      u := [t];
    } else {
      var q := LeadsNext(dist, p, t);
      var u' := LeadsChain(m, dist, x0, y0, t, q);
      u := [p] + u';
      forall i | 0 <= i < |u| - 1
        ensures u[i + 1] in Neighbors(u[i].0, u[i].1)
      {
        if i > 0 {
          assert u[i] == u'[i - 1] && u[i + 1] == u'[i];
        }
      }
    }
  }

  /** On a shortest path to `t` the labels run 1, 2, ..., so every cell of it leads to `t`. */
  lemma {:induction false} ShortestLeads(m: Map, dist: Grid<nat>, x0: int, y0: int, t: (int, int), s: seq<(int, int)>, i: nat)
    requires Shaped(m, dist) && TraceFrom(m, dist, x0, y0, t) && Expanded(m, dist, (x0, y0), 0)
    requires IsPath(m, x0, y0, s) && |s| == Lab(dist, t) && s[|s| - 1] == t && i < |s|
    ensures Lab(dist, s[i]) == i + 1 && Leads(dist, s[i], t)
    decreases |s| - i
  {
    if i < |s| - 1 {
      ShortestLeads(m, dist, x0, y0, t, s, i + 1);
      PathLabels(m, dist, x0, y0, Lab(dist, t) - 1, s, i);
      ExpandedAt(m, dist, s[i], Lab(dist, s[i]), s[i + 1]);
      LeadsVia(dist, s[i], s[i + 1], t);
    }
  }

  /** `p` is the first step of a shortest path from the unit at (x0, y0) to `t`. */
  ghost predicate ShortestStart(m: Map, dist: Grid<nat>, x0: int, y0: int, t: (int, int), p: (int, int))
    requires Shaped(m, dist)
  {
    FirstStep(m, x0, y0, t, Lab(dist, t), p)
  }

  /** `p` is the first step of a path of length `len` from the unit at (x0, y0) to `t`. */
  ghost predicate FirstStep(m: Map, x0: int, y0: int, t: (int, int), len: nat, p: (int, int))
    requires m.Valid()
  {
    exists s :: IsPath(m, x0, y0, s) && |s| == len && s[0] == p && s[|s| - 1] == t
  }

  /** The first steps of shortest paths to `t` are exactly the level-1 cells that lead to `t`. */
  lemma ShortestStartLeads(m: Map, dist: Grid<nat>, x0: int, y0: int, t: (int, int), p: (int, int))
    requires Shaped(m, dist) && TraceFrom(m, dist, x0, y0, t) && (Lab(dist, t) > 1 ==> Expanded(m, dist, (x0, y0), 0))
    ensures ShortestStart(m, dist, x0, y0, t, p) <==> Lab(dist, p) == 1 && Leads(dist, p, t)
  {
    if ShortestStart(m, dist, x0, y0, t, p) {
      var s :| IsPath(m, x0, y0, s) && |s| == Lab(dist, t) && s[0] == p && s[|s| - 1] == t;
      if |s| > 1 {
        ShortestLeads(m, dist, x0, y0, t, s, 0);
      }
    }
    if Lab(dist, p) == 1 && Leads(dist, p, t) {
      var u := LeadsChain(m, dist, x0, y0, t, p);
      assert LabelOk(m, dist, x0, y0, Lab(dist, t), p);
      assert IsPath(m, x0, y0, u);
    }
  }

  /**
   * `backtrace_to_fighter`: the neighbour of the unit to step to. It is the first cell in
   * reading order that starts a shortest path from the unit to `t`.
   */
  method Backtrace(m: Map, dist: Grid<nat>, ghost x0: int, ghost y0: int, t: (int, int)) returns (r: (int, int))
    requires Shaped(m, dist) && Scannable(m) && TraceFrom(m, dist, x0, y0, t)
    requires Lab(dist, t) > 1 ==> Expanded(m, dist, (x0, y0), 0)
    ensures Open(m, r) && r in Neighbors(x0, y0) && ShortestStart(m, dist, x0, y0, t, r)
    ensures forall p :: ShortestStart(m, dist, x0, y0, t, p) ==> !Before(p, r)
  {
    var tg := BackLevels(m, dist, x0, y0, t);
    var p := LeadsFromLevel(m, dist, x0, y0, t, 1);
    var o := FirstLabelled(m, tg, dist, 1);
    assert o.Some?;
    r := o.value;
    assert LabelOk(m, dist, x0, y0, Lab(dist, t), r);
    ShortestStartLeads(m, dist, x0, y0, t, r);
    forall p | ShortestStart(m, dist, x0, y0, t, p)
      ensures !Before(p, r)
    {
      ShortestStartLeads(m, dist, x0, y0, t, p);
    }
  }

  // ---------------------------------------------------------------------------------------
  // Turns and rounds

  /** Both maps have the same shape and the same walls. */
  ghost predicate SameWalls(m: Map, m': Map)
  {
    m.Valid() && m'.Valid() && m'.width == m.width && m'.height == m.height &&
    forall x, y :: InBounds(m, x, y) ==> (Cell(m', x, y) == Wall <==> Cell(m, x, y) == Wall)
  }

  /** `map[(x, y)] = Empty; map[(mx, my)] = fighter`: the unit steps from `from` onto the empty cell `to`. */
  function MoveTo(m: Map, from: (int, int), to: (int, int)): (r: Map)
    requires m.Valid() && InBounds(m, from.0, from.1) && Open(m, to)
    ensures r.Valid() && r.width == m.width && r.height == m.height
  {
    SetAt(SetAt(m, from.0, from.1, Empty), to.0, to.1, Cell(m, from.0, from.1))
  }

  /** A step moves the unit and nothing else: walls, hit points and validity are kept. */
  lemma MoveKeeps(m: Map, from: (int, int), to: (int, int))
    requires WellFormed(m) && InBounds(m, from.0, from.1) && Cell(m, from.0, from.1).Fighter? && Open(m, to)
    ensures var r := MoveTo(m, from, to);
      Cell(r, to.0, to.1) == Cell(m, from.0, from.1) && Cell(r, from.0, from.1) == Empty &&
      (forall x, y :: InBounds(m, x, y) && (x, y) != from && (x, y) != to ==> Cell(r, x, y) == Cell(m, x, y)) &&
      WellFormed(r) && SameWalls(m, r) && SideHp(r, true) == SideHp(m, true) && SideHp(r, false) == SideHp(m, false)
  {
    var f := Cell(m, from.0, from.1);
    var m1 := SetAt(m, from.0, from.1, Empty);
    PutHp(m, from.0, from.1, Empty, true);
    PutHp(m, from.0, from.1, Empty, false);
    PutHp(m1, to.0, to.1, f, true);
    PutHp(m1, to.0, to.1, f, false);
  }

  /** An attack turns a unit into a weaker unit or an empty cell: the walls stay. */
  lemma AttackWalls(m: Map, x: int, y: int, elves: bool)
    requires m.Valid()
    ensures SameWalls(m, Attack(m, x, y, elves))
  {
    AttackHitsWeakest(m, x, y, elves);
    var ns := Neighbors(x, y);
    if exists i :: 0 <= i < 4 && IsEnemy(TileAt(m, ns[i]), elves) {
      var i: nat :| i < 4 && Weakest(m, ns, elves, i) && Attack(m, x, y, elves) == Put(m, ns[i].0, ns[i].1, Hit(TileAt(m, ns[i])));
    }
  }

  /**
   * The step a unit at (x, y) takes towards the targets `tg`: `t` is a target at the least
   * path length `len`, the first such in reading order, and `r` is the first cell in reading
   * order that starts a path of that length to `t`.
   */
  ghost predicate ChosenStep(m: Map, tg: Grid<bool>, x: int, y: int, t: (int, int), len: nat, r: (int, int))
    requires Shaped(m, tg)
  {
    Marked(tg, t) && NoCloser(m, tg, x, y, t, len) && FirstStep(m, x, y, t, len, r) &&
    forall p :: FirstStep(m, x, y, t, len, p) ==> !Before(p, r)
  }

  /**
   * The movement half of a unit's turn in `run_turn`: a unit already on a target, or with
   * no target reachable, stays; otherwise it takes the chosen step.
   */
  method MoveUnit(m: Map, tg: Grid<bool>, x: int, y: int) returns (m': Map, r: (int, int))
    requires Shaped(m, tg) && Scannable(m) && InBounds(m, x, y) && Cell(m, x, y).Fighter?
    ensures Marked(tg, (x, y)) || NoTargetReachable(m, tg, x, y) ==> m' == m && r == (x, y)
    ensures !Marked(tg, (x, y)) && !NoTargetReachable(m, tg, x, y) ==>
      r in Neighbors(x, y) && Open(m, r) && m' == MoveTo(m, (x, y), r) &&
      exists t, len :: ChosenStep(m, tg, x, y, t, len, r)
  {
    var dist, o := FillDistance(m, tg, x, y);
    if o.None? {
      return m, (x, y);
    }
    var t := o.value;
    r := Backtrace(m, dist, x, y, t);
    m' := MoveTo(m, (x, y), r);
    assert ChosenStep(m, tg, x, y, t, Lab(dist, t), r);
    ghost var s :| IsPath(m, x, y, s) && |s| == Lab(dist, t) && s[|s| - 1] == t;
  }

  /** Without enemies nothing is marked, so nothing is reachable either. */
  lemma NoEnemyNoTarget(m: Map, tg: Grid<bool>, x: int, y: int, elves: bool)
    requires Shaped(m, tg) && NoUnits(m, elves)
    requires forall p: (int, int) {:trigger Marked(tg, p)} :: InBounds(m, p.0, p.1) ==> (Marked(tg, p) <==> NextToEnemy(m, p, elves))
    ensures !Marked(tg, (x, y)) && NoTargetReachable(m, tg, x, y)
  {
    forall p: (int, int)
      ensures !Marked(tg, p)
    {
      if InBounds(m, p.0, p.1) {
        var ns := Neighbors(p.0, p.1);
        assert !IsEnemy(TileAt(m, ns[0]), elves) && !IsEnemy(TileAt(m, ns[1]), elves);
        assert !IsEnemy(TileAt(m, ns[2]), elves) && !IsEnemy(TileAt(m, ns[3]), elves);
      }
    }
  }

  /** With no enemy on the map an attack changes nothing. */
  lemma AttackNoEnemy(m: Map, x: int, y: int, elves: bool)
    requires m.Valid() && NoUnits(m, elves)
    ensures Attack(m, x, y, elves) == m
  {
    AttackHitsWeakest(m, x, y, elves);
    var ns := Neighbors(x, y);
    forall i | 0 <= i < 4
      ensures !IsEnemy(TileAt(m, ns[i]), elves)
    {
    }
  }

  lemma SameWallsTrans(a: Map, b: Map, c: Map)
    requires SameWalls(a, b) && SameWalls(b, c)
    ensures SameWalls(a, c)
  {
  }

  /** Moving (or staying) and then attacking keeps the map well formed, the walls and the mover's total. */
  lemma MoveAttackKeeps(m: Map, m1: Map, x: int, y: int, r: (int, int))
    requires WellFormed(m) && InBounds(m, x, y) && Cell(m, x, y).Fighter?
    requires (m1 == m && r == (x, y)) || (r in Neighbors(x, y) && Open(m, r) && m1 == MoveTo(m, (x, y), r))
    ensures var elf := Cell(m, x, y).elf; var m' := Attack(m1, r.0, r.1, !elf);
      WellFormed(m') && SameWalls(m, m') &&
      SideHp(m', elf) == SideHp(m, elf) && SideHp(m', !elf) <= SideHp(m, !elf)
  {
    var elf := Cell(m, x, y).elf;
    if m1 != m || r != (x, y) {
      MoveKeeps(m, (x, y), r);
    }
    assert WellFormed(m1) && SameWalls(m, m1) && SideHp(m1, elf) == SideHp(m, elf) && SideHp(m1, !elf) == SideHp(m, !elf);
    AttackHp(m1, r.0, r.1, !elf);
    AttackWalls(m1, r.0, r.1, !elf);
    SameWallsTrans(m, m1, Attack(m1, r.0, r.1, !elf));
  }

  /** `tg` is what `mark_targets` leaves for side `elves`: exactly the cells next to one of its units. */
  ghost predicate TargetsOf(m: Map, tg: Grid<bool>, elves: bool)
  {
    Shaped(m, tg) &&
    forall p: (int, int) {:trigger Marked(tg, p)} :: InBounds(m, p.0, p.1) ==> (Marked(tg, p) <==> NextToEnemy(m, p, elves))
  }

  /**
   * The cell `r` the unit at (x, y) ends its move on: with the targets marked for its enemies,
   * it stays when it is already on a target or none is reachable, and otherwise `r` is the
   * step `MoveUnit` chooses.
   */
  ghost predicate StepRule(m: Map, x: int, y: int, r: (int, int))
    requires m.Valid() && InBounds(m, x, y) && Cell(m, x, y).Fighter?
  {
    exists tg :: TargetsOf(m, tg, !Cell(m, x, y).elf) &&
      if Marked(tg, (x, y)) || NoTargetReachable(m, tg, x, y) then r == (x, y)
      else exists t, len :: ChosenStep(m, tg, x, y, t, len, r)
  }

  /**
   * One unit's turn in `run_turn`: mark the cells next to enemies, move, then attack from the
   * new position. `noTargets` reports that the enemy side is empty, and then nothing changes.
   */
  method UnitTurn(m: Map, x: int, y: int) returns (m': Map, r: (int, int), noTargets: bool)
    requires WellFormed(m) && Scannable(m) && InBounds(m, x, y) && Cell(m, x, y).Fighter?
    ensures WellFormed(m') && SameWalls(m, m')
    ensures noTargets <==> NoUnits(m, !Cell(m, x, y).elf)
    ensures noTargets ==> m' == m && r == (x, y)
    ensures SideHp(m', Cell(m, x, y).elf) == SideHp(m, Cell(m, x, y).elf)
    ensures SideHp(m', !Cell(m, x, y).elf) <= SideHp(m, !Cell(m, x, y).elf)
    ensures r == (x, y) || (r in Neighbors(x, y) && Open(m, r))
    ensures StepRule(m, x, y, r)
    ensures m' == Attack(if r == (x, y) then m else MoveTo(m, (x, y), r), r.0, r.1, !Cell(m, x, y).elf)
    ensures TurnEffect(m, x, y, r, m')
  {
    var elf := At(m, x, y).elf;
    var tg, found := MarkTargets(m, !elf);
    noTargets := !found;
    var m1;
    m1, r := MoveUnit(m, tg, x, y);
    assert TargetsOf(m, tg, !elf);
    if noTargets {
      NoEnemyNoTarget(m, tg, x, y, !elf);
      AttackNoEnemy(m, r.0, r.1, !elf);
    }
    MoveAttackKeeps(m, m1, x, y, r);
    m' := Attack(m1, r.0, r.1, !elf);
  }

  /** A side's total never grows, so once a side is gone the combat stays over. */
  lemma OverStaysOver(m: Map, m': Map)
    requires IsOver(m) && SideHp(m', true) <= SideHp(m, true) && SideHp(m', false) <= SideHp(m, false)
    ensures IsOver(m')
  {
  }

  /** What holds of a round in progress, against the map `m0` it started from. */
  ghost predicate TurnInv(m0: Map, m: Map, moved: Grid<bool>, out: bool)
  {
    WellFormed(m) && SameWalls(m0, m) && Shaped(m, moved) && Scannable(m) &&
    SideHp(m, true) <= SideHp(m0, true) && SideHp(m, false) <= SideHp(m0, false) &&
    (out ==> IsOver(m)) && (IsOver(m0) ==> m == m0)
  }

  /** One unit's turn keeps the round's invariant. */
  lemma TurnStep(m0: Map, m: Map, m': Map, moved: Grid<bool>, moved': Grid<bool>, out: bool, x: int, y: int, noTargets: bool)
    requires WellFormed(m0) && TurnInv(m0, m, moved, out) && InBounds(m, x, y) && Cell(m, x, y).Fighter?
    requires WellFormed(m') && SameWalls(m, m') && Shaped(m', moved')
    requires noTargets <==> NoUnits(m, !Cell(m, x, y).elf)
    requires noTargets ==> m' == m
    requires SideHp(m', Cell(m, x, y).elf) == SideHp(m, Cell(m, x, y).elf)
    requires SideHp(m', !Cell(m, x, y).elf) <= SideHp(m, !Cell(m, x, y).elf)
    ensures TurnInv(m0, m', moved', out || noTargets)
  {
    var elf := Cell(m, x, y).elf;
    SameWallsTrans(m0, m, m');
    if out {
      OverStaysOver(m, m');
    }
    if noTargets {
      SideHpZero(m, !elf);
    }
    if IsOver(m0) {
      IsOverNoUnits(m);
      assert !NoUnits(m, elf);
    }
  }

  /**
   * The scan of `run_turn` at one cell (`x`, `y`): the board it found there, whether the unit
   * there took its turn, the cell that unit ended on and the board the turn left.
   */
  datatype Visit = Visit(x: int, y: int, before: Map, acted: bool, to: (int, int), after: Map)

  /** `v`'s unit stepped onto another cell, so the round's `moved` flag is set there. */
  predicate Stepped(v: Visit)
  {
    v.acted && v.to != (v.x, v.y)
  }

  /** Some visit of `vs` moved a unit onto `p`. */
  ghost predicate MovedInto(vs: seq<Visit>, p: (int, int))
  {
    exists j :: 0 <= j < |vs| && Stepped(vs[j]) && vs[j].to == p
  }

  /** Cell (`x`, `y`) comes before cell (`x'`, `y'`) in the reading order of `iter_xy`. */
  predicate Earlier(x: int, y: int, x': int, y': int)
  {
    y < y' || (y == y' && x < x')
  }

  /**
   * What one unit's turn does to the board `m` it starts on, as `UnitTurn` promises it: the
   * unit steps onto `r` as `StepRule` chooses (or stays) and then attacks from `r`.
   */
  ghost predicate TurnEffect(m: Map, x: int, y: int, r: (int, int), m': Map)
  {
    WellFormed(m) && InBounds(m, x, y) && Cell(m, x, y).Fighter? &&
    WellFormed(m') && SameWalls(m, m') &&
    (NoUnits(m, !Cell(m, x, y).elf) ==> m' == m && r == (x, y)) &&
    SideHp(m', Cell(m, x, y).elf) == SideHp(m, Cell(m, x, y).elf) &&
    SideHp(m', !Cell(m, x, y).elf) <= SideHp(m, !Cell(m, x, y).elf) &&
    (r == (x, y) || (r in Neighbors(x, y) && Open(m, r))) &&
    StepRule(m, x, y, r) &&
    m' == Attack(if r == (x, y) then m else MoveTo(m, (x, y), r), r.0, r.1, !Cell(m, x, y).elf)
  }

  /**
   * Visit `v` follows the visits `prior` of the same round: the unit on its cell takes its turn
   * exactly when it is a fighter no earlier turn moved there, and a cell without a turn
   * leaves the board as it was.
   */
  ghost predicate VisitFits(prior: seq<Visit>, v: Visit)
  {
    v.before.Valid() && InBounds(v.before, v.x, v.y) &&
    (v.acted <==> Cell(v.before, v.x, v.y).Fighter? && !MovedInto(prior, (v.x, v.y))) &&
    (v.acted ==> TurnEffect(v.before, v.x, v.y, v.to, v.after)) &&
    (!v.acted ==> v.after == v.before && v.to == (v.x, v.y))
  }

  /** The unit of `v` took its turn and found no enemy left when it marked its targets. */
  ghost predicate Stalled(v: Visit)
  {
    v.acted && v.before.Valid() && InBounds(v.before, v.x, v.y) && Cell(v.before, v.x, v.y).Fighter? &&
    NoUnits(v.before, !Cell(v.before, v.x, v.y).elf)
  }

  /** The board after the visits `vs` of a round that started on `m0`. */
  function LastBoard(m0: Map, vs: seq<Visit>): Map
  {
    if |vs| == 0 then m0 else vs[|vs| - 1].after
  }

  /**
   * `vs` is the record of a round from `m0` to `m`: cells of `m0` in reading order, each visit
   * fitting the ones before it, each starting on the board the one before it left, the first
   * on `m0` and the last leaving `m`.
   */
  ghost predicate Chronicle(m0: Map, vs: seq<Visit>, m: Map)
  {
    Chained(m0, vs, m) && AllFit(vs)
  }

  /** The cells of `vs` lie in `m0` in reading order, and its boards run from `m0` to `m`. */
  ghost predicate Chained(m0: Map, vs: seq<Visit>, m: Map)
  {
    (forall k :: 0 <= k < |vs| ==> InBounds(m0, vs[k].x, vs[k].y)) &&
    (forall i, j :: 0 <= i < j < |vs| ==> Earlier(vs[i].x, vs[i].y, vs[j].x, vs[j].y)) &&
    (forall k :: 0 < k < |vs| ==> vs[k].before == vs[k - 1].after) &&
    (|vs| > 0 ==> vs[0].before == m0) &&
    m == LastBoard(m0, vs)
  }

  /** Each visit of `vs` fits the ones before it. */
  ghost predicate AllFit(vs: seq<Visit>)
  {
    forall k {:trigger VisitFits(vs[..k], vs[k])} :: 0 <= k < |vs| ==> VisitFits(vs[..k], vs[k])
  }

  /**
   * `run_turn`: every cell is visited in reading order, and the unit there takes its turn
   * unless a unit moved onto that cell earlier in the round. `visits` records the whole round,
   * one visit per cell. The round counts exactly when no unit that took its turn found itself
   * without an enemy.
   */
  method RunTurn(m0: Map, rounds: nat) returns (m: Map, rounds': nat, visits: seq<Visit>)
    requires WellFormed(m0) && Scannable(m0)
    ensures WellFormed(m) && SameWalls(m0, m)
    ensures SideHp(m, true) <= SideHp(m0, true) && SideHp(m, false) <= SideHp(m0, false)
    ensures Chronicle(m0, visits, m) && |visits| == m0.width * m0.height && Offsets(visits, m0.width)
    ensures rounds' == rounds + 1 <==> forall k :: 0 <= k < |visits| ==> !Stalled(visits[k])
    ensures rounds' == rounds || rounds' == rounds + 1
    ensures rounds' == rounds ==> IsOver(m)
    ensures IsOver(m0) ==> m == m0
  {
    m := m0;
    var moved := Generate(m.width, m.height, (_, _) => false);
    var out := false;
    visits := [];
    ScanStart(m0, moved);
    m, out, visits := ScanRows(m0, 0, m, moved, out, visits);
    rounds' := if out then rounds else rounds + 1;
  }

  /** The scan of `run_turn` from row `y` on, to the end of the map. */
  method ScanRows(m0: Map, y: int, m: Map, moved: Grid<bool>, out: bool, vs: seq<Visit>)
    returns (m': Map, out': bool, vs': seq<Visit>)
    requires WellFormed(m0) && 0 <= y <= m0.height
    requires ScanInv(m0, m, moved, out, vs, y, 0)
    ensures WellFormed(m') && SameWalls(m0, m')
    ensures SideHp(m', true) <= SideHp(m0, true) && SideHp(m', false) <= SideHp(m0, false)
    ensures Chronicle(m0, vs', m') && |vs'| == m0.width * m0.height && Offsets(vs', m0.width)
    ensures !out' <==> forall k :: 0 <= k < |vs'| ==> !Stalled(vs'[k])
    ensures out' ==> IsOver(m')
    ensures IsOver(m0) ==> m' == m0
    decreases m0.height - y, 1
  {
    if y == m0.height {
      ScanEnd(m0, m, moved, out, vs);
      m', out', vs' := m, out, vs;
    } else {
      m', out', vs' := ScanRowAndRest(m0, y, m, moved, out, vs);
    }
  }

  /** The scan of row `y` of `run_turn` and then of the rows after it. */
  method ScanRowAndRest(m0: Map, y: int, m: Map, moved: Grid<bool>, out: bool, vs: seq<Visit>)
    returns (m': Map, out': bool, vs': seq<Visit>)
    requires WellFormed(m0) && 0 <= y < m0.height
    requires ScanInv(m0, m, moved, out, vs, y, 0)
    ensures WellFormed(m') && SameWalls(m0, m')
    ensures SideHp(m', true) <= SideHp(m0, true) && SideHp(m', false) <= SideHp(m0, false)
    ensures Chronicle(m0, vs', m') && |vs'| == m0.width * m0.height && Offsets(vs', m0.width)
    ensures !out' <==> forall k :: 0 <= k < |vs'| ==> !Stalled(vs'[k])
    ensures out' ==> IsOver(m')
    ensures IsOver(m0) ==> m' == m0
    decreases m0.height - y, 0
  {
    var m1, moved1, out1, vs1 := TurnRow(m0, y, m, moved, out, vs);
    m', out', vs' := ScanRows(m0, y + 1, m1, moved1, out1, vs1);
  }

  /** A round starts on `m0` with no flags set and nothing recorded. */
  lemma ScanStart(m0: Map, moved: Grid<bool>)
    requires WellFormed(m0) && Scannable(m0)
    requires moved.Valid() && moved.width == m0.width && moved.height == m0.height
    requires forall x, y :: InBounds(moved, x, y) ==> Cell(moved, x, y) == false
    ensures ScanInv(m0, m0, moved, false, [], 0, 0)
  {
  }

  /** What the state of a finished scan says about the round. */
  lemma ScanEnd(m0: Map, m: Map, moved: Grid<bool>, out: bool, vs: seq<Visit>)
    requires ScanInv(m0, m, moved, out, vs, m0.height, 0)
    ensures WellFormed(m) && SameWalls(m0, m)
    ensures SideHp(m, true) <= SideHp(m0, true) && SideHp(m, false) <= SideHp(m0, false)
    ensures Chronicle(m0, vs, m) && |vs| == m0.width * m0.height && Offsets(vs, m0.width)
    ensures !out <==> forall k :: 0 <= k < |vs| ==> !Stalled(vs[k])
    ensures out ==> IsOver(m)
    ensures IsOver(m0) ==> m == m0
  {
    MulComm(m0.height, m0.width);
  }

  lemma MulComm(a: int, b: int)
    ensures a * b == b * a
  {
  }

  /** The round's `moved` flags are set exactly on the cells some visit of `vs` moved a unit onto. */
  ghost predicate MovedExactly(moved: Grid<bool>, vs: seq<Visit>)
  {
    moved.Valid() &&
    forall x, y :: InBounds(moved, x, y) ==> (Cell(moved, x, y) <==> MovedInto(vs, (x, y)))
  }

  /** Visit `k` of `vs` is at the cell with row-major offset `k` in a map `w` cells wide. */
  predicate Offsets(vs: seq<Visit>, w: int)
  {
    forall k :: 0 <= k < |vs| ==> vs[k].x + vs[k].y * w == k
  }

  /** A visit at the next offset keeps the visits at their offsets. */
  lemma OffsetsSnoc(vs: seq<Visit>, v: Visit, w: int)
    requires Offsets(vs, w) && v.x + v.y * w == |vs|
    ensures Offsets(vs + [v], w)
  {
    var ws := vs + [v];
    forall k | 0 <= k < |ws|
      ensures ws[k].x + ws[k].y * w == k
    {
      if k < |vs| {
        assert ws[k] == vs[k];
      }
    }
  }

  /** A record of a whole round, one visit per offset, visits each cell of `m0` exactly there. */
  lemma EveryCellVisited(m0: Map, vs: seq<Visit>, m: Map)
    requires m0.Valid() && Chronicle(m0, vs, m) && Offsets(vs, m0.width) && |vs| == m0.width * m0.height
    ensures forall x, y :: InBounds(m0, x, y) ==>
      0 <= x + y * m0.width < |vs| && vs[x + y * m0.width].x == x && vs[x + y * m0.width].y == y
  {
    forall x, y | InBounds(m0, x, y)
      ensures 0 <= x + y * m0.width < |vs| && vs[x + y * m0.width].x == x && vs[x + y * m0.width].y == y
    {
      var w, h := m0.width, m0.height;
      MulSucc(y, w);
      assert (y + 1) * w <= h * w by {
        MulMono(y + 1, h, w);
      }
      var k := x + y * w;
      assert InBounds(m0, vs[k].x, vs[k].y);
      OffsetUnique(x, y, vs[k].x, vs[k].y, w);
    }
  }

  /** Multiplying by a natural keeps the order. */
  lemma MulMono(a: int, b: int, c: nat)
    requires a <= b
    ensures a * c <= b * c
  {
  }

  /** The state of a round with the scan standing at cell (`x`, `y`). */
  ghost predicate ScanInv(m0: Map, m: Map, moved: Grid<bool>, out: bool, vs: seq<Visit>, y: int, x: int)
  {
    TurnInv(m0, m, moved, out) && Chronicle(m0, vs, m) && |vs| == y * m0.width + x &&
    Offsets(vs, m0.width) &&
    (forall k :: 0 <= k < |vs| ==> Earlier(vs[k].x, vs[k].y, x, y)) &&
    MovedExactly(moved, vs) &&
    (out <==> exists k :: 0 <= k < |vs| && Stalled(vs[k]))
  }

  /** The visits of the cells of row `y` in `run_turn`. */
  method TurnRow(m0: Map, y: int, m: Map, moved: Grid<bool>, out: bool, vs: seq<Visit>)
    returns (m': Map, moved': Grid<bool>, out': bool, vs': seq<Visit>)
    requires WellFormed(m0) && 0 <= y < m0.height
    requires ScanInv(m0, m, moved, out, vs, y, 0)
    ensures ScanInv(m0, m', moved', out', vs', y + 1, 0)
  {
    m', moved', out', vs' := m, moved, out, vs;
    for x := 0 to m0.width
      invariant ScanInv(m0, m', moved', out', vs', y, x)
    {
      m', moved', out', vs' := ScanCell(m0, y, x, m', moved', out', vs');
    }
    ScanRowEnd(m0, m', moved', out', vs', y);
  }

  /** The visit of `run_turn` to cell (`x`, `y`): the unit there takes its turn unless it moved there this round. */
  method ScanCell(m0: Map, y: int, x: int, m: Map, moved: Grid<bool>, out: bool, vs: seq<Visit>)
    returns (m': Map, moved': Grid<bool>, out': bool, vs': seq<Visit>)
    requires WellFormed(m0) && 0 <= y < m0.height && 0 <= x < m0.width
    requires ScanInv(m0, m, moved, out, vs, y, x)
    ensures ScanInv(m0, m', moved', out', vs', y, x + 1)
  {
    if !At(moved, x, y) && At(m, x, y).Fighter? {
      var r, noTargets;
      m', r, noTargets := UnitTurn(m, x, y);
      moved' := if r != (x, y) then SetAt(moved, r.0, r.1, true) else moved;
      var v := Visit(x, y, m, true, r, m');
      ScanActed(m0, m, moved, out, vs, y, x, v, moved', noTargets);
      out', vs' := out || noTargets, vs + [v];
    } else {
      var v := Visit(x, y, m, false, (x, y), m);
      ScanSkipped(m0, m, moved, out, vs, y, x, v);
      m', moved', out', vs' := m, moved, out, vs + [v];
    }
  }

  /** Moving the scan from the end of row `y` to the start of the next keeps the round's state. */
  lemma ScanRowEnd(m0: Map, m: Map, moved: Grid<bool>, out: bool, vs: seq<Visit>, y: int)
    requires ScanInv(m0, m, moved, out, vs, y, m0.width)
    ensures ScanInv(m0, m, moved, out, vs, y + 1, 0)
  {
    MulSucc(y, m0.width);
    forall k | 0 <= k < |vs|
      ensures Earlier(vs[k].x, vs[k].y, 0, y + 1)
    {
      assert Earlier(vs[k].x, vs[k].y, m0.width, y);
    }
  }

  /** Adding a visit that fits the record extends the record to the board it leaves. */
  lemma ChronicleSnoc(m0: Map, vs: seq<Visit>, m: Map, v: Visit)
    requires Chronicle(m0, vs, m) && v.before == m && VisitFits(vs, v) && InBounds(m0, v.x, v.y)
    requires forall k :: 0 <= k < |vs| ==> Earlier(vs[k].x, vs[k].y, v.x, v.y)
    ensures Chronicle(m0, vs + [v], v.after)
  {
    ChainedSnoc(m0, vs, m, v);
    FitsSnoc(vs, v);
  }

  /** A visit in a later cell, starting on the board the record left, extends the chain. */
  lemma ChainedSnoc(m0: Map, vs: seq<Visit>, m: Map, v: Visit)
    requires Chained(m0, vs, m) && v.before == m && InBounds(m0, v.x, v.y)
    requires forall k :: 0 <= k < |vs| ==> Earlier(vs[k].x, vs[k].y, v.x, v.y)
    ensures Chained(m0, vs + [v], v.after)
  {
    var ws := vs + [v];
    assert ws[|vs|] == v;
    forall k | 0 <= k < |vs|
      ensures ws[k] == vs[k]
    {
    }
  }

  /** Each visit of the record fits the ones before it, and so does one more that fits them all. */
  lemma FitsSnoc(vs: seq<Visit>, v: Visit)
    requires AllFit(vs) && VisitFits(vs, v)
    ensures AllFit(vs + [v])
  {
    var ws := vs + [v];
    forall k | 0 <= k < |ws|
      ensures VisitFits(ws[..k], ws[k])
    {
      if k < |vs| {
        assert ws[k] == vs[k] && ws[..k] == vs[..k];
      } else {
        assert ws[k] == v && ws[..k] == vs;
      }
    }
  }

  /** A visit adds to the cells units were moved onto exactly the cell its unit stepped to. */
  lemma MovedIntoSnoc(vs: seq<Visit>, v: Visit, p: (int, int))
    ensures MovedInto(vs + [v], p) <==> MovedInto(vs, p) || (Stepped(v) && v.to == p)
  {
    var ws := vs + [v];
    if MovedInto(vs, p) {
      var j :| 0 <= j < |vs| && Stepped(vs[j]) && vs[j].to == p;
      assert ws[j] == vs[j];
    }
    if Stepped(v) && v.to == p {
      assert ws[|vs|] == v;
    }
    if MovedInto(ws, p) {
      var j :| 0 <= j < |ws| && Stepped(ws[j]) && ws[j].to == p;
      if j < |vs| {
        assert ws[j] == vs[j];
      }
    }
  }

  /** The flags after a visit are set exactly where the record says units were moved. */
  lemma MovedSnoc(moved: Grid<bool>, moved': Grid<bool>, vs: seq<Visit>, v: Visit)
    requires MovedExactly(moved, vs)
    requires Stepped(v) ==> InBounds(moved, v.to.0, v.to.1) && moved' == SetAt(moved, v.to.0, v.to.1, true)
    requires !Stepped(v) ==> moved' == moved
    ensures MovedExactly(moved', vs + [v])
  {
    forall x, y | InBounds(moved', x, y)
      ensures Cell(moved', x, y) <==> MovedInto(vs + [v], (x, y))
    {
      MovedIntoSnoc(vs, v, (x, y));
      if Stepped(v) {
        PutGet(moved, v.to.0, v.to.1, true, x, y, false);
      }
    }
  }

  /** A recorded visit whose unit took its turn moves the scan one cell on. */
  lemma ScanActed(m0: Map, m: Map, moved: Grid<bool>, out: bool, vs: seq<Visit>, y: int, x: int, v: Visit, moved': Grid<bool>, noTargets: bool)
    requires WellFormed(m0) && 0 <= y < m0.height && 0 <= x < m0.width
    requires ScanInv(m0, m, moved, out, vs, y, x)
    requires !At(moved, x, y) && At(m, x, y).Fighter?
    requires v.x == x && v.y == y && v.before == m && v.acted && TurnEffect(m, x, y, v.to, v.after)
    requires noTargets <==> NoUnits(m, !Cell(m, x, y).elf)
    requires moved' == if v.to != (x, y) then SetAt(moved, v.to.0, v.to.1, true) else moved
    ensures ScanInv(m0, v.after, moved', out || noTargets, vs + [v], y, x + 1)
  {
    assert VisitFits(vs, v);
    ChronicleSnoc(m0, vs, m, v);
    OffsetsSnoc(vs, v, m0.width);
    MovedSnoc(moved, moved', vs, v);
    TurnStep(m0, m, v.after, moved, moved', out, x, y, noTargets);
    ScanOut(vs, v, out, noTargets);
    ScanOn(vs, v);
  }

  /** A recorded visit whose cell holds no unit due a turn moves the scan one cell on. */
  lemma ScanSkipped(m0: Map, m: Map, moved: Grid<bool>, out: bool, vs: seq<Visit>, y: int, x: int, v: Visit)
    requires WellFormed(m0) && 0 <= y < m0.height && 0 <= x < m0.width
    requires ScanInv(m0, m, moved, out, vs, y, x)
    requires !(!At(moved, x, y) && At(m, x, y).Fighter?)
    requires v == Visit(x, y, m, false, (x, y), m)
    ensures ScanInv(m0, m, moved, out, vs + [v], y, x + 1)
  {
    assert VisitFits(vs, v);
    ChronicleSnoc(m0, vs, m, v);
    OffsetsSnoc(vs, v, m0.width);
    MovedSnoc(moved, moved, vs, v);
    ScanOut(vs, v, out, false);
    ScanOn(vs, v);
  }

  /** The flag `out_of_targets` after a visit: set exactly when some recorded turn stalled. */
  lemma ScanOut(vs: seq<Visit>, v: Visit, out: bool, stalled: bool)
    requires out <==> exists k :: 0 <= k < |vs| && Stalled(vs[k])
    requires stalled <==> Stalled(v)
    ensures out || stalled <==> exists k :: 0 <= k < |vs + [v]| && Stalled((vs + [v])[k])
  {
    var ws := vs + [v];
    if out {
      var k :| 0 <= k < |vs| && Stalled(vs[k]);
      assert ws[k] == vs[k];
    }
    if stalled {
      assert ws[|vs|] == v;
    }
    if exists k :: 0 <= k < |ws| && Stalled(ws[k]) {
      var k :| 0 <= k < |ws| && Stalled(ws[k]);
      if k < |vs| {
        assert ws[k] == vs[k];
      }
    }
  }

  /** Every visit so far, and the new one, lies before the next cell of the scan. */
  lemma ScanOn(vs: seq<Visit>, v: Visit)
    requires forall k :: 0 <= k < |vs| ==> Earlier(vs[k].x, vs[k].y, v.x, v.y)
    ensures forall k :: 0 <= k < |vs + [v]| ==> Earlier((vs + [v])[k].x, (vs + [v])[k].y, v.x + 1, v.y)
  {
    var ws := vs + [v];
    forall k | 0 <= k < |ws|
      ensures Earlier(ws[k].x, ws[k].y, v.x + 1, v.y)
    {
      if k < |vs| {
        assert ws[k] == vs[k];
      }
    }
  }

  /**
   * `Simulation::run`, for at most `fuel` calls of `run_turn`: the source loops until the
   * combat is over. `calls` counts the rounds run; every one but a final one counts in `rounds`.
   */
  method Run(m0: Map, fuel: nat) returns (m: Map, rounds: nat, calls: nat)
    requires WellFormed(m0) && Scannable(m0)
    ensures WellFormed(m) && SameWalls(m0, m)
    ensures calls <= fuel && rounds <= calls <= rounds + 1
    ensures calls == rounds + 1 ==> IsOver(m)
    ensures calls < fuel ==> IsOver(m)
    ensures !IsOver(m) ==> rounds == fuel
  {
    m, rounds, calls := m0, 0, 0;
    while !IsOver(m) && calls < fuel
      invariant WellFormed(m) && SameWalls(m0, m) && Scannable(m)
      invariant calls <= fuel && rounds <= calls <= rounds + 1
      invariant calls == rounds + 1 ==> IsOver(m)
      decreases fuel - calls
    {
      var m', rounds', _ := RunTurn(m, rounds);
      SameWallsTrans(m0, m, m');
      m, rounds, calls := m', rounds', calls + 1;
    }
  }

  /**
   * `run`: load the map, fight, and report the outcome; `None` when the combat is still going
   * after `fuel` rounds. An empty first line would make the scans of the zero-width map spin
   * forever, so it is excluded.
   */
  method Solve(lines: seq<string>, fuel: nat) returns (r: Result<Option<nat>>)
    requires |lines| > 0 ==> |lines[0]| > 0
    ensures r.Err? <==> LoadMap(lines).Err?
    ensures r.Ok? && r.value.Some? ==>
      exists m: Map, rounds: nat :: WellFormed(m) && SameWalls(LoadMap(lines).value, m) && IsOver(m) && r.value.value == Outcome(m, rounds)
  {
    var loaded := LoadMap(lines);
    if loaded.Err? {
      return Err(loaded.msg);
    }
    LoadMapCells(lines);
    LoadMapWellFormed(lines);
    var m, rounds, calls := Run(loaded.value, fuel);
    if IsOver(m) {
      r := Ok(Some(Outcome(m, rounds)));
    } else {
      r := Ok(None);
    }
  }
}

=== FILE: day16.dfy ===
/**
 * The wrist device's sixteen opcodes: samples of registers before and after one instruction
 * narrow down which opcode number means which operation, and the test program is then run
 * under the recovered numbering. Bit masks over the sixteen operations (`u16` in the source)
 * are sets of operation numbers here: bit `i` is set exactly when `i` is in the set.
 */
module Day16 {
  import opened Common
  import opened Bits

  /** `Registers`: four registers (`u32` in the source). */
  type Registers = r: seq<nat> | |r| == 4 witness [0, 0, 0, 0]

  datatype Inst = Inst(op: nat, a: nat, b: nat, c: nat)

  datatype Sample = Sample(before: Registers, inst: Inst, after: Registers)

  /** Number of operations. */
  const NumOps: nat := 16

  /** The register an operand names: `x & 3` (see `Bits.AndThree`). */
  function Reg(x: nat): (r: nat)
    ensures r < 4 && r == And(x, 3)
  {
    AndThree(x);
    x % 4
  }

  /** A comparison result as a number. */
  function Flag(b: bool): nat
  {
    if b then 1 else 0
  }

  /** The value operation `op` of `exec_op` computes from the registers and the operands. */
  function OpValue(op: nat, i: Inst, regs: Registers): nat
    requires op < NumOps
  {
    var ra, rb := Reg(i.a), Reg(i.b);
    var va, vb := i.a, i.b;
    match op
    case 0 => regs[ra] + regs[rb]
    case 1 => regs[ra] + vb
    case 2 => regs[ra] * regs[rb]
    case 3 => regs[ra] * vb
    case 4 => And(regs[ra], regs[rb])
    case 5 => And(regs[ra], vb)
    case 6 => Or(regs[ra], regs[rb])
    case 7 => Or(regs[ra], vb)
    case 8 => regs[ra]
    case 9 => va
    case 10 => Flag(regs[ra] > regs[rb])
    case 11 => Flag(regs[ra] > vb)
    case 12 => Flag(va > regs[rb])
    case 13 => Flag(regs[ra] == regs[rb])
    case 14 => Flag(regs[ra] == vb)
    case _ => Flag(va == regs[rb])
  }

  /** `exec_op`; an opcode above 15 panics. */
  function Exec(op: nat, i: Inst, regs: Registers): (r: Registers)
    requires op < NumOps
    ensures forall j :: 0 <= j < 4 && j != Reg(i.c) ==> r[j] == regs[j]
    ensures r[Reg(i.c)] == OpValue(op, i, regs)
  {
    regs[Reg(i.c) := OpValue(op, i, regs)]
  }

  /** The comparison operations write 0 or 1; the immediate ones ignore register `b & 3`. */
  lemma OpShapes(op: nat, i: Inst, regs: Registers, v: nat)
    requires op < NumOps
    ensures 10 <= op ==> OpValue(op, i, regs) <= 1
    ensures op in {1, 3, 5, 7, 8, 9, 11, 14} ==> OpValue(op, i, regs[Reg(i.b) := v]) == OpValue(op, i, regs) || Reg(i.b) == Reg(i.a)
  {
  }

  // ---------------------------------------------------------------------------------------
  // Matching samples

  /** Operation `op` turns the sample's `before` into its `after`. */
  predicate Matches(s: Sample, op: nat)
  {
    op < NumOps && Exec(op, s.inst, s.before) == s.after
  }

  /** The operations the sample behaves like. */
  ghost function Matching(s: Sample): set<nat>
  {
    set op: nat | op < NumOps && Matches(s, op)
  }

  /** `matching_ops`: bit `op` of the mask is set exactly when operation `op` matches. */
  method MatchingOps(s: Sample) returns (r: set<nat>)
    ensures forall op: nat :: op in r <==> Matches(s, op)
    ensures r == Matching(s)
  {
    r := {};
    for i := 0 to NumOps
      invariant forall op: nat :: op in r <==> op < i && Matches(s, op)
    {
      var regs := Exec(i, s.inst, s.before);
      if regs == s.after {
        r := r + {i};
      }
    }
  }

  /** `count_matching_ops`: `count_ones` of the mask is the number of operations in the set. */
  method CountMatchingOps(s: Sample) returns (n: nat)
    ensures n == |Matching(s)| && n <= NumOps
  {
    var r := MatchingOps(s);
    SubsetOfRangeSize(r, NumOps);
    n := |r|;
  }

  /** The sample behaves like three or more operations. */
  ghost predicate Ambiguous(s: Sample)
  {
    |Matching(s)| >= 3
  }

  /** The indices below `k` of ambiguous samples. */
  ghost function AmbiguousBelow(samples: seq<Sample>, k: nat): set<nat>
    requires k <= |samples|
  {
    set k': nat | k' < k && Ambiguous(samples[k'])
  }

  lemma AmbiguousBelowStep(samples: seq<Sample>, k: nat)
    requires k < |samples|
    ensures AmbiguousBelow(samples, k + 1) ==
            AmbiguousBelow(samples, k) + (if Ambiguous(samples[k]) then {k} else {})
    ensures k !in AmbiguousBelow(samples, k)
  {
  }

  /** Part one: how many samples behave like three or more operations. */
  method CountAmbiguous(samples: seq<Sample>) returns (n: nat)
    ensures n == |AmbiguousBelow(samples, |samples|)|
  {
    n := 0;
    for k := 0 to |samples|
      invariant n == |AmbiguousBelow(samples, k)|
    {
      var c := CountMatchingOps(samples[k]);
      AmbiguousBelowStep(samples, k);
      if c >= 3 {
        n := n + 1;
      }
    }
  }

  // ---------------------------------------------------------------------------------------
  // Recovering the opcode numbering

  /** Every sample's opcode indexes the candidate table. */
  predicate OpsInRange(samples: seq<Sample>)
  {
    forall k :: 0 <= k < |samples| ==> samples[k].inst.op < NumOps
  }

  /** Operation `op` matches every sample of opcode `i`. */
  predicate Consistent(samples: seq<Sample>, i: nat, op: nat)
  {
    op < NumOps && forall k :: 0 <= k < |samples| && samples[k].inst.op == i ==> Matches(samples[k], op)
  }

  lemma ConsistentStep(samples: seq<Sample>, k: nat)
    requires k < |samples|
    ensures forall i: nat, op: nat :: Consistent(samples[..k + 1], i, op) <==>
              Consistent(samples[..k], i, op) && (samples[k].inst.op == i ==> Matches(samples[k], op))
  {
    assert samples[..k + 1] == samples[..k] + [samples[k]];
  }

  /** The candidate sets after folding in one more sample. */
  lemma CandidatesStep(samples: seq<Sample>, k: nat, cand: seq<set<nat>>, m: set<nat>)
    requires k < |samples| && samples[k].inst.op < NumOps && |cand| == NumOps
    requires forall i: nat, op: nat :: i < NumOps ==> (op in cand[i] <==> Consistent(samples[..k], i, op))
    requires forall op: nat :: op in m <==> Matches(samples[k], op)
    ensures var i := samples[k].inst.op; var cand' := cand[i := cand[i] * m];
            forall i: nat, op: nat :: i < NumOps ==> (op in cand'[i] <==> Consistent(samples[..k + 1], i, op))
  {
    ConsistentStep(samples, k);
  }

  /** The first loop of `create_opcode_map`: each opcode's candidates are the AND of its samples' masks. */
  method Candidates(samples: seq<Sample>) returns (cand: seq<set<nat>>)
    requires OpsInRange(samples)
    ensures |cand| == NumOps
    ensures forall i: nat, op: nat :: i < NumOps ==> (op in cand[i] <==> Consistent(samples, i, op))
  {
    cand := seq(NumOps, _ => Range(NumOps));
    for k := 0 to |samples|
      invariant |cand| == NumOps
      invariant forall i: nat, op: nat :: i < NumOps ==> (op in cand[i] <==> Consistent(samples[..k], i, op))
    {
      var m := MatchingOps(samples[k]);
      var i := samples[k].inst.op;
      CandidatesStep(samples, k, cand, m);
      cand := cand[i := cand[i] * m];
    }
    assert samples[..|samples|] == samples;
  }

  /** `p` numbers the sixteen operations one-to-one. */
  predicate IsPermutation(p: seq<nat>)
  {
    |p| == NumOps && (forall i :: 0 <= i < NumOps ==> p[i] < NumOps) &&
    forall i, j :: 0 <= i < j < NumOps ==> p[i] != p[j]
  }

  /** `p` gives every opcode one of its candidates. */
  predicate Fits(p: seq<nat>, cand: seq<set<nat>>)
    requires |p| == NumOps && |cand| == NumOps
  {
    forall i :: 0 <= i < NumOps ==> p[i] in cand[i]
  }

  /** A numbering the samples allow: a permutation within the candidates. */
  predicate Allowed(p: seq<nat>, cand: seq<set<nat>>)
    requires |cand| == NumOps
  {
    IsPermutation(p) && Fits(p, cand)
  }

  /** The pinned opcodes have distinct operations among their candidates, and no others left. */
  ghost predicate PinnedOk(cand: seq<set<nat>>, result: seq<nat>, used: set<nat>, pinned: set<nat>)
  {
    |cand| == NumOps && |result| == NumOps &&
    (forall i :: i in pinned ==> i < NumOps && result[i] in cand[i] && cand[i] <= used) &&
    forall i, j :: i in pinned && j in pinned && i != j ==> result[i] != result[j]
  }

  /** The used operations are exactly those of the pinned opcodes, one per opcode. */
  ghost predicate UsedImage(result: seq<nat>, used: set<nat>, pinned: set<nat>)
    requires forall i :: i in pinned ==> i < |result|
  {
    used == (set i | i in pinned :: result[i]) && |used| == |pinned|
  }

  /** Every allowed numbering agrees with the pinned opcodes. */
  ghost predicate Determined(cand: seq<set<nat>>, result: seq<nat>, pinned: set<nat>)
    requires |cand| == NumOps && |result| == NumOps && forall i :: i in pinned ==> i < NumOps
  {
    forall p: seq<nat> | Allowed(p, cand) :: forall i :: i in pinned ==> p[i] == result[i]
  }

  /** The state of the elimination. */
  ghost predicate Elim(cand: seq<set<nat>>, result: seq<nat>, used: set<nat>, pinned: set<nat>)
  {
    PinnedOk(cand, result, used, pinned) && UsedImage(result, used, pinned) && Determined(cand, result, pinned)
  }

  /** An allowed numbering gives an unpinned opcode an operation no pinned opcode uses. */
  lemma AllowedAvoidsUsed(cand: seq<set<nat>>, result: seq<nat>, used: set<nat>, pinned: set<nat>,
                          p: seq<nat>, i: nat)
    requires Elim(cand, result, used, pinned) && i < NumOps && i !in pinned && Allowed(p, cand)
    ensures p[i] !in used
  {
  }

  /** Pinning one more opcode to a fresh operation adds that operation to the image. */
  lemma ImagePin(result: seq<nat>, used: set<nat>, pinned: set<nat>, i: nat, v: nat)
    requires forall j :: j in pinned ==> j < |result|
    requires i < |result| && i !in pinned && v !in used && UsedImage(result, used, pinned)
    ensures UsedImage(result[i := v], used + {v}, pinned + {i})
  {
    var result' := result[i := v];
    forall j | j in pinned
      ensures result'[j] == result[j]
    {
    }
    assert (set j | j in pinned + {i} :: result'[j]) == (set j | j in pinned :: result[j]) + {v};
  }

  lemma PinnedOkPin(cand: seq<set<nat>>, result: seq<nat>, used: set<nat>, pinned: set<nat>, i: nat, v: nat)
    requires PinnedOk(cand, result, used, pinned) && forall j :: j in pinned ==> result[j] in used
    requires i < NumOps && i !in pinned && cand[i] - used == {v}
    ensures PinnedOk(cand, result[i := v], used + {v}, pinned + {i})
  {
  }

  /** Every allowed numbering gives opcode `i` its one remaining candidate. */
  lemma ForcedValue(cand: seq<set<nat>>, result: seq<nat>, used: set<nat>, pinned: set<nat>, i: nat, v: nat)
    requires Elim(cand, result, used, pinned) && i < NumOps && i !in pinned && cand[i] - used == {v}
    ensures forall p: seq<nat> | Allowed(p, cand) :: p[i] == v
  {
    forall p: seq<nat> | Allowed(p, cand)
      ensures p[i] == v
    {
      AllowedAvoidsUsed(cand, result, used, pinned, p, i);
      assert p[i] in cand[i] - used;
    }
  }

  lemma DeterminedPin(cand: seq<set<nat>>, result: seq<nat>, pinned: set<nat>, i: nat, v: nat)
    requires |cand| == NumOps && |result| == NumOps && (forall j :: j in pinned ==> j < NumOps) && i < NumOps
    requires Determined(cand, result, pinned) && forall p: seq<nat> | Allowed(p, cand) :: p[i] == v
    ensures Determined(cand, result[i := v], pinned + {i})
  {
    forall p: seq<nat> | Allowed(p, cand)
      ensures forall j :: j in pinned + {i} ==> p[j] == result[i := v][j]
    {
    }
  }

  /** An opcode with one candidate left besides the used ones is forced to it. */
  lemma Forced(cand: seq<set<nat>>, result: seq<nat>, used: set<nat>, pinned: set<nat>, i: nat, v: nat)
    requires Elim(cand, result, used, pinned) && i < NumOps && i !in pinned && cand[i] - used == {v}
    ensures Elim(cand, result[i := v], used + {v}, pinned + {i})
  {
    assert v !in used;
    assert forall j :: j in pinned ==> result[j] in used;
    PinnedOkPin(cand, result, used, pinned, i, v);
    ImagePin(result, used, pinned, i, v);
    ForcedValue(cand, result, used, pinned, i, v);
    DeterminedPin(cand, result, pinned, i, v);
  }

  /** `n` distinct numbers below `n` are all of them. */
  lemma AllBelow(s: set<nat>, n: nat)
    requires (forall i :: i in s ==> i < n) && |s| == n
    ensures forall i :: 0 <= i < n ==> i in s
  {
    forall i | 0 <= i < n
      ensures i in s
    {
      if i !in s {
        SubsetSize(s, Range(n) - {i});
      }
    }
  }

  /** With every opcode pinned to a distinct operation below sixteen, the numbering is allowed. */
  lemma PinnedAllowed(cand: seq<set<nat>>, result: seq<nat>, used: set<nat>, pinned: set<nat>)
    requires PinnedOk(cand, result, used, pinned) && forall i :: 0 <= i < NumOps ==> i in pinned
    requires (forall i :: i in pinned ==> result[i] in used) && forall v :: v in used ==> v < NumOps
    ensures Allowed(result, cand)
  {
    forall i | 0 <= i < NumOps
      ensures result[i] < NumOps && result[i] in cand[i]
    {
      assert i in pinned;
    }
    forall i, j | 0 <= i < j < NumOps
      ensures result[i] != result[j]
    {
      assert i in pinned && j in pinned;
    }
  }

  /** With every opcode pinned, no other numbering is allowed. */
  lemma PinnedUnique(cand: seq<set<nat>>, result: seq<nat>, pinned: set<nat>)
    requires |cand| == NumOps && |result| == NumOps && forall i :: i in pinned ==> i < NumOps
    requires Determined(cand, result, pinned) && forall i :: 0 <= i < NumOps ==> i in pinned
    ensures forall p: seq<nat> :: Allowed(p, cand) ==> p == result
  {
    forall p: seq<nat> | Allowed(p, cand)
      ensures p == result
    {
      forall i | 0 <= i < NumOps
        ensures p[i] == result[i]
      {
        assert i in pinned;
      }
    }
  }

  /** A pinned opcode has no candidate left besides the used operations. */
  lemma PinnedExhausted(cand: seq<set<nat>>, result: seq<nat>, used: set<nat>, pinned: set<nat>, i: nat)
    requires PinnedOk(cand, result, used, pinned) && i in pinned
    ensures cand[i] - used == {}
  {
  }

  /** A one-element set is the singleton of any of its elements. */
  lemma SingleElement(s: set<nat>, v: nat)
    requires |s| == 1 && v in s
    ensures s == {v}
  {
    assert |s - {v}| == 0;
  }

  /** One opcode of a pass: pin it if exactly one of its candidates is still unused. */
  method Visit(cand: seq<set<nat>>, result0: seq<nat>, used0: set<nat>, ghost pinned0: set<nat>, i: nat)
    returns (result: seq<nat>, used: set<nat>, ghost pinned: set<nat>)
    requires Elim(cand, result0, used0, pinned0) && i < NumOps
    ensures Elim(cand, result, used, pinned)
  {
    result, used, pinned := result0, used0, pinned0;
    var mask := cand[i] - used;
    if |mask| == 1 {
      var v :| v in mask;
      SingleElement(mask, v);
      if i in pinned {
        PinnedExhausted(cand, result, used, pinned, i);
        assert false;
      }
      Forced(cand, result, used, pinned, i, v);
      used, result, pinned := used + mask, result[i := v], pinned + {i};
    }
  }

  /** One pass of the elimination over the sixteen opcodes. */
  method EliminationPass(cand: seq<set<nat>>, result0: seq<nat>, used0: set<nat>, ghost pinned0: set<nat>)
    returns (result: seq<nat>, used: set<nat>, ghost pinned: set<nat>)
    requires Elim(cand, result0, used0, pinned0)
    ensures Elim(cand, result, used, pinned)
  {
    result, used, pinned := result0, used0, pinned0;
    for i := 0 to NumOps
      invariant Elim(cand, result, used, pinned)
    {
      result, used, pinned := Visit(cand, result, used, pinned, i);
    }
  }

  /**
   * The elimination of `create_opcode_map`: sixteen passes over the opcodes, each pinning an
   * opcode whose candidates minus the used operations hold exactly one. It fails unless
   * all sixteen operations end up used; on success the numbering is the only one the
   * candidates allow.
   */
  method CreateOpcodeMap(cand: seq<set<nat>>) returns (r: Result<seq<nat>>)
    requires |cand| == NumOps
    ensures r.Ok? ==> Allowed(r.value, cand)
    ensures r.Ok? ==> forall p: seq<nat> :: Allowed(p, cand) ==> p == r.value
  {
    var result: seq<nat> := seq(NumOps, _ => 0);
    var used: set<nat> := {};
    ghost var pinned: set<nat> := {};
    for pass := 0 to NumOps
      invariant Elim(cand, result, used, pinned)
    {
      result, used, pinned := EliminationPass(cand, result, used, pinned);
    }
    var all := Range(NumOps);
    if used != all {
      return Err("No unique mapping found");
    }
    assert |pinned| == NumOps;
    AllBelow(pinned, NumOps);
    assert forall i :: i in pinned ==> result[i] in used;
    PinnedAllowed(cand, result, used, pinned);
    PinnedUnique(cand, result, pinned);
    r := Ok(result);
  }

  // ---------------------------------------------------------------------------------------
  // Running the program

  /** Every instruction's opcode indexes the numbering. */
  predicate ProgramInRange(insts: seq<Inst>)
  {
    forall k :: 0 <= k < |insts| ==> insts[k].op < NumOps
  }

  /** The registers after `insts` from `regs`, each opcode translated through `mapping`. */
  function Execute(mapping: seq<nat>, insts: seq<Inst>, regs: Registers): Registers
    requires IsPermutation(mapping) && ProgramInRange(insts)
  {
    if |insts| == 0 then regs
    else
      var last := insts[|insts| - 1];
      Exec(mapping[last.op], last, Execute(mapping, insts[..|insts| - 1], regs))
  }

  /** Running two programs one after the other is running their concatenation. */
  lemma {:induction false} ExecuteAppend(mapping: seq<nat>, a: seq<Inst>, b: seq<Inst>, regs: Registers)
    requires IsPermutation(mapping)
    requires ProgramInRange(a) && ProgramInRange(b)
    ensures ProgramInRange(a + b)
    ensures Execute(mapping, a + b, regs) == Execute(mapping, b, Execute(mapping, a, regs))
  {
    if |b| > 0 {
      var n := |b| - 1;
      assert (a + b)[..|a + b| - 1] == a + b[..n];
      ExecuteAppend(mapping, a, b[..n], regs);
    } else {
      assert a + b == a;
    }
  }

  /** A register that no instruction writes keeps its value. */
  lemma {:induction false} ExecuteUnwritten(mapping: seq<nat>, insts: seq<Inst>, regs: Registers, j: nat)
    requires IsPermutation(mapping) && ProgramInRange(insts)
    requires j < 4 && forall k :: 0 <= k < |insts| ==> Reg(insts[k].c) != j
    ensures Execute(mapping, insts, regs)[j] == regs[j]
  {
    if |insts| > 0 {
      ExecuteUnwritten(mapping, insts[..|insts| - 1], regs, j);
    }
  }

  /** `run_with_mapping`: runs the program from all-zero registers. */
  method RunWithMapping(insts: seq<Inst>, mapping: seq<nat>) returns (regs: Registers)
    requires IsPermutation(mapping) && ProgramInRange(insts)
    ensures regs == Execute(mapping, insts, [0, 0, 0, 0])
  {
    regs := [0, 0, 0, 0];
    for k := 0 to |insts|
      invariant regs == Execute(mapping, insts[..k], [0, 0, 0, 0])
    {
      assert insts[..k + 1][..k] == insts[..k];
      regs := Exec(mapping[insts[k].op], insts[k], regs);
    }
    assert insts[..|insts|] == insts;
  }

  // ---------------------------------------------------------------------------------------
  // Parsing

  /**
   * A line as the two regular expressions classify it: blank, a `Before:`/`After:` register
   * line, an instruction line, or neither.
   */
  datatype Line = Blank | RegLine(isBefore: bool, regs: Registers) | InstLine(inst: Inst) | Unmatched

  /** `ParseState`. */
  datatype ParseState = Idle | Before(regs: Registers) | Pending(regs: Registers, inst: Inst)

  datatype Parsed = Parsed(state: ParseState, samples: seq<Sample>, insts: seq<Inst>)

  /**
   * One line of `parse_input`: `Before` only from `Idle`, `After` only after a sample's
   * instruction, an instruction in `Idle` joins the program and after `Before` joins the
   * sample; anything else is an error.
   */
  function ParseLine(p: Parsed, line: Line): (r: Result<Parsed>)
    ensures r.Ok? ==> |p.samples| <= |r.value.samples| && |p.insts| <= |r.value.insts|
    ensures line.Unmatched? ==> r.Err?
    ensures line.RegLine? && line.isBefore ==> (r.Ok? <==> p.state.Idle?)
    ensures line.RegLine? && !line.isBefore ==> (r.Ok? <==> p.state.Pending?)
    ensures line.InstLine? ==> (r.Ok? <==> !p.state.Pending?)
    ensures line.InstLine? && p.state.Idle? ==> r == Ok(Parsed(Idle, p.samples, p.insts + [line.inst]))
  {
    match line
    case Blank => Ok(p)
    case Unmatched => Err("Failed to parse line")
    case RegLine(isBefore, regs) =>
      if isBefore then
        if p.state.Idle? then Ok(p.(state := Before(regs))) else Err("invalid parse state")
      else
        if p.state.Pending? then Ok(Parsed(Idle, p.samples + [Sample(p.state.regs, p.state.inst, regs)], p.insts))
        else Err("Invalid parse state")
    case InstLine(inst) =>
      match p.state
      case Idle => Ok(p.(insts := p.insts + [inst]))
      case Before(regs) => Ok(p.(state := Pending(regs, inst)))
      case Pending(_, _) => Err("Invalid parse state")
  }

  function ParseFrom(p: Parsed, lines: seq<Line>): Result<Parsed>
    decreases |lines|
  {
    if |lines| == 0 then Ok(p)
    else
      var p' :- ParseLine(p, lines[0]);
      ParseFrom(p', lines[1..])
  }

  /** `parse_input`: the samples and the program; a sample left unfinished at the end is dropped. */
  function ParseInput(lines: seq<Line>): Result<(seq<Sample>, seq<Inst>)>
  {
    var p :- ParseFrom(Parsed(Idle, [], []), lines);
    Ok((p.samples, p.insts))
  }

  /** The input format: each sample as `Before`, instruction, `After` and a blank line, then the program. */
  function Render(samples: seq<Sample>, insts: seq<Inst>): seq<Line>
  {
    RenderSamples(samples) + [Blank, Blank] + RenderInsts(insts)
  }

  function RenderSamples(samples: seq<Sample>): seq<Line>
  {
    if |samples| == 0 then []
    else [RegLine(true, samples[0].before), InstLine(samples[0].inst), RegLine(false, samples[0].after), Blank] +
         RenderSamples(samples[1..])
  }

  function RenderInsts(insts: seq<Inst>): seq<Line>
  {
    if |insts| == 0 then [] else [InstLine(insts[0])] + RenderInsts(insts[1..])
  }

  lemma ParseFromAppend(p: Parsed, a: seq<Line>, b: seq<Line>)
    ensures ParseFrom(p, a + b) == (var q := ParseFrom(p, a); if q.Err? then q else ParseFrom(q.value, b))
    decreases |a|
  {
    if |a| > 0 {
      assert (a + b)[0] == a[0] && (a + b)[1..] == a[1..] + b;
      var q := ParseLine(p, a[0]);
      if q.Ok? {
        ParseFromAppend(q.value, a[1..], b);
      }
    } else {
      assert a + b == b;
    }
  }

  lemma {:induction false} ParseSamples(samples: seq<Sample>, done: seq<Sample>)
    ensures ParseFrom(Parsed(Idle, done, []), RenderSamples(samples)) == Ok(Parsed(Idle, done + samples, []))
    decreases |samples|
  {
    if |samples| == 0 {
      assert done + samples == done;
    } else {
      var s := samples[0];
      var four := [RegLine(true, s.before), InstLine(s.inst), RegLine(false, s.after), Blank];
      ParseFromAppend(Parsed(Idle, done, []), four, RenderSamples(samples[1..]));
      var st := Parsed(Idle, done, []);
      assert ParseFrom(st, four) == Ok(Parsed(Idle, done + [s], [])) by {
        var p1 := st.(state := Before(s.before));
        var p2 := st.(state := Pending(s.before, s.inst));
        var p3 := Parsed(Idle, done + [s], []);
        assert ParseFrom(p3, [Blank]) == Ok(p3);
        assert ParseFrom(p2, [RegLine(false, s.after), Blank]) == Ok(p3) by {
          assert [RegLine(false, s.after), Blank][1..] == [Blank];
        }
        assert ParseFrom(p1, [InstLine(s.inst), RegLine(false, s.after), Blank]) == Ok(p3) by {
          assert [InstLine(s.inst), RegLine(false, s.after), Blank][1..] == [RegLine(false, s.after), Blank];
        }
        assert four[1..] == [InstLine(s.inst), RegLine(false, s.after), Blank];
      }
      ParseSamples(samples[1..], done + [s]);
      assert done + [s] + samples[1..] == done + samples;
    }
  }

  lemma {:induction false} ParseInsts(samples: seq<Sample>, insts: seq<Inst>, done: seq<Inst>)
    ensures ParseFrom(Parsed(Idle, samples, done), RenderInsts(insts)) == Ok(Parsed(Idle, samples, done + insts))
    decreases |insts|
  {
    if |insts| == 0 {
      assert done + insts == done;
    } else {
      ParseInsts(samples, insts[1..], done + [insts[0]]);
      assert done + [insts[0]] + insts[1..] == done + insts;
    }
  }

  /** Parsing the rendered input gives back the samples and the program. */
  lemma ParseRender(samples: seq<Sample>, insts: seq<Inst>)
    ensures ParseInput(Render(samples, insts)) == Ok((samples, insts))
  {
    var start := Parsed(Idle, [], []);
    ParseFromAppend(start, RenderSamples(samples), [Blank, Blank] + RenderInsts(insts));
    ParseSamples(samples, []);
    assert [] + samples == samples;
    var mid := Parsed(Idle, samples, []);
    ParseFromAppend(mid, [Blank, Blank], RenderInsts(insts));
    assert [Blank, Blank][1..] == [Blank];
    ParseInsts(samples, insts, []);
    assert [] + insts == insts;
    assert Render(samples, insts) == RenderSamples(samples) + ([Blank, Blank] + RenderInsts(insts));
  }

  /** A numbering the samples allow: a permutation under which every sample matches its operation. */
  predicate SamplesAllow(p: seq<nat>, samples: seq<Sample>)
  {
    IsPermutation(p) && forall i :: 0 <= i < NumOps ==> Consistent(samples, i, p[i])
  }

  lemma AllowedBySamples(samples: seq<Sample>, cand: seq<set<nat>>, p: seq<nat>)
    requires |cand| == NumOps
    requires forall i: nat, op: nat :: i < NumOps ==> (op in cand[i] <==> Consistent(samples, i, op))
    ensures |p| == NumOps ==> (Allowed(p, cand) <==> SamplesAllow(p, samples))
  {
  }

  /**
   * `run`: part one counts the ambiguous samples; part two is register 0 after the program
   * under the one numbering the samples allow.
   */
  method Solve(lines: seq<Line>) returns (r: Result<(nat, nat)>)
    requires ParseInput(lines).Ok? ==> OpsInRange(ParseInput(lines).value.0)
    requires ParseInput(lines).Ok? ==> ProgramInRange(ParseInput(lines).value.1)
    ensures ParseInput(lines).Err? ==> r.Err?
    ensures r.Ok? ==> ParseInput(lines).Ok?
    ensures r.Ok? ==> var (samples, insts) := ParseInput(lines).value;
              r.value.0 == |AmbiguousBelow(samples, |samples|)| &&
              exists mapping :: SamplesAllow(mapping, samples) &&
                (forall p :: |p| == NumOps && SamplesAllow(p, samples) ==> p == mapping) &&
                r.value.1 == Execute(mapping, insts, [0, 0, 0, 0])[0]
  {
    var parsed := ParseInput(lines);
    if parsed.Err? {
      return Err(parsed.msg);
    }
    var (samples, insts) := parsed.value;
    var part1 := CountAmbiguous(samples);
    var cand := Candidates(samples);
    var mapping :- CreateOpcodeMap(cand);
    forall p | |p| == NumOps
      ensures Allowed(p, cand) <==> SamplesAllow(p, samples)
    {
      AllowedBySamples(samples, cand, p);
    }
    var regs := RunWithMapping(insts, mapping);
    r := Ok((part1, regs[0]));
  }
}

=== FILE: day17.dfy ===
/**
 * Water flowing from the spring at x = 500 through a slice of ground with clay veins: water
 * falls through sand, spreads sideways over clay or settled water, settles where clay walls
 * it in on both sides, and otherwise keeps flowing. Map coordinates are `int`, so a cell
 * left of column 0 is an out-of-range read rather than a wrapped `usize`.
 */
module Day17 {
  import opened Common
  import opened Array2d

  /** `Tile`; `Sand` is the default. */
  datatype Tile = Sand | Clay | Resting | Reachable

  type Map = Grid<Tile>

  /** `map.get(x, y)`: the tile, or sand outside the map. */
  function TileAt(m: Map, x: int, y: int): Tile
    requires m.Valid()
  {
    if InBounds(m, x, y) then Cell(m, x, y) else Sand
  }

  lemma TileAtIsGet(m: Map, x: int, y: int)
    requires m.Valid()
    ensures TileAt(m, x, y) == Get(m, x, y, Sand)
  {
  }

  /** `map.put`: only the named in-bounds cell changes. */
  lemma TileAtPut(m: Map, x: int, y: int, v: Tile)
    requires m.Valid()
    ensures forall x', y' :: TileAt(Put(m, x, y, v), x', y') ==
              if InBounds(m, x, y) && x' == x && y' == y then v else TileAt(m, x', y')
  {
  }

  predicate SameShape(a: Map, b: Map)
  {
    a.Valid() && b.Valid() && a.width == b.width && a.height == b.height
  }

  /** The rows above `y` are the same in both maps. */
  ghost predicate RowsKept(a: Map, b: Map, y: int)
    requires a.Valid() && b.Valid()
  {
    forall x, y' :: y' < y ==> TileAt(a, x, y') == TileAt(b, x, y')
  }

  /** The clay is where it was: no clay overwritten and none created. */
  ghost predicate ClayKept(a: Map, b: Map)
    requires a.Valid() && b.Valid()
  {
    forall x, y :: TileAt(a, x, y) == Clay <==> TileAt(b, x, y) == Clay
  }

  /** Every in-bounds cell of row `y` from `lo` to `hi` holds `t`. */
  ghost predicate Segment(m: Map, lo: int, hi: int, y: int, t: Tile)
    requires m.Valid()
  {
    forall k :: lo <= k <= hi && InBounds(m, k, y) ==> TileAt(m, k, y) == t
  }

  /** Row `y` from `lo` to `hi` is settled water with clay on both ends. */
  ghost predicate Walled(m: Map, lo: int, hi: int, y: int)
    requires m.Valid()
  {
    TileAt(m, lo - 1, y) == Clay && TileAt(m, hi + 1, y) == Clay && Segment(m, lo, hi, y, Resting)
  }

  /** Water at (x, y) runs down: the cell below is flowing water or off the map. */
  ghost predicate Falls(m: Map, x: int, y: int)
    requires m.Valid()
  {
    !InBounds(m, x, y + 1) || TileAt(m, x, y + 1) == Reachable
  }

  /** The `for x in left_x..=right_x` loop of `put_water`. */
  function FillRow(m: Map, lo: int, hi: int, y: int, t: Tile): (r: Map)
    requires m.Valid()
    ensures SameShape(m, r)
    ensures forall x', y' :: TileAt(r, x', y') ==
              if y' == y && lo <= x' <= hi && InBounds(m, x', y') then t else TileAt(m, x', y')
    decreases hi - lo
  {
    if hi < lo then m
    else
      var r := FillRow(m, lo, hi - 1, y, t);
      TileAtPut(r, hi, y, t);
      Put(r, hi, y, t)
  }

  /** What `put_water` leaves: the map, the row segment it wrote, and whether that water settled. */
  datatype Fill = Fill(grid: Map, lo: int, hi: int, resting: bool)

  /** What `walk` leaves: the map, where it stopped, and whether clay stopped it. */
  datatype Walked = Walked(grid: Map, x: int, blocked: bool)

  predicate IsDir(dir: int)
  {
    dir == 1 || dir == -1
  }

  /** The cells a walk in direction `dir` can still take before leaving the map. */
  function Room(width: nat, x: int, dir: int): nat
  {
    if dir > 0 then (if x < width then width - x else 0) else (if x >= 0 then x + 1 else 0)
  }

  /** `k` is one of the cells a walk from `x` in direction `dir` stepped onto, up to `end`. */
  predicate Passed(x: int, k: int, end: int, dir: int)
  {
    if dir > 0 then x < k <= end else end <= k < x
  }

  /**
   * `walk`: step in direction `dir` until the next cell is clay (blocked), or the water under
   * the new cell runs away.
   */
  function Walk(m: Map, x: int, y: nat, dir: int): (r: Walked)
    requires m.Valid() && y < m.height && IsDir(dir)
    ensures SameShape(m, r.grid)
    ensures RowsKept(m, r.grid, y + 1)
    ensures ClayKept(m, r.grid)
    ensures if dir > 0 then x <= r.x else r.x <= x
    ensures r.blocked ==> TileAt(r.grid, r.x + dir, y) == Clay
    ensures !r.blocked ==> Falls(r.grid, r.x, y)
    ensures forall k :: Passed(x, k, r.x, dir) ==> TileAt(m, k, y) != Clay
    decreases m.height - y, 1, Room(m.width, x, dir)
  {
    if TileAt(m, x + dir, y) == Clay then Walked(m, x, true)
    else
      var x' := x + dir;
      match TileAt(m, x', y + 1)
      case Sand =>
        var f := PutWater(m, x', y + 1);
        if !f.resting then Walked(f.grid, x', false) else Walk(f.grid, x', y, dir)
      case Reachable => Walked(m, x', false)
      case _ => Walk(m, x', y, dir)
  }

  /** The sideways half of `put_water`: walk both ways, then fill the row between the stops. */
  function Spread(m: Map, x: int, y: nat): (r: Fill)
    requires m.Valid() && y < m.height
    ensures SameShape(m, r.grid)
    ensures RowsKept(m, r.grid, y)
    ensures TileAt(m, x, y) != Clay ==> ClayKept(m, r.grid)
    ensures r.lo <= x <= r.hi
    ensures Segment(r.grid, r.lo, r.hi, y, if r.resting then Resting else Reachable)
    ensures r.resting ==> Walled(r.grid, r.lo, r.hi, y)
    decreases m.height - y, 2, 0
  {
    var left := Walk(m, x, y, -1);
    var right := Walk(left.grid, x, y, 1);
    var resting := left.blocked && right.blocked;
    var tile := if resting then Resting else Reachable;
    Fill(FillRow(right.grid, left.x, right.x, y, tile), left.x, right.x, resting)
  }

  /**
   * `put_water`: water arriving at (x, y). Below the map nothing happens; water over sand
   * falls first, and spreads sideways only if what fell settled; water over flowing water
   * flows; water over clay or settled water spreads.
   */
  function PutWater(m: Map, x: int, y: nat): (r: Fill)
    requires m.Valid()
    ensures SameShape(m, r.grid)
    ensures y >= m.height ==> r == Fill(m, x, x, false)
    ensures r.resting ==> InBounds(m, x, y)
    ensures RowsKept(m, r.grid, y)
    ensures TileAt(m, x, y) != Clay ==> ClayKept(m, r.grid)
    ensures r.lo <= x <= r.hi
    ensures y < m.height ==> Segment(r.grid, r.lo, r.hi, y, if r.resting then Resting else Reachable)
    ensures r.resting ==> Walled(r.grid, r.lo, r.hi, y)
    decreases m.height - y, 3, 0
  {
    if y >= m.height then Fill(m, x, x, false)
    else
      match TileAt(m, x, y + 1)
      case Sand =>
        var f := PutWater(m, x, y + 1);
        if !f.resting then TileAtPut(f.grid, x, y, Reachable); Fill(Put(f.grid, x, y, Reachable), x, x, false)
        else Spread(f.grid, x, y)
      case Reachable => TileAtPut(m, x, y, Reachable); Fill(Put(m, x, y, Reachable), x, x, false)
      case _ => Spread(m, x, y)
  }

  // ---------------------------------------------------------------------------------------
  // Parsing

  /** One match of `(x|y)=(\d+)(\.\.(\d+))?` on a line: the axis, the start and the optional end. */
  datatype Capture = Capture(isX: bool, from: nat, to: Option<nat>)

  /** A clay vein: the inclusive column range `x0..=x1` and row range `y0..=y1`. */
  datatype Rect = Rect(x0: nat, x1: nat, y0: nat, y1: nat)

  /** The inclusive range a capture denotes: `from..=to`, or `from..=from` without an end. */
  function CaptureRange(c: Capture): (r: (nat, nat))
    ensures r.0 == c.from && (c.to.None? ==> r.1 == c.from)
  {
    (c.from, if c.to.Some? then c.to.value else c.from)
  }

  /** The range of the last capture on the given axis, the one the parse loop keeps. */
  function LastRange(caps: seq<Capture>, isX: bool): (r: Option<(nat, nat)>)
    ensures r.Some? <==> exists k :: 0 <= k < |caps| && caps[k].isX == isX
    ensures r.Some? ==> exists k :: 0 <= k < |caps| && caps[k].isX == isX && r.value == CaptureRange(caps[k]) &&
                           forall k' :: k < k' < |caps| ==> caps[k'].isX != isX
  {
    if |caps| == 0 then None
    else if caps[|caps| - 1].isX == isX then Some(CaptureRange(caps[|caps| - 1]))
    else
      var r := LastRange(caps[..|caps| - 1], isX);
      assert forall k :: 0 <= k < |caps| - 1 ==> caps[..|caps| - 1][k] == caps[k];
      r
  }

  /** One line: both an x range and a y range, or an error. */
  function ParseLine(caps: seq<Capture>): (r: Result<Rect>)
    ensures r.Ok? <==> LastRange(caps, true).Some? && LastRange(caps, false).Some?
    ensures r.Ok? ==> (r.value.x0, r.value.x1) == LastRange(caps, true).value &&
                      (r.value.y0, r.value.y1) == LastRange(caps, false).value
  {
    match (LastRange(caps, true), LastRange(caps, false))
    case (Some(x), Some(y)) => Ok(Rect(x.0, x.1, y.0, y.1))
    case _ => Err("Failed to parse")
  }

  /** The loop over the lines: every line must give a rectangle. */
  function ParseRects(lines: seq<seq<Capture>>): (r: Result<seq<Rect>>)
    ensures r.Ok? <==> forall k :: 0 <= k < |lines| ==> ParseLine(lines[k]).Ok?
    ensures r.Ok? ==> |r.value| == |lines| && forall k :: 0 <= k < |lines| ==> r.value[k] == ParseLine(lines[k]).value
  {
    if |lines| == 0 then Ok([])
    else
      var init := ParseRects(lines[..|lines| - 1]);
      assert forall k :: 0 <= k < |lines| - 1 ==> lines[..|lines| - 1][k] == lines[k];
      match (init, ParseLine(lines[|lines| - 1]))
      case (Ok(rs), Ok(rect)) => Ok(rs + [rect])
      case (Err(e), _) => Err(e)
      case (_, Err(e)) => Err(e)
  }

  /** `(x, y)` lies in the vein. */
  predicate InRect(r: Rect, x: int, y: int)
  {
    r.x0 <= x <= r.x1 && r.y0 <= y <= r.y1
  }

  /** `(x, y)` lies in one of the veins. */
  predicate InRects(rects: seq<Rect>, x: int, y: int)
    ensures InRects(rects, x, y) <==> exists k :: 0 <= k < |rects| && InRect(rects[k], x, y)
  {
    if |rects| == 0 then false
    else
      assert forall k :: 0 <= k < |rects| - 1 ==> rects[..|rects| - 1][k] == rects[k];
      InRect(rects[|rects| - 1], x, y) || InRects(rects[..|rects| - 1], x, y)
  }

  /** `min_x`: one column left of every vein, and never right of the spring. */
  function MinX(rects: seq<Rect>): (r: int)
    requires forall k :: 0 <= k < |rects| ==> rects[k].x0 >= 1
    ensures r <= 500 && forall k :: 0 <= k < |rects| ==> r <= rects[k].x0 - 1
    ensures r == 500 || exists k :: 0 <= k < |rects| && r == rects[k].x0 - 1
  {
    if |rects| == 0 then 500
    else
      var init := rects[..|rects| - 1];
      assert forall k :: 0 <= k < |rects| - 1 ==> init[k] == rects[k];
      Min(MinX(init), rects[|rects| - 1].x0 - 1)
  }

  /** `max_x`: one column right of every vein, and never left of the spring. */
  function MaxX(rects: seq<Rect>): (r: int)
    ensures r >= 500 && forall k :: 0 <= k < |rects| ==> r >= rects[k].x1 + 1
    ensures r == 500 || exists k :: 0 <= k < |rects| && r == rects[k].x1 + 1
  {
    if |rects| == 0 then 500
    else
      var init := rects[..|rects| - 1];
      assert forall k :: 0 <= k < |rects| - 1 ==> init[k] == rects[k];
      Max(MaxX(init), rects[|rects| - 1].x1 + 1)
  }

  /** `min_y`: the first row of the highest vein. */
  function MinY(rects: seq<Rect>): (r: nat)
    requires |rects| > 0
    ensures forall k :: 0 <= k < |rects| ==> r <= rects[k].y0
    ensures exists k :: 0 <= k < |rects| && r == rects[k].y0
  {
    if |rects| == 1 then rects[0].y0
    else
      var init := rects[..|rects| - 1];
      assert forall k :: 0 <= k < |rects| - 1 ==> init[k] == rects[k];
      if MinY(init) <= rects[|rects| - 1].y0 then MinY(init) else rects[|rects| - 1].y0
  }

  /** `max_y`: the last row of the lowest vein. */
  function MaxY(rects: seq<Rect>): (r: nat)
    ensures forall k :: 0 <= k < |rects| ==> r >= rects[k].y1
    ensures r == 0 || exists k :: 0 <= k < |rects| && r == rects[k].y1
  {
    if |rects| == 0 then 0
    else
      var init := rects[..|rects| - 1];
      assert forall k :: 0 <= k < |rects| - 1 ==> init[k] == rects[k];
      if MaxY(init) >= rects[|rects| - 1].y1 then MaxY(init) else rects[|rects| - 1].y1
  }

  /** `MapOffsets`. */
  datatype Offsets = Offsets(spring: int, minY: nat, maxY: nat)

  datatype Scan = Scan(grid: Map, offsets: Offsets)

  /**
   * `parse_input`: every line must name both ranges and there must be at least one. The map
   * spans the veins with one spare column on each side, always includes the spring's
   * column, and reaches down to the lowest vein. A vein starting at column 0 would make
   * `start - 1` underflow, so such input is excluded.
   */
  function ParseInput(lines: seq<seq<Capture>>): (r: Result<Scan>)
    requires ParseRects(lines).Ok? ==> forall k :: 0 <= k < |lines| ==> ParseRects(lines).value[k].x0 >= 1
    ensures r.Err? <==> ParseRects(lines).Err? || |lines| == 0
    ensures r.Ok? ==> r.value.grid.Valid()
  {
    var rects :- ParseRects(lines);
    if |rects| == 0 then Err("No input") else Ok(BuildScan(rects))
  }

  /** The map and offsets `parse_input` builds from the veins. */
  function BuildScan(rects: seq<Rect>): (s: Scan)
    requires |rects| > 0 && forall k :: 0 <= k < |rects| ==> rects[k].x0 >= 1
    ensures s.grid.Valid()
  {
    var minX, maxX := MinX(rects), MaxX(rects);
    var grid := Generate(maxX - minX + 1, MaxY(rects) + 1,
                         (x: nat, y: nat) => if InRects(rects, x + minX, y) then Clay else Sand);
    Scan(grid, Offsets(500 - minX, MinY(rects), MaxY(rects)))
  }

  /** The spring's column is on the map, and the map reaches down to the lowest vein. */
  lemma ScanSpring(rects: seq<Rect>)
    requires |rects| > 0 && forall k :: 0 <= k < |rects| ==> rects[k].x0 >= 1
    ensures var s := BuildScan(rects);
            InBounds(s.grid, s.offsets.spring, 0) && s.grid.height == s.offsets.maxY + 1
  {
  }

  /** Every vein cell is on the map, with a spare column on either side. */
  lemma ScanMargins(rects: seq<Rect>, k: nat, x: int, y: int)
    requires |rects| > 0 && forall k :: 0 <= k < |rects| ==> rects[k].x0 >= 1
    requires k < |rects| && InRect(rects[k], x, y)
    ensures var s := BuildScan(rects); var minX := 500 - s.offsets.spring;
            1 <= x - minX <= s.grid.width - 2 && y < s.grid.height
  {
  }

  /** A cell is clay exactly when some vein covers it. */
  lemma ScanClay(rects: seq<Rect>, x: int, y: int)
    requires |rects| > 0 && forall k :: 0 <= k < |rects| ==> rects[k].x0 >= 1
    requires InBounds(BuildScan(rects).grid, x, y)
    ensures var s := BuildScan(rects); var minX := 500 - s.offsets.spring;
            TileAt(s.grid, x, y) == Clay <==> InRects(rects, x + minX, y)
  {
  }

  // ---------------------------------------------------------------------------------------
  // Counting

  /** The cells of row `y` left of column `n` that hold `t`. */
  function CountRow(m: Map, y: int, n: int, t: Tile): nat
    requires m.Valid()
    decreases n
  {
    if n <= 0 then 0 else CountRow(m, y, n - 1, t) + (if TileAt(m, n - 1, y) == t then 1 else 0)
  }

  /** The cells holding `t` in rows `lo` up to `hi`. */
  function CountRows(m: Map, lo: int, hi: int, t: Tile): nat
    requires m.Valid()
    decreases hi - lo
  {
    if hi < lo then 0 else CountRows(m, lo, hi - 1, t) + CountRow(m, hi, m.width, t)
  }

  /** A row's count is the size of the set of its columns holding the tile. */
  lemma {:induction false} CountRowIsSize(m: Map, y: int, n: nat, t: Tile)
    requires m.Valid()
    ensures CountRow(m, y, n, t) == |set x: nat | x < n && TileAt(m, x, y) == t|
  {
    if n > 0 {
      CountRowIsSize(m, y, n - 1, t);
      var s := set x: nat | x < n - 1 && TileAt(m, x, y) == t;
      if TileAt(m, n - 1, y) == t {
        assert (set x: nat | x < n && TileAt(m, x, y) == t) == s + {n - 1};
      } else {
        assert (set x: nat | x < n && TileAt(m, x, y) == t) == s;
      }
    } else {
      assert (set x: nat | x < n && TileAt(m, x, y) == t) == {};
    }
  }

  /** Rows outside `lo..=hi` do not affect the count. */
  lemma {:induction false} CountRowsOnly(a: Map, b: Map, lo: int, hi: int, t: Tile)
    requires SameShape(a, b)
    requires forall x, y :: lo <= y <= hi ==> TileAt(a, x, y) == TileAt(b, x, y)
    ensures CountRows(a, lo, hi, t) == CountRows(b, lo, hi, t)
    decreases hi - lo
  {
    if lo <= hi {
      CountRowsOnly(a, b, lo, hi - 1, t);
      CountRowSame(a, b, hi, a.width, t);
    }
  }

  lemma {:induction false} CountRowSame(a: Map, b: Map, y: int, n: int, t: Tile)
    requires a.Valid() && b.Valid()
    requires forall x :: TileAt(a, x, y) == TileAt(b, x, y)
    ensures CountRow(a, y, n, t) == CountRow(b, y, n, t)
    decreases n
  {
    if n > 0 {
      CountRowSame(a, b, y, n - 1, t);
    }
  }

  /** A row holds at most `n` of any tile. */
  lemma {:induction false} CountRowBound(m: Map, y: int, n: nat, t: Tile)
    requires m.Valid()
    ensures CountRow(m, y, n, t) <= n
  {
    if n > 0 {
      CountRowBound(m, y, n - 1, t);
    }
  }

  /** One row of `count_water`. */
  method CountRowWater(m: Map, y: int) returns (reachable: nat, resting: nat)
    requires m.Valid()
    ensures reachable == CountRow(m, y, m.width, Reachable) && resting == CountRow(m, y, m.width, Resting)
  {
    reachable, resting := 0, 0;
    for x := 0 to m.width
      invariant reachable == CountRow(m, y, x, Reachable) && resting == CountRow(m, y, x, Resting)
    {
      var t := TileAt(m, x, y);
      if t == Resting {
        resting := resting + 1;
      } else if t == Reachable {
        reachable := reachable + 1;
      }
    }
  }

  /** `count_water`: the flowing and settled water in rows `min_y..=max_y`. */
  method CountWater(m: Map, offsets: Offsets) returns (reachable: nat, resting: nat)
    requires m.Valid() && offsets.maxY < m.height
    ensures reachable == CountRows(m, offsets.minY, offsets.maxY, Reachable)
    ensures resting == CountRows(m, offsets.minY, offsets.maxY, Resting)
  {
    reachable, resting := 0, 0;
    var y := offsets.minY;
    while y <= offsets.maxY
      invariant offsets.minY <= y <= offsets.maxY + 1 || (y == offsets.minY && offsets.minY > offsets.maxY)
      invariant reachable == CountRows(m, offsets.minY, y - 1, Reachable)
      invariant resting == CountRows(m, offsets.minY, y - 1, Resting)
      decreases offsets.maxY + 1 - y
    {
      var a, b := CountRowWater(m, y);
      reachable, resting := reachable + a, resting + b;
      y := y + 1;
    }
  }

  /** `run`: pour water from the spring at the top row, then count. */
  method Solve(lines: seq<seq<Capture>>) returns (r: Result<(nat, nat)>)
    requires ParseRects(lines).Ok? ==> forall k :: 0 <= k < |lines| ==> ParseRects(lines).value[k].x0 >= 1
    ensures r.Err? <==> ParseInput(lines).Err?
    ensures r.Ok? ==> var s := ParseInput(lines).value; var m := PutWater(s.grid, s.offsets.spring, 0).grid;
              r.value.1 == CountRows(m, s.offsets.minY, s.offsets.maxY, Resting) &&
              r.value.0 == CountRows(m, s.offsets.minY, s.offsets.maxY, Reachable) + r.value.1
  {
    var parsed := ParseInput(lines);
    if parsed.Err? {
      return Err(parsed.msg);
    }
    var s := parsed.value;
    var m := PutWater(s.grid, s.offsets.spring, 0).grid;
    var reachable, resting := CountWater(m, s.offsets);
    r := Ok((reachable + resting, resting));
  }
}

=== FILE: day18.dfy ===
/**
 * The lumber collection area: every minute each acre changes by the number of wooded acres
 * and lumberyards among its eight neighbours. Part two's billion minutes are cut short once a
 * field repeats; the field hash is a parameter.
 */
module Day18 {
  import opened Common
  import opened Array2d

  /** `Tile`; `NoTile` is `Tile::None`, the default, held by cells no line reached. */
  datatype Tile = NoTile | Open | Wooded | Lumberyard

  type Field = Grid<Tile>

  /** `field.get(x, y)`: the tile, or `NoTile` off the field. */
  function TileAt(f: Field, x: int, y: int): Tile
    requires f.Valid()
  {
    if InBounds(f, x, y) then Cell(f, x, y) else NoTile
  }

  predicate SameShape(a: Field, b: Field)
  {
    a.Valid() && b.Valid() && a.width == b.width && a.height == b.height
  }

  // ---------------------------------------------------------------------------------------
  // Parsing

  /** The tile a character stands for. */
  function TileOf(c: char): Option<Tile>
  {
    match c
    case '.' => Some(Open)
    case '|' => Some(Wooded)
    case '#' => Some(Lumberyard)
    case _ => None
  }

  /** `print_field`'s character for a tile. */
  function TileChar(t: Tile): char
  {
    match t
    case Open => '.'
    case Wooded => '|'
    case Lumberyard => '#'
    case NoTile => '?'
  }

  /** The length of the longest line, or 0. */
  function MaxLen(lines: seq<string>): (r: nat)
    ensures forall k :: 0 <= k < |lines| ==> |lines[k]| <= r
    ensures r == 0 || exists k :: 0 <= k < |lines| && |lines[k]| == r
  {
    if |lines| == 0 then 0
    else
      var init := lines[..|lines| - 1];
      assert forall k :: 0 <= k < |lines| - 1 ==> init[k] == lines[k];
      Max(MaxLen(init), |lines[|lines| - 1]|)
  }

  /** Every character of every line is a tile. */
  predicate Known(lines: seq<string>)
  {
    forall y, x :: 0 <= y < |lines| && 0 <= x < |lines[y]| ==> TileOf(lines[y][x]).Some?
  }

  /** The tile `parse_data` stores at (x, y): the line's character, or `NoTile` past its end. */
  function ParsedTile(lines: seq<string>, x: nat, y: nat): Tile
  {
    if y < |lines| && x < |lines[y]| && TileOf(lines[y][x]).Some? then TileOf(lines[y][x]).value else NoTile
  }

  /** `parse_data`: as wide as the longest line; any other character is an error. */
  function ParseData(lines: seq<string>): (r: Result<Field>)
    ensures r.Err? <==> !Known(lines)
    ensures r.Ok? ==> r.value.Valid() && r.value.width == MaxLen(lines) && r.value.height == |lines|
    ensures r.Ok? ==> forall x, y :: InBounds(r.value, x, y) ==>
              Cell(r.value, x, y) == if x < |lines[y]| then TileOf(lines[y][x]).value else NoTile
  {
    if !Known(lines) then Err("Unexpected tile")
    else Ok(Generate(MaxLen(lines), |lines|, (x: nat, y: nat) => ParsedTile(lines, x, y)))
  }

  /** `print_field`'s rows. */
  function Render(f: Field): (r: seq<string>)
    requires f.Valid()
    ensures |r| == f.height && forall y :: 0 <= y < f.height ==> |r[y]| == f.width
  {
    seq(f.height, y requires 0 <= y < f.height => seq(f.width, x requires 0 <= x < f.width => TileChar(Cell(f, x, y))))
  }

  /** Parsing a printed field gives it back, when every cell holds a tile and the shape is visible. */
  lemma ParseRender(f: Field)
    requires f.Valid() && (f.height > 0 || f.width == 0)
    requires forall x, y :: InBounds(f, x, y) ==> Cell(f, x, y) != NoTile
    ensures ParseData(Render(f)) == Ok(f)
  {
    var lines := Render(f);
    assert Known(lines);
    var g := ParseData(lines).value;
    if f.height > 0 {
      assert |lines[0]| == f.width;
    }
    assert g.width == f.width;
    GridExtensional(g, f);
  }

  // ---------------------------------------------------------------------------------------
  // One minute

  /** The rule for one acre given its wooded and lumberyard neighbours. */
  function NextTile(t: Tile, wooded: nat, lumber: nat): Tile
  {
    match t
    case Open => if wooded >= 3 then Wooded else Open
    case Wooded => if lumber >= 3 then Lumberyard else Wooded
    case Lumberyard => if wooded == 0 || lumber == 0 then Open else Lumberyard
    case NoTile => NoTile
  }

  /** What each acre becomes, by the tile it becomes. */
  lemma NextTileCases(t: Tile, wooded: nat, lumber: nat)
    ensures NextTile(t, wooded, lumber) == Wooded <==> (t == Open && wooded >= 3) || (t == Wooded && lumber < 3)
    ensures NextTile(t, wooded, lumber) == Lumberyard <==>
              (t == Wooded && lumber >= 3) || (t == Lumberyard && wooded > 0 && lumber > 0)
    ensures NextTile(t, wooded, lumber) == Open <==>
              (t == Open && wooded < 3) || (t == Lumberyard && (wooded == 0 || lumber == 0))
    ensures NextTile(t, wooded, lumber) == NoTile <==> t == NoTile
  {
  }

  /** 1 when (x, y) holds `t`. */
  function Is(f: Field, x: int, y: int, t: Tile): nat
    requires f.Valid()
  {
    if TileAt(f, x, y) == t then 1 else 0
  }

  /** The eight neighbours of (x, y) holding `t`. */
  function CountAround(f: Field, x: int, y: int, t: Tile): nat
    requires f.Valid()
  {
    Is(f, x - 1, y - 1, t) + Is(f, x, y - 1, t) + Is(f, x + 1, y - 1, t) +
    Is(f, x - 1, y, t) + Is(f, x + 1, y, t) +
    Is(f, x - 1, y + 1, t) + Is(f, x, y + 1, t) + Is(f, x + 1, y + 1, t)
  }

  /** Tiles off the field are never counted: a corner acre has at most three neighbours of a kind. */
  lemma CornerCount(f: Field, t: Tile)
    requires f.Valid() && t != NoTile
    ensures CountAround(f, 0, 0, t) <= 3
  {
  }

  /** Cell `k` of the 3x3 scan around (x, y), row by row: 1 when it holds `t`, 0 for the centre. */
  function ScanCell(f: Field, x: int, y: int, t: Tile, k: nat): nat
    requires f.Valid() && k < 9
  {
    if k == 0 then Is(f, x - 1, y - 1, t)
    else if k == 1 then Is(f, x, y - 1, t)
    else if k == 2 then Is(f, x + 1, y - 1, t)
    else if k == 3 then Is(f, x - 1, y, t)
    else if k == 4 then 0
    else if k == 5 then Is(f, x + 1, y, t)
    else if k == 6 then Is(f, x - 1, y + 1, t)
    else if k == 7 then Is(f, x, y + 1, t)
    else Is(f, x + 1, y + 1, t)
  }

  /** Cell `3 * yo + xo` of the scan is the one at offset (xo - 1, yo - 1), the centre skipped. */
  lemma ScanCellAt(f: Field, x: int, y: int, t: Tile, xo: nat, yo: nat)
    requires f.Valid() && xo < 3 && yo < 3
    ensures ScanCell(f, x, y, t, 3 * yo + xo) == if xo == 1 && yo == 1 then 0 else Is(f, x + xo - 1, y + yo - 1, t)
  {
  }

  /** The count after the first `k` cells of the 3x3 scan, row by row, skipping the centre (cell 4). */
  function CountScan(f: Field, x: int, y: int, t: Tile, k: nat): nat
    requires f.Valid() && k <= 9
  {
    if k == 0 then 0 else CountScan(f, x, y, t, k - 1) + ScanCell(f, x, y, t, k - 1)
  }

  /** The whole scan counts exactly the eight neighbours. */
  lemma ScanCountsAround(f: Field, x: int, y: int, t: Tile)
    requires f.Valid()
    ensures CountScan(f, x, y, t, 9) == CountAround(f, x, y, t)
  {
    assert CountScan(f, x, y, t, 3) == Is(f, x - 1, y - 1, t) + Is(f, x, y - 1, t) + Is(f, x + 1, y - 1, t) by {
      assert CountScan(f, x, y, t, 1) == Is(f, x - 1, y - 1, t);
      assert CountScan(f, x, y, t, 2) == CountScan(f, x, y, t, 1) + Is(f, x, y - 1, t);
    }
    assert CountScan(f, x, y, t, 6) == CountScan(f, x, y, t, 3) + Is(f, x - 1, y, t) + Is(f, x + 1, y, t) by {
      assert CountScan(f, x, y, t, 4) == CountScan(f, x, y, t, 3) + Is(f, x - 1, y, t);
      assert CountScan(f, x, y, t, 5) == CountScan(f, x, y, t, 4);
    }
    assert CountScan(f, x, y, t, 9) ==
           CountScan(f, x, y, t, 6) + Is(f, x - 1, y + 1, t) + Is(f, x, y + 1, t) + Is(f, x + 1, y + 1, t) by {
      assert CountScan(f, x, y, t, 7) == CountScan(f, x, y, t, 6) + Is(f, x - 1, y + 1, t);
      assert CountScan(f, x, y, t, 8) == CountScan(f, x, y, t, 7) + Is(f, x, y + 1, t);
    }
  }

  /** The tile (x, y) holds after one minute. */
  function Next(f: Field, x: int, y: int): Tile
    requires f.Valid()
  {
    NextTile(TileAt(f, x, y), CountAround(f, x, y, Wooded), CountAround(f, x, y, Lumberyard))
  }

  /** The field after one minute. */
  function StepField(f: Field): (r: Field)
    requires f.Valid()
    ensures SameShape(f, r)
  {
    Generate(f.width, f.height, (x: nat, y: nat) requires f.Valid() => Next(f, x, y))
  }

  lemma PutTwice(g: Field, x: int, y: int, a: Tile, b: Tile)
    requires g.Valid()
    ensures Put(Put(g, x, y, a), x, y, b) == Put(g, x, y, b)
  {
    GridExtensional(Put(Put(g, x, y, a), x, y, b), Put(g, x, y, b));
  }

  /** One row `yo` of the 3x3 scan around (x, y), adding to the counts so far. */
  method ScanRow(src: Field, x: nat, y: nat, yo: nat, wooded0: nat, lumber0: nat) returns (wooded: nat, lumber: nat)
    requires src.Valid() && yo < 3
    requires wooded0 == CountScan(src, x, y, Wooded, 3 * yo) && lumber0 == CountScan(src, x, y, Lumberyard, 3 * yo)
    ensures wooded == CountScan(src, x, y, Wooded, 3 * yo + 3) && lumber == CountScan(src, x, y, Lumberyard, 3 * yo + 3)
  {
    wooded, lumber := wooded0, lumber0;
    for xo := 0 to 3
      invariant wooded == CountScan(src, x, y, Wooded, 3 * yo + xo)
      invariant lumber == CountScan(src, x, y, Lumberyard, 3 * yo + xo)
    {
      ScanCellAt(src, x, y, Wooded, xo, yo);
      ScanCellAt(src, x, y, Lumberyard, xo, yo);
      if xo != 1 || yo != 1 {
        match TileAt(src, x + xo - 1, y + yo - 1)
        case Wooded => wooded := wooded + 1;
        case Lumberyard => lumber := lumber + 1;
        case _ =>
      }
    }
  }

  /** The acre's rule with the counts after `3 * yo` cells of the scan. */
  function PartialNext(src: Field, x: nat, y: nat, yo: nat): Tile
    requires src.Valid() && yo <= 3
  {
    NextTile(TileAt(src, x, y), CountScan(src, x, y, Wooded, 3 * yo), CountScan(src, x, y, Lumberyard, 3 * yo))
  }

  /**
   * One acre of `step`: the 3x3 scan of `src`, writing the acre's rule into `dest` after each
   * row of the scan, so the last write uses the full counts.
   */
  method StepCell(src: Field, dest: Field, x: nat, y: nat) returns (dest': Field)
    requires SameShape(src, dest) && InBounds(src, x, y)
    ensures dest' == Put(dest, x, y, Next(src, x, y))
  {
    var wooded, lumber := 0, 0;
    dest' := dest;
    for yo := 0 to 3
      invariant wooded == CountScan(src, x, y, Wooded, 3 * yo)
      invariant lumber == CountScan(src, x, y, Lumberyard, 3 * yo)
      invariant yo == 0 ==> dest' == dest
      invariant yo > 0 ==> dest' == Put(dest, x, y, PartialNext(src, x, y, yo))
    {
      wooded, lumber := ScanRow(src, x, y, yo, wooded, lumber);
      var t := NextTile(TileAt(src, x, y), wooded, lumber);
      assert t == PartialNext(src, x, y, yo + 1);
      if yo > 0 {
        PutTwice(dest, x, y, PartialNext(src, x, y, yo), t);
      }
      dest' := Put(dest', x, y, t);
    }
    ScanCountsAround(src, x, y, Wooded);
    ScanCountsAround(src, x, y, Lumberyard);
  }

  /**
   * `step`: every acre of `dest` gets the rule applied to `src`, visiting acres row by row. The
   * result depends on `src` alone, whatever `dest` held before.
   */
  method Step(src: Field, dest: Field) returns (dest': Field)
    requires SameShape(src, dest)
    ensures dest' == StepField(src)
  {
    dest' := dest;
    for y := 0 to src.height
      invariant SameShape(src, dest')
      invariant forall x', y' :: InBounds(src, x', y') && y' < y ==> Cell(dest', x', y') == Next(src, x', y')
    {
      for x := 0 to src.width
        invariant SameShape(src, dest')
        invariant forall x', y' :: InBounds(src, x', y') && (y' < y || (y' == y && x' < x)) ==>
                    Cell(dest', x', y') == Next(src, x', y')
      {
        dest' := StepCell(src, dest', x, y);
      }
    }
    GridExtensional(dest', StepField(src));
  }

  // ---------------------------------------------------------------------------------------
  // Resource value

  /** The acres of row `y` left of column `n` holding `t`. */
  function CountRow(f: Field, y: int, n: int, t: Tile): nat
    requires f.Valid()
    decreases n
  {
    if n <= 0 then 0 else CountRow(f, y, n - 1, t) + Is(f, n - 1, y, t)
  }

  /** The acres of the first `n` rows holding `t`. */
  function CountRows(f: Field, n: int, t: Tile): nat
    requires f.Valid()
    decreases n
  {
    if n <= 0 then 0 else CountRows(f, n - 1, t) + CountRow(f, n - 1, f.width, t)
  }

  /** The acres of the field holding `t`, as a set of coordinates. */
  ghost function AcresWith(f: Field, n: int, t: Tile): set<(int, int)>
    requires f.Valid()
  {
    set x: nat, y: nat | x < f.width && y < n && TileAt(f, x, y) == t :: (x, y)
  }

  ghost function RowAcresWith(f: Field, y: int, n: int, t: Tile): set<(int, int)>
    requires f.Valid()
  {
    set x: nat | x < n && TileAt(f, x, y) == t :: (x, y)
  }

  lemma RowAcresStep(f: Field, y: int, n: nat, t: Tile)
    requires f.Valid() && n > 0
    ensures RowAcresWith(f, y, n, t) ==
            RowAcresWith(f, y, n - 1, t) + (if TileAt(f, n - 1, y) == t then {(n - 1, y)} else {})
    ensures (n - 1, y) !in RowAcresWith(f, y, n - 1, t)
  {
    var s, s' := RowAcresWith(f, y, n - 1, t), RowAcresWith(f, y, n, t);
    var e: set<(int, int)> := if TileAt(f, n - 1, y) == t then {(n - 1, y)} else {};
    forall p | p in s'
      ensures p in s + e
    {
      var x: nat :| x < n && TileAt(f, x, y) == t && p == (x, y);
      if x < n - 1 {
        assert p in s;
      }
    }
  }

  lemma {:induction false} CountRowIsSize(f: Field, y: int, n: nat, t: Tile)
    requires f.Valid()
    ensures CountRow(f, y, n, t) == |RowAcresWith(f, y, n, t)|
  {
    if n > 0 {
      CountRowIsSize(f, y, n - 1, t);
      RowAcresStep(f, y, n, t);
    } else {
      assert RowAcresWith(f, y, n, t) == {};
    }
  }

  /** The acres of the first `n` rows are those of the first `n - 1` rows plus those of row `n - 1`. */
  lemma AcresRowSplit(f: Field, n: nat, t: Tile)
    requires f.Valid() && n > 0
    ensures |AcresWith(f, n, t)| == |AcresWith(f, n - 1, t)| + |RowAcresWith(f, n - 1, f.width, t)|
  {
    var a, b := AcresWith(f, n - 1, t), RowAcresWith(f, n - 1, f.width, t);
    assert AcresWith(f, n, t) == a + b;
    assert a * b == {};
  }

  /** The row-by-row count is the number of acres holding the tile. */
  lemma {:induction false} CountRowsIsSize(f: Field, n: nat, t: Tile)
    requires f.Valid()
    ensures CountRows(f, n, t) == |AcresWith(f, n, t)|
  {
    if n > 0 {
      CountRowsIsSize(f, n - 1, t);
      CountRowIsSize(f, n - 1, f.width, t);
      AcresRowSplit(f, n, t);
    } else {
      assert AcresWith(f, n, t) == {};
    }
  }

  /** `resource_value` as a number: wooded acres times lumberyards. */
  function Resources(f: Field): nat
    requires f.Valid()
  {
    CountRows(f, f.height, Wooded) * CountRows(f, f.height, Lumberyard)
  }

  /** `resource_value`: one pass over the acres, row by row. */
  method ResourceValue(f: Field) returns (r: nat)
    requires f.Valid()
    ensures r == |AcresWith(f, f.height, Wooded)| * |AcresWith(f, f.height, Lumberyard)|
    ensures r == Resources(f)
  {
    var wooded, lumber := 0, 0;
    for y := 0 to f.height
      invariant wooded == CountRows(f, y, Wooded) && lumber == CountRows(f, y, Lumberyard)
    {
      for x := 0 to f.width
        invariant wooded == CountRows(f, y, Wooded) + CountRow(f, y, x, Wooded)
        invariant lumber == CountRows(f, y, Lumberyard) + CountRow(f, y, x, Lumberyard)
      {
        match Cell(f, x, y)
        case Wooded => wooded := wooded + 1;
        case Lumberyard => lumber := lumber + 1;
        case _ =>
      }
    }
    CountRowsIsSize(f, f.height, Wooded);
    CountRowsIsSize(f, f.height, Lumberyard);
    r := wooded * lumber;
  }

  // ---------------------------------------------------------------------------------------
  // Many minutes

  /** The field after `n` minutes. */
  function After(f: Field, n: nat): (r: Field)
    requires f.Valid()
    ensures SameShape(f, r)
  {
    if n == 0 then f else StepField(After(f, n - 1))
  }

  /** Once a field recurs, every later field recurs with the same period. */
  lemma {:induction false} Periodic(f: Field, a: nat, b: nat, n: nat)
    requires f.Valid() && After(f, a) == After(f, b)
    ensures After(f, a + n) == After(f, b + n)
  {
    if n > 0 {
      Periodic(f, a, b, n - 1);
    }
  }

  /** A field that recurs after `p` minutes is back after any multiple of `p` more. */
  lemma {:induction false} Cycle(f: Field, a: nat, b: nat, k: nat)
    requires f.Valid() && a < b && After(f, a) == After(f, b)
    ensures After(f, b + k * (b - a)) == After(f, b)
  {
    if k > 0 {
      Cycle(f, a, b, k - 1);
      Periodic(f, a, b, k * (b - a));
      assert a + k * (b - a) == b + (k - 1) * (b - a);
    }
  }

  /** A recurrence at minutes `a` and `b` fixes every later minute a whole number of periods on. */
  lemma CycleAt(f: Field, a: nat, b: nat, n: nat)
    requires f.Valid() && a < b <= n && (n - b) % (b - a) == 0 && After(f, a) == After(f, b)
    ensures After(f, n) == After(f, b)
  {
    PeriodSteps(a, b, n);
    var k: nat := (n - b) / (b - a);
    Cycle(f, a, b, k);
  }

  lemma PeriodSteps(a: nat, b: nat, n: nat)
    requires a < b <= n && (n - b) % (b - a) == 0
    ensures (n - b) / (b - a) >= 0
    ensures b + ((n - b) / (b - a)) * (b - a) == n
  {
    DivExact(n - b, b - a);
  }

  /** The hash tells fields apart. */
  ghost predicate Injective(hash: Field -> int)
  {
    forall a: Field, b: Field :: hash(a) == hash(b) ==> a == b
  }

  /** The early return of `resource_value_after` is right when equal hashes mean equal fields. */
  lemma EarlyReturn(f: Field, hash: Field -> int, prev: nat, minute: nat, minutes: nat)
    requires f.Valid() && prev < minute <= minutes && (minutes - minute) % (minute - prev) == 0
    requires hash(After(f, prev)) == hash(After(f, minute))
    ensures Injective(hash) ==> After(f, minutes) == After(f, minute)
  {
    if Injective(hash) {
      assert After(f, prev) == After(f, minute);
      CycleAt(f, prev, minute, minutes);
    }
  }

  /** Every remembered hash is the hash of the field at its minute, an earlier one than `minute`. */
  ghost predicate CycleOk(f0: Field, hash: Field -> int, cycle: map<int, nat>, minute: nat)
    requires f0.Valid()
  {
    forall h :: h in cycle ==> 1 <= cycle[h] < minute && hash(After(f0, cycle[h])) == h
  }

  /** Remembering the current field's hash at the current minute keeps the table right. */
  lemma CycleRemember(f0: Field, hash: Field -> int, cycle: map<int, nat>, minute: nat)
    requires f0.Valid() && minute >= 1 && CycleOk(f0, hash, cycle, minute)
    ensures CycleOk(f0, hash, cycle[hash(After(f0, minute)) := minute], minute + 1)
  {
  }

  /** One minute of `resource_value_after`: `step` into `dest`, then swap the two fields. */
  method Minute(f0: Field, field: Field, dest: Field, ghost minute: nat) returns (field': Field, dest': Field)
    requires f0.Valid() && minute >= 1 && field == After(f0, minute - 1) && SameShape(field, dest)
    ensures field' == After(f0, minute) && SameShape(field', dest')
  {
    var next := Step(field, dest);
    dest', field' := field, next;
  }

  /**
   * `resource_value_after`: step minute by minute, remembering each field's hash with the
   * latest minute it was seen; when a hash comes back and the remaining minutes are a
   * multiple of the gap, the current value is the answer.
   */
  method ResourceValueAfter(f0: Field, minutes: nat, hash: Field -> int) returns (r: nat)
    requires f0.Valid()
    ensures exists m :: 0 <= m <= minutes && r == Resources(After(f0, m))
    ensures Injective(hash) ==> r == Resources(After(f0, minutes))
  {
    var field := f0;
    var dest := New(f0.width, f0.height, NoTile);
    var cycle: map<int, nat> := map[];
    for minute := 1 to minutes + 1
      invariant field == After(f0, minute - 1) && SameShape(field, dest)
      invariant CycleOk(f0, hash, cycle, minute)
    {
      field, dest := Minute(f0, field, dest, minute);
      var h := hash(field);
      if h in cycle {
        var prev := cycle[h];
        if (minutes - minute) % (minute - prev) == 0 {
          EarlyReturn(f0, hash, prev, minute, minutes);
          r := ResourceValue(field);
          return;
        }
      }
      CycleRemember(f0, hash, cycle, minute);
      cycle := cycle[h := minute];
    }
    r := ResourceValue(field);
  }

  /** `run`: the resource value after 10 minutes and after 1000000000 minutes. */
  method Solve(lines: seq<string>, hash: Field -> int) returns (r: Result<(nat, nat)>)
    ensures r.Err? <==> !Known(lines)
    ensures r.Ok? && Injective(hash) ==>
              var f := ParseData(lines).value;
              r.value == (Resources(After(f, 10)), Resources(After(f, 1000000000)))
  {
    var f :- ParseData(lines);
    var a := ResourceValueAfter(f, 10, hash);
    var b := ResourceValueAfter(f, 1000000000, hash);
    r := Ok((a, b));
  }
}

=== FILE: day19.dfy ===
/** Day 19: the six-register machine whose instruction pointer is bound to a register, and the
    hand translation of its program, which sums the divisors of a number. */
module Day19 {
  import opened Common
  import opened Bits
  import Text

  /** The sixteen instructions, in the order the source declares them. */
  datatype Op =
    | AddR | AddI | MulR | MulI | BanR | BanI | BorR | BorI
    | SetR | SetI | GtIR | GtRI | GtRR | EqIR | EqRI | EqRR

  /** The mnemonic that names an instruction in the program text. */
  function Mnemonic(op: Op): string
  {
    match op
    case AddR => "addr"
    case AddI => "addi"
    case MulR => "mulr"
    case MulI => "muli"
    case BanR => "banr"
    case BanI => "bani"
    case BorR => "borr"
    case BorI => "bori"
    case SetR => "setr"
    case SetI => "seti"
    case GtIR => "gtir"
    case GtRI => "gtri"
    case GtRR => "gtrr"
    case EqIR => "eqir"
    case EqRI => "eqri"
    case EqRR => "eqrr"
  }

  /** The instruction a mnemonic names, if it names one. */
  function OpNamed(s: string): (r: Option<Op>)
    ensures r.Some? ==> Mnemonic(r.value) == s
  {
    if s == "addr" then Some(AddR)
    else if s == "addi" then Some(AddI)
    else if s == "mulr" then Some(MulR)
    else if s == "muli" then Some(MulI)
    else if s == "banr" then Some(BanR)
    else if s == "bani" then Some(BanI)
    else if s == "borr" then Some(BorR)
    else if s == "bori" then Some(BorI)
    else if s == "setr" then Some(SetR)
    else if s == "seti" then Some(SetI)
    else if s == "gtir" then Some(GtIR)
    else if s == "gtri" then Some(GtRI)
    else if s == "gtrr" then Some(GtRR)
    else if s == "eqir" then Some(EqIR)
    else if s == "eqri" then Some(EqRI)
    else if s == "eqrr" then Some(EqRR)
    else None
  }

  /** Every mnemonic names its own instruction: the sixteen names are distinct. */
  lemma OpNamedMnemonic(op: Op)
    ensures OpNamed(Mnemonic(op)) == Some(op)
  {
  }

  /** Whether operand A names a register; the others take it as a value. */
  predicate RegA(op: Op)
  {
    !(op.SetI? || op.GtIR? || op.EqIR?)
  }

  /** Whether operand B names a register; the others take it as a value or ignore it. */
  predicate RegB(op: Op)
  {
    op.AddR? || op.MulR? || op.BanR? || op.BorR? || op.GtIR? || op.GtRR? || op.EqIR? || op.EqRR?
  }

  const NumRegs := 6

  /** The six registers (`usize` in the source). */
  type Registers = r: seq<nat> | |r| == NumRegs witness [0, 0, 0, 0, 0, 0]

  const Zero: Registers := [0, 0, 0, 0, 0, 0]

  datatype Inst = Inst(op: Op, a: nat, b: nat, c: nat)

  /** The register operands of an instruction name one of the six registers. */
  predicate InstOk(i: Inst)
  {
    (RegA(i.op) ==> i.a < NumRegs) && (RegB(i.op) ==> i.b < NumRegs) && i.c < NumRegs
  }

  function Flag(b: bool): nat
  {
    if b then 1 else 0
  }

  /** The value an instruction writes to register C. */
  function Value(i: Inst, r: Registers): nat
    requires InstOk(i)
  {
    match i.op
    case AddR => r[i.a] + r[i.b]
    case AddI => r[i.a] + i.b
    case MulR => r[i.a] * r[i.b]
    case MulI => r[i.a] * i.b
    case BanR => And(r[i.a], r[i.b])
    case BanI => And(r[i.a], i.b)
    case BorR => Or(r[i.a], r[i.b])
    case BorI => Or(r[i.a], i.b)
    case SetR => r[i.a]
    case SetI => i.a
    case GtIR => Flag(i.a > r[i.b])
    case GtRI => Flag(r[i.a] > i.b)
    case GtRR => Flag(r[i.a] > r[i.b])
    case EqIR => Flag(i.a == r[i.b])
    case EqRI => Flag(r[i.a] == i.b)
    case EqRR => Flag(r[i.a] == r[i.b])
  }

  /** An instruction reads only the registers its register operands name. */
  lemma ValueReadsOperands(i: Inst, r1: Registers, r2: Registers)
    requires InstOk(i)
    requires RegA(i.op) ==> r1[i.a] == r2[i.a]
    requires RegB(i.op) ==> r1[i.b] == r2[i.b]
    ensures Value(i, r1) == Value(i, r2)
  {
  }

  /** The registers, the register bound to the instruction pointer, and the program. */
  datatype Machine = Machine(reg: Registers, ip: nat, code: seq<Inst>)

  /** The instruction pointer's register and every register operand exist. */
  predicate Valid(m: Machine)
  {
    m.ip < NumRegs && forall k :: 0 <= k < |m.code| ==> InstOk(m.code[k])
  }

  /** The instruction pointer has left the program. */
  predicate Halted(m: Machine)
    requires m.ip < NumRegs
  {
    m.reg[m.ip] >= |m.code|
  }

  /** Whether an instruction ran, and the machine afterwards. */
  datatype Stepped = Stepped(ran: bool, machine: Machine)

  /** One instruction: write register C, then advance the instruction pointer's register. */
  function Step(m: Machine): (r: Stepped)
    requires Valid(m)
    ensures Valid(r.machine) && r.machine.ip == m.ip && r.machine.code == m.code
    ensures !r.ran <==> Halted(m)
    ensures !r.ran ==> r.machine == m
    ensures r.ran ==>
      var i := m.code[m.reg[m.ip]];
      && (forall k :: 0 <= k < NumRegs && k != i.c && k != m.ip ==> r.machine.reg[k] == m.reg[k])
      && (i.c != m.ip ==> r.machine.reg[i.c] == Value(i, m.reg) && r.machine.reg[m.ip] == m.reg[m.ip] + 1)
      && (i.c == m.ip ==> r.machine.reg[m.ip] == Value(i, m.reg) + 1)
  {
    var pc := m.reg[m.ip];
    if pc >= |m.code| then Stepped(false, m)
    else
      var i := m.code[pc];
      var written := m.reg[i.c := Value(i, m.reg)];
      Stepped(true, m.(reg := written[m.ip := written[m.ip] + 1]))
  }

  /** The machine after `n` steps; a halted machine stays as it is. */
  function Steps(m: Machine, n: nat): (r: Machine)
    requires Valid(m)
    ensures Valid(r) && r.ip == m.ip && r.code == m.code
    decreases n
  {
    if n == 0 then m else Steps(Step(m).machine, n - 1)
  }

  lemma {:induction false} HaltedStays(m: Machine, n: nat)
    requires Valid(m) && Halted(m)
    ensures Steps(m, n) == m
  {
    if n > 0 {
      HaltedStays(m, n - 1);
    }
  }

  lemma {:induction false} StepsAdd(m: Machine, a: nat, b: nat)
    requires Valid(m)
    ensures Steps(m, a + b) == Steps(Steps(m, a), b)
    decreases a
  {
    if a > 0 {
      var m' := Step(m).machine;
      assert Steps(m, a + b) == Steps(m', (a - 1) + b);
      assert Steps(m, a) == Steps(m', a - 1);
      StepsAdd(m', a - 1, b);
    }
  }

  /** `while proc.step() {}`, for a program that halts within `fuel` steps. */
  method Run(m0: Machine, ghost fuel: nat) returns (m: Machine, steps: nat)
    requires Valid(m0) && Halted(Steps(m0, fuel))
    ensures Valid(m) && Halted(m)
    ensures steps <= fuel && m == Steps(m0, steps) && m == Steps(m0, fuel)
    ensures forall j :: 0 <= j < steps ==> !Halted(Steps(m0, j))
  {
    m, steps := m0, 0;
    var s := Step(m);
    while s.ran
      invariant Valid(m) && steps <= fuel && m == Steps(m0, steps) && s == Step(m)
      invariant forall j :: 0 <= j < steps ==> !Halted(Steps(m0, j))
      decreases fuel - steps
    {
      StepsAdd(m0, steps, 1);
      m, steps := s.machine, steps + 1;
      s := Step(m);
    }
    StepsAdd(m0, steps, fuel - steps);
    HaltedStays(m, fuel - steps);
  }

  // Parsing.

  datatype Line = IpLine(reg: nat) | InstLine(inst: Inst)

  const IpPrefix := "#ip "

  /** One past the largest `usize`. */
  const UsizeLimit := 0x1_0000_0000_0000_0000

  function OutOfRange(v: nat): string
  {
    "Register out of range: " + Text.ShowNat(v)
  }

  /** A run of one or more decimal digits. */
  predicate IsNumber(s: string)
  {
    |s| > 0 && forall j :: 0 <= j < |s| ==> Text.IsDigit(s[j])
  }

  /** The instruction line pattern: a mnemonic and three numbers, separated by single spaces. */
  predicate InstShape(parts: seq<string>)
  {
    |parts| == 4 && OpNamed(parts[0]).Some? && IsNumber(parts[1]) && IsNumber(parts[2]) && IsNumber(parts[3])
  }

  function CheckReg(v: nat): (r: Result<nat>)
    ensures r.Ok? <==> v < NumRegs
    ensures r.Ok? ==> r.value == v
    ensures r.Err? ==> r.msg == OutOfRange(v)
  {
    if v >= NumRegs then Err(OutOfRange(v)) else Ok(v)
  }

  /** The instruction a matching line holds, its register operands checked in the order A, B, C. */
  function Decode(op: Op, a: nat, b: nat, c: nat): (r: Result<Inst>)
    ensures r.Ok? <==> InstOk(Inst(op, a, b, c))
    ensures r.Ok? ==> r.value == Inst(op, a, b, c)
    ensures RegA(op) && a >= NumRegs ==> r == Err(OutOfRange(a))
    ensures (!RegA(op) || a < NumRegs) && RegB(op) && b >= NumRegs ==> r == Err(OutOfRange(b))
    ensures (!RegA(op) || a < NumRegs) && (!RegB(op) || b < NumRegs) && c >= NumRegs ==> r == Err(OutOfRange(c))
  {
    var a' :- if RegA(op) then CheckReg(a) else Ok(a);
    var b' :- if RegB(op) then CheckReg(b) else Ok(b);
    var c' :- CheckReg(c);
    Ok(Inst(op, a', b', c'))
  }

  /** `Machine::parse` on one line, as written: the number after `#ip` is not checked. */
  function ParseLineAsWritten(line: string): (r: Result<Line>)
    ensures |line| >= 4 && line[..4] == IpPrefix ==>
      (r.Ok? <==> Text.ParseUnsigned(line[4..], UsizeLimit).Some?)
      && (r.Ok? ==> r.value == IpLine(Text.ParseUnsigned(line[4..], UsizeLimit).value))
    ensures !(|line| >= 4 && line[..4] == IpPrefix) && !InstShape(Text.Split(line, ' ')) ==>
      r == Err("Failed to parse line: " + line)
    ensures r.Ok? && r.value.InstLine? ==> InstOk(r.value.inst) && InstShape(Text.Split(line, ' '))
  {
    if |line| >= 4 && line[..4] == IpPrefix then
      var n := Text.ParseUnsigned(line[4..], UsizeLimit);
      if n.None? then Err("invalid digit found in string") else Ok(IpLine(n.value))
    else
      var parts := Text.Split(line, ' ');
      if InstShape(parts) then
        var i :- Decode(OpNamed(parts[0]).value, Text.DigitsValue(parts[1]),
                        Text.DigitsValue(parts[2]), Text.DigitsValue(parts[3]));
        Ok(InstLine(i))
      else
        Err("Failed to parse line: " + line)
  }

  /** A `#ip` line may name a register that does not exist; the machine then cannot take a step. */
  lemma IpOutOfRangeAccepted()
    ensures ParseLineAsWritten("#ip 6") == Ok(IpLine(6))
    ensures !Valid(Machine(Zero, 6, []))
  {
    assert "#ip 6"[..4] == IpPrefix;
    assert "#ip 6"[4..] == "6";
    assert Text.IsDigit('6');
  }

  /** One line, with the `#ip` register checked like every other register operand. */
  function ParseLine(line: string): (r: Result<Line>)
    ensures r.Ok? ==> r == ParseLineAsWritten(line)
    ensures ParseLineAsWritten(line).Err? ==> r == ParseLineAsWritten(line)
    ensures r.Ok? && r.value.IpLine? ==> r.value.reg < NumRegs
    ensures r.Ok? && r.value.InstLine? ==> InstOk(r.value.inst)
  {
    var w := ParseLineAsWritten(line);
    if w.Ok? && w.value.IpLine? && w.value.reg >= NumRegs then Err(OutOfRange(w.value.reg)) else w
  }

  /** The corrected parser rejects the line the original accepts. */
  lemma IpOutOfRangeRejected()
    ensures ParseLine("#ip 6") == Err(OutOfRange(6))
  {
    IpOutOfRangeAccepted();
  }

  /** The lines from the first failing one on: a line that fails, preceded only by lines that parse. */
  predicate FirstError(lines: seq<string>, j: int)
  {
    0 <= j < |lines| && ParseLine(lines[j]).Err? && forall k :: 0 <= k < j ==> ParseLine(lines[k]).Ok?
  }

  function ParseFrom(lines: seq<string>, ip: nat, code: seq<Inst>): (r: Result<Machine>)
    requires Valid(Machine(Zero, ip, code))
    ensures r.Ok? ==> Valid(r.value) && r.value.reg == Zero
    ensures r.Ok? <==> forall j :: 0 <= j < |lines| ==> ParseLine(lines[j]).Ok?
    ensures r.Err? ==> exists j :: FirstError(lines, j) && r.msg == ParseLine(lines[j]).msg
    decreases |lines|
  {
    if |lines| == 0 then Ok(Machine(Zero, ip, code))
    else
      var l := ParseLine(lines[0]);
      if l.Err? then
        assert FirstError(lines, 0);
        Err(l.msg)
      else
        var r := match l.value
          case IpLine(n) => ParseFrom(lines[1..], n, code)
          case InstLine(i) => ParseFrom(lines[1..], ip, code + [i]);
        assert forall j :: 1 <= j < |lines| ==> lines[j] == lines[1..][j - 1];
        if r.Err? then
          var j :| FirstError(lines[1..], j) && r.msg == ParseLine(lines[1..][j]).msg;
          assert FirstError(lines, j + 1);
          r
        else
          r
  }

  /** `Machine::parse`: all registers zero, the last `#ip` line's register (0 without one), the
      instructions in order; the first line that fails gives the error. */
  function Parse(lines: seq<string>): (r: Result<Machine>)
    ensures r.Ok? ==> Valid(r.value) && r.value.reg == Zero
    ensures r.Ok? <==> forall j :: 0 <= j < |lines| ==> ParseLine(lines[j]).Ok?
    ensures r.Err? ==> exists j :: FirstError(lines, j) && r.msg == ParseLine(lines[j]).msg
  {
    ParseFrom(lines, 0, [])
  }

  // Printing a program, to state what the parser reads.

  function ShowInst(i: Inst): string
  {
    Mnemonic(i.op) + " " + Text.ShowNat(i.a) + " " + Text.ShowNat(i.b) + " " + Text.ShowNat(i.c)
  }

  function Shown(code: seq<Inst>): (r: seq<string>)
    ensures |r| == |code| && forall k :: 0 <= k < |code| ==> r[k] == ShowInst(code[k])
  {
    seq(|code|, k requires 0 <= k < |code| => ShowInst(code[k]))
  }

  function Render(ip: nat, code: seq<Inst>): seq<string>
  {
    [IpPrefix + Text.ShowNat(ip)] + Shown(code)
  }

  lemma ShowNumber(n: nat)
    ensures IsNumber(Text.ShowNat(n)) && ' ' !in Text.ShowNat(n)
    ensures Text.DigitsValue(Text.ShowNat(n)) == n
  {
  }

  /** A printed instruction reads back as itself. */
  lemma ParseShowInst(i: Inst)
    requires InstOk(i)
    ensures ParseLine(ShowInst(i)) == Ok(InstLine(i))
  {
    var line := ShowInst(i);
    var parts := ShowInstSplit(i);
    ShowInstFirst(i);
    OpNamedMnemonic(i.op);
    assert !(|line| >= 4 && line[..4] == IpPrefix);
    assert InstShape(parts);
  }

  /** The pieces of a printed instruction. */
  lemma ShowInstSplit(i: Inst) returns (parts: seq<string>)
    ensures parts == Text.Split(ShowInst(i), ' ')
    ensures parts == [Mnemonic(i.op), Text.ShowNat(i.a), Text.ShowNat(i.b), Text.ShowNat(i.c)]
    ensures IsNumber(parts[1]) && Text.DigitsValue(parts[1]) == i.a
    ensures IsNumber(parts[2]) && Text.DigitsValue(parts[2]) == i.b
    ensures IsNumber(parts[3]) && Text.DigitsValue(parts[3]) == i.c
  {
    parts := [Mnemonic(i.op), Text.ShowNat(i.a), Text.ShowNat(i.b), Text.ShowNat(i.c)];
    ShowNumber(i.a);
    ShowNumber(i.b);
    ShowNumber(i.c);
    assert ' ' !in Mnemonic(i.op);
    assert parts[..1] == [Mnemonic(i.op)];
    assert parts[..2][..1] == parts[..1];
    assert parts[..3][..2] == parts[..2];
    assert parts[..3] == parts[..4][..3];
    assert Text.Join(parts[..1], ' ') == parts[0];
    assert Text.Join(parts[..2], ' ') == parts[0] + [' '] + parts[1];
    assert Text.Join(parts[..3], ' ') == parts[0] + [' '] + parts[1] + [' '] + parts[2];
    assert Text.Join(parts, ' ') == parts[0] + [' '] + parts[1] + [' '] + parts[2] + [' '] + parts[3];
    Text.SplitJoin(parts, ' ');
  }

  /** A printed instruction starts with its mnemonic's first letter, never with `#`. */
  lemma ShowInstFirst(i: Inst)
    ensures |ShowInst(i)| > 0 && ShowInst(i)[0] == Mnemonic(i.op)[0] != '#'
  {
  }

  /** A printed `#ip` line reads back as its register. */
  lemma ParseShowIp(n: nat)
    requires n < NumRegs
    ensures ParseLine(IpPrefix + Text.ShowNat(n)) == Ok(IpLine(n))
  {
    var line := IpPrefix + Text.ShowNat(n);
    assert line[..4] == IpPrefix;
    assert line[4..] == Text.ShowNat(n);
    Text.ParseShowNat(n, UsizeLimit);
  }

  lemma ParseFromInst(lines: seq<string>, ip: nat, acc: seq<Inst>, i: Inst)
    requires Valid(Machine(Zero, ip, acc)) && InstOk(i)
    requires |lines| > 0 && ParseLine(lines[0]) == Ok(InstLine(i))
    ensures ParseFrom(lines, ip, acc) == ParseFrom(lines[1..], ip, acc + [i])
  {
  }

  lemma {:induction false} ParseFromShown(code: seq<Inst>, ip: nat, acc: seq<Inst>)
    requires Valid(Machine(Zero, ip, acc)) && Valid(Machine(Zero, ip, code))
    ensures ParseFrom(Shown(code), ip, acc) == Ok(Machine(Zero, ip, acc + code))
    decreases |code|
  {
    if |code| == 0 {
      assert acc + code == acc;
    } else {
      ParseShowInst(code[0]);
      ShownTail(code);
      MoveFirst(ip, acc, code);
      ParseFromInst(Shown(code), ip, acc, code[0]);
      ParseFromShown(code[1..], ip, acc + [code[0]]);
    }
  }

  lemma ShownTail(code: seq<Inst>)
    requires |code| > 0
    ensures Shown(code)[0] == ShowInst(code[0]) && Shown(code)[1..] == Shown(code[1..])
  {
  }

  /** Moving the first instruction onto the instructions read so far keeps both parts valid. */
  lemma MoveFirst(ip: nat, acc: seq<Inst>, code: seq<Inst>)
    requires Valid(Machine(Zero, ip, acc)) && Valid(Machine(Zero, ip, code)) && |code| > 0
    ensures InstOk(code[0])
    ensures Valid(Machine(Zero, ip, acc + [code[0]])) && Valid(Machine(Zero, ip, code[1..]))
    ensures acc + [code[0]] + code[1..] == acc + code
  {
    assert InstOk(code[0]);
    var acc' := acc + [code[0]];
    assert forall k :: 0 <= k < |acc'| ==> InstOk(acc'[k]) by {
      forall k | 0 <= k < |acc'|
        ensures InstOk(acc'[k])
      {
        if k < |acc| {
          assert acc'[k] == acc[k];
        }
      }
    }
    assert forall k :: 0 <= k < |code| - 1 ==> InstOk(code[1..][k]) by {
      forall k | 0 <= k < |code| - 1
        ensures InstOk(code[1..][k])
      {
        assert code[1..][k] == code[k + 1];
      }
    }
  }

  /** Printing a machine's program and reading it back gives the freshly loaded machine. */
  lemma ParseRender(ip: nat, code: seq<Inst>)
    requires Valid(Machine(Zero, ip, code))
    ensures Parse(Render(ip, code)) == Ok(Machine(Zero, ip, code))
  {
    var lines := Render(ip, code);
    ParseShowIp(ip);
    assert lines[1..] == Shown(code);
    ParseFromShown(code, ip, []);
    assert [] + code == code;
  }

  // The hand translation of the program.

  predicate Divides(d: nat, n: nat)
  {
    d > 0 && n % d == 0
  }

  /** The sum of the divisors of `n` below `hi`. */
  function DivisorSumBelow(n: nat, hi: nat): nat
  {
    if hi == 0 then 0 else DivisorSumBelow(n, hi - 1) + (if Divides(hi - 1, n) then hi - 1 else 0)
  }

  /** The sum of all divisors of `n`. */
  function DivisorSum(n: nat): nat
  {
    DivisorSumBelow(n, n + 1)
  }

  /** The number whose divisors the program sums: 967, or 10551367 when register 0 starts at 1. */
  function Target(r0: nat): nat
  {
    if r0 == 1 then 131 + 836 + 10550400 else 131 + 836
  }

  /** A divisor the loop has added once it has tried every candidate below `k`: a candidate, or the
      co-divisor of one (`d * k > n` says that `n / d < k`). */
  predicate Added(n: nat, k: nat, d: nat)
  {
    Divides(d, n) && (d < k || d * k > n)
  }

  function AddedSumBelow(n: nat, k: nat, hi: nat): nat
  {
    if hi == 0 then 0 else AddedSumBelow(n, k, hi - 1) + (if Added(n, k, hi - 1) then hi - 1 else 0)
  }

  lemma MulLe(a: nat, b: nat, c: nat)
    requires b <= c
    ensures a * b <= a * c
  {
    assert a * c == a * b + a * (c - b);
  }

  /** The quotient of a divisor. */
  lemma Quotient(n: nat, d: nat) returns (q: nat)
    requires Divides(d, n)
    ensures n == d * q && q == n / d
  {
    q := n / d;
    DivExact(n, d);
  }

  /** Before the first candidate nothing is added. */
  lemma {:induction false} AddedNoneYet(n: nat, hi: nat)
    requires hi <= n + 1
    ensures AddedSumBelow(n, 1, hi) == 0
  {
    if hi > 0 {
      AddedNoneYet(n, hi - 1);
    }
  }

  /** Past the square root every divisor is a candidate or a co-divisor. */
  lemma PastSquareRoot(n: nat, k: nat, d: nat)
    requires Divides(d, n) && k * k > n
    ensures Added(n, k, d)
  {
    if d >= k && d * k <= n {
      var q := Quotient(n, d);
      MulLe(q, k, d);
      MulLe(k, k, q);
    }
  }

  lemma {:induction false} AddedAll(n: nat, k: nat, hi: nat)
    requires k * k > n
    ensures AddedSumBelow(n, k, hi) == DivisorSumBelow(n, hi)
  {
    if hi > 0 {
      AddedAll(n, k, hi - 1);
      if Divides(hi - 1, n) {
        PastSquareRoot(n, k, hi - 1);
      }
    }
  }

  lemma MulCancelLe(a: nat, b: nat, c: nat)
    requires a > 0 && a * b <= a * c
    ensures b <= c
  {
    assert a * b - a * c == a * (b - c);
  }

  /** With `k * k <= n`, the co-divisor of a divisor `k` is at least `k`. */
  lemma CoDivisorAbove(n: nat, k: nat)
    requires k >= 1 && k * k <= n && Divides(k, n)
    ensures n / k >= k
  {
    var q := Quotient(n, k);
    MulCancelLe(k, k, q);
  }

  /** A divisor newly added by candidate `k` is `k` or its co-divisor. */
  lemma AddedNewOnly(n: nat, k: nat, d: nat)
    requires k >= 1 && k * k <= n
    requires Added(n, k + 1, d) && !Added(n, k, d)
    ensures Divides(k, n) && (d == k || d == n / k)
  {
    if d != k {
      var q := Quotient(n, d);
      MulSuccRight(d, k);
      QuotientSqueeze(d, k, q);
      ModUnique(n, k, d, 0);
    }
  }

  /** A multiple of `d` at least `d * k` and below `d * k + d` is `d * k`. */
  lemma QuotientSqueeze(d: int, k: int, q: int)
    requires d > 0 && d * k <= d * q < d * k + d
    ensures q == k
  {
    var e := q - k;
    assert d * e == d * q - d * k;
    if e >= 1 {
      MulAtLeast(e, d);
    } else if e <= -1 {
      MulAtLeast(-e, d);
    }
  }

  /** Candidate `k` adds itself and its co-divisor, which were not added before. */
  lemma AddedNewBoth(n: nat, k: nat)
    requires k >= 1 && k * k <= n && Divides(k, n)
    ensures Added(n, k + 1, k) && !Added(n, k, k)
    ensures Added(n, k + 1, n / k) && !Added(n, k, n / k)
  {
    CoDivisorAbove(n, k);
    var e := n / k;
    DivExact(n, k);
    ModUnique(n, e, k, 0);
    assert e * (k + 1) == e * k + e;
  }

  /** Added divisors stay added. */
  lemma AddedKept(n: nat, k: nat, d: nat)
    requires Added(n, k, d)
    ensures Added(n, k + 1, d)
  {
    assert d * (k + 1) == d * k + d;
  }

  /** What candidate `k` adds below `hi`: itself and its co-divisor, once when they coincide. */
  function Extra(n: nat, k: nat, hi: nat): nat
    requires k >= 1
  {
    if !Divides(k, n) then 0
    else (if k < hi then k else 0) + (if n / k != k && n / k < hi then n / k else 0)
  }

  lemma {:induction false} AddedStep(n: nat, k: nat, hi: nat)
    requires k >= 1 && k * k <= n
    ensures AddedSumBelow(n, k + 1, hi) == AddedSumBelow(n, k, hi) + Extra(n, k, hi)
  {
    if hi > 0 {
      AddedStep(n, k, hi - 1);
      var d := hi - 1;
      if Added(n, k, d) {
        AddedKept(n, k, d);
      } else if Added(n, k + 1, d) {
        AddedNewOnly(n, k, d);
      }
      if Divides(k, n) {
        AddedNewBoth(n, k);
      }
    }
  }

  /** `native`: the hand translation, which adds each divisor up to the square root together with
      its co-divisor, onto register 0's starting value (reset when it selects the large target). */
  method Native(r0In: nat) returns (r0: nat)
    ensures r0 == (if r0In == 1 then 0 else r0In) + DivisorSum(Target(r0In))
  {
    r0 := r0In;
    var r2 := 131;
    var r5 := r2 + 836;
    if r0 == 1 {
      r2 := 10550400;
      r5 := r5 + r2;
      r0 := 0;
    }
    ghost var start := r0;
    var r1 := 1;
    AddedNoneYet(r5, r5 + 1);
    while true
      invariant 1 <= r1 <= r5 && r1 * r1 <= r5
      invariant r0 == start + AddedSumBelow(r5, r1, r5 + 1)
      decreases r5 - r1
    {
      AddedStep(r5, r1, r5 + 1);
      if r5 % r1 == 0 {
        r0 := r0 + r1;
        var other := r5 / r1;
        if other != r1 {
          r0 := r0 + other;
        }
      }
      r1 := r1 + 1;
      if r1 * r1 > r5 {
        break;
      }
      MulLe(r1, 1, r1);
    }
    AddedAll(r5, r1, r5 + 1);
  }

  /** `run`: run the parsed program to its end, check it against the hand translation, and answer
      with the final register 0 and the translation's result for register 0 starting at 1. The
      program must halt (within `fuel` steps) and agree with the translation, or `run` does not return. */
  method Solve(lines: seq<string>, ghost fuel: nat) returns (r: Result<(nat, nat)>)
    requires Parse(lines).Ok? ==> Halted(Steps(Parse(lines).value, fuel))
    requires Parse(lines).Ok? ==> Steps(Parse(lines).value, fuel).reg[0] == DivisorSum(Target(0))
    ensures r.Err? <==> Parse(lines).Err?
    ensures r.Err? ==> r.msg == Parse(lines).msg
    ensures r.Ok? ==> r.value.0 == Steps(Parse(lines).value, fuel).reg[0] == DivisorSum(967)
    ensures r.Ok? ==> r.value.1 == DivisorSum(10551367)
  {
    var parsed := Parse(lines);
    if parsed.Err? {
      return Err(parsed.msg);
    }
    var m, steps := Run(parsed.value, fuel);
    var check := Native(0);
    var part2 := Native(1);
    r := Ok((m.reg[0], part2));
  }
}

=== FILE: day20.dfy ===
/** Day 20, last part: the breadth-first search over the door map. */
module Day20 {
  import opened Common
  import opened Bits
  import opened Array2d
  import Day20Regex
  import Day20Walk
  import Day20Map

  /** A cell of the door map. */
  type Loc = (int, int)

  /** The four cells next to `a`. */
  function Around(a: Loc): set<Loc>
  {
    {(a.0, a.1 - 1), (a.0 - 1, a.1), (a.0, a.1 + 1), (a.0 + 1, a.1)}
  }

  /** The four tests of `pathfind`: a door north of `a` (bit 0 of `a`), west of `a` (bit 1 of
      `a`), south of `a` (bit 0 of the cell below, read with `get`) or east of `a` (bit 1 of the
      cell to the right). */
  predicate Door(g: Grid<nat>, a: Loc, b: Loc)
    requires g.Valid()
  {
    InBounds(g, a.0, a.1)
    && ((b == (a.0, a.1 - 1) && Bit(Get(g, a.0, a.1, 0), 0))
        || (b == (a.0 - 1, a.1) && Bit(Get(g, a.0, a.1, 0), 1))
        || (b == (a.0, a.1 + 1) && Bit(Get(g, a.0, a.1 + 1, 0), 0))
        || (b == (a.0 + 1, a.1) && Bit(Get(g, a.0 + 1, a.1, 0), 1)))
  }

  /** A map `create_map` can draw: no door leads north out of the top row or west out of the
      left column (the search would step to a negative coordinate). */
  ghost predicate WellFormed(g: Grid<nat>)
  {
    g.Valid()
    && (forall x :: InBounds(g, x, 0) ==> !Bit(Cell(g, x, 0), 0))
    && (forall y :: InBounds(g, 0, y) ==> !Bit(Cell(g, 0, y), 1))
  }

  /** Every cell of the map. */
  function Box(g: Grid<nat>): set<Loc>
  {
    set x: int, y: int | 0 <= x < g.width && 0 <= y < g.height :: (x, y)
  }

  /** A door leads to a neighbouring cell of the map. */
  lemma DoorInside(g: Grid<nat>, a: Loc, b: Loc)
    requires WellFormed(g) && Door(g, a, b)
    ensures b in Around(a) && b in Box(g) && a in Box(g)
  {
    if b == (a.0, a.1 - 1) && Bit(Get(g, a.0, a.1, 0), 0) {
      assert a.1 != 0;
    } else if b == (a.0 - 1, a.1) && Bit(Get(g, a.0, a.1, 0), 1) {
      assert a.0 != 0;
    } else if b == (a.0, a.1 + 1) && Bit(Get(g, a.0, a.1 + 1, 0), 0) {
      assert InBounds(g, b.0, b.1);
    } else {
      assert InBounds(g, b.0, b.1);
    }
  }

  /** The doors of the map as pairs of cells, from the cell whose test finds the door to the
      cell it leads to. */
  ghost function Doors(g: Grid<nat>): set<(Loc, Loc)>
    requires g.Valid()
  {
    set a, b | a in Box(g) && b in Box(g) && Door(g, a, b) :: (a, b)
  }

  /** On a well-formed map, the door tests of a cell find exactly its edges. */
  lemma DoorEdge(g: Grid<nat>, a: Loc, b: Loc)
    requires WellFormed(g)
    ensures (a, b) in Doors(g) <==> Door(g, a, b)
  {
    if Door(g, a, b) {
      DoorInside(g, a, b);
    }
  }

  // The reference: the cells within n doors of the start, over any set of doors.

  /** The cells one door away from some cell of `c`. */
  ghost function Next(e: set<(Loc, Loc)>, c: set<Loc>): set<Loc>
  {
    set d | d in e && d.0 in c :: d.1
  }

  /** The cells reachable from `s` through at most `n` doors. */
  ghost function Within(e: set<(Loc, Loc)>, s: Loc, n: nat): set<Loc>
  {
    if n == 0 then {s} else Within(e, s, n - 1) + Next(e, Within(e, s, n - 1))
  }

  /** The cells closer than `n` doors. */
  ghost function Before(e: set<(Loc, Loc)>, s: Loc, n: nat): set<Loc>
  {
    if n == 0 then {} else Within(e, s, n - 1)
  }

  /** The cells whose shortest route from `s` passes exactly `n` doors. */
  ghost function Layer(e: set<(Loc, Loc)>, s: Loc, n: nat): set<Loc>
  {
    Within(e, s, n) - Before(e, s, n)
  }

  /** Every cell of the map reachable from `s` at all: no route needs more doors than the map
      has cells. */
  ghost function Reachable(g: Grid<nat>, s: Loc): set<Loc>
    requires g.Valid()
  {
    Within(Doors(g), s, |Box(g)|)
  }

  lemma {:induction false} WithinMono(e: set<(Loc, Loc)>, s: Loc, m: nat, n: nat)
    requires m <= n
    ensures Within(e, s, m) <= Within(e, s, n)
    decreases n
  {
    if m < n {
      WithinMono(e, s, m, n - 1);
    }
  }

  /** Each number of doors adds the next layer to what came before. */
  lemma BeforeNext(e: set<(Loc, Loc)>, s: Loc, n: nat)
    ensures Before(e, s, n + 1) == Before(e, s, n) + Layer(e, s, n)
    ensures Before(e, s, n) <= Within(e, s, n)
  {
    if n > 0 {
      WithinMono(e, s, n - 1, n);
    }
  }

  /** Every door of `e` leads into `box`. */
  ghost predicate Into(e: set<(Loc, Loc)>, box: set<Loc>)
  {
    forall d :: d in e ==> d.1 in box
  }

  lemma DoorsInto(g: Grid<nat>)
    requires g.Valid()
    ensures Into(Doors(g), Box(g))
  {
  }

  lemma {:induction false} WithinBox(e: set<(Loc, Loc)>, box: set<Loc>, s: Loc, n: nat)
    requires Into(e, box) && s in box
    ensures Within(e, s, n) <= box
    decreases n
  {
    if n > 0 {
      WithinBox(e, box, s, n - 1);
    }
  }

  /** Once a step adds nothing, no later step does. */
  lemma Stable(e: set<(Loc, Loc)>, s: Loc, l: nat, n: nat)
    requires l <= n && Within(e, s, l + 1) == Within(e, s, l)
    ensures Within(e, s, n) == Within(e, s, l)
  {
    var k := l;
    while k < n
      invariant l <= k <= n && Within(e, s, k) == Within(e, s, l)
    {
      SameStep(e, s, k, l);
      k := k + 1;
    }
  }

  /** Equal sets of cells lead to equal sets one step further. */
  lemma SameStep(e: set<(Loc, Loc)>, s: Loc, m: nat, n: nat)
    requires Within(e, s, m) == Within(e, s, n)
    ensures Within(e, s, m + 1) == Within(e, s, n + 1)
  {
    var w := Within(e, s, m);
    assert Within(e, s, m + 1) == w + Next(e, w);
    assert Within(e, s, n + 1) == w + Next(e, w);
  }

  function Parity(a: Loc): int
  {
    (a.0 + a.1) % 2
  }

  /** The colour after `n` changes of colour from `p`. */
  function Flip(p: int, n: nat): int
  {
    if n == 0 then p else 1 - Flip(p, n - 1)
  }

  /** Neighbouring cells have opposite colours. */
  lemma ParityStep(a: Loc, b: Loc)
    requires b in Around(a)
    ensures Parity(b) == 1 - Parity(a)
  {
  }

  /** Every door of `e` joins cells of opposite colours. */
  ghost predicate Chessboard(e: set<(Loc, Loc)>)
  {
    forall d :: d in e ==> Parity(d.1) == 1 - Parity(d.0)
  }

  /** A door of the map joins neighbouring cells, so cells of opposite colours. */
  lemma DoorsChessboard(g: Grid<nat>)
    requires g.Valid()
    ensures Chessboard(Doors(g))
  {
    forall d | d in Doors(g)
      ensures Parity(d.1) == 1 - Parity(d.0)
    {
      assert Door(g, d.0, d.1);
      ParityStep(d.0, d.1);
    }
  }

  /** A cell first reached after `n` doors is one door from a cell first reached after `n - 1`. */
  lemma LayerSource(e: set<(Loc, Loc)>, s: Loc, n: nat, c: Loc) returns (d: (Loc, Loc))
    requires n > 0 && c in Layer(e, s, n)
    ensures d in e && d.0 in Layer(e, s, n - 1) && d.1 == c
  {
    d :| d in e && d.0 in Within(e, s, n - 1) && d.1 == c;
    if n >= 2 && d.0 in Within(e, s, n - 2) {
      assert false;
    }
  }

  /** On a chessboard, every cell of a layer has the colour the layer's number gives. */
  lemma {:induction false} LayerParity(e: set<(Loc, Loc)>, s: Loc, n: nat, c: Loc)
    requires Chessboard(e) && c in Layer(e, s, n)
    ensures Parity(c) == Flip(Parity(s), n)
    decreases n
  {
    if n > 0 {
      var d := LayerSource(e, s, n, c);
      LayerParity(e, s, n - 1, d.0);
    }
  }

  /** On a chessboard, no door joins two cells of one layer. */
  lemma LayerNoDoors(e: set<(Loc, Loc)>, s: Loc, n: nat)
    requires Chessboard(e)
    ensures forall a, b :: a in Layer(e, s, n) && b in Layer(e, s, n) ==> (a, b) !in e
  {
    forall a, b | a in Layer(e, s, n) && b in Layer(e, s, n)
      ensures (a, b) !in e
    {
      LayerParity(e, s, n, a);
      LayerParity(e, s, n, b);
    }
  }

  /** The next layer is what the current layer's doors lead to, less what was reached already. */
  lemma NextLayer(e: set<(Loc, Loc)>, s: Loc, n: nat)
    ensures Layer(e, s, n + 1) == Next(e, Layer(e, s, n)) - Within(e, s, n)
  {
    forall b | b in Layer(e, s, n + 1)
      ensures b in Next(e, Layer(e, s, n))
    {
      var d := LayerSource(e, s, n + 1, b);
    }
    forall b | b in Next(e, Layer(e, s, n)) - Within(e, s, n)
      ensures b in Layer(e, s, n + 1)
    {
      var d :| d in e && d.0 in Layer(e, s, n) && d.1 == b;
      assert b in Next(e, Within(e, s, n));
    }
  }

  // The search as `pathfind` performs it.

  /** The cells the four tests add for cell `p`, less those already visited. */
  function Opened(g: Grid<nat>, visited: set<Loc>, p: Loc): (r: set<Loc>)
    requires WellFormed(g) && InBounds(g, p.0, p.1)
    ensures forall q :: q in r <==> q in Around(p) && Door(g, p, q) && q !in visited
  {
    var (x, y) := p;
    var here, below, right := At(g, x, y), Get(g, x, y + 1, 0), Get(g, x + 1, y, 0);
    assert Pow2(0) == 1 && Pow2(1) == 2;
    AndPow2(here, 0);
    AndPow2(here, 1);
    AndPow2(below, 0);
    AndPow2(right, 1);
    (if And(here, 1) != 0 && (x, y - 1) !in visited then {(x, y - 1)} else {})
    + (if And(here, 2) != 0 && (x - 1, y) !in visited then {(x - 1, y)} else {})
    + (if And(below, 1) != 0 && (x, y + 1) !in visited then {(x, y + 1)} else {})
    + (if And(right, 2) != 0 && (x + 1, y) !in visited then {(x + 1, y)} else {})
  }

  predicate Distinct<T(==)>(s: seq<T>)
  {
    forall j, k :: 0 <= j < k < |s| ==> s[j] != s[k]
  }

  /** Numbers in order, smallest first. */
  predicate Ascending(s: seq<nat>)
  {
    forall j, k :: 0 <= j <= k < |s| ==> s[j] <= s[k]
  }

  lemma DistinctAppend<T>(s: seq<T>, x: T)
    requires Distinct(s) && x !in s
    ensures Distinct(s + [x])
  {
  }

  /** What the inner loop of one round keeps: the cells of `frontier` not in `rest` are visited,
      reported in `order` with distance `i`, and their doors have added to `next`. */
  ghost predicate LevelState(g: Grid<nat>, i: nat, frontier: set<Loc>, visited: set<Loc>, rest: set<Loc>,
                             seen: set<Loc>, next: set<Loc>, calls: seq<nat>, order: seq<Loc>)
    requires g.Valid()
  {
    rest <= frontier && seen == visited + (frontier - rest)
    && |calls| == |order| && (forall k :: 0 <= k < |calls| ==> calls[k] == i)
    && (forall c :: c in order <==> c in frontier - rest) && Distinct(order)
    && next == Next(Doors(g), frontier - rest) - (visited + frontier)
  }

  /** One round of the outer loop: every frontier cell is visited and reported with distance
      `i`, and the unvisited cells its doors lead to form the next frontier. */
  method Level(g: Grid<nat>, i: nat, frontier: set<Loc>, visited: set<Loc>)
      returns (next: set<Loc>, calls: seq<nat>, order: seq<Loc>)
    requires WellFormed(g) && frontier <= Box(g) && frontier !! visited
    requires forall a, b :: a in frontier && b in frontier ==> (a, b) !in Doors(g)
    ensures next == Next(Doors(g), frontier) - (visited + frontier)
    ensures |calls| == |order| && forall k :: 0 <= k < |calls| ==> calls[k] == i
    ensures (forall c :: c in order <==> c in frontier) && Distinct(order)
  {
    next, calls, order := {}, [], [];
    var rest, seen := frontier, visited;
    assert Next(Doors(g), frontier - rest) == {};
    while rest != {}
      invariant LevelState(g, i, frontier, visited, rest, seen, next, calls, order)
      decreases |rest|
    {
      var p :| p in rest;
      LevelStep(g, i, frontier, visited, rest, seen, next, calls, order, p);
      rest, seen := rest - {p}, seen + {p};
      calls, order := calls + [i], order + [p];
      next := next + Opened(g, seen, p);
    }
    assert frontier - rest == frontier;
  }

  lemma LevelStep(g: Grid<nat>, i: nat, frontier: set<Loc>, visited: set<Loc>, rest: set<Loc>,
                  seen: set<Loc>, next: set<Loc>, calls: seq<nat>, order: seq<Loc>, p: Loc)
    requires WellFormed(g) && frontier <= Box(g) && p in rest
    requires forall a, b :: a in frontier && b in frontier ==> (a, b) !in Doors(g)
    requires LevelState(g, i, frontier, visited, rest, seen, next, calls, order)
    ensures InBounds(g, p.0, p.1)
    ensures LevelState(g, i, frontier, visited, rest - {p}, seen + {p}, next + Opened(g, seen + {p}, p),
                       calls + [i], order + [p])
  {
    OpenedStep(g, frontier, rest, visited, seen, p, next);
    ReportStep(i, frontier, visited, rest, seen, calls, order, p);
  }

  /** Reporting `p` with distance `i` moves it from `rest` to the visited cells of the round. */
  lemma ReportStep(i: nat, frontier: set<Loc>, visited: set<Loc>, rest: set<Loc>, seen: set<Loc>,
                   calls: seq<nat>, order: seq<Loc>, p: Loc)
    requires p in rest && rest <= frontier && seen == visited + (frontier - rest)
    requires |calls| == |order| && (forall k :: 0 <= k < |calls| ==> calls[k] == i)
    requires (forall c :: c in order <==> c in frontier - rest) && Distinct(order)
    ensures seen + {p} == visited + (frontier - (rest - {p}))
    ensures |calls + [i]| == |order + [p]| && (forall k :: 0 <= k < |calls + [i]| ==> (calls + [i])[k] == i)
    ensures (forall c :: c in order + [p] <==> c in frontier - (rest - {p})) && Distinct(order + [p])
  {
    DistinctAppend(order, p);
  }

  lemma OpenedStep(g: Grid<nat>, frontier: set<Loc>, rest: set<Loc>, visited: set<Loc>,
                   seen: set<Loc>, p: Loc, next: set<Loc>)
    requires WellFormed(g) && frontier <= Box(g) && rest <= frontier && p in rest
    requires forall a, b :: a in frontier && b in frontier ==> (a, b) !in Doors(g)
    requires seen == visited + (frontier - rest)
    requires next == Next(Doors(g), frontier - rest) - (visited + frontier)
    ensures InBounds(g, p.0, p.1)
    ensures next + Opened(g, seen + {p}, p) == Next(Doors(g), frontier - (rest - {p})) - (visited + frontier)
  {
    var done := frontier - rest;
    assert frontier - (rest - {p}) == done + {p};
    forall q | q in Opened(g, seen + {p}, p)
      ensures q in Next(Doors(g), done + {p}) - (visited + frontier)
    {
      DoorEdge(g, p, q);
      assert (p, q) in Doors(g);
      assert q !in frontier;
    }
    forall q | q in Next(Doors(g), done + {p}) - (visited + frontier)
      ensures q in next + Opened(g, seen + {p}, p)
    {
      var d :| d in Doors(g) && d.0 in done + {p} && d.1 == q;
      if d.0 != p {
        assert q in Next(Doors(g), done);
      } else {
        DoorEdge(g, p, q);
        DoorInside(g, p, q);
      }
    }
  }

  /** What the outer loop keeps before round `i`: each cell closer than `i` doors has been
      visited once and reported with its distance, in order of distance. */
  ghost predicate Reported(e: set<(Loc, Loc)>, s: Loc, i: nat, calls: seq<nat>, order: seq<Loc>)
  {
    |calls| == |order| && Distinct(order)
    && (forall c :: c in order <==> c in Before(e, s, i))
    && (forall k :: 0 <= k < |calls| ==> calls[k] < i && order[k] in Layer(e, s, calls[k]))
    && Ascending(calls)
  }

  lemma ReportedStep(e: set<(Loc, Loc)>, s: Loc, i: nat, calls: seq<nat>, order: seq<Loc>, c: seq<nat>, o: seq<Loc>)
    requires Reported(e, s, i, calls, order)
    requires |c| == |o| && (forall k :: 0 <= k < |c| ==> c[k] == i)
    requires (forall x :: x in o <==> x in Layer(e, s, i)) && Distinct(o)
    ensures Reported(e, s, i + 1, calls + c, order + o)
  {
    BeforeNext(e, s, i);
    var all, cs := order + o, calls + c;
    forall j, k | 0 <= j < k < |all|
      ensures all[j] != all[k]
    {
      if j < |order| && k >= |order| {
        assert all[j] == order[j] && all[k] == o[k - |order|];
        assert order[j] in Before(e, s, i) && o[k - |order|] in Layer(e, s, i);
      } else if j >= |order| {
        assert all[j] == o[j - |order|] && all[k] == o[k - |order|];
      }
    }
    forall k | 0 <= k < |cs|
      ensures cs[k] < i + 1 && all[k] in Layer(e, s, cs[k])
    {
      if k >= |calls| {
        assert cs[k] == c[k - |calls|] && all[k] == o[k - |order|];
      }
    }
  }

  lemma SubtractSmaller<T>(a: set<T>, b: set<T>)
    requires b <= a && b != {}
    ensures |a - b| < |a|
  {
    var x :| x in b;
    assert a - b <= a - {x};
    SubsetSize(a - b, a - {x});
  }

  /** After the last round: the reports cover every cell reachable inside `box`, and the last
      distance is the round at which nothing new was found. */
  lemma Finished(e: set<(Loc, Loc)>, box: set<Loc>, s: Loc, i: nat, calls: seq<nat>, order: seq<Loc>)
    requires Into(e, box) && s in box
    requires Reported(e, s, i + 1, calls, order)
    requires Layer(e, s, i + 1) == {} && |Within(e, s, i)| > i
    requires |calls| > 0 && calls[|calls| - 1] == i
    ensures |calls| == |order| > 0 && Distinct(order)
    ensures forall k :: 0 <= k < |calls| ==> order[k] in Layer(e, s, calls[k])
    ensures Ascending(calls)
    ensures forall c :: c in order <==> c in Within(e, s, |box|)
    ensures Within(e, s, calls[|calls| - 1]) == Within(e, s, |box|)
  {
    EmptyLayer(e, s, i);
    WithinBox(e, box, s, i);
    SubsetSize(Within(e, s, i), box);
    Stable(e, s, i, |box|);
  }

  /** A round that finds nothing new leaves the reached cells as they were. */
  lemma EmptyLayer(e: set<(Loc, Loc)>, s: Loc, n: nat)
    requires Layer(e, s, n + 1) == {}
    ensures Within(e, s, n + 1) == Within(e, s, n)
  {
    forall c | c in Within(e, s, n + 1)
      ensures c in Within(e, s, n)
    {
      assert c !in Layer(e, s, n + 1);
    }
  }

  /** What the outer loop of `pathfind` keeps before round `i`: the visited cells are those
      closer than `i` doors, the frontier is the nonempty layer `i`, and the visited cells have
      been reported. */
  ghost predicate Searching(e: set<(Loc, Loc)>, box: set<Loc>, s: Loc, i: nat, frontier: set<Loc>,
                            visited: set<Loc>, calls: seq<nat>, order: seq<Loc>)
  {
    visited == Before(e, s, i) && frontier == Layer(e, s, i) && frontier != {}
    && Reported(e, s, i, calls, order) && |visited| >= i && visited <= box
  }

  /** A round may start: the frontier lies inside `box`, apart from the visited cells, with no
      door between two of its cells. */
  lemma RoundReady(e: set<(Loc, Loc)>, box: set<Loc>, s: Loc, i: nat, frontier: set<Loc>,
                   visited: set<Loc>, calls: seq<nat>, order: seq<Loc>)
    requires Into(e, box) && Chessboard(e) && s in box
    requires Searching(e, box, s, i, frontier, visited, calls, order)
    ensures frontier <= box && frontier !! visited
    ensures forall a, b :: a in frontier && b in frontier ==> (a, b) !in e
  {
    LayerNoDoors(e, s, i);
    WithinBox(e, box, s, i);
  }

  /** After a round: the reports grew by layer `i`, fewer cells are left unvisited, and either
      the search goes on from layer `i + 1` or that layer is empty. */
  lemma RoundDone(e: set<(Loc, Loc)>, box: set<Loc>, s: Loc, i: nat, frontier: set<Loc>,
                  visited: set<Loc>, calls: seq<nat>, order: seq<Loc>,
                  next: set<Loc>, c: seq<nat>, o: seq<Loc>)
    requires Into(e, box) && s in box
    requires Searching(e, box, s, i, frontier, visited, calls, order)
    requires next == Next(e, frontier) - (visited + frontier)
    requires |c| == |o| && forall k :: 0 <= k < |c| ==> c[k] == i
    requires (forall x :: x in o <==> x in frontier) && Distinct(o)
    ensures Reported(e, s, i + 1, calls + c, order + o)
    ensures |calls + c| > 0 && (calls + c)[|calls + c| - 1] == i
    ensures |box - (visited + frontier)| < |box - visited|
    ensures next != {} ==> Searching(e, box, s, i + 1, next, visited + frontier, calls + c, order + o)
    ensures next == {} ==> Layer(e, s, i + 1) == {} && |Within(e, s, i)| > i
  {
    ReportedStep(e, s, i, calls, order, c, o);
    var x :| x in frontier;
    assert x in o;
    RoundVisited(e, box, s, i, frontier, visited, next);
  }

  /** After a round the visited cells are those within `i` doors, one more than before at
      least, and what is left to visit is layer `i + 1`. */
  lemma RoundVisited(e: set<(Loc, Loc)>, box: set<Loc>, s: Loc, i: nat, frontier: set<Loc>,
                     visited: set<Loc>, next: set<Loc>)
    requires Into(e, box) && s in box
    requires visited == Before(e, s, i) && frontier == Layer(e, s, i) && frontier != {}
    requires |visited| >= i && visited <= box
    requires next == Next(e, frontier) - (visited + frontier)
    ensures visited + frontier == Before(e, s, i + 1) == Within(e, s, i) && next == Layer(e, s, i + 1)
    ensures |visited + frontier| >= i + 1 && visited + frontier <= box
    ensures |box - (visited + frontier)| < |box - visited|
  {
    WithinBox(e, box, s, i);
    BeforeNext(e, s, i);
    NextLayer(e, s, i);
    SubtractSmaller(box - visited, frontier);
  }

  /** `pathfind`: breadth-first rounds from `s`; each cell of a round is marked visited and
      reported with the round number, and the unvisited cells its doors lead to make the next
      round, until a round finds nothing new. Returned: the reported numbers and, alongside,
      the cells they were reported for. */
  method Pathfind(g: Grid<nat>, s: Loc) returns (calls: seq<nat>, order: seq<Loc>)
    requires WellFormed(g) && InBounds(g, s.0, s.1)
    ensures |calls| == |order| > 0 && Distinct(order)
    ensures forall k :: 0 <= k < |calls| ==> order[k] in Layer(Doors(g), s, calls[k])
    ensures Ascending(calls)
    ensures forall c :: c in order <==> c in Reachable(g, s)
    ensures Within(Doors(g), s, calls[|calls| - 1]) == Reachable(g, s)
  {
    ghost var e, box := Doors(g), Box(g);
    DoorsInto(g);
    DoorsChessboard(g);
    var frontier: set<Loc> := {s};
    var visited: set<Loc> := {};
    calls, order := [], [];
    var i: nat := 0;
    assert s in box;
    while true
      invariant Searching(e, box, s, i, frontier, visited, calls, order)
      decreases |box - visited|
    {
      RoundReady(e, box, s, i, frontier, visited, calls, order);
      var next, c, o := Level(g, i, frontier, visited);
      RoundDone(e, box, s, i, frontier, visited, calls, order, next, c, o);
      calls, order := calls + c, order + o;
      visited := visited + frontier;
      if next == {} {
        break;
      }
      frontier := next;
      i := i + 1;
    }
    Finished(e, box, s, i, calls, order);
  }

  /** `longest_path`: the number last reported, which is the largest distance of any room. */
  method LongestPath(g: Grid<nat>, s: Loc) returns (length: nat)
    requires WellFormed(g) && InBounds(g, s.0, s.1)
    ensures Layer(Doors(g), s, length) != {}
    ensures Within(Doors(g), s, length) == Reachable(g, s)
  {
    var calls, order := Pathfind(g, s);
    length := 0;
    for k := 0 to |calls|
      invariant k > 0 ==> length == calls[k - 1]
    {
      length := calls[k];
    }
    assert order[|calls| - 1] in Layer(Doors(g), s, length);
  }

  /** The reachable rooms at least `min` doors away. */
  ghost function Distant(g: Grid<nat>, s: Loc, min: nat): set<Loc>
    requires g.Valid()
  {
    Reachable(g, s) - Before(Doors(g), s, min)
  }

  /** A report at distance at least `min` is exactly a report for a distant room. */
  lemma DistantReport(e: set<(Loc, Loc)>, s: Loc, min: nat, n: nat, c: Loc)
    requires c in Layer(e, s, n)
    ensures c !in Before(e, s, min) <==> n >= min
  {
    assert c in Within(e, s, n) && c !in Before(e, s, n);
    if n >= min {
      if min > 0 {
        WithinMono(e, s, min - 1, n - 1);
        assert Before(e, s, min) <= Before(e, s, n);
      }
    } else {
      WithinMono(e, s, n, min - 1);
      assert Within(e, s, n) <= Before(e, s, min);
    }
  }

  /** The cells among the first `k` reports whose distance is `min` or more. */
  ghost function Far(calls: seq<nat>, order: seq<Loc>, min: nat, k: nat): set<Loc>
    requires k <= |calls| == |order|
  {
    if k == 0 then {}
    else Far(calls, order, min, k - 1) + (if calls[k - 1] >= min then {order[k - 1]} else {})
  }

  lemma {:induction false} FarMembers(calls: seq<nat>, order: seq<Loc>, min: nat, k: nat)
    requires k <= |calls| == |order|
    ensures forall j :: 0 <= j < k && calls[j] >= min ==> order[j] in Far(calls, order, min, k)
    ensures forall x :: x in Far(calls, order, min, k) ==> exists j :: 0 <= j < k && calls[j] >= min && order[j] == x
    decreases k
  {
    if k > 0 {
      FarMembers(calls, order, min, k - 1);
    }
  }

  /** `count_distant_rooms`: the number of reports at distance `min` or more. */
  method CountDistant(g: Grid<nat>, s: Loc, min: nat) returns (count: nat)
    requires WellFormed(g) && InBounds(g, s.0, s.1)
    ensures count == |Distant(g, s, min)|
  {
    var calls, order := Pathfind(g, s);
    count := CountFar(calls, order, min);
    FarMembers(calls, order, min, |calls|);
    FarDistant(g, s, min, calls, order);
  }

  /** The number of reports at distance `min` or more, each cell reported once. */
  method CountFar(calls: seq<nat>, order: seq<Loc>, min: nat) returns (count: nat)
    requires |calls| == |order| && Distinct(order)
    ensures count == |Far(calls, order, min, |calls|)|
  {
    count := 0;
    for k := 0 to |calls|
      invariant count == |Far(calls, order, min, k)|
    {
      if calls[k] >= min {
        FarMembers(calls, order, min, k);
        count := count + 1;
      }
    }
  }

  lemma FarDistant(g: Grid<nat>, s: Loc, min: nat, calls: seq<nat>, order: seq<Loc>)
    requires g.Valid() && |calls| == |order|
    requires forall k :: 0 <= k < |calls| ==> order[k] in Layer(Doors(g), s, calls[k])
    requires forall c :: c in order <==> c in Reachable(g, s)
    requires forall j :: 0 <= j < |calls| && calls[j] >= min ==> order[j] in Far(calls, order, min, |calls|)
    requires forall x :: x in Far(calls, order, min, |calls|) ==> exists j :: 0 <= j < |calls| && calls[j] >= min && order[j] == x
    ensures Far(calls, order, min, |calls|) == Distant(g, s, min)
  {
    var far := Far(calls, order, min, |calls|);
    forall c | c in Distant(g, s, min)
      ensures c in far
    {
      var k :| 0 <= k < |order| && order[k] == c;
      DistantReport(Doors(g), s, min, calls[k], c);
    }
    forall c | c in far
      ensures c in Distant(g, s, min)
    {
      var k :| 0 <= k < |calls| && calls[k] >= min && order[k] == c;
      DistantReport(Doors(g), s, min, calls[k], c);
    }
  }

  // `run`: the answers on the map the walk draws.

  /** Every move of a closed walk leaves and enters rooms of the walk. */
  lemma MoveRooms(ms: set<Day20Walk.Move>, m: Day20Walk.Move)
    requires Day20Walk.Closed({(0, 0)}, ms) && m in ms
    ensures Day20Walk.From(m) in Day20Map.Rooms(ms) && m.to in Day20Map.Rooms(ms)
  {
  }

  /** A room some move of a closed walk joins to another is a room of the walk. */
  lemma JoinedRoom(ms: set<Day20Walk.Move>, a: Loc, b: Loc)
    requires Day20Walk.Closed({(0, 0)}, ms)
    requires exists m :: m in ms && Day20Map.Joins(m, a, b)
    ensures a in Day20Map.Rooms(ms)
  {
    var m :| m in ms && Day20Map.Joins(m, a, b);
    MoveRooms(ms, m);
  }

  /** On a drawn map, the room a north door leads to lies on the map. */
  lemma NorthRoom(ms: set<Day20Walk.Move>, g: Grid<nat>, o: (nat, nat), p: Loc)
    requires forall q :: q in Day20Map.Rooms(ms) ==> InBounds(g, q.0 + o.0, q.1 + o.1)
    requires Day20Walk.Closed({(0, 0)}, ms)
    ensures Day20Map.NorthDoor(ms, p) ==> InBounds(g, p.0 + o.0, p.1 - 1 + o.1)
  {
    if Day20Map.NorthDoor(ms, p) {
      JoinedRoom(ms, (p.0, p.1 - 1), p);
    }
  }

  /** On a drawn map, the room a west door leads to lies on the map. */
  lemma WestRoom(ms: set<Day20Walk.Move>, g: Grid<nat>, o: (nat, nat), p: Loc)
    requires forall q :: q in Day20Map.Rooms(ms) ==> InBounds(g, q.0 + o.0, q.1 + o.1)
    requires Day20Walk.Closed({(0, 0)}, ms)
    ensures Day20Map.WestDoor(ms, p) ==> InBounds(g, p.0 - 1 + o.0, p.1 + o.1)
  {
    if Day20Map.WestDoor(ms, p) {
      JoinedRoom(ms, (p.0 - 1, p.1), p);
    }
  }

  /** A map `create_map` draws is well formed, and the start room lies on it. */
  lemma DrawnWellFormed(ms: set<Day20Walk.Move>, g: Grid<nat>, o: (nat, nat))
    requires Day20Map.DrawnMap(ms, g, o) && Day20Walk.Closed({(0, 0)}, ms)
    ensures WellFormed(g) && InBounds(g, o.0, o.1)
  {
    assert (0, 0) in Day20Map.Rooms(ms);
    assert InBounds(g, 0 + o.0, 0 + o.1);
    forall x | InBounds(g, x, 0)
      ensures !Bit(Cell(g, x, 0), 0)
    {
      NorthRoom(ms, g, o, (x - o.0, 0 - o.1));
    }
    forall y | InBounds(g, 0, y)
      ensures !Bit(Cell(g, 0, y), 1)
    {
      WestRoom(ms, g, o, (0 - o.0, y - o.1));
    }
  }

  /** The two answers for a drawn map with the start room at `o`: the largest distance of any
      room, and the number of rooms at least 1000 doors away. */
  ghost predicate Answers(g: Grid<nat>, o: (nat, nat), longest: nat, distant: nat)
    requires WellFormed(g)
  {
    Layer(Doors(g), o, longest) != {} && Within(Doors(g), o, longest) == Reachable(g, o)
    && distant == |Distant(g, o, 1000)|
  }

  /** `run`: draw the map the expression describes, then answer both questions on it. */
  method Solve(re: string) returns (r: Result<(nat, nat)>)
    ensures r.Err? <==> Day20Regex.ParseRe(re).Err?
    ensures r.Err? ==> r.msg == Day20Regex.ParseRe(re).msg
    ensures r.Ok? ==> exists g: Grid<nat>, o: (nat, nat) ::
              Day20Map.DrawnMap(Day20Walk.WalkPath(Day20Regex.ParseRe(re).value).moves, g, o)
              && WellFormed(g) && Answers(g, o, r.value.0, r.value.1)
  {
    var drawn := Day20Map.CreateMap(re);
    if drawn.Err? {
      return Err(drawn.msg);
    }
    var (g, o) := drawn.value;
    ghost var ms := Day20Walk.WalkPath(Day20Regex.ParseRe(re).value).moves;
    Day20Walk.WalkClosed(Day20Regex.ParseRe(re).value);
    DrawnWellFormed(ms, g, o);
    var longest := LongestPath(g, o);
    var distant := CountDistant(g, o, 1000);
    r := Ok((longest, distant));
    assert Day20Map.DrawnMap(ms, g, o) && WellFormed(g) && Answers(g, o, longest, distant);
  }
}

=== FILE: day20_map.dfy ===
/** Day 20, third part: the door map `create_map` draws from the walk. */
module Day20Map {
  import opened Common
  import opened Bits
  import opened Array2d
  import opened Day20Regex
  import opened Day20Walk

  /** The rooms of a walk from the origin: the origin and every room a move enters. */
  function Rooms(ms: set<Move>): set<Pos>
  {
    {(0, 0)} + Tos(ms)
  }

  /** A move passes through the door between rooms `a` and `b`, either way. */
  ghost predicate Joins(m: Move, a: Pos, b: Pos)
  {
    (From(m) == a && m.to == b) || (From(m) == b && m.to == a)
  }

  /** Some move passed through the door on the north side of room `p`. */
  ghost predicate NorthDoor(ms: set<Move>, p: Pos)
  {
    exists m :: m in ms && Joins(m, (p.0, p.1 - 1), p)
  }

  /** Some move passed through the door on the west side of room `p`. */
  ghost predicate WestDoor(ms: set<Move>, p: Pos)
  {
    exists m :: m in ms && Joins(m, (p.0 - 1, p.1), p)
  }

  /** The extent of the map, in walk coordinates. */
  datatype Box = Box(minX: int, minY: int, maxX: int, maxY: int)

  predicate Covers(b: Box, p: Pos)
  {
    b.minX <= p.0 <= b.maxX && b.minY <= p.1 <= b.maxY
  }

  /** `b` is the bounding box of the origin and the rooms the moves of `q` enter: it holds them
      all, and each of its four edges touches one of them. */
  ghost predicate Tight(b: Box, q: seq<Move>)
  {
    Covers(b, (0, 0)) && (forall i :: 0 <= i < |q| ==> Covers(b, q[i].to))
    && (b.minX == 0 || exists i :: 0 <= i < |q| && q[i].to.0 == b.minX)
    && (b.minY == 0 || exists i :: 0 <= i < |q| && q[i].to.1 == b.minY)
    && (b.maxX == 0 || exists i :: 0 <= i < |q| && q[i].to.0 == b.maxX)
    && (b.maxY == 0 || exists i :: 0 <= i < |q| && q[i].to.1 == b.maxY)
  }

  /** The first walk of `create_map`: minimum and maximum of every reported coordinate, from 0. */
  method Bounds(q: seq<Move>) returns (b: Box)
    ensures Tight(b, q)
  {
    b := Box(0, 0, 0, 0);
    var i := 0;
    while i < |q|
      invariant 0 <= i <= |q|
      invariant Tight(b, q[..i])
    {
      var p := q[i].to;
      b := Box(Min(b.minX, p.0), Min(b.minY, p.1), Max(b.maxX, p.0), Max(b.maxY, p.1));
      i := i + 1;
      assert q[..i][i - 1] == q[i - 1];
      assert forall j :: 0 <= j < i - 1 ==> q[..i][j] == q[..i - 1][j];
    }
    assert q[..i] == q;
  }

  /** The callback's calls in some order: the model's order is arbitrary, the source's is the
      ordered sets' iteration order. */
  method Enumerate(s: set<Move>) returns (q: seq<Move>)
    ensures forall m :: m in q <==> m in s
  {
    q := [];
    var rest := s;
    while rest != {}
      invariant forall m :: m in s <==> m in q || m in rest
      decreases |rest|
    {
      var m :| m in rest;
      q := q + [m];
      rest := rest - {m};
    }
  }

  /** The room (x, y) of the walk is the map cell (x - min_x, y - min_y). */
  function Shift(b: Box, p: Pos): (int, int)
  {
    (p.0 - b.minX, p.1 - b.minY)
  }

  /** The cell whose north-door bit a move sets: for a step north the cell it left, for a
      step south the cell it entered. */
  ghost predicate MarksNorth(m: Move, b: Box, x: int, y: int)
  {
    (m.d == 0 && Shift(b, m.to) == (x, y - 1)) || (m.d == 2 && Shift(b, m.to) == (x, y))
  }

  /** The cell whose west-door bit a move sets: for a step east the cell it entered, for a
      step west the cell it left. */
  ghost predicate MarksWest(m: Move, b: Box, x: int, y: int)
  {
    (m.d == 1 && Shift(b, m.to) == (x, y)) || (m.d == 3 && Shift(b, m.to) == (x - 1, y))
  }

  /** The grid the box describes: width `max_x - min_x + 1`, height `max_y - min_y + 1`. */
  predicate Fits(g: Grid<nat>, b: Box)
  {
    g.Valid() && b.minX <= b.maxX && b.minY <= b.maxY
    && g.width == b.maxX - b.minX + 1 && g.height == b.maxY - b.minY + 1
  }

  /** A move is one of the four steps and both its rooms lie in the box. */
  predicate Inside(b: Box, m: Move)
  {
    m.d < 4 && Covers(b, m.to) && Covers(b, From(m))
  }

  lemma CoveredCell(g: Grid<nat>, b: Box, p: Pos)
    requires Fits(g, b) && Covers(b, p)
    ensures InBounds(g, Shift(b, p).0, Shift(b, p).1)
  {
  }

  /** Setting bit 0 or 1 changes only that bit, and keeps a two-bit value below 4. */
  lemma OrBit(a: nat, bit: nat)
    requires bit < 2
    ensures forall i: nat :: Bit(Or(a, Pow2(bit)), i) == (Bit(a, i) || i == bit)
    ensures a < 4 ==> Or(a, Pow2(bit)) < 4
  {
    forall i: nat
      ensures Bit(Or(a, Pow2(bit)), i) == (Bit(a, i) || i == bit)
    {
      BitOr(a, Pow2(bit), i);
      BitPow2(bit, i);
    }
    if a < 4 {
      assert Pow2(2) == 4;
      assert Pow2(bit) < 4;
      OrBelow(a, Pow2(bit), 2);
    }
  }

  /** `|=` of one bit into one cell. */
  function SetBit(g: Grid<nat>, x: int, y: int, bit: nat): (r: Grid<nat>)
    requires g.Valid() && InBounds(g, x, y) && bit < 2
    ensures r.Valid() && r.width == g.width && r.height == g.height
    ensures forall i: nat :: Bit(Cell(r, x, y), i) == (Bit(Cell(g, x, y), i) || i == bit)
    ensures Cell(g, x, y) < 4 ==> Cell(r, x, y) < 4
    ensures forall x', y' :: InBounds(g, x', y') && (x', y') != (x, y) ==> Cell(r, x', y') == Cell(g, x', y')
  {
    OrBit(At(g, x, y), bit);
    SetAt(g, x, y, Or(At(g, x, y), Pow2(bit)))
  }

  /** One call of the second callback of `create_map`. */
  function MarkDoor(g: Grid<nat>, b: Box, m: Move): (r: Grid<nat>)
    requires Fits(g, b) && Inside(b, m)
    ensures Fits(r, b)
    ensures forall x, y :: InBounds(g, x, y) ==>
              (Bit(Cell(r, x, y), 0) == (Bit(Cell(g, x, y), 0) || MarksNorth(m, b, x, y)))
              && (Bit(Cell(r, x, y), 1) == (Bit(Cell(g, x, y), 1) || MarksWest(m, b, x, y)))
              && (Cell(g, x, y) < 4 ==> Cell(r, x, y) < 4)
  {
    var (x, y) := Shift(b, m.to);
    if m.d == 0 then SetBitDoors(g, b, m, x, y + 1, 0); SetBit(g, x, y + 1, 0)
    else if m.d == 1 then SetBitDoors(g, b, m, x, y, 1); SetBit(g, x, y, 1)
    else if m.d == 2 then SetBitDoors(g, b, m, x, y, 0); SetBit(g, x, y, 0)
    else SetBitDoors(g, b, m, x + 1, y, 1); SetBit(g, x + 1, y, 1)
  }

  /** Setting the one door bit a move marks, in the one cell it marks, records that move's doors. */
  lemma SetBitDoors(g: Grid<nat>, b: Box, m: Move, x0: int, y0: int, bit: nat)
    requires g.Valid() && InBounds(g, x0, y0) && bit < 2
    requires forall x, y :: MarksNorth(m, b, x, y) <==> (bit == 0 && (x, y) == (x0, y0))
    requires forall x, y :: MarksWest(m, b, x, y) <==> (bit == 1 && (x, y) == (x0, y0))
    ensures var r := SetBit(g, x0, y0, bit);
      forall x, y :: InBounds(g, x, y) ==>
        (Bit(Cell(r, x, y), 0) == (Bit(Cell(g, x, y), 0) || MarksNorth(m, b, x, y)))
        && (Bit(Cell(r, x, y), 1) == (Bit(Cell(g, x, y), 1) || MarksWest(m, b, x, y)))
        && (Cell(g, x, y) < 4 ==> Cell(r, x, y) < 4)
  {
  }

  /** One of the first `n` calls sets the north-door bit of cell (x, y). */
  ghost predicate NorthMarked(q: seq<Move>, n: nat, b: Box, x: int, y: int)
    requires n <= |q|
  {
    exists j :: 0 <= j < n && MarksNorth(q[j], b, x, y)
  }

  /** One of the first `n` calls sets the west-door bit of cell (x, y). */
  ghost predicate WestMarked(q: seq<Move>, n: nat, b: Box, x: int, y: int)
    requires n <= |q|
  {
    exists j :: 0 <= j < n && MarksWest(q[j], b, x, y)
  }

  /** A cell holds exactly the door bits the first `n` calls set. */
  ghost predicate CellMarked(c: nat, q: seq<Move>, n: nat, b: Box, x: int, y: int)
    requires n <= |q|
  {
    (Bit(c, 0) <==> NorthMarked(q, n, b, x, y)) && (Bit(c, 1) <==> WestMarked(q, n, b, x, y)) && c < 4
  }

  ghost predicate Marked(g: Grid<nat>, b: Box, q: seq<Move>, n: nat)
    requires g.Valid() && n <= |q|
  {
    forall x, y :: InBounds(g, x, y) ==> CellMarked(Cell(g, x, y), q, n, b, x, y)
  }

  lemma MarkedNone(g: Grid<nat>, b: Box, q: seq<Move>)
    requires g.Valid() && forall x, y :: InBounds(g, x, y) ==> Cell(g, x, y) == 0
    ensures Marked(g, b, q, 0)
  {
  }

  lemma MarkedNext(q: seq<Move>, n: nat, b: Box, x: int, y: int)
    requires n < |q|
    ensures NorthMarked(q, n + 1, b, x, y) == (NorthMarked(q, n, b, x, y) || MarksNorth(q[n], b, x, y))
    ensures WestMarked(q, n + 1, b, x, y) == (WestMarked(q, n, b, x, y) || MarksWest(q[n], b, x, y))
  {
  }

  lemma MarkedStep(prev: Grid<nat>, g: Grid<nat>, b: Box, q: seq<Move>, i: nat)
    requires i < |q| && Fits(prev, b) && Inside(b, q[i]) && Marked(prev, b, q, i)
    requires g == MarkDoor(prev, b, q[i])
    ensures Fits(g, b) && Marked(g, b, q, i + 1)
  {
    forall x, y | InBounds(g, x, y)
      ensures CellMarked(Cell(g, x, y), q, i + 1, b, x, y)
    {
      assert InBounds(prev, x, y);
      assert CellMarked(Cell(prev, x, y), q, i, b, x, y);
      MarkedNext(q, i, b, x, y);
    }
  }

  /** The second walk of `create_map`: every reported move sets its door bit. */
  method MarkDoors(g0: Grid<nat>, b: Box, q: seq<Move>) returns (g: Grid<nat>)
    requires Fits(g0, b) && forall x, y :: InBounds(g0, x, y) ==> Cell(g0, x, y) == 0
    requires forall i :: 0 <= i < |q| ==> Inside(b, q[i])
    ensures Fits(g, b) && Marked(g, b, q, |q|)
  {
    g := g0;
    MarkedNone(g, b, q);
    var i := 0;
    while i < |q|
      invariant 0 <= i <= |q| && Fits(g, b)
      invariant Marked(g, b, q, i)
    {
      var prev := g;
      g := MarkDoor(g, b, q[i]);
      MarkedStep(prev, g, b, q, i);
      i := i + 1;
    }
  }

  /** The source's bit rule and the door it records are the same thing: a north-door bit on a
      cell means a move between the room and its north neighbour, and a west-door bit one between
      the room and its west neighbour. */
  lemma DoorRule(m: Move, b: Box, x: int, y: int)
    requires m.d < 4
    ensures MarksNorth(m, b, x, y) <==> Joins(m, (x + b.minX, y + b.minY - 1), (x + b.minX, y + b.minY))
    ensures MarksWest(m, b, x, y) <==> Joins(m, (x + b.minX - 1, y + b.minY), (x + b.minX, y + b.minY))
  {
  }

  /** The door bits of a finished map mean doors the walk passed through. */
  lemma DoorCell(q: seq<Move>, ms: set<Move>, b: Box, x: int, y: int)
    requires forall m :: m in q <==> m in ms
    requires forall m :: m in ms ==> m.d < 4
    ensures NorthMarked(q, |q|, b, x, y) <==> NorthDoor(ms, (x + b.minX, y + b.minY))
    ensures WestMarked(q, |q|, b, x, y) <==> WestDoor(ms, (x + b.minX, y + b.minY))
  {
    var p := (x + b.minX, y + b.minY);
    if NorthMarked(q, |q|, b, x, y) {
      var j :| 0 <= j < |q| && MarksNorth(q[j], b, x, y);
      DoorRule(q[j], b, x, y);
      assert q[j] in ms;
    }
    if NorthDoor(ms, p) {
      var m :| m in ms && Joins(m, (p.0, p.1 - 1), p);
      var j :| 0 <= j < |q| && q[j] == m;
      DoorRule(m, b, x, y);
    }
    if WestMarked(q, |q|, b, x, y) {
      var j :| 0 <= j < |q| && MarksWest(q[j], b, x, y);
      DoorRule(q[j], b, x, y);
      assert q[j] in ms;
    }
    if WestDoor(ms, p) {
      var m :| m in ms && Joins(m, (p.0 - 1, p.1), p);
      var j :| 0 <= j < |q| && q[j] == m;
      DoorRule(m, b, x, y);
    }
  }

  /** What `create_map` returns for the moves `ms` of a walk from the origin: a grid holding the
      origin at `o` and every room at its offset from `o`, no larger than that, and carrying in
      each cell exactly the north and west doors the walk passed through. */
  ghost predicate DrawnMap(ms: set<Move>, g: Grid<nat>, o: (nat, nat))
  {
    g.Valid()
    && (forall p :: p in Rooms(ms) ==> InBounds(g, p.0 + o.0, p.1 + o.1))
    && (exists p :: p in Rooms(ms) && p.0 + o.0 == 0)
    && (exists p :: p in Rooms(ms) && p.1 + o.1 == 0)
    && (exists p :: p in Rooms(ms) && p.0 + o.0 == g.width - 1)
    && (exists p :: p in Rooms(ms) && p.1 + o.1 == g.height - 1)
    && forall x, y :: InBounds(g, x, y) ==>
         (Bit(Cell(g, x, y), 0) <==> NorthDoor(ms, (x - o.0, y - o.1)))
         && (Bit(Cell(g, x, y), 1) <==> WestDoor(ms, (x - o.0, y - o.1)))
         && Cell(g, x, y) < 4
  }

  /** Every move of the walk lies inside the bounding box, and so does the room it left. */
  lemma MovesInside(q: seq<Move>, ms: set<Move>, b: Box)
    requires forall m :: m in q <==> m in ms
    requires Tight(b, q) && Closed({(0, 0)}, ms) && forall m :: m in ms ==> m.d < 4
    ensures forall i :: 0 <= i < |q| ==> Inside(b, q[i])
  {
    forall i | 0 <= i < |q|
      ensures Inside(b, q[i])
    {
      assert q[i] in ms;
      if From(q[i]) != (0, 0) {
        var m' :| m' in ms && m'.to == From(q[i]);
        var j :| 0 <= j < |q| && q[j] == m';
      }
    }
  }

  /** The box's edges, read as rooms at the map's edges. */
  lemma BoxEdges(q: seq<Move>, ms: set<Move>, b: Box, o: (nat, nat), g: Grid<nat>)
    requires forall m :: m in q <==> m in ms
    requires Tight(b, q) && Fits(g, b) && o == (-b.minX, -b.minY)
    ensures forall p :: p in Rooms(ms) ==> InBounds(g, p.0 + o.0, p.1 + o.1)
    ensures exists p :: p in Rooms(ms) && p.0 + o.0 == 0
    ensures exists p :: p in Rooms(ms) && p.1 + o.1 == 0
    ensures exists p :: p in Rooms(ms) && p.0 + o.0 == g.width - 1
    ensures exists p :: p in Rooms(ms) && p.1 + o.1 == g.height - 1
  {
    forall p | p in Rooms(ms)
      ensures InBounds(g, p.0 + o.0, p.1 + o.1)
    {
      if p != (0, 0) {
        var m :| m in ms && m.to == p;
        var j :| 0 <= j < |q| && q[j] == m;
      }
    }
    var origin: Pos := (0, 0);
    assert origin in Rooms(ms);
    if b.minX != 0 {
      var i :| 0 <= i < |q| && q[i].to.0 == b.minX;
      assert q[i].to in Rooms(ms);
    }
    if b.minY != 0 {
      var i :| 0 <= i < |q| && q[i].to.1 == b.minY;
      assert q[i].to in Rooms(ms);
    }
    if b.maxX != 0 {
      var i :| 0 <= i < |q| && q[i].to.0 == b.maxX;
      assert q[i].to in Rooms(ms);
    }
    if b.maxY != 0 {
      var i :| 0 <= i < |q| && q[i].to.1 == b.maxY;
      assert q[i].to in Rooms(ms);
    }
  }

  lemma MarkedDoors(g: Grid<nat>, b: Box, q: seq<Move>, ms: set<Move>, o: (nat, nat))
    requires Fits(g, b) && Marked(g, b, q, |q|) && o == (-b.minX, -b.minY)
    requires forall m :: m in q <==> m in ms
    requires forall m :: m in ms ==> m.d < 4
    ensures forall x, y :: InBounds(g, x, y) ==>
              (Bit(Cell(g, x, y), 0) <==> NorthDoor(ms, (x - o.0, y - o.1)))
              && (Bit(Cell(g, x, y), 1) <==> WestDoor(ms, (x - o.0, y - o.1)))
              && Cell(g, x, y) < 4
  {
    forall x, y | InBounds(g, x, y)
      ensures (Bit(Cell(g, x, y), 0) <==> NorthDoor(ms, (x - o.0, y - o.1)))
      ensures (Bit(Cell(g, x, y), 1) <==> WestDoor(ms, (x - o.0, y - o.1)))
      ensures Cell(g, x, y) < 4
    {
      assert CellMarked(Cell(g, x, y), q, |q|, b, x, y);
      DoorCell(q, ms, b, x, y);
    }
  }

  /** The two walks of `create_map` over the moves of the walk, and the origin's cell. */
  method Draw(ms: set<Move>) returns (g: Grid<nat>, o: (nat, nat))
    requires Closed({(0, 0)}, ms) && forall m :: m in ms ==> m.d < 4
    ensures DrawnMap(ms, g, o)
  {
    var q := Enumerate(ms);
    var b := Bounds(q);
    g := New(b.maxX - b.minX + 1, b.maxY - b.minY + 1, 0);
    MovesInside(q, ms, b);
    g := MarkDoors(g, b, q);
    o := (-b.minX, -b.minY);
    BoxEdges(q, ms, b, o, g);
    MarkedDoors(g, b, q, ms, o);
  }

  /** `create_map`: parse the expression, walk it once for the bounds, allocate a zeroed grid of
      that size, walk it again to set the door bits; the origin is cell (-min_x, -min_y). */
  method CreateMap(re: string) returns (r: Result<(Grid<nat>, (nat, nat))>)
    ensures r.Err? <==> ParseRe(re).Err?
    ensures r.Err? ==> r.msg == ParseRe(re).msg
    ensures r.Ok? ==> DrawnMap(WalkPath(ParseRe(re).value).moves, r.value.0, r.value.1)
  {
    var group :- ParseRe(re);
    WalkClosed(group);
    var g, o := Draw(WalkPath(group).moves);
    return Ok((g, o));
  }
}

=== FILE: day20_regex.dfy ===
/** Day 20, first part: the route expression, parsed into nested groups of alternative branches. */
module Day20Regex {
  import opened Common

  /** A piece of a branch: a run of directions, or a parenthesised group. */
  datatype Part = Str(s: string) | Sub(g: seq<Branch>)

  /** One alternative of a group: a sequence of parts. */
  datatype Branch = Branch(parts: seq<Part>)

  /** A group: its alternative branches. */
  type Group = seq<Branch>

  predicate IsDir(c: char)
  {
    c == 'N' || c == 'E' || c == 'S' || c == 'W'
  }

  predicate Dirs(s: string)
  {
    forall i :: 0 <= i < |s| ==> IsDir(s[i])
  }

  /** A run holds only directions, and a group is well formed. */
  predicate WfPart(p: Part)
  {
    match p
    case Str(s) => Dirs(s)
    case Sub(g) => WfGroup(g)
  }

  /** Whole run-group pairs: what the open branch holds between separators. */
  predicate Pairs(ps: seq<Part>)
  {
    |ps| == 0 || (|ps| >= 2 && ps[0].Str? && WfPart(ps[0]) && ps[1].Sub? && WfPart(ps[1]) && Pairs(ps[2..]))
  }

  /** Run-group pairs followed by a final run. */
  predicate PairsThenRun(ps: seq<Part>)
  {
    |ps| >= 1 && ps[0].Str? && WfPart(ps[0])
    && (|ps| == 1 || (|ps| >= 3 && ps[1].Sub? && WfPart(ps[1]) && PairsThenRun(ps[2..])))
  }

  /** The shape the parser produces: a branch starts and ends with a (possibly empty) run. */
  predicate WfBranch(b: Branch)
  {
    PairsThenRun(b.parts)
  }

  /** Every group has at least one branch. */
  predicate WfGroup(g: Group)
  {
    |g| >= 1 && forall i :: 0 <= i < |g| ==> WfBranch(g[i])
  }

  /** The branches closed so far are well formed; the open branch holds whole run-group pairs. */
  predicate ParserState(run: string, branch: seq<Part>, group: Group)
  {
    Dirs(run) && Pairs(branch) && forall i :: 0 <= i < |group| ==> WfBranch(group[i])
  }

  /** Closing the open branch with its run gives a well-formed branch. */
  lemma {:induction false} PairsClose(ps: seq<Part>, run: string)
    requires Pairs(ps) && Dirs(run)
    ensures PairsThenRun(ps + [Str(run)])
    decreases |ps|
  {
    if |ps| > 0 {
      PairsClose(ps[2..], run);
      assert (ps + [Str(run)])[2..] == ps[2..] + [Str(run)];
    }
  }

  /** Appending a run and a group keeps whole pairs. */
  lemma {:induction false} PairsGrow(ps: seq<Part>, run: string, g: Group)
    requires Pairs(ps) && Dirs(run) && WfGroup(g)
    ensures Pairs(ps + [Str(run), Sub(g)])
    decreases |ps|
  {
    if |ps| > 0 {
      PairsGrow(ps[2..], run, g);
      assert (ps + [Str(run), Sub(g)])[2..] == ps[2..] + [Str(run), Sub(g)];
    } else {
      assert ([Str(run), Sub(g)])[2..] == [];
    }
  }

  /** `parse_group`, reading `s` with the run, branch and group collected so far; it returns the
      group and the input after the character that closed it. */
  function ParseGroupFrom(s: string, run: string, branch: seq<Part>, group: Group): (r: Result<(Group, string)>)
    ensures r.Ok? ==> |r.value.1| < |s| && r.value.1 == s[|s| - |r.value.1|..]
    ensures |s| == 0 ==> r == Err("Unexpected end of input")
    ensures |s| > 0 && (s[0] == ')' || s[0] == '$') ==> r == Ok((group + [Branch(branch + [Str(run)])], s[1..]))
    ensures |s| > 0 && !IsDir(s[0]) && s[0] !in ")$|(" ==> r == Err("Unexpected char '" + [s[0]] + "'")
    decreases |s|
  {
    if |s| == 0 then Err("Unexpected end of input")
    else
      var c := s[0];
      if IsDir(c) then ParseGroupFrom(s[1..], run + [c], branch, group)
      else if c == ')' || c == '$' then Ok((group + [Branch(branch + [Str(run)])], s[1..]))
      else if c == '|' then ParseGroupFrom(s[1..], "", [], group + [Branch(branch + [Str(run)])])
      else if c == '(' then
        var inner :- ParseGroupFrom(s[1..], "", [], []);
        ParseGroupFrom(inner.1, "", branch + [Str(run), Sub(inner.0)], group)
      else
        Err("Unexpected char '" + [c] + "'")
  }

  /** Every group the parser returns has the shape above: each branch ends with a run. */
  lemma {:induction false} ParsedWellFormed(s: string, run: string, branch: seq<Part>, group: Group)
    requires ParserState(run, branch, group)
    ensures ParseGroupFrom(s, run, branch, group).Ok? ==> WfGroup(ParseGroupFrom(s, run, branch, group).value.0)
    decreases |s|
  {
    if |s| > 0 {
      var c := s[0];
      if IsDir(c) {
        ParsedWellFormed(s[1..], run + [c], branch, group);
      } else if c == ')' || c == '$' {
        PairsClose(branch, run);
      } else if c == '|' {
        PairsClose(branch, run);
        ParsedWellFormed(s[1..], "", [], group + [Branch(branch + [Str(run)])]);
      } else if c == '(' {
        var inner := ParseGroupFrom(s[1..], "", [], []);
        ParsedWellFormed(s[1..], "", [], []);
        if inner.Ok? {
          var grown := branch + [Str(run), Sub(inner.value.0)];
          PairsGrow(branch, run, inner.value.0);
          ParsedWellFormed(inner.value.1, "", grown, group);
        }
      }
    }
  }

  /** `parse_re`: a leading `^`, one group, and nothing after the character that closes it. */
  function ParseRe(re: string): (r: Result<Group>)
    ensures (|re| == 0 || re[0] != '^') ==> r == Err("Expected ^ at start of regex")
    ensures r.Ok? ==> WfGroup(r.value)
    ensures r.Ok? <==> |re| > 0 && re[0] == '^' && ParseGroupFrom(re[1..], "", [], []).Ok?
                        && ParseGroupFrom(re[1..], "", [], []).value.1 == ""
  {
    if |re| == 0 || re[0] != '^' then Err("Expected ^ at start of regex")
    else
      ParsedWellFormed(re[1..], "", [], []);
      var (group, rest) :- ParseGroupFrom(re[1..], "", [], []);
      if |rest| > 0 then Err("Expected end of regex, found '" + [rest[0]] + "'")
      else Ok(group)
  }

  // Printing groups back, to state what the parser reads.

  function ShowPart(p: Part): string
  {
    match p
    case Str(s) => s
    case Sub(g) => "(" + ShowGroup(g) + ")"
  }

  function ShowParts(ps: seq<Part>): string
  {
    if |ps| == 0 then "" else ShowPart(ps[0]) + ShowParts(ps[1..])
  }

  function ShowBranch(b: Branch): string
  {
    ShowParts(b.parts)
  }

  /** The branches separated by `|`. */
  function ShowGroup(g: Group): string
  {
    if |g| == 0 then ""
    else if |g| == 1 then ShowBranch(g[0])
    else ShowBranch(g[0]) + "|" + ShowGroup(g[1..])
  }

  function PartSize(p: Part): nat
  {
    match p
    case Str(_) => 1
    case Sub(g) => 1 + GroupSize(g)
  }

  function PartsSize(ps: seq<Part>): nat
  {
    if |ps| == 0 then 0 else PartSize(ps[0]) + PartsSize(ps[1..])
  }

  function GroupSize(g: Group): nat
  {
    if |g| == 0 then 0 else PartsSize(g[0].parts) + GroupSize(g[1..])
  }

  /** Directions are collected into the open run. */
  lemma {:induction false} ReadRun(d: string, t: string, run: string, branch: seq<Part>, group: Group)
    requires Dirs(d)
    ensures ParseGroupFrom(d + t, run, branch, group) == ParseGroupFrom(t, run + d, branch, group)
    decreases |d|
  {
    if |d| == 0 {
      assert d + t == t && run + d == run;
    } else {
      assert (d + t)[0] == d[0] && (d + t)[1..] == d[1..] + t;
      ReadRun(d[1..], t, run + [d[0]], branch, group);
      assert run + [d[0]] + d[1..] == run + d;
    }
  }

  /** Reading a printed branch leaves its last run open and its other parts in the open branch. */
  lemma {:induction false} ReadParts(b: seq<Part>, t: string, pre: seq<Part>, group: Group)
    requires PairsThenRun(b)
    ensures b[|b| - 1].Str?
    ensures ParseGroupFrom(ShowParts(b) + t, "", pre, group)
         == ParseGroupFrom(t, b[|b| - 1].s, pre + b[..|b| - 1], group)
    decreases PartsSize(b), 0, |b|
  {
    LastIsRun(b);
    if |b| == 1 {
      ReadSingle(b, t, pre, group);
    } else {
      SplitParts(b);
      ReadPair(b, t, pre, group);
      ReadParts(b[2..], t, pre + [b[0], b[1]], group);
      PrefixRegroup(pre, b);
    }
  }

  /** A branch of a single run leaves that run open. */
  lemma ReadSingle(b: seq<Part>, t: string, pre: seq<Part>, group: Group)
    requires |b| == 1 && b[0].Str? && Dirs(b[0].s)
    ensures ParseGroupFrom(ShowParts(b) + t, "", pre, group) == ParseGroupFrom(t, b[0].s, pre + b[..0], group)
  {
    assert ShowParts(b) == b[0].s;
    ReadRun(b[0].s, t, "", pre, group);
    assert "" + b[0].s == b[0].s && pre + b[..0] == pre;
  }

  /** Moving the first two elements of `b` onto `pre` keeps everything but the last element in order. */
  lemma PrefixRegroup<T>(pre: seq<T>, b: seq<T>)
    requires |b| >= 3
    ensures (pre + [b[0], b[1]]) + b[2..][..|b[2..]| - 1] == pre + b[..|b| - 1]
  {
    DropTwoInit(b);
  }

  /** Reading the leading run and group of a printed branch moves them into the open branch. */
  lemma {:induction false} ReadPair(b: seq<Part>, t: string, pre: seq<Part>, group: Group)
    requires PairsThenRun(b) && |b| > 1
    ensures ParseGroupFrom(ShowParts(b) + t, "", pre, group)
         == ParseGroupFrom(ShowParts(b[2..]) + t, "", pre + [b[0], b[1]], group)
    decreases PartsSize(b), 0, 0
  {
    SplitParts(b);
    var s0, g1 := b[0].s, b[1].g;
    var x := ShowParts(b[2..]) + t;
    var after := "(" + ShowGroup(g1) + ")" + x;
    assert ParseGroupFrom(ShowParts(b) + t, "", pre, group) == ParseGroupFrom(after, s0, pre, group) by {
      assert ShowParts(b) + t == s0 + after;
      ReadRun(s0, after, "", pre, group);
      assert "" + s0 == s0;
    }
    ReadNested(g1, x, s0, pre, group);
    assert [Str(s0), Sub(g1)] == [b[0], b[1]];
  }

  /** A parenthesised group is parsed and appended, after the open run, to the open branch. */
  lemma {:induction false} ReadNested(g1: Group, x: string, run: string, pre: seq<Part>, group: Group)
    requires WfGroup(g1)
    ensures ParseGroupFrom("(" + ShowGroup(g1) + ")" + x, run, pre, group)
         == ParseGroupFrom(x, "", pre + [Str(run), Sub(g1)], group)
    decreases GroupSize(g1), 2, 0
  {
    var after := "(" + ShowGroup(g1) + ")" + x;
    ReadGroup(g1, ')', x, []);
    assert [] + g1 == g1;
    assert after[1..] == ShowGroup(g1) + [')'] + x;
    ReadOpen(after, run, pre, group, g1, x);
  }

  /** A well-formed branch ends with a run. */
  lemma {:induction false} LastIsRun(b: seq<Part>)
    requires PairsThenRun(b)
    ensures b[|b| - 1].Str? && Dirs(b[|b| - 1].s)
    decreases |b|
  {
    if |b| > 1 {
      LastIsRun(b[2..]);
      assert b[2..][|b| - 3] == b[|b| - 1];
    }
  }

  /** A branch of several parts is a run, a group, and a shorter branch. */
  lemma SplitParts(b: seq<Part>)
    requires PairsThenRun(b) && |b| > 1
    ensures b[0].Str? && Dirs(b[0].s) && b[1].Sub? && WfGroup(b[1].g)
    ensures PairsThenRun(b[2..]) && b[|b| - 1] == b[2..][|b| - 3]
    ensures ShowParts(b) == b[0].s + ("(" + ShowGroup(b[1].g) + ")" + ShowParts(b[2..]))
    ensures PartsSize(b) == PartSize(b[0]) + PartSize(b[1]) + PartsSize(b[2..])
    ensures b[..|b| - 1] == [b[0], b[1]] + b[2..][..|b| - 3]
  {
    var tail := b[2..];
    assert b[1..][0] == b[1] && b[1..][1..] == tail;
    assert ShowParts(b) == ShowPart(b[0]) + ShowParts(b[1..]);
    assert ShowParts(b[1..]) == ShowPart(b[1]) + ShowParts(tail);
    DropTwoInit(b);
  }

  /** Dropping the last element commutes with splitting off the first two. */
  lemma DropTwoInit<T>(b: seq<T>)
    requires |b| >= 3
    ensures b[..|b| - 1] == [b[0], b[1]] + b[2..][..|b| - 3]
  {
    var lhs, rhs := b[..|b| - 1], [b[0], b[1]] + b[2..][..|b| - 3];
    assert |lhs| == |rhs|;
    forall i | 0 <= i < |lhs|
      ensures lhs[i] == rhs[i]
    {
      if i >= 2 {
        assert rhs[i] == b[2..][i - 2];
      }
    }
  }

  /** `(` parses the inner group and appends it, after the open run, to the open branch. */
  lemma ReadOpen(s: string, run: string, branch: seq<Part>, group: Group, g1: Group, x: string)
    requires |s| > 0 && s[0] == '('
    requires ParseGroupFrom(s[1..], "", [], []) == Ok((g1, x))
    ensures ParseGroupFrom(s, run, branch, group) == ParseGroupFrom(x, "", branch + [Str(run), Sub(g1)], group)
  {
    var inner := ParseGroupFrom(s[1..], "", [], []);
    assert !inner.IsFailure() && inner.Extract() == (g1, x);
    assert !IsDir(s[0]) && s[0] != ')' && s[0] != '$' && s[0] != '|';
  }

  /** `|` closes the open branch and starts a new one. */
  lemma ReadBar(s: string, run: string, branch: seq<Part>, group: Group)
    requires |s| > 0 && s[0] == '|'
    ensures ParseGroupFrom(s, run, branch, group) == ParseGroupFrom(s[1..], "", [], group + [Branch(branch + [Str(run)])])
  {
  }

  /** Reading a printed group and its closing character gives the group and the input after it. */
  lemma {:induction false} ReadGroup(g: Group, close: char, t: string, acc: Group)
    requires WfGroup(g) && (close == ')' || close == '$')
    ensures ParseGroupFrom(ShowGroup(g) + [close] + t, "", [], acc) == Ok((acc + g, t))
    decreases GroupSize(g), 1, |g|
  {
    if |g| == 1 {
      ReadLastBranch(g, close, t, acc);
    } else {
      var rest, acc' := g[1..], acc + [g[0]];
      assert GroupSize(rest) <= GroupSize(g);
      ReadBranch(g, close, t, acc);
      ReadGroup(rest, close, t, acc');
      assert acc' + rest == acc + g;
    }
  }

  /** A group's first branch, read up to its last run, in the shape the parser builds it. */
  lemma FirstBranch(g: Group)
    requires WfGroup(g)
    ensures var b := g[0].parts; |b| >= 1 && b[|b| - 1].Str? && PairsThenRun(b)
    ensures var b := g[0].parts; Branch(b[..|b| - 1] + [Str(b[|b| - 1].s)]) == g[0]
    ensures GroupSize(g) == PartsSize(g[0].parts) + GroupSize(g[1..])
  {
    assert WfBranch(g[0]);
    LastIsRun(g[0].parts);
  }

  /** The last branch of a group is closed by `)` or `$`. */
  lemma {:induction false} ReadLastBranch(g: Group, close: char, t: string, acc: Group)
    requires WfGroup(g) && |g| == 1 && (close == ')' || close == '$')
    ensures ParseGroupFrom(ShowGroup(g) + [close] + t, "", [], acc) == Ok((acc + g, t))
    decreases GroupSize(g), 1, 0
  {
    FirstBranch(g);
    var b := g[0].parts;
    var n := |b|;
    ReadParts(b, [close] + t, [], acc);
    assert ShowGroup(g) + [close] + t == ShowParts(b) + ([close] + t);
    assert [] + b[..n - 1] == b[..n - 1];
    assert ([close] + t)[0] == close && ([close] + t)[1..] == t;
    assert acc + [g[0]] == acc + g;
  }

  /** A branch followed by `|` is closed and added to the group. */
  lemma {:induction false} ReadBranch(g: Group, close: char, t: string, acc: Group)
    requires WfGroup(g) && |g| > 1 && (close == ')' || close == '$')
    ensures WfGroup(g[1..])
    ensures ParseGroupFrom(ShowGroup(g) + [close] + t, "", [], acc)
         == ParseGroupFrom(ShowGroup(g[1..]) + [close] + t, "", [], acc + [g[0]])
    decreases GroupSize(g), 1, 0
  {
    FirstBranch(g);
    var b := g[0].parts;
    var n := |b|;
    var rest := g[1..];
    RestWellFormed(g);
    var after := "|" + ShowGroup(rest) + [close] + t;
    ShowGroupSplit(g, close, t);
    ReadParts(b, after, [], acc);
    assert [] + b[..n - 1] == b[..n - 1];
    ReadBar(after, b[n - 1].s, b[..n - 1], acc);
  }

  /** The branches after the first of a well-formed group form a well-formed group. */
  lemma RestWellFormed(g: Group)
    requires WfGroup(g) && |g| > 1
    ensures WfGroup(g[1..])
  {
    forall i | 0 <= i < |g| - 1
      ensures WfBranch(g[1..][i])
    {
      assert g[1..][i] == g[i + 1];
    }
  }

  /** A group of several branches prints as its first branch, `|`, and the rest. */
  lemma ShowGroupSplit(g: Group, close: char, t: string)
    requires |g| > 1
    ensures var after := "|" + ShowGroup(g[1..]) + [close] + t;
      ShowGroup(g) + [close] + t == ShowParts(g[0].parts) + after &&
      |after| > 0 && after[0] == '|' && after[1..] == ShowGroup(g[1..]) + [close] + t
  {
  }

  /** Printing a well-formed group between `^` and `$` and parsing it gives the group back. */
  lemma ParseShow(g: Group)
    requires WfGroup(g)
    ensures ParseRe("^" + ShowGroup(g) + "$") == Ok(g)
  {
    var re := "^" + ShowGroup(g) + "$";
    ReadGroup(g, '$', "", []);
    assert re[1..] == ShowGroup(g) + ['$'] + "";
    assert [] + g == g;
  }

  /** `)` closes the outermost group just as `$` does. */
  lemma CloseEitherWay()
    ensures ParseRe("^N)") == Ok([Branch([Str("N")])])
    ensures ParseRe("^N$") == Ok([Branch([Str("N")])])
  {
    assert "^N)"[1..] == "N)" && "N)"[1..] == ")" && ")"[1..] == "";
    assert "^N$"[1..] == "N$" && "N$"[1..] == "$" && "$"[1..] == "";
    assert "" + ['N'] == "N";
    assert [] + [Str("N")] == [Str("N")];
    assert [] + [Branch([Str("N")])] == [Branch([Str("N")])];
    assert ParseGroupFrom(")", "N", [], []) == Ok(([Branch([Str("N")])], ""));
    assert ParseGroupFrom("$", "N", [], []) == Ok(([Branch([Str("N")])], ""));
    assert ParseGroupFrom("N)", "", [], []) == ParseGroupFrom(")", "N", [], []);
    assert ParseGroupFrom("N$", "", [], []) == ParseGroupFrom("$", "N", [], []);
  }

  /** Anything after the closing character is an error. */
  lemma TrailingInputRejected()
    ensures ParseRe("^N$X") == Err("Expected end of regex, found 'X'")
  {
    assert "^N$X"[1..] == "N$X" && "N$X"[1..] == "$X" && "$X"[1..] == "X";
  }
}

=== FILE: day20_walk.dfy ===
/** Day 20, second part: walking every route a parsed expression describes. */
module Day20Walk {
  import opened Day20Regex

  /** A room, `(x, y)`, with `y` growing southwards. */
  type Pos = (int, int)

  /** One step as reported to the walk's callback: the room entered and the direction code,
      0 north, 1 east, 2 south, 3 west. */
  datatype Move = Move(to: Pos, d: nat)

  /** The callback's direction code for a direction letter. */
  function Code(c: char): (d: nat)
    requires IsDir(c)
    ensures d < 4
    ensures d == 0 <==> c == 'N'
    ensures d == 2 <==> c == 'S'
  {
    if c == 'N' then 0 else if c == 'E' then 1 else if c == 'S' then 2 else 3
  }

  /** The room a move started from, read back from the room entered and the code. */
  function From(m: Move): Pos
  {
    if m.d == 0 then (m.to.0, m.to.1 + 1)
    else if m.d == 1 then (m.to.0 - 1, m.to.1)
    else if m.d == 2 then (m.to.0, m.to.1 - 1)
    else (m.to.0 + 1, m.to.1)
  }

  /** One step: north is `y - 1`, east `x + 1`, south `y + 1`, west `x - 1`. */
  function Advance(p: Pos, c: char): (r: Pos)
    requires IsDir(c)
    ensures From(Move(r, Code(c))) == p
    ensures (r.0 - p.0) * (r.0 - p.0) + (r.1 - p.1) * (r.1 - p.1) == 1
  {
    if c == 'N' then (p.0, p.1 - 1)
    else if c == 'E' then (p.0 + 1, p.1)
    else if c == 'S' then (p.0, p.1 + 1)
    else (p.0 - 1, p.1)
  }

  /** Where one route of directions ends. */
  function PathEnd(p: Pos, w: string): Pos
    requires Dirs(w)
    decreases |w|
  {
    if |w| == 0 then p else PathEnd(Advance(p, w[0]), w[1..])
  }

  /** The moves one route reports. */
  function PathMoves(p: Pos, w: string): set<Move>
    requires Dirs(w)
    decreases |w|
  {
    if |w| == 0 then {} else {Move(Advance(p, w[0]), Code(w[0]))} + PathMoves(Advance(p, w[0]), w[1..])
  }

  lemma DirsConcat(a: string, b: string)
    ensures Dirs(a + b) <==> Dirs(a) && Dirs(b)
  {
    if Dirs(a + b) {
      forall i | 0 <= i < |a| ensures IsDir(a[i]) { assert (a + b)[i] == a[i]; }
      forall i | 0 <= i < |b| ensures IsDir(b[i]) { assert (a + b)[|a| + i] == b[i]; }
    }
  }

  /** Walking two routes one after the other is walking their concatenation. */
  lemma {:induction false} PathConcat(p: Pos, a: string, b: string)
    requires Dirs(a) && Dirs(b)
    ensures Dirs(a + b)
    ensures PathEnd(p, a + b) == PathEnd(PathEnd(p, a), b)
    ensures PathMoves(p, a + b) == PathMoves(p, a) + PathMoves(PathEnd(p, a), b)
    decreases |a|
  {
    DirsConcat(a, b);
    if |a| == 0 {
      assert a + b == b;
    } else {
      assert (a + b)[0] == a[0] && (a + b)[1..] == a[1..] + b;
      PathConcat(Advance(p, a[0]), a[1..], b);
    }
  }

  // The reference semantics: the set of direction strings an expression spells out.

  function Concat(x: set<string>, y: set<string>): set<string>
  {
    set a, b | a in x && b in y :: a + b
  }

  function LangPart(p: Part): set<string>
    decreases PartSize(p), 0, 0
  {
    match p
    case Str(s) => {s}
    case Sub(g) => LangGroup(g)
  }

  function LangParts(ps: seq<Part>): set<string>
    decreases PartsSize(ps), 1, 0
  {
    if |ps| == 0 then {""} else Concat(LangPart(ps[0]), LangParts(ps[1..]))
  }

  /** A group spells what any one of its branches spells. */
  function LangGroup(g: Group): set<string>
    decreases GroupSize(g), 2, |g|
  {
    if |g| == 0 then {} else LangParts(g[0].parts) + LangGroup(g[1..])
  }

  /** The rooms reached by walking any route of `lang` from any room of `ps`. */
  function Ends(ps: set<Pos>, lang: set<string>): set<Pos>
  {
    set p, w | p in ps && w in lang && Dirs(w) :: PathEnd(p, w)
  }

  /** The moves reported along any route of `lang` from any room of `ps`. */
  function Moves(ps: set<Pos>, lang: set<string>): set<Move>
  {
    set p, w, m | p in ps && w in lang && Dirs(w) && m in PathMoves(p, w) :: m
  }

  // The walk as the source performs it: a set of current rooms pushed through each part.

  /** What a walk produces: the end rooms, and every move reported on the way. */
  datatype Walked = Walked(ends: set<Pos>, moves: set<Move>)

  /** Every part is well formed, part by part. */
  predicate AllWf(ps: seq<Part>)
  {
    |ps| == 0 || (WfPart(ps[0]) && AllWf(ps[1..]))
  }

  lemma {:induction false} BranchAllWf(ps: seq<Part>)
    requires PairsThenRun(ps)
    ensures AllWf(ps)
    decreases |ps|
  {
    if |ps| > 1 {
      BranchAllWf(ps[2..]);
      assert ps[1..][1..] == ps[2..];
    }
  }

  /** A run moves every current room along the same directions. */
  function WalkRun(s: string, ps: set<Pos>): Walked
    requires Dirs(s)
  {
    Walked(set p | p in ps :: PathEnd(p, s), set p, m | p in ps && m in PathMoves(p, s) :: m)
  }

  function WalkPart(part: Part, ps: set<Pos>): Walked
    requires WfPart(part)
    decreases PartSize(part), 0, 0
  {
    match part
    case Str(s) => WalkRun(s, ps)
    case Sub(g) => assert WfGroup(g); WalkGroup(g, ps)
  }

  /** The parts of a branch, each starting from the rooms the previous one ended in. */
  function WalkParts(parts: seq<Part>, ps: set<Pos>): Walked
    requires AllWf(parts)
    decreases PartsSize(parts), 1, 0
  {
    if |parts| == 0 then Walked(ps, {})
    else
      var first := WalkPart(parts[0], ps);
      var rest := WalkParts(parts[1..], first.ends);
      Walked(rest.ends, first.moves + rest.moves)
  }

  /** `walk`: every branch from the same rooms; the end rooms of all branches are collected. */
  function WalkGroup(g: Group, ps: set<Pos>): Walked
    requires forall i :: 0 <= i < |g| ==> WfBranch(g[i])
    decreases GroupSize(g), 2, |g|
  {
    if |g| == 0 then Walked({}, {})
    else
      assert WfBranch(g[0]);
      BranchAllWf(g[0].parts);
      var first := WalkParts(g[0].parts, ps);
      var rest := WalkGroup(g[1..], ps);
      Walked(first.ends + rest.ends, first.moves + rest.moves)
  }

  /** `walk_path`: the walk from the single room (0, 0). */
  function WalkPath(g: Group): Walked
    requires WfGroup(g)
  {
    WalkGroup(g, {(0, 0)})
  }

  // The set walk agrees with walking every route separately.

  lemma EmptyWord(ps: set<Pos>)
    ensures Ends(ps, {""}) == ps && Moves(ps, {""}) == {}
  {
    forall p | p in ps ensures p in Ends(ps, {""}) { assert PathEnd(p, "") == p; }
  }

  lemma NoWords(ps: set<Pos>)
    ensures Ends(ps, {}) == {} && Moves(ps, {}) == {}
  {
  }

  lemma RunLang(s: string, ps: set<Pos>)
    requires Dirs(s)
    ensures WalkRun(s, ps) == Walked(Ends(ps, {s}), Moves(ps, {s}))
  {
  }

  lemma LangUnion(ps: set<Pos>, x: set<string>, y: set<string>)
    ensures Ends(ps, x + y) == Ends(ps, x) + Ends(ps, y)
    ensures Moves(ps, x + y) == Moves(ps, x) + Moves(ps, y)
  {
  }

  /** Walking the routes of `x` and then those of `y` reaches the rooms the routes of `x + y` reach. */
  lemma EndsConcat(ps: set<Pos>, x: set<string>, y: set<string>)
    ensures Ends(Ends(ps, x), y) == Ends(ps, Concat(x, y))
  {
    forall e | e in Ends(Ends(ps, x), y)
      ensures e in Ends(ps, Concat(x, y))
    {
      var q, b :| q in Ends(ps, x) && b in y && Dirs(b) && e == PathEnd(q, b);
      var p, a :| p in ps && a in x && Dirs(a) && q == PathEnd(p, a);
      PathConcat(p, a, b);
      assert a + b in Concat(x, y);
    }
    forall e | e in Ends(ps, Concat(x, y))
      ensures e in Ends(Ends(ps, x), y)
    {
      var p, w :| p in ps && w in Concat(x, y) && Dirs(w) && e == PathEnd(p, w);
      var a, b :| a in x && b in y && w == a + b;
      DirsConcat(a, b);
      PathConcat(p, a, b);
      assert PathEnd(p, a) in Ends(ps, x);
    }
  }

  /** The moves of the first half are reported only if some route of `y` continues them. */
  lemma MovesConcat(ps: set<Pos>, x: set<string>, y: set<string>)
    requires exists b :: b in y && Dirs(b)
    ensures Moves(ps, x) + Moves(Ends(ps, x), y) == Moves(ps, Concat(x, y))
  {
    var b0 :| b0 in y && Dirs(b0);
    forall m | m in Moves(ps, x)
      ensures m in Moves(ps, Concat(x, y))
    {
      var p, a :| p in ps && a in x && Dirs(a) && m in PathMoves(p, a);
      PathConcat(p, a, b0);
      assert a + b0 in Concat(x, y);
    }
    forall m | m in Moves(Ends(ps, x), y)
      ensures m in Moves(ps, Concat(x, y))
    {
      var q, b :| q in Ends(ps, x) && b in y && Dirs(b) && m in PathMoves(q, b);
      var p, a :| p in ps && a in x && Dirs(a) && q == PathEnd(p, a);
      PathConcat(p, a, b);
      assert a + b in Concat(x, y);
    }
    forall m | m in Moves(ps, Concat(x, y))
      ensures m in Moves(ps, x) + Moves(Ends(ps, x), y)
    {
      var p, w :| p in ps && w in Concat(x, y) && Dirs(w) && m in PathMoves(p, w);
      var a, b :| a in x && b in y && w == a + b;
      DirsConcat(a, b);
      PathConcat(p, a, b);
      assert PathEnd(p, a) in Ends(ps, x);
    }
  }

  /** Every well-formed part spells at least one route. */
  lemma {:induction false} PartNonEmpty(part: Part)
    requires WfPart(part)
    ensures exists w :: w in LangPart(part) && Dirs(w)
    decreases PartSize(part), 0, 0
  {
    match part
    case Str(s) =>
      assert s in LangPart(part);
    case Sub(g) =>
      GroupNonEmpty(g);
  }

  lemma {:induction false} PartsNonEmpty(parts: seq<Part>)
    requires AllWf(parts)
    ensures exists w :: w in LangParts(parts) && Dirs(w)
    decreases PartsSize(parts), 1, 0
  {
    if |parts| == 0 {
      assert "" in LangParts(parts);
    } else {
      PartNonEmpty(parts[0]);
      PartsNonEmpty(parts[1..]);
      var a :| a in LangPart(parts[0]) && Dirs(a);
      var b :| b in LangParts(parts[1..]) && Dirs(b);
      DirsConcat(a, b);
      assert a + b in LangParts(parts);
    }
  }

  lemma {:induction false} GroupNonEmpty(g: Group)
    requires WfGroup(g)
    ensures exists w :: w in LangGroup(g) && Dirs(w)
    decreases GroupSize(g), 2, |g|
  {
    assert WfBranch(g[0]);
    BranchAllWf(g[0].parts);
    PartsNonEmpty(g[0].parts);
    var w :| w in LangParts(g[0].parts) && Dirs(w);
    assert w in LangGroup(g);
  }

  lemma {:induction false} WalkPartLang(part: Part, ps: set<Pos>)
    requires WfPart(part)
    ensures WalkPart(part, ps) == Walked(Ends(ps, LangPart(part)), Moves(ps, LangPart(part)))
    decreases PartSize(part), 0, 0
  {
    match part
    case Str(s) =>
      RunLang(s, ps);
    case Sub(g) =>
      assert WfGroup(g);
      WalkGroupLang(g, ps);
  }

  /** A branch's parts walked in turn reach what the concatenated routes reach. */
  lemma {:induction false} WalkPartsLang(parts: seq<Part>, ps: set<Pos>)
    requires AllWf(parts)
    ensures WalkParts(parts, ps) == Walked(Ends(ps, LangParts(parts)), Moves(ps, LangParts(parts)))
    decreases PartsSize(parts), 1, 0
  {
    if |parts| == 0 {
      EmptyWord(ps);
    } else {
      var first := WalkPart(parts[0], ps);
      WalkPartLang(parts[0], ps);
      WalkPartsLang(parts[1..], first.ends);
      PartsNonEmpty(parts[1..]);
      EndsConcat(ps, LangPart(parts[0]), LangParts(parts[1..]));
      MovesConcat(ps, LangPart(parts[0]), LangParts(parts[1..]));
    }
  }

  /** The set walk of a group reaches exactly the rooms, and reports exactly the moves, of
      walking each route the group spells from each starting room. */
  lemma {:induction false} WalkGroupLang(g: Group, ps: set<Pos>)
    requires forall i :: 0 <= i < |g| ==> WfBranch(g[i])
    ensures WalkGroup(g, ps) == Walked(Ends(ps, LangGroup(g)), Moves(ps, LangGroup(g)))
    decreases GroupSize(g), 2, |g|
  {
    if |g| == 0 {
      NoWords(ps);
    } else {
      assert WfBranch(g[0]);
      BranchAllWf(g[0].parts);
      WalkPartsLang(g[0].parts, ps);
      WalkGroupLang(g[1..], ps);
      LangUnion(ps, LangParts(g[0].parts), LangGroup(g[1..]));
    }
  }

  // Every move starts where the walk already was.

  /** The rooms some move enters. */
  function Tos(ms: set<Move>): set<Pos>
  {
    set m | m in ms :: m.to
  }

  /** Every move starts in a starting room or in a room some move entered. */
  ghost predicate Closed(start: set<Pos>, ms: set<Move>)
  {
    forall m :: m in ms ==> From(m) in start || From(m) in Tos(ms)
  }

  lemma {:induction false} PathClosed(p: Pos, w: string)
    requires Dirs(w)
    ensures forall m :: m in PathMoves(p, w) ==> From(m) == p || From(m) in Tos(PathMoves(p, w))
    decreases |w|
  {
    if |w| > 0 {
      var q := Advance(p, w[0]);
      var first := Move(q, Code(w[0]));
      PathClosed(q, w[1..]);
      assert q in Tos(PathMoves(p, w)) by {
        assert first in PathMoves(p, w);
      }
      forall m | m in PathMoves(q, w[1..])
        ensures From(m) in Tos(PathMoves(p, w))
      {
        if From(m) != q {
          var m' :| m' in PathMoves(q, w[1..]) && m'.to == From(m);
          assert m' in PathMoves(p, w);
        }
      }
    }
  }

  /** The walk from the origin never reports a move out of a room it has not reached. */
  lemma {:induction false} PathCodes(p: Pos, w: string)
    requires Dirs(w)
    ensures forall m :: m in PathMoves(p, w) ==> m.d < 4
    decreases |w|
  {
    if |w| > 0 {
      PathCodes(Advance(p, w[0]), w[1..]);
    }
  }

  lemma WalkClosed(g: Group)
    requires WfGroup(g)
    ensures Closed({(0, 0)}, WalkPath(g).moves)
    ensures forall m :: m in WalkPath(g).moves ==> m.d < 4
  {
    var start: set<Pos> := {(0, 0)};
    var lang := LangGroup(g);
    WalkGroupLang(g, start);
    forall m | m in Moves(start, lang)
      ensures From(m) in start || From(m) in Tos(Moves(start, lang))
      ensures m.d < 4
    {
      var p, w :| p in start && w in lang && Dirs(w) && m in PathMoves(p, w);
      PathClosed(p, w);
      PathCodes(p, w);
      if From(m) != p {
        var m' :| m' in PathMoves(p, w) && m'.to == From(m);
        assert m' in Moves(start, lang);
      }
    }
  }
}

=== FILE: day21.dfy ===
/** Day 21: the Elf program translated by hand (`native`), the same hash written directly
    (`native_opt`), and the search for the last new hash before the first repeat. */
module Day21 {
  import opened Common
  import opened Bits

  /** The 24-bit mask of steps 10 and 12. */
  const Mask24: nat := 0xffffff

  /** The number of 24-bit values, the length of `find_cycle`'s table. */
  const Limit: nat := 0x1000000

  lemma Pow2Values()
    ensures Pow2(8) == 256 && Pow2(16) == 0x10000 && Pow2(24) == Limit
  {
    assert Pow2(4) == 16;
    assert Pow2(8) == 16 * 16 by {
      assert Pow2(8) == Pow2(4) * 16;
    }
    assert Pow2(16) == 256 * 256 by {
      Pow2Add(8, 8);
    }
    assert Pow2(24) == 0x10000 * 256 by {
      Pow2Add(16, 8);
    }
  }

  lemma {:induction false} Pow2Add(a: nat, b: nat)
    ensures Pow2(a + b) == Pow2(a) * Pow2(b)
    decreases a
  {
    if a > 0 {
      Pow2Add(a - 1, b);
    }
  }

  /** The remainder modulo `2m` from the remainder of the halved value modulo `m`. */
  lemma ModDouble(x: nat, m: nat)
    requires m > 0
    ensures x % (2 * m) == 2 * ((x / 2) % m) + x % 2
  {
    var q, r := x / 2, x % 2;
    var a, b := q / m, q % m;
    assert x == a * (2 * m) + (2 * b + r);
    ModUnique(x, 2 * m, a, 2 * b + r);
  }

  /** Masking with `2^k - 1` keeps the low `k` bits: the remainder modulo `2^k`. */
  lemma {:induction false} AndLow(x: nat, k: nat)
    ensures And(x, Pow2(k) - 1) == x % Pow2(k)
    decreases k
  {
    if k == 0 {
      assert Pow2(k) - 1 == 0;
    } else if x == 0 {
      ZeroMod(Pow2(k));
    } else {
      var m := Pow2(k - 1);
      MaskHalf(k);
      AndLow(x / 2, k - 1);
      ModDouble(x, m);
      AndOdd(x, Pow2(k) - 1);
    }
  }

  lemma ZeroMod(p: nat)
    requires p > 0
    ensures 0 % p == 0
  {
  }

  /** Halving the mask `2^k - 1` gives the mask `2^(k-1) - 1` and drops a set bit. */
  lemma MaskHalf(k: nat)
    requires k > 0
    ensures Pow2(k) == 2 * Pow2(k - 1)
    ensures (Pow2(k) - 1) / 2 == Pow2(k - 1) - 1 && (Pow2(k) - 1) % 2 == 1
  {
  }

  /** Against an odd mask the lowest bit of `x` passes through. */
  lemma AndOdd(x: nat, b: nat)
    requires x > 0 && b % 2 == 1
    ensures And(x, b) == 2 * And(x / 2, b / 2) + x % 2
  {
  }

  /** The masks of the program as remainders. */
  lemma Masks(x: nat)
    ensures And(x, Mask24) == x % Limit
    ensures And(x, 255) == x % 256
  {
    Pow2Values();
    AndLow(x, 24);
    AndLow(x, 8);
  }

  /** `x | 0x10000`, the seed of a round: bit 16 of `x` set. */
  function Seeded(x: nat): (r: nat)
  {
    if x / 0x10000 % 2 == 1 then x else x + 0x10000
  }

  /** Setting bit `k` adds `2^k` exactly when that bit is clear. */
  lemma {:induction false} OrPow2(a: nat, k: nat)
    ensures Or(a, Pow2(k)) == if Bit(a, k) then a else a + Pow2(k)
    decreases k
  {
    if a == 0 {
      BitBelow(0, k);
    } else if k > 0 {
      assert Pow2(k) / 2 == Pow2(k - 1) && Pow2(k) % 2 == 0;
      OrPow2(a / 2, k - 1);
    }
  }

  /** The source's `| 0x10000` is `Seeded`. */
  lemma OrSeed(x: nat)
    ensures Or(x, 0x10000) == Seeded(x)
  {
    Pow2Values();
    OrPow2(x, 16);
    BitIsDigit(x, 16);
  }

  /** Steps 08 to 12 (the body of `native_opt`'s inner loop): add a byte of the seed to the
      state, keep 24 bits, multiply by 65899 and keep 24 bits again. */
  function Absorb(r1: nat, byte: nat): (r: nat)
    ensures r < Limit
  {
    (r1 + byte) % Limit * 65899 % Limit
  }

  /** The two masks with `0xffffff` as the source writes them compute `Absorb`. */
  lemma AbsorbMasks(r1: nat, byte: nat)
    ensures And(And(r1 + byte, Mask24) * 65899, Mask24) == Absorb(r1, byte)
  {
    Masks(r1 + byte);
    Masks(And(r1 + byte, Mask24) * 65899);
  }

  /** `native_opt`'s inner loop: absorb the bytes of `seed` (`seed & 0xff`, lowest first) until
      none is left. */
  function Fold(r1: nat, seed: nat): (r: nat)
    ensures r1 < Limit ==> r < Limit
    decreases seed
  {
    if seed == 0 then r1 else Fold(Absorb(r1, seed % 256), seed / 256)
  }

  /** One round of the hash: the seed is the previous hash with bit 16 set, and the state
      starts at 7902108. */
  function Round(r1: nat): (r: nat)
    ensures r < Limit
  {
    Fold(7902108, Seeded(r1))
  }

  /** The hash after `n` rounds from 0. */
  function Hash(n: nat): (r: nat)
    ensures r < Limit
  {
    if n == 0 then 0 else Round(Hash(n - 1))
  }

  /** The program's self-check: `123 & 456` is 72, so the branch to the endless loop at step 04
      is never taken. */
  lemma SelfCheck()
    ensures And(123, 456) == 72
  {
    assert And(1, 7) == 1;
    assert And(3, 14) == 2;
    assert And(7, 28) == 4;
    assert And(15, 57) == 9;
    assert And(30, 114) == 18;
    assert And(61, 228) == 36;
  }

  /** Steps 00 to 04: `123 & 456 == 72`, without which the program would loop forever. */
  method SelfTest() returns (passed: bool)
    ensures passed
  {
    var r1 := And(123, 456);
    SelfCheck();
    passed := r1 == 72;
  }

  /** Steps 17 to 25, the loop at LABEL C: count `r5` up while `(r5 + 1) * 256` does not exceed
      `r2`. */
  method DivideBy256(r2: nat) returns (r5: nat)
    ensures r5 == r2 / 256
  {
    r5 := 0;
    while true
      invariant r5 * 256 <= r2
      decreases r2 - r5 * 256
    {
      var r3 := (r5 + 1) * 256;
      if r3 > r2 {
        break;
      }
      r5 := r5 + 1;
    }
    ModUnique(r2, 256, r5, r2 - r5 * 256);
  }

  /** Steps 06 to 27, one pass of `native`'s outer loop: the loop at LABEL D absorbs the low
      byte of `r2`, and stops when `r2` is below 256 or else divides it by 256. */
  method NativeRound(r1: nat) returns (r: nat)
    ensures r == Round(r1)
  {
    var r2 := Or(r1, 65536);
    OrSeed(r1);
    r := 7902108;
    while true
      invariant r2 > 0 && Fold(r, r2) == Round(r1)
      decreases r2
    {
      // The masks `& 255` and `& 16777215` are remainders (`Masks`).
      var r5 := r2 % 256;
      r := r + r5;
      r := r % Limit;
      r := r * 65899;
      r := r % Limit;
      if 256 > r2 {
        break;
      }
      r5 := DivideBy256(r2);
      r2 := r5;
    }
  }

  /** `native`: the self-check, then `n` passes of the outer loop from 0. */
  method Native(n: nat) returns (r1: nat)
    ensures r1 == Hash(n)
  {
    var passed := SelfTest();
    if !passed {
      assert false;
    }
    r1 := 0;
    var left := n;
    ghost var done := 0;
    while left > 0
      invariant left + done == n && r1 == Hash(done)
    {
      left := left - 1;
      r1 := NativeRound(r1);
      done := done + 1;
    }
  }

  /** The round as `native_opt` and `find_cycle` write it: set bit 16 for the seed, then absorb
      its bytes while any is left. */
  method OptRound(r1: nat) returns (r: nat)
    ensures r == Round(r1)
  {
    var r2 := Or(r1, 0x10000);
    OrSeed(r1);
    r := 7902108;
    while r2 > 0
      invariant Fold(r, r2) == Round(r1)
      decreases r2
    {
      // `(r + (r2 & 0xff)) & 0xffffff`, then `(r * 65899) & 0xffffff` (`Masks`).
      r := (r + r2 % 256) % Limit;
      r := r * 65899 % Limit;
      r2 := r2 / 256;
    }
  }

  /** `n` is the first round, counting from 1, whose hash is `r0`. */
  ghost predicate FirstHit(r0: nat, n: nat)
  {
    n >= 1 && Hash(n) == r0 && forall k :: 1 <= k < n ==> Hash(k) != r0
  }

  /** `native_opt`: count rounds until the hash is `r0`. The source loops forever for a value
      the hash never takes; the model asks for one it takes. */
  method NativeOpt(r0: nat) returns (count: nat)
    requires exists n :: n >= 1 && Hash(n) == r0
    ensures FirstHit(r0, count)
  {
    ghost var bound :| bound >= 1 && Hash(bound) == r0;
    var r1 := 0;
    count := 0;
    while true
      invariant count < bound && r1 == Hash(count)
      invariant forall k :: 1 <= k <= count ==> Hash(k) != r0
      decreases bound - count
    {
      count := count + 1;
      r1 := OptRound(r1);
      if r1 == r0 {
        break;
      }
    }
  }

  /** A hash of the first `n` rounds is hit first at the round that produced it, once those
      hashes are all different. */
  lemma FirstHitDistinct(n: nat, c: nat)
    requires n >= 1 && forall j, k :: 1 <= j < k <= n ==> Hash(j) != Hash(k)
    requires FirstHit(Hash(n), c)
    ensures c == n
  {
  }

  /** The hashes of rounds 1 to `n`. */
  ghost function Hashes(n: nat): set<nat>
  {
    if n == 0 then {} else Hashes(n - 1) + {Hash(n)}
  }

  lemma HashesMember(n: nat, x: nat)
    ensures x in Hashes(n) <==> exists j :: 1 <= j <= n && Hash(j) == x
  {
    if x in Hashes(n) {
      HashesOnly(n, x);
    } else if exists j :: 1 <= j <= n && Hash(j) == x {
      var j :| 1 <= j <= n && Hash(j) == x;
      HashesHas(n, j);
    }
  }

  /** The hash of each of rounds 1 to `n` is among the hashes. */
  lemma {:induction false} HashesHas(n: nat, j: nat)
    requires 1 <= j <= n
    ensures Hash(j) in Hashes(n)
    decreases n
  {
    if j < n {
      HashesHas(n - 1, j);
    }
  }

  /** Every member of the hashes is the hash of one of rounds 1 to `n`. */
  lemma {:induction false} HashesOnly(n: nat, x: nat)
    requires x in Hashes(n)
    ensures exists j :: 1 <= j <= n && Hash(j) == x
    decreases n
  {
    if x != Hash(n) {
      HashesOnly(n - 1, x);
      var j :| 1 <= j <= n - 1 && Hash(j) == x;
      assert 1 <= j <= n;
    }
  }

  /** A set of naturals below `n` has at most `n` members. */
  lemma {:induction false} FewBelow(s: set<nat>, n: nat)
    requires forall x :: x in s ==> x < n
    ensures |s| <= n
    decreases n
  {
    if n > 0 {
      FewBelow(s - {n - 1}, n - 1);
    }
  }

  /** What `find_cycle`'s loop keeps after `count` rounds: the table marks exactly the hashes
      seen, which are all different. */
  ghost predicate Table(visited: seq<bool>, count: nat)
  {
    |visited| == Limit && |Hashes(count)| == count
    && (forall x :: 0 <= x < Limit ==> (visited[x] <==> x in Hashes(count)))
    && forall j, k :: 1 <= j < k <= count ==> Hash(j) != Hash(k)
  }

  lemma TableStep(visited: seq<bool>, count: nat)
    requires Table(visited, count) && !visited[Hash(count + 1)]
    ensures Table(visited[Hash(count + 1) := true], count + 1)
    ensures count + 1 <= Limit
  {
    var h := Hash(count + 1);
    assert h !in Hashes(count);
    forall j | 1 <= j <= count
      ensures Hash(j) != h
    {
      HashesMember(count, Hash(j));
    }
    HashesBelow(count + 1);
    FewBelow(Hashes(count + 1), Limit);
  }

  /** Every hash is a 24-bit value. */
  lemma HashesBelow(n: nat)
    ensures forall x :: x in Hashes(n) ==> x < Limit
  {
    forall x | x in Hashes(n)
      ensures x < Limit
    {
      HashesMember(n, x);
    }
  }

  /** `find_cycle`: run rounds from 0, marking each hash in a table of 2^24 flags, until a hash
      repeats; the result is the number of rounds before the repeat and the last new hash. */
  method FindCycle() returns (cycle: nat, last: nat)
    ensures cycle >= 1 && last == Hash(cycle) && last < Limit
    ensures forall j, k :: 1 <= j < k <= cycle ==> Hash(j) != Hash(k)
    ensures exists j :: 1 <= j <= cycle && Hash(j) == Hash(cycle + 1)
  {
    var visited := seq(Limit, _ => false);
    var count := 0;
    var rng := 0;
    var prev := 0;
    while true
      invariant Table(visited, count) && rng == Hash(count) && prev == rng
      decreases Limit - count
    {
      rng := OptRound(rng);
      if visited[rng] {
        HashesMember(count, rng);
        return count, prev;
      }
      TableStep(visited, count);
      visited := visited[rng := true];
      prev := rng;
      count := count + 1;
    }
  }

  /** `run`: the hash after one round, which halts the program soonest, and the last new hash
      before the first repeat, which halts it latest; the checks `run` makes on both with
      `native_opt` hold. */
  method Solve() returns (shortest: nat, longest: nat)
    ensures shortest == Hash(1) && FirstHit(shortest, 1)
    ensures exists c: nat :: FirstHit(longest, c) && Hash(c + 1) in Hashes(c)
  {
    shortest := Native(1);
    var first := NativeOpt(shortest);
    FirstHitDistinct(1, first);
    assert first == 1;
    var cycle, r0 := FindCycle();
    var again := NativeOpt(r0);
    FirstHitDistinct(cycle, again);
    assert again == cycle;
    HashesMember(cycle, Hash(cycle + 1));
    longest := r0;
  }
}

=== FILE: day22.dfy ===
/** Day 22: the cave's erosion levels, memoised row by row, the risk of the area up to the
    target, and the steps of the rescue search that record a time for a position and tool. */
module Day22 {
  import opened Common

  /** The modulus of the erosion level. */
  const Modulus: nat := 20183

  /** `u32` arithmetic: the casts `as u32` keep the low 32 bits. */
  const U32: nat := 0x1_0000_0000

  /** `u32::MAX`, the time of a node no step has reached. */
  const Unreached: nat := 0xffff_ffff

  /** The time it costs to change tools. */
  const SwitchCost: nat := 7

  /** The target at `(tx, ty)` and the depth: the constants of a `Cave`. */
  datatype Cave = Cave(tx: nat, ty: nat, depth: nat)

  /** The cache of erosion levels: row `y` holds the levels of `x = 0, 1, ...`. */
  type Cache = seq<seq<nat>>

  /** The geologic index of `(x, y)` from the erosion levels `u` above it and `l` left of it. */
  function Index(c: Cave, x: nat, y: nat, u: nat, l: nat): nat
  {
    if (x == 0 && y == 0) || (x == c.tx && y == c.ty) then 0
    else if y == 0 then x * 16807 % U32
    else if x == 0 then y * 48271 % U32
    else u * l
  }

  /** The erosion level by the recurrence, with nothing remembered. */
  function Erosion(c: Cave, x: nat, y: nat): (r: nat)
    ensures r < Modulus
    decreases x + y
  {
    var u := if y > 0 then Erosion(c, x, y - 1) else 0;
    var l := if x > 0 then Erosion(c, x - 1, y) else 0;
    (Index(c, x, y, u, l) + c.depth) % Modulus
  }

  /** The region type at `(x, y)`: rocky 0, wet 1, narrow 2. */
  function Risk(c: Cave, x: nat, y: nat): (r: nat)
    ensures r < 3
  {
    Erosion(c, x, y) % 3
  }

  /** The geologic index rules as the puzzle states them, in terms of the erosion levels. */
  lemma ErosionRules(c: Cave, x: nat, y: nat)
    ensures (x, y) == (0, 0) || (x, y) == (c.tx, c.ty) ==> Erosion(c, x, y) == c.depth % Modulus
    ensures (x, y) != (c.tx, c.ty) && x > 0 && y == 0 ==>
      Erosion(c, x, y) == (x * 16807 % U32 + c.depth) % Modulus
    ensures (x, y) != (c.tx, c.ty) && x == 0 && y > 0 ==>
      Erosion(c, x, y) == (y * 48271 % U32 + c.depth) % Modulus
    ensures (x, y) != (c.tx, c.ty) && x > 0 && y > 0 ==>
      Erosion(c, x, y) == (Erosion(c, x, y - 1) * Erosion(c, x - 1, y) + c.depth) % Modulus
  {
  }

  /** The cache holds a level for `(x, y)`. */
  predicate Has(cache: Cache, x: nat, y: nat)
  {
    y < |cache| && x < |cache[y]|
  }

  /** `erosion_level`: the cached level when there is one; otherwise the levels above and to the
      left first, then this one, pushed onto its row or as a new row. */
  function Cached(c: Cave, cache: Cache, x: nat, y: nat): (r: (nat, Cache))
    decreases x + y, 1
  {
    if Has(cache, x, y) then (cache[y][x], cache)
    else
      var above := Above(c, cache, x, y);
      var left := Left(c, above.1, x, y);
      var i := (Index(c, x, y, above.0, left.0) + c.depth) % Modulus;
      (i, Push(left.1, y, i))
  }

  /** The level above `(x, y)` through the cache, 0 on the top row. */
  function Above(c: Cave, cache: Cache, x: nat, y: nat): (r: (nat, Cache))
    decreases x + y, 0
  {
    if y > 0 then Cached(c, cache, x, y - 1) else (0, cache)
  }

  /** The level left of `(x, y)` through the cache, 0 in the first column. */
  function Left(c: Cave, cache: Cache, x: nat, y: nat): (r: (nat, Cache))
    decreases x + y, 0
  {
    if x > 0 then Cached(c, cache, x - 1, y) else (0, cache)
  }

  /** The cache with `i` pushed: a new row when row `y` does not exist yet, otherwise at the end
      of row `y`. */
  function Push(cache: Cache, y: nat, i: nat): Cache
  {
    if |cache| <= y then cache + [[i]] else cache[y := cache[y] + [i]]
  }

  /** The shape the cache keeps: no empty row, and no row longer than the one above. */
  ghost predicate Staircase(cache: Cache)
  {
    (forall k :: 0 <= k < |cache| ==> |cache[k]| >= 1)
    && forall k :: 0 < k < |cache| ==> |cache[k]| <= |cache[k - 1]|
  }

  /** Every level in the cache is the one the recurrence gives. */
  ghost predicate Faithful(c: Cave, cache: Cache)
  {
    forall k, j :: 0 <= k < |cache| && 0 <= j < |cache[k]| ==> cache[k][j] == Erosion(c, j, k)
  }

  ghost predicate Valid(c: Cave, cache: Cache)
  {
    Staircase(cache) && Faithful(c, cache)
  }

  /** `b` extends `a`: every row of `a` is a prefix of the same row of `b`, and every level `b`
      adds lies at or above and left of `(x, y)`. */
  ghost predicate Grows(a: Cache, b: Cache, x: nat, y: nat)
  {
    |a| <= |b|
    && (forall k :: 0 <= k < |a| ==> a[k] <= b[k])
    && forall k, j :: 0 <= k < |b| && 0 <= j < |b[k]| && !Has(a, j, k) ==> j <= x && k <= y
  }

  lemma GrowsTrans(a: Cache, b: Cache, d: Cache, x: nat, y: nat, x': nat, y': nat)
    requires Grows(a, b, x', y') && Grows(b, d, x', y') && x' <= x && y' <= y
    ensures Grows(a, d, x, y)
  {
    forall k | 0 <= k < |a|
      ensures a[k] <= d[k]
    {
      assert a[k] <= b[k] && b[k] <= d[k];
    }
    forall k, j | 0 <= k < |d| && 0 <= j < |d[k]| && !Has(a, j, k)
      ensures j <= x && k <= y
    {
      if Has(b, j, k) {
        assert j < |b[k]|;
      }
    }
  }

  /** On a staircase, a level missing at `(x, y)` while the ones above and to the left are held
      belongs at the end: the row is exactly `x` long, or it is the next row to start. */
  lemma PushLandsAt(cache: Cache, x: nat, y: nat)
    requires Staircase(cache) && !Has(cache, x, y)
    requires y > 0 ==> Has(cache, x, y - 1)
    requires x > 0 ==> Has(cache, x - 1, y)
    ensures if |cache| <= y then |cache| == y && x == 0 else |cache[y]| == x
  {
    if |cache| <= y && x == 0 && y > 0 {
      assert |cache| >= y;
    }
  }

  /** Pushing a level where `PushLandsAt` places it keeps the staircase and places it at
      `(x, y)`. */
  lemma PushShape(cache: Cache, x: nat, y: nat, i: nat)
    requires Staircase(cache) && !Has(cache, x, y)
    requires y > 0 ==> Has(cache, x, y - 1)
    requires x > 0 ==> Has(cache, x - 1, y)
    ensures Staircase(Push(cache, y, i)) && Has(Push(cache, y, i), x, y)
    ensures Push(cache, y, i)[y][x] == i
  {
    PushLandsAt(cache, x, y);
    var d := Push(cache, y, i);
    assert |d| == |cache| || |d| == y + 1;
    forall k | 0 < k < |d|
      ensures |d[k]| <= |d[k - 1]|
    {
      if k == y {
        assert |d[k - 1]| > x;
      }
    }
  }

  /** The push keeps every other level where it was. */
  lemma PushKeeps(cache: Cache, x: nat, y: nat, i: nat)
    requires Staircase(cache) && !Has(cache, x, y)
    requires y > 0 ==> Has(cache, x, y - 1)
    requires x > 0 ==> Has(cache, x - 1, y)
    ensures Grows(cache, Push(cache, y, i), x, y)
    ensures forall k, j :: 0 <= k < |Push(cache, y, i)| && 0 <= j < |Push(cache, y, i)[k]| ==>
      (k, j) == (y, x) || (Has(cache, j, k) && Push(cache, y, i)[k][j] == cache[k][j])
  {
    PushLandsAt(cache, x, y);
  }

  /** Pushing the level of `(x, y)` where `PushLandsAt` places it keeps the cache valid. */
  lemma PushValid(c: Cave, cache: Cache, x: nat, y: nat)
    requires Valid(c, cache) && !Has(cache, x, y)
    requires y > 0 ==> Has(cache, x, y - 1)
    requires x > 0 ==> Has(cache, x - 1, y)
    ensures var d := Push(cache, y, Erosion(c, x, y));
      Valid(c, d) && Has(d, x, y) && Grows(cache, d, x, y)
  {
    var d := Push(cache, y, Erosion(c, x, y));
    PushShape(cache, x, y, Erosion(c, x, y));
    PushKeeps(cache, x, y, Erosion(c, x, y));
    forall k, j | 0 <= k < |d| && 0 <= j < |d[k]|
      ensures d[k][j] == Erosion(c, j, k)
    {
    }
  }

  /** The levels of the recurrence are what `Cached` reads for the cells above and to the left. */
  lemma CachedStep(c: Cave, x: nat, y: nat, u: nat, l: nat)
    requires y > 0 ==> u == Erosion(c, x, y - 1)
    requires y == 0 ==> u == 0
    requires x > 0 ==> l == Erosion(c, x - 1, y)
    requires x == 0 ==> l == 0
    ensures (Index(c, x, y, u, l) + c.depth) % Modulus == Erosion(c, x, y)
  {
  }

  /** The cache only memoises the recurrence: the level returned is `Erosion`'s, the cache stays
      valid, now holds `(x, y)`, and grows only at or above and left of it. */
  lemma {:induction false} CachedCorrect(c: Cave, cache: Cache, x: nat, y: nat)
    requires Valid(c, cache)
    ensures Cached(c, cache, x, y).0 == Erosion(c, x, y)
    ensures Valid(c, Cached(c, cache, x, y).1) && Has(Cached(c, cache, x, y).1, x, y)
    ensures Grows(cache, Cached(c, cache, x, y).1, x, y)
    decreases x + y, 2
  {
    if Has(cache, x, y) {
      assert Grows(cache, cache, x, y);
    } else {
      CachedMiss(c, cache, x, y);
    }
  }

  /** The miss of `CachedCorrect`: both recursive calls, then the push. */
  lemma {:induction false} CachedMiss(c: Cave, cache: Cache, x: nat, y: nat)
    requires Valid(c, cache) && !Has(cache, x, y)
    ensures Cached(c, cache, x, y).0 == Erosion(c, x, y)
    ensures Valid(c, Cached(c, cache, x, y).1) && Has(Cached(c, cache, x, y).1, x, y)
    ensures Grows(cache, Cached(c, cache, x, y).1, x, y)
    decreases x + y, 1
  {
    var above := Above(c, cache, x, y);
    var left := Left(c, above.1, x, y);
    var c2 := left.1;
    var e := Erosion(c, x, y);
    assert Cached(c, cache, x, y) == (e, Push(c2, y, e)) by {
      CachedAbove(c, cache, x, y);
      CachedLeft(c, above.1, x, y);
      CachedStep(c, x, y, above.0, left.0);
    }
    assert Valid(c, Push(c2, y, e)) && Has(Push(c2, y, e), x, y) && Grows(cache, Push(c2, y, e), x, y) by {
      CachedAbove(c, cache, x, y);
      CachedLeft(c, above.1, x, y);
      GrowsTrans(cache, above.1, c2, x, y, x, y);
      PushValid(c, c2, x, y);
      GrowsTrans(cache, c2, Push(c2, y, e), x, y, x, y);
    }
  }

  /** The first call of a miss: the level above, leaving `(x, y)` still missing. */
  lemma {:induction false} CachedAbove(c: Cave, cache: Cache, x: nat, y: nat)
    requires Valid(c, cache) && !Has(cache, x, y)
    ensures var (u, c1) := Above(c, cache, x, y);
      && Valid(c, c1) && !Has(c1, x, y) && Grows(cache, c1, x, y)
      && (y > 0 ==> Has(c1, x, y - 1) && u == Erosion(c, x, y - 1))
      && (y == 0 ==> u == 0)
    decreases x + y, 0
  {
    if y > 0 {
      CachedCorrect(c, cache, x, y - 1);
      var c1 := Cached(c, cache, x, y - 1).1;
      assert !Has(c1, x, y);
      GrowsTrans(cache, c1, c1, x, y, x, y - 1);
    } else {
      assert Grows(cache, cache, x, y);
    }
  }

  /** The second call of a miss: the level to the left, keeping the one above. */
  lemma {:induction false} CachedLeft(c: Cave, c1: Cache, x: nat, y: nat)
    requires Valid(c, c1) && !Has(c1, x, y) && (y > 0 ==> Has(c1, x, y - 1))
    ensures var (l, c2) := Left(c, c1, x, y);
      && Valid(c, c2) && !Has(c2, x, y) && Grows(c1, c2, x, y)
      && (y > 0 ==> Has(c2, x, y - 1))
      && (x > 0 ==> Has(c2, x - 1, y) && l == Erosion(c, x - 1, y))
      && (x == 0 ==> l == 0)
    decreases x + y, 0
  {
    if x > 0 {
      CachedCorrect(c, c1, x - 1, y);
      var c2 := Cached(c, c1, x - 1, y).1;
      assert !Has(c2, x, y);
      assert y > 0 ==> Has(c2, x, y - 1) by {
        if y > 0 {
          assert c1[y - 1] <= c2[y - 1];
        }
      }
      GrowsTrans(c1, c2, c2, x, y, x - 1, y);
    } else {
      assert Grows(c1, c1, x, y);
    }
  }

  /** `risk_level`: the erosion level, read through the cache, modulo 3. */
  function RiskLevel(c: Cave, cache: Cache, x: nat, y: nat): (r: (nat, Cache))
  {
    var (e, d) := Cached(c, cache, x, y);
    (e % 3, d)
  }

  lemma RiskLevelCorrect(c: Cave, cache: Cache, x: nat, y: nat)
    requires Valid(c, cache)
    ensures RiskLevel(c, cache, x, y).0 == Risk(c, x, y) && Valid(c, RiskLevel(c, cache, x, y).1)
    ensures Risk(c, x, y) in {0, 1, 2}
  {
    CachedCorrect(c, cache, x, y);
  }

  /** The risks of row `y` at `x < n`, added up. */
  function RowRisk(c: Cave, y: nat, n: nat): nat
  {
    if n == 0 then 0 else RowRisk(c, y, n - 1) + Risk(c, n - 1, y)
  }

  /** The risks of rows `y < m`, each up to `x = tx`, added up. */
  function AreaRisk(c: Cave, m: nat): nat
  {
    if m == 0 then 0 else AreaRisk(c, m - 1) + RowRisk(c, m - 1, c.tx + 1)
  }

  /** Each region adds at most 2. */
  lemma {:induction false} RowRiskBound(c: Cave, y: nat, n: nat)
    ensures RowRisk(c, y, n) <= 2 * n
  {
    if n > 0 {
      RowRiskBound(c, y, n - 1);
    }
  }

  lemma {:induction false} AreaRiskBound(c: Cave, m: nat)
    ensures AreaRisk(c, m) <= 2 * (c.tx + 1) * m
  {
    if m > 0 {
      AreaRiskBound(c, m - 1);
      RowRiskBound(c, m - 1, c.tx + 1);
      assert 2 * (c.tx + 1) * m == 2 * (c.tx + 1) * (m - 1) + 2 * (c.tx + 1);
    }
  }

  /** `area_risk_level`: the risks of the rectangle from the mouth to the target, read row by row
      through the cache. */
  method AreaRiskLevel(c: Cave, cache: Cache) returns (total: nat, cache': Cache)
    requires Valid(c, cache)
    ensures total == AreaRisk(c, c.ty + 1) && Valid(c, cache')
    ensures total <= 2 * (c.tx + 1) * (c.ty + 1)
  {
    total, cache' := 0, cache;
    var y := 0;
    while y <= c.ty
      invariant y <= c.ty + 1 && total == AreaRisk(c, y) && Valid(c, cache')
    {
      var row := 0;
      var x := 0;
      while x <= c.tx
        invariant x <= c.tx + 1 && row == RowRisk(c, y, x) && Valid(c, cache')
      {
        var r;
        RiskLevelCorrect(c, cache', x, y);
        r := RiskLevel(c, cache', x, y);
        row, cache' := row + r.0, r.1;
        x := x + 1;
      }
      total := total + row;
      y := y + 1;
    }
    AreaRiskBound(c, c.ty + 1);
  }

  /** The first risks of the worked example with depth 510 and the target at (10, 10). */
  lemma ExampleRisks()
    ensures Risk(Cave(10, 10, 510), 0, 0) == 0
    ensures Risk(Cave(10, 10, 510), 1, 0) == 1
    ensures Risk(Cave(10, 10, 510), 0, 1) == 0
    ensures Risk(Cave(10, 10, 510), 1, 1) == 2
  {
    var c := Cave(10, 10, 510);
    assert Erosion(c, 0, 0) == 510;
    assert Erosion(c, 1, 0) == 17317;
    assert Erosion(c, 0, 1) == 8415;
    assert Erosion(c, 1, 1) == 1805;
  }

  /** A position and tool waiting in the queue, with a lower bound on the time to the target. */
  datatype Pending = Pending(x: nat, y: nat, equip: nat, minTime: nat)

  /** The search's state: the cave and its cache, the best time found for each position and
      tool, the queue, and the smallest bound pushed since the queue was last sorted. */
  datatype Finder = Finder(cave: Cave, times: map<(nat, nat, nat), nat>,
                           pending: seq<Pending>, minPushed: nat)

  /** `PathFinder::new`: nothing reached, nothing queued. */
  function NewFinder(c: Cave): (f: Finder)
    ensures forall x: nat, y: nat, e: nat :: Time(f, x, y, e) == Unreached
    ensures f.pending == [] && f.minPushed == Unreached
  {
    Finder(c, map[], [], Unreached)
  }

  /** The best time recorded for a position and tool; `u32::MAX` when none is. */
  function Time(f: Finder, x: nat, y: nat, e: nat): nat
  {
    if (x, y, e) in f.times then f.times[(x, y, e)] else Unreached
  }

  /** The search's lower bound for a node: its time, the distance to the target, and the tool
      change still owed unless the tool is the torch. */
  function MinTime(c: Cave, x: nat, y: nat, equip: nat, time: nat): (r: nat)
    ensures r >= time + Abs(x - c.tx) + Abs(y - c.ty)
    ensures r == time + Abs(x - c.tx) + Abs(y - c.ty) <==> equip == 1
  {
    var m := time + Abs(x - c.tx) + Abs(y - c.ty);
    if equip != 1 then m + SwitchCost else m
  }

  /** `add_node`, with the region type of each position read through `kind` (for the search,
      `Risk` of its cave, which `CachedCorrect` shows the cache returns): nothing happens for the
      tool equal to the region type; otherwise a time below the recorded one replaces it and
      queues the node with its bound. */
  function AddNode(f: Finder, kind: (nat, nat) -> nat, x: nat, y: nat, equip: nat, time: nat): (r: Finder)
  {
    if kind(x, y) == equip then f
    else if Time(f, x, y, equip) > time then
      var m := MinTime(f.cave, x, y, equip, time);
      f.(times := f.times[(x, y, equip) := time],
         pending := f.pending + [Pending(x, y, equip, m)], minPushed := Min(f.minPushed, m))
    else f
  }

  /** No node records the tool equal to its region's type. */
  ghost predicate Records(f: Finder, kind: (nat, nat) -> nat)
  {
    forall x: nat, y: nat, e: nat :: (x, y, e) in f.times ==> e != kind(x, y)
  }

  /** `add_node` keeps the records: it lowers the time of the one node it names, to `time` when
      that is smaller and the tool is allowed there, queues exactly that lowering, and changes
      nothing else. */
  lemma AddNodeSpec(f: Finder, kind: (nat, nat) -> nat, x: nat, y: nat, equip: nat, time: nat)
    requires Records(f, kind)
    ensures var r := AddNode(f, kind, x, y, equip, time);
      var lowered := equip != kind(x, y) && time < Time(f, x, y, equip);
      && Records(r, kind) && r.cave == f.cave
      && Time(r, x, y, equip) == (if lowered then time else Time(f, x, y, equip))
      && (forall x': nat, y': nat, e': nat :: (x', y', e') != (x, y, equip) ==>
            Time(r, x', y', e') == Time(f, x', y', e'))
      && r.pending == (if lowered then f.pending + [Pending(x, y, equip, MinTime(f.cave, x, y, equip, time))]
                       else f.pending)
      && r.minPushed <= f.minPushed
  {
  }

  /** `g` is `f` with some recorded times lowered. */
  ghost predicate Below(g: Finder, f: Finder)
  {
    g.cave == f.cave && forall x: nat, y: nat, e: nat :: Time(g, x, y, e) <= Time(f, x, y, e)
  }

  /** Times at or below `t`, or the tool forbidden at the position. */
  ghost predicate AtMost(f: Finder, kind: (nat, nat) -> nat, x: nat, y: nat, e: nat, t: nat)
  {
    e == kind(x, y) || Time(f, x, y, e) <= t
  }

  /** The time recorded for a node only goes down, and the node named gets `time` or less unless
      its tool is the forbidden one. */
  lemma AddNodeBelow(f: Finder, kind: (nat, nat) -> nat, x: nat, y: nat, equip: nat, time: nat)
    requires Records(f, kind)
    ensures var r := AddNode(f, kind, x, y, equip, time);
      Records(r, kind) && Below(r, f) && AtMost(r, kind, x, y, equip, time)
  {
    AddNodeSpec(f, kind, x, y, equip, time);
  }

  /** The tool to change to: the next one, or the one after when the next is not allowed. */
  function SwitchEquip(equip: nat, tpe: nat): (r: nat)
  {
    var e := (equip + 1) % 3;
    if e == tpe then (e + 1) % 3 else e
  }

  /** From an allowed tool, the change picks the third tool: neither the current one nor the one
      the region forbids. */
  lemma SwitchEquipThird(equip: nat, tpe: nat)
    requires equip < 3 && tpe < 3 && equip != tpe
    ensures SwitchEquip(equip, tpe) < 3
    ensures SwitchEquip(equip, tpe) != equip && SwitchEquip(equip, tpe) != tpe
    ensures {equip, tpe, SwitchEquip(equip, tpe)} == {0, 1, 2}
  {
  }

  /** A call of `add_node`: the position, the tool and the time offered. */
  datatype Offer = Offer(x: nat, y: nat, equip: nat, time: nat)

  /** `add_node` for each offer in turn. */
  function AddAll(f: Finder, kind: (nat, nat) -> nat, offers: seq<Offer>): (r: Finder)
    decreases |offers|
  {
    if offers == [] then f
    else
      var o := offers[0];
      AddAll(AddNode(f, kind, o.x, o.y, o.equip, o.time), kind, offers[1..])
  }

  /** After a run of offers, the records are kept, no time went up, and every offer's node holds
      its time or less unless its tool is forbidden there. */
  lemma {:induction false} AddAllSpec(f: Finder, kind: (nat, nat) -> nat, offers: seq<Offer>)
    requires Records(f, kind)
    ensures var r := AddAll(f, kind, offers);
      && Records(r, kind) && Below(r, f)
      && forall i :: 0 <= i < |offers| ==>
           AtMost(r, kind, offers[i].x, offers[i].y, offers[i].equip, offers[i].time)
    decreases |offers|
  {
    if offers != [] {
      var o := offers[0];
      var g := AddNode(f, kind, o.x, o.y, o.equip, o.time);
      AddNodeBelow(f, kind, o.x, o.y, o.equip, o.time);
      AddAllSpec(g, kind, offers[1..]);
      var r := AddAll(g, kind, offers[1..]);
      forall i | 0 <= i < |offers|
        ensures AtMost(r, kind, offers[i].x, offers[i].y, offers[i].equip, offers[i].time)
      {
        if i > 0 {
          assert offers[i] == offers[1..][i - 1];
        }
      }
    }
  }

  /** The offers made for one node taken from the queue, in the source's order: one step to each
      neighbour with the same tool (left and up only away from the edges), then the tool change
      at the same position for 7 more. */
  function Offers(kind: (nat, nat) -> nat, x: nat, y: nat, equip: nat, time: nat): seq<Offer>
  {
    (if x > 0 then [Offer(x - 1, y, equip, time + 1)] else [])
    + (if y > 0 then [Offer(x, y - 1, equip, time + 1)] else [])
    + [Offer(x + 1, y, equip, time + 1), Offer(x, y + 1, equip, time + 1),
       Offer(x, y, SwitchEquip(equip, kind(x, y)), time + SwitchCost)]
  }

  /** The expansion of one node taken from the queue. */
  function Expand(f: Finder, kind: (nat, nat) -> nat, x: nat, y: nat, equip: nat, time: nat): (r: Finder)
  {
    AddAll(f, kind, Offers(kind, x, y, equip, time))
  }

  /** After a node at time `time` is expanded, each neighbour holding the same tool and the same
      position holding the third tool are reachable no later than the step costs, and the records
      stay free of forbidden tools. */
  lemma ExpandSpec(f: Finder, kind: (nat, nat) -> nat, x: nat, y: nat, equip: nat, time: nat)
    requires Records(f, kind) && equip < 3 && kind(x, y) < 3 && equip != kind(x, y)
    ensures var r := Expand(f, kind, x, y, equip, time);
      && Records(r, kind) && Below(r, f)
      && (x > 0 ==> AtMost(r, kind, x - 1, y, equip, time + 1))
      && (y > 0 ==> AtMost(r, kind, x, y - 1, equip, time + 1))
      && AtMost(r, kind, x + 1, y, equip, time + 1)
      && AtMost(r, kind, x, y + 1, equip, time + 1)
      && Time(r, x, y, SwitchEquip(equip, kind(x, y))) <= time + SwitchCost
  {
    var os := Offers(kind, x, y, equip, time);
    AddAllSpec(f, kind, os);
    SwitchEquipThird(equip, kind(x, y));
    var n := |os|;
    assert os[n - 1] == Offer(x, y, SwitchEquip(equip, kind(x, y)), time + SwitchCost);
    assert os[n - 2] == Offer(x, y + 1, equip, time + 1);
    assert os[n - 3] == Offer(x + 1, y, equip, time + 1);
    assert y > 0 ==> os[n - 4] == Offer(x, y - 1, equip, time + 1);
    assert x > 0 ==> os[0] == Offer(x - 1, y, equip, time + 1);
  }
}

=== FILE: day23.dfy ===
/** Day 23: nanobots with a position and a signal radius. The bots in range of the strongest are
    counted, and the pairwise-intersecting groups of bots are searched for the largest, whose
    common region is measured in the rotated coordinates where a ball is a box. */
module Day23 {
  import opened Common

  const I32Min: int := -0x8000_0000
  const I32Max: int := 0x7fff_ffff

  datatype Bot = Bot(x: int, y: int, z: int, r: nat)

  /** `Bot::dist`: the Manhattan distance from the bot to `(x, y, z)`. */
  function Dist(b: Bot, x: int, y: int, z: int): nat
  {
    Abs(x - b.x) + Abs(y - b.y) + Abs(z - b.z)
  }

  /** `Bot::in_range`. */
  predicate InRange(b: Bot, x: int, y: int, z: int)
  {
    Dist(b, x, y, z) <= b.r
  }

  /** The distance is symmetric, zero from a bot to its own position, and obeys the triangle
      inequality. */
  lemma DistFacts(a: Bot, b: Bot, x: int, y: int, z: int)
    ensures Dist(a, b.x, b.y, b.z) == Dist(b, a.x, a.y, a.z)
    ensures Dist(a, a.x, a.y, a.z) == 0
    ensures Dist(a, b.x, b.y, b.z) <= Dist(a, x, y, z) + Dist(b, x, y, z)
  {
  }

  /** A line as the regular expression of `parse_input` sees it: its text, and the bot when it
      matches. */
  datatype Line = Line(text: string, caps: Option<Bot>)

  /** `parse_input`: a bot per line; the first line that does not match is an error naming it,
      and so is an input without bots. */
  function ParseInput(lines: seq<Line>): (r: Result<seq<Bot>>)
    ensures r.Ok? <==> |lines| > 0 && forall i :: 0 <= i < |lines| ==> lines[i].caps.Some?
    ensures r.Ok? ==> |r.value| == |lines| && forall i :: 0 <= i < |lines| ==> r.value[i] == lines[i].caps.value
    ensures r.Err? && |lines| > 0 ==> exists i :: (0 <= i < |lines| && lines[i].caps.None?
      && (forall j :: 0 <= j < i ==> lines[j].caps.Some?)
      && r.msg == "Failed to parse line: " + lines[i].text)
  {
    var bots :- ParseLines(lines);
    if |bots| == 0 then Err("No bots found in input") else Ok(bots)
  }

  function ParseLines(lines: seq<Line>): (r: Result<seq<Bot>>)
    ensures r.Ok? <==> forall i :: 0 <= i < |lines| ==> lines[i].caps.Some?
    ensures r.Ok? ==> |r.value| == |lines| && forall i :: 0 <= i < |lines| ==> r.value[i] == lines[i].caps.value
    ensures r.Err? ==> exists i :: (0 <= i < |lines| && lines[i].caps.None?
      && (forall j :: 0 <= j < i ==> lines[j].caps.Some?)
      && r.msg == "Failed to parse line: " + lines[i].text)
    decreases |lines|, 1
  {
    if |lines| == 0 then Ok([])
    else if lines[0].caps.None? then Err("Failed to parse line: " + lines[0].text)
    else
      var rest :- ParseLinesTail(lines);
      Ok([lines[0].caps.value] + rest)
  }

  /** The lines after the first, parsed; indices shifted back to `lines`. */
  function ParseLinesTail(lines: seq<Line>): (r: Result<seq<Bot>>)
    requires |lines| > 0
    ensures r.Ok? <==> forall i :: 1 <= i < |lines| ==> lines[i].caps.Some?
    ensures r.Ok? ==> |r.value| == |lines| - 1 && forall i :: 1 <= i < |lines| ==> r.value[i - 1] == lines[i].caps.value
    ensures r.Err? ==> exists i :: (1 <= i < |lines| && lines[i].caps.None?
      && (forall j :: 1 <= j < i ==> lines[j].caps.Some?)
      && r.msg == "Failed to parse line: " + lines[i].text)
    decreases |lines|, 0
  {
    var tail := lines[1..];
    var r := ParseLines(tail);
    assert forall i :: 1 <= i < |lines| ==> lines[i] == tail[i - 1];
    if r.Err? then
      var k :| 0 <= k < |tail| && tail[k].caps.None? && (forall j :: 0 <= j < k ==> tail[j].caps.Some?)
        && r.msg == "Failed to parse line: " + tail[k].text;
      assert lines[k + 1] == tail[k];
      r
    else r
  }

  /** `max_by_key` on the radius: the last bot among those of largest radius. */
  function Strongest(bots: seq<Bot>): (i: nat)
    requires |bots| > 0
    ensures i < |bots|
    ensures forall j :: 0 <= j < |bots| ==> bots[j].r <= bots[i].r
    ensures forall j :: i < j < |bots| ==> bots[j].r < bots[i].r
    decreases |bots|
  {
    if |bots| == 1 then 0
    else
      var i := Strongest(bots[..|bots| - 1]);
      assert forall j :: 0 <= j < |bots| - 1 ==> bots[..|bots| - 1][j] == bots[j];
      if bots[|bots| - 1].r >= bots[i].r then |bots| - 1 else i
  }

  /** The number of bots among `bots` whose position the bot `s` reaches. */
  function CountInRange(s: Bot, bots: seq<Bot>): (n: nat)
    ensures n <= |bots|
  {
    if |bots| == 0 then 0
    else CountInRange(s, bots[..|bots| - 1]) + if InRange(s, bots[|bots| - 1].x, bots[|bots| - 1].y, bots[|bots| - 1].z) then 1 else 0
  }

  /** A bot counted is one the reference set holds: the positions in reach of `s`. */
  lemma {:induction false} CountInRangeSet(s: Bot, bots: seq<Bot>)
    ensures CountInRange(s, bots) == |set i | 0 <= i < |bots| && InRange(s, bots[i].x, bots[i].y, bots[i].z)|
  {
    if |bots| > 0 {
      var n := |bots| - 1;
      CountInRangeSet(s, bots[..n]);
      var a := set i | 0 <= i < n && InRange(s, bots[..n][i].x, bots[..n][i].y, bots[..n][i].z);
      var b := set i | 0 <= i < |bots| && InRange(s, bots[i].x, bots[i].y, bots[i].z);
      assert forall i :: 0 <= i < n ==> bots[..n][i] == bots[i];
      if InRange(s, bots[n].x, bots[n].y, bots[n].z) {
        assert b == a + {n};
      } else {
        assert b == a;
      }
    }
  }

  /** A bot counted once in reach of a member reaches it. */
  lemma {:induction false} CountInRangeMember(s: Bot, bots: seq<Bot>, k: nat)
    requires k < |bots| && InRange(s, bots[k].x, bots[k].y, bots[k].z)
    ensures CountInRange(s, bots) >= 1
  {
    var n := |bots| - 1;
    if k < n {
      assert bots[..n][k] == bots[k];
      CountInRangeMember(s, bots[..n], k);
    }
  }

  /** `num_in_range_of_strongest`: the strongest bot counts itself, at distance 0. */
  function NumInRangeOfStrongest(bots: seq<Bot>): (n: nat)
    requires |bots| > 0
    ensures 1 <= n <= |bots|
    ensures n == |set i | 0 <= i < |bots| && InRange(bots[Strongest(bots)], bots[i].x, bots[i].y, bots[i].z)|
  {
    var s := bots[Strongest(bots)];
    DistFacts(s, s, 0, 0, 0);
    CountInRangeMember(s, bots, Strongest(bots));
    CountInRangeSet(s, bots);
    CountInRange(s, bots)
  }

  /** The test of `intersect_bots`' matrix: the distance below the sum of the radii. Two balls
      exactly touching are not marked. */
  predicate Intersects(a: Bot, b: Bot)
  {
    Dist(a, b.x, b.y, b.z) < a.r + b.r
  }

  /** The matrix `intersect_bots` fills. */
  function Matrix(bots: seq<Bot>): (m: seq<seq<bool>>)
  {
    seq(|bots|, i requires 0 <= i < |bots| => seq(|bots|, j requires 0 <= j < |bots| => Intersects(bots[i], bots[j])))
  }

  /** The matrix is symmetric, and its diagonal holds exactly the bots with a positive radius. */
  lemma MatrixSymmetric(bots: seq<Bot>)
    ensures var m := Matrix(bots);
      forall i, j :: 0 <= i < |bots| && 0 <= j < |bots| ==> m[i][j] == m[j][i]
    ensures var m := Matrix(bots);
      forall i :: 0 <= i < |bots| ==> (m[i][i] <==> bots[i].r > 0)
  {
    forall i, j | 0 <= i < |bots| && 0 <= j < |bots|
      ensures Intersects(bots[i], bots[j]) == Intersects(bots[j], bots[i])
    {
      DistFacts(bots[i], bots[j], 0, 0, 0);
    }
  }

  /** A half-open interval `[min, max)`. */
  datatype Interval = Interval(min: int, max: int)

  predicate Holds(iv: Interval, v: int)
  {
    iv.min <= v < iv.max
  }

  predicate Nonempty(iv: Interval)
  {
    iv.max > iv.min
  }

  /** `Box4d`: an interval on each of the four rotated axes. */
  datatype Box4d = Box4d(a: Interval, b: Interval, c: Interval, d: Interval)

  function Axis(bx: Box4d, k: nat): Interval
    requires k < 4
  {
    if k == 0 then bx.a else if k == 1 then bx.b else if k == 2 then bx.c else bx.d
  }

  /** A point of the rotated space. */
  datatype Point4 = Point4(a: int, b: int, c: int, d: int)

  function Coord(p: Point4, k: nat): int
    requires k < 4
  {
    if k == 0 then p.a else if k == 1 then p.b else if k == 2 then p.c else p.d
  }

  predicate InBox(bx: Box4d, p: Point4)
  {
    forall k :: 0 <= k < 4 ==> Holds(Axis(bx, k), Coord(p, k))
  }

  /** `Box4d::all`: the whole `i32` range on each axis. */
  function All(): Box4d
  {
    Box4d(Interval(I32Min, I32Max), Interval(I32Min, I32Max), Interval(I32Min, I32Max), Interval(I32Min, I32Max))
  }

  function Meet(p: Interval, q: Interval): Interval
  {
    Interval(Max(p.min, q.min), Min(p.max, q.max))
  }

  /** `Box4d::intersect`: the larger minimum and the smaller maximum on every axis, or None when
      an axis is left empty. */
  function Intersect(s: Box4d, o: Box4d): (r: Option<Box4d>)
    ensures r.Some? <==> forall k :: 0 <= k < 4 ==> Nonempty(Meet(Axis(s, k), Axis(o, k)))
    ensures r.Some? ==> forall k :: 0 <= k < 4 ==> Axis(r.value, k) == Meet(Axis(s, k), Axis(o, k))
  {
    var n := Box4d(Meet(s.a, o.a), Meet(s.b, o.b), Meet(s.c, o.c), Meet(s.d, o.d));
    assert Axis(n, 0) == Meet(Axis(s, 0), Axis(o, 0)) && Axis(n, 1) == Meet(Axis(s, 1), Axis(o, 1));
    assert Axis(n, 2) == Meet(Axis(s, 2), Axis(o, 2)) && Axis(n, 3) == Meet(Axis(s, 3), Axis(o, 3));
    if Nonempty(n.a) && Nonempty(n.b) && Nonempty(n.c) && Nonempty(n.d) then Some(n) else None
  }

  /** The intersection holds exactly the points both boxes hold, and is None only when no point
      of the rotated space lies in both. */
  lemma IntersectPoints(s: Box4d, o: Box4d, p: Point4)
    ensures Intersect(s, o).Some? ==> (InBox(Intersect(s, o).value, p) <==> InBox(s, p) && InBox(o, p))
    ensures Intersect(s, o).None? ==> !(InBox(s, p) && InBox(o, p))
  {
    forall k | 0 <= k < 4
      ensures Holds(Meet(Axis(s, k), Axis(o, k)), Coord(p, k)) <==> Holds(Axis(s, k), Coord(p, k)) && Holds(Axis(o, k), Coord(p, k))
      ensures Holds(Axis(s, k), Coord(p, k)) && Holds(Axis(o, k), Coord(p, k)) ==> Nonempty(Meet(Axis(s, k), Axis(o, k)))
    {
    }
  }

  /** The rotated coordinates of `(x, y, z)`. */
  function Rotate(x: int, y: int, z: int): Point4
  {
    Point4(x + y + z, x + y - z, x - y + z, x - y - z)
  }

  /** `bot_to_box`: the interval `[c - r, c + r + 1)` around each rotated coordinate. */
  function BotToBox(b: Bot): Box4d
  {
    var p := Rotate(b.x, b.y, b.z);
    Box4d(Interval(p.a - b.r, p.a + b.r + 1), Interval(p.b - b.r, p.b + b.r + 1),
          Interval(p.c - b.r, p.c + b.r + 1), Interval(p.d - b.r, p.d + b.r + 1))
  }

  /** The Manhattan length is the largest of the four rotated lengths. */
  lemma RotatedLength(dx: int, dy: int, dz: int)
    ensures Abs(dx) + Abs(dy) + Abs(dz) == Max(Abs(dx + dy + dz), Max(Abs(dx + dy - dz), Max(Abs(dx - dy + dz), Abs(dx - dy - dz))))
  {
    if dx >= 0 {
      if dy >= 0 {
        if dz >= 0 { assert Abs(dx + dy + dz) == Abs(dx) + Abs(dy) + Abs(dz); }
        else { assert Abs(dx + dy - dz) == Abs(dx) + Abs(dy) + Abs(dz); }
      } else {
        if dz >= 0 { assert Abs(dx - dy + dz) == Abs(dx) + Abs(dy) + Abs(dz); }
        else { assert Abs(dx - dy - dz) == Abs(dx) + Abs(dy) + Abs(dz); }
      }
    } else {
      if dy >= 0 {
        if dz >= 0 { assert Abs(dx - dy - dz) == Abs(dx) + Abs(dy) + Abs(dz); }
        else { assert Abs(dx - dy + dz) == Abs(dx) + Abs(dy) + Abs(dz); }
      } else {
        if dz >= 0 { assert Abs(dx + dy - dz) == Abs(dx) + Abs(dy) + Abs(dz); }
        else { assert Abs(dx + dy + dz) == Abs(dx) + Abs(dy) + Abs(dz); }
      }
    }
  }

  /** `InBox` spelled out axis by axis. */
  lemma InBoxAxes(bx: Box4d, p: Point4)
    ensures InBox(bx, p) <==> Holds(bx.a, p.a) && Holds(bx.b, p.b) && Holds(bx.c, p.c) && Holds(bx.d, p.d)
  {
    assert Axis(bx, 0) == bx.a && Axis(bx, 1) == bx.b && Axis(bx, 2) == bx.c && Axis(bx, 3) == bx.d;
    assert Coord(p, 0) == p.a && Coord(p, 1) == p.b && Coord(p, 2) == p.c && Coord(p, 3) == p.d;
  }

  /** The interval around `c` holds `v` exactly when `v` is within `r` of `c`. */
  lemma HoldsWithin(c: int, r: nat, v: int)
    ensures Holds(Interval(c - r, c + r + 1), v) <==> Abs(v - c) <= r
  {
  }

  /** A point is in range of a bot exactly when its rotated point lies in the bot's box. */
  lemma BotToBoxRange(b: Bot, x: int, y: int, z: int)
    ensures InRange(b, x, y, z) <==> InBox(BotToBox(b), Rotate(x, y, z))
  {
    var dx, dy, dz := x - b.x, y - b.y, z - b.z;
    BoxWithin(b, x, y, z);
    RotatedLength(dx, dy, dz);
    Max4AtMost(Abs(dx + dy + dz), Abs(dx + dy - dz), Abs(dx - dy + dz), Abs(dx - dy - dz), b.r);
  }

  /** The box of a bot holds a rotated point exactly when each rotated offset is within the
      radius. */
  lemma BoxWithin(b: Bot, x: int, y: int, z: int)
    ensures var dx, dy, dz := x - b.x, y - b.y, z - b.z;
      InBox(BotToBox(b), Rotate(x, y, z)) <==>
      Abs(dx + dy + dz) <= b.r && Abs(dx + dy - dz) <= b.r && Abs(dx - dy + dz) <= b.r && Abs(dx - dy - dz) <= b.r
  {
    var bx, p, c := BotToBox(b), Rotate(x, y, z), Rotate(b.x, b.y, b.z);
    InBoxAxes(bx, p);
    HoldsWithin(c.a, b.r, p.a);
    HoldsWithin(c.b, b.r, p.b);
    HoldsWithin(c.c, b.r, p.c);
    HoldsWithin(c.d, b.r, p.d);
  }

  lemma Max4AtMost(p: int, q: int, u: int, v: int, r: int)
    ensures Max(p, Max(q, Max(u, v))) <= r <==> p <= r && q <= r && u <= r && v <= r
  {
  }

  /** Two bots the matrix marks have boxes that meet on every axis. */
  lemma IntersectsBoxes(p: Bot, q: Bot, k: nat)
    requires Intersects(p, q) && k < 4
    ensures Axis(BotToBox(p), k).min < Axis(BotToBox(q), k).max
  {
    RotatedLength(q.x - p.x, q.y - p.y, q.z - p.z);
  }

  /** The inner `dist` of `add_to_set`: 0 when the interval spans 0, else the smaller of the two
      ends' absolute values. */
  function EndDist(min: int, max: int): (r: nat)
  {
    if min < 0 && max > 0 then 0 else Min(Abs(min), Abs(max))
  }

  /** For `min <= max`, `EndDist` is the smallest absolute value in the closed interval
      `[min, max]`. The boxes are half-open, so for a box lying below 0 the end `max` itself is
      not in it. */
  lemma EndDistNearest(min: int, max: int)
    requires min <= max
    ensures exists v :: min <= v <= max && Abs(v) == EndDist(min, max)
    ensures forall v :: min <= v <= max ==> Abs(v) >= EndDist(min, max)
  {
    if min < 0 && max > 0 {
      assert min <= 0 <= max && Abs(0) == 0;
    } else if Abs(min) <= Abs(max) {
      assert Abs(min) == EndDist(min, max);
    } else {
      assert Abs(max) == EndDist(min, max);
    }
  }

  /** The measure `add_to_set` records for a box: the largest `EndDist` over the four axes. */
  function BoxDist(bx: Box4d): (r: nat)
    ensures forall k :: 0 <= k < 4 ==> EndDist(Axis(bx, k).min, Axis(bx, k).max) <= r
    ensures exists k :: 0 <= k < 4 && EndDist(Axis(bx, k).min, Axis(bx, k).max) == r
  {
    var r := Max(EndDist(bx.a.min, bx.a.max), Max(EndDist(bx.b.min, bx.b.max),
             Max(EndDist(bx.c.min, bx.c.max), EndDist(bx.d.min, bx.d.max))));
    assert EndDist(Axis(bx, 0).min, Axis(bx, 0).max) <= r;
    assert EndDist(Axis(bx, 1).min, Axis(bx, 1).max) <= r;
    assert EndDist(Axis(bx, 2).min, Axis(bx, 2).max) <= r;
    assert EndDist(Axis(bx, 3).min, Axis(bx, 3).max) <= r;
    r
  }

  /** Every bot's box lies in the `i32` range, as `bot_to_box` needs to compute it without
      overflow. */
  predicate InI32(bots: seq<Bot>)
  {
    forall i :: 0 <= i < |bots| ==> BoxInI32(BotToBox(bots[i]))
  }

  predicate BoxInI32(bx: Box4d)
  {
    I32Min <= bx.a.min && bx.a.max <= I32Max && I32Min <= bx.b.min && bx.b.max <= I32Max
    && I32Min <= bx.c.min && bx.c.max <= I32Max && I32Min <= bx.d.min && bx.d.max <= I32Max
  }

  /** The marked bots of `set`: every two of them with the first below `start` intersect. */
  ghost predicate Clique(bots: seq<Bot>, marks: seq<bool>, start: nat)
    requires |marks| == |bots|
  {
    forall j, k :: 0 <= j < k < |marks| && j < start && marks[j] && marks[k] ==> Intersects(bots[j], bots[k])
  }

  /** The number of marked bots. */
  function Count(marks: seq<bool>): (n: nat)
    ensures n <= |marks|
  {
    if |marks| == 0 then 0 else Count(marks[..|marks| - 1]) + if marks[|marks| - 1] then 1 else 0
  }

  /** The box of the bots marked among the first `n`, from `Box4d::all`, meeting one bot's box
      at a time; None where the source's `unwrap` would panic. */
  function FoldBox(bots: seq<Bot>, marks: seq<bool>, n: nat): Option<Box4d>
    requires |marks| == |bots| && n <= |marks|
  {
    if n == 0 then Some(All())
    else
      var b :- FoldBox(bots, marks, n - 1);
      if marks[n - 1] then Intersect(b, BotToBox(bots[n - 1])) else Some(b)
  }

  /** The bound the fold keeps: on every axis the box is non-empty, and its minimum is below the
      maximum, and its maximum above the minimum, of every marked bot's box. */
  ghost predicate Apart(bots: seq<Bot>, marks: seq<bool>, bx: Box4d)
    requires |marks| == |bots|
  {
    forall k, i :: 0 <= k < 4 && 0 <= i < |marks| && marks[i] ==>
      Axis(bx, k).min < Axis(BotToBox(bots[i]), k).max && Axis(BotToBox(bots[i]), k).min < Axis(bx, k).max
  }

  /** Boxes that meet pairwise meet all together: the fold never hits an empty axis when every
      two marked bots intersect. */
  lemma {:induction false} FoldBoxSome(bots: seq<Bot>, marks: seq<bool>, n: nat)
    requires |marks| == |bots| && n <= |marks| && InI32(bots)
    requires forall j, k :: 0 <= j < k < |marks| && marks[j] && marks[k] ==> Intersects(bots[j], bots[k])
    ensures FoldBox(bots, marks, n).Some?
    ensures forall k :: 0 <= k < 4 ==> Nonempty(Axis(FoldBox(bots, marks, n).value, k))
    ensures Apart(bots, marks, FoldBox(bots, marks, n).value)
  {
    if n == 0 {
      forall k, i | 0 <= k < 4 && 0 <= i < |marks| && marks[i]
        ensures Axis(All(), k).min < Axis(BotToBox(bots[i]), k).max
        ensures Axis(BotToBox(bots[i]), k).min < Axis(All(), k).max
      {
        assert BoxInI32(BotToBox(bots[i]));
      }
    } else {
      FoldBoxSome(bots, marks, n - 1);
      var b := FoldBox(bots, marks, n - 1).value;
      if marks[n - 1] {
        FoldStep(bots, marks, b, n - 1);
      }
    }
  }

  /** One step of the fold keeps `Apart` and a non-empty box. */
  lemma FoldStep(bots: seq<Bot>, marks: seq<bool>, b: Box4d, m: nat)
    requires |marks| == |bots| && m < |marks| && marks[m]
    requires forall j, k :: 0 <= j < k < |marks| && marks[j] && marks[k] ==> Intersects(bots[j], bots[k])
    requires Apart(bots, marks, b) && forall k :: 0 <= k < 4 ==> Nonempty(Axis(b, k))
    ensures Intersect(b, BotToBox(bots[m])).Some?
    ensures forall k :: 0 <= k < 4 ==> Nonempty(Axis(Intersect(b, BotToBox(bots[m])).value, k))
    ensures Apart(bots, marks, Intersect(b, BotToBox(bots[m])).value)
  {
    var q := BotToBox(bots[m]);
    forall k, i | 0 <= k < 4 && 0 <= i < |marks| && marks[i]
      ensures Axis(q, k).min < Axis(BotToBox(bots[i]), k).max
      ensures Axis(BotToBox(bots[i]), k).min < Axis(q, k).max
    {
      if i < m {
        IntersectsBoxes(bots[m], bots[i], k);
        IntersectsBoxes(bots[i], bots[m], k);
        DistFacts(bots[i], bots[m], 0, 0, 0);
      } else if i > m {
        IntersectsBoxes(bots[m], bots[i], k);
        IntersectsBoxes(bots[i], bots[m], k);
        DistFacts(bots[i], bots[m], 0, 0, 0);
      }
    }
    forall k | 0 <= k < 4
      ensures Nonempty(Meet(Axis(b, k), Axis(q, k)))
    {
      assert Axis(b, k).min < Axis(q, k).max && Axis(q, k).min < Axis(b, k).max;
    }
  }

  /** The search's two results, `max_size` and `closest_max`. */
  datatype Best = Best(maxSize: nat, closest: int)

  /** What the search has found so far: nothing yet, or a group of pairwise-intersecting bots of
      `maxSize` members whose box measures `closest`. */
  ghost predicate Found(bots: seq<Bot>, best: Best)
    requires InI32(bots)
  {
    best == Best(0, I32Max)
    || exists marks: seq<bool> :: |marks| == |bots| && Group(bots, marks)
         && Count(marks) == best.maxSize && best.closest == GroupDist(bots, marks)
  }

  /** Every two marked bots intersect. */
  ghost predicate Group(bots: seq<Bot>, marks: seq<bool>)
    requires |marks| == |bots|
  {
    forall j, k :: 0 <= j < k < |marks| && marks[j] && marks[k] ==> Intersects(bots[j], bots[k])
  }

  /** The measure of a group's common box. */
  function GroupDist(bots: seq<Bot>, marks: seq<bool>): nat
    requires |marks| == |bots| && InI32(bots) && Group(bots, marks)
  {
    FoldBoxSome(bots, marks, |marks|);
    BoxDist(FoldBox(bots, marks, |marks|).value)
  }

  /** `set` with every bot after `i` that does not intersect bot `i` unmarked. */
  function Filter(bots: seq<Bot>, marks: seq<bool>, i: nat): (r: seq<bool>)
    requires |marks| == |bots|
    ensures |r| == |marks|
  {
    seq(|marks|, j requires 0 <= j < |marks| => marks[j] && (j <= i || Intersects(bots[i], bots[j])))
  }

  /** `add_to_set`: the loop over the marked bots from `start`, trying each with the bots after
      it that intersect it, and at the end of the loop recording the group when it is at least as
      large as the best. */
  function AddToSet(bots: seq<Bot>, marks: seq<bool>, start: nat, best: Best): (r: Best)
    requires |marks| == |bots| && start <= |marks| && InI32(bots) && Clique(bots, marks, start)
    requires Found(bots, best)
    ensures Found(bots, r) && r.maxSize >= best.maxSize
    decreases |marks| - start, 1
  {
    Scan(bots, marks, start, start, false, best)
  }

  /** The loop of `add_to_set` from index `i`; `size` is the count of `set`, and `any` whether a
      marked bot was tried. */
  function Scan(bots: seq<Bot>, marks: seq<bool>, start: nat, i: nat, any: bool, best: Best): (r: Best)
    requires |marks| == |bots| && start <= i <= |marks| && InI32(bots) && Clique(bots, marks, start)
    requires forall j :: start <= j < i ==> !marks[j]
    requires Found(bots, best)
    ensures Found(bots, r) && r.maxSize >= best.maxSize
    decreases |marks| - i, 0
  {
    var size := Count(marks);
    if i == |marks| then
      if !any && size >= best.maxSize then
        LeafGroup(bots, marks, start);
        Best(size, GroupDist(bots, marks))
      else best
    else if size < best.maxSize then best
    else if !marks[i] then Scan(bots, marks, start, i + 1, any, best)
    else
      var next := Filter(bots, marks, i);
      FilterClique(bots, marks, start, i);
      var best' := AddToSet(bots, next, i + 1, best);
      ClearClique(bots, marks, start, i);
      Scan(bots, marks[i := false], start, i + 1, true, best')
  }

  /** At the end of the loop every marked bot lies below `start`, so the marked bots form a
      group. */
  lemma LeafGroup(bots: seq<Bot>, marks: seq<bool>, start: nat)
    requires |marks| == |bots| && start <= |marks| && Clique(bots, marks, start)
    requires forall j :: start <= j < |marks| ==> !marks[j]
    ensures Group(bots, marks)
  {
  }

  /** Filtering by bot `i` (marked, past every unmarked index from `start`) leaves a clique up
      to `i + 1`. */
  lemma FilterClique(bots: seq<Bot>, marks: seq<bool>, start: nat, i: nat)
    requires |marks| == |bots| && start <= i < |marks| && Clique(bots, marks, start)
    requires forall j :: start <= j < i ==> !marks[j]
    ensures Clique(bots, Filter(bots, marks, i), i + 1)
  {
  }

  /** Unmarking bot `i` keeps the clique and the unmarked run. */
  lemma ClearClique(bots: seq<Bot>, marks: seq<bool>, start: nat, i: nat)
    requires |marks| == |bots| && start <= i < |marks| && Clique(bots, marks, start)
    requires forall j :: start <= j < i ==> !marks[j]
    ensures Clique(bots, marks[i := false], start)
  {
  }

  /** The row of bot `i` from `i` on: the bots it intersects. */
  function Row(bots: seq<Bot>, i: nat): (r: seq<bool>)
    requires i < |bots|
    ensures |r| == |bots|
  {
    seq(|bots|, j requires 0 <= j < |bots| => j >= i && Intersects(bots[i], bots[j]))
  }

  /** The row is a clique up to `i + 1`: each bot it marks intersects bot `i`. */
  lemma RowClique(bots: seq<Bot>, i: nat)
    requires i < |bots|
    ensures Clique(bots, Row(bots, i), i + 1)
  {
  }

  /** `intersect_bots`: a search from each bot in turn; the answer is the measure of the last
      group found of the largest size, `i32::MAX` when there is none. */
  method IntersectBots(bots: seq<Bot>) returns (closest: int)
    requires InI32(bots)
    ensures closest == I32Max || exists marks: seq<bool> :: |marks| == |bots| && Group(bots, marks) && closest == GroupDist(bots, marks)
  {
    var best := Best(0, I32Max);
    var i := 0;
    while i < |bots|
      invariant i <= |bots| && Found(bots, best)
    {
      var marks := Row(bots, i);
      RowClique(bots, i);
      best := AddToSet(bots, marks, i + 1, best);
      i := i + 1;
    }
    closest := best.closest;
  }

  /** `run`: the count in range of the strongest bot, and the measure of the largest group. */
  method Solve(lines: seq<Line>) returns (r: Result<(nat, int)>)
    requires forall i :: 0 <= i < |lines| && lines[i].caps.Some? ==> BoxInI32(BotToBox(lines[i].caps.value))
    ensures r.Err? <==> ParseInput(lines).Err?
    ensures r.Err? ==> r.msg == ParseInput(lines).msg
    ensures r.Ok? ==> var bots := ParseInput(lines).value;
      && r.value.0 == NumInRangeOfStrongest(bots)
      && (r.value.1 == I32Max || exists marks: seq<bool> :: |marks| == |bots| && Group(bots, marks) && r.value.1 == GroupDist(bots, marks))
  {
    var parsed := ParseInput(lines);
    if parsed.Err? {
      return Err(parsed.msg);
    }
    var bots := parsed.value;
    var closest := IntersectBots(bots);
    r := Ok((NumInRangeOfStrongest(bots), closest));
  }
}

=== FILE: day24.dfy ===
/** Day 24: the immune system against the infection. Groups choose targets in order of
    effective power, attack in order of initiative, and lose whole units to the damage; a boost
    to the immune system's attack is searched for by doubling and bisection. */
module Day24 {
  import opened Common
  import Text

  datatype Group = Group(numUnits: nat, hp: nat, weakness: set<string>, immunity: set<string>,
                         dp: nat, damageType: string, initiative: nat)

  datatype GameState = GameState(immune: seq<Group>, infection: seq<Group>)

  /** `Group::ep`: the effective power. */
  function Ep(g: Group): nat
  {
    g.numUnits * g.dp
  }

  /** `damage`: nothing to an immune defender, double to a weak one, else the effective power. */
  function Damage(a: Group, d: Group): (r: nat)
    ensures r <= 2 * Ep(a)
    ensures r > 0 <==> a.damageType !in d.immunity && Ep(a) > 0
    ensures a.damageType in d.immunity ==> r == 0
    ensures a.damageType !in d.immunity ==> r == Ep(a) || r == 2 * Ep(a)
  {
    if a.damageType in d.immunity then 0
    else if a.damageType in d.weakness then Ep(a) * 2
    else Ep(a)
  }

  /** Immunity wins over weakness: a defender both weak and immune to a type takes nothing. */
  lemma ImmunityFirst(a: Group, d: Group)
    requires a.damageType in d.weakness && a.damageType in d.immunity
    ensures Damage(a, d) == 0
  {
  }

  /** `attack`: the defender loses `damage / hp` units, down to 0 at least; nothing else of it
      changes. */
  function Attack(a: Group, d: Group): (r: Group)
    requires d.hp > 0
    ensures r == d.(numUnits := r.numUnits) && r.numUnits <= d.numUnits
    ensures Damage(a, d) == 0 ==> r == d
    ensures r.numUnits == 0 <==> Damage(a, d) / d.hp >= d.numUnits
    ensures r.numUnits > 0 ==> (d.numUnits - r.numUnits) * d.hp <= Damage(a, d) < (d.numUnits - r.numUnits + 1) * d.hp
  {
    var dmg := Damage(a, d);
    if dmg > 0 then
      var kills := dmg / d.hp;
      d.(numUnits := if kills >= d.numUnits then 0 else d.numUnits - kills)
    else d
  }

  /** The two groups of the example: the infection's first group deals 185832 to the immune
      system's first group, weak to bludgeoning, and wipes out its 17 units. */
  lemma ExampleAttack()
    ensures var imm := Group(17, 5390, {"radiation", "bludgeoning"}, {}, 4507, "fire", 2);
      var inf := Group(801, 4706, {"radiation"}, {}, 116, "bludgeoning", 1);
      Damage(inf, imm) == 185832 && Attack(inf, imm).numUnits == 0
  {
    var imm := Group(17, 5390, {"radiation", "bludgeoning"}, {}, 4507, "fire", 2);
    var inf := Group(801, 4706, {"radiation"}, {}, 116, "bludgeoning", 1);
    assert "bludgeoning" !in imm.immunity;
    assert "bludgeoning" in imm.weakness;
  }

  /** `boost`: every immune-system group attacks harder by `b`; the infection is unchanged. */
  function Boost(s: GameState, b: nat): (r: GameState)
    ensures |r.immune| == |s.immune| && r.infection == s.infection
    ensures forall i :: 0 <= i < |s.immune| ==> r.immune[i] == s.immune[i].(dp := s.immune[i].dp + b)
  {
    GameState(seq(|s.immune|, i requires 0 <= i < |s.immune| => s.immune[i].(dp := s.immune[i].dp + b)), s.infection)
  }

  /** Boosts add up, and a zero boost changes nothing. */
  lemma BoostAdds(s: GameState, a: nat, b: nat)
    ensures Boost(Boost(s, a), b) == Boost(s, a + b)
    ensures Boost(s, 0) == s
  {
    assert Boost(Boost(s, a), b).immune == Boost(s, a + b).immune;
    assert Boost(s, 0).immune == s.immune;
  }

  /** A sort key, compared lexicographically. */
  datatype Key = Key(p: int, q: int, s: int)

  predicate KeyLe(a: Key, b: Key)
  {
    a.p < b.p || (a.p == b.p && (a.q < b.q || (a.q == b.q && a.s <= b.s)))
  }

  predicate Indices(idx: seq<nat>, n: nat)
  {
    forall i :: 0 <= i < |idx| ==> idx[i] < n
  }

  /** The position in `idx` of an index of greatest key, the first such. */
  function MaxAt(keys: seq<Key>, idx: seq<nat>): (p: nat)
    requires |idx| > 0 && Indices(idx, |keys|)
    ensures p < |idx|
    ensures forall q :: 0 <= q < |idx| ==> KeyLe(keys[idx[q]], keys[idx[p]])
    decreases |idx|
  {
    if |idx| == 1 then 0
    else
      var front := idx[..|idx| - 1];
      var p := MaxAt(keys, front);
      assert forall q :: 0 <= q < |idx| - 1 ==> front[q] == idx[q];
      if KeyLe(keys[idx[|idx| - 1]], keys[idx[p]]) then p else |idx| - 1
  }

  /** `idx` without its entry at `p`. */
  function Without(idx: seq<nat>, p: nat): (r: seq<nat>)
    requires p < |idx|
    ensures multiset(r) + multiset{idx[p]} == multiset(idx)
    ensures |r| == |idx| - 1
  {
    assert idx == idx[..p] + [idx[p]] + idx[p + 1..];
    idx[..p] + idx[p + 1..]
  }

  /** Every key along `r` is at most the keys before it. */
  predicate Descending(keys: seq<Key>, r: seq<nat>)
    requires Indices(r, |keys|)
  {
    forall i, j :: 0 <= i < j < |r| ==> KeyLe(keys[r[j]], keys[r[i]])
  }

  /** The indices of `idx` sorted by descending key, as `sort_unstable_by` with a descending
      comparison orders them; among equal keys the order is the model's choice. */
  function Ranked(keys: seq<Key>, idx: seq<nat>): (r: seq<nat>)
    requires Indices(idx, |keys|)
    ensures multiset(r) == multiset(idx) && Indices(r, |keys|) && Descending(keys, r)
    decreases |idx|
  {
    if |idx| == 0 then []
    else
      var p := MaxAt(keys, idx);
      var rest := Without(idx, p);
      WithoutIndices(keys, idx, p);
      var tail := Ranked(keys, rest);
      RankedCons(keys, idx, p, tail);
      [idx[p]] + tail
  }

  lemma WithoutIndices(keys: seq<Key>, idx: seq<nat>, p: nat)
    requires p < |idx| && Indices(idx, |keys|)
    ensures Indices(Without(idx, p), |keys|)
  {
    var rest := Without(idx, p);
    forall i | 0 <= i < |rest|
      ensures rest[i] < |keys|
    {
      assert rest[i] in multiset(idx);
    }
  }

  /** The greatest key in front of the sorted rest keeps the order. */
  lemma RankedCons(keys: seq<Key>, idx: seq<nat>, p: nat, tail: seq<nat>)
    requires p < |idx| && Indices(idx, |keys|) && Indices(tail, |keys|)
    requires forall q :: 0 <= q < |idx| ==> KeyLe(keys[idx[q]], keys[idx[p]])
    requires multiset(tail) == multiset(Without(idx, p)) && Descending(keys, tail)
    ensures multiset([idx[p]] + tail) == multiset(idx) && Indices([idx[p]] + tail, |keys|)
    ensures Descending(keys, [idx[p]] + tail)
  {
    var r := [idx[p]] + tail;
    assert multiset(r) == multiset{idx[p]} + multiset(tail);
    forall i, j | 0 <= i < j < |r|
      ensures KeyLe(keys[r[j]], keys[r[i]])
    {
      assert r[j] == tail[j - 1];
      if i == 0 {
        assert r[j] in multiset(idx);
      } else {
        assert r[i] == tail[i - 1];
      }
    }
  }

  /** The indices below `n`, in order. */
  function Upto(n: nat): (r: seq<nat>)
    ensures |r| == n && Indices(r, n)
    ensures forall i :: 0 <= i < n ==> r[i] == i
  {
    if n == 0 then [] else Upto(n - 1) + [n - 1]
  }

  /** The keys by which attackers choose in turn: effective power, then initiative. */
  function PowerKeys(gs: seq<Group>): (keys: seq<Key>)
    ensures |keys| == |gs|
    ensures forall i :: 0 <= i < |gs| ==> keys[i] == Key(Ep(gs[i]), gs[i].initiative, 0)
  {
    if |gs| == 0 then [] else PowerKeys(gs[..|gs| - 1]) + [Key(Ep(gs[|gs| - 1]), gs[|gs| - 1].initiative, 0)]
  }

  /** The keys by which groups attack in turn: initiative alone. */
  function InitiativeKeys(gs: seq<Group>): (keys: seq<Key>)
    ensures |keys| == |gs|
    ensures forall i :: 0 <= i < |gs| ==> keys[i] == Key(gs[i].initiative, 0, 0)
  {
    if |gs| == 0 then [] else InitiativeKeys(gs[..|gs| - 1]) + [Key(gs[|gs| - 1].initiative, 0, 0)]
  }

  /** The order in which `target_selection` lets the attackers choose: by descending effective
      power, then descending initiative. */
  function ChoosingOrder(attackers: seq<Group>): (r: seq<nat>)
    ensures multiset(r) == multiset(Upto(|attackers|)) && Indices(r, |attackers|)
    ensures forall i, j :: 0 <= i < j < |r| ==>
      Ep(attackers[r[j]]) < Ep(attackers[r[i]])
      || (Ep(attackers[r[j]]) == Ep(attackers[r[i]]) && attackers[r[j]].initiative <= attackers[r[i]].initiative)
  {
    var keys := PowerKeys(attackers);
    var r := Ranked(keys, Upto(|attackers|));
    forall i, j | 0 <= i < j < |r|
      ensures Ep(attackers[r[j]]) < Ep(attackers[r[i]])
        || (Ep(attackers[r[j]]) == Ep(attackers[r[i]]) && attackers[r[j]].initiative <= attackers[r[i]].initiative)
    {
      assert KeyLe(keys[r[j]], keys[r[i]]);
    }
    r
  }

  /** How an attacker ranks the defenders: by damage, then effective power, then initiative. */
  function TargetKeys(a: Group, defenders: seq<Group>): (keys: seq<Key>)
    ensures |keys| == |defenders|
    ensures forall d :: 0 <= d < |defenders| ==>
      keys[d] == Key(Damage(a, defenders[d]), Ep(defenders[d]), defenders[d].initiative)
  {
    if |defenders| == 0 then []
    else
      var d := defenders[|defenders| - 1];
      TargetKeys(a, defenders[..|defenders| - 1]) + [Key(Damage(a, d), Ep(d), d.initiative)]
  }

  /** One attacker's choice from the remaining defenders `pool`: None when none of them would
      take damage, else a defender of greatest damage, then effective power, then initiative. */
  function Choose(a: Group, defenders: seq<Group>, pool: seq<nat>): (r: Option<nat>)
    requires Indices(pool, |defenders|)
    ensures r.None? <==> forall k :: 0 <= k < |pool| ==> Damage(a, defenders[pool[k]]) == 0
    ensures r.Some? ==> r.value < |pool| && Damage(a, defenders[pool[r.value]]) > 0
    ensures r.Some? ==> forall k :: 0 <= k < |pool| ==>
      KeyLe(TargetKeys(a, defenders)[pool[k]], TargetKeys(a, defenders)[pool[r.value]])
  {
    if exists k :: 0 <= k < |pool| && Damage(a, defenders[pool[k]]) > 0 then
      var keys := TargetKeys(a, defenders);
      var p := MaxAt(keys, pool);
      var k :| 0 <= k < |pool| && Damage(a, defenders[pool[k]]) > 0;
      assert KeyLe(keys[pool[k]], keys[pool[p]]);
      Some(p)
    else None
  }

  /** A selection: each attacker's target is a defender that takes damage from it, and no
      defender is chosen twice. */
  predicate Selection(attackers: seq<Group>, defenders: seq<Group>, sel: seq<Option<nat>>)
  {
    |sel| == |attackers|
    && (forall i :: 0 <= i < |sel| && sel[i].Some? ==>
          sel[i].value < |defenders| && Damage(attackers[i], defenders[sel[i].value]) > 0)
    && (forall i, j :: 0 <= i < |sel| && 0 <= j < |sel| && i != j && sel[i].Some? && sel[j].Some? ==>
          sel[i].value != sel[j].value)
  }

  predicate Distinct(pool: seq<nat>)
  {
    forall k, l :: 0 <= k < l < |pool| ==> pool[k] != pool[l]
  }

  /** No defender chosen is still in the pool. */
  predicate Fresh(sel: seq<Option<nat>>, pool: seq<nat>)
  {
    forall i :: 0 <= i < |sel| && sel[i].Some? ==> sel[i].value !in pool
  }

  /** The loop of `target_selection` over the attackers in `order`, choosing from `pool`. */
  function SelectTargets(attackers: seq<Group>, defenders: seq<Group>, order: seq<nat>, pool: seq<nat>,
                         sel: seq<Option<nat>>): (r: seq<Option<nat>>)
    requires Indices(order, |attackers|) && Indices(pool, |defenders|) && Distinct(pool)
    requires Selection(attackers, defenders, sel) && Fresh(sel, pool)
    ensures Selection(attackers, defenders, r)
    decreases |order|
  {
    if |order| == 0 then sel
    else
      var a := order[0];
      match Choose(attackers[a], defenders, pool)
      case None => SelectTargets(attackers, defenders, order[1..], pool, sel)
      case Some(p) =>
        SelectStep(attackers, defenders, pool, sel, a, p);
        SelectTargets(attackers, defenders, order[1..], pool[..p] + pool[p + 1..], sel[a := Some(pool[p])])
  }

  /** Taking `pool[p]` for attacker `a` out of the pool keeps the selection's invariants. */
  lemma SelectStep(attackers: seq<Group>, defenders: seq<Group>, pool: seq<nat>, sel: seq<Option<nat>>, a: nat, p: nat)
    requires Indices(pool, |defenders|) && Distinct(pool) && a < |attackers| && p < |pool|
    requires Selection(attackers, defenders, sel) && Fresh(sel, pool)
    requires Damage(attackers[a], defenders[pool[p]]) > 0
    ensures var pool' := pool[..p] + pool[p + 1..];
      var sel' := sel[a := Some(pool[p])];
      Indices(pool', |defenders|) && Distinct(pool') && Selection(attackers, defenders, sel') && Fresh(sel', pool')
  {
    var pool' := pool[..p] + pool[p + 1..];
    assert pool == pool[..p] + [pool[p]] + pool[p + 1..];
    assert forall t :: t in pool' ==> t in pool && t != pool[p];
    forall k, l | 0 <= k < l < |pool'|
      ensures pool'[k] != pool'[l]
    {
      var k0 := if k < p then k else k + 1;
      var l0 := if l < p then l else l + 1;
      assert pool'[k] == pool[k0] && pool'[l] == pool[l0];
    }
  }

  /** No attacker has a target yet. */
  function Nones(n: nat): (r: seq<Option<nat>>)
    ensures |r| == n && forall i :: 0 <= i < n ==> r[i].None?
  {
    if n == 0 then [] else Nones(n - 1) + [None]
  }

  /** `target_selection`: by effective power, each attacker takes its preferred defender among
      those not yet chosen. */
  function TargetSelection(attackers: seq<Group>, defenders: seq<Group>): (r: seq<Option<nat>>)
    ensures Selection(attackers, defenders, r)
  {
    SelectTargets(attackers, defenders, ChoosingOrder(attackers), Upto(|defenders|), Nones(|attackers|))
  }

  /** The attack order of `fight_round` over the groups `gs`, immune system first: every group
      once, by descending initiative. */
  function AttackOrder(gs: seq<Group>): (r: seq<nat>)
    ensures multiset(r) == multiset(Upto(|gs|)) && Indices(r, |gs|)
    ensures forall i, j :: 0 <= i < j < |r| ==> gs[r[j]].initiative <= gs[r[i]].initiative
  {
    var keys := InitiativeKeys(gs);
    var r := Ranked(keys, Upto(|gs|));
    assert forall i, j :: 0 <= i < j < |r| ==> gs[r[j]].initiative <= gs[r[i]].initiative by {
      forall i, j | 0 <= i < j < |r|
        ensures gs[r[j]].initiative <= gs[r[i]].initiative
      {
        assert KeyLe(keys[r[j]], keys[r[i]]);
      }
    }
    r
  }

  /** Every group has positive hit points, as the division in `attack` needs. */
  predicate Valid(s: GameState)
  {
    HpPositive(s.immune) && HpPositive(s.infection)
  }

  predicate HpPositive(gs: seq<Group>)
  {
    forall i :: 0 <= i < |gs| ==> gs[i].hp > 0
  }

  /** Every group has units left. */
  predicate Alive(gs: seq<Group>)
  {
    forall i :: 0 <= i < |gs| ==> gs[i].numUnits > 0
  }

  /** `t` is `s` with some units lost and nothing else changed. */
  predicate Weakened(s: GameState, t: GameState)
  {
    |t.immune| == |s.immune| && |t.infection| == |s.infection|
    && (forall i :: 0 <= i < |s.immune| ==>
          t.immune[i] == s.immune[i].(numUnits := t.immune[i].numUnits) && t.immune[i].numUnits <= s.immune[i].numUnits)
    && (forall i :: 0 <= i < |s.infection| ==>
          t.infection[i] == s.infection[i].(numUnits := t.infection[i].numUnits) && t.infection[i].numUnits <= s.infection[i].numUnits)
  }

  predicate Targets(sel: seq<Option<nat>>, n: nat)
  {
    forall i :: 0 <= i < |sel| && sel[i].Some? ==> sel[i].value < n
  }

  /** The attacks of a round in `order`, each from the attacker's current units. */
  function Attacks(s: GameState, order: seq<nat>, it: seq<Option<nat>>, ft: seq<Option<nat>>): (r: GameState)
    requires Valid(s) && |it| == |s.immune| && |ft| == |s.infection|
    requires Indices(order, |s.immune| + |s.infection|)
    requires Targets(it, |s.infection|) && Targets(ft, |s.immune|)
    ensures Weakened(s, r)
    decreases |order|
  {
    if |order| == 0 then s
    else
      var k := order[0];
      var s' :=
        if k < |s.immune| then
          if it[k].Some? then
            var t := it[k].value;
            s.(infection := s.infection[t := Attack(s.immune[k], s.infection[t])])
          else s
        else
          var i := k - |s.immune|;
          if ft[i].Some? then
            var t := ft[i].value;
            s.(immune := s.immune[t := Attack(s.infection[i], s.immune[t])])
          else s;
      var r := Attacks(s', order[1..], it, ft);
      WeakenedTrans(s, s', r);
      r
  }

  lemma WeakenedTrans(a: GameState, b: GameState, c: GameState)
    requires Weakened(a, b) && Weakened(b, c)
    ensures Weakened(a, c)
  {
  }

  /** The groups with units left, in order (`retain`). */
  function Living(gs: seq<Group>): (r: seq<Group>)
    ensures |r| <= |gs| && Alive(r) && (HpPositive(gs) ==> HpPositive(r))
    ensures forall i :: 0 <= i < |r| ==> r[i] in gs
    ensures forall i :: 0 <= i < |gs| && gs[i].numUnits > 0 ==> gs[i] in r
    ensures Units(r) == Units(gs)
  {
    if |gs| == 0 then []
    else
      var init, last := gs[..|gs| - 1], gs[|gs| - 1];
      assert gs == init + [last];
      var front := Living(init);
      assert HpPositive(gs) ==> HpPositive(init);
      if last.numUnits > 0 then front + [last] else front
  }

  /** The units of the groups, added up. */
  function Units(gs: seq<Group>): nat
  {
    if |gs| == 0 then 0 else Units(gs[..|gs| - 1]) + gs[|gs| - 1].numUnits
  }

  /** Units lost from no group leave the total no larger. */
  lemma {:induction false} UnitsWeakened(gs: seq<Group>, hs: seq<Group>)
    requires |gs| == |hs| && forall i :: 0 <= i < |gs| ==> hs[i].numUnits <= gs[i].numUnits
    ensures Units(hs) <= Units(gs)
  {
    if |gs| > 0 {
      UnitsWeakened(gs[..|gs| - 1], hs[..|hs| - 1]);
    }
  }

  /** `total_num_units`. */
  function Total(s: GameState): nat
  {
    Units(s.immune) + Units(s.infection)
  }

  /** `is_battle_over`. */
  predicate IsBattleOver(s: GameState)
  {
    |s.immune| == 0 || |s.infection| == 0
  }

  /** `has_immune_system_won`. */
  predicate HasImmuneWon(s: GameState)
  {
    |s.infection| == 0
  }

  /** The target selections and attacks of `fight_round`, before the groups without units are
      removed. */
  function Skirmish(s: GameState): (t: GameState)
    requires Valid(s)
    ensures Weakened(s, t)
  {
    var it := TargetSelection(s.immune, s.infection);
    var ft := TargetSelection(s.infection, s.immune);
    SelectionTargets(s.immune, s.infection, it);
    SelectionTargets(s.infection, s.immune, ft);
    Attacks(s, AttackOrder(s.immune + s.infection), it, ft)
  }

  lemma SelectionTargets(attackers: seq<Group>, defenders: seq<Group>, sel: seq<Option<nat>>)
    requires Selection(attackers, defenders, sel)
    ensures |sel| == |attackers| && Targets(sel, |defenders|)
  {
  }

  /** A weakened state has no more units and the same hit points. */
  lemma WeakenedTotal(s: GameState, t: GameState)
    requires Valid(s) && Weakened(s, t)
    ensures Valid(t) && Total(t) <= Total(s)
  {
    UnitsWeakened(s.immune, t.immune);
    UnitsWeakened(s.infection, t.infection);
  }

  /** `fight_round`: both sides choose targets, every group attacks in initiative order, and the
      groups without units are removed. */
  function FightRound(s: GameState): (r: GameState)
    requires Valid(s)
    ensures Valid(r) && Total(r) <= Total(s)
    ensures |r.immune| <= |s.immune| && |r.infection| <= |s.infection|
    ensures Alive(r.immune) && Alive(r.infection)
  {
    var t := Skirmish(s);
    WeakenedTotal(s, t);
    GameState(Living(t.immune), Living(t.infection))
  }

  /** A round as the battle loop sees it: defined on valid states, keeping them valid, and
      never raising the total. `FightRound` is one; the loop is stated for every such round. */
  ghost predicate RoundLike(round: GameState --> GameState)
  {
    forall s :: Valid(s) ==> round.requires(s) && Valid(round(s)) && Total(round(s)) <= Total(s)
  }

  lemma FightRoundLike()
    ensures RoundLike(FightRound)
  {
  }

  /** The state after `k` rounds. */
  function Rounds(round: GameState --> GameState, s: GameState, k: nat): (r: GameState)
    requires RoundLike(round) && Valid(s)
    ensures Valid(r)
  {
    if k == 0 then s else round(Rounds(round, s, k - 1))
  }

  /** The rounds after a first one are the rounds from its result. */
  lemma {:induction false} RoundsShift(round: GameState --> GameState, s: GameState, j: nat)
    requires RoundLike(round) && Valid(s)
    ensures Rounds(round, round(s), j) == Rounds(round, s, j + 1)
  {
    if j > 0 {
      RoundsShift(round, s, j - 1);
    }
  }

  /** The loop of `fight_battle` runs exactly `k` rounds from `s`: before each round the battle
      is on, each round but the last kills some units, and after the last the battle is over or
      that round killed none. */
  ghost predicate BattleRun(round: GameState --> GameState, s: GameState, k: nat)
    requires RoundLike(round) && Valid(s)
  {
    (forall j :: 0 <= j < k ==> !IsBattleOver(Rounds(round, s, j)))
    && (forall j :: 0 <= j < k - 1 ==> Total(Rounds(round, s, j + 1)) < Total(Rounds(round, s, j)))
    && (IsBattleOver(Rounds(round, s, k)) || (k > 0 && Total(Rounds(round, s, k)) == Total(Rounds(round, s, k - 1))))
  }

  /** The loop of `fight_battle` with any round. */
  function Battle(round: GameState --> GameState, s: GameState): (r: GameState)
    requires RoundLike(round) && Valid(s)
    ensures Valid(r) && Total(r) <= Total(s)
    decreases Total(s)
  {
    if IsBattleOver(s) then s
    else
      var t := round(s);
      if Total(t) == Total(s) then t else Battle(round, t)
  }

  /** A run from the state after a killing first round is a run from the state before it,
      one round longer. */
  lemma RunCons(round: GameState --> GameState, s: GameState, k: nat)
    requires RoundLike(round) && Valid(s) && !IsBattleOver(s) && Total(round(s)) < Total(s)
    requires BattleRun(round, round(s), k)
    ensures BattleRun(round, s, k + 1)
  {
    forall j | 0 <= j < k + 1
      ensures !IsBattleOver(Rounds(round, s, j))
    {
      RunOn(round, s, k, j);
    }
    forall j | 0 <= j < k
      ensures Total(Rounds(round, s, j + 1)) < Total(Rounds(round, s, j))
    {
      RunStep(round, s, k, j);
    }
    RunEnd(round, s, k);
  }

  lemma RunOn(round: GameState --> GameState, s: GameState, k: nat, j: nat)
    requires RoundLike(round) && Valid(s) && !IsBattleOver(s)
    requires BattleRun(round, round(s), k) && j < k + 1
    ensures !IsBattleOver(Rounds(round, s, j))
  {
    if j > 0 {
      RoundsShift(round, s, j - 1);
    }
  }

  lemma RunEnd(round: GameState --> GameState, s: GameState, k: nat)
    requires RoundLike(round) && Valid(s) && Total(round(s)) < Total(s)
    requires BattleRun(round, round(s), k)
    ensures IsBattleOver(Rounds(round, s, k + 1)) || Total(Rounds(round, s, k + 1)) == Total(Rounds(round, s, k))
  {
    RoundsShift(round, s, k);
    if k > 0 {
      RoundsShift(round, s, k - 1);
    } else {
      assert Rounds(round, s, 1) == round(s);
    }
  }

  lemma RunStep(round: GameState --> GameState, s: GameState, k: nat, j: nat)
    requires RoundLike(round) && Valid(s) && Total(round(s)) < Total(s)
    requires BattleRun(round, round(s), k) && j < k
    ensures Total(Rounds(round, s, j + 1)) < Total(Rounds(round, s, j))
  {
    var t := round(s);
    RoundsShift(round, s, j);
    if j > 0 {
      RoundsShift(round, s, j - 1);
      var i := j - 1;
      assert Total(Rounds(round, t, i + 1)) < Total(Rounds(round, t, i));
    } else {
      assert Rounds(round, s, 1) == t;
    }
  }

  /** The loop ends after the rounds it runs. */
  lemma {:induction false} BattleRuns(round: GameState --> GameState, s: GameState)
    requires RoundLike(round) && Valid(s)
    ensures exists k: nat :: BattleRun(round, s, k) && Battle(round, s) == Rounds(round, s, k)
    decreases Total(s)
  {
    if IsBattleOver(s) {
      assert BattleRun(round, s, 0) && Battle(round, s) == Rounds(round, s, 0);
    } else {
      var t := round(s);
      assert Rounds(round, s, 1) == t;
      if Total(t) == Total(s) {
        assert BattleRun(round, s, 1);
      } else {
        BattleRuns(round, t);
        var k: nat :| BattleRun(round, t, k) && Battle(round, t) == Rounds(round, t, k);
        RunCons(round, s, k);
        RoundsShift(round, s, k);
      }
    }
  }

  /** `fight_battle`: rounds until one side is empty or a round kills nothing. */
  function FightBattle(s: GameState): (r: GameState)
    requires Valid(s)
    ensures Valid(r) && Total(r) <= Total(s)
  {
    FightRoundLike();
    Battle(FightRound, s)
  }

  /** `fight_battle` runs `fight_round` until the battle is over or a round kills nothing. */
  lemma FightBattleRuns(s: GameState)
    requires Valid(s)
    ensures RoundLike(FightRound)
    ensures exists k: nat :: BattleRun(FightRound, s, k) && FightBattle(s) == Rounds(FightRound, s, k)
  {
    FightRoundLike();
    BattleRuns(FightRound, s);
  }

  /** `test_boost`: the immune system wins the battle with the boost. */
  predicate Wins(s: GameState, b: nat)
    requires Valid(s)
  {
    BoostValid(s, b);
    HasImmuneWon(FightBattle(Boost(s, b)))
  }

  lemma BoostValid(s: GameState, b: nat)
    requires Valid(s)
    ensures Valid(Boost(s, b))
  {
  }

  const U32Max: nat := 0xffff_ffff

  /** The search of `run` for any test: double the boost until it passes, then bisect. The
      answer passes and its predecessor fails (or it is 1); None where the doubling would
      overflow the `u32`, after a failing boost of at least `2^31`. */
  method FindBoost(test: nat -> bool) returns (r: Option<nat>)
    ensures r.Some? ==> 1 <= r.value <= U32Max && test(r.value) && (r.value == 1 || !test(r.value - 1))
    ensures r.None? ==> exists b :: 0x8000_0000 <= b <= U32Max && !test(b)
  {
    var minBoost: nat := 0;
    var maxBoost: nat := 1;
    while !test(maxBoost)
      invariant 1 <= maxBoost <= U32Max
      invariant (minBoost == 0 && maxBoost == 1) || (minBoost > 0 && maxBoost == 2 * minBoost && !test(minBoost))
      decreases U32Max - maxBoost
    {
      if 2 * maxBoost > U32Max {
        return None;
      }
      minBoost := maxBoost;
      maxBoost := 2 * maxBoost;
    }
    while minBoost + 1 < maxBoost
      invariant minBoost < maxBoost <= U32Max && test(maxBoost)
      invariant (minBoost == 0 && maxBoost == 1) || (minBoost > 0 && !test(minBoost))
      decreases maxBoost - minBoost
    {
      var midBoost := (minBoost + maxBoost) / 2;
      if test(midBoost) {
        maxBoost := midBoost;
      } else {
        minBoost := midBoost;
      }
    }
    r := Some(maxBoost);
  }

  /** An attribute clause `weak to …` or `immune to …`, with its comma-separated list. */
  datatype Attr = Attr(weak: bool, list: string)

  /** What the group line's regular expression captures. */
  datatype Caps = Caps(units: nat, hp: nat, attrs: seq<Attr>, dp: nat, damageType: string, initiative: nat)

  /** The trimmed comma-separated items of one clause. */
  function Items(a: Attr): (r: set<string>)
    ensures forall k :: 0 <= k < |Text.Split(a.list, ',')| ==> Text.Trim(Text.Split(a.list, ',')[k]) in r
    ensures forall x :: x in r ==> exists k :: 0 <= k < |Text.Split(a.list, ',')| && Text.Trim(Text.Split(a.list, ',')[k]) == x
  {
    TrimmedAll(Text.Split(a.list, ','))
  }

  /** The trimmed pieces, as a set. */
  function TrimmedAll(pieces: seq<string>): (r: set<string>)
    ensures forall k :: 0 <= k < |pieces| ==> Text.Trim(pieces[k]) in r
    ensures forall x :: x in r ==> exists k :: 0 <= k < |pieces| && Text.Trim(pieces[k]) == x
  {
    var r := set k | 0 <= k < |pieces| :: Text.Trim(pieces[k]);
    assert forall k :: 0 <= k < |pieces| ==> Text.Trim(pieces[k]) in r;
    assert forall x :: x in r ==> exists k :: 0 <= k < |pieces| && Text.Trim(pieces[k]) == x by {
      forall x | x in r
        ensures exists k :: 0 <= k < |pieces| && Text.Trim(pieces[k]) == x
      {
        var k :| 0 <= k < |pieces| && Text.Trim(pieces[k]) == x;
      }
    }
    r
  }

  /** The items of all the `weak` (or all the `immune`) clauses. */
  function AttrItems(attrs: seq<Attr>, weak: bool): (r: set<string>)
    ensures forall x :: x in r <==> exists j :: 0 <= j < |attrs| && attrs[j].weak == weak && x in Items(attrs[j])
  {
    if |attrs| == 0 then {}
    else
      var rest := AttrItems(attrs[1..], weak);
      assert forall j :: 1 <= j < |attrs| ==> attrs[1..][j - 1] == attrs[j];
      (if attrs[0].weak == weak then Items(attrs[0]) else {}) + rest
  }

  /** The group a matched line describes. */
  function BuildGroup(c: Caps): (g: Group)
    ensures g.numUnits == c.units && g.hp == c.hp && g.dp == c.dp && g.initiative == c.initiative
    ensures g.weakness == AttrItems(c.attrs, true) && g.immunity == AttrItems(c.attrs, false)
  {
    Group(c.units, c.hp, AttrItems(c.attrs, true), AttrItems(c.attrs, false), c.dp, c.damageType, c.initiative)
  }

  /** A line, with the captures when the group regular expression matches it. */
  datatype Line = Line(text: string, caps: Option<Caps>)

  predicate IsHeader(l: Line)
  {
    l.text == "Immune System:" || l.text == "Infection:"
  }

  predicate IsGroup(l: Line)
  {
    !IsHeader(l) && l.caps.Some?
  }

  /** A line that is neither a header, nor a group, nor empty. */
  predicate Bad(l: Line)
  {
    !IsHeader(l) && l.caps.None? && l.text != ""
  }

  /** Whether the groups after the first `n` lines belong to the immune system: the last header
      before them says so, the immune system when there is none. */
  function SideAfter(lines: seq<Line>, n: nat): bool
    requires n <= |lines|
  {
    if n == 0 then true
    else if lines[n - 1].text == "Immune System:" then true
    else if lines[n - 1].text == "Infection:" then false
    else SideAfter(lines, n - 1)
  }

  /** The groups of the first `n` lines on one side, in order. */
  function Side(lines: seq<Line>, n: nat, immune: bool): seq<Group>
    requires n <= |lines|
  {
    if n == 0 then []
    else
      Side(lines, n - 1, immune)
      + if IsGroup(lines[n - 1]) && SideAfter(lines, n - 1) == immune then [BuildGroup(lines[n - 1].caps.value)] else []
  }

  /** `GameState::parse`: headers switch sides, group lines join the current side, empty lines
      are skipped, and any other line is an error naming it. */
  method Parse(lines: seq<Line>) returns (r: Result<GameState>)
    ensures r.Ok? <==> forall i :: 0 <= i < |lines| ==> !Bad(lines[i])
    ensures r.Ok? ==> r.value == GameState(Side(lines, |lines|, true), Side(lines, |lines|, false))
    ensures r.Err? ==> exists i :: (0 <= i < |lines| && Bad(lines[i]) && (forall j :: 0 <= j < i ==> !Bad(lines[j]))
      && r.msg == "Failed to parse line: " + lines[i].text)
  {
    var isImmune := true;
    var immune: seq<Group> := [];
    var infection: seq<Group> := [];
    var i := 0;
    while i < |lines|
      invariant i <= |lines| && isImmune == SideAfter(lines, i)
      invariant immune == Side(lines, i, true) && infection == Side(lines, i, false)
      invariant forall j :: 0 <= j < i ==> !Bad(lines[j])
    {
      var line := lines[i];
      if line.text == "Immune System:" {
        isImmune := true;
      } else if line.text == "Infection:" {
        isImmune := false;
      } else if line.caps.Some? {
        var g := BuildGroup(line.caps.value);
        if isImmune {
          immune := immune + [g];
        } else {
          infection := infection + [g];
        }
      } else if line.text != "" {
        return Err("Failed to parse line: " + line.text);
      }
      i := i + 1;
    }
    r := Ok(GameState(immune, infection));
  }

  /** `run`: the units left after the unboosted battle, and after the battle with the boost the
      search finds; None where the search would overflow. */
  method Solve(lines: seq<Line>) returns (r: Result<(nat, Option<nat>)>)
    requires forall i :: 0 <= i < |lines| && lines[i].caps.Some? ==> lines[i].caps.value.hp > 0
    ensures r.Err? <==> exists i :: 0 <= i < |lines| && Bad(lines[i])
    ensures r.Ok? ==> Valid(Parsed(lines)) && Answers(Parsed(lines), r.value)
  {
    var parsed := Parse(lines);
    if parsed.Err? {
      return Err(parsed.msg);
    }
    SideValid(lines, |lines|, true);
    SideValid(lines, |lines|, false);
    var a := Answer(parsed.value);
    r := Ok(a);
  }

  /** The two armies a well-formed input describes. */
  function Parsed(lines: seq<Line>): GameState
  {
    GameState(Side(lines, |lines|, true), Side(lines, |lines|, false))
  }

  /** The answers of `run`: the units left after the unboosted battle, and, when the
      search finds one, the units left after the battle with the smallest winning boost. */
  ghost predicate Answers(s: GameState, a: (nat, Option<nat>))
    requires Valid(s)
  {
    a.0 == Total(FightBattle(s))
    && (a.1.Some? ==> exists b: nat :: SmallestWin(s, b) && a.1.value == Total(FightBattle(Boost(s, b))))
  }

  /** `b` is the smallest positive boost with which the immune system wins. */
  predicate SmallestWin(s: GameState, b: nat)
    requires Valid(s)
  {
    b >= 1 && Wins(s, b) && (b > 1 ==> !Wins(s, b - 1))
  }

  /** The two search loops of `run`: the smallest boost with which the immune system wins,
      found by doubling and then bisecting. */
  method SmallestBoost(s: GameState, test: nat -> bool) returns (r: Option<nat>)
    requires Valid(s) && forall b: nat :: test(b) == Wins(s, b)
    ensures r.Some? ==> 1 <= r.value <= U32Max
    ensures r.Some? ==> Wins(s, r.value)
    ensures r.Some? && r.value > 1 ==> !Wins(s, r.value - 1)
    ensures r.None? ==> exists b: nat :: 0x8000_0000 <= b <= U32Max && !Wins(s, b)
  {
    r := FindBoost(test);
  }

  /** The body of `run` after parsing. */
  method Answer(s: GameState) returns (a: (nat, Option<nat>))
    requires Valid(s)
    ensures Answers(s, a)
  {
    var left := Total(FightBattle(s));
    var boost := SmallestBoost(s, (b: nat) => Wins(s, b));
    if boost.None? {
      return (left, None);
    }
    var b := boost.value;
    BoostValid(s, b);
    a := (left, Some(Total(FightBattle(Boost(s, b)))));
    assert SmallestWin(s, b) && a.1.value == Total(FightBattle(Boost(s, b)));
  }

  /** Groups from lines with positive hit points have positive hit points. */
  lemma {:induction false} SideValid(lines: seq<Line>, n: nat, immune: bool)
    requires n <= |lines|
    requires forall i :: 0 <= i < |lines| && lines[i].caps.Some? ==> lines[i].caps.value.hp > 0
    ensures forall i :: 0 <= i < |Side(lines, n, immune)| ==> Side(lines, n, immune)[i].hp > 0
  {
    if n > 0 {
      SideValid(lines, n - 1, immune);
    }
  }
}

=== FILE: day25.dfy ===
/** Day 25: four-dimensional points joined into constellations, chains of points at most 3
    apart. Each point read joins every constellation it is near, merging them into the first. */
module Day25 {
  import opened Common
  import Text

  datatype Vector4 = Vector4(x: int, y: int, z: int, w: int)

  /** `Vector4::dist`: the Manhattan distance. */
  function Dist(a: Vector4, b: Vector4): nat
  {
    Abs(a.x - b.x) + Abs(a.y - b.y) + Abs(a.z - b.z) + Abs(a.w - b.w)
  }

  /** The distance is a metric: symmetric, zero exactly between equal points, and obeying the
      triangle inequality. */
  lemma DistFacts(a: Vector4, b: Vector4, c: Vector4)
    ensures Dist(a, b) == Dist(b, a)
    ensures Dist(a, b) == 0 <==> a == b
    ensures Dist(a, c) <= Dist(a, b) + Dist(b, c)
  {
  }

  /** Two points close enough to share a constellation. */
  predicate Near(a: Vector4, b: Vector4)
  {
    Dist(a, b) <= 3
  }

  /** The names the component errors use, in order. */
  function ComponentName(k: nat): string
    requires k < 4
  {
    ["x", "y", "z", "w"][k]
  }

  /** A piece read as a component: trimmed, then parsed as an `i32`. */
  function ReadInt(t: string): Option<int>
  {
    Text.ParseI32(Text.Trim(t))
  }

  /** The message the integer parser gives for a piece it rejects. */
  function IntErr(t: string): string
  {
    Text.IntError(Text.Trim(t))
  }

  /** The `k`th component: missing when the split has too few pieces, else the piece as `read`
      takes it, failing with `err`'s message. The reader is a parameter so that the vector's
      shape is stated apart from the integer syntax; `ParseVector` passes `ReadInt` and
      `IntErr`. */
  function Component(pieces: seq<string>, k: nat, read: string -> Option<int>, err: string -> string): (r: Result<int>)
    requires k < 4
    ensures r.Ok? <==> k < |pieces| && read(pieces[k]).Some?
    ensures r.Ok? ==> r.value == read(pieces[k]).value
    ensures r.Err? && k >= |pieces| ==> r.msg == ComponentName(k) + " component missing"
    ensures r.Err? && k < |pieces| ==> r.msg == err(pieces[k])
  {
    if k >= |pieces| then Err(ComponentName(k) + " component missing")
    else
      match read(pieces[k])
      case Some(v) => Ok(v)
      case None => Err(err(pieces[k]))
  }

  /** Exactly four components, each read. */
  predicate Parses(pieces: seq<string>, read: string -> Option<int>)
  {
    |pieces| == 4 && forall k :: 0 <= k < 4 ==> read(pieces[k]).Some?
  }

  /** `Vector4::from_str` on the comma-separated pieces: read the four components in order, and
      reject a fifth. */
  function FromPieces(p: seq<string>, read: string -> Option<int>, err: string -> string): (r: Result<Vector4>)
    ensures r.Ok? <==> Parses(p, read)
  {
    var x :- Component(p, 0, read, err);
    var y :- Component(p, 1, read, err);
    var z :- Component(p, 2, read, err);
    var w :- Component(p, 3, read, err);
    if |p| > 4 then Err("more than 4 components in vec4") else Ok(Vector4(x, y, z, w))
  }

  /** The point read has the four components. */
  lemma FromPiecesValue(p: seq<string>, read: string -> Option<int>, err: string -> string)
    requires Parses(p, read)
    ensures FromPieces(p, read, err) == Ok(Vector4(read(p[0]).value, read(p[1]).value, read(p[2]).value, read(p[3]).value))
  {
  }

  /** A failure is the error of the first component that is missing or unreadable, or, when all
      four read, the complaint about a fifth. */
  lemma FromPiecesError(p: seq<string>, read: string -> Option<int>, err: string -> string)
    requires !Parses(p, read)
    ensures (forall k :: 0 <= k < 4 ==> Component(p, k, read, err).Ok?) ==>
      |p| > 4 && FromPieces(p, read, err) == Err("more than 4 components in vec4")
    ensures !(forall k :: 0 <= k < 4 ==> Component(p, k, read, err).Ok?) ==> exists k :: (0 <= k < 4
      && Component(p, k, read, err).Err? && (forall j :: 0 <= j < k ==> Component(p, j, read, err).Ok?)
      && FromPieces(p, read, err) == Err(Component(p, k, read, err).msg))
  {
    if Component(p, 0, read, err).Err? {
    } else if Component(p, 1, read, err).Err? {
    } else if Component(p, 2, read, err).Err? {
    } else if Component(p, 3, read, err).Err? {
    }
  }

  /** `Vector4::from_str`. */
  function ParseVector(s: string): (r: Result<Vector4>)
    ensures r.Ok? <==> Parses(Text.Split(s, ','), ReadInt)
  {
    FromPieces(Text.Split(s, ','), ReadInt, IntErr)
  }

  /** A point in the input's notation: its four components, comma-separated. */
  function ShowInt(n: int): (r: string)
  {
    if n < 0 then "-" + Text.ShowNat(-n) else Text.ShowNat(n)
  }

  function ShowVector(v: Vector4): string
  {
    Text.Join([ShowInt(v.x), ShowInt(v.y), ShowInt(v.z), ShowInt(v.w)], ',')
  }

  predicate InI32(n: int)
  {
    -0x8000_0000 <= n < 0x8000_0000
  }

  /** A printed number has no surrounding whitespace and no comma. */
  lemma ShowIntPlain(n: int)
    ensures Text.Trim(ShowInt(n)) == ShowInt(n)
    ensures ',' !in ShowInt(n)
  {
    var s := ShowInt(n);
    var digits := Text.ShowNat(if n < 0 then -n else n);
    assert s[|s| - 1] == digits[|digits| - 1];
    assert s[0] == '-' || Text.IsDigit(s[0]);
    Text.TrimPlain(s);
    assert forall i :: 0 <= i < |s| ==> s[i] == '-' || Text.IsDigit(s[i]);
  }

  /** A printed `i32` reads back as itself. */
  lemma ParseShowInt(n: int)
    requires InI32(n)
    ensures Text.ParseI32(ShowInt(n)) == Some(n)
  {
    if n < 0 {
      var digits := Text.ShowNat(-n);
      Text.ParseShowNat(-n, 0x8000_0001);
      assert ShowInt(n)[1..] == digits;
      assert Text.IsDigit(digits[0]);
    } else {
      Text.ParseShowNat(n, 0x8000_0000);
    }
  }

  /** A printed `i32` is a component that reads back as itself. */
  lemma ReadShowInt(n: int)
    requires InI32(n)
    ensures ReadInt(ShowInt(n)) == Some(n) && ',' !in ShowInt(n)
  {
    ShowIntPlain(n);
    ParseShowInt(n);
  }

  /** Four comma-free pieces that read as the components of `v`, joined with commas, read as
      `v`. */
  lemma FromJoined(a: string, b: string, c: string, e: string, read: string -> Option<int>, err: string -> string, v: Vector4)
    requires ',' !in a && ',' !in b && ',' !in c && ',' !in e
    requires read(a) == Some(v.x) && read(b) == Some(v.y) && read(c) == Some(v.z) && read(e) == Some(v.w)
    ensures FromPieces(Text.Split(Text.Join([a, b, c, e], ','), ','), read, err) == Ok(v)
  {
    var parts := [a, b, c, e];
    assert forall k :: 0 <= k < 4 ==> ',' !in parts[k];
    Text.SplitJoin(parts, ',');
    FromPiecesValue(parts, read, err);
  }

  /** Reading a printed point gives the point back. */
  lemma ParseShowVector(v: Vector4)
    requires InI32(v.x) && InI32(v.y) && InI32(v.z) && InI32(v.w)
    ensures ParseVector(ShowVector(v)) == Ok(v)
  {
    ReadShowInt(v.x);
    ReadShowInt(v.y);
    ReadShowInt(v.z);
    ReadShowInt(v.w);
    FromJoined(ShowInt(v.x), ShowInt(v.y), ShowInt(v.z), ShowInt(v.w), ReadInt, IntErr, v);
  }

  /** Some point of the constellation is near `v` (`constellation.iter().any(…)`). */
  predicate Touches(c: seq<Vector4>, v: Vector4)
  {
    exists k :: 0 <= k < |c| && Near(v, c[k])
  }

  /** Indices strictly increasing. */
  predicate Increasing(g: seq<nat>)
  {
    forall i, j :: 0 <= i < j < |g| ==> g[i] < g[j]
  }

  /** The `groups` of the loop over the first `n` constellations: those `v` touches, in
      increasing order. */
  function Groups(cs: seq<seq<Vector4>>, v: Vector4, n: nat): (g: seq<nat>)
    requires n <= |cs|
    ensures Increasing(g) && forall k :: 0 <= k < |g| ==> g[k] < n
    ensures forall i :: 0 <= i < n ==> (i in g <==> Touches(cs[i], v))
  {
    if n == 0 then []
    else
      var front := Groups(cs, v, n - 1);
      if Touches(cs[n - 1], v) then front + [n - 1] else front
  }

  /** `cs` without its entry at `i` (`Vec::remove`). */
  function Remove<T>(cs: seq<T>, i: nat): (r: seq<T>)
    requires i < |cs|
    ensures |r| == |cs| - 1
    ensures forall k :: 0 <= k < i ==> r[k] == cs[k]
    ensures forall k :: i <= k < |r| ==> r[k] == cs[k + 1]
  {
    cs[..i] + cs[i + 1..]
  }

  /** The merge loop: for the indices from last to first, remove that constellation and append
      its points to the target's. */
  function Merge(cs: seq<seq<Vector4>>, target: nat, idx: seq<nat>): (r: seq<seq<Vector4>>)
    requires target < |cs| && Increasing(idx)
    requires forall k :: 0 <= k < |idx| ==> target < idx[k] < |cs|
    ensures |r| == |cs| - |idx|
    decreases |idx|
  {
    if |idx| == 0 then cs
    else
      var last := idx[|idx| - 1];
      var joined := cs[target := cs[target] + cs[last]];
      Merge(Remove(joined, last), target, idx[..|idx| - 1])
  }

  /** One iteration of `read_constellations` for the point `v`: a point near no constellation
      starts a new one; otherwise it joins the first it is near, and every other it is near is
      merged into that one. */
  function AddPoint(cs: seq<seq<Vector4>>, v: Vector4): (r: seq<seq<Vector4>>)
  {
    var g := Groups(cs, v, |cs|);
    if |g| == 0 then cs + [[v]]
    else Merge(cs[g[0] := cs[g[0]] + [v]], g[0], g[1..])
  }

  /** The constellations after the points `vs`, in order. */
  function Constellations(vs: seq<Vector4>): seq<seq<Vector4>>
  {
    if |vs| == 0 then [] else AddPoint(Constellations(vs[..|vs| - 1]), vs[|vs| - 1])
  }

  // ---------------------------------------------------------------------------------------
  // Constellations are the connected components

  /** `S` splits the points of `c`: some are in it and some are not. */
  ghost predicate Cut(c: seq<Vector4>, S: set<Vector4>)
  {
    (exists p :: p in c && p in S) && (exists q :: q in c && q !in S)
  }

  /** Some point of `c` in `S` is near some point of `c` outside it. */
  ghost predicate Bridged(c: seq<Vector4>, S: set<Vector4>)
  {
    exists p, q :: p in c && q in c && p in S && q !in S && Near(p, q)
  }

  /** Every way of splitting the points of `c` in two leaves a near pair across: the points
      form one chain-connected constellation. */
  ghost predicate Connected(c: seq<Vector4>)
  {
    forall S: set<Vector4> {:trigger Cut(c, S)} :: Cut(c, S) ==> Bridged(c, S)
  }

  /** Some point of `a` is near some point of `b`. */
  ghost predicate Linked(a: seq<Vector4>, b: seq<Vector4>)
  {
    exists p, q :: p in a && q in b && Near(p, q)
  }

  /** No point of `a` is near a point of `b`. */
  ghost predicate Apart(a: seq<Vector4>, b: seq<Vector4>)
  {
    forall p, q :: p in a && q in b ==> !Near(p, q)
  }

  /** The constellations are the connected components of the points under "at most 3 apart":
      each is non-empty and connected, and two different ones are never near. */
  ghost predicate Components(cs: seq<seq<Vector4>>)
  {
    (forall i :: 0 <= i < |cs| ==> |cs[i]| > 0 && Connected(cs[i]))
    && (forall i, j :: 0 <= i < |cs| && 0 <= j < |cs| && i != j ==> Apart(cs[i], cs[j]))
  }

  /** A single point is a constellation: it cannot be split. */
  lemma SingleConnected(v: Vector4)
    ensures Connected([v])
  {
    forall S: set<Vector4>
      ensures !Cut([v], S)
    {
      assert forall p :: p in [v] ==> p == v;
    }
  }

  /** Two connected constellations with a near pair between them form one. */
  lemma ConnectedAppend(a: seq<Vector4>, b: seq<Vector4>)
    requires Connected(a) && Connected(b) && Linked(a, b)
    ensures Connected(a + b)
  {
    var p0, q0 :| p0 in a && q0 in b && Near(p0, q0);
    forall S: set<Vector4> | Cut(a + b, S)
      ensures Bridged(a + b, S)
    {
      if Cut(a, S) {
        var p, q :| p in a && q in a && p in S && q !in S && Near(p, q);
        assert p in a + b && q in a + b;
      } else if Cut(b, S) {
        var p, q :| p in b && q in b && p in S && q !in S && Near(p, q);
        assert p in a + b && q in a + b;
      } else {
        var p :| p in a + b && p in S;
        var q :| q in a + b && q !in S;
        assert p0 in a + b && q0 in a + b;
        if p0 in S {
          // all of `a` is in S, so the point outside is in `b`, and then all of `b` is outside
          assert q in b;
          assert q0 !in S;
        } else {
          assert p in b;
          assert q0 in S;
          DistFacts(p0, q0, q0);
          assert Near(q0, p0);
        }
      }
    }
  }

  /** Apartness is symmetric. */
  lemma ApartSym(a: seq<Vector4>, b: seq<Vector4>)
    requires Apart(a, b)
    ensures Apart(b, a)
  {
    forall p, q | p in b && q in a
      ensures !Near(p, q)
    {
      DistFacts(p, q, q);
    }
  }

  /** The state of the merge loop: the target's points are connected and linked to every
      constellation still to merge; every other pair is apart except for those still to merge
      into the target. */
  ghost predicate MergeReady(cs: seq<seq<Vector4>>, t: nat, idx: seq<nat>)
  {
    t < |cs| && Increasing(idx) && (forall k :: 0 <= k < |idx| ==> t < idx[k] < |cs|)
    && (forall i :: 0 <= i < |cs| ==> |cs[i]| > 0 && Connected(cs[i]))
    && (forall i, j :: 0 <= i < |cs| && 0 <= j < |cs| && i != j && i != t && j != t ==> Apart(cs[i], cs[j]))
    && (forall i :: 0 <= i < |cs| && i != t && i !in idx ==> Apart(cs[t], cs[i]) && Apart(cs[i], cs[t]))
    && (forall k :: 0 <= k < |idx| ==> Linked(cs[t], cs[idx[k]]))
  }

  /** Points appended to one side keep it apart from the other. */
  lemma ApartAppend(a: seq<Vector4>, b: seq<Vector4>, c: seq<Vector4>)
    requires Apart(a, c) && Apart(b, c)
    ensures Apart(a + b, c) && Apart(c, a + b)
  {
    assert forall p :: p in a + b ==> p in a || p in b;
    ApartSym(a + b, c);
  }

  /** One iteration of the merge loop keeps its state. */
  lemma MergeStep(cs: seq<seq<Vector4>>, t: nat, idx: seq<nat>)
    requires MergeReady(cs, t, idx) && |idx| > 0
    ensures var last := idx[|idx| - 1];
      MergeReady(Remove(cs[t := cs[t] + cs[last]], last), t, idx[..|idx| - 1])
  {
    var last := idx[|idx| - 1];
    var joined := cs[t := cs[t] + cs[last]];
    var r := Remove(joined, last);
    var rest := idx[..|idx| - 1];
    ConnectedAppend(cs[t], cs[last]);
    assert forall k :: 0 <= k < |rest| ==> rest[k] < last;
    // index `i` of `r` holds constellation `Orig(i)` of `cs`
    forall i | 0 <= i < |r| && i != t && i !in rest
      ensures Apart(r[t], r[i]) && Apart(r[i], r[t])
    {
      var o := if i < last then i else i + 1;
      assert r[i] == cs[o] && o != t && o != last;
      forall k | 0 <= k < |idx|
        ensures idx[k] != o
      {
        if k < |idx| - 1 {
          assert rest[k] == idx[k];
        }
      }
      ApartAppend(cs[t], cs[last], cs[o]);
    }
    forall k | 0 <= k < |rest|
      ensures Linked(r[t], r[rest[k]])
    {
      var p, q :| p in cs[t] && q in cs[rest[k]] && Near(p, q);
      assert p in r[t];
    }
    forall i, j | 0 <= i < |r| && 0 <= j < |r| && i != j && i != t && j != t
      ensures Apart(r[i], r[j])
    {
      var oi := if i < last then i else i + 1;
      var oj := if j < last then j else j + 1;
      assert r[i] == cs[oi] && r[j] == cs[oj];
    }
  }

  /** The merge loop ends with the constellations as components. */
  lemma {:induction false} MergeComponents(cs: seq<seq<Vector4>>, t: nat, idx: seq<nat>)
    requires MergeReady(cs, t, idx)
    ensures Components(Merge(cs, t, idx))
    decreases |idx|
  {
    if |idx| > 0 {
      MergeStep(cs, t, idx);
      MergeComponents(Remove(cs[t := cs[t] + cs[idx[|idx| - 1]]], idx[|idx| - 1]), t, idx[..|idx| - 1]);
    }
  }

  /** A constellation no point of which is near `v` is apart from `v` alone. */
  lemma ApartFromPoint(c: seq<Vector4>, v: Vector4)
    requires !Touches(c, v)
    ensures Apart(c, [v]) && Apart([v], c)
  {
    forall p, q | p in c && q in [v]
      ensures !Near(p, q)
    {
      assert p == c[IndexOf(c, p)];
      DistFacts(p, v, v);
    }
    ApartSym(c, [v]);
  }

  /** A point near no constellation, as a constellation of its own, keeps the components. */
  lemma NewConstellation(cs: seq<seq<Vector4>>, v: Vector4)
    requires Components(cs) && forall i :: 0 <= i < |cs| ==> !Touches(cs[i], v)
    ensures Components(cs + [[v]])
  {
    var r := cs + [[v]];
    SingleConnected(v);
    forall i | 0 <= i < |cs|
      ensures Apart(cs[i], [v]) && Apart([v], cs[i])
    {
      ApartFromPoint(cs[i], v);
    }
    assert forall i :: 0 <= i < |cs| ==> r[i] == cs[i];
  }

  /** A point joined to the first constellation it is near leaves the merge loop ready: the
      others it is near are linked to that one, and the rest are apart from it. */
  lemma JoinReady(cs: seq<seq<Vector4>>, v: Vector4, g: seq<nat>)
    requires Components(cs) && g == Groups(cs, v, |cs|) && |g| > 0
    ensures MergeReady(cs[g[0] := cs[g[0]] + [v]], g[0], g[1..])
  {
    var t := g[0];
    var c := cs[t := cs[t] + [v]];
    var k :| 0 <= k < |cs[t]| && Near(v, cs[t][k]);
    DistFacts(v, cs[t][k], v);
    assert Linked(cs[t], [v]) by {
      assert cs[t][k] in cs[t] && v in [v] && Near(cs[t][k], v);
    }
    SingleConnected(v);
    ConnectedAppend(cs[t], [v]);
    JoinApart(cs, v, g);
    JoinLinked(cs, v, g);
  }

  /** The constellations `v` is not near stay apart from the one it joins. */
  lemma JoinApart(cs: seq<seq<Vector4>>, v: Vector4, g: seq<nat>)
    requires Components(cs) && g == Groups(cs, v, |cs|) && |g| > 0
    ensures var c := cs[g[0] := cs[g[0]] + [v]];
      forall i :: 0 <= i < |c| && i != g[0] && i !in g[1..] ==> Apart(c[g[0]], c[i]) && Apart(c[i], c[g[0]])
  {
    var t := g[0];
    var c := cs[t := cs[t] + [v]];
    forall i | 0 <= i < |c| && i != t && i !in g[1..]
      ensures Apart(c[t], c[i]) && Apart(c[i], c[t])
    {
      forall m | 0 <= m < |g|
        ensures g[m] != i
      {
        if m > 0 {
          assert g[1..][m - 1] == g[m];
        }
      }
      ApartFromPoint(cs[i], v);
      ApartAppend(cs[t], [v], cs[i]);
    }
  }

  /** The other constellations `v` is near are linked to the one it joins. */
  lemma JoinLinked(cs: seq<seq<Vector4>>, v: Vector4, g: seq<nat>)
    requires g == Groups(cs, v, |cs|) && |g| > 0
    ensures var c := cs[g[0] := cs[g[0]] + [v]];
      forall m :: 0 <= m < |g[1..]| ==> Linked(c[g[0]], c[g[1..][m]])
  {
    var t := g[0];
    var c := cs[t := cs[t] + [v]];
    forall m | 0 <= m < |g[1..]|
      ensures Linked(c[t], c[g[1..][m]])
    {
      var i := g[1..][m];
      assert i == g[m + 1] && i in g;
      var j :| 0 <= j < |cs[i]| && Near(v, cs[i][j]);
      assert v in c[t] && cs[i][j] in c[i];
    }
  }

  /** Adding a point keeps the constellations the components of the points. */
  lemma AddPointComponents(cs: seq<seq<Vector4>>, v: Vector4)
    requires Components(cs)
    ensures Components(AddPoint(cs, v))
  {
    var g := Groups(cs, v, |cs|);
    if |g| == 0 {
      NewConstellation(cs, v);
    } else {
      JoinReady(cs, v, g);
      MergeComponents(cs[g[0] := cs[g[0]] + [v]], g[0], g[1..]);
    }
  }

  /** The position of a member of a sequence. */
  function IndexOf(c: seq<Vector4>, p: Vector4): (k: nat)
    requires p in c
    ensures k < |c| && c[k] == p
  {
    if c[0] == p then 0 else 1 + IndexOf(c[1..], p)
  }

  // ---------------------------------------------------------------------------------------
  // Every point is kept

  /** All the points of the constellations. */
  function Content(cs: seq<seq<Vector4>>): multiset<Vector4>
  {
    if |cs| == 0 then multiset{} else Content(cs[..|cs| - 1]) + multiset(cs[|cs| - 1])
  }

  lemma {:induction false} ContentUpdate(cs: seq<seq<Vector4>>, i: nat, c: seq<Vector4>)
    requires i < |cs|
    ensures Content(cs[i := c]) + multiset(cs[i]) == Content(cs) + multiset(c)
    decreases |cs|
  {
    var n := |cs| - 1;
    if i < n {
      ContentUpdate(cs[..n], i, c);
      assert cs[i := c][..n] == cs[..n][i := c];
      assert cs[..n][i] == cs[i];
      calc {
        Content(cs[i := c]) + multiset(cs[i]);
        (Content(cs[..n][i := c]) + multiset(cs[n])) + multiset(cs[i]);
        (Content(cs[..n][i := c]) + multiset(cs[i])) + multiset(cs[n]);
        (Content(cs[..n]) + multiset(c)) + multiset(cs[n]);
        Content(cs) + multiset(c);
      }
    } else {
      assert cs[i := c][..n] == cs[..n];
    }
  }

  lemma {:induction false} ContentRemove(cs: seq<seq<Vector4>>, i: nat)
    requires i < |cs|
    ensures Content(Remove(cs, i)) + multiset(cs[i]) == Content(cs)
    decreases |cs|
  {
    var n := |cs| - 1;
    if i < n {
      ContentRemove(cs[..n], i);
      assert Remove(cs, i)[..n - 1] == Remove(cs[..n], i);
      assert Remove(cs, i)[n - 1] == cs[n];
    } else {
      assert Remove(cs, i) == cs[..n];
    }
  }

  lemma {:induction false} ContentAppend(cs: seq<seq<Vector4>>, c: seq<Vector4>)
    ensures Content(cs + [c]) == Content(cs) + multiset(c)
  {
    assert (cs + [c])[..|cs|] == cs;
  }

  /** Multiset union cancels. */
  lemma Cancel<T>(a: multiset<T>, b: multiset<T>, x: multiset<T>)
    requires a + x == b + x
    ensures a == b
  {
    forall e
      ensures a[e] == b[e]
    {
      assert (a + x)[e] == (b + x)[e];
    }
  }

  /** The merge loop moves points between constellations and loses none. */
  lemma {:induction false} MergeContent(cs: seq<seq<Vector4>>, target: nat, idx: seq<nat>)
    requires target < |cs| && Increasing(idx)
    requires forall k :: 0 <= k < |idx| ==> target < idx[k] < |cs|
    ensures Content(Merge(cs, target, idx)) == Content(cs)
    decreases |idx|
  {
    if |idx| > 0 {
      var last := idx[|idx| - 1];
      var rest := Remove(cs[target := cs[target] + cs[last]], last);
      MoveContent(cs, target, last);
      MergeContent(rest, target, idx[..|idx| - 1]);
      assert Merge(cs, target, idx) == Merge(rest, target, idx[..|idx| - 1]);
    }
  }

  /** One merge: appending constellation `last` to `target` and removing it keeps the points. */
  lemma MoveContent(cs: seq<seq<Vector4>>, target: nat, last: nat)
    requires target < last < |cs|
    ensures Content(Remove(cs[target := cs[target] + cs[last]], last)) == Content(cs)
  {
    var joined := cs[target := cs[target] + cs[last]];
    var rest := Remove(joined, last);
    ContentUpdate(cs, target, cs[target] + cs[last]);
    ContentRemove(joined, last);
    assert joined[last] == cs[last];
    calc {
      Content(rest) + (multiset(cs[last]) + multiset(cs[target]));
      Content(joined) + multiset(cs[target]);
      Content(cs) + multiset(cs[target] + cs[last]);
      Content(cs) + (multiset(cs[last]) + multiset(cs[target]));
    }
    Cancel(Content(rest), Content(cs), multiset(cs[last]) + multiset(cs[target]));
  }

  /** Adding a point adds exactly it to the points. */
  lemma AddPointContent(cs: seq<seq<Vector4>>, v: Vector4)
    ensures Content(AddPoint(cs, v)) == Content(cs) + multiset{v}
  {
    var g := Groups(cs, v, |cs|);
    if |g| == 0 {
      ContentAppend(cs, [v]);
    } else {
      var c := cs[g[0] := cs[g[0]] + [v]];
      ContentUpdate(cs, g[0], cs[g[0]] + [v]);
      calc {
        Content(c) + multiset(cs[g[0]]);
        Content(cs) + multiset(cs[g[0]] + [v]);
        (Content(cs) + multiset{v}) + multiset(cs[g[0]]);
      }
      Cancel(Content(c), Content(cs) + multiset{v}, multiset(cs[g[0]]));
      assert forall k :: 0 <= k < |g[1..]| ==> g[1..][k] == g[k + 1];
      MergeContent(c, g[0], g[1..]);
    }
  }

  /** After all the points, the constellations hold exactly those points and are the connected
      components. */
  lemma ConstellationsCorrect(vs: seq<Vector4>)
    ensures Content(Constellations(vs)) == multiset(vs)
    ensures Components(Constellations(vs))
  {
    ConstellationsContent(vs);
    ConstellationsComponents(vs);
  }

  lemma {:induction false} ConstellationsContent(vs: seq<Vector4>)
    ensures Content(Constellations(vs)) == multiset(vs)
  {
    if |vs| > 0 {
      var front := vs[..|vs| - 1];
      ConstellationsContent(front);
      AddPointContent(Constellations(front), vs[|vs| - 1]);
      MultisetSnoc(vs);
    }
  }

  lemma MultisetSnoc<T>(vs: seq<T>)
    requires |vs| > 0
    ensures multiset(vs) == multiset(vs[..|vs| - 1]) + multiset{vs[|vs| - 1]}
  {
    assert vs == vs[..|vs| - 1] + [vs[|vs| - 1]];
  }

  lemma {:induction false} ConstellationsComponents(vs: seq<Vector4>)
    ensures Components(Constellations(vs))
  {
    if |vs| > 0 {
      var front := vs[..|vs| - 1];
      ConstellationsComponents(front);
      AddPointComponents(Constellations(front), vs[|vs| - 1]);
    }
  }

  /** Number of points in the constellations. */
  lemma CountPoints(vs: seq<Vector4>)
    ensures |Content(Constellations(vs))| == |vs|
    ensures |Constellations(vs)| <= |vs|
  {
    ConstellationsCorrect(vs);
    ConstellationsFewer(vs);
  }

  lemma {:induction false} ConstellationsFewer(vs: seq<Vector4>)
    ensures |Constellations(vs)| <= |vs|
  {
    if |vs| > 0 {
      ConstellationsFewer(vs[..|vs| - 1]);
    }
  }

  // ---------------------------------------------------------------------------------------
  // Reading the input

  /** The points of the lines, stopping at the first line `parse` rejects. The parser is a
      parameter so that the loop is stated apart from the point syntax; `Solve` passes
      `ParseVector`. */
  function ParsePoints(lines: seq<string>, parse: string -> Result<Vector4>): (r: Result<seq<Vector4>>)
    ensures r.Ok? <==> forall i :: 0 <= i < |lines| ==> parse(lines[i]).Ok?
    ensures r.Ok? ==> |r.value| == |lines| && forall i :: 0 <= i < |lines| ==> r.value[i] == parse(lines[i]).value
  {
    if |lines| == 0 then Ok([])
    else
      var front :- ParsePoints(lines[..|lines| - 1], parse);
      var v :- parse(lines[|lines| - 1]);
      Ok(front + [v])
  }

  /** A failure is the error of the first line that does not parse. */
  lemma {:induction false} ParsePointsError(lines: seq<string>, parse: string -> Result<Vector4>)
    requires ParsePoints(lines, parse).Err?
    ensures exists i :: (0 <= i < |lines| && parse(lines[i]).Err?
      && (forall j :: 0 <= j < i ==> parse(lines[j]).Ok?) && ParsePoints(lines, parse).msg == parse(lines[i]).msg)
  {
    var n := |lines| - 1;
    var front := lines[..n];
    if ParsePoints(front, parse).Err? {
      ParsePointsError(front, parse);
      var i :| 0 <= i < |front| && parse(front[i]).Err?
        && (forall j :: 0 <= j < i ==> parse(front[j]).Ok?) && ParsePoints(front, parse).msg == parse(front[i]).msg;
      assert lines[i] == front[i];
      assert forall j :: 0 <= j < i ==> lines[j] == front[j];
    } else {
      assert forall j :: 0 <= j < n ==> lines[j] == front[j];
    }
  }

  /** `read_constellations`, as a loop over the lines: each is parsed and its point added. */
  method ReadConstellations(lines: seq<string>, parse: string -> Result<Vector4>) returns (r: Result<seq<seq<Vector4>>>)
    ensures r.Ok? <==> ParsePoints(lines, parse).Ok?
    ensures r.Err? ==> r.msg == ParsePoints(lines, parse).msg
    ensures r.Ok? ==> r.value == Constellations(ParsePoints(lines, parse).value)
  {
    var cs: seq<seq<Vector4>> := [];
    var vs: seq<Vector4> := [];
    var i := 0;
    while i < |lines|
      invariant i <= |lines| && ParsePoints(lines[..i], parse) == Ok(vs) && cs == Constellations(vs)
    {
      var v := parse(lines[i]);
      assert lines[..i + 1][..i] == lines[..i];
      if v.Err? {
        ParsePointsPrefix(lines, i + 1, parse);
        return Err(v.msg);
      }
      cs := AddPoint(cs, v.value);
      assert (vs + [v.value])[..|vs|] == vs;
      vs := vs + [v.value];
      i := i + 1;
    }
    assert lines[..i] == lines;
    r := Ok(cs);
  }

  /** A parse error in a prefix is the error of the whole. */
  lemma {:induction false} ParsePointsPrefix(lines: seq<string>, n: nat, parse: string -> Result<Vector4>)
    requires n <= |lines| && ParsePoints(lines[..n], parse).Err?
    ensures ParsePoints(lines, parse) == ParsePoints(lines[..n], parse)
    decreases |lines| - n
  {
    if n < |lines| {
      ParsePointsPrefix(lines, n + 1, parse);
      assert lines[..n + 1][..n] == lines[..n];
    } else {
      assert lines[..n] == lines;
    }
  }

  /** `run`: the number of constellations, which holds every point of the input and is the
      number of connected components. */
  method Solve(lines: seq<string>) returns (r: Result<nat>)
    ensures r.Ok? <==> ParsePoints(lines, ParseVector).Ok?
    ensures r.Err? ==> r.msg == ParsePoints(lines, ParseVector).msg
    ensures r.Ok? ==> exists cs :: (r.value == |cs| && Components(cs)
      && Content(cs) == multiset(ParsePoints(lines, ParseVector).value) && |cs| <= |lines|)
  {
    var cs := ReadConstellations(lines, ParseVector);
    if cs.Err? {
      return Err(cs.msg);
    }
    ConstellationsCorrect(ParsePoints(lines, ParseVector).value);
    CountPoints(ParsePoints(lines, ParseVector).value);
    r := Ok(|cs.value|);
  }
}

=== FILE: text.dfy ===
/** Text helpers used by the hand-written parsers: splitting, joining, trimming and number parsing. */
module Text {
  import opened Common

  /** `s.split(c)`: the pieces between occurrences of `c`; the empty string gives one empty piece. */
  function Split(s: string, c: char): (r: seq<string>)
    ensures |r| >= 1
    decreases |s|
  {
    if |s| == 0 then [""]
    else if s[0] == c then [""] + Split(s[1..], c)
    else var rest := Split(s[1..], c); [[s[0]] + rest[0]] + rest[1..]
  }

  /** The pieces joined back together with `c` between consecutive pieces. */
  function Join(parts: seq<string>, c: char): string
    requires |parts| >= 1
  {
    if |parts| == 1 then parts[0] else Join(parts[..|parts| - 1], c) + [c] + parts[|parts| - 1]
  }

  lemma {:induction false} SplitNoSeparator(s: string, c: char)
    requires c !in s
    ensures Split(s, c) == [s]
    decreases |s|
  {
    if |s| > 0 {
      SplitNoSeparator(s[1..], c);
      assert [s[0]] + s[1..] == s;
    }
  }

  /** Splitting at one separator splits the two sides independently. */
  lemma {:induction false} SplitAppend(a: string, b: string, c: char)
    ensures Split(a + [c] + b, c) == Split(a, c) + Split(b, c)
    decreases |a|
  {
    if |a| == 0 {
      assert a + [c] + b == [c] + b;
      assert ([c] + b)[1..] == b;
    } else {
      assert (a + [c] + b)[1..] == a[1..] + [c] + b;
      SplitAppend(a[1..], b, c);
    }
  }

  /** Splitting undoes joining when no piece contains the separator. */
  lemma {:induction false} SplitJoin(parts: seq<string>, c: char)
    requires |parts| >= 1
    requires forall i :: 0 <= i < |parts| ==> c !in parts[i]
    ensures Split(Join(parts, c), c) == parts
    decreases |parts|
  {
    if |parts| == 1 {
      SplitNoSeparator(parts[0], c);
    } else {
      var front := parts[..|parts| - 1];
      SplitJoin(front, c);
      SplitAppend(Join(front, c), parts[|parts| - 1], c);
      SplitNoSeparator(parts[|parts| - 1], c);
      assert front + [parts[|parts| - 1]] == parts;
    }
  }

  /** Rust's `char::is_whitespace`: the Unicode White_Space property. */
  predicate IsWhitespace(c: char)
  {
    ('\U{0009}' <= c <= '\U{000D}') || c == '\U{0020}' || c == '\U{0085}' || c == '\U{00A0}'
    || c == '\U{1680}' || ('\U{2000}' <= c <= '\U{200A}') || c == '\U{2028}' || c == '\U{2029}'
    || c == '\U{202F}' || c == '\U{205F}' || c == '\U{3000}'
  }

  function TrimStart(s: string): (r: string)
    ensures |r| <= |s| && r == s[|s| - |r|..]
    ensures |r| > 0 ==> !IsWhitespace(r[0])
    ensures forall i :: 0 <= i < |s| - |r| ==> IsWhitespace(s[i])
  {
    if |s| > 0 && IsWhitespace(s[0]) then TrimStart(s[1..]) else s
  }

  function TrimEnd(s: string): (r: string)
    ensures |r| <= |s| && r == s[..|r|]
    ensures |r| > 0 ==> !IsWhitespace(r[|r| - 1])
    ensures forall i :: |r| <= i < |s| ==> IsWhitespace(s[i])
  {
    if |s| > 0 && IsWhitespace(s[|s| - 1]) then TrimEnd(s[..|s| - 1]) else s
  }

  /** `str::trim`: leading and trailing whitespace removed. */
  function Trim(s: string): string
  {
    TrimEnd(TrimStart(s))
  }

  /** Text that starts and ends with a non-space is its own trim. */
  lemma TrimPlain(s: string)
    requires |s| > 0 && !IsWhitespace(s[0]) && !IsWhitespace(s[|s| - 1])
    ensures Trim(s) == s
  {
    assert TrimStart(s) == s;
  }

  predicate IsDigit(c: char)
  {
    '0' <= c <= '9'
  }

  predicate AllDigits(s: string)
  {
    forall i :: 0 <= i < |s| ==> IsDigit(s[i])
  }

  /** Value of a non-empty run of decimal digits. */
  function DigitsValue(s: string): nat
    requires forall i :: 0 <= i < |s| ==> IsDigit(s[i])
  {
    if |s| == 0 then 0
    else
      var last := s[|s| - 1];
      assert IsDigit(last);
      10 * DigitsValue(s[..|s| - 1]) + (last as int - '0' as int)
  }

  /** Rust's `FromStr` for an unsigned integer below `bound`: an optional '+', then one or more digits. */
  function ParseUnsigned(s: string, bound: nat): (r: Option<nat>)
    ensures r.Some? ==> r.value < bound
    ensures r.Some? ==> |s| > 0
  {
    var digits := if |s| > 0 && s[0] == '+' then s[1..] else s;
    if |digits| == 0 || !AllDigits(digits) then None
    else if DigitsValue(digits) < bound then Some(DigitsValue(digits))
    else None
  }

  /** Rust's `FromStr` for `i32`: an optional sign, then one or more digits, in range. */
  function ParseI32(s: string): (r: Option<int>)
    ensures r.Some? ==> -0x8000_0000 <= r.value < 0x8000_0000
  {
    if |s| > 0 && s[0] == '-' then
      var magnitude := ParseUnsigned(s[1..], 0x8000_0001);
      if magnitude.Some? && s[1] != '+' then Some(0 - magnitude.value) else None
    else
      var magnitude := ParseUnsigned(s, 0x8000_0000);
      if magnitude.Some? then Some(magnitude.value as int) else None
  }

  /** Decimal rendering of a natural number, used to build the inputs of parser examples. */
  function ShowNat(n: nat): (r: string)
    ensures |r| > 0 && forall i :: 0 <= i < |r| ==> IsDigit(r[i])
    ensures DigitsValue(r) == n
  {
    if n < 10 then [('0' as int + n) as char]
    else
      var front := ShowNat(n / 10);
      var r := front + [('0' as int + n % 10) as char];
      assert r[..|r| - 1] == front;
      r
  }

  /** Reading back a printed number below the bound gives the number. */
  lemma ParseShowNat(n: nat, bound: nat)
    requires n < bound
    ensures ParseUnsigned(ShowNat(n), bound) == Some(n)
  {
    var s := ShowNat(n);
    assert IsDigit(s[0]);
  }

  /** The first error `from_str_radix` meets scanning the digits of a magnitude from
      position `n`, or "" when there is none: a non-digit, or a prefix whose value exceeds
      `bound`. */
  function ScanError(d: string, n: nat, bound: nat, overflow: string): (r: string)
    requires n <= |d| && forall i :: 0 <= i < n ==> IsDigit(d[i])
    decreases |d| - n
  {
    if n == |d| then ""
    else if !IsDigit(d[n]) then "invalid digit found in string"
    else if DigitsValue(d[..n + 1]) > bound then overflow
    else ScanError(d, n + 1, bound, overflow)
  }

  /** A longer prefix of digits has at least the value of a shorter one. */
  lemma {:induction false} DigitsGrow(d: string, i: nat, j: nat)
    requires i <= j <= |d| && forall k :: 0 <= k < j ==> IsDigit(d[k])
    ensures DigitsValue(d[..i]) <= DigitsValue(d[..j])
    decreases j - i
  {
    if i < j {
      DigitsGrow(d, i, j - 1);
      assert d[..j][..j - 1] == d[..j - 1];
    }
  }

  /** The scan finds no error exactly when the rest are digits and the whole value is within
      the bound. */
  lemma {:induction false} ScanErrorEmpty(d: string, n: nat, bound: nat, overflow: string)
    requires n <= |d| && forall i :: 0 <= i < n ==> IsDigit(d[i])
    requires overflow != ""
    ensures ScanError(d, n, bound, overflow) == "" <==>
      (forall i :: n <= i < |d| ==> IsDigit(d[i])) && (n == |d| || DigitsValue(d) <= bound)
    decreases |d| - n
  {
    if n < |d| && IsDigit(d[n]) {
      if DigitsValue(d[..n + 1]) > bound {
        if forall i :: n <= i < |d| ==> IsDigit(d[i]) {
          DigitsGrow(d, n + 1, |d|);
          assert d[..|d|] == d;
        }
      } else {
        ScanErrorEmpty(d, n + 1, bound, overflow);
        if n + 1 == |d| {
          assert d[..n + 1] == d;
        }
      }
    }
  }

  /** The message of the `ParseIntError` that parsing `s` as an `i32` gives, following
      `from_str_radix`; "" when `s` parses. */
  function IntError(s: string): (r: string)
    ensures |r| == 0 <==> ParseI32(s).Some?
  {
    if |s| == 0 then "cannot parse integer from empty string"
    else if s == "+" || s == "-" then "invalid digit found in string"
    else
      var negative := s[0] == '-';
      var digits := if s[0] == '+' || s[0] == '-' then s[1..] else s;
      var bound := if negative then 0x8000_0000 else 0x7fff_ffff;
      var overflow := if negative then "number too small to fit in target type" else "number too large to fit in target type";
      ScanErrorEmpty(digits, 0, bound, overflow);
      assert |digits| > 0;
      I32Digits(s, digits, bound);
      ScanError(digits, 0, bound, overflow)
  }

  /** `ParseUnsigned` accepts exactly the non-empty digit strings, after one optional '+',
      whose value is below the bound. */
  lemma UnsignedDigits(t: string, digits: string, bound: nat)
    requires digits == if |t| > 0 && t[0] == '+' then t[1..] else t
    ensures ParseUnsigned(t, bound).Some? <==>
      |digits| > 0 && (forall i :: 0 <= i < |digits| ==> IsDigit(digits[i])) && DigitsValue(digits) < bound
  {
  }

  /** `ParseI32` accepts exactly the inputs whose magnitude digits are all digits and within
      the bound of their sign. */
  lemma I32Digits(s: string, digits: string, bound: nat)
    requires |s| > 0 && s != "+" && s != "-"
    requires digits == if s[0] == '+' || s[0] == '-' then s[1..] else s
    requires bound == if s[0] == '-' then 0x8000_0000 else 0x7fff_ffff
    ensures |digits| > 0
    ensures ParseI32(s).Some? <==> (forall i :: 0 <= i < |digits| ==> IsDigit(digits[i])) && DigitsValue(digits) <= bound
  {
    if s[0] == '-' {
      if s[1] == '+' {
        assert !IsDigit(digits[0]);
        assert ParseI32(s).None?;
      } else {
        assert s[1..][0] != '+';
        UnsignedDigits(s[1..], digits, 0x8000_0001);
      }
    } else {
      UnsignedDigits(s, digits, 0x8000_0000);
    }
  }
}
